=== FILE: README.md ===
# Pilot core in Dafny

Pilot is an agent-orchestration framework. Its centre is the enforcement
telemetry and effectiveness-scoring engine. Enforcement points append
events (blocked imports, rule violations, review bypasses, completed
commits) to a line-delimited log. The engine counts them over time
windows, compares the current window with the previous one, and rates
the health of the guardrails from excellent to critical. Around the
engine sit the pieces that produce and consume those events:

- the import and path guards;
- the pre-commit marker checks;
- the rule registry and rule-coverage audits;
- agent invocation with its depth limit and safety guard;
- run manifests and progress files;
- the knowledge index;
- migrations of agent definitions;
- the benchmark runner and evaluator;
- the session and resume tooling.

This project models that core as pure Dafny functions over immutable
datatypes. It has one module per source file:

| module | source file |
|---|---|
| `Telemetry` | `pilot_core/telemetry.py` |
| `EnforcementStats` | `pilot_tools/enforcement_stats.py` |
| `Guards` | `pilot_core/guards.py` |
| `Paths` | `pilot_core/paths.py` |
| `Precommit` | `pilot_core/precommit.py` |
| `Validation` | `pilot_core/validate.py` |
| `Queries` | `pilot_core/queries.py` |
| `QueryBuilder` | `lib/query_builder.py` |
| `Index` | `pilot_core/index.py` |
| `Indexer` | `lib/indexer.py` |
| `Context` | `pilot_core/context.py` |
| `Session` | `pilot_core/session.py` |
| `Resume` | `lib/resume.py` |
| `Registry` | `pilot_core/evolution/registry.py` |
| `Executor` | `pilot_core/evolution/executor.py` |
| `Benchmark` | `pilot_core/benchmark/__init__.py` |
| `Runner` | `pilot_core/benchmark/runner.py` |
| `Creator` | `lib/benchmark/creator.py` |
| `Evaluator` | `lib/benchmark/evaluator.py` |
| `Progress` | `lib/progress.py` |
| `RuleRegistry` | `lib/rule_registry.py` |
| `RuleCoverage` | `lib/rule_coverage.py` |
| `RuleAudit` | `tools/audit_rules.py` |
| `EnforcementCoverage` | `pilot_tools/enforcement_coverage.py` |
| `PromptAnalyzer` | `tools/prompt_analyzer.py` |
| `Run` | `lib/run.py` |
| `Invoke` | `lib/invoke.py` |
| `Startup` | `lib/startup.py` |
| `AgentStatus` | `pilot_tools/agent_status.py` |
| `DetectTaskTool` | `tools/detect_task_tool.py` |

`Common` holds the shared sequence, string, counting and sorting helpers.
`Json` holds the JSON/YAML value type.

Some things the code depends on are not modelled in Dafny. Each of them
becomes a parameter:

- the clock: `now`, in whole seconds;
- random numbers;
- file-system listings and file contents;
- git output;
- the YAML and JSON parsers;
- regular-expression searches;
- digests;
- the agent and API replies;
- Python's `round`, `str`, `repr` and `isoformat` renderings.

A Python exception becomes an explicit result constructor (`None`,
`Raises`, `Crashed` and the like), so the error paths are part of every
contract.

`_score` tests the "excellent" guard before the "good" one. So a week with
one violation, no bypasses and blocked imports falling from 7 to 3 rates
"excellent"; `EnforcementStats.ScenarioDecreasingBlocks` proves it.

## Model

| member | source | states |
|---|---|---|
| Session.IsFatalError | pilot_core/session.py:73-128 | empty output is never fatal; output containing a non-fatal pattern (any case) is never fatal; otherwise fatal iff it contains a fatal pattern, or the tool is Write or Edit, or the tool is not exempt and the output has at least 50 characters |
| Session.FatalIgnoresCase | pilot_core/session.py:89-128 | the fatal-error classification gives the same answer for upper-cased output |
| Session.NonFatalPatternWins | pilot_core/session.py:92-98 | output that contains any non-fatal pattern is not fatal, whatever surrounds it |
| Session.EncodeProjectPath | pilot_core/session.py:204-207 | the encoded name has the path's length, no `/`, and `-` exactly where the path had `/` |
| Session.DecodeProjectPath | pilot_core/session.py:210-215 | the decoded path starts with `/` and contains no `-` |
| Session.DecodeEncode | pilot_core/session.py:204-215 | an absolute path without `-` survives encoding then decoding |
| Session.DashIsLost | pilot_core/session.py:204-215 | a path containing `-` does not survive encoding then decoding |
| Session.ParseTimestamp | pilot_core/session.py:224-238 | the empty string has no time; otherwise the ISO parser is given the text with `Z` read as `+00:00` |
| Common.ReplaceZ | pilot_core/session.py:234 | every `Z` becomes `+00:00` and nothing else changes: the result is the text's `Z`-free pieces rejoined with `+00:00`, so no `Z` is left |
| Session.ExtractText | pilot_core/session.py:241-254 | string content is its own text; list content is the texts of its text blocks joined by newlines (a non-string `text` is admitted under Left out) |
| Session.TextBlocksJoined | pilot_core/session.py:246-253 | a list made only of text blocks yields exactly their texts, in order |
| Session.ApplyResult | pilot_core/session.py:369-393 | a tool result changes nothing unless it is an error for a known call; only the call's result and the last fatal error change, and a new fatal error is the first 500 characters of an output classified fatal for that call's tool |
| Session.ApplyResults | pilot_core/session.py:369-393 | applying a message's results keeps every field except the calls' results and the last fatal error, and keeps the call count |
| Session.CallsOf | pilot_core/session.py:257-279 | each tool-use block becomes a call without result or error, stamped with the message time |
| Session.RegisterIds | pilot_core/session.py:418-426 | every registered id maps into the new calls' positions, earlier ids stay registered, and every new call's id is registered |
| Session.StepUser | pilot_core/session.py:364-411 | a user record keeps the timestamps and agent list and the call count, and never replaces an initial prompt already set |
| Session.StepAssistant | pilot_core/session.py:413-450 | an assistant record only appends calls, keeping the earlier calls, the prompt, the todos and the last fatal error |
| Session.Step | pilot_core/session.py:349-450 | a record that does not decode changes nothing; one that does adds its timestamp, if any, and keeps an initial prompt already set |
| Session.ReplayCollectsTimes | pilot_core/session.py:349-362 | replaying a file collects exactly the timestamps of its decodable records, in order |
| Session.InitialPromptIsFirst | pilot_core/session.py:396-398 | once a prefix of the file sets the initial prompt, the whole file yields that same prompt |
| Session.StatusCases | pilot_core/session.py:452-497 | each status as the condition producing it: empty iff no timestamps; error iff a fatal error and more than 2 idle minutes; stuck iff open todos and over 15 idle minutes; completed iff there are todos and all are done; abandoned iff the todos are neither open nor all done and over 2 idle hours have passed |
| Session.StuckHasNoFatalError | pilot_core/session.py:476-485 | a stuck session has no fatal error, since the error rule comes first |
| Session.IdleStatusesPersist | pilot_core/session.py:476-497 | error, stuck and abandoned sessions keep their status as idle time grows |
| Session.PendingTodos | pilot_core/session.py:191-193 | exactly the todos whose status is not "completed" |
| Session.CompletedHasNothingPending | pilot_core/session.py:487-491 | a completed session has at least one todo and none pending |
| Session.LoadSession | pilot_core/session.py:326-511 | a session exists iff its file does; it starts no later than its last activity, both drawn from the record times and bounding all of them; it is empty iff no record has a time; a kept error has at most 500 characters; the status is the one derived from the idle time since the last activity, the todos and whether a fatal error was kept |
| Session.DurationSeconds | pilot_core/session.py:158-161 | the duration is never negative and spans start to last activity |
| Session.FilesRead | pilot_core/session.py:164-170 | the distinct `file_path` inputs of Read calls, without repeats |
| Session.FilesWritten | pilot_core/session.py:173-179 | the distinct `file_path` inputs of Write and Edit calls, without repeats |
| Session.BashCommands | pilot_core/session.py:182-188 | exactly the `command` inputs of Bash calls |
| Session.Summary | pilot_core/session.py:196-201 | the summary starts with the bracketed status, is at most 83 prompt characters long after it, and has no newline there |
| Session.SummaryOfShortPrompt | pilot_core/session.py:196-201 | a short one-line prompt appears whole after the status |
| Session.SessionStems | pilot_core/session.py:295-309 | no listed session is an `agent-` file, and every non-agent `.jsonl` file is listed by its stem |
| Session.ListAllProjects | pilot_core/session.py:312-323 | the project directories other than `.` and `..`, each paired with its decoded path; nothing without the directory |
| Session.GetRecentSessions | pilot_core/session.py:530-572 | eligible sessions only, most recent first, at most `limit`, and only statuses in a non-empty filter |
| Session.RecentAreMostRecent | pilot_core/session.py:530-572 | an eligible session left out is no more recent than any session kept |
| Session.RecentKeepsAllWithinLimit | pilot_core/session.py:530-572 | with a limit at least the number eligible, every eligible session is returned |
| Session.FindStuckSessions | pilot_core/session.py:575-581 | at most 50 sessions, most recent first, each stuck, errored or abandoned |
| Resume.TruncateMiddle | lib/resume.py:111-117 | text within the limit is returned unchanged; longer text keeps `max_length // 2 - 20` characters from each end around the truncation marker |
| Resume.TruncateFits | lib/resume.py:111-117 | with a limit of at least 42 the result fits the limit, and text over the limit always comes out shorter |
| Resume.TruncateTinyLimit | lib/resume.py:115-117 | when `half` is 0, `text[-0:]` is the whole text, so the result is the marker followed by all of the text |
| Resume.FormatTodos | lib/resume.py:96-108 | no todos gives "  (none)"; otherwise one line per todo, in order, joined by newlines |
| Resume.TodoMarker | lib/resume.py:103 | the marker is one character and is `x` exactly for a todo whose status is "completed" |
| Resume.NoneOnlyWithoutTodos | lib/resume.py:96-108 | "  (none)" appears exactly when the todo list is empty |
| Resume.BaseNameOfName | lib/resume.py:66 | a plain file name (no `/`, not empty, not ".") is its own `Path(f).name` |
| Resume.GroupOf | lib/resume.py:54-58 | a tool's group holds exactly the calls with that name, as many as there are such calls |
| Resume.GroupLines | lib/resume.py:61-91 | each group opens with a line "  - <tool>"; Bash adds one line for each of its first five commands; every other tool contributes one line |
| Resume.ToolNames | lib/resume.py:54-61 | the tools are listed once each, in ascending order, and exactly the names that occur among the calls |
| Resume.GroupsInOrder | lib/resume.py:61-91 | the k-th tool's group starts after the previous group's start and its first line names that tool |
| Resume.SummaryLines | lib/resume.py:93 | the summary keeps a prefix of all the group lines, at most `max_items` of them |
| Resume.SummarizeToolCalls | lib/resume.py:49-93 | no calls gives "  (none)"; otherwise the kept group lines joined by newlines |
| Resume.TaskPreview | lib/resume.py:255-257 | a task of at most 200 characters is shown whole; a longer one is cut to 200 characters and gets "..." |
| Resume.TaskPreviewBounded | lib/resume.py:255-257 | the preview has at most 203 characters and starts with the task's first 200 characters |
| Resume.PendingText | lib/resume.py:247-248 | no pending todos gives "none"; otherwise the contents of the first one to three pending todos joined by ", " |
| Resume.ErrorText | lib/resume.py:252 | the error sentence is empty exactly when there is no last error or it is empty |
| Resume.GenerateMinimalResume | lib/resume.py:245-269 | the paragraph contains the task preview and the pending-todo text |
| Resume.InfoOf | lib/resume.py:308-321 | a stuck session's summary keeps its id, its short id is the first eight characters of the id, and `has_error` holds iff there is a last error |
| Resume.RecentStuck | lib/resume.py:301-306 | at most five stuck, errored or abandoned sessions, all active after the cutoff and all among the stuck sessions, most recent first |
| Resume.FilterKeepsSortedDesc | lib/resume.py:306 | filtering a most-recent-first list by age keeps it most recent first |
| Resume.CheckForStuckSessions | lib/resume.py:286-323 | at most five summaries, one for each recent stuck session and in the same order |
| Resume.AlertLines | lib/resume.py:347-351 | each session gives a line marked `!` for an error and `?` otherwise, plus a pending-count line only when todos are pending |
| Resume.AllAlertLines | lib/resume.py:347-351 | the session lines number one per session plus one per session with pending todos |
| Resume.FormatStuckSessionsAlert | lib/resume.py:326-363 | no sessions gives ""; otherwise the header, the session lines and the resume instructions |
| Resume.AlertIffSessions | lib/resume.py:336-337 | the alert is empty exactly when there are no sessions |
| Registry.LoadMigration | pilot_core/evolution/registry.py:43-55 | a document that is absent or not a mapping does not load; a loaded migration carries exactly the document's `schema_type`, `from_version`, `to_version` and `guidance` |
| Registry.Register | pilot_core/evolution/registry.py:137 | the migration is stored under its id, replacing an earlier one with that id; a new id goes last in key order, a known id keeps its place |
| Registry.RegisterAll | pilot_core/evolution/registry.py:134-140 | registering a directory's files keeps every migration registered before and keeps the registry well formed (each migration under its own id, keys listed once) |
| Registry.LoadAll | pilot_core/evolution/registry.py:117-143 | a missing directory only marks the registry loaded; otherwise the files' migrations are added and the registry is marked loaded |
| Registry.LoadedFilesRegistered | pilot_core/evolution/registry.py:134-140 | every file that loads ends up registered under its id, and it is the stored migration unless a later file has the same id |
| Registry.FailedFileSkipped | pilot_core/evolution/registry.py:139-140 | a file that fails to load changes nothing in the registry |
| Registry.EnsureLoaded | pilot_core/evolution/registry.py:146-149 | an already loaded registry is left as it is; afterwards the registry is always loaded |
| Registry.GetMigration | pilot_core/evolution/registry.py:152-155 | after loading, a lookup finds a migration iff its id is registered, and the found migration has that id |
| Registry.ListMigrations | pilot_core/evolution/registry.py:194-197 | after loading, the listed ids are exactly the registered ones, each once |
| Registry.Reset | pilot_core/evolution/registry.py:200-203 | after a reset nothing is registered and the registry is not loaded |
| Registry.ResetReloads | pilot_core/evolution/registry.py:146-203 | a lookup after a reset reloads from the default directory and sees only its migrations |
| Registry.GetPath | pilot_core/evolution/registry.py:158-191 | a path exists iff every step id from `from_ver` up to `to_ver` is registered; it then holds exactly those steps in version order; otherwise the error names the first missing step; `from_ver >= to_ver` gives the empty path |
| Registry.FindPath | pilot_core/evolution/registry.py:175-191 | the loop over versions either collects one registered step per version in order or stops at the first missing step id |
| Registry.PathTo | pilot_core/evolution/registry.py:175-191 | the same search written recursively gives the same outcome: all steps in order, or the first missing step |
| Registry.BuildPrompt | pilot_core/evolution/registry.py:57-102 | the prompt demands the `_schema_version` of the target version; it fails exactly when an example lacks a string `before` or `after` |
| Registry.ConcatAll | pilot_core/evolution/registry.py:79-82 | the examples' text exists iff every example block does |
| Registry.ConcatAllContains | pilot_core/evolution/registry.py:79-82 | each example block is contained in the joined examples |
| Registry.EveryExampleShown | pilot_core/evolution/registry.py:77-82 | every example appears in the prompt as its own block, numbered from 1 |
| Executor.LoadVersions | pilot_core/evolution/executor.py:47-53 | no versions file gives version 1 for agent, rule, tool and config; a file that parses to something falsy gives `{}`; otherwise the parsed document |
| Executor.VersionIn | pilot_core/evolution/executor.py:57-113 | a missing key reads as version 1; a stored integer is that version, and a boolean compares as 1 or 0; the check fails exactly for a document that is not a mapping or a value that is neither an integer nor a boolean |
| Executor.TrueVersionIsBehind | pilot_core/evolution/executor.py:82-88 | a file whose `_schema_version` is `true` is reported at version 1, behind a required version 2 |
| Executor.FileVersion | pilot_core/evolution/executor.py:55-85 | an empty file, or one without `_schema_version`, is at version 1 |
| Executor.CheckFile | pilot_core/evolution/executor.py:80-102 | a file gives an issue iff it parses, both versions are readable and its version is below the required one; the issue records the type, path, current and required versions |
| Executor.IssuesOf | pilot_core/evolution/executor.py:79-102 | a directory gives at most one issue per file, each of the checked type and each behind its required version |
| Executor.IssueIffBehind | pilot_core/evolution/executor.py:88-94 | every file that is behind has its issue in the list, and a file absent from the list is not behind |
| Executor.NoIssues | pilot_core/evolution/executor.py:79-102 | when no file is behind there are no issues |
| Executor.NeededFrom | pilot_core/evolution/executor.py:95-99 | an issue needs either nothing (no complete path) or one registered step per version between its current and required versions |
| Executor.AllNeeded | pilot_core/evolution/executor.py:97-124 | every step id any issue needs is among the needed migrations |
| Executor.CheckCompatibility | pilot_core/evolution/executor.py:59-135 | compatible iff there are no issues; the issues are the agents' then the rules'; the needed migrations are distinct and are exactly the step ids the issues' paths need |
| Executor.NeededAreSteps | pilot_core/evolution/executor.py:95-97 | every step of an issue's complete migration path is listed as needed |
| Executor.Attempts | pilot_core/evolution/executor.py:253-263 | the agent is run on the steps in order up to the first failure; no failure means every step succeeded |
| Executor.RunChain | pilot_core/evolution/executor.py:252-266 | a file is migrated iff every step succeeds; otherwise the failure names the first step that failed |
| Executor.MigrateIssue | pilot_core/evolution/executor.py:222-266 | a dry run only skips, with the reason naming the versions; a missing step fails without a migration id; a file behind its version is never skipped outside a dry run; otherwise the chain is run |
| Executor.Collect | pilot_core/evolution/executor.py:220-268 | each Migrated, Failed or Skipped outcome lands in its own list and only there, and the three lists together hold one entry per outcome |
| Executor.MigrateAll | pilot_core/evolution/executor.py:199-268 | compatible files give three empty lists; otherwise each issue is reported once, in the list of its own outcome; a dry run reports every issue as skipped |
| Executor.IssueOutcome | pilot_core/evolution/executor.py:222-266 | outside a dry run an issue's file is migrated iff it is behind and every step of its complete path succeeds, and fails iff it is behind and the path is incomplete or a step fails |
| Executor.MigratedIffChainSucceeds | pilot_core/evolution/executor.py:220-268 | outside a dry run a file is in `migrated` iff one of its issues is behind with a chain whose every step succeeds |
| Executor.FailedIffChainFails | pilot_core/evolution/executor.py:220-268 | outside a dry run a file is in `failed` iff one of its issues is behind with a missing step or a step that fails |
| Executor.DryRunInvokesNoAgent | pilot_core/evolution/executor.py:228-233 | a dry run's result does not depend on the agent |
| Executor.CompatibleMigratesNothing | pilot_core/evolution/executor.py:213-217 | when no file is behind, migrating changes nothing and reports nothing |
| Paths.DirsFor | pilot_core/paths.py:95-114 | at most two existing directories: the user's first when it exists, then the core's when it exists and the roots are not the same repository (also lines 156-175, 195-208, 239-252) |
| Paths.SameRepoListsUserOnly | pilot_core/paths.py:108-113 | in development mode (same repository) only the user's directory can be listed |
| Paths.FindIn | pilot_core/paths.py:128-132 | a file is found iff some directory holds it, and the one returned comes from the first such directory (also lines 256-260) |
| Paths.FindAgent | pilot_core/paths.py:116-132 | a found agent path names an existing file |
| Paths.UserAgentWins | pilot_core/paths.py:116-132 | a user agent overrides a core agent of the same name |
| Paths.FindQuery | pilot_core/paths.py:254-260 | a found query path names an existing file |
| Paths.ToolIn | pilot_core/paths.py:213-220 | within one directory `name.py` wins; otherwise `name/__init__.py` counts only when `name` is a directory |
| Paths.FindToolIn | pilot_core/paths.py:212-222 | a tool is found iff some directory holds it in either form, and the first such directory decides |
| Paths.FindTool | pilot_core/paths.py:210-222 | a found tool path names an existing file |
| Paths.FindSchema | pilot_core/paths.py:266-282 | a schema is found iff the core schemas directory exists and holds `<type>.v<version>.yaml`, and the result is that path |
| Paths.StemsIn | pilot_core/paths.py:143 | the listed stems are exactly the names with the extension, minus private `_` stems where those are skipped (also lines 186, 228-230) |
| Paths.Candidates | pilot_core/paths.py:142-143 | every candidate file comes from one of the searched directories |
| Paths.FirstPerStem | pilot_core/paths.py:141-146 | the kept files have distinct stems, are all candidates, and cover every candidate stem |
| Paths.FirstPerStemEarliest | pilot_core/paths.py:144-146 | the file kept for a stem is its first occurrence among the candidates |
| Paths.UserStemWins | pilot_core/paths.py:134-146 | every candidate stem is kept, by a file that comes no later than that candidate, so a user file beats a core file of the same stem |
| Paths.IterAgents | pilot_core/paths.py:134-146 | every agent stem is yielded once |
| Paths.ListAgents | pilot_core/paths.py:148-150 | the agent names are distinct |
| Paths.IterRules | pilot_core/paths.py:177-189 | every rule stem is yielded once |
| Paths.IterTools | pilot_core/paths.py:224-233 | every tool stem is yielded once and none starts with `_` |
| Paths.CandidatesPublic | pilot_core/paths.py:229-230 | no private `_` stem is ever a tool candidate |
| Paths.IterMigrations | pilot_core/paths.py:288-299 | a missing core migrations directory yields nothing; otherwise only that directory's files are yielded |
| Benchmark.ParseCategory | pilot_core/benchmark/__init__.py:43-47 | a category parses iff the text is one of the enum's values, and it parses to the category with that value |
| Benchmark.ParseDifficulty | pilot_core/benchmark/__init__.py:50-54 | a difficulty parses iff the text is one of the enum's values, and it parses to the difficulty with that value |
| Benchmark.StringsOfStrValues | pilot_core/benchmark/__init__.py:100-115 | a list of strings reads back from its JSON form unchanged |
| Benchmark.QuestionToDict | pilot_core/benchmark/__init__.py:89-101 | the mapping holds the category's and difficulty's enum values and the criteria as a list of strings |
| Benchmark.CategoryOf | pilot_core/benchmark/__init__.py:109 | a missing category reads as RESEARCH |
| Benchmark.DifficultyOf | pilot_core/benchmark/__init__.py:110 | a missing difficulty reads as MEDIUM |
| Benchmark.QuestionFromDict | pilot_core/benchmark/__init__.py:104-116 | a mapping reads iff it is decodable; missing category, difficulty, answer type and criteria default to RESEARCH, MEDIUM, "factual" and [] |
| Benchmark.QuestionRoundTrip | pilot_core/benchmark/__init__.py:89-116 | every question reads back from its mapping form unchanged |
| Benchmark.AnswerToDict | pilot_core/benchmark/__init__.py:131-142 | the mapping holds the sources as a list of strings |
| Benchmark.AnswerFromDict | pilot_core/benchmark/__init__.py:145-156 | a mapping reads iff it is decodable; a missing answer is "", a missing latency 0, a missing timestamp the current time, and a missing error means no error |
| Benchmark.AnswerRoundTrip | pilot_core/benchmark/__init__.py:131-156 | every answer reads back from its mapping form unchanged |
| Benchmark.QuestionCountsOf | pilot_core/benchmark/__init__.py:235-251 | the total is the number of questions; each category and difficulty entry counts the questions with that value; both tables sum to the total |
| Benchmark.Complete | pilot_core/benchmark/__init__.py:344-353 | a completed result has status COMPLETED and a completion time; its totals are the answers' latency and token sums; successes count answers without an error, errors those with one, and together they count every answer |
| Benchmark.AnsweredIds | pilot_core/benchmark/__init__.py:355-357 | an id is answered iff some answer carries it |
| Benchmark.MatchingStems | pilot_core/benchmark/__init__.py:568-599 | the stems kept are exactly those of the `<prefix>*.yaml` files |
| Benchmark.ListIds | pilot_core/benchmark/__init__.py:559-601 | a missing directory lists nothing; otherwise all matching stems, each as often as it occurs, in descending order |
| Benchmark.CustomerNames | pilot_core/benchmark/__init__.py:612-614 | a name is a customer iff it is a directory entry not starting with `.` |
| Benchmark.ListCustomers | pilot_core/benchmark/__init__.py:604-616 | a missing store lists nothing; otherwise exactly the customer directories, in ascending order |
| Runner.RunQuestion | pilot_core/benchmark/runner.py:55-95 | the answer is for the question and carries the measured latency; an exception gives an empty answer with the exception's message as the error and no sources; otherwise the reply's text, error and sources |
| Runner.RunAll | pilot_core/benchmark/runner.py:327-333 | one answer per question, in question order, each run with the chosen processor |
| Runner.RunBenchmark | pilot_core/benchmark/runner.py:296-349 | the result is COMPLETED, belongs to the benchmark and system, answers every question in benchmark order, and its successes and errors add up to the number of questions |
| Runner.Remaining | pilot_core/benchmark/runner.py:383-384 | the remaining questions are exactly the benchmark's questions whose id has no answer |
| Runner.ResumeBenchmark | pilot_core/benchmark/runner.py:352-416 | a completed result is returned unchanged; otherwise the result becomes COMPLETED, keeps its earlier answers as a prefix, and appends one answer per remaining question in benchmark order |
| Runner.ResumeAnswersAll | pilot_core/benchmark/runner.py:382-413 | after resuming, every question of the benchmark has an answer, and no new answer repeats an already answered id |
| Runner.ResearchQuery | pilot_core/benchmark/runner.py:200-203 | without a context the query is the question text; with one it starts with the context and ends with the text |
| Runner.FirstRendered | pilot_core/benchmark/runner.py:282-290 | the text comes from the first key present whose value is a string, mapping or list, and there is none iff no key gives one |
| Runner.ExtractAnswer | pilot_core/benchmark/runner.py:279-293 | the first renderable answer key gives the answer; with none, the whole output is dumped as JSON |
| Runner.AnswerKeyWins | pilot_core/benchmark/runner.py:282-286 | a string `answer` is returned as it is |
| Runner.CitationUrls | pilot_core/benchmark/runner.py:231-235 | only non-empty urls are collected |
| Runner.BasisUrls | pilot_core/benchmark/runner.py:230-235 | only non-empty urls are collected from the basis items |
| Runner.ResearchSources | pilot_core/benchmark/runner.py:228-241 | at most 20 distinct, non-empty urls, all cited by the first ten basis items; there are none exactly when reading a citation raises |
| Runner.GetProgress | pilot_core/benchmark/runner.py:499-528 | an error iff the result or its benchmark does not load; otherwise the answered and total counts, with the percentage answered over total and 0 for an empty benchmark |
| Runner.ListIncomplete | pilot_core/benchmark/runner.py:425-463 | at most one entry per listed result, each not completed; the total is -1 exactly when the benchmark does not load |
| Guards.IsProjectFrame | pilot_core/guards.py:67-95 | a frame is project code iff its name is not empty, contains no external indicator, and contains "/pilot/" or "/pilot-" |
| Guards.FindActualImporter | pilot_core/guards.py:116-142 | the importer is the first frame that is neither guards.py nor importlib-internal, and there is none iff every frame is one of those; an importer is never the empty name |
| Guards.MatchingCaller | pilot_core/guards.py:173-174 | a match exists iff some allowed caller path occurs in the importer's name, and the match is such a path |
| Guards.FindModule | pilot_core/guards.py:144-189 | an import that is not forbidden, by full or base name, is allowed; a forbidden one is blocked iff its importer is known, is not an allowed caller and is project code; an allowed-caller import is the only one recorded, as IMPORT_ALLOWED |
| Guards.SubmoduleForbidden | pilot_core/guards.py:158-161 | every submodule of a forbidden package is forbidden through its base name |
| Guards.AllowedCallerNeverBlocked | pilot_core/guards.py:172-182 | an approved research tool may import any library |
| Guards.ExternalImporterNeverBlocked | pilot_core/guards.py:77-88 | an importer from stdlib or site-packages is never blocked (also lines 185-189) |
| Guards.UnknownImporterAllowed | pilot_core/guards.py:168-170 | when no importer is found the import is allowed and nothing is recorded |
| Guards.LoadModule | pilot_core/guards.py:191-219 | loading a blocked module always raises, with a message naming the module, and records IMPORT_BLOCKED with the importer exactly when telemetry is available |
| Guards.InstallGuards | pilot_core/guards.py:222-235 | the blocker is installed, at the front, iff none was present; otherwise the hooks are unchanged; afterwards a blocker is always present |
| Guards.InstallIdempotent | pilot_core/guards.py:228-231 | installing a second time reports False and changes nothing |
| Guards.InstallPutsBlockerFirst | pilot_core/guards.py:233-235 | a fresh install puts the blocker first and keeps the other hooks in order behind it |
| Queries.IdentFrom | pilot_core/queries.py:132 | the identifier after a colon is the longest run of identifier characters starting there |
| Queries.ConvertParamsToDuckdb | pilot_core/queries.py:114-136 | the text keeps its length; only a colon can change, and a colon becomes `$` iff it starts a parameter (not after `:` or a word character, followed by a letter or `_`) and stays a colon otherwise; the parameters come back unchanged |
| Queries.CastsIntact | pilot_core/queries.py:131-132 | a `::` cast is left exactly as written |
| Queries.ParamRenamed | pilot_core/queries.py:132-134 | every parameter `:name` becomes `$name` with the same name |
| Queries.ConvertLeavesNoParams | pilot_core/queries.py:132-134 | the converted text has no `:name` parameter left, so converting again changes nothing |
| Queries.MatchReadCall | pilot_core/queries.py:160 | a matched call starts with `read_json_auto`, and its quoted path is not empty and holds no quote |
| Queries.SizedCall | pilot_core/queries.py:162-164 | a rewritten call carries the size option |
| Queries.FixFrom | pilot_core/queries.py:160-166 | the substitution either leaves the text unchanged or puts the size option in it; text without `read_json_auto` is unchanged |
| Queries.FixJsonReadSize | pilot_core/queries.py:139-166 | text that already names `maximum_object_size`, or has no `read_json_auto`, is unchanged; any changed text carries the option |
| Queries.FixIdempotent | pilot_core/queries.py:155-166 | fixing twice is the same as fixing once |
| Queries.FixBareCall | pilot_core/queries.py:160-164 | a bare `read_json_auto('p')` call gains `maximum_object_size=50000000` |
| Queries.ListTemplates | pilot_core/queries.py:214-226 | a missing directory gives []; otherwise every template stem, in ascending order |
| Queries.ReadTemplate | pilot_core/queries.py:66-76 | a template's text exists iff the directory exists and holds `name.sql` |
| Queries.LoadQuery | pilot_core/queries.py:47-82 | a cached name returns the cached text; a missing template fails, naming the template and listing the available ones, and leaves the cache alone; a found template is returned and stored only when caching |
| Queries.CachedLoadIgnoresFile | pilot_core/queries.py:62-80 | once a template is cached, a later load returns the stored text even if the file has changed |
| Queries.UncachedLoadDoesNotStore | pilot_core/queries.py:76-82 | loading without the cache reads the file and does not store it |
| Queries.ClearedCacheReadsFile | pilot_core/queries.py:229-231 | after the cache is cleared a load reads the file again |
| Queries.DescriptionOf | pilot_core/queries.py:254-261 | a description is always the text of a comment line reached before any other non-blank line; a first line that is SQL gives "" |
| Queries.FoundParamsAsWritten | pilot_core/queries.py:264-266 | as written: the parameters are the sorted distinct names after any colon, a cast's type included |
| Queries.CastReportedAsParam | pilot_core/queries.py:264-266 | for "x::INTEGER" the regex as written lists INTEGER as a parameter, which the converter does not treat as one |
| Queries.TemplateParams | pilot_core/queries.py:132 | the parameters are the sorted, distinct names of exactly the `:name` tokens the converter rewrites (also lines 264-266) |
| Queries.TemplateParamsAreBound | pilot_core/queries.py:132-134 | a name is a listed parameter iff the converter rewrites one of its occurrences to `$` (also lines 264-266) |
| Queries.GetTemplateInfo | pilot_core/queries.py:234-274 | loads through the cache and fails iff the load fails; otherwise the name, the template path, the text, its description and the sorted names after every colon, as the source's pattern finds them (so `::` casts are listed too), a superset of the parameters the rewrite binds |
| QueryBuilder.ParamNameInjective | lib/query_builder.py:48-51 | distinct counter values give distinct parameter names |
| QueryBuilder.AddCondition | lib/query_builder.py:48-105 | a condition is appended on a fresh parameter `p<n+1>` bound to the value; earlier bindings and every other setting are kept |
| QueryBuilder.Where | lib/query_builder.py:69-86 | an exact-match condition on the next fresh parameter, bound to the value, with earlier bindings kept |
| QueryBuilder.WhereLike | lib/query_builder.py:88-105 | a LIKE condition on the next fresh parameter, bound to the pattern, with earlier bindings kept |
| QueryBuilder.TwoConditionsInOrder | lib/query_builder.py:48-104 | on a fresh builder, `where` then `where_like` use p1 and p2 in call order, each bound to its own value |
| QueryBuilder.SetType | lib/query_builder.py:53-67 | sets the type filter and nothing else |
| QueryBuilder.Search | lib/query_builder.py:107-123 | sets the search term and nothing else |
| QueryBuilder.ContentContains | lib/query_builder.py:125-142 | sets the content search and nothing else |
| QueryBuilder.OrderBy | lib/query_builder.py:144-160 | sets the order field and direction and nothing else |
| QueryBuilder.Limit | lib/query_builder.py:162-176 | sets the limit and nothing else |
| QueryBuilder.Offset | lib/query_builder.py:178-192 | sets the offset and nothing else |
| QueryBuilder.ConditionClause | lib/query_builder.py:225-231 | a condition's clause ends in its `:param` placeholder; a column field is read as `unnest.<field>`, any other through `unnest.content->>` |
| QueryBuilder.Clauses | lib/query_builder.py:219-247 | one clause per set filter: the type clause first, then the conditions in order, then search and content |
| QueryBuilder.SqlParams | lib/query_builder.py:217-244 | the returned parameters keep every bound parameter and add the type filter and the search and content values wrapped in `%` |
| QueryBuilder.SqlLines | lib/query_builder.py:205-272 | the statement starts with the fixed SELECT, has a WHERE line joining the clauses with " AND " only when there are clauses, then the ORDER BY line, then LIMIT and OFFSET only when set |
| QueryBuilder.ToSql | lib/query_builder.py:194-272 | the statement text begins with the fixed SELECT line and contains every statement line: the WHERE line joining the clauses when a filter is set, and the ORDER BY line always; the parameters returned are the builder's bound parameters plus the filter values |
| QueryBuilder.WhereIffFilter | lib/query_builder.py:249-251 | there is a WHERE line exactly when some filter is set |
| QueryBuilder.ConditionParamsBound | lib/query_builder.py:217-231 | every placeholder a condition uses is bound in the returned parameters |
| QueryBuilder.OrderPrecedence | lib/query_builder.py:253-264 | an explicit order field wins over search ordering, which wins over ordering by name |
| QueryBuilder.ZeroLimitEmitted | lib/query_builder.py:266-270 | `limit(0)` and `offset(0)` are emitted, because only an unset value is left out |
| Telemetry.RecordEvent | pilot_core/telemetry.py:63-117 | the log afterwards is the earlier lines plus exactly one new record (the file is created if missing); the record returned is the one written, with the current time, the type's value, the source, and `details` only when details are non-empty |
| Telemetry.CountLines | pilot_core/telemetry.py:216-234 | the table has one entry per type seen in the window, each equal to the reference count of that type; no zero entries; the entries sum to the number of counted events |
| Telemetry.GetEventCounts | pilot_core/telemetry.py:189-234 | a missing file gives {}; otherwise each type's count is the number of parsed events with that type (a missing type counts as "unknown") at or after the cutoff, and only observed types appear |
| Telemetry.CountWindowBoundary | pilot_core/telemetry.py:213-225 | an event is counted iff its timestamp is at least `now - since_days` days: the window's lower end is inclusive |
| Telemetry.CountKeyAppend | pilot_core/telemetry.py:218-227 | the count over two stretches of the log is the sum of their counts |
| Telemetry.CountKeyMonotone | pilot_core/telemetry.py:213-227 | a later cutoff never counts more events |
| Telemetry.ScanLines | pilot_core/telemetry.py:269-291 | an event is returned iff it was parsed from a line of the log and passes the time and type filters; blank and malformed lines are skipped |
| Telemetry.GetEvents | pilot_core/telemetry.py:237-295 | a missing file gives []; otherwise exactly the parsed events that pass the filters; no window means no time filter, and the type filter is equality |
| Telemetry.ScanAppend | pilot_core/telemetry.py:271-289 | scanning a log made of two parts returns the first part's events followed by the second's, so file order is kept |
| Telemetry.ReadAfterAppend | pilot_core/telemetry.py:87-117 | after recording an event, an unfiltered read returns the earlier events followed by the new record (also lines 237-295) |
| Telemetry.ReadAfterAppends | pilot_core/telemetry.py:87-117 | after several appends an unfiltered read returns the appended records in order after the earlier ones (also lines 237-295) |
| Telemetry.EventsMatchCounts | pilot_core/telemetry.py:216-227 | with the same window, the number of events returned equals the number of events counted (also lines 279-289) |
| Telemetry.FilteredEventsMatchCount | pilot_core/telemetry.py:225-227 | with the same window, the number of events of a type equals that type's count (also lines 285-289) |
| Telemetry.GetEventsMatchesCounts | pilot_core/telemetry.py:189-295 | with the same `now` and window, the length of `get_events` equals the sum of the `get_event_counts` values |
| Telemetry.Prune | pilot_core/telemetry.py:158-172 | the removed count plus the lines kept is the number of non-blank lines; a line is kept iff it is malformed, has a timestamp that does not parse, or is an event at or after the cutoff |
| Telemetry.CleanupOldEvents | pilot_core/telemetry.py:120-186 | a missing file gives 0 and stays missing; otherwise the file is rewritten with exactly the kept lines, and removed plus kept is the number of non-blank lines |
| Telemetry.PruneIsOrderedFilter | pilot_core/telemetry.py:158-180 | cleanup keeps the surviving lines in their original order |
| Telemetry.PruneRemovedCount | pilot_core/telemetry.py:166-169 | the number removed is the number of events older than the cutoff |
| Telemetry.PruneIdempotent | pilot_core/telemetry.py:158-180 | pruning the kept lines again with the same cutoff keeps all of them and removes nothing |
| Telemetry.CleanupIdempotent | pilot_core/telemetry.py:143-186 | a second cleanup with the same cutoff removes nothing and leaves the file as it is |
| Telemetry.PrunePreservesCounts | pilot_core/telemetry.py:166-169 | cleanup does not change any type's count over the window that starts at its own cutoff (also lines 225-227) |
| EnforcementStats.TrendFromZero | pilot_tools/enforcement_stats.py:194-203 | with no events the week before, the trend is "stable" exactly when there are none this week and "increasing" otherwise; it is never "decreasing" |
| EnforcementStats.TrendDeadBand | pilot_tools/enforcement_stats.py:205-213 | with a positive previous count, the trend is "increasing" iff the count grew by more than 20%, "decreasing" iff it fell by more than 20%, and "stable" inside the ±20% band (stated without division: 5c > 6p, 5c < 4p) |
| EnforcementStats.PreviousCounts | pilot_tools/enforcement_stats.py:232-236 | the previous-week table has a key for every type seen in either window, and each value is the 14-day count minus the 7-day count |
| EnforcementStats.PreviousNonNegative | pilot_tools/enforcement_stats.py:227-236 | a previous-week count is never negative, because the 14-day window contains the 7-day window |
| EnforcementStats.PreviousIsEarlierWeek | pilot_tools/enforcement_stats.py:232-236 | the 14-day count minus the 7-day count equals the number of events of that type stamped in the earlier week, from 14 days back (inclusive) up to 7 days back (exclusive) |
| EnforcementStats.RatingCases | pilot_tools/enforcement_stats.py:253-290 | the rating is "critical" iff violations > 10 or bypasses > 1; "concerning" iff not critical and violations ≥ 5, or blocks are trending up, or there is a bypass; "excellent" iff violations < 2, no bypass, blocks not trending up, and either trending down or none this week; "good" in the remaining cases |
| EnforcementStats.BypassDominance | pilot_tools/enforcement_stats.py:253-256 | more than one bypass in a week rates "critical" whatever the violation count and trend |
| EnforcementStats.RatingThresholds | pilot_tools/enforcement_stats.py:253-290 | with blocks trending down and no bypass, the violation count alone sets the rating: below 2 excellent, 2–4 good, 5–10 concerning, above 10 critical |
| EnforcementStats.Score | pilot_tools/enforcement_stats.py:216-325 | for violations, blocked imports and bypasses alike, the current count is the 7-day count, the previous count is the 14-day count minus it and never negative, and the trend compares the two; the rating is the one the violations, the blocked-import trend and count and the bypasses call for (critical iff violations > 10 or bypasses > 1), and the previous-week total is non-negative |
| EnforcementStats.TotalMonotone | pilot_tools/enforcement_stats.py:323-324 | the total over 14 days is never below the total over 7 days |
| EnforcementStats.AlertsFor | pilot_tools/enforcement_stats.py:364-425 | a critical alert is raised iff there is a bypass this week or violations exceed 10; a warning survives iff not quiet and violations are 6–10 or the block trend is increasing; the status is critical, else warning, else ok; quiet mode keeps only critical alerts; at most three alerts |
| EnforcementStats.CheckAlerts | pilot_tools/enforcement_stats.py:328-362 | the alert check reads the same windows as the score: it is critical iff the score rates critical or there is at least one bypass this week |
| EnforcementStats.AlertScoreBandsDiffer | pilot_tools/enforcement_stats.py:260-262 | the score and the alert use different violation bands: five violations rate "concerning" yet raise no alert (also lines 382-390) |
| EnforcementStats.FormatAlertOutput | pilot_tools/enforcement_stats.py:561-574 | the text is empty exactly when there are no alerts; otherwise it starts with the first alert's "[LEVEL] " tag |
| EnforcementStats.Stats | pilot_tools/enforcement_stats.py:83-94 | the total equals the sum of the per-type counts and the number of counted events in the window; each type's count is the reference count of that type in the window; the list of known event types has nine entries, the i-th being the upper-cased value of the i-th member in declaration order |
| EnforcementStats.StatsRows | pilot_tools/enforcement_stats.py:592-593 | the table rows are sorted by type name and are a permutation of the count table |
| EnforcementStats.ResolveIn | pilot_tools/enforcement_stats.py:105-118 | an event-type argument resolves to a type whose value equals it or whose name equals it upper-cased; no type resolves only when no type matches either way |
| EnforcementStats.SelectEvents | pilot_tools/enforcement_stats.py:123-131 | the selection is part of the events the source filter keeps (each matching the source case-insensitively), newest first; a non-negative limit keeps exactly the limit or all matching events, whichever is fewer; every matching event left out is no newer than every event kept |
| EnforcementStats.ValidTypesAreValues | pilot_tools/enforcement_stats.py:115 | the list of valid types shown on an unknown type is exactly the values of the nine event types, in declaration order |
| EnforcementStats.ListAll | pilot_tools/enforcement_stats.py:133-148 | the listed form keeps one entry per event, in the same newest-first order |
| EnforcementStats.ListEvents | pilot_tools/enforcement_stats.py:97-153 | an error is returned iff a non-empty event type matches neither a value nor a name, and it lists the valid types; otherwise the count equals the number of events listed, is bounded by a non-negative limit, and the list is newest first |
| EnforcementStats.ListedEventsMatch | pilot_tools/enforcement_stats.py:119-125 | every listed event is inside the window, has the requested type, and contains the requested source, ignoring case |
| EnforcementStats.DryRunTally | pilot_tools/enforcement_stats.py:163-172 | every event is counted as either to-remove or to-keep, never both |
| EnforcementStats.Cleanup | pilot_tools/enforcement_stats.py:156-191 | a dry run changes nothing, its two counts cover all events, and its to-remove count equals what a real cleanup would remove; a real cleanup returns exactly the telemetry cleanup's count and new log |
| EnforcementStats.DryRunAgrees | pilot_tools/enforcement_stats.py:158-191 | for every log and cutoff, the dry run's to-remove count equals the number of lines the real cleanup drops |
| EnforcementStats.CleanupEffect | pilot_tools/enforcement_stats.py:184-191 | after a real cleanup, no line of the log is one the cutoff would drop |
| EnforcementStats.Dispatch | pilot_tools/enforcement_stats.py:28-80 | an unknown action gives the error response and only then; without `days`, stats and dashboard use 7 days, events 1 day, and cleanup 30 days |
| EnforcementStats.ScenarioDecreasingBlocks | pilot_tools/enforcement_stats.py:205-213 | one violation and three blocks against seven the week before: blocks are decreasing and the rating is "excellent" (also lines 267-275) |
| EnforcementStats.ScenarioBypasses | pilot_tools/enforcement_stats.py:253-256 | two bypasses rate "critical" and, even in quiet mode, raise a critical alert with status "critical" (also lines 367-374) |
| EnforcementStats.EmptyStore | pilot_tools/enforcement_stats.py:83-425 | with no telemetry file: no events, an "excellent" rating, and alert status "ok" |
| Index.FirstType | pilot_core/index.py:35-43 | scanning the patterns from a position, the result is "file" iff no later pattern matches; otherwise it is the type of the first pattern that matches, with no match before it |
| Index.DeriveType | pilot_core/index.py:14-43 | the derived type is "file" iff no type pattern matches at the start of the path or after a `/`; otherwise it is the type of the earliest matching pattern in table order |
| Index.RulesBeforeConfig | pilot_core/index.py:14-43 | pattern order matters: a path under `system/rules/` also matches `system/`, yet is typed "rule" because the more specific pattern comes first |
| Index.TopLevelMatchIsPrefix | pilot_core/index.py:39-41 | for a path without `/`, a pattern matches exactly when the path starts with it |
| Index.ShouldIndex | pilot_core/index.py:30-49 | a path is indexed iff none of the skip fragments occurs anywhere in it |
| Index.SkippedDirectoryExcluded | pilot_core/index.py:46-49 | any path containing a skip fragment, wherever it occurs, is not indexed |
| Index.FlattenToText | pilot_core/index.py:52-62 | a depth of zero or less gives ""; a string gives itself; None gives "" |
| Index.FlattenItems | pilot_core/index.py:57-60 | each child of a mapping or list is flattened one level deeper, one text per child, in order |
| Index.FlattenKeepsReachableStrings | pilot_core/index.py:52-62 | every string nested within the depth bound appears in the flattened text |
| Index.ExtractDescription | pilot_core/index.py:65-70 | the description is the first string-valued key of description, desc, summary, abstract, query, task, objective (in that order), cut to 500 characters; "" when none is a string |
| Index.DescriptionFieldFirst | pilot_core/index.py:67-69 | a string "description" field wins over every other field |
| Index.ExtractTags | pilot_core/index.py:73-95 | the tags have no repeats and are exactly the declared tags together with the ones derived from the path, category and severity |
| Index.ResearchPathTagged | pilot_core/index.py:80-95 | a path containing "parallel" or "research" always carries the "research" tag, and every declared tag is kept |
| Index.HighSeverityLessonTagged | pilot_core/index.py:84-93 | a lesson whose severity is "high" is tagged "severity-high" |
| Index.SeverityTagOnlyForKnowledge | pilot_core/index.py:80-93 | outside lessons, decisions and facts, and off research paths, the tags are exactly the declared ones |
| Index.ParseFrontmatter | pilot_core/index.py:98-108 | without a closing fence, or when the YAML does not parse, the result is ({}, text); otherwise the body is the stripped text after the fence (one newline dropped) and the front matter is the parsed YAML, or {} when that is empty |
| Index.FrontmatterRoundTrip | pilot_core/index.py:98-108 | front matter without an inner `\n---` line, written between fences before a body, parses back to the same mapping and the stripped body |
| Indexer.UpdateIndex | lib/indexer.py:45-142 | an item without "path" fails with no write; a corrupt index fails with the JSON error and no write; otherwise the new index is the old items with the same path removed, in order, followed by the item, the count is the new length, and removed_count is the number of old items with that path |
| Indexer.UpdateLeavesOneItemPerPath | lib/indexer.py:87-93 | after an update exactly one item has the updated path, and it is the last |
| Indexer.UpdateIdempotent | lib/indexer.py:87-96 | updating with the same item twice leaves the same items as once, and the second update removes exactly one |
| Indexer.CreateDeepResearchItem | lib/indexer.py:145-214 | a missing or unparseable metadata file gives no item; a built item has type "deep_research", the metadata file's path, the run id (defaulting to the directory name) as name, and is a deep-research item |
| Indexer.DeepResearchTags | lib/indexer.py:200-213 | the tags have no repeats and always include "research" and "deep_research" |
| Indexer.DescriptionFallsBackToRunId | lib/indexer.py:172-209 | metadata with neither query nor run_id yields the directory name as name and (cut to 500 characters) as description |
| Indexer.RebuildDeepResearchIndex | lib/indexer.py:217-303 | with no results directory: success with zeros and no write; a corrupt index fails; otherwise the new index is the non-deep-research items in their order followed by the new items, and items_added, items_removed and total_count are those lengths |
| Indexer.BuiltAreDeepResearch | lib/indexer.py:243-249 | every item the scan builds is a deep-research item |
| Indexer.RebuildIdempotent | lib/indexer.py:258-264 | rebuilding twice from the same directory gives the same items as rebuilding once |
| Indexer.GetIndexStatus | lib/indexer.py:417-472 | a missing file reports success, exists false and zero; a corrupt file reports the JSON error; otherwise each type's count is the number of items of that type (untyped as "unknown") and the counts sum to the number of items |
| Indexer.CountTypes | lib/indexer.py:442-446 | the per-type table has distinct keys, counts each type exactly, lists only types present and sums to the number of items |
| Indexer.StatusAfterUpdate | lib/indexer.py:96 | after a successful update, the status count equals the number of stored items (also line 451) |
| Indexer.UntypedCountsAsUnknown | lib/indexer.py:445 | an item without a type adds one to the "unknown" count |
| Precommit.SplitFirst | pilot_core/precommit.py:72 | splitting at the first colon gives a head without a colon and a tail that, rejoined with the colon, is the original line |
| Precommit.SplitFirstOfJoin | pilot_core/precommit.py:72 | a colon-free key joined to any value (colons included, as in a timestamp) splits back into that key and that value |
| Precommit.ParseMarkerLine | pilot_core/precommit.py:69-79 | a fallback line sets a field only when its stripped form contains a colon and does not start with `#`, and only one of approved_at, diff_hash, verdict or files; "files" becomes a list, the others strings |
| Precommit.KeyValue | pilot_core/precommit.py:73-79 | a pair sets a field iff its stripped key is one of the four marker keys; the value is stripped, and for "files" it is the comma-split, stripped, non-empty list |
| Precommit.FileList | pilot_core/precommit.py:79 | the comma-split file list has no empty entries |
| Precommit.ParseMarker | pilot_core/precommit.py:40-81 | missing or blank content gives {}; content that decodes to a JSON object gives that object unchanged; otherwise only the four marker keys can appear |
| Precommit.ParseOneLine | pilot_core/precommit.py:69-76 | a line `key: value` for approved_at, diff_hash or verdict sets that key to the value |
| Precommit.ParseLineSplit | pilot_core/precommit.py:70-74 | a stripped `key: value` line splits at the colon just after the key, whatever colons the value holds |
| Precommit.CommentLineIgnored | pilot_core/precommit.py:71 | a line starting with `#` after stripping sets nothing, even when it holds a colon |
| Precommit.SingleLine | pilot_core/precommit.py:68-81 | the fallback over one line holds exactly the field that line sets |
| Precommit.IsExpired | pilot_core/precommit.py:84-131 | an empty or unparseable timestamp is expired (fail-safe); a parseable one is expired iff its age is strictly greater than the maximum age |
| Precommit.StripZone | pilot_core/precommit.py:116 | the cleaned timestamp holds neither `+` nor `Z` |
| Precommit.ExpiryBoundary | pilot_core/precommit.py:126-127 | an approval exactly max-age seconds old is still valid; one second later it has expired |
| Precommit.VerifyDiffHash | pilot_core/precommit.py:153-167 | an empty hash never verifies; a non-empty one verifies iff it equals the digest of the diff |
| Precommit.HashBindsDiff | pilot_core/precommit.py:134-167 | the digest of a diff verifies that diff, and verifies another diff exactly when the two have the same digest |
| Precommit.IsGitignoreOnly | pilot_core/precommit.py:246-270 | true iff the list is non-empty and every path is ".gitignore" or ends in "/.gitignore"; the gitignore-only event is recorded exactly when it is true |
| Precommit.ValidateMarker | pilot_core/precommit.py:291-318 | an empty marker fails with "Empty or unparseable marker" and a missing or empty diff_hash with "Missing diff_hash field", each recording a review-required event; the marker is valid iff it has a truthy diff_hash, and then the message is "" and nothing is recorded |
| Precommit.FallbackMarkerValidates | pilot_core/precommit.py:68-81 | a marker read from a fallback `diff_hash: h` line is valid (also lines 309-318) |
| Progress.ParseStatus | lib/progress.py:18-24 | a status string converts to the unique status whose value it is, and to nothing (a ValueError) when no status has that value |
| Progress.ProgressPath | lib/progress.py:59-66 | a run's file lies in the project's `.progress` directory and ends in `.yaml` |
| Progress.ToDict | lib/progress.py:69-84 | the mapping holds the two times in ISO text, the status as its string value, and the artifacts as a list of strings |
| Progress.FromDict | lib/progress.py:87-102 | a mapping decodes iff every required key is present and well typed; the decoded run id and status are the mapping's; a missing phase, message count or artifact list takes its default |
| Progress.DictRoundTrip | lib/progress.py:69-102 | converting a record to its mapping and back gives the same record, for times the ISO text preserves |
| Progress.StringsOfStrValues | lib/progress.py:83-101 | the artifact list read back from its written form is the same list |
| Progress.ReadProgress | lib/progress.py:129-150 | a missing file reads as None, and so does a file that is not valid YAML or lacks a required field; a record read is the decoding of the file's document |
| Progress.WriteProgress | lib/progress.py:105-126 | the record is written to the run's path, as a YAML document whose status is the record's status value |
| Progress.WriteReadRoundTrip | lib/progress.py:105-150 | reading back a written record gives the same record |
| Progress.ListProgress | lib/progress.py:153-177 | a missing directory lists nothing; otherwise only records that read back from some file are listed, never more than the files |
| Progress.ListedIffValid | lib/progress.py:167-175 | every file that reads as a valid record is listed |
| Progress.UpdateProgress | lib/progress.py:180-217 | there is no result iff there is no file; an unknown status string raises; otherwise the result is the record's mapping with the updates laid over it, decoded |
| Progress.UpdateKeepsUnsuppliedFields | lib/progress.py:204-215 | every field whose key is not among the updates keeps its old value |
| Progress.UpdateAppliesSuppliedFields | lib/progress.py:198-215 | every supplied status, phase, error, summary, message count and heartbeat is the updated record's value |
| Progress.ReplacedFields | lib/progress.py:204-217 | when the updates turn one record's mapping into another's, the update returns exactly that record |
| Progress.MarkCompleted | lib/progress.py:247-273 | no file gives no result; otherwise the record becomes completed with a fresh heartbeat and the summary, and the artifacts change only when given |
| Progress.MarkFailed | lib/progress.py:276-293 | no file gives no result; otherwise the record becomes failed with a fresh heartbeat and the error, all else unchanged |
| Progress.UpdateHeartbeat | lib/progress.py:220-244 | no file gives no result; otherwise the heartbeat is now, and phase and message count change only when given |
| Progress.StaleBoundary | lib/progress.py:307-308 | exactly threshold·60 seconds after the heartbeat is not yet stale; one second later it is |
| Progress.StaleStaysStale | lib/progress.py:306-308 | a stale record stays stale as time goes on until its heartbeat moves |
| Progress.HeartbeatClearsStale | lib/progress.py:220-244 | right after a heartbeat a record is not stale, for any non-negative threshold (also lines 306-308) |
| Progress.DeletedPlusKept | lib/progress.py:428-456 | every scanned file is counted once, either deleted or kept |
| Progress.PartitionIsFilter | lib/progress.py:433-456 | the deleted files are exactly the corrupted ones and the completed ones whose heartbeat is before the cutoff; the kept files are all the others, in order |
| Progress.CleanupProgress | lib/progress.py:387-463 | no directory gives all zeros; otherwise deleted plus kept equals the files scanned, the deleted ids are the stems of corrupted files and the run ids of old completed records in scan order, the remaining files are the kept ones, and kept_failed counts the failed records when they are kept |
| Progress.ArchiveProgress | lib/progress.py:466-493 | a missing run gives None and changes nothing; otherwise the record moves from the live directory to `archive/{run_id}.yaml`, unchanged, and every other file stays where it was |
| Creator.NestedGet | lib/benchmark/creator.py:141-144 | a key is found one level down iff some top-level value is a mapping holding it, and then the value is taken from the first such mapping in key order |
| Creator.FirstHit | lib/benchmark/creator.py:137-144 | the position returned is that of the first key found at the top level or one level down, and -1 only when no key is found either way |
| Creator.ExtractSection | lib/benchmark/creator.py:132-146 | a non-mapping gives None; otherwise a section is found iff some key is found at the top level or one level down, and the value comes from the first key (in the given order) that is found |
| Creator.TopLevelWins | lib/benchmark/creator.py:137-139 | for the first key that is found, a top-level entry wins over any nested one |
| Creator.FirstListUnder | lib/benchmark/creator.py:222-224 | the result is the list under the first of the keys whose value is a list, and none only when no key holds a list (also lines 407-409) |
| Creator.ParseUseCases | lib/benchmark/creator.py:215-238 | a list is returned as is; in a mapping the first of use_cases, cases, results, items holding a list wins, else the mapping itself when it has name and description, else []; a string is decoded as JSON and parsed again ([] when it does not decode); anything else gives [] |
| Creator.ParseUseCasesCarried | lib/benchmark/creator.py:215-238 | whatever is returned is [] or is carried by the reply after decoding strings: the reply's own list, a list under a known key, or the lone use-case object |
| Creator.ParseQuestions | lib/benchmark/creator.py:401-418 | a list is returned as is; in a mapping the first of questions, items, results, benchmark_questions holding a list wins, else []; a string is decoded and parsed again; anything else gives [] |
| Creator.ParseQuestionsCarried | lib/benchmark/creator.py:401-418 | whatever is returned is [] or is carried by the reply after decoding strings: the reply's own list or a list under a known key, never a lone object |
| Creator.Templates | lib/benchmark/creator.py:428-450 | each category has five question templates |
| Creator.Fallback | lib/benchmark/creator.py:421-465 | the fallback gives min(count, 5) questions (none for count ≤ 0), the category's templates in order, all of medium difficulty and in the given category, with provisional `temp-fallback-NNN` ids |
| Creator.FillWithFallback | lib/benchmark/creator.py:393-398 | the per-use-case questions are kept as a prefix, and fallback questions of medium difficulty in that category are added until there are exactly `count` of them; nothing is added when there are already enough |
| Creator.Extra | lib/benchmark/creator.py:468-487 | exactly `count` filler questions (none for count ≤ 0), the categories and difficulties cycling in declaration order, with provisional `temp-extra-NNN` ids |
| Creator.PerUseCase | lib/benchmark/creator.py:289-293 | with use cases, each is asked for at least 5 questions and at least its even share of the midpoint target; with none, the target is the midpoint itself |
| Creator.Numbered | lib/benchmark/creator.py:316-319 | the numbering keeps every question, replacing an empty or `temp-` id by `q-NNN` (its position counted from 1) and leaving other ids alone |
| Creator.NumberedDistinct | lib/benchmark/creator.py:316-319 | when every id is provisional, the numbered ids are pairwise distinct |
| Creator.GenerateQuestions | lib/benchmark/creator.py:268-321 | for 0 ≤ min ≤ max the result has between min and max questions; a non-negative max always bounds it; when the generated questions already fall in range their number is kept; when every generated id is provisional the ids become q-001, q-002, … in order |
| Creator.CategoryIssues | lib/benchmark/creator.py:516-518 | a category issue is reported for a category iff it has fewer than 5 questions, with its count |
| Creator.DifficultyIssues | lib/benchmark/creator.py:523-525 | a difficulty issue is reported for a difficulty iff it has fewer than 3 questions, with its count |
| Creator.HasDuplicateTexts | lib/benchmark/creator.py:528-529 | duplicates are reported iff two questions have the same lower-cased, stripped text |
| Creator.SetSizeNoDups | lib/benchmark/creator.py:529 | a list's set is no larger than the list, and is as large exactly when the list has no repeats |
| Creator.Check | lib/benchmark/creator.py:506-537 | valid iff no issues; "too few" iff fewer than 30 questions; "duplicates" iff two normalised texts coincide; "too short" iff some question has under 20 characters; and exactly the category and difficulty issues |
| Creator.Validate | lib/benchmark/creator.py:490-537 | a benchmark is valid exactly when no issue is found; fewer than the minimum number of questions, duplicate normalised question texts and short questions are each reported exactly when they occur |
| Creator.ValidateCounts | lib/benchmark/creator.py:513-525 | the category and difficulty issues are the ones whose counts over the questions fall below 5 and 3 |
| Creator.ValidIff | lib/benchmark/creator.py:490-537 | a benchmark is valid iff it has at least 30 questions, at least 5 per category, at least 3 per difficulty, no duplicate normalised texts and no question under 20 characters |
| Evaluator.ToFloat | lib/benchmark/evaluator.py:138 | a number converts to itself; None, lists and mappings raise (no value) (also lines 273, 280) |
| Evaluator.Clamp | lib/benchmark/evaluator.py:139 | the clamped value lies in [0, hi], equals the input inside the range, and is the nearer bound outside it (also lines 273, 280) |
| Evaluator.ScoreAt | lib/benchmark/evaluator.py:135-141 | a dimension's score always lies in [0, 10]; a missing or non-numeric value gives the neutral 5; a numeric one is clamped to [0, 10] |
| Evaluator.ParseScores | lib/benchmark/evaluator.py:114-162 | every score lies in [0, 10]; a reply that does not decode to a mapping gives the all-5 default; otherwise each dimension is read with the clamp, and a missing overall is the mean of the four dimensions |
| Evaluator.OverallBetween | lib/benchmark/evaluator.py:151-160 | a computed overall lies between the lowest and the highest of the four dimension scores |
| Evaluator.ScoreAnswer | lib/benchmark/evaluator.py:45-111 | scores always lie in [0, 10]; an errored answer scores 0 everywhere and carries its error; an evaluation error scores 5 everywhere with "Evaluation error: …"; otherwise the scores are parsed from the reply's output |
| Evaluator.PickOf | lib/benchmark/evaluator.py:284-286 | the winner is "a" or "b" exactly when the reply says so; any other value, or none, is a tie |
| Evaluator.ConfidenceAt | lib/benchmark/evaluator.py:277-282 | the confidence lies in [0, 1] and is 0.5 when absent |
| Evaluator.ParseComparison | lib/benchmark/evaluator.py:251-294 | scores lie in [0, 10] and confidence in [0, 1]; a reply that does not decode to a mapping gives the default (5, 5, tie, 0.5); otherwise each field is read with its clamp and an unknown winner becomes a tie |
| Evaluator.CompareAnswers | lib/benchmark/evaluator.py:165-248 | both answers errored: 0–0, tie, 0.5; only one errored: the other wins 7–0 with confidence 0.9 and the error named; a comparison error: 5–5, tie, 0.3; otherwise the parsed comparison; every result is in range |
| Evaluator.ErroredNeverWins | lib/benchmark/evaluator.py:185-209 | an errored answer never wins against one without error; two errored answers tie; and when either answer errored the reply is never consulted |
| Evaluator.LastAnswer | lib/benchmark/evaluator.py:316-317 | the answer looked up for a question is the last one with its id, and none only when no answer has that id |
| Evaluator.ScoreAll | lib/benchmark/evaluator.py:323-356 | only questions answered by both systems are scored, as many scores as there are such questions, and every score is a win, a loss or a tie for its question |
| Evaluator.ScoreAllCovers | lib/benchmark/evaluator.py:323-356 | every question answered by both systems gets a score |
| Evaluator.WinsPartition | lib/benchmark/evaluator.py:377-379 | wins, losses and ties add up to the number of scored questions |
| Evaluator.ScoresWithKey | lib/benchmark/evaluator.py:358-370 | a category's (or difficulty's) group holds exactly one score per scored question with that key |
| Evaluator.GroupAverages | lib/benchmark/evaluator.py:381-393 | one entry per key in first-seen order, holding the rounded mean of each system's scores over that key's group |
| Evaluator.Overall | lib/benchmark/evaluator.py:405-420 | a strict majority of wins (over the other side's wins plus ties) decides, with confidence wins/count; otherwise averages more than 1 apart decide with confidence 0.6; otherwise it is a tie; the verdict is never inconclusive |
| Evaluator.OverallSymmetric | lib/benchmark/evaluator.py:405-420 | swapping the two systems' wins and averages swaps the winner |
| Evaluator.MajorityMeansMoreThanHalf | lib/benchmark/evaluator.py:406-409 | winning more than the other side plus the ties means winning more than half the scored questions |
| Evaluator.QuestionById | lib/benchmark/evaluator.py:451-463 | the question found for an id is the last question with that id, and none only when no question has it |
| Evaluator.StrongBuckets | lib/benchmark/evaluator.py:471-478 | exactly the categories (or difficulties) with at least three wins are listed, each with its win count |
| Evaluator.BucketWins | lib/benchmark/evaluator.py:457-469 | a listed bucket's win count is the number of won questions in that bucket |
| Evaluator.Strengths | lib/benchmark/evaluator.py:444-480 | at most five strengths, each with at least three wins, each count being the system's won questions in that category or difficulty |
| Evaluator.Evaluate | lib/benchmark/evaluator.py:297-441 | one score per question answered by both systems, each for a benchmark question; wins, losses and ties add up to the number of scores |
| Evaluator.Summarize | lib/benchmark/evaluator.py:372-420 | the wins of each side count that side's winning scores, wins, losses and ties add up to the number of scores, and the overall verdict follows the majority-then-average rule over them |
| Validation.ForbiddenAtMostOne | pilot_core/validate.py:52-58 | a path earns at most one forbidden-path error, and exactly one when it is under logs/, workspaces/ or output/ |
| Validation.ForbiddenErrors | pilot_core/validate.py:49-59 | one error per staged path under logs/, workspaces/ or output/, of the matching kind and naming that path, and nothing else |
| Validation.TouchedProjects | pilot_core/validate.py:75-83 | a project counts as modified iff some staged path lies under projects/ in it, outside the work and personal namespaces (also lines 282-293) |
| Validation.ModifiedProjects | pilot_core/validate.py:75-83 | the modified projects are listed once each, and are exactly the projects some staged path touches |
| Validation.StructureErrors | pilot_core/validate.py:62-99 | a project is reported for a missing .runs/ directory iff it is modified, is neither .gitkeep nor a legacy project, and has no .runs/ directory |
| Validation.MapFilterErrors | pilot_core/validate.py:86-97 | an error is produced exactly for each element that passes the filter |
| Validation.DelegationErrors | pilot_core/validate.py:262-333 | with PILOT_SKIP_DELEGATION=1 there are none; otherwise a project is reported iff it is modified, not exempt, has a .runs/ directory, and no manifest there is a mapping with a truthy agent field |
| Validation.TouchedCategories | pilot_core/validate.py:353-358 | a work category counts as modified iff some staged path lies under projects/work/ in it |
| Validation.CategoriesErrors | pilot_core/validate.py:361-403 | the errors are exactly those of the modified categories, each checked on its own |
| Validation.NamespaceErrors | pilot_core/validate.py:336-405 | a modified category other than .gitkeep is reported for a missing .runs/ directory iff it has none, and for missing provenance iff it has one but no manifest there lists a Parallel tool |
| Validation.ScanBindings | pilot_core/validate.py:235-253 | a binding is found only when some readable feature list binds the branch in worktree.branch or in a worktree assignment; it is reported missing only when none does |
| Validation.BindingErrors | pilot_core/validate.py:202-259 | the check is skipped when the bypass variable is set or the branch is not parallel/*; with no projects directory it fails; otherwise it gives at most the one no-binding error, and none only when some feature list binds the branch |
| Validation.Missing | pilot_core/validate.py:123-169 | one missing-field error per required field the mapping lacks, for that path, in field order |
| Validation.FormatErrorsFor | pilot_core/validate.py:102-138 | a non-YAML or deleted path gives no errors; a loaded mapping gives its required-field errors; a loaded non-mapping gives none |
| Validation.RuleAndTemplateFields | pilot_core/validate.py:121-133 | a rule file must have name and description; a decision template is not checked |
| Validation.AgentErrorsOf | pilot_core/validate.py:165-173 | one error per missing agent field, plus one "should have type: subagent" error exactly when the type is not "subagent" |
| Validation.AgentErrorsFor | pilot_core/validate.py:141-180 | only existing YAML files under agents/ are checked; a loaded non-mapping gives the not-a-dictionary error; a mapping gives its field and type errors |
| Validation.FormatErrors | pilot_core/validate.py:102-138 | the format check raises iff reading some staged YAML file raises |
| Validation.Warnings | pilot_core/validate.py:183-199 | with CLAUDE.md staged and present, the warning for each of agents, tools, lib and projects is issued exactly when the text mentions it and it does not exist; every warning is the fixed prefix plus one of those four; otherwise there are no warnings |
| Validation.ValidateStaged | pilot_core/validate.py:408-453 | no staged files gives exit 0 with nothing reported; a raising check crashes the run; otherwise the errors are the checks' errors in order, and the exit code is 1 iff there are any |
| Validation.WarningsNeverBlock | pilot_core/validate.py:438-453 | the text of CLAUDE.md never changes the exit code |
| Validation.ErrorsIgnoreClaudeMd | pilot_core/validate.py:414-436 | the errors depend only on which paths exist, the loaded files, the manifests and the feature lists |
| Validation.StagedLogBlocks | pilot_core/validate.py:53-54 | a staged file under logs/ always blocks the commit (also lines 449-451) |
| Validation.ProjectFromPath | pilot_core/validate.py:77-83 | a path `projects/p/…` touches project p iff p is not work or personal |
| RuleRegistry.LevelOf | lib/rule_registry.py:128-165 | a rule is code-enforced iff its name has a known mechanism; otherwise context-injected iff its text mentions both "context" and "inject" (ignoring case); otherwise prompt-only |
| RuleRegistry.LoadRule | lib/rule_registry.py:125-161 | an empty document, a mapping without "name", or a string or list not holding "name" is skipped; a number, `True`, a string or list holding "name", a list or mapping as the name, or a non-string rule text under a name outside the mechanism table raises; a loaded rule carries the document's name, the level its name and text give, a mechanism and files exactly when code-enforced, priority 50 and scope "*" by default |
| RuleRegistry.MechanismFilesNonEmpty | lib/rule_registry.py:51-68 | every known enforcement mechanism names at least one file |
| RuleRegistry.IndexOfName | lib/rule_registry.py:153 | the position found holds a rule with that name, and -1 means no rule has it |
| RuleRegistry.Put | lib/rule_registry.py:153 | storing a rule keeps names distinct: the new rule is present, the old rule of that name (if any) is gone, every other rule stays, and the count grows only for a new name |
| RuleRegistry.LoadRules | lib/rule_registry.py:115-158 | the loaded rules have distinct names, are no more than the files, and each is the rule loaded from some file |
| RuleRegistry.LaterFileWins | lib/rule_registry.py:120-153 | when a later file holds a rule with the same name, that file's rule is the one kept |
| RuleRegistry.ByPriority | lib/rule_registry.py:167-170 | all rules, highest priority first, as a permutation of the registry's rules |
| RuleRegistry.RulesForAgent | lib/rule_registry.py:172-186 | exactly the rules whose scope applies to the agent (scope "*", a list with an {agent: …} entry for it, or a string containing it), highest priority first |
| RuleRegistry.UniversalScope | lib/rule_registry.py:177-178 | the "*" scope applies to every agent, while a list holding the string "*" applies to none |
| RuleRegistry.AgentsOf | lib/rule_registry.py:227-236 | a list scope stands for the agents named in its dict entries; any other scope stands for its own string form |
| RuleRegistry.OverlapSymmetric | lib/rule_registry.py:220-241 | scope overlap is symmetric |
| RuleRegistry.SharedAgentOverlaps | lib/rule_registry.py:227-241 | two list scopes that both name an agent overlap |
| RuleRegistry.DetectConflicts | lib/rule_registry.py:188-218 | the conflicts are exactly the pairs of rules, earlier before later, with equal priority and overlapping scopes, each reported as a medium-severity priority conflict; directive conflicts are never reported |
| RuleRegistry.Suggest | lib/rule_registry.py:285-310 | a suggestion is made iff the text mentions a file, import or git word; file words win over import words, which win over git words |
| RuleRegistry.AuditEnforcement | lib/rule_registry.py:265-283 | one gap per prompt-only rule that has a suggestion, each recommending code enforcement, and no other gaps |
| RuleRegistry.EnforcedRulesHaveNoGap | lib/rule_registry.py:271 | a code-enforced or context-injected rule is never reported as a gap |
| RuleRegistry.GetHierarchy | lib/rule_registry.py:312-337 | the total and the priority order both count every rule; the three level buckets together hold every rule, each in its own level's bucket |
| RuleRegistry.PriorityOrder | lib/rule_registry.py:336 | the priority order names every rule, one entry per rule |
| RuleRegistry.Bucket | lib/rule_registry.py:323-330 | a level's bucket holds one entry for each rule at that level |
| RuleRegistry.LevelsPartition | lib/rule_registry.py:317-330 | the three buckets' sizes add up to the number of rules |
| RuleCoverage.ExpectedPatterns | lib/rule_coverage.py:235-244 | every rule has at least one expected pattern; a rule outside the table expects its own name with each `-` turned into `.` |
| RuleCoverage.PatternsIn | lib/rule_coverage.py:201-205 | each pattern is reported once, as found or missing, and every pattern that matches the content is reported found as `file: pattern` |
| RuleCoverage.PatternResults | lib/rule_coverage.py:197-207 | found plus missing equals the number of patterns times the number of readable existing files |
| RuleCoverage.VerifyEnforcement | lib/rule_coverage.py:160-233 | an unknown rule gives mechanism "none", unverified, with no files; otherwise the present and missing files split the declared files by existence, and the rule is verified iff no file is missing and some pattern was found |
| RuleCoverage.VerifiedMeansAllPresent | lib/rule_coverage.py:210-213 | a verified rule has every declared file present |
| RuleCoverage.KnownRuleDeclaresFiles | lib/rule_coverage.py:177-178 | a rule with a known mechanism declares that mechanism's files, and there is at least one |
| RuleCoverage.RegexKeywordMissed | lib/rule_coverage.py:280-286 | the line "error not allowed" is not recognised by the substring test although it matches the regular expression "ERROR.*not allowed" |
| RuleCoverage.CorrectedAcceptsMore | lib/rule_coverage.py:280-286 | every line the substring test accepts is accepted when the "ERROR.*not allowed" keyword is read as a regular expression |
| RuleCoverage.FindRule | lib/rule_coverage.py:288-304 | no rule is found iff no rule name fits the line (as snake or spaced name, or by all its long keywords); otherwise the first fitting rule in registry order is returned |
| RuleCoverage.FirstNaming | lib/rule_coverage.py:293-302 | the position returned is the first rule name that fits the line, and -1 means none fits |
| RuleCoverage.SuggestRule | lib/rule_coverage.py:312-325 | the suggestion is "" iff the lower-cased line holds none of review, import, yaml, commit, file; otherwise it is the rule of the first keyword found, in that order |
| RuleCoverage.SuggestFrom | lib/rule_coverage.py:322-325 | the first table keyword found in the line decides, and "" means none is found |
| RuleCoverage.ContextWindow | lib/rule_coverage.py:306-310 | the context holds at most 2·size+1 lines, all of them from the file, and always includes the line itself |
| RuleCoverage.OrphansFrom | lib/rule_coverage.py:260-272 | one orphan per line that passes the keyword test in use and fits no rule, numbered from 1; the as-written test checks every keyword, "ERROR.*not allowed" included, as a substring |
| RuleCoverage.AsWrittenOrphansKept | lib/rule_coverage.py:260-286 | every orphan the substring keyword test reports is reported by the regular-expression test too |
| RuleCoverage.FindOrphans | lib/rule_coverage.py:246-276 | every orphan comes from an existing pattern file and has a line number of at least 1, under either keyword test |
| RuleCoverage.OrphanLines | lib/rule_coverage.py:258-272 | an orphan's line number points at a line of its file that passes the keyword test in use and fits no rule, and that line is in its context |
| RuleCoverage.GetOpportunities | lib/rule_coverage.py:327-344 | every listed opportunity names a rule the registry knows and carries that rule's priority; every table entry whose rule is known is listed; highest priority first |
| RuleCoverage.VerifyAll | lib/rule_coverage.py:355-357 | one verification per known mechanism, in table order |
| RuleCoverage.Coverage | lib/rule_coverage.py:372 | the coverage is verified/total·100, never negative, and 0 with no rules |
| RuleCoverage.ReportParts | lib/rule_coverage.py:350-395 | the total is the number of rules, the code-enforced count is the number of mechanisms, verified plus failed equals that count, verified counts the verified verifications, and the orphans and opportunities are those of the searches |
| RuleCoverage.AnalyzeAsWritten | lib/rule_coverage.py:346-396 | as written: the analysis raises iff there are no rules, because the summary divides by the rule count; otherwise the counts are as in the report and the orphans are those of the substring keyword test |
| RuleCoverage.NoRulesRaises | lib/rule_coverage.py:377 | an empty rules directory makes the analysis raise |
| RuleCoverage.Analyze | lib/rule_coverage.py:346-396 | the corrected analysis: verified plus failed is the number of mechanisms; coverage is 0 with no rules; the orphans use the regular-expression keyword test; with rules, everything except the orphans and the summary counting them equals the analysis as written |
| RuleAudit.AgentNamesOf | tools/audit_rules.py:44-55 | the agent names are exactly the `name` values, of any type, of the readable agent documents that are mappings holding a name |
| RuleAudit.Agents | tools/audit_rules.py:57-61 | sorting raises exactly when some name is not a string; otherwise the audited agents are the names found plus "pilot", sorted, with "pilot" added only when it is missing |
| RuleAudit.Entry | tools/audit_rules.py:70-85 | a file that fails to load, or whose document makes the loader raise (a number, `True`, a string or list holding "name", a list or mapping as the name), is keyed by its stem and records "Failed to parse: " and the exception text; a mapping with a usable name is keyed by that name, whatever its type, and keeps its `when` (default []); anything else contributes nothing |
| RuleAudit.LoadRuleInfos | tools/audit_rules.py:65-85 | the rule table has distinct hashable keys and no more entries than files |
| RuleAudit.LoadRuleInfosLastWins | tools/audit_rules.py:70-85 | the table holds a key exactly when some file stores an entry under it, and a key stored by several files keeps the entry of the last of them |
| RuleAudit.AppliesTo | tools/audit_rules.py:119-130 | the agents a `when` list names are its plain strings and the agent values of its {agent: …} entries |
| RuleAudit.SortedMembers | tools/audit_rules.py:147-150 | sorting keeps exactly the same members |
| RuleAudit.AnalyzeWhen | tools/audit_rules.py:101-151 | a wildcard scope is universal with nothing missing; otherwise coverage is none iff no agent is named, universal iff every known agent is named, partial iff some is not; unknown agents are the named ones that are neither known nor "*"; the missing agents are all agents under none and the unnamed agents otherwise; the lists are sorted |
| RuleAudit.AnalyzeInfo | tools/audit_rules.py:93-99 | a rule's analysis is an error exactly when its file failed to parse |
| RuleAudit.RecommendationsFor | tools/audit_rules.py:153-183 | a parse error gets only the "fix YAML syntax" advice; a critical rule without universal coverage gets a CRITICAL recommendation; every other recommendation names the rule by `str` of its key |
| RuleAudit.AnalyzeAll | tools/audit_rules.py:93-151 | one analysis per rule, in table order |
| RuleAudit.CoverageCounts | tools/audit_rules.py:89-143 | each rule has exactly one of the four coverages |
| RuleAudit.AllRecommendations | tools/audit_rules.py:156-183 | every rule's recommendations are in the report |
| RuleAudit.AuditRules | tools/audit_rules.py:28-200 | a non-string agent name makes the audit raise, and only then; next a missing rules directory gives the error result; otherwise the agents are the sorted names plus "pilot", every loaded rule is analysed against them, the total counts the rules, the universal, partial and none counts add up to the rules without parse errors, and the recommendations are all the rules' recommendations |
| RuleAudit.CriticalReported | tools/audit_rules.py:168-178 | every critical rule that parsed but is not universal gets a CRITICAL recommendation |
| EnforcementCoverage.BumpStatus | pilot_tools/enforcement_coverage.py:41 | bumping a status keeps keys distinct, adds one to that status and to the total, and leaves every other count alone |
| EnforcementCoverage.SlotOf | pilot_tools/enforcement_coverage.py:41 | the slot found holds the status, and -1 means the status is absent |
| EnforcementCoverage.TotalUpdate | pilot_tools/enforcement_coverage.py:41-59 | replacing one count changes the total by exactly the difference |
| EnforcementCoverage.LoadConfig | pilot_tools/enforcement_coverage.py:16-23 | a missing file gives the "Config not found: …" error mapping; a present one loads only when its YAML is a mapping |
| EnforcementCoverage.Target | pilot_tools/enforcement_coverage.py:56 | a gap's target is target_mechanism when that is truthy, else mechanism |
| EnforcementCoverage.SectionRules | pilot_tools/enforcement_coverage.py:37-39 | a missing section, an empty string or an empty mapping gives no rules; a list of mappings gives one rule per entry, in order, tagged with the section; anything else raises |
| EnforcementCoverage.CountStatuses | pilot_tools/enforcement_coverage.py:37-59 | counting the rules keeps keys distinct, adds each rule to its own status, and adds the number of rules to the total |
| EnforcementCoverage.InitialCountsZero | pilot_tools/enforcement_coverage.py:32 | the five statuses start at zero with a zero total |
| EnforcementCoverage.AnalysisOf | pilot_tools/enforcement_coverage.py:31-73 | the total is the number of rules; each named status count is the number of rules with that status; one row per rule in order; one gap per rule whose status is gap, pending, partial or warning; coverage is the enforced percentage |
| EnforcementCoverage.Percent | pilot_tools/enforcement_coverage.py:61-70 | the percentage is the rounded part/total·100, and 0 with no rules |
| EnforcementCoverage.AnalyzeCoverage | pilot_tools/enforcement_coverage.py:26-73 | a config holding "error" is returned unchanged and only then; a section that is neither a list of mappings nor empty raises; otherwise the analysis is that of all sections' rules in order |
| EnforcementCoverage.Gaps | pilot_tools/enforcement_coverage.py:50-57 | exactly the rules whose status is not enforced and is one of gap, pending, partial, warning become gaps |
| EnforcementCoverage.NamedStatusesSum | pilot_tools/enforcement_coverage.py:59-69 | when every status is one of the five named ones, the five counts add up to the total |
| EnforcementCoverage.SummaryLines | pilot_tools/enforcement_coverage.py:81-99 | the "Gaps to Close" section appears iff there are gaps; the summary has eleven fixed lines plus, with gaps, a header, one line per gap and a blank line |
| EnforcementCoverage.FormatSummary | pilot_tools/enforcement_coverage.py:76-79 | an error result is shown as "Error: " and the error text |
| EnforcementCoverage.MissingConfigReported | pilot_tools/enforcement_coverage.py:16-29 | a missing config file passes through the analysis unchanged and is shown as "Error: Config not found: …" (also lines 76-79) |
| PromptAnalyzer.EstimateTokens | tools/prompt_analyzer.py:27-34 | the estimate is the number of whole four-character blocks in the text, rounded down |
| PromptAnalyzer.LeadingHashes | tools/prompt_analyzer.py:48 | the count covers exactly the maximal run of '#' at the start of the line |
| PromptAnalyzer.SpaceRun | tools/prompt_analyzer.py:48 | the count covers exactly the maximal run of `\s` characters (Python's whitespace set, including vertical tab, form feed and U+001C to U+001F) from the given position |
| PromptAnalyzer.HeaderOf | tools/prompt_analyzer.py:48-63 | a line is a header exactly when it opens with one to four '#', then at least one `\s` character, then at least one more character; the level is the number of '#' |
| PromptAnalyzer.VerticalTabHeader | tools/prompt_analyzer.py:48 | "#", a vertical tab and "Title" form a level-1 header named "Title": the vertical tab counts as `\s` |
| PromptAnalyzer.Walk | tools/prompt_analyzer.py:44-77 | the sections collected, concatenated, give back exactly the lines walked; no kept section is empty; every section after the first has a header level from 1 to 4 |
| PromptAnalyzer.ExtractSections | tools/prompt_analyzer.py:37-79 | every prompt line falls in exactly one section, so the section line counts add up to the number of lines; a level-0 "_preamble" section exists, and only first, exactly when the prompt does not open with a header |
| PromptAnalyzer.SectionLinesAddUp | tools/prompt_analyzer.py:56-75 | the per-section line counts sum to the total number of lines held by the groups |
| PromptAnalyzer.RuleStep | tools/prompt_analyzer.py:109-126 | one line adds its stripped text at most once, and only when it matches a rule pattern or mentions an enforcement keyword in under 200 characters |
| PromptAnalyzer.CollectRules | tools/prompt_analyzer.py:108-126 | the collected rules are duplicate-free, never empty strings, and are exactly the stripped qualifying lines plus those already collected |
| PromptAnalyzer.IdentifyRules | tools/prompt_analyzer.py:82-128 | a text is reported exactly when some prompt line, stripped, equals it and qualifies; each is reported once and none is empty |
| PromptAnalyzer.MechanismName | tools/prompt_analyzer.py:151 | the mechanism is the item's own when that is truthy, otherwise its target_mechanism, defaulting to "" |
| PromptAnalyzer.LastWithId | tools/prompt_analyzer.py:145-154 | an id resolves exactly when some configured item carries it, and then to the last such item, as later assignments overwrite earlier ones |
| PromptAnalyzer.FirstMatch | tools/prompt_analyzer.py:180-190 | the index found is a matching table entry with no matching entry before it, and -1 means no entry from the start position matches |
| PromptAnalyzer.Shorten | tools/prompt_analyzer.py:184-193 | a rule of at most 100 characters is kept; a longer one becomes its first 100 characters plus "...", 103 in all |
| PromptAnalyzer.PlaceIn | tools/prompt_analyzer.py:157-193 | a rule is code-enforced exactly when some keyword entry matches it and its id is configured, using the first such entry in table order; otherwise it is prompt-only; either way its text is shortened |
| PromptAnalyzer.Split2 | tools/prompt_analyzer.py:176-193 | the two lists hold exactly the code and prompt placements, with the right counts |
| PromptAnalyzer.ConfiguredItems | tools/prompt_analyzer.py:147-149 | the items are those of all sections, and loading them fails exactly when a section cannot be iterated as rules or some item lacks an id or has a list or mapping as its id |
| PromptAnalyzer.Placements | tools/prompt_analyzer.py:176-193 | there is one placement per rule, each the rule's own placement |
| PromptAnalyzer.MatchItems | tools/prompt_analyzer.py:176-198 | each rule lands in exactly one of the two lists, so their lengths add up to the number of rules |
| PromptAnalyzer.MatchRules | tools/prompt_analyzer.py:131-198 | matching fails exactly when the configured items fail to load; otherwise it is the rule-by-rule placement |
| PromptAnalyzer.AnalyzeAgent | tools/prompt_analyzer.py:201-251 | non-empty lines never exceed total lines; code-enforced and prompt-only counts add up to the rules mentioned; the reduction is nine lines per code-enforced rule capped at half the prompt; at most five largest sections; section line counts add up to the prompt's lines |
| PromptAnalyzer.Measure | tools/prompt_analyzer.py:207-251 | non-empty lines never exceed total lines; the reduction is min(9·code-enforced, lines/2), so at most half the prompt; the counts add up to the rules mentioned; the largest sections are at most five of the sections, in descending line order, and no section left out is longer than one kept; section line counts add up to the prompt's lines |
| Run.Numbers | lib/run.py:53-59 | a number is collected exactly when some manifest stem's text before the first '_' parses as an integer |
| Run.Max | lib/run.py:61 | the maximum is a member of the set and no member exceeds it |
| Run.NextRunNumber | lib/run.py:42-61 | with no runs directory, or no numbered manifest, the next number is 1; otherwise it is one more than the largest manifest number, so it exceeds every existing number |
| Run.NumbersCover | lib/run.py:53-59 | every parsable manifest stem contributes its number |
| Run.Create | lib/run.py:84-101 | a new run is in progress with empty lists and no completion or summary; it is numbered exactly when a project is given, with the project's next run number; it becomes current and its id is exported to the environment |
| Run.CurrentId | lib/run.py:108-113 | the current run's id wins; otherwise the environment's PILOT_RUN_ID |
| Run.AddUnique | lib/run.py:115-133 | the element is present afterwards; nothing else is added; the old list is a prefix; the list is unchanged exactly when the element was already there; distinctness is kept |
| Run.AddIdempotent | lib/run.py:115-133 | recording the same element twice is the same as recording it once |
| Run.AddAllKeepsOrder | lib/run.py:115-133 | recording a sequence keeps the old list as a prefix and distinctness, and holds exactly the old and new elements |
| Run.AddAgent | lib/run.py:115-118 | afterwards the agent is listed; a name already listed leaves the run unchanged, a new one is appended at the end, and no other field changes |
| Run.AddTool | lib/run.py:120-123 | afterwards the tool is listed; a name already listed leaves the run unchanged, a new one is appended at the end, and no other field changes |
| Run.AddFileCreated | lib/run.py:125-128 | afterwards the path is listed as created; a path already listed leaves the run unchanged, a new one is appended at the end, and no other field changes |
| Run.AddFileModified | lib/run.py:130-133 | afterwards the path is listed as modified; a path already listed leaves the run unchanged, a new one is appended at the end, and no other field changes |
| Run.RecordersIdempotent | lib/run.py:115-133 | each of the four recorders is idempotent |
| Run.Format03 | lib/run.py:178-200 | a non-negative number is zero-padded to at least three digits; a negative one keeps its sign in front |
| Run.ToDict | lib/run.py:152-166 | the manifest mapping has exactly eleven fields |
| Run.ToDictRoundTrip | lib/run.py:152-166 | reading the manifest mapping back gives the run with every field but the project |
| Run.StrListRoundTrip | lib/run.py:161-164 | a list of strings written to the manifest reads back unchanged |
| Run.SafeTask | lib/run.py:177 | the file-name task is at most 30 characters, as long as the task when shorter, and holds no space or '/' |
| Run.SaveManifest | lib/run.py:168-184 | nothing is written exactly when no project is set; a project without a number raises; otherwise the mapping goes to projects/<project>/.runs/NNN_<safe task>.yaml |
| Run.Complete | lib/run.py:135-142 | the run is completed now, a given summary replaces the old one, nothing else changes, the manifest is saved, and no run is current unless the save raised, which leaves the current run in place |
| Run.Fail | lib/run.py:144-150 | the run is failed now with summary "Error: <error>", nothing else changes, the manifest is saved, and no run is current unless the save raised, which leaves the current run in place |
| Run.Exit | lib/run.py:190-195 | leaving with an exception fails the run; leaving normally completes an in-progress run and leaves a finished run alone |
| Run.ExitKeepsSummary | lib/run.py:139-195 | completing on normal exit keeps a summary recorded earlier |
| Run.MessageHead | lib/run.py:199-209 | the message opens with the title, a blank line and the run id; an agents line appears exactly when there are agents; the summary closes the head, after a blank line, exactly when it is set |
| Run.GitCommitMessage | lib/run.py:197-220 | the commit message starts with the run's title line |
| Run.NumberedTitle | lib/run.py:200 | a run with a non-zero number is titled "Run NNN: <task>" |
| Invoke.HasFileChangesAppend | lib/invoke.py:115-117 | two histories together change files iff one of them does |
| Invoke.FileChangeIffSomeUse | lib/invoke.py:86-117 | a history changes files iff one of its tool uses has a `tool` field naming Write, Edit or NotebookEdit |
| Invoke.MissingFields | lib/invoke.py:151-152 | the missing fields are exactly those of name, type and prompt that are absent or falsy |
| Invoke.Iterate | lib/invoke.py:148 | a list iterates over its items; None, booleans and numbers cannot be iterated |
| Invoke.PreTaskHooks | lib/invoke.py:126-173 | without hooks nothing fails; the hooks fail only when a required field is missing, then with the message naming the missing fields; a listed validate_config with a missing field always fails |
| Invoke.NoHooksWithoutKey | lib/invoke.py:140 | a configuration without a hooks key yields no hooks |
| Invoke.FirstDanger | lib/invoke.py:240-246 | the index found is a dangerous pattern that matches, with none matching before it, and -1 means none matches |
| Invoke.FirstHint | lib/invoke.py:249-261 | the index found is a routing hint that applies, with none applying before it, and -1 means none applies |
| Invoke.CheckTaskLegitimacy | lib/invoke.py:220-263 | a task is blocked exactly when some dangerous pattern matches it, naming that pattern; otherwise it is misrouted exactly when some routing keyword occurs and points at another agent, the first such in table order |
| Invoke.NeverSuggestsSelf | lib/invoke.py:250-253 | a misrouting warning never suggests the agent already chosen |
| Invoke.RateLimitCaseInsensitive | lib/invoke.py:266-283 | the verdict on an error is unchanged when its message and type name are lower-cased first |
| Invoke.RateLimitIgnoresCase | lib/invoke.py:268-273 | a message containing "Rate Limit" in any case is recognised |
| Invoke.Pow2Grows | lib/invoke.py:312 | the doubling factor never shrinks as attempts grow |
| Invoke.BackoffBase | lib/invoke.py:305-312 | a Retry-After value is used, capped at 320 seconds; otherwise the base starts at 5 seconds and doubles per attempt up to 320, and from attempt 1024 on the doubling overflows a float and raises |
| Invoke.Jittered | lib/invoke.py:315-316 | the delay is at least 0.1 seconds and within 25% of a non-negative base |
| Invoke.CalculateBackoff | lib/invoke.py:305-316 | the delay raises exactly when the base does; otherwise it is at least 0.1 seconds and within 25% of the base, and without Retry-After it lies between 3.75 and 400 seconds |
| Invoke.JitterBounds | lib/invoke.py:315 | the jitter never exceeds a quarter of a non-negative base either way |
| Invoke.NameRun | lib/invoke.py:364 | the run covers exactly the maximal stretch of characters that are neither '/' nor `\s` (Python's whitespace set, including vertical tab, form feed and U+001C to U+001F) |
| Invoke.FirstProjectMatch | lib/invoke.py:364 | the position found is the leftmost match of projects/<name>/, and -1 means there is none |
| Invoke.ExtractProject | lib/invoke.py:354-370 | a project is found only as a non-empty name without '/' or whitespace inside "projects/<name>/" in the task, never "work" or "personal"; a task without such a match has none |
| Invoke.FormFeedEndsName | lib/invoke.py:364 | a form feed inside "projects/a<FF>b/" ends the name, so that task names no project |
| Invoke.NamespaceHidesLaterProject | lib/invoke.py:364-370 | when the first match is a namespace directory, no project is returned, even if a later match would qualify |
| Invoke.ModelFor | lib/invoke.py:719-720 | each known model name selects its model; any other hashable key falls back to the opus model; a list or mapping as the key raises |
| Invoke.InvokeAgent | lib/invoke.py:579-766 | an unparsable depth raises; at depth 4 or more nothing is spawned; a background spawn keeps or generates the run id; a foreground task is blocked exactly when a dangerous pattern matches; an invocation happens only with a loaded configuration whose pre-task hooks pass, at one more depth, for the project found in the task, with the model its key selects; after the hooks, a list or mapping as the model key or a truthy `thinking` that is not a mapping raises |
| Invoke.DepthLimitStopsEverything | lib/invoke.py:580-589 | at depth 4 every invocation is refused, whatever the task or mode |
| Context.NamedPriority | pilot_core/context.py:41-42 | critical, high, medium and low map to 100, 90, 50 and 10; any other name maps to 50 |
| Context.NormalizePriority | pilot_core/context.py:36-43 | integers, booleans included, are kept; strings are looked up ignoring case; anything else becomes 50 |
| Context.NamedPriorityIgnoresCase | pilot_core/context.py:42 | "HIGH" is priority 90, and an unknown name such as "urgent" gets the default 50 |
| Context.AppliesTo | pilot_core/context.py:63-64 | a list selects the agent exactly when it names the agent or "*" |
| Context.FallbackRules | pilot_core/context.py:59-66 | the fallback holds exactly the entries of the rule items that apply to the agent, one per such item |
| Context.RulesForAgent | pilot_core/context.py:45-69 | the rules come out sorted by descending priority; the query rows, when the query succeeds, are a permutation of the result, with priorities normalised; otherwise the result is a permutation of the fallback rules |
| Context.RowEntries | pilot_core/context.py:49-52 | one entry per query row, keeping its name and rule text and normalising its priority |
| Context.RulesText | pilot_core/context.py:71-78 | no rules give the empty text; otherwise the text opens with the "## Active Rules" heading, and each rule's "### name (priority: p)" block with its text sits, in order, right after the heading and the blocks of the rules before it |
| Context.LoadRulesForAgent | pilot_core/context.py:30-78 | without an index file the rules text is empty; with a successful query it is empty exactly when no rule row comes back |
| Context.LoadAgentConfig | pilot_core/context.py:96-106 | a missing or falsy agent file gives the empty configuration; otherwise the parsed document is returned |
| Context.LoadAgentPrompt | pilot_core/context.py:81-93 | a missing agent file gives ""; a mapping gives its prompt, defaulting to ""; any other document raises |
| Context.FirstPending | pilot_core/context.py:145-153 | the feature found is the first that does not pass, every earlier one passing; -1 means all pass |
| Context.FeatureParts | pilot_core/context.py:136-159 | the feature file must be a mapping; a non-empty feature list always contributes the "passing/total features complete" progress line |
| Context.NextFeatureIsFirstPending | pilot_core/context.py:152-156 | the next-feature line names the id and name of the first feature that does not pass |
| Context.ProgressPart | pilot_core/context.py:163-174 | the recent-progress part exists exactly when the first 40 lines of progress.txt are not blank, and then opens with its heading |
| Context.LoadProjectContext | pilot_core/context.py:109-181 | a missing project directory gives ""; feature data that contributes must be a mapping; with no usable feature file and no progress the context is "" |
| Context.Optional | pilot_core/context.py:271-291 | a part is added exactly when its text is non-empty |
| Context.ContextParts | pilot_core/context.py:267-291 | the parts are, in order, the system context and the rules when non-empty, the Task-tool warning always, then the prompt and the project context when non-empty, each with its heading |
| Context.Assemble | pilot_core/context.py:266-293 | the context always contains the ban warning and is exactly the warning when nothing else is known; a system context comes first under its heading; a prompt and, for a given project id, a project context appear under their headings |
| Context.BuildContext | pilot_core/context.py:249-293 | the built context always contains the Task-tool ban warning, and without a project it is the other parts joined by the separator |
| Context.BareContextIsWarning | pilot_core/context.py:280-293 | with nothing else known the context is exactly the warning |
| Startup.GetBranchStatus | lib/startup.py:32-59 | the branch is main exactly when git reports the branch "main"; a failed git call leaves the branch and the repository path empty |
| Startup.FeatureCounts | lib/startup.py:82-84 | passing features never outnumber the features; a list of mappings gives its length and the number that pass |
| Startup.InfoOf | lib/startup.py:86-92 | a project summary keeps its name and counts, has progress 0 with no features and otherwise passing/total·100 rounded to one decimal, and is complete exactly when every feature passes and there is at least one |
| Startup.Collect | lib/startup.py:70-95 | collecting raises exactly when some feature list is not a mapping or its features cannot be counted; otherwise there is one summary per directory with a feature list, each built from that directory's own file: its feature count, its passing count and the progress rounded from them |
| Startup.SortByProgress | lib/startup.py:97 | the result is ordered by ascending progress and is a permutation of the input |
| Startup.GetActiveProjects | lib/startup.py:62-98 | without a projects directory there are none; otherwise the summaries, each built from its own directory's feature counts, come back ordered by ascending progress, as a permutation of those collected |
| Startup.ResumeItem | lib/startup.py:112-119 | a stuck session gives a priority-1 recommendation whose action names the session id |
| Startup.ContinueItem | lib/startup.py:124-130 | an unfinished project gives a priority-2 "Continue project '<name>'" recommendation |
| Startup.ResumeItems | lib/startup.py:111-119 | one resume recommendation per stuck session given, in order |
| Startup.GenerateRecommendations | lib/startup.py:101-134 | the recommendations are ordered by priority: resume items for at most the first two stuck sessions, then one continue item for the first unfinished project when there is one |
| Startup.RecommendsLeastComplete | lib/startup.py:122-124 | with projects sorted by progress, the project recommended is unfinished and no unfinished project has less progress |
| Startup.FirstFilteredIsLeast | lib/startup.py:97-124 | in a progress-sorted list, the first unfinished project has the least progress among the unfinished ones |
| Startup.StartupCheck | lib/startup.py:137-208 | stuck sessions and active projects are flagged exactly when present; a named project narrows the active list to exactly its entries; recommendations come from the narrowed list; the telemetry event counts stuck sessions, projects and recommendations and names the branch |
| AgentStatus.ToSummary | pilot_tools/agent_status.py:21-42 | the summary keeps the record's status, agent, project and phase and flags staleness exactly when the record is stale; a result summary exactly for completed records, artifacts exactly for completed records that have some, an error exactly for failed ones |
| AgentStatus.ByProject | pilot_tools/agent_status.py:98-106 | the per-project answer has one entry per run id and no more entries than reported records |
| AgentStatus.ByProjectKeys | pilot_tools/agent_status.py:98-106 | a run id is a key exactly when some reported record has it, and it maps to the summary of one of those records |
| AgentStatus.CompletedOnlyOnRequest | pilot_tools/agent_status.py:102-103 | without include_completed no completed record appears |
| AgentStatus.RunEntry | pilot_tools/agent_status.py:86-93 | a missing record answers not_found; a present one is answered, with its summary, exactly when it is shown |
| AgentStatus.ByRunIds | pilot_tools/agent_status.py:82-95 | the run ids answered are exactly those asked for whose entry is not skipped, each once, each with its own entry |
| AgentStatus.StaleCount | pilot_tools/agent_status.py:185-186 | the stale count never exceeds the number of reported records |
| AgentStatus.ListAllActive | pilot_tools/agent_status.py:120-199 | without a projects directory everything is empty and zero; stale agents never outnumber active ones; the projects listed are exactly the keys of the grouping, each with at least one agent; the active total counts every reported record, and the stale count counts every reported record whose heartbeat is stale |
| AgentStatus.AgentProjectsIff | pilot_tools/agent_status.py:165-190 | a project is listed exactly when it has a progress directory with a reported record |
| AgentStatus.Scan | pilot_tools/agent_status.py:159-190 | the scan never groups a project without agents, counts every reported record as active and keeps stale agents within that count |
| AgentStatus.ScanNames | pilot_tools/agent_status.py:188-190 | the projects named are the grouping's keys in listing order, and exactly those with reported records |
| AgentStatus.AgentStatus | pilot_tools/agent_status.py:45-117 | list_all scans every project; run ids without a project are an error; no arguments give the usage error; every run id asked for that has no record answers not_found; without include_completed no completed run is answered |
| DetectTaskTool.FirstAccepting | tools/detect_task_tool.py:41-45 | the format found is the first that parses the timestamp, every earlier one failing; -1 means none does |
| DetectTaskTool.ParseTimestamp | tools/detect_task_tool.py:28-51 | an empty timestamp has no time; otherwise the first of the four formats that parses it wins, and only when none does is the ISO reading with "Z" as +00:00 tried |
| DetectTaskTool.Excerpt | tools/detect_task_tool.py:119 | a prompt of at most 200 characters is kept whole; a longer one becomes its first 200 characters plus "..."; the excerpt is empty exactly when the prompt is |
| DetectTaskTool.ViolationOf | tools/detect_task_tool.py:112-127 | a violation records the log file, its timestamp and the agent, the subagent type defaulting to "unknown", and as context the prompt excerpt, or the description when the prompt is empty |
| DetectTaskTool.UseViolations | tools/detect_task_tool.py:106-129 | a log yields one violation per Task tool use, each naming that log, its timestamp and its agent |
| DetectTaskTool.ScanLog | tools/detect_task_tool.py:94-129 | without a since bound every readable log is scanned; a scanned log has one violation per Task use; a log is skipped only when its timestamp is unparsable or earlier than the bound |
| DetectTaskTool.ScanLogs | tools/detect_task_tool.py:86-129 | every readable log is either scanned or skipped by time, never both; without a bound none is skipped; every violation names the agent whose directory holds the log |
| DetectTaskTool.ScanAgents | tools/detect_task_tool.py:79-129 | across agent directories, scanned plus skipped logs are all the readable logs, and without a bound none is skipped |
| DetectTaskTool.DetectTaskTool | tools/detect_task_tool.py:54-141 | a missing directory gives the "Logs directory not found" error; otherwise the violations are those of the scan, as a permutation sorted newest first by timestamp text, counted exactly, with scanned and skipped logs adding up to the readable logs |
| DetectTaskTool.CleanLogsPass | tools/detect_task_tool.py:108-110 | logs without any Task tool use report no violation |
| DetectTaskTool.CleanLogsClean | tools/detect_task_tool.py:108-110 | within one agent's logs, logs without any Task tool use report no violation |
| DetectTaskTool.EmptyDirectoryPasses | tools/detect_task_tool.py:74-141 | an empty logs directory reports nothing scanned, nothing skipped and no violation |

## Left out

General:
- JSON and YAML numbers are integers only. Floats and NaN are not modelled; scores that the source reads as floats pass through a parsing or rounding function parameter.
- Presentation functions are left out, because they only render text: the `format_*` functions, `format_startup_report`, `format_summary`, `format_detailed`, `format_verbose_output`, `format_hierarchy_report`, `format_audit_report` and `format_coverage_report`.
- The command-line entry points are left out (`main`, the `__main__` blocks, `invoke_sync`), because they only parse arguments and print.
- File locks, concurrency and the temporary-file-then-rename swaps are left out. Each operation is modelled as one atomic step on the data it reads.
- Common.Lower: case folding, like `Upper`, covers ASCII only. Python's `str.lower` and `str.upper` also map other Unicode characters (U+212A lowers to `k`). This affects `Session.IsFatalError`, `Invoke.IsRateLimitError`, `Creator.HasDuplicateTexts` and `Context.NamedPriority`.
- Queries.IsWordChar: the regular-expression class `\w` is read as ASCII letters, digits and `_`, where Python's `\w` also matches other Unicode letters and digits, so a colon after such a character still starts a parameter in the model.
- Common.PyInt: only ASCII digits are read, where Python's `int` also accepts other Unicode decimal digits.
- Several sorts are proved to give an ordered permutation, but their stability (ties keep input order, as Python's sort does) is not proved. This covers the section, project and violation sorts.

Telemetry and scoring:
- Telemetry: timestamps are whole seconds. The ISO text written to the log, the events path and the file lock are not modelled.
- Telemetry.CountLines: a line that decodes to a JSON value other than an object is read as `Malformed` and skipped, and a non-string or timezone-aware timestamp reads as unparsed. In Python the first raises `AttributeError` on `event.get`, and the others raise `TypeError`; neither is caught. A line whose `event_type` is present but null, a number or another non-string is not representable either: the model reads only string types. Python counts it under the key `None` or under that raw value.
- Telemetry.GetEventCounts: inherits the differences of `CountLines`. Python's counting raises on the lines listed there, and counts a present non-string `event_type` under that raw value.
- Telemetry.ScanLines: a non-object line is dropped. Unfiltered `get_events` returns it as an event, and filtered `get_events` raises on it, as it does on a non-string or timezone-aware timestamp. An event whose `event_type` is null or not a string is not representable; `get_events` returns it with that raw value.
- Telemetry.GetEvents: inherits the difference of `ScanLines`.
- Telemetry.Prune: a non-object line, or an event with a non-string or timezone-aware timestamp, is kept. Python's cleanup raises on it and rewrites nothing.
- Telemetry.CleanupOldEvents: inherits the difference of `Prune`.
- EnforcementStats.StatsRows: keys are strings only. When a count table holds the key `None` (a null `event_type`) beside string keys, Python's `sorted(by_type.items())` raises `TypeError`.
- EnforcementStats.SelectEvents: sorts by the parsed timestamp, where the source sorts the ISO strings; the two agree only when every timestamp has the same format.
- EnforcementStats.DryRunAgrees: the dry run and the real cleanup are proved to agree on one cutoff in whole seconds. In Python the dry run compares epoch seconds and the real cleanup compares naive local datetimes, so near a daylight-saving change they can differ by an hour. A timezone-aware timestamp or a non-object line is kept by the dry run and makes the real cleanup raise.
- EnforcementStats.Cleanup: the same cutoff and the same line reading as `DryRunAgrees`.
- `_dashboard` is modelled only through the figures it reports (`EnforcementStats.DashboardResult`). Its Markdown is left out.

Guards, paths, pre-commit and validation:
- Guards: the `inspect.stack()` frames are a parameter, given as a list of file names.
- Paths: `PathRegistry.discover`, `get_registry` and `reset_registry` are left out (environment and process-wide cache). `to_dict` and the fixed directory accessors are left out too. The two roots and whether they are the same repository are parameters.
- Precommit: `get_diff_hash`, `log_bypass` and `get_staged_files` are left out (git, clock, file append). The SHA-256 digest is a parameter.
- Validation: `get_staged_files` and `validate_full_repo` are left out (git and a repository walk).
- Validation: Python iterates some sets in an unspecified order, which the model replaces with first-occurrence order.
- Validation: a manifest tool entry that cannot be hashed raises in Python, but the model reads it as no match.
- Validation: a feature list that is not a mapping makes the check raise (`None`).

Queries and index:
- Queries: `execute_query` and `execute_sql` are left out (the database).
- QueryBuilder: `execute` and `query` are left out (the database). Parameter values are strings.
- QueryBuilder.ConditionClause: writes `repr(field)` as the field between single quotes. This differs from Python for fields that contain quotes or backslashes.
- Index: `index_yaml`, `index_md`, `parse_python_file` and `index_all` are left out (file reads and embeddings).
- Index: `extract_tags` returns `list(set(tags))` in an unspecified order. The model keeps first-occurrence order, and it does not model tags that cannot be hashed.
- Indexer: `incremental_index`, the OSError and temporary-file paths, and the embedding call are left out.

Context, invocation and runs:
- Context: `load_system_context` and `get_current_branch` are left out (a file read and git).
- Context: agent and index documents arrive already parsed. The `progress.txt` lines are a parameter.
- Context: an `applies_to` that is neither a list, a string nor a mapping raises, and the model returns `None`. The rule line rendering goes through a `show` function parameter.
- Invoke: the SDK message loop, retries with sleeping and `extract_retry_after` are left out. The backoff is real arithmetic; its float overflow from attempt 1024 on is modelled as `None`, and the random jitter factor is a parameter.
- Invoke: the background subprocess and the progress-file writes are left out.
- Invoke: `_format_context_for_prompt`, `_process_context_injection` and `_create_delegation_manifest` are left out.
- Invoke: the post-task hooks and all logging are left out. They are side effects that never change the result of an invocation.
- Run: `generate_run_id` is left out (clock and uuid); ids are parameters. Only the current run's id is modelled for `Run.current()`.
- Startup: `progress_pct` is kept in tenths of a percent. Python's `round(x, 1)` and the rendering of the percentage are function parameters.
- Startup: git output is a parameter. The telemetry event is returned, not written.
- AgentStatus: `pilot_core/progress.py` is not part of this model. Its interface (`read_progress`, `list_progress`, `is_stale`) is taken from `lib/progress.py`, and heartbeat times go through an ISO-rendering parameter.
- DetectTaskTool: a non-string timestamp or prompt, or a `tool_uses` that is not a list, is treated as raising.
- DetectTaskTool: comparing a timezone-aware timestamp with a naive one raises in Python; this is not modelled.
- DetectTaskTool: `scan_time` is left out (the clock). `BANNED_SUBAGENT_TYPES` is declared but never read by the scan.

Progress, migrations and sessions:
- Progress: `wait_for_agent` (polling with sleep) and `list_archived_progress` are left out.
- Progress: times are written and read through a format/parse pair of function parameters. The round trip is proved for the times that pair preserves (`Progress.TimeKept`).
- Progress.FromDict: a non-string `run_id`, `agent`, `project` or `phase` is rejected (None), where Python copies it unchecked. A non-string time gives None, where Python's `fromisoformat` raises `TypeError`.
- Progress.ReadProgress: an empty, string or list YAML document gives None (`NotMapping`), where `data['run_id']` raises an uncaught `TypeError`. Only YAML errors and missing keys are caught by the source.
- Progress.ListProgress: skips the documents on which `ReadProgress` gives None for the reasons above, where Python's listing raises and returns nothing.
- Progress.CleanupProgress: deletes such documents as invalid, where Python's cleanup raises while listing and deletes nothing.
- Progress: the "already archived" skip in `cleanup_progress` cannot be reached, because the listing never contains the archive; it is left out.
- Registry.LoadMigration: values of the wrong type are treated as a failed load, where Python would store them.
- Executor: `migrate_file_with_agent` is the agent parameter. The target version is the issue's required version.
- Executor: the `migrations_needed` list is built from a set in the source. Its order is left unspecified.
- Session: `get_current_session_id` is left out (environment and file modification times).
- Session.Step: a record that is not an object is read as an empty object, and a non-string timestamp is read as no timestamp. Python raises at `data.get` and at `ts.replace`.
- Session.ExtractText: a text block whose `text` is not a string (null, a number) is rendered as text and joined. Python appends the raw value and `"\n".join` raises TypeError, which `load_session` does not catch.
- Session.StepUser: a message or content entry that is not an object is read as empty, where Python raises. A truthy `todos` that is not a list (a string, a mapping, a number) is ignored and the earlier todos are kept. Python assigns it; when the session has timestamps the status check then raises while iterating it or calling `t.get`, and otherwise the odd value is returned as the session's todos.
- Session.StepAssistant: a message, content block or tool input that is not an object is read as empty, where Python raises.
- Session.LoadSession: inherits the differences of `Step`; a todo that is not an object is read as empty, where `t.get` raises.
- Session.FilesRead: the contract states the files as a set. The list keeps first-occurrence order, where Python returns `list(set(files))` in an unspecified order.
- Session.FilesWritten: the same order difference as `FilesRead`.
- Resume: `generate_resume_prompt`, `copy_to_clipboard` and `main` are left out (presentation and the clipboard).
- Resume.GroupLines: takes the files in first-occurrence order, where Python uses set order.
- Resume.TruncateMiddle: with a limit of 40 or 41, `half` is 0 and `text[-0:]` is the whole text, so the result is longer than the input (`Resume.TruncateTinyLimit`). The shortening property is proved only for limits of at least 42.
- Resume.GenerateMinimalResume: the first three written files are taken in first-occurrence order, where Python takes them from a list built from a set, in an unspecified order. A todo that is not an object is read as empty, where Python raises.

Benchmarks:
- Benchmark: the record-level `to_dict`/`from_dict` of `Benchmark`, `BenchmarkResult`, `QuestionScore`, `AggregateScores` and `Evaluation` are left out. `save`, `load` and `generate_id` are left out too (file I/O, clock, uuid).
- Benchmark.QuestionFromDict: a value of the wrong type is treated as a failed read.
- Benchmark.AnswerFromDict: a value of the wrong type is treated as a failed read.
- Runner: `_run_search_question`, `_run_enrichment_question`, `_build_answer_from_search`, `_build_answer_from_fetch` and `run_benchmark_async` are left out. The API reply for each question is a parameter.
- Runner: the progress callback and the periodic saves are left out.
- Runner.GetProgress: the percentage is not rounded to one decimal.
- Creator: `research_customer`, `extract_use_cases` and `_default_use_cases` are left out (web research and the API). When the API fails, `extract_use_cases` returns three default use cases; that is left out too.
- Creator: `create_benchmark` is left out.
- Creator.GenerateQuestions: the `batches` parameter holds already-built questions, one batch per use case. Turning an API reply into questions (creator.py lines 376-391, including the fallback to `medium` for an unknown difficulty) is not modelled. The filling step after it is modelled by `Creator.FillWithFallback`.
- Evaluator: the prompt text, ids and timestamps are left out. Rounding is a `round2` function parameter.
- Evaluator: `Answer` objects are always truthy.
- Evaluator: `generate_report` and `quick_evaluate` are left out (presentation and a wrapper).

Rules and coverage:
- RuleRegistry.LoadRules: the `FileNotFoundError` for a missing rules directory is not modelled.
- RuleRegistry.LoadRule: a hashable name that is not a string, a priority that is not an integer, or non-string text under a mechanism name is stored by Python. The model gives `Unfollowed`, and `LoadRules` then gives None. Loading does raise for a number or boolean document, an unhashable name, and non-string text under a name that is not a mechanism; the model gives `Raises` for exactly those.
- RuleRegistry: directive conflicts are always empty, because `_check_directive_conflict` always returns `None` in the source.
- RuleCoverage: `when` values are rendered through a `str` function parameter. Coverage can exceed 100%, because verified mechanisms are divided by loaded rules; the model keeps that.
- RuleAudit.AppliesTo: a non-string agent name in a `when` entry is dropped, where Python appends it. Exception texts are a `failure` function parameter and messages use a `repr` function parameter.
- EnforcementCoverage: the format dispatch in `enforcement_coverage` is left out. Rounding to one decimal is a `round1` function parameter.
- PromptAnalyzer: `load_enforcement_config`, `analyze_all_agents` and `prompt_analyzer` are left out (file reads, a directory glob and format dispatch). The four rule-pattern regular expressions are one search function parameter.

## Findings

| source | as written | input that shows it | evidently intended | confidence | as-written member | corrected member |
|---|---|---|---|---|---|---|
| pilot_core/queries.py:264-266 | the parameter pattern `:([a-zA-Z_][a-zA-Z0-9_]*)` lacks the `(?<![:\w])` lookbehind that the rewrite at line 132 uses | the template `x::INTEGER` lists `INTEGER` as a parameter | a `::` cast is not a parameter, exactly as in `_convert_params_to_duckdb` | medium, not executed | Queries.FoundParamsAsWritten, Queries.CastReportedAsParam, Queries.GetTemplateInfo | Queries.TemplateParams, Queries.TemplateParamsAreBound |
| lib/rule_coverage.py:370-377 | the code-enforced share in the summary divides by `total_rules` without the zero guard that line 372 applies to the coverage | no rules loaded raises `ZeroDivisionError` | a share of 0 when there are no rules, as for the coverage | high, not executed | RuleCoverage.AnalyzeAsWritten, RuleCoverage.NoRulesRaises | RuleCoverage.Analyze |
| lib/rule_coverage.py:280-286 | the keyword `"ERROR.*not allowed"` is tested with `in`, as a literal substring | the line `error not allowed` is not recognised | a regular-expression match, so any text between "ERROR" and "not allowed" matches | medium, not executed | RuleCoverage.LooksLikeEnforcementAsWritten, RuleCoverage.RegexKeywordMissed, RuleCoverage.AnalyzeAsWritten | RuleCoverage.LooksLikeEnforcement, RuleCoverage.CorrectedAcceptsMore, RuleCoverage.AsWrittenOrphansKept |

=== FILE: agent_status.dfy ===
/** Batch status queries over the progress records of background agents:
    by run id, by project, or across every project.  Progress records are
    read through the Progress module; `now` is the current time in
    seconds and `iso` formats a time. */
module AgentStatus {
  import opened Common
  import opened Json
  import opened Progress

  /** The staleness threshold `is_stale` uses by default, in minutes. */
  const StaleMinutes: int := 5

  /** The concise summary of one record; the optional fields are present
      only for the statuses that carry them. */
  datatype Summary = Summary(
    status: string,
    agent: string,
    project: string,
    phase: string,
    lastHeartbeat: string,
    isStale: bool,
    messagesProcessed: int,
    resultSummary: Option<string>,
    artifactsCreated: Option<seq<string>>,
    error: Option<string>)

  /** `_progress_to_summary(progress)`. */
  function ToSummary(p: ProgressFile, now: int, iso: int -> string): (r: Summary)
    ensures ParseStatus(r.status) == Some(p.status)
    ensures r.agent == p.agent && r.project == p.project && r.phase == p.phase
    ensures r.isStale <==> IsStale(p, StaleMinutes, now)
    ensures r.resultSummary.Some? <==> p.status == Completed
    ensures r.resultSummary.Some? ==> r.resultSummary.value == p.resultSummary
    ensures r.artifactsCreated.Some? <==> p.status == Completed && p.artifactsCreated != []
    ensures r.artifactsCreated.Some? ==> r.artifactsCreated.value == p.artifactsCreated
    ensures r.error.Some? <==> p.status == Failed
    ensures r.error.Some? ==> r.error.value == p.error
  {
    var done := p.status == Completed;
    Summary(StatusValue(p.status), p.agent, p.project, p.phase, iso(p.lastHeartbeat),
            IsStale(p, StaleMinutes, now), p.messagesProcessed,
            if done then Some(p.resultSummary) else None,
            if done && p.artifactsCreated != [] then Some(p.artifactsCreated) else None,
            if p.status == Failed then Some(p.error) else None)
  }

  /** Whether a record is reported: completed ones only on request. */
  predicate Shown(p: ProgressFile, includeCompleted: bool) {
    includeCompleted || p.status != Completed
  }

  // ---------------------------------------------------------------------
  // By project

  type Agents = seq<(string, Summary)>

  /** The reported records of one project keyed by run id, in listing
      order; a run id listed twice keeps its first place and its last
      summary. */
  function ByProject(all: seq<ProgressFile>, includeCompleted: bool, now: int, iso: int -> string): (r: Agents)
    ensures DistinctKeys(r)
    ensures |r| <= CountWhere(all, (p: ProgressFile) => Shown(p, includeCompleted))
    ensures r != [] <==> exists q :: q in all && Shown(q, includeCompleted)
  {
    if all == [] then []
    else
      var init := all[..|all| - 1];
      var p := all[|all| - 1];
      var m := ByProject(init, includeCompleted, now, iso);
      assert all == init + [p];
      CountWhereAppend(init, [p], (q: ProgressFile) => Shown(q, includeCompleted));
      assert forall q :: q in all <==> q in init || q == p;
      if Shown(p, includeCompleted) then Put(m, p.runId, ToSummary(p, now, iso)) else m
  }

  /** Some reported record has run id `k`. */
  predicate Listed(all: seq<ProgressFile>, includeCompleted: bool, k: string) {
    exists i :: 0 <= i < |all| && all[i].runId == k && Shown(all[i], includeCompleted)
  }

  /** `s` summarises a reported record with run id `k`. */
  predicate SummaryFrom(all: seq<ProgressFile>, includeCompleted: bool, k: string, s: Summary, now: int, iso: int -> string) {
    exists i :: 0 <= i < |all| && all[i].runId == k && Shown(all[i], includeCompleted) && s == ToSummary(all[i], now, iso)
  }

  /** Exactly the reported run ids are keys, each mapped to the summary of
      one of its records. */
  lemma {:induction false} ByProjectKeys(all: seq<ProgressFile>, includeCompleted: bool, now: int, iso: int -> string, k: string)
    ensures HasKey(ByProject(all, includeCompleted, now, iso), k) <==> Listed(all, includeCompleted, k)
    ensures HasKey(ByProject(all, includeCompleted, now, iso), k) ==>
              SummaryFrom(all, includeCompleted, k, Find(ByProject(all, includeCompleted, now, iso), k).value, now, iso)
  {
    ByProjectHasKey(all, includeCompleted, now, iso, k);
    ByProjectSummary(all, includeCompleted, now, iso, k);
  }

  lemma {:induction false} ByProjectHasKey(all: seq<ProgressFile>, includeCompleted: bool, now: int, iso: int -> string, k: string)
    ensures HasKey(ByProject(all, includeCompleted, now, iso), k) <==> Listed(all, includeCompleted, k)
  {
    if all != [] {
      var init := all[..|all| - 1];
      var p := all[|all| - 1];
      ByProjectHasKey(init, includeCompleted, now, iso, k);
      ListedSnoc(init, p, includeCompleted, k);
      assert all == init + [p];
    }
  }

  /** A run id is reported in a longer listing iff it is in the shorter one
      or is the new record's. */
  lemma ListedSnoc(init: seq<ProgressFile>, p: ProgressFile, includeCompleted: bool, k: string)
    ensures Listed(init + [p], includeCompleted, k) <==>
      Listed(init, includeCompleted, k) || (p.runId == k && Shown(p, includeCompleted))
  {
    var all := init + [p];
    if Listed(init, includeCompleted, k) {
      var i :| 0 <= i < |init| && init[i].runId == k && Shown(init[i], includeCompleted);
      assert all[i] == init[i];
    }
    if p.runId == k && Shown(p, includeCompleted) {
      assert all[|init|] == p;
    }
    if Listed(all, includeCompleted, k) {
      var i :| 0 <= i < |all| && all[i].runId == k && Shown(all[i], includeCompleted);
      if i < |init| { assert init[i] == all[i]; }
    }
  }

  lemma {:induction false} ByProjectSummary(all: seq<ProgressFile>, includeCompleted: bool, now: int, iso: int -> string, k: string)
    ensures HasKey(ByProject(all, includeCompleted, now, iso), k) ==>
              SummaryFrom(all, includeCompleted, k, Find(ByProject(all, includeCompleted, now, iso), k).value, now, iso)
  {
    if all != [] {
      var init := all[..|all| - 1];
      var p := all[|all| - 1];
      assert all == init + [p];
      ByProjectSummary(init, includeCompleted, now, iso, k);
      var m := ByProject(init, includeCompleted, now, iso);
      var r := ByProject(all, includeCompleted, now, iso);
      assert r == if Shown(p, includeCompleted) then Put(m, p.runId, ToSummary(p, now, iso)) else m;
      if Shown(p, includeCompleted) && p.runId == k {
        assert Find(r, k) == Some(ToSummary(p, now, iso));
        SummaryFromSnoc(init, p, includeCompleted, k, ToSummary(p, now, iso), now, iso);
      } else if HasKey(r, k) {
        assert Find(r, k) == Find(m, k);
        SummaryFromSnoc(init, p, includeCompleted, k, Find(m, k).value, now, iso);
      }
    }
  }

  /** A summary of a reported record stays one when a record is appended,
      and the appended record's own summary is one. */
  lemma SummaryFromSnoc(init: seq<ProgressFile>, p: ProgressFile, includeCompleted: bool, k: string,
                        s: Summary, now: int, iso: int -> string)
    ensures SummaryFrom(init, includeCompleted, k, s, now, iso) ==> SummaryFrom(init + [p], includeCompleted, k, s, now, iso)
    ensures p.runId == k && Shown(p, includeCompleted) && s == ToSummary(p, now, iso) ==>
      SummaryFrom(init + [p], includeCompleted, k, s, now, iso)
  {
    var all := init + [p];
    if SummaryFrom(init, includeCompleted, k, s, now, iso) {
      var i :| 0 <= i < |init| && init[i].runId == k && Shown(init[i], includeCompleted) && s == ToSummary(init[i], now, iso);
      assert all[i] == init[i];
    }
    assert all[|init|] == p;
  }

  /** Without `include_completed` no completed record is reported. */
  lemma CompletedOnlyOnRequest(all: seq<ProgressFile>, now: int, iso: int -> string, k: string)
    requires HasKey(ByProject(all, false, now, iso), k)
    ensures Find(ByProject(all, false, now, iso), k).value.status != StatusValue(Completed)
  {
    ByProjectKeys(all, false, now, iso, k);
  }

  // ---------------------------------------------------------------------
  // By run id

  /** What a run id maps to: its summary, or `{'status': 'not_found'}`. */
  datatype RunStatus = NotFound | Found(summary: Summary)

  /** The answer for one looked-up run id; None when it is skipped. */
  function RunEntry(record: Option<ProgressFile>, includeCompleted: bool, now: int, iso: int -> string): (r: Option<RunStatus>)
    ensures record.None? ==> r == Some(NotFound)
    ensures record.Some? ==> (r.Some? <==> Shown(record.value, includeCompleted))
    ensures record.Some? && r.Some? ==> r.value == Found(ToSummary(record.value, now, iso))
  {
    if record.None? then Some(NotFound)
    else if !Shown(record.value, includeCompleted) then None
    else Some(Found(ToSummary(record.value, now, iso)))
  }

  /** The run ids looked up in order; `read(id)` is `read_progress(project, id)`. */
  function ByRunIds(ids: seq<string>, read: string -> Option<ProgressFile>, includeCompleted: bool,
                    now: int, iso: int -> string): (r: seq<(string, RunStatus)>)
    ensures DistinctKeys(r)
    ensures forall k :: HasKey(r, k) <==> k in ids && RunEntry(read(k), includeCompleted, now, iso).Some?
    ensures forall k :: HasKey(r, k) ==> Find(r, k) == RunEntry(read(k), includeCompleted, now, iso)
  {
    if ids == [] then []
    else
      var init := ids[..|ids| - 1];
      var id := ids[|ids| - 1];
      var m := ByRunIds(init, read, includeCompleted, now, iso);
      assert ids == init + [id];
      match RunEntry(read(id), includeCompleted, now, iso)
      case None => m
      case Some(e) => Put(m, id, e)
  }

  // ---------------------------------------------------------------------
  // Across projects

  /** An entry of `projects/`: not a directory, a project without a
      `.progress` directory, or one with its listed records. */
  datatype ProjectDir = NotADirectory | NoProgressDir | ProgressDir(name: string, records: seq<ProgressFile>)

  datatype ActiveSummary = ActiveSummary(projects: seq<(string, Agents)>, totalActive: nat, staleCount: nat,
                                         projectsWithAgents: seq<string>)

  /** The reported records of one project, and how many of those are stale. */
  function Reported(records: seq<ProgressFile>, includeCompleted: bool): seq<ProgressFile> {
    Filter(records, (p: ProgressFile) => Shown(p, includeCompleted))
  }

  function StaleCount(records: seq<ProgressFile>, includeCompleted: bool, now: int): (n: nat)
    ensures n <= |Reported(records, includeCompleted)|
  {
    CountWhere(Reported(records, includeCompleted), (p: ProgressFile) => IsStale(p, StaleMinutes, now))
  }

  predicate HasAgents(d: ProjectDir, includeCompleted: bool) {
    d.ProgressDir? && Reported(d.records, includeCompleted) != []
  }

  /** `list_all_active(include_completed)`: the projects with reported
      agents in listing order, the number reported and the number of
      those that are stale. */
  function ListAllActive(dirs: Option<seq<ProjectDir>>, includeCompleted: bool, now: int, iso: int -> string): (r: ActiveSummary)
    ensures dirs.None? ==> r == ActiveSummary([], 0, 0, [])
    ensures r.staleCount <= r.totalActive
    ensures r.projectsWithAgents == Keys(r.projects)
    ensures forall e :: e in r.projects ==> e.1 != []
    ensures dirs.Some? ==> r.projectsWithAgents == AgentProjects(dirs.value, includeCompleted)
    ensures dirs.Some? ==> r.totalActive == ActiveCount(dirs.value, includeCompleted)
    ensures dirs.Some? ==> r.staleCount == StaleTotal(dirs.value, includeCompleted, now)
  {
    if dirs.None? then ActiveSummary([], 0, 0, [])
    else
      ScanNames(dirs.value, includeCompleted, now, iso);
      Scan(dirs.value, includeCompleted, now, iso)
  }

  /** The names of the projects with reported records, in listing order. */
  function AgentProjects(dirs: seq<ProjectDir>, includeCompleted: bool): seq<string> {
    if dirs == [] then []
    else (if HasAgents(dirs[0], includeCompleted) then [dirs[0].name] else []) + AgentProjects(dirs[1..], includeCompleted)
  }

  /** A project is named iff it has a reported record. */
  lemma {:induction false} AgentProjectsIff(dirs: seq<ProjectDir>, includeCompleted: bool, name: string)
    ensures name in AgentProjects(dirs, includeCompleted) <==>
              exists i :: 0 <= i < |dirs| && HasAgents(dirs[i], includeCompleted) && dirs[i].name == name
  {
    if dirs != [] {
      AgentProjectsIff(dirs[1..], includeCompleted, name);
      if exists i :: 0 <= i < |dirs| && HasAgents(dirs[i], includeCompleted) && dirs[i].name == name {
        var i :| 0 <= i < |dirs| && HasAgents(dirs[i], includeCompleted) && dirs[i].name == name;
        if i > 0 {
          assert dirs[1..][i - 1] == dirs[i];
        }
      }
      if name in AgentProjects(dirs[1..], includeCompleted) {
        var i :| 0 <= i < |dirs[1..]| && HasAgents(dirs[1..][i], includeCompleted) && dirs[1..][i].name == name;
        assert dirs[i + 1] == dirs[1..][i];
      }
    }
  }

  /** The number of reported records over every project. */
  function ActiveCount(dirs: seq<ProjectDir>, includeCompleted: bool): nat {
    if dirs == [] then 0
    else (if dirs[0].ProgressDir? then |Reported(dirs[0].records, includeCompleted)| else 0)
         + ActiveCount(dirs[1..], includeCompleted)
  }

  /** The number of reported records that are stale, over all projects. */
  function StaleTotal(dirs: seq<ProjectDir>, includeCompleted: bool, now: int): nat {
    if dirs == [] then 0
    else (if dirs[0].ProgressDir? then StaleCount(dirs[0].records, includeCompleted, now) else 0)
         + StaleTotal(dirs[1..], includeCompleted, now)
  }

  function Scan(dirs: seq<ProjectDir>, includeCompleted: bool, now: int, iso: int -> string): (r: ActiveSummary)
    ensures r.staleCount <= r.totalActive
    ensures forall e :: e in r.projects ==> e.1 != []
    ensures r.totalActive == ActiveCount(dirs, includeCompleted)
    ensures r.staleCount == StaleTotal(dirs, includeCompleted, now)
  {
    if dirs == [] then ActiveSummary([], 0, 0, [])
    else ScanOne(dirs[0], Scan(dirs[1..], includeCompleted, now, iso), includeCompleted, now, iso)
  }

  /** One project directory's contribution in front of the later ones'. */
  function ScanOne(d: ProjectDir, rest: ActiveSummary, includeCompleted: bool, now: int, iso: int -> string): (r: ActiveSummary)
    requires rest.staleCount <= rest.totalActive
    requires forall e :: e in rest.projects ==> e.1 != []
    ensures r.staleCount <= r.totalActive
    ensures forall e :: e in r.projects ==> e.1 != []
    ensures r.totalActive == (if d.ProgressDir? then |Reported(d.records, includeCompleted)| else 0) + rest.totalActive
    ensures r.staleCount == (if d.ProgressDir? then StaleCount(d.records, includeCompleted, now) else 0) + rest.staleCount
    ensures HasAgents(d, includeCompleted) ==>
      Keys(r.projects) == [d.name] + Keys(rest.projects)
      && r.projectsWithAgents == [d.name] + rest.projectsWithAgents
    ensures !HasAgents(d, includeCompleted) ==> r == rest
  {
    match d
    case ProgressDir(name, records) =>
      var shown := Reported(records, includeCompleted);
      if shown == [] then rest
      else
        var agents := ByProject(records, includeCompleted, now, iso);
        var stale := StaleCount(records, includeCompleted, now);
        assert agents != [] by {
          assert shown[0] in records;
        }
        KeysCons(name, agents, rest.projects);
        ActiveSummary([(name, agents)] + rest.projects, |shown| + rest.totalActive, stale + rest.staleCount,
                      [name] + rest.projectsWithAgents)
    case _ => rest
  }

  /** The projects listed are the named ones, in listing order. */
  lemma {:induction false} ScanNames(dirs: seq<ProjectDir>, includeCompleted: bool, now: int, iso: int -> string)
    ensures var r := Scan(dirs, includeCompleted, now, iso);
            r.projectsWithAgents == Keys(r.projects) == AgentProjects(dirs, includeCompleted)
  {
    if dirs != [] {
      ScanNames(dirs[1..], includeCompleted, now, iso);
      var rest := Scan(dirs[1..], includeCompleted, now, iso);
      var r := Scan(dirs, includeCompleted, now, iso);
      assert r == ScanOne(dirs[0], rest, includeCompleted, now, iso);
    }
  }

  // ---------------------------------------------------------------------
  // The tool

  const RunIdsNeedProject: string := "project parameter required when using run_ids"
  const NoArguments: string := "Either project or run_ids parameter required"

  /** The usage text returned with the no-argument error. */
  const Usage: seq<(string, string)> := [
    ("project", "Check all progress files for a project"),
    ("run_ids", "Check specific run IDs (requires project)"),
    ("include_completed", "Include completed status (default: false)"),
    ("list_all", "Use list_all=true to see all projects")]

  datatype StatusResult =
    | AllActive(summary: ActiveSummary)
    | ByRun(runs: seq<(string, RunStatus)>)
    | ForProject(agents: Agents)
    | Error(message: string, usage: seq<(string, string)>)

  /** `agent_status(run_ids, project, include_completed, list_all)`.
      `read(project, id)` is `read_progress`, `listing(project)` is
      `list_progress`, and `dirs` the entries of `projects/` when it
      exists. */
  function AgentStatus(runIds: Option<seq<string>>, project: Option<string>, includeCompleted: bool, listAll: bool,
                       read: (string, string) -> Option<ProgressFile>, listing: string -> seq<ProgressFile>,
                       dirs: Option<seq<ProjectDir>>, now: int, iso: int -> string): (r: StatusResult)
    ensures listAll <==> r.AllActive?
    ensures !listAll && runIds.Some? && project.None? ==> r == Error(RunIdsNeedProject, [])
    ensures !listAll && runIds.None? && project.None? ==> r == Error(NoArguments, Usage)
    ensures r.ByRun? ==> runIds.Some? && project.Some?
    ensures r.ForProject? ==> runIds.None? && project.Some?
    ensures r.ByRun? ==> forall k :: HasKey(r.runs, k) && read(project.value, k).None? ==> Find(r.runs, k) == Some(NotFound)
    ensures r.ByRun? ==> forall k :: k in runIds.value && read(project.value, k).None? ==> HasKey(r.runs, k)
    ensures r.ByRun? && !includeCompleted ==> forall k :: HasKey(r.runs, k) ==>
              Find(r.runs, k).value.NotFound? || Find(r.runs, k).value.summary.status != "completed"
  {
    if listAll then AllActive(ListAllActive(dirs, includeCompleted, now, iso))
    else if runIds.Some? then
      if project.None? then Error(RunIdsNeedProject, [])
      else ByRun(ByRunIds(runIds.value, (id: string) => read(project.value, id), includeCompleted, now, iso))
    else if project.Some? then ForProject(ByProject(listing(project.value), includeCompleted, now, iso))
    else Error(NoArguments, Usage)
  }
}

=== FILE: benchmark.dfy ===
/** The benchmark records: questions, answers and results, their mapping
    forms, the aggregates of a completed result, and the listings of the
    benchmark store.  Mapping forms are maps from a record's known keys to
    values, as in the progress model. */
module Benchmark {
  import opened Common
  import opened Json

  datatype Category = Search | Enrichment | ResearchCat
  {
    function Value(): string {
      match this
      case Search => "search"
      case Enrichment => "enrichment"
      case ResearchCat => "research"
    }
  }

  datatype Difficulty = Easy | Medium | Hard
  {
    function Value(): string {
      match this
      case Easy => "easy"
      case Medium => "medium"
      case Hard => "hard"
    }
  }

  datatype RunStatus = Created | InProgress | Completed | Failed | Paused

  /** `QuestionCategory(value)`: None where Python raises ValueError. */
  function ParseCategory(s: string): (r: Option<Category>)
    ensures r.Some? ==> r.value.Value() == s
    ensures forall c: Category :: c.Value() == s ==> r == Some(c)
  {
    if s == "search" then Some(Search)
    else if s == "enrichment" then Some(Enrichment)
    else if s == "research" then Some(ResearchCat)
    else None
  }

  /** `Difficulty(value)`. */
  function ParseDifficulty(s: string): (r: Option<Difficulty>)
    ensures r.Some? ==> r.value.Value() == s
    ensures forall d: Difficulty :: d.Value() == s ==> r == Some(d)
  {
    if s == "easy" then Some(Easy)
    else if s == "medium" then Some(Medium)
    else if s == "hard" then Some(Hard)
    else None
  }

  // ---------------------------------------------------------------------
  // Questions

  datatype Question = Question(id: string, text: string, category: Category, difficulty: Difficulty,
                               answerType: string, metadata: Value, context: Option<string>,
                               groundTruth: Option<string>, criteria: seq<string>)

  /** The keys of a question's mapping form. */
  datatype QField = QId | QText | QCategory | QDifficulty | QAnswerType | QMetadata | QContext
                  | QGroundTruth | QCriteria

  type QDoc = map<QField, Value>

  const FactualType: string := "factual"

  function OptStr(o: Option<string>): Value {
    if o.Some? then Str(o.value) else Null
  }

  function StrValues(xs: seq<string>): (r: seq<Value>)
    ensures |r| == |xs| && forall i :: 0 <= i < |xs| ==> r[i] == Str(xs[i])
  {
    seq(|xs|, i requires 0 <= i < |xs| => Str(xs[i]))
  }

  /** A list of strings back from its values; None if one is not a string. */
  function Strings(vs: seq<Value>): (r: Option<seq<string>>)
    ensures r.Some? ==> |r.value| == |vs| && forall i :: 0 <= i < |vs| ==> vs[i] == Str(r.value[i])
  {
    if vs == [] then Some([])
    else if !vs[0].Str? then None
    else match Strings(vs[1..])
      case None => None
      case Some(rest) => Some([vs[0].s] + rest)
  }

  lemma {:induction false} StringsOfStrValues(xs: seq<string>)
    ensures Strings(StrValues(xs)) == Some(xs)
  {
    if xs != [] {
      assert StrValues(xs)[1..] == StrValues(xs[1..]);
      StringsOfStrValues(xs[1..]);
      assert [xs[0]] + xs[1..] == xs;
    }
  }

  /** `BenchmarkQuestion.to_dict()`. */
  function QuestionToDict(q: Question): (r: QDoc)
    ensures QCategory in r && r[QCategory] == Str(q.category.Value())
    ensures QDifficulty in r && r[QDifficulty] == Str(q.difficulty.Value())
    ensures QCriteria in r && r[QCriteria] == List(StrValues(q.criteria))
  {
    map[QId := Str(q.id), QText := Str(q.text), QCategory := Str(q.category.Value()),
        QDifficulty := Str(q.difficulty.Value()), QAnswerType := Str(q.answerType),
        QMetadata := q.metadata, QContext := OptStr(q.context), QGroundTruth := OptStr(q.groundTruth),
        QCriteria := List(StrValues(q.criteria))]
  }

  /** `data.get(key)` of an optional string. */
  function GetOptStr(d: QDoc, f: QField): Option<Option<string>> {
    if f !in d || d[f].Null? then Some(None)
    else if d[f].Str? then Some(Some(d[f].s))
    else None
  }

  /** The category: `QuestionCategory(data["category"])` when the value is
      truthy, RESEARCH otherwise. */
  function CategoryOf(d: QDoc): (r: Option<Category>)
    ensures QCategory !in d ==> r == Some(ResearchCat)
  {
    if QCategory !in d || !Truthy(d[QCategory]) then Some(ResearchCat)
    else if d[QCategory].Str? then ParseCategory(d[QCategory].s)
    else None
  }

  /** The difficulty, MEDIUM when absent or falsy. */
  function DifficultyOf(d: QDoc): (r: Option<Difficulty>)
    ensures QDifficulty !in d ==> r == Some(Medium)
  {
    if QDifficulty !in d || !Truthy(d[QDifficulty]) then Some(Medium)
    else if d[QDifficulty].Str? then ParseDifficulty(d[QDifficulty].s)
    else None
  }

  function CriteriaOf(d: QDoc): Option<seq<string>> {
    if QCriteria !in d then Some([])
    else if d[QCriteria].List? then Strings(d[QCriteria].items)
    else None
  }

  predicate QuestionDecodable(d: QDoc) {
    && QId in d && d[QId].Str? && QText in d && d[QText].Str?
    && CategoryOf(d).Some? && DifficultyOf(d).Some?
    && (QAnswerType !in d || d[QAnswerType].Str?)
    && GetOptStr(d, QContext).Some? && GetOptStr(d, QGroundTruth).Some?
    && CriteriaOf(d).Some?
  }

  /** `BenchmarkQuestion.from_dict(data)`: None where Python raises. */
  function QuestionFromDict(d: QDoc): (r: Option<Question>)
    ensures r.Some? <==> QuestionDecodable(d)
    ensures r.Some? && QCategory !in d ==> r.value.category == ResearchCat
    ensures r.Some? && QDifficulty !in d ==> r.value.difficulty == Medium
    ensures r.Some? && QAnswerType !in d ==> r.value.answerType == FactualType
    ensures r.Some? && QCriteria !in d ==> r.value.criteria == []
  {
    if !QuestionDecodable(d) then None
    else Some(Question(
      d[QId].s, d[QText].s, CategoryOf(d).value, DifficultyOf(d).value,
      if QAnswerType in d then d[QAnswerType].s else FactualType,
      if QMetadata in d then d[QMetadata] else Dict([]),
      GetOptStr(d, QContext).value, GetOptStr(d, QGroundTruth).value, CriteriaOf(d).value))
  }

  /** Every question reads back from its mapping form unchanged. */
  lemma QuestionRoundTrip(q: Question)
    ensures QuestionFromDict(QuestionToDict(q)) == Some(q)
  {
    StringsOfStrValues(q.criteria);
    EnumsRoundTrip(q);
  }

  /** The category and difficulty read back from their strings. */
  lemma EnumsRoundTrip(q: Question)
    ensures CategoryOf(QuestionToDict(q)) == Some(q.category)
    ensures DifficultyOf(QuestionToDict(q)) == Some(q.difficulty)
  {
    var d := QuestionToDict(q);
    assert CategoryOf(d) == Some(q.category);
  }

  // ---------------------------------------------------------------------
  // Answers

  datatype Answer = Answer(questionId: string, answer: string, rawResponse: Value, latencyMs: int,
                           tokensUsed: int, sources: seq<string>, error: Option<string>, timestamp: string)

  /** Python's `if a.error`: an error message that is not empty. */
  predicate HasError(a: Answer) {
    a.error.Some? && a.error.value != ""
  }

  datatype AField = AQuestionId | AAnswer | ARaw | ALatency | ATokens | ASources | AError | ATimestamp

  type ADoc = map<AField, Value>

  /** `QuestionAnswer.to_dict()`. */
  function AnswerToDict(a: Answer): (r: ADoc)
    ensures ASources in r && r[ASources] == List(StrValues(a.sources))
  {
    map[AQuestionId := Str(a.questionId), AAnswer := Str(a.answer), ARaw := a.rawResponse,
        ALatency := Num(a.latencyMs), ATokens := Num(a.tokensUsed), ASources := List(StrValues(a.sources)),
        AError := OptStr(a.error), ATimestamp := Str(a.timestamp)]
  }

  function AStr(d: ADoc, f: AField, default: string): Option<string> {
    if f !in d then Some(default) else if d[f].Str? then Some(d[f].s) else None
  }

  function ANum(d: ADoc, f: AField): Option<int> {
    if f !in d then Some(0) else if d[f].Num? then Some(d[f].n) else None
  }

  function AErrorOf(d: ADoc): Option<Option<string>> {
    if AError !in d || d[AError].Null? then Some(None)
    else if d[AError].Str? then Some(Some(d[AError].s))
    else None
  }

  function ASourcesOf(d: ADoc): Option<seq<string>> {
    if ASources !in d then Some([])
    else if d[ASources].List? then Strings(d[ASources].items)
    else None
  }

  predicate AnswerDecodable(d: ADoc, nowIso: string) {
    && AQuestionId in d && d[AQuestionId].Str?
    && AStr(d, AAnswer, "").Some? && ANum(d, ALatency).Some? && ANum(d, ATokens).Some?
    && ASourcesOf(d).Some? && AErrorOf(d).Some? && AStr(d, ATimestamp, nowIso).Some?
  }

  /** `QuestionAnswer.from_dict(data)`; `nowIso` is the formatted current
      time used for a missing timestamp. */
  function AnswerFromDict(d: ADoc, nowIso: string): (r: Option<Answer>)
    ensures r.Some? <==> AnswerDecodable(d, nowIso)
    ensures r.Some? && AAnswer !in d ==> r.value.answer == ""
    ensures r.Some? && ALatency !in d ==> r.value.latencyMs == 0
    ensures r.Some? && ATimestamp !in d ==> r.value.timestamp == nowIso
    ensures r.Some? && AError !in d ==> !HasError(r.value)
  {
    if !AnswerDecodable(d, nowIso) then None
    else Some(Answer(
      d[AQuestionId].s, AStr(d, AAnswer, "").value,
      if ARaw in d then d[ARaw] else Dict([]),
      ANum(d, ALatency).value, ANum(d, ATokens).value, ASourcesOf(d).value, AErrorOf(d).value,
      AStr(d, ATimestamp, nowIso).value))
  }

  /** Every answer reads back from its mapping form unchanged. */
  lemma AnswerRoundTrip(a: Answer, nowIso: string)
    ensures AnswerFromDict(AnswerToDict(a), nowIso) == Some(a)
  {
    StringsOfStrValues(a.sources);
  }

  // ---------------------------------------------------------------------
  // Benchmarks and results

  datatype Bench = Bench(id: string, customer: string, useCase: string, questions: seq<Question>)

  datatype QuestionCounts = QuestionCounts(total: nat, byCategory: Counts, byDifficulty: Counts)

  function CategoryValue(q: Question): string { q.category.Value() }
  function DifficultyValue(q: Question): string { q.difficulty.Value() }

  /** `Benchmark.question_counts()`: both tables count every question. */
  function QuestionCountsOf(b: Bench): (r: QuestionCounts)
    ensures r.total == |b.questions|
    ensures Sum(Values(r.byCategory)) == r.total && Sum(Values(r.byDifficulty)) == r.total
    ensures forall c :: Lookup(r.byCategory, c) == CountKey(b.questions, CategoryValue, c)
    ensures forall d :: Lookup(r.byDifficulty, d) == CountKey(b.questions, DifficultyValue, d)
  {
    QuestionCounts(|b.questions|, Tally(b.questions, CategoryValue), Tally(b.questions, DifficultyValue))
  }

  datatype Result = Result(id: string, benchmarkId: string, system: string, answers: seq<Answer>,
                           completedAt: Option<int>, status: RunStatus, processor: string,
                           totalLatencyMs: int, totalTokens: int, successCount: nat, errorCount: nat)

  function Latencies(answers: seq<Answer>): (r: seq<int>)
    ensures |r| == |answers| && forall i :: 0 <= i < |answers| ==> r[i] == answers[i].latencyMs
  {
    seq(|answers|, i requires 0 <= i < |answers| => answers[i].latencyMs)
  }

  function Tokens(answers: seq<Answer>): (r: seq<int>)
    ensures |r| == |answers| && forall i :: 0 <= i < |answers| ==> r[i] == answers[i].tokensUsed
  {
    seq(|answers|, i requires 0 <= i < |answers| => answers[i].tokensUsed)
  }

  function Errored(a: Answer): bool { HasError(a) }
  function Succeeded(a: Answer): bool { !HasError(a) }

  /** `BenchmarkResult.complete()` at time `now`: COMPLETED, with the
      totals and the success and error counts of the answers. */
  function Complete(r0: Result, now: int): (r: Result)
    ensures r.status == Completed && r.completedAt == Some(now)
    ensures r.answers == r0.answers && r.id == r0.id
    ensures r.successCount + r.errorCount == |r.answers|
    ensures r.successCount == CountWhere(r.answers, Succeeded)
    ensures r.errorCount == CountWhere(r.answers, Errored)
    ensures r.totalLatencyMs == Sum(Latencies(r.answers)) && r.totalTokens == Sum(Tokens(r.answers))
  {
    CountComplement(r0.answers, Errored, Succeeded);
    r0.(completedAt := Some(now), status := Completed,
        totalLatencyMs := Sum(Latencies(r0.answers)), totalTokens := Sum(Tokens(r0.answers)),
        successCount := CountWhere(r0.answers, Succeeded), errorCount := CountWhere(r0.answers, Errored))
  }

  /** `answered_question_ids()`. */
  function AnsweredIds(r: Result): (ids: set<string>)
    ensures forall id :: id in ids <==> exists i :: 0 <= i < |r.answers| && r.answers[i].questionId == id
  {
    set i | 0 <= i < |r.answers| :: r.answers[i].questionId
  }

  // ---------------------------------------------------------------------
  // Listings

  /** The stems of the directory's files matching `{prefix}*.yaml`. */
  function MatchingStems(names: seq<string>, prefix: string): (r: seq<string>)
    ensures forall s :: s in r ==> IsPrefix(prefix, s) && s + ".yaml" in names
    ensures forall n :: n in names && IsPrefix(prefix, n) && IsSuffix(".yaml", n) && |n| >= |prefix| + 5 ==> n[..|n| - 5] in r
    decreases |names|
  {
    if names == [] then []
    else
      var n := names[0];
      var rest := MatchingStems(names[1..], prefix);
      assert forall x :: x in names[1..] ==> x in names;
      if IsPrefix(prefix, n) && IsSuffix(".yaml", n) && |n| >= |prefix| + 5 then
        StemOfYaml(n, prefix);
        [n[..|n| - 5]] + rest
      else rest
  }

  /** Dropping ".yaml" from a matching file name keeps the prefix and
      gives back the name with the extension put back. */
  lemma StemOfYaml(n: string, prefix: string)
    requires IsPrefix(prefix, n) && IsSuffix(".yaml", n) && |n| >= |prefix| + 5
    ensures IsPrefix(prefix, n[..|n| - 5]) && n[..|n| - 5] + ".yaml" == n
  {
    var stem := n[..|n| - 5];
    assert stem + ".yaml" == n;
    assert stem[..|prefix|] == n[..|prefix|];
  }

  const BenchmarkPrefix: string := "benchmark-"
  const ResultPrefix: string := "result-"
  const EvalPrefix: string := "eval-"

  /** `list_benchmarks`, `list_results`, `list_evaluations`: the matching
      ids, descending; nothing for a missing directory. */
  function ListIds(dir: Option<seq<string>>, prefix: string): (r: seq<string>)
    ensures dir.None? ==> r == []
    ensures SortedStringsDesc(r)
    ensures dir.Some? ==> multiset(r) == multiset(MatchingStems(dir.value, prefix))
    ensures forall s :: s in r ==> IsPrefix(prefix, s)
  {
    if dir.None? then []
    else
      var r := SortStringsDesc(MatchingStems(dir.value, prefix));
      assert forall s :: s in r ==> s in multiset(r);
      r
  }

  /** A subdirectory of the store, with its name. */
  datatype Entry = Entry(name: string, isDir: bool)

  function CustomerNames(entries: seq<Entry>): (r: seq<string>)
    ensures forall n :: n in r <==> exists e :: e in entries && e.isDir && e.name == n && !IsPrefix(".", n)
    decreases |entries|
  {
    if entries == [] then []
    else
      var e := entries[0];
      var rest := CustomerNames(entries[1..]);
      assert forall x :: x in entries <==> x == e || x in entries[1..];
      (if e.isDir && !IsPrefix(".", e.name) then [e.name] else []) + rest
  }

  /** `list_customers`: the store's directories not starting with '.',
      ascending. */
  function ListCustomers(base: Option<seq<Entry>>): (r: seq<string>)
    ensures base.None? ==> r == []
    ensures SortedStrings(r)
    ensures (base.Some? ==>
      forall n :: n in r <==> exists e :: e in base.value && e.isDir && e.name == n && !IsPrefix(".", n))
  {
    if base.None? then []
    else
      var names := CustomerNames(base.value);
      var r := SortStrings(names);
      assert forall s :: s in r <==> s in names by {
        forall s ensures s in r <==> s in names {
          assert s in r <==> s in multiset(r);
          assert s in names <==> s in multiset(names);
        }
      }
      r
  }
}

=== FILE: common.dfy ===
/** Shared vocabulary for the whole model: optional values, results,
    string predicates and the few sequence algorithms (filtering, counting,
    sorting, de-duplication) that the source gets from Python's built-ins. */
module Common {

  datatype Option<+T> = None | Some(value: T) {
    function GetOr(default: T): T {
      match this
      case Some(v) => v
      case None => default
    }
  }

  /** Seconds in one day; every `timedelta(days=n)` of the source. */
  const Day: int := 86400

  // ---------------------------------------------------------------------
  // Strings

  predicate IsPrefix(p: string, s: string) {
    |p| <= |s| && s[..|p|] == p
  }

  predicate IsSuffix(p: string, s: string) {
    |p| <= |s| && s[|s| - |p|..] == p
  }

  /** Python's `sub in s`. */
  predicate Contains(s: string, sub: string) {
    exists i :: 0 <= i <= |s| - |sub| && MatchAt(s, sub, i)
  }

  /** `sub` occurs in `s` starting at index `i`. */
  predicate MatchAt(s: string, sub: string, i: int) {
    0 <= i <= |s| - |sub| && s[i..i + |sub|] == sub
  }

  /** Some string of `ind` occurs in `f`: Python's `any(p in f for p in ind)`. */
  predicate AnyIn(f: string, ind: seq<string>) {
    exists i :: 0 <= i < |ind| && Contains(f, ind[i])
  }

  /** The first string of `ind` occurring in `f`. */
  function FirstIn(f: string, ind: seq<string>): (r: Option<string>)
    ensures r.None? <==> !AnyIn(f, ind)
    ensures r.Some? ==> r.value in ind && Contains(f, r.value)
  {
    if ind == [] then None
    else if Contains(f, ind[0]) then Some(ind[0])
    else
      var r := FirstIn(f, ind[1..]);
      AnyInTail(f, ind);
      r
  }

  lemma AnyInTail(f: string, ind: seq<string>)
    requires ind != [] && !Contains(f, ind[0])
    ensures AnyIn(f, ind) <==> AnyIn(f, ind[1..])
  {
    if AnyIn(f, ind[1..]) {
      var i :| 0 <= i < |ind[1..]| && Contains(f, ind[1..][i]);
      assert ind[i + 1] == ind[1..][i];
    }
    if AnyIn(f, ind) {
      var i :| 0 <= i < |ind| && Contains(f, ind[i]);
      assert ind[1..][i - 1] == ind[i];
    }
  }

  /** `s.find(sub, start)`: the first index at or after `start` where
      `sub` occurs, or -1. */
  function FindFrom(s: string, sub: string, start: nat): (r: int)
    ensures r == -1 || (start <= r && MatchAt(s, sub, r))
    ensures r == -1 ==> forall i :: start <= i ==> !MatchAt(s, sub, i)
    ensures r >= 0 ==> forall i :: start <= i < r ==> !MatchAt(s, sub, i)
    decreases |s| - start
  {
    if start + |sub| > |s| then -1
    else if s[start..start + |sub|] == sub then start
    else FindFrom(s, sub, start + 1)
  }

  /** `s.replace("Z", "+00:00")`: the pieces between the `Z`s, rejoined
      with `+00:00` in their place. */
  function ReplaceZ(s: string): (r: string)
    ensures r == Join(Split(s, 'Z'), "+00:00")
    ensures !HasChar(r, 'Z')
    decreases |s|
  {
    if s == [] then []
    else
      var rest := Split(s[1..], 'Z');
      var tail := ReplaceZ(s[1..]);
      if s[0] == 'Z' then
        assert Join([""] + rest, "+00:00") == "+00:00" + Join(rest, "+00:00");
        "+00:00" + tail
      else
        assert rest == [rest[0]] + rest[1..];
        JoinConsFirst(s[0], rest[0], rest[1..], "+00:00");
        [s[0]] + tail
  }

  /** Putting a character in front of the first part puts it in front of
      the joined text. */
  lemma JoinConsFirst(c: char, x: string, ys: seq<string>, sep: string)
    ensures Join([[c] + x] + ys, sep) == [c] + Join([x] + ys, sep)
  {
    if ys != [] {
      assert ([[c] + x] + ys)[1..] == ys && ([x] + ys)[1..] == ys;
    }
  }

  /** `s.replace(a, b)` for single characters. */
  function ReplaceChar(s: string, a: char, b: char): (r: string)
    ensures |r| == |s|
    ensures forall i :: 0 <= i < |s| ==> r[i] == if s[i] == a then b else s[i]
  {
    seq(|s|, i requires 0 <= i < |s| => if s[i] == a then b else s[i])
  }

  /** `sep.join(parts)` contains each of its parts. */
  lemma {:induction false} JoinContains(parts: seq<string>, sep: string, i: int)
    requires 0 <= i < |parts|
    ensures Contains(Join(parts, sep), parts[i])
    decreases |parts|
  {
    if |parts| == 1 {
      ContainsSelf(parts[0]);
    } else if i == 0 {
      ContainsSelf(parts[0]);
      ContainsExtend([], parts[0], sep + Join(parts[1..], sep), parts[0]);
      assert [] + parts[0] + (sep + Join(parts[1..], sep)) == parts[0] + sep + Join(parts[1..], sep);
    } else {
      JoinContains(parts[1..], sep, i - 1);
      ContainsExtend(parts[0] + sep, Join(parts[1..], sep), [], parts[i]);
      assert parts[0] + sep + Join(parts[1..], sep) + [] == parts[0] + sep + Join(parts[1..], sep);
    }
  }

  lemma ContainsTrans(a: string, b: string, c: string)
    requires Contains(a, b) && Contains(b, c)
    ensures Contains(a, c)
  {
    var i :| 0 <= i <= |a| - |b| && MatchAt(a, b, i);
    var j :| 0 <= j <= |b| - |c| && MatchAt(b, c, j);
    forall k | 0 <= k < |c| ensures a[i + j + k] == c[k] {
      assert a[i..i + |b|][j + k] == a[i + j + k];
      assert b[j..j + |c|][k] == b[j + k];
    }
    assert a[i + j..i + j + |c|] == c;
    assert MatchAt(a, c, i + j);
  }

  lemma ContainsSelf(s: string)
    ensures Contains(s, s)
  {
    assert MatchAt(s, s, 0);
  }

  /** A string contains every piece it is concatenated from. */
  lemma ContainsMiddle(a: string, sub: string, b: string)
    ensures Contains(a + sub + b, sub)
  {
    assert (a + sub + b)[|a|..|a| + |sub|] == sub;
    assert MatchAt(a + sub + b, sub, |a|);
  }

  /** Occurrences survive putting text on either side. */
  lemma ContainsExtend(a: string, s: string, b: string, sub: string)
    requires Contains(s, sub)
    ensures Contains(a + s + b, sub)
  {
    var i :| 0 <= i <= |s| - |sub| && MatchAt(s, sub, i);
    assert (a + s + b)[|a| + i..|a| + i + |sub|] == s[i..i + |sub|];
    assert MatchAt(a + s + b, sub, |a| + i);
  }

  lemma PrefixContains(p: string, s: string)
    requires IsPrefix(p, s)
    ensures Contains(s, p)
  {
    assert MatchAt(s, p, 0);
  }

  /** True when `c` is one of the characters of `s`. */
  predicate HasChar(s: string, c: char) {
    c in s
  }

  function LowerChar(c: char): char {
    if 'A' <= c <= 'Z' then (c as int + 32) as char else c
  }

  function UpperChar(c: char): char {
    if 'a' <= c <= 'z' then (c as int - 32) as char else c
  }

  /** `str.lower()` on the ASCII range. */
  function Lower(s: string): (r: string)
    ensures |r| == |s|
    ensures forall i :: 0 <= i < |s| ==> r[i] == LowerChar(s[i])
  {
    if s == [] then [] else [LowerChar(s[0])] + Lower(s[1..])
  }

  /** Lower-casing twice is lower-casing once. */
  lemma LowerIdempotent(s: string)
    ensures Lower(Lower(s)) == Lower(s)
  {
    var l := Lower(s);
    assert forall i :: 0 <= i < |l| ==> LowerChar(l[i]) == l[i];
  }

  /** `str.upper()` on the ASCII range. */
  function Upper(s: string): (r: string)
    ensures |r| == |s|
    ensures forall i :: 0 <= i < |s| ==> r[i] == UpperChar(s[i])
  {
    if s == [] then [] else [UpperChar(s[0])] + Upper(s[1..])
  }

  /** Python's `str.isspace()` on one character, which is also the set
      `str.strip()` removes and the regular-expression class `\s` matches:
      tab to carriage return, the separators U+001C to U+001F, space,
      U+0085, U+00A0, U+1680, U+2000 to U+200A, U+2028, U+2029, U+202F,
      U+205F and U+3000. */
  predicate IsSpace(c: char) {
    if c <= ' ' then c == ' ' || 9 as char <= c <= 13 as char || 28 as char <= c <= 31 as char
    else c >= 0x85 as char && IsWideSpace(c)
  }

  /** The whitespace characters above U+0084. */
  predicate IsWideSpace(c: char) {
    || c == 0x85 as char || c == 0xA0 as char || c == 0x1680 as char
    || 0x2000 as char <= c <= 0x200A as char || c == 0x2028 as char || c == 0x2029 as char
    || c == 0x202F as char || c == 0x205F as char || c == 0x3000 as char
  }

  predicate IsBlank(s: string) {
    forall i :: 0 <= i < |s| ==> IsSpace(s[i])
  }

  /** `str.strip()`: leading and trailing `IsSpace` characters removed. */
  function Strip(s: string): (r: string)
    ensures |r| <= |s|
    ensures r == [] <==> IsBlank(s)
    decreases |s|
  {
    if s == [] then []
    else if IsSpace(s[0]) then Strip(s[1..])
    else if IsSpace(s[|s| - 1]) then Strip(s[..|s| - 1])
    else s
  }

  /** `sep.join(parts)`. */
  function Join(parts: seq<string>, sep: string): string {
    if parts == [] then ""
    else if |parts| == 1 then parts[0]
    else parts[0] + sep + Join(parts[1..], sep)
  }

  /** `s.split(sep)` for a one-character separator. */
  function Split(s: string, sep: char): (r: seq<string>)
    ensures |r| >= 1
    decreases |s|
  {
    if s == [] then [""]
    else
      var rest := Split(s[1..], sep);
      if s[0] == sep then [""] + rest
      else [[s[0]] + rest[0]] + rest[1..]
  }

  /** Text without the separator splits into itself. */
  lemma {:induction false} SplitNoSep(s: string, sep: char)
    requires !HasChar(s, sep)
    ensures Split(s, sep) == [s]
    decreases |s|
  {
    if s != [] {
      assert !HasChar(s[1..], sep) by {
        forall x | x in s[1..] ensures x in s {
        }
      }
      SplitNoSep(s[1..], sep);
      assert [s[0]] + s[1..] == s;
    }
  }

  /** A join begins with its first part and contains every part. */
  lemma JoinHoldsParts(parts: seq<string>, sep: string)
    requires parts != []
    ensures IsPrefix(parts[0], Join(parts, sep))
    ensures forall i :: 0 <= i < |parts| ==> Contains(Join(parts, sep), parts[i])
  {
    JoinStartsWithFirst(parts, sep);
    forall i | 0 <= i < |parts| ensures Contains(Join(parts, sep), parts[i]) {
      JoinContains(parts, sep, i);
    }
  }

  /** The first part of a join begins the joined text. */
  lemma JoinStartsWithFirst(parts: seq<string>, sep: string)
    requires parts != []
    ensures IsPrefix(parts[0], Join(parts, sep))
  {
  }

  /** Decimal rendering of a natural number. */
  function NatToString(n: nat): (r: string)
    ensures |r| >= 1
    ensures forall i :: 0 <= i < |r| ==> '0' <= r[i] <= '9'
  {
    if n < 10 then [DigitChar(n)] else NatToString(n / 10) + [DigitChar(n % 10)]
  }

  function DigitChar(d: nat): (c: char)
    requires d < 10
    ensures '0' <= c <= '9'
  {
    (48 + d) as char
  }

  predicate AllDigits(s: string) {
    forall i :: 0 <= i < |s| ==> '0' <= s[i] <= '9'
  }

  /** Python's `int(s)` on a string of decimal digits ("" reads as 0). */
  function ParseDigits(s: string): (n: nat)
    requires AllDigits(s)
  {
    if s == [] then 0
    else ParseDigits(s[..|s| - 1]) * 10 + ((s[|s| - 1] as int) - 48)
  }

  /** Reading back a rendered number gives the number. */
  lemma {:induction false} ParseNatToString(n: nat)
    ensures AllDigits(NatToString(n))
    ensures ParseDigits(NatToString(n)) == n
  {
    var r := NatToString(n);
    if n >= 10 {
      ParseNatToString(n / 10);
      assert r[..|r| - 1] == NatToString(n / 10);
    } else {
      assert r[..0] == [];
    }
  }

  /** Distinct numbers render as distinct strings. */
  lemma NatToStringInjective(a: nat, b: nat)
    ensures NatToString(a) == NatToString(b) ==> a == b
  {
    ParseNatToString(a);
    ParseNatToString(b);
  }

  /** Leading zeros do not change the value read. */
  lemma {:induction false} ParseLeadingZeros(z: string, d: string)
    requires forall i :: 0 <= i < |z| ==> z[i] == '0'
    requires AllDigits(d)
    ensures AllDigits(z + d) && ParseDigits(z + d) == ParseDigits(d)
    decreases |z| + |d|
  {
    if d == [] {
      assert z + d == z;
      if z != [] {
        assert z[..|z| - 1] + [] == z[..|z| - 1];
        ParseLeadingZeros(z[..|z| - 1], []);
      }
    } else {
      assert (z + d)[..|z + d| - 1] == z + d[..|d| - 1];
      ParseLeadingZeros(z, d[..|d| - 1]);
    }
  }

  /** `Pad3` reads back as the number it renders, so it is one-to-one. */
  lemma Pad3Injective(a: nat, b: nat)
    ensures Pad3(a) == Pad3(b) ==> a == b
  {
    ParseNatToString(a);
    ParseNatToString(b);
    var da := NatToString(a);
    var db := NatToString(b);
    if |da| < 3 { ParseLeadingZeros(seq(3 - |da|, _ => '0'), da); }
    if |db| < 3 { ParseLeadingZeros(seq(3 - |db|, _ => '0'), db); }
  }

  function IntToString(n: int): string {
    if n < 0 then "-" + NatToString(-n) else NatToString(n)
  }

  /** Zero-padded three-digit rendering, `f"{n:03d}"`, for n >= 0. */
  function Pad3(n: nat): (r: string)
    ensures |r| >= 3
  {
    var d := NatToString(n);
    if |d| >= 3 then d else seq(3 - |d|, _ => '0') + d
  }

  /** Python's `s[:n]` for n >= 0. */
  function Prefix<T>(s: seq<T>, n: nat): (r: seq<T>)
    ensures |r| == if n < |s| then n else |s|
    ensures r == s[..|r|]
  {
    if n < |s| then s[..n] else s
  }

  /** Python's `s[:n]` for any integer `n` (a negative bound counts from the end). */
  function PySlicePrefix<T>(s: seq<T>, n: int): (r: seq<T>)
    ensures |r| <= |s| && r == s[..|r|]
    ensures n >= 0 ==> |r| == if n < |s| then n else |s|
    ensures n < 0 ==> |r| == if |s| + n > 0 then |s| + n else 0
  {
    if n >= 0 then Prefix(s, n)
    else if |s| + n > 0 then s[..|s| + n]
    else []
  }

  /** Python's `s[-n:]` for n > 0. */
  function Suffix<T>(s: seq<T>, n: nat): (r: seq<T>)
    ensures |r| == if n < |s| then n else |s|
    ensures r == s[|s| - |r|..]
  {
    if n < |s| then s[|s| - n..] else s
  }

  // ---------------------------------------------------------------------
  // Sequences

  function Sum(s: seq<int>): int {
    if s == [] then 0 else s[0] + Sum(s[1..])
  }

  /** The blocks one after another. */
  function Flatten<T>(blocks: seq<seq<T>>): (r: seq<T>)
    ensures blocks != [] ==> |blocks[0]| <= |r| && r[..|blocks[0]|] == blocks[0]
    decreases |blocks|
  {
    if blocks == [] then [] else blocks[0] + Flatten(blocks[1..])
  }

  /** Where block `k` starts in the flattened sequence. */
  function BlockStart<T>(blocks: seq<seq<T>>, k: nat): nat
    requires k <= |blocks|
    decreases k
  {
    if k == 0 then 0 else BlockStart(blocks, k - 1) + |blocks[k - 1]|
  }

  /** Block `k` sits, element for element, at its start. */
  lemma {:induction false} BlockAt<T>(blocks: seq<seq<T>>, k: nat)
    requires k < |blocks|
    ensures BlockStart(blocks, k) + |blocks[k]| <= |Flatten(blocks)|
    ensures forall j :: 0 <= j < |blocks[k]| ==> Flatten(blocks)[BlockStart(blocks, k) + j] == blocks[k][j]
    decreases k
  {
    var rest := Flatten(blocks[1..]);
    assert Flatten(blocks) == blocks[0] + rest;
    if k == 0 {
      forall j | 0 <= j < |blocks[0]| ensures Flatten(blocks)[j] == blocks[0][j] {
        assert (blocks[0] + rest)[j] == blocks[0][j];
      }
    } else {
      BlockAt(blocks[1..], k - 1);
      BlockStartShift(blocks, k);
      assert blocks[1..][k - 1] == blocks[k];
      var s := BlockStart(blocks[1..], k - 1);
      forall j | 0 <= j < |blocks[k]| ensures Flatten(blocks)[BlockStart(blocks, k) + j] == blocks[k][j] {
        assert (blocks[0] + rest)[|blocks[0]| + s + j] == rest[s + j];
      }
    }
  }

  /** Dropping the first block moves every later start up by its size. */
  lemma {:induction false} BlockStartShift<T>(blocks: seq<seq<T>>, k: nat)
    requires 0 < k <= |blocks|
    ensures BlockStart(blocks, k) == |blocks[0]| + BlockStart(blocks[1..], k - 1)
    decreases k
  {
    if k > 1 {
      BlockStartShift(blocks, k - 1);
      assert blocks[1..][k - 2] == blocks[k - 1];
    }
  }

  /** Where the parts of a three-part concatenation sit. */
  lemma Concat3<T>(a: seq<T>, b: seq<T>, c: seq<T>)
    ensures |a + b + c| == |a| + |b| + |c|
    ensures (a + b + c)[..|a|] == a
    ensures forall i :: 0 <= i < |b| ==> (a + b + c)[|a| + i] == b[i]
    ensures |a| > 0 ==> (a + b + c)[0] == a[0]
  {
  }

  /** The values among three whose condition holds, in order. */
  function Kept3<T(!new)>(c1: bool, x1: T, c2: bool, x2: T, c3: bool, x3: T): (r: seq<T>)
    ensures |r| <= 3
    ensures forall y :: y in r <==> (c1 && y == x1) || (c2 && y == x2) || (c3 && y == x3)
  {
    (if c1 then [x1] else []) + (if c2 then [x2] else []) + (if c3 then [x3] else [])
  }

  lemma SumAppend(a: seq<int>, b: seq<int>)
    ensures Sum(a + b) == Sum(a) + Sum(b)
  {
    if a == [] {
      assert a + b == b;
    } else {
      assert (a + b)[1..] == a[1..] + b;
      SumAppend(a[1..], b);
    }
  }

  /** Number of elements of `s` satisfying `p`. */
  function CountWhere<T>(s: seq<T>, p: T -> bool): (n: nat)
    ensures n <= |s|
  {
    if s == [] then 0 else (if p(s[0]) then 1 else 0) + CountWhere(s[1..], p)
  }

  /** Every element satisfies `p` or its negation. */
  lemma {:induction false} CountComplement<T>(s: seq<T>, p: T -> bool, q: T -> bool)
    requires forall x :: q(x) == !p(x)
    ensures CountWhere(s, p) + CountWhere(s, q) == |s|
  {
    if s != [] {
      CountComplement(s[1..], p, q);
    }
  }

  /** Counting distributes over concatenation. */
  lemma {:induction false} CountWhereAppend<T>(a: seq<T>, b: seq<T>, p: T -> bool)
    ensures CountWhere(a + b, p) == CountWhere(a, p) + CountWhere(b, p)
  {
    if a == [] {
      assert a + b == b;
    } else {
      assert (a + b)[1..] == a[1..] + b;
      CountWhereAppend(a[1..], b, p);
    }
  }

  /** The count is zero exactly when no element satisfies `p`. */
  lemma {:induction false} CountWhereZero<T>(s: seq<T>, p: T -> bool)
    ensures CountWhere(s, p) == 0 <==> forall i :: 0 <= i < |s| ==> !p(s[i])
  {
    if s != [] {
      CountWhereZero(s[1..], p);
      assert forall i :: 1 <= i < |s| ==> s[i] == s[1..][i - 1];
    }
  }

  /** `[x for x in s if p(x)]`. */
  function Filter<T(!new)>(s: seq<T>, p: T -> bool): (r: seq<T>)
    ensures |r| <= |s|
    ensures forall x :: x in r <==> x in s && p(x)
    ensures |r| == CountWhere(s, p)
  {
    if s == [] then [] else (if p(s[0]) then [s[0]] else []) + Filter(s[1..], p)
  }

  /** Filtering a list none of whose elements pass leaves nothing. */
  lemma {:induction false} FilterNone<T(!new)>(s: seq<T>, p: T -> bool)
    requires forall i :: 0 <= i < |s| ==> !p(s[i])
    ensures Filter(s, p) == []
  {
    if s != [] {
      FilterNone(s[1..], p);
    }
  }

  /** Filtering one more element. */
  lemma FilterSnoc<T(!new)>(a: seq<T>, x: T, p: T -> bool)
    ensures Filter(a + [x], p) == Filter(a, p) + (if p(x) then [x] else [])
  {
    FilterAppend(a, [x], p);
  }

  lemma FilterAppend<T(!new)>(a: seq<T>, b: seq<T>, p: T -> bool)
    ensures Filter(a + b, p) == Filter(a, p) + Filter(b, p)
  {
    if a == [] {
      assert a + b == b;
    } else {
      assert (a + b)[1..] == a[1..] + b;
      FilterAppend(a[1..], b, p);
    }
  }

  /** The elements of `s` without repeats, first occurrence kept, order kept. */
  function Dedupe<T(==,!new)>(s: seq<T>): (r: seq<T>)
    ensures NoDups(r)
    ensures forall x :: x in r <==> x in s
    ensures |r| <= |s|
  {
    DedupeFrom(s, [])
  }

  function DedupeFrom<T(==,!new)>(s: seq<T>, seen: seq<T>): (r: seq<T>)
    requires NoDups(seen)
    ensures NoDups(r)
    ensures forall x :: x in r <==> x in s || x in seen
    ensures |r| <= |s| + |seen|
    ensures |seen| <= |r| && r[..|seen|] == seen
  {
    if s == [] then seen
    else if s[0] in seen then DedupeFrom(s[1..], seen)
    else DedupeFrom(s[1..], seen + [s[0]])
  }

  predicate NoDups<T(==)>(s: seq<T>) {
    forall i, j :: 0 <= i < j < |s| ==> s[i] != s[j]
  }

  // ---------------------------------------------------------------------
  // Sorting

  predicate SortedDescBy<T>(s: seq<T>, key: T -> int) {
    forall i, j :: 0 <= i < j < |s| ==> key(s[i]) >= key(s[j])
  }

  /** Insert `x` before the first element whose key is not larger: a stable
      descending insertion, so `x` precedes the equal keys behind it. */
  function InsertDescBy<T>(x: T, s: seq<T>, key: T -> int): (r: seq<T>)
    ensures |r| == |s| + 1
    ensures r[0] == if s != [] && key(s[0]) > key(x) then s[0] else x
  {
    if s == [] then [x]
    else if key(s[0]) > key(x) then [s[0]] + InsertDescBy(x, s[1..], key)
    else [x] + s
  }

  /** Inserting into a descending list keeps it descending and adds
      exactly `x`. */
  lemma {:induction false} InsertDescBySorted<T>(x: T, s: seq<T>, key: T -> int)
    requires SortedDescBy(s, key)
    ensures SortedDescBy(InsertDescBy(x, s, key), key)
    ensures multiset(InsertDescBy(x, s, key)) == multiset(s) + multiset{x}
  {
    if s == [] {
    } else if key(s[0]) > key(x) {
      var rest := InsertDescBy(x, s[1..], key);
      InsertDescBySorted(x, s[1..], key);
      assert s == [s[0]] + s[1..];
      assert key(s[0]) >= key(rest[0]) by {
        if |s| > 1 { assert key(s[0]) >= key(s[1]); }
      }
      SortedCons(s[0], rest, key);
    } else {
      SortedCons(x, s, key);
    }
  }

  /** An element no smaller than the head of a descending list extends it. */
  lemma SortedCons<T>(y: T, s: seq<T>, key: T -> int)
    requires SortedDescBy(s, key)
    requires s != [] ==> key(y) >= key(s[0])
    ensures SortedDescBy([y] + s, key)
  {
    var r := [y] + s;
    forall i, j | 0 <= i < j < |r| ensures key(r[i]) >= key(r[j]) {
      assert r[j] == s[j - 1];
      if i > 0 { assert r[i] == s[i - 1]; } else { assert key(s[0]) >= key(s[j - 1]) || j == 1; }
    }
  }

  /** `sorted(s, key=key, reverse=True)`: stable, descending by `key`. */
  function SortDescBy<T>(s: seq<T>, key: T -> int): (r: seq<T>)
    ensures SortedDescBy(r, key)
    ensures multiset(r) == multiset(s)
    ensures |r| == |s|
  {
    if s == [] then []
    else
      assert s == [s[0]] + s[1..];
      InsertDescBySorted(s[0], SortDescBy(s[1..], key), key);
      InsertDescBy(s[0], SortDescBy(s[1..], key), key)
  }
  /** Every element of the sorted list comes from the input. */
  lemma SortedFrom<T>(s: seq<T>, key: T -> int)
    ensures forall i :: 0 <= i < |SortDescBy(s, key)| ==> SortDescBy(s, key)[i] in s
  {
    var r := SortDescBy(s, key);
    forall i | 0 <= i < |r| ensures r[i] in s {
      assert r[i] in multiset(r);
    }
  }

  /** `sorted(s, key=key, reverse=True)[:n]`: the kept elements come from
      `s`, newest first, as many as the slice allows, and every element
      left out has a key no greater than every element kept. */
  function TopBy<T>(s: seq<T>, key: T -> int, n: int): (r: seq<T>)
    ensures forall i :: 0 <= i < |r| ==> r[i] in s
    ensures multiset(r) <= multiset(s)
    ensures SortedDescBy(r, key)
    ensures n >= 0 ==> |r| == if n < |s| then n else |s|
    ensures n < 0 ==> |r| == if |s| + n > 0 then |s| + n else 0
    ensures forall x, i :: x in multiset(s) - multiset(r) && 0 <= i < |r| ==> key(x) <= key(r[i])
  {
    var sorted := SortDescBy(s, key);
    SortedFrom(s, key);
    var r := PySlicePrefix(sorted, n);
    assert forall i :: 0 <= i < |r| ==> r[i] == sorted[i];
    SortedPrefixDominates(sorted, |r|, key);
    r
  }

  /** Cutting a descending sequence: the prefix is part of the whole, and
      everything cut off has a key no greater than anything kept. */
  lemma SortedPrefixDominates<T>(sorted: seq<T>, m: nat, key: T -> int)
    requires SortedDescBy(sorted, key) && m <= |sorted|
    ensures multiset(sorted[..m]) <= multiset(sorted)
    ensures forall x, i :: x in multiset(sorted) - multiset(sorted[..m]) && 0 <= i < m ==> key(x) <= key(sorted[i])
  {
    var r := sorted[..m];
    var rest := sorted[m..];
    assert sorted == r + rest;
    assert multiset(sorted) == multiset(r) + multiset(rest);
    forall x, i | x in multiset(sorted) - multiset(r) && 0 <= i < m ensures key(x) <= key(sorted[i]) {
      assert x in multiset(rest);
      var j :| 0 <= j < |rest| && rest[j] == x;
      assert sorted[m + j] == x;
    }
  }

  /** Code-point lexicographic order on strings, as Python compares `str`. */
  predicate LexLe(a: string, b: string)
    decreases |a|
  {
    if a == [] then true
    else if b == [] then false
    else if a[0] < b[0] then true
    else if a[0] > b[0] then false
    else LexLe(a[1..], b[1..])
  }

  lemma LexLeTotal(a: string, b: string)
    ensures LexLe(a, b) || LexLe(b, a)
    decreases |a|
  {
    if a != [] && b != [] && a[0] == b[0] {
      LexLeTotal(a[1..], b[1..]);
    }
  }

  lemma LexLeTrans(a: string, b: string, c: string)
    requires LexLe(a, b) && LexLe(b, c)
    ensures LexLe(a, c)
    decreases |a|
  {
    if a != [] && b != [] && c != [] && a[0] == b[0] && b[0] == c[0] {
      LexLeTrans(a[1..], b[1..], c[1..]);
    }
  }

  lemma LexLeAntisym(a: string, b: string)
    requires LexLe(a, b) && LexLe(b, a)
    ensures a == b
    decreases |a|
  {
    if a != [] && b != [] {
      LexLeAntisym(a[1..], b[1..]);
    }
  }

  predicate SortedByName<T>(s: seq<T>, name: T -> string) {
    forall i, j :: 0 <= i < j < |s| ==> LexLe(name(s[i]), name(s[j]))
  }

  predicate SortedStrings(s: seq<string>) {
    forall i, j :: 0 <= i < j < |s| ==> LexLe(s[i], s[j])
  }

  /** Stable ascending insertion by `name`: `x` goes before the first
      element whose name is not smaller. */
  function InsertByName<T>(x: T, s: seq<T>, name: T -> string): (r: seq<T>)
    ensures |r| == |s| + 1
    ensures r[0] == if s != [] && !LexLe(name(x), name(s[0])) then s[0] else x
  {
    if s == [] then [x]
    else if LexLe(name(x), name(s[0])) then [x] + s
    else [s[0]] + InsertByName(x, s[1..], name)
  }

  /** Ordering is extended at the front by a name no larger than the head's. */
  lemma ByNameCons<T>(y: T, s: seq<T>, name: T -> string)
    requires SortedByName(s, name)
    requires s != [] ==> LexLe(name(y), name(s[0]))
    ensures SortedByName([y] + s, name)
  {
    var r := [y] + s;
    forall i, j | 0 <= i < j < |r| ensures LexLe(name(r[i]), name(r[j])) {
      assert r[j] == s[j - 1];
      if i > 0 {
        assert r[i] == s[i - 1];
      } else if j > 1 {
        LexLeTrans(name(y), name(s[0]), name(s[j - 1]));
      }
    }
  }

  /** Inserting into an ascending list keeps it ascending and adds exactly
      `x`. */
  lemma {:induction false} InsertByNameSorted<T>(x: T, s: seq<T>, name: T -> string)
    requires SortedByName(s, name)
    ensures SortedByName(InsertByName(x, s, name), name)
    ensures multiset(InsertByName(x, s, name)) == multiset(s) + multiset{x}
  {
    if s == [] {
    } else if LexLe(name(x), name(s[0])) {
      ByNameCons(x, s, name);
    } else {
      LexLeTotal(name(x), name(s[0]));
      var rest := InsertByName(x, s[1..], name);
      InsertByNameSorted(x, s[1..], name);
      assert s == [s[0]] + s[1..];
      assert LexLe(name(s[0]), name(rest[0])) by {
        if |s| > 1 && !LexLe(name(x), name(s[1])) { assert rest[0] == s[1]; }
      }
      ByNameCons(s[0], rest, name);
    }
  }

  /** `sorted(s, key=name)`: stable, ascending by `name`. */
  function SortByName<T>(s: seq<T>, name: T -> string): (r: seq<T>)
    ensures SortedByName(r, name)
    ensures multiset(r) == multiset(s)
    ensures |r| == |s|
  {
    if s == [] then []
    else
      assert s == [s[0]] + s[1..];
      InsertByNameSorted(s[0], SortByName(s[1..], name), name);
      InsertByName(s[0], SortByName(s[1..], name), name)
  }

  predicate SortedByNameDesc<T>(s: seq<T>, name: T -> string) {
    forall i, j :: 0 <= i < j < |s| ==> LexLe(name(s[j]), name(s[i]))
  }

  /** Stable descending insertion by `name`: `x` goes before the first
      element whose name is not larger. */
  function InsertByNameDesc<T>(x: T, s: seq<T>, name: T -> string): (r: seq<T>)
    ensures |r| == |s| + 1
    ensures r[0] == if s != [] && !LexLe(name(s[0]), name(x)) then s[0] else x
  {
    if s == [] then [x]
    else if LexLe(name(s[0]), name(x)) then [x] + s
    else [s[0]] + InsertByNameDesc(x, s[1..], name)
  }

  /** Descending order is extended at the front by a name no smaller than
      the head's. */
  lemma ByNameDescCons<T>(y: T, s: seq<T>, name: T -> string)
    requires SortedByNameDesc(s, name)
    requires s != [] ==> LexLe(name(s[0]), name(y))
    ensures SortedByNameDesc([y] + s, name)
  {
    var r := [y] + s;
    forall i, j | 0 <= i < j < |r| ensures LexLe(name(r[j]), name(r[i])) {
      assert r[j] == s[j - 1];
      if i > 0 {
        assert r[i] == s[i - 1];
      } else if j > 1 {
        LexLeTrans(name(s[j - 1]), name(s[0]), name(y));
      }
    }
  }

  /** Inserting into a descending list keeps it descending and adds exactly
      `x`. */
  lemma {:induction false} InsertByNameDescSorted<T>(x: T, s: seq<T>, name: T -> string)
    requires SortedByNameDesc(s, name)
    ensures SortedByNameDesc(InsertByNameDesc(x, s, name), name)
    ensures multiset(InsertByNameDesc(x, s, name)) == multiset(s) + multiset{x}
  {
    if s == [] {
    } else if LexLe(name(s[0]), name(x)) {
      ByNameDescCons(x, s, name);
    } else {
      LexLeTotal(name(x), name(s[0]));
      var rest := InsertByNameDesc(x, s[1..], name);
      InsertByNameDescSorted(x, s[1..], name);
      assert s == [s[0]] + s[1..];
      assert LexLe(name(rest[0]), name(s[0])) by {
        if |s| > 1 && !LexLe(name(s[1]), name(x)) { assert rest[0] == s[1]; }
      }
      ByNameDescCons(s[0], rest, name);
    }
  }

  /** `sorted(s, key=name, reverse=True)`: stable, descending by `name`. */
  function SortByNameDesc<T>(s: seq<T>, name: T -> string): (r: seq<T>)
    ensures SortedByNameDesc(r, name)
    ensures multiset(r) == multiset(s)
    ensures |r| == |s|
  {
    if s == [] then []
    else
      assert s == [s[0]] + s[1..];
      InsertByNameDescSorted(s[0], SortByNameDesc(s[1..], name), name);
      InsertByNameDesc(s[0], SortByNameDesc(s[1..], name), name)
  }

  /** `sorted(s)` for a list of strings. */
  function SortStrings(s: seq<string>): (r: seq<string>)
    ensures SortedStrings(r)
    ensures multiset(r) == multiset(s)
    ensures |r| == |s|
  {
    var r := SortByName(s, (x: string) => x);
    assert SortedByName(r, (x: string) => x);
    r
  }

  /** `sorted(set(s))`: the distinct strings of `s`, ascending. */
  function SortedDistinct(s: seq<string>): (r: seq<string>)
    ensures SortedStrings(r)
    ensures NoDups(r)
    ensures forall x :: x in r <==> x in s
  {
    var d := Dedupe(s);
    var r := SortStrings(d);
    assert forall x :: x in r <==> x in d by {
      forall x ensures x in r <==> x in d {
        assert x in r <==> x in multiset(r);
        assert x in d <==> x in multiset(d);
      }
    }
    MultisetNoDups(d, r);
    r
  }

  lemma MultisetNoDups<T>(a: seq<T>, b: seq<T>)
    requires NoDups(a) && multiset(a) == multiset(b)
    ensures NoDups(b)
  {
    forall i, j | 0 <= i < j < |b| ensures b[i] != b[j] {
      if b[i] == b[j] {
        var x := b[i];
        assert multiset(b)[x] >= 2 by {
          assert b == b[..i] + [b[i]] + b[i + 1..j] + [b[j]] + b[j + 1..];
        }
        NoDupsCount(a, x);
        assert false;
      }
    }
  }

  lemma NoDupsCount<T>(a: seq<T>, x: T)
    requires NoDups(a)
    ensures multiset(a)[x] <= 1
  {
    if a != [] {
      assert a == [a[0]] + a[1..];
      NoDupsCount(a[1..], x);
      if a[0] == x {
        assert x !in a[1..];
      }
    }
  }

  // ---------------------------------------------------------------------
  // Count tables

  /** A count table in dict insertion order: distinct keys with counts. */
  type Counts = seq<(string, nat)>

  predicate DistinctKeys<K(==), V>(m: seq<(K, V)>) {
    forall i, j :: 0 <= i < j < |m| ==> m[i].0 != m[j].0
  }

  predicate HasKey<K(==), V>(m: seq<(K, V)>, k: K) {
    exists i :: 0 <= i < |m| && m[i].0 == k
  }

  /** An ISO-8601 formatter and parser pair (`datetime.isoformat` and
      `datetime.fromisoformat`) on times in seconds. */
  datatype IsoCodec = IsoCodec(format: int -> string, parse: string -> Option<int>)

  /** Parsing gives back every formatted time. */
  ghost predicate RoundTrips(c: IsoCodec) {
    forall t :: c.parse(c.format(t)) == Some(t)
  }

  /** Position of key `k`, or -1. */
  function IndexOf<K(==), V>(m: seq<(K, V)>, k: K): (i: int)
    ensures -1 <= i < |m|
    ensures i >= 0 ==> m[i].0 == k
    ensures i < 0 <==> !HasKey(m, k)
    ensures forall j :: 0 <= j < i ==> m[j].0 != k
  {
    if m == [] then -1
    else if m[0].0 == k then 0
    else
      var j := IndexOf(m[1..], k);
      assert HasKey(m, k) ==> HasKey(m[1..], k) by {
        if HasKey(m, k) {
          var x :| 0 <= x < |m| && m[x].0 == k;
          assert m[1..][x - 1].0 == k;
        }
      }
      if j < 0 then -1 else j + 1
  }

  lemma IndexOfUnique<K, V>(m: seq<(K, V)>, k: K, i: int)
    requires DistinctKeys(m) && 0 <= i < |m| && m[i].0 == k
    ensures IndexOf(m, k) == i
  {
  }

  /** `d[k] = v` on an insertion-ordered mapping: a new key goes last, a
      known key keeps its place. */
  function Put<K(==,!new), V>(m: seq<(K, V)>, k: K, v: V): (r: seq<(K, V)>)
    requires DistinctKeys(m)
    ensures DistinctKeys(r)
    ensures HasKey(r, k) && Find(r, k) == Some(v)
    ensures forall j :: j != k ==> Find(r, j) == Find(m, j)
    ensures forall j :: HasKey(m, j) ==> HasKey(r, j)
    ensures forall j :: HasKey(r, j) ==> HasKey(m, j) || j == k
    ensures |r| == if HasKey(m, k) then |m| else |m| + 1
  {
    var i := IndexOf(m, k);
    if i < 0 then
      PutNewKey(m, k, v);
      m + [(k, v)]
    else
      PutKnownKey(m, k, v, i);
      m[i := (k, v)]
  }

  lemma PutNewKey<K, V>(m: seq<(K, V)>, k: K, v: V)
    requires DistinctKeys(m) && !HasKey(m, k)
    ensures DistinctKeys(m + [(k, v)])
    ensures Find(m + [(k, v)], k) == Some(v)
    ensures forall j :: j != k ==> Find(m + [(k, v)], j) == Find(m, j)
    ensures forall j :: HasKey(m + [(k, v)], j) <==> HasKey(m, j) || j == k
  {
    var r := m + [(k, v)];
    assert forall x :: 0 <= x < |m| ==> r[x] == m[x];
    assert DistinctKeys(r);
    assert r[|m|].0 == k;
    IndexOfUnique(r, k, |m|);
    forall j | j != k
      ensures Find(r, j) == Find(m, j)
    {
      if HasKey(m, j) {
        var x := IndexOf(m, j);
        IndexOfUnique(r, j, x);
      } else {
        assert !HasKey(r, j);
      }
    }
    forall j
      ensures HasKey(r, j) <==> HasKey(m, j) || j == k
    {
      if HasKey(m, j) {
        var x :| 0 <= x < |m| && m[x].0 == j;
        assert r[x].0 == j;
      }
    }
  }

  lemma PutKnownKey<K, V>(m: seq<(K, V)>, k: K, v: V, i: int)
    requires DistinctKeys(m) && 0 <= i < |m| && m[i].0 == k
    ensures DistinctKeys(m[i := (k, v)])
    ensures Find(m[i := (k, v)], k) == Some(v)
    ensures forall j :: j != k ==> Find(m[i := (k, v)], j) == Find(m, j)
    ensures forall j :: HasKey(m[i := (k, v)], j) <==> HasKey(m, j)
  {
    var r := m[i := (k, v)];
    assert forall x :: 0 <= x < |m| ==> r[x].0 == m[x].0;
    IndexOfUnique(r, k, i);
    forall j | j != k
      ensures Find(r, j) == Find(m, j)
    {
      if HasKey(m, j) {
        var x := IndexOf(m, j);
        IndexOfUnique(r, j, x);
      } else {
        assert !HasKey(r, j);
      }
    }
    forall j
      ensures HasKey(r, j) <==> HasKey(m, j)
    {
      if HasKey(m, j) {
        var x :| 0 <= x < |m| && m[x].0 == j;
        assert r[x].0 == j;
      }
    }
  }

  /** `d.get(k)`. */
  function Find<K(==), V>(m: seq<(K, V)>, k: K): (r: Option<V>)
    ensures r.Some? <==> HasKey(m, k)
  {
    var i := IndexOf(m, k);
    if i < 0 then None else Some(m[i].1)
  }

  /** `d.get(k, 0)`. */
  function Lookup(m: Counts, k: string): nat {
    var i := IndexOf(m, k);
    if i < 0 then 0 else m[i].1
  }

  function Keys<K(==), V>(m: seq<(K, V)>): seq<K> {
    seq(|m|, i requires 0 <= i < |m| => m[i].0)
  }

  /** The keys of a list with one more entry in front. */
  lemma KeysCons<K, V>(k: K, v: V, m: seq<(K, V)>)
    ensures Keys([(k, v)] + m) == [k] + Keys(m)
  {
    assert forall i :: 0 <= i < |m| ==> ([(k, v)] + m)[i + 1] == m[i];
  }

  lemma KeysHasKey<K, V>(m: seq<(K, V)>, k: K)
    ensures k in Keys(m) <==> HasKey(m, k)
  {
    if HasKey(m, k) {
      var i :| 0 <= i < |m| && m[i].0 == k;
      assert Keys(m)[i] == k;
    }
  }

  function Values(m: Counts): seq<int> {
    seq(|m|, i requires 0 <= i < |m| => m[i].1 as int)
  }

  lemma {:induction false} SumIncrementAt(s: seq<int>, i: int)
    requires 0 <= i < |s|
    ensures Sum(s[i := s[i] + 1]) == Sum(s) + 1
    decreases |s|
  {
    if i > 0 {
      assert s[i := s[i] + 1][1..] == s[1..][i - 1 := s[i] + 1];
      SumIncrementAt(s[1..], i - 1);
    }
  }

  /** `counts[k] = counts.get(k, 0) + 1`, keeping insertion order. */
  function Bump(m: Counts, k: string): (r: Counts)
    requires DistinctKeys(m)
    ensures DistinctKeys(r)
    ensures forall j :: Lookup(r, j) == Lookup(m, j) + (if j == k then 1 else 0)
    ensures forall j :: HasKey(r, j) <==> HasKey(m, j) || j == k
    ensures Sum(Values(r)) == Sum(Values(m)) + 1
  {
    var r := Put<string, nat>(m, k, Lookup(m, k) + 1);
    BumpSum(m, k);
    forall j ensures Lookup(r, j) == Lookup(m, j) + (if j == k then 1 else 0) {
      LookupIsFind(r, j);
      LookupIsFind(m, j);
    }
    r
  }

  /** `d.get(k, 0)` reads the same entry as `d.get(k)`. */
  lemma LookupIsFind(m: Counts, k: string)
    ensures Lookup(m, k) == Find(m, k).GetOr(0)
  {
  }

  /** Bumping adds exactly one to the total, whether the key is new or
      already counted. */
  lemma BumpSum(m: Counts, k: string)
    requires DistinctKeys(m)
    ensures Sum(Values(Put<string, nat>(m, k, Lookup(m, k) + 1))) == Sum(Values(m)) + 1
  {
    var i := IndexOf(m, k);
    if i < 0 {
      assert Values(m + [(k, 1)]) == Values(m) + [1];
      SumAppend(Values(m), [1]);
    } else {
      var r := m[i := (k, m[i].1 + 1)];
      assert Values(r) == Values(m)[i := Values(m)[i] + 1];
      SumIncrementAt(Values(m), i);
    }
  }


  /** How many elements of `s` have key `k`. */
  function CountKey<T>(s: seq<T>, key: T -> string, k: string): (n: nat)
    ensures n <= |s|
    decreases |s|
  {
    if s == [] then 0
    else CountKey(s[..|s| - 1], key, k) + (if key(s[|s| - 1]) == k then 1 else 0)
  }

  /** `counts[key(x)] = counts.get(key(x), 0) + 1` for each `x` in order:
      one entry per key, in first-occurrence order. */
  function Tally<T>(s: seq<T>, key: T -> string): (r: Counts)
    ensures DistinctKeys(r)
    ensures Sum(Values(r)) == |s|
    ensures forall k :: Lookup(r, k) == CountKey(s, key, k)
    ensures forall k :: HasKey(r, k) <==> CountKey(s, key, k) > 0
    decreases |s|
  {
    if s == [] then []
    else Bump(Tally(s[..|s| - 1], key), key(s[|s| - 1]))
  }

  /** `s` reversed. */
  function Reverse<T>(s: seq<T>): (r: seq<T>)
    ensures |r| == |s| && forall i {:trigger r[i]} :: 0 <= i < |s| ==> r[i] == s[|s| - 1 - i]
    ensures multiset(r) == multiset(s)
  {
    if s == [] then []
    else
      var r := Reverse(s[1..]) + [s[0]];
      assert s == [s[0]] + s[1..];
      r
  }

  /** `sorted(s, reverse=True)` for a list of strings. */
  function SortStringsDesc(s: seq<string>): (r: seq<string>)
    ensures SortedStringsDesc(r)
    ensures multiset(r) == multiset(s)
    ensures |r| == |s|
  {
    var up := SortStrings(s);
    ReverseSorted(up);
    Reverse(up)
  }

  predicate SortedStringsDesc(s: seq<string>) {
    forall i, j :: 0 <= i < j < |s| ==> LexLe(s[j], s[i])
  }

  lemma ReverseSorted(s: seq<string>)
    requires SortedStrings(s)
    ensures SortedStringsDesc(Reverse(s))
  {
    var r := Reverse(s);
    forall i, j | 0 <= i < j < |r| ensures LexLe(r[j], r[i]) {
      assert r[j] == s[|s| - 1 - j];
      assert r[i] == s[|s| - 1 - i];
    }
  }

  lemma HasKeyAppend<K, V>(m: seq<(K, V)>, p: (K, V))
    ensures forall j :: HasKey(m + [p], j) <==> HasKey(m, j) || j == p.0
  {
    forall j ensures HasKey(m + [p], j) <==> HasKey(m, j) || j == p.0 {
      if HasKey(m, j) {
        var i :| 0 <= i < |m| && m[i].0 == j;
        assert (m + [p])[i].0 == j;
      }
      if j == p.0 {
        assert (m + [p])[|m|].0 == j;
      }
    }
  }

  // ---------------------------------------------------------------------
  // Integer parsing

  predicate IsDigit(c: char) {
    '0' <= c <= '9'
  }

  /** Digits with single underscores between them, as `int()` accepts. */
  predicate DigitGroups(s: string) {
    && s != []
    && IsDigit(s[0]) && IsDigit(s[|s| - 1])
    && (forall i :: 0 <= i < |s| ==> IsDigit(s[i]) || s[i] == '_')
    && (forall i :: 0 <= i < |s| - 1 ==> !(s[i] == '_' && s[i + 1] == '_'))
  }

  function DropUnderscores(s: string): (r: string)
    ensures (forall i :: 0 <= i < |s| ==> IsDigit(s[i]) || s[i] == '_') ==> AllDigits(r)
  {
    if s == [] then [] else (if s[0] == '_' then [] else [s[0]]) + DropUnderscores(s[1..])
  }

  /** Python's `int(text)` on ASCII text: surrounding whitespace, an
      optional sign, then digit groups; None where `int` raises
      ValueError. */
  function PyInt(text: string): (r: Option<int>)
    ensures AllDigits(text) && text != [] ==> r == Some(ParseDigits(text))
  {
    var t := Strip(text);
    var negative := t != [] && t[0] == '-';
    var body := if t != [] && (t[0] == '-' || t[0] == '+') then t[1..] else t;
    if !DigitGroups(body) then None
    else
      var n := ParseDigits(DropUnderscores(body));
      assert AllDigits(text) && text != [] ==> t == text && body == text && DropUnderscores(body) == text by {
        if AllDigits(text) && text != [] {
          StripDigits(text);
          DropNoUnderscore(text);
        }
      }
      Some(if negative then -(n as int) else n as int)
  }

  lemma StripDigits(s: string)
    requires AllDigits(s) && s != []
    ensures Strip(s) == s
  {
  }

  lemma {:induction false} DropNoUnderscore(s: string)
    requires AllDigits(s)
    ensures DropUnderscores(s) == s
  {
    if s != [] {
      DropNoUnderscore(s[1..]);
    }
  }
}

=== FILE: context.dfy ===
/** The context an SDK agent starts with: the system context, the rules
    that apply to the agent in priority order, the Task-tool ban warning,
    the agent's prompt and the project's status, joined by separators. */
module Context {
  import opened Common
  import opened Json

  // ---------------------------------------------------------------------
  // Priorities

  const PriorityNames: seq<(string, int)> := [("critical", 100), ("high", 90), ("medium", 50), ("low", 10)]
  const DefaultPriority: int := 50

  /** `priority_map.get(name, 50)`. */
  function NamedPriority(name: string): (p: int)
    ensures name == "critical" ==> p == 100
    ensures name == "high" ==> p == 90
    ensures name == "medium" ==> p == 50
    ensures name == "low" ==> p == 10
    ensures !HasKey(PriorityNames, name) ==> p == DefaultPriority
  {
    var i := IndexOf(PriorityNames, name);
    if i < 0 then DefaultPriority else PriorityNames[i].1
  }

  /** `normalize_priority(p)`: integers (booleans among them) are kept,
      strings are looked up ignoring case, anything else is 50. */
  function NormalizePriority(p: Value): (r: Value)
    ensures p.Num? || p.Bool? ==> r == p
    ensures p.Str? ==> r == Num(NamedPriority(Lower(p.s)))
    ensures !(p.Num? || p.Bool? || p.Str?) ==> r == Num(DefaultPriority)
  {
    match p
    case Num(_) => p
    case Bool(_) => p
    case Str(s) => Num(NamedPriority(Lower(s)))
    case _ => Num(DefaultPriority)
  }

  /** The sort key of a normalized priority (`True` sorts as 1). */
  function PriorityKey(p: Value): int {
    match p
    case Num(n) => n
    case Bool(b) => if b then 1 else 0
    case _ => DefaultPriority
  }

  /** The f-string text of a normalized priority. */
  function PriorityText(p: Value): string {
    match p
    case Num(n) => IntToString(n)
    case Bool(b) => if b then "True" else "False"
    case _ => IntToString(DefaultPriority)
  }

  /** Upper-case names are recognised too. */
  lemma NamedPriorityIgnoresCase()
    ensures NormalizePriority(Str("HIGH")) == Num(90)
    ensures NormalizePriority(Str("urgent")) == Num(DefaultPriority)
  {
    assert Lower("HIGH") == "high";
    assert Lower("urgent") == "urgent";
    assert !HasKey(PriorityNames, "urgent");
  }

  // ---------------------------------------------------------------------
  // Rules for an agent

  /** One applicable rule: name, normalized priority, rule text. */
  datatype RuleEntry = RuleEntry(name: Value, priority: Value, text: Value)

  function EntryKey(e: RuleEntry): int {
    PriorityKey(e.priority)
  }

  /** `agent in applies_to or "*" in applies_to`; None where `in` raises
      on the value. */
  function AppliesTo(appliesTo: Value, agent: string): (r: Option<bool>)
    ensures appliesTo.List? ==> r == Some(Str(agent) in appliesTo.items || Str("*") in appliesTo.items)
  {
    match appliesTo
    case List(items) => Some(Str(agent) in items || Str("*") in items)
    case Str(s) => Some(Contains(s, agent) || Contains(s, "*"))
    case Dict(entries) => Some(HasKey(entries, agent) || HasKey(entries, "*"))
    case _ => None
  }

  /** Whether a fallback index item is a rule for `agent`; None where
      reading it raises. */
  function Selects(item: Value, agent: string): Option<bool> {
    if !item.Dict? then None
    else if Get(item.entries, "type") != Some(Str("rule")) then Some(false)
    else AppliesTo(Get(item.entries, "applies_to").GetOr(List([Str("*")])), agent)
  }

  function FallbackEntry(item: Value): Option<RuleEntry> {
    if !item.Dict? || !HasKey(item.entries, "name") then None
    else
      Some(RuleEntry(Get(item.entries, "name").value,
                     NormalizePriority(Get(item.entries, "priority").GetOr(Num(50))),
                     Get(item.entries, "rule_text").GetOr(Str(""))))
  }

  /** The selected items' entries, in index order. */
  function FallbackRules(items: seq<Value>, agent: string): (r: Option<seq<RuleEntry>>)
    ensures r.Some? ==> forall e :: e in r.value <==>
              exists i :: 0 <= i < |items| && Selects(items[i], agent) == Some(true) && FallbackEntry(items[i]) == Some(e)
    ensures r.Some? ==> |r.value| == CountWhere(items, (it: Value) => Selects(it, agent) == Some(true))
  {
    if items == [] then Some([])
    else
      match Selects(items[0], agent)
      case None => None
      case Some(sel) =>
        var entry := FallbackEntry(items[0]);
        if sel && entry.None? then None
        else
          match FallbackRules(items[1..], agent)
          case None => None
          case Some(rest) =>
            assert forall i :: 1 <= i < |items| ==> items[i] == items[1..][i - 1];
            Some((if sel then [entry.value] else []) + rest)
  }

  /** A row of the `rules_for_agent` query. */
  datatype Row = Row(name: Value, priority: Value, rule: Value)

  /** `load_rules_for_agent(agent)` as its list of entries, highest
      priority first: the query rows when the query succeeds (`rows` is
      None when it raises QueryError), else the rule items of the index
      that apply to the agent or to every agent.  None where the fallback
      raises. */
  function RulesForAgent(agent: string, rows: Option<seq<Row>>, index: Value): (r: Option<seq<RuleEntry>>)
    ensures r.Some? ==> SortedDescBy(r.value, EntryKey)
    ensures rows.Some? ==> r.Some? && |r.value| == |rows.value|
    ensures rows.Some? ==> multiset(r.value) == multiset(RowEntries(rows.value))
    ensures rows.None? && r.Some? ==>
              && index.Dict?
              && var items := Get(index.entries, "items").GetOr(List([]));
                 && items.List? && FallbackRules(items.items, agent).Some?
                 && multiset(r.value) == multiset(FallbackRules(items.items, agent).value)
  {
    match rows
    case Some(rs) => Some(SortDescBy(RowEntries(rs), EntryKey))
    case None =>
      if !index.Dict? then None
      else
        var items := Get(index.entries, "items").GetOr(List([]));
        if !items.List? then None
        else
          match FallbackRules(items.items, agent)
          case None => None
          case Some(entries) => Some(SortDescBy(entries, EntryKey))
  }

  function RowEntries(rows: seq<Row>): (r: seq<RuleEntry>)
    ensures |r| == |rows|
    ensures forall i :: 0 <= i < |rows| ==> r[i] == RuleEntry(rows[i].name, NormalizePriority(rows[i].priority), rows[i].rule)
  {
    seq(|rows|, i requires 0 <= i < |rows| => RuleEntry(rows[i].name, NormalizePriority(rows[i].priority), rows[i].rule))
  }

  const RulesHeading := "## Active Rules\n\n"

  /** The rules section; empty when no rule applies.  `show` is the
      f-string rendering of a value.  Rule `i`'s block sits right after the
      heading and the blocks of the rules before it. */
  function RulesText(entries: seq<RuleEntry>, show: Value -> string): (r: string)
    ensures entries == [] <==> r == ""
    ensures entries != [] ==> IsPrefix(RulesHeading, r)
    ensures InPlace(r, Blocks(entries, show))
  {
    if entries == [] then ""
    else
      var bs := Blocks(entries, show);
      BlocksInOrder(bs);
      RulesHeading + Flatten(bs)
  }

  /** One rule's block: its heading with name and priority, then its text. */
  function Block(e: RuleEntry, show: Value -> string): (b: string)
    ensures IsPrefix("### ", b) && IsSuffix("\n\n", b)
  {
    "### " + show(e.name) + " (priority: " + PriorityText(e.priority) + ")\n" + show(e.text) + "\n\n"
  }

  function Blocks(entries: seq<RuleEntry>, show: Value -> string): (bs: seq<string>)
    ensures |bs| == |entries|
    ensures forall i :: 0 <= i < |entries| ==> bs[i] == Block(entries[i], show)
  {
    seq(|entries|, i requires 0 <= i < |entries| => Block(entries[i], show))
  }

  /** Block `i` of `r` sits right after the heading and the blocks before
      it. */
  predicate InPlace(r: string, bs: seq<string>) {
    forall i :: 0 <= i < |bs| ==> MatchAt(r, bs[i], |RulesHeading| + BlockStart(bs, i))
  }

  /** Every block sits at its place behind the heading. */
  lemma BlocksInOrder(bs: seq<string>)
    ensures InPlace(RulesHeading + Flatten(bs), bs)
  {
    forall i | 0 <= i < |bs|
      ensures MatchAt(RulesHeading + Flatten(bs), bs[i], |RulesHeading| + BlockStart(bs, i))
    {
      BlockAfterHeading(bs, i);
    }
  }

  /** Behind the heading, block `k` sits at the heading's length plus its
      start among the blocks. */
  lemma BlockAfterHeading(bs: seq<string>, k: nat)
    requires k < |bs|
    ensures MatchAt(RulesHeading + Flatten(bs), bs[k], |RulesHeading| + BlockStart(bs, k))
  {
    Common.BlockAt(bs, k);
    var whole := RulesHeading + Flatten(bs);
    var at := |RulesHeading| + BlockStart(bs, k);
    forall j | 0 <= j < |bs[k]| ensures whole[at + j] == bs[k][j] {
      assert whole[at + j] == Flatten(bs)[BlockStart(bs, k) + j];
    }
    assert whole[at..at + |bs[k]|] == bs[k];
  }

  /** `load_rules_for_agent(agent)`: "" without an index file. */
  function LoadRulesForAgent(agent: string, indexExists: bool, rows: Option<seq<Row>>, index: Value,
                             show: Value -> string): (r: Option<string>)
    ensures !indexExists ==> r == Some("")
    ensures indexExists && rows.Some? ==> r.Some? && (r.value == "" <==> rows.value == [])
  {
    if !indexExists then Some("")
    else
      match RulesForAgent(agent, rows, index)
      case None => None
      case Some(entries) => Some(RulesText(entries, show))
  }

  // ---------------------------------------------------------------------
  // Agent configuration and prompt

  /** `load_agent_config(agent)`: {} for a missing file or an empty
      document. */
  function LoadAgentConfig(present: bool, parsed: Value): (r: Value)
    ensures !present || !Truthy(parsed) ==> r == Dict([])
    ensures present && Truthy(parsed) ==> r == parsed
  {
    if !present || !Truthy(parsed) then Dict([]) else parsed
  }

  /** `load_agent_prompt(agent)`: "" for a missing file; the prompt field
      (default "") of the document, None when the document is not a
      mapping. */
  function LoadAgentPrompt(present: bool, parsed: Value): (r: Option<Value>)
    ensures !present ==> r == Some(Str(""))
    ensures present && parsed.Dict? ==> r == Some(Get(parsed.entries, "prompt").GetOr(Str("")))
    ensures present && !parsed.Dict? ==> r.None?
  {
    if !present then Some(Str(""))
    else if parsed.Dict? then Some(Get(parsed.entries, "prompt").GetOr(Str("")))
    else None
  }

  // ---------------------------------------------------------------------
  // Project context

  predicate Passes(f: Value) {
    f.Dict? && Truthy(Get(f.entries, "passes").GetOr(Null))
  }

  predicate Pending(f: Value) {
    !Passes(f)
  }

  /** The first feature that does not pass. */
  function FirstPending(features: seq<Value>): (i: int)
    ensures -1 <= i < |features|
    ensures i >= 0 ==> Pending(features[i]) && forall j :: 0 <= j < i ==> Passes(features[j])
    ensures i < 0 ==> forall j :: 0 <= j < |features| ==> Passes(features[j])
  {
    if features == [] then -1
    else if Pending(features[0]) then 0
    else
      var i := FirstPending(features[1..]);
      assert forall j :: 1 <= j < |features| ==> features[j] == features[1..][j - 1];
      if i < 0 then -1 else i + 1
  }

  /** The lines the feature list contributes; None where reading it
      raises (a document that is not a mapping, a feature that is not
      one). */
  function FeatureParts(data: Value, show: Value -> string): (r: Option<seq<string>>)
    ensures r.Some? ==> data.Dict?
    ensures r.Some? ==>
              var features := Get(data.entries, "features").GetOr(List([]));
              Truthy(features) && features.List? ==>
                ProgressLine(features.items) in r.value
  {
    if !data.Dict? then None
    else
      var d := data.entries;
      var head := (if Truthy(Get(d, "project").GetOr(Null)) then ["**Project**: " + show(Get(d, "project").value)] else [])
                  + (if Truthy(Get(d, "description").GetOr(Null)) then ["**Description**: " + show(Get(d, "description").value)] else []);
      var features := Get(d, "features").GetOr(List([]));
      if !Truthy(features) then Some(head)
      else if !features.List? || exists i :: 0 <= i < |features.items| && !features.items[i].Dict? then None
      else
        var fs := features.items;
        var i := FirstPending(fs);
        var next := if i < 0 then []
                    else
                      var f := fs[i].entries;
                      ["**Next feature**: " + show(Get(f, "id").GetOr(Null)) + " - " + show(Get(f, "name").GetOr(Null))]
                      + (if Truthy(Get(f, "description").GetOr(Null)) then ["  " + show(Get(f, "description").value)] else []);
        Some(head + [ProgressLine(fs)] + next)
  }

  /** "**Progress**: <passing>/<total> features complete". */
  function ProgressLine(features: seq<Value>): string {
    "**Progress**: " + NatToString(CountWhere(features, Passes)) + "/" + NatToString(|features|) + " features complete"
  }

  /** The next-feature line names the first feature that does not pass. */
  lemma NextFeatureIsFirstPending(data: Value, show: Value -> string)
    requires data.Dict?
    requires var features := Get(data.entries, "features").GetOr(List([]));
             features.List? && features.items != []
             && (forall i :: 0 <= i < |features.items| ==> features.items[i].Dict?)
    ensures var fs := Get(data.entries, "features").value.items;
            var i := FirstPending(fs);
            i >= 0 ==>
              && FeatureParts(data, show).Some?
              && "**Next feature**: " + show(Get(fs[i].entries, "id").GetOr(Null)) + " - " + show(Get(fs[i].entries, "name").GetOr(Null))
              in FeatureParts(data, show).value
  {
  }

  /** The progress part: the first 40 lines of `progress.txt`, stripped. */
  function ProgressPart(lines: seq<string>): (r: Option<string>)
    ensures r.Some? ==> IsPrefix("\n**Recent Progress**:\n", r.value)
    ensures r.None? <==> Strip(JoinAll(Prefix(lines, 40))) == ""
  {
    var text := Strip(JoinAll(Prefix(lines, 40)));
    if text == "" then None else Some("\n**Recent Progress**:\n" + text)
  }

  /** `"".join(lines)`. */
  function JoinAll(lines: seq<string>): string {
    if lines == [] then "" else lines[0] + JoinAll(lines[1..])
  }

  /** What a feature-list file yields: absent, unreadable JSON, or a value. */
  datatype FeatureFile = NoFeatureFile | BadJson | FeatureJson(data: Value)

  /** `load_project_context(project)`: "" for a missing project or when
      nothing is known about it; otherwise the feature-list lines, then
      the recent progress, joined by newlines.  `progress` is the lines of
      `progress.txt` when it exists.  None where the feature list raises. */
  function LoadProjectContext(projectExists: bool, features: FeatureFile, progress: Option<seq<string>>,
                              show: Value -> string): (r: Option<string>)
    ensures !projectExists ==> r == Some("")
    ensures projectExists && features != NoFeatureFile && features != BadJson && r.Some? ==> features.data.Dict?
    ensures projectExists && (features == NoFeatureFile || features == BadJson) && progress.None? ==> r == Some("")
  {
    if !projectExists then Some("")
    else
      var fromFeatures := match features
        case NoFeatureFile => Some([])
        case BadJson => Some([])
        case FeatureJson(data) => FeatureParts(data, show);
      if fromFeatures.None? then None
      else
        var fromProgress := if progress.Some? then ProgressPart(progress.value) else None;
        var parts := fromFeatures.value + (if fromProgress.Some? then [fromProgress.value] else []);
        Some(if parts == [] then "" else Join(parts, "\n"))
  }

  // ---------------------------------------------------------------------
  // The assembled context

  const TaskToolBanWarning: string := @"# CRITICAL: Task Tool is BANNED

**DO NOT use Claude Code's built-in Task tool.** This is an absolute rule.

The Task tool launches subagents that:
- Don't follow pilot's rules and guidelines
- Break observability (not logged to logs/agents/)
- Bypass the git-reviewer process
- Cannot be tracked or audited

## Banned subagent_types

The Task tool's `subagent_type` parameter launches these BANNED agents:
- `general-purpose`
- `Explore`
- `Plan`
- `code-architect-reviewer`

**ALL of these are BANNED.** Do not invoke the Task tool with any subagent_type.

## Correct Approach

Use `lib.invoke` to delegate to proper subagents:

```bash
uv run python -m lib.invoke builder ""task description""
uv run python -m lib.invoke web-researcher ""research question""
uv run python -m lib.invoke verifier ""verification task""
```

These invocations:
- Are logged to logs/agents/ for observability
- Follow pilot's rules and guidelines
- Integrate with the run tracking system
- Produce auditable outputs

## Violations

If you use the Task tool, your work will not be properly tracked and may need
to be redone. Always use lib.invoke for delegation."

  const PartSeparator: string := "\n\n---\n\n"

  /** A part that is present only when its text is non-empty. */
  function Optional(text: string, part: string): (r: seq<string>)
    ensures text == "" <==> r == []
    ensures text != "" ==> r == [part]
  {
    if text != "" then [part] else []
  }

  /** The parts of the context in their fixed order: system, rules,
      warning, prompt, project; each optional part only when non-empty. */
  function ContextParts(system: string, rules: string, warning: string, prompt: string, project: string): (parts: seq<string>)
    ensures var w := (if system != "" then 1 else 0) + (if rules != "" then 1 else 0);
            && |parts| == w + 1 + (if prompt != "" then 1 else 0) + (if project != "" then 1 else 0)
            && parts[w] == warning
            && (system != "" ==> parts[0] == "# System Context\n\n" + system)
            && (rules != "" ==> parts[w - 1] == rules)
            && (prompt != "" ==> parts[w + 1] == "# Agent Instructions\n\n" + prompt)
            && (project != "" ==> parts[|parts| - 1] == "# Project Context\n\n" + project)
  {
    var a := Optional(system, "# System Context\n\n" + system);
    var b := Optional(rules, rules);
    var c := Optional(prompt, "# Agent Instructions\n\n" + prompt);
    var d := Optional(project, "# Project Context\n\n" + project);
    var head := a + b;
    var parts := head + [warning] + c + d;
    assert |head| == (if system != "" then 1 else 0) + (if rules != "" then 1 else 0);
    assert |c| == (if prompt != "" then 1 else 0) && |d| == (if project != "" then 1 else 0);
    assert parts[|head|] == warning;
    assert system != "" ==> parts[0] == head[0] == a[0];
    assert rules != "" ==> parts[|head| - 1] == head[|head| - 1] == b[0];
    assert prompt != "" ==> parts[|head| + 1] == c[0];
    parts
  }

  /** `build_context(agent, project_id)` with `warning` as the ban
      warning: the warning is always there, and alone when nothing else
      is known.  The project part is looked up only for a given project
      id. */
  function Assemble(system: string, rules: string, warning: string, prompt: string, projectId: string, project: string): (r: string)
    ensures Contains(r, warning)
    ensures projectId == "" ==> r == Join(ContextParts(system, rules, warning, prompt, ""), PartSeparator)
    ensures system == "" && rules == "" && prompt == "" && projectId == "" ==> r == warning
    ensures system != "" ==> IsPrefix("# System Context\n\n" + system, r)
    ensures prompt != "" ==> Contains(r, "# Agent Instructions\n\n" + prompt)
    ensures projectId != "" && project != "" ==> Contains(r, "# Project Context\n\n" + project)
  {
    var parts := ContextParts(system, rules, warning, prompt, if projectId != "" then project else "");
    var w := (if system != "" then 1 else 0) + (if rules != "" then 1 else 0);
    JoinHoldsParts(parts, PartSeparator);
    assert system == "" && rules == "" && prompt == "" && projectId == "" ==> parts == [warning];
    Join(parts, PartSeparator)
  }

  /** `build_context(agent, project_id)`: the warning is always there. */
  function BuildContext(system: string, rules: string, prompt: string, projectId: string, project: string): (r: string)
    ensures Contains(r, TaskToolBanWarning)
    ensures projectId == "" ==> r == Join(ContextParts(system, rules, TaskToolBanWarning, prompt, ""), PartSeparator)
  {
    Assemble(system, rules, TaskToolBanWarning, prompt, projectId, project)
  }

  /** With nothing else known the context is exactly the warning. */
  lemma BareContextIsWarning()
    ensures BuildContext("", "", "", "", "") == TaskToolBanWarning
  {
    assert BuildContext("", "", "", "", "") == Assemble("", "", TaskToolBanWarning, "", "", "");
  }
}

=== FILE: creator.dfy ===
/** Building a customer benchmark: reading sections and lists out of the
    research service's replies, the fallback and filler questions, sizing
    and numbering the generated question list, and the quality check a
    finished benchmark goes through. */
module Creator {
  import opened Common
  import opened Json
  import opened Benchmark

  type Entries = seq<(string, Value)>

  // ---------------------------------------------------------------------
  // Reading replies

  /** `isinstance(v, dict) and key in v`. */
  predicate Holds(v: Value, key: string) {
    v.Dict? && HasKey(v.entries, key)
  }

  /** The inner loop of `_extract_section`: the value under `key` in the
      first top-level value that is an object holding `key`. */
  function NestedGet(entries: Entries, key: string): (r: Option<Value>)
    ensures r.Some? <==> exists i :: 0 <= i < |entries| && Holds(entries[i].1, key)
    ensures r.Some? ==> (exists i :: 0 <= i < |entries| && Holds(entries[i].1, key)
                           && r == Get(entries[i].1.entries, key)
                           && forall j :: 0 <= j < i ==> !Holds(entries[j].1, key))
    decreases |entries|
  {
    if entries == [] then None
    else if Holds(entries[0].1, key) then Get(entries[0].1.entries, key)
    else
      var r := NestedGet(entries[1..], key);
      assert forall i :: 1 <= i < |entries| ==> entries[i] == entries[1..][i - 1];
      r
  }

  /** One key of `_extract_section`: the top-level value first, else a
      nested one. */
  function KeyHit(entries: Entries, key: string): Option<Value> {
    if HasKey(entries, key) then Get(entries, key) else NestedGet(entries, key)
  }

  /** The position of the first of `keys` that hits, or -1. */
  function FirstHit(entries: Entries, keys: seq<string>): (k: int)
    ensures -1 <= k < |keys|
    ensures k >= 0 ==> KeyHit(entries, keys[k]).Some?
    ensures forall j :: 0 <= j < |keys| && (k < 0 || j < k) ==> KeyHit(entries, keys[j]).None?
    decreases |keys|
  {
    if keys == [] then -1
    else if KeyHit(entries, keys[0]).Some? then 0
    else
      var k := FirstHit(entries, keys[1..]);
      assert forall j :: 1 <= j < |keys| ==> keys[j] == keys[1..][j - 1];
      if k < 0 then -1 else k + 1
  }

  /** `_extract_section(output, keys)`: None (Python's None) for anything
      but an object, else the hit of the first key, in order, that hits. */
  function ExtractSection(output: Value, keys: seq<string>): (r: Option<Value>)
    ensures !output.Dict? ==> r.None?
    ensures output.Dict? ==> (r.Some? <==> exists i :: 0 <= i < |keys| && KeyHit(output.entries, keys[i]).Some?)
    ensures r.Some? ==> (exists i :: 0 <= i < |keys| && r == KeyHit(output.entries, keys[i])
                           && forall j :: 0 <= j < i ==> KeyHit(output.entries, keys[j]).None?)
  {
    if !output.Dict? then None
    else
      var k := FirstHit(output.entries, keys);
      if k < 0 then None else KeyHit(output.entries, keys[k])
  }

  /** A key found at the top level is taken from there, whatever the
      nested objects hold. */
  lemma TopLevelWins(output: Value, keys: seq<string>, i: int)
    requires output.Dict? && 0 <= i < |keys| && HasKey(output.entries, keys[i])
    requires forall j :: 0 <= j < i ==> KeyHit(output.entries, keys[j]).None?
    ensures ExtractSection(output, keys) == Get(output.entries, keys[i])
  {
    assert KeyHit(output.entries, keys[i]) == Get(output.entries, keys[i]);
    var r := ExtractSection(output, keys);
    assert r.Some?;
    var k :| 0 <= k < |keys| && r == KeyHit(output.entries, keys[k])
              && forall j :: 0 <= j < k ==> KeyHit(output.entries, keys[j]).None?;
    assert KeyHit(output.entries, keys[k]).Some? && KeyHit(output.entries, keys[i]).Some?;
    assert k == i;
  }

  /** The first of `keys` whose value is a list, with that list. */
  function FirstListUnder(entries: Entries, keys: seq<string>): (r: Option<seq<Value>>)
    ensures r.Some? <==> exists i :: 0 <= i < |keys| && IsListAt(entries, keys[i])
    ensures r.Some? ==> (exists i :: 0 <= i < |keys| && IsListAt(entries, keys[i])
                           && Get(entries, keys[i]) == Some(List(r.value))
                           && forall j :: 0 <= j < i ==> !IsListAt(entries, keys[j]))
    decreases |keys|
  {
    if keys == [] then None
    else if IsListAt(entries, keys[0]) then Some(Get(entries, keys[0]).value.items)
    else
      var r := FirstListUnder(entries, keys[1..]);
      assert forall i :: 1 <= i < |keys| ==> keys[i] == keys[1..][i - 1];
      r
  }

  /** `key in d and isinstance(d[key], list)`. */
  predicate IsListAt(entries: Entries, key: string) {
    var v := Get(entries, key);
    v.Some? && v.value.List?
  }

  /** What `json.loads` promises that the recursion on decoded strings
      relies on: a JSON text decoding to a string is longer than that
      string, since it carries the quotes. */
  ghost predicate ShrinksStrings(loads: string -> Option<Value>) {
    forall t :: loads(t).Some? && loads(t).value.Str? ==> |loads(t).value.s| < |t|
  }

  function StrSize(v: Value): nat {
    if v.Str? then |v.s| + 1 else 0
  }

  const UseCaseKeys: seq<string> := ["use_cases", "cases", "results", "items"]
  const QuestionKeys: seq<string> := ["questions", "items", "results", "benchmark_questions"]
  const NameKey: string := "name"
  const DescriptionKey: string := "description"

  /** `_parse_use_cases(output)`: a list as it is; in an object the first
      known key holding a list, else the object itself when it has a name
      and a description; a string is decoded and parsed again; anything
      else gives []. */
  function ParseUseCases(output: Value, loads: string -> Option<Value>): (r: seq<Value>)
    requires ShrinksStrings(loads)
    ensures output.List? ==> r == output.items
    ensures output.Dict? && FirstListUnder(output.entries, UseCaseKeys).Some? ==>
              r == FirstListUnder(output.entries, UseCaseKeys).value
    ensures output.Dict? && FirstListUnder(output.entries, UseCaseKeys).None? ==>
              r == (if HasKey(output.entries, NameKey) && HasKey(output.entries, DescriptionKey) then [output] else [])
    ensures output.Str? ==> r == (if loads(output.s).Some? then ParseUseCases(loads(output.s).value, loads) else [])
    ensures !output.List? && !output.Dict? && !output.Str? ==> r == []
    decreases StrSize(output)
  {
    match output
    case List(items) => items
    case Dict(entries) =>
      var listed := FirstListUnder(entries, UseCaseKeys);
      if listed.Some? then listed.value
      else if HasKey(entries, NameKey) && HasKey(entries, DescriptionKey) then [output]
      else []
    case Str(s) =>
      var parsed := loads(s);
      if parsed.Some? then ParseUseCases(parsed.value, loads) else []
    case _ => []
  }

  /** `_parse_questions(output)`: as `ParseUseCases` with its own keys and
      no single-object case. */
  function ParseQuestions(output: Value, loads: string -> Option<Value>): (r: seq<Value>)
    requires ShrinksStrings(loads)
    ensures output.List? ==> r == output.items
    ensures output.Dict? ==> r == FirstListUnder(output.entries, QuestionKeys).GetOr([])
    ensures output.Str? ==> r == (if loads(output.s).Some? then ParseQuestions(loads(output.s).value, loads) else [])
    ensures !output.List? && !output.Dict? && !output.Str? ==> r == []
    decreases StrSize(output)
  {
    match output
    case List(items) => items
    case Dict(entries) => FirstListUnder(entries, QuestionKeys).GetOr([])
    case Str(s) =>
      var parsed := loads(s);
      if parsed.Some? then ParseQuestions(parsed.value, loads) else []
    case _ => []
  }

  /** What either parser returns is a list the reply carried, once its
      strings are decoded: the decoded reply itself, the list under one of
      the known keys, the lone object when `lone` allows it, or nothing. */
  predicate CarriedList(output: Value, keys: seq<string>, lone: bool, r: seq<Value>) {
    r == [] || (output.List? && r == output.items)
    || (output.Dict? && exists i :: 0 <= i < |keys| && Get(output.entries, keys[i]) == Some(List(r)))
    || (lone && output.Dict? && r == [output])
  }

  lemma {:induction false} ParseQuestionsCarried(output: Value, loads: string -> Option<Value>)
    requires ShrinksStrings(loads)
    ensures (exists v :: DecodesTo(output, loads, v) && CarriedList(v, QuestionKeys, false, ParseQuestions(output, loads)))
    decreases StrSize(output)
  {
    if output.Str? && loads(output.s).Some? {
      var v := loads(output.s).value;
      ParseQuestionsCarried(v, loads);
      var w :| DecodesTo(v, loads, w) && CarriedList(w, QuestionKeys, false, ParseQuestions(v, loads));
      assert DecodesTo(output, loads, w);
    } else {
      assert DecodesTo(output, loads, output);
    }
  }

  lemma {:induction false} ParseUseCasesCarried(output: Value, loads: string -> Option<Value>)
    requires ShrinksStrings(loads)
    ensures (exists v :: DecodesTo(output, loads, v) && CarriedList(v, UseCaseKeys, true, ParseUseCases(output, loads)))
    decreases StrSize(output)
  {
    if output.Str? && loads(output.s).Some? {
      var v := loads(output.s).value;
      ParseUseCasesCarried(v, loads);
      var w :| DecodesTo(v, loads, w) && CarriedList(w, UseCaseKeys, true, ParseUseCases(v, loads));
      assert DecodesTo(output, loads, w);
    } else {
      assert DecodesTo(output, loads, output);
    }
  }

  /** `v` is `output`, or what decoding the strings in turn leads to. */
  predicate DecodesTo(output: Value, loads: string -> Option<Value>, v: Value)
    requires ShrinksStrings(loads)
    decreases StrSize(output)
  {
    v == output || (output.Str? && loads(output.s).Some? && DecodesTo(loads(output.s).value, loads, v))
  }

  // ---------------------------------------------------------------------
  // Fallback and filler questions

  const TempPrefix: string := "temp-"
  const AnalysisType: string := "analysis"

  /** The categories and difficulties in declaration order. */
  const AllCategories: seq<Category> := [Search, Enrichment, ResearchCat]
  const AllDifficulties: seq<Difficulty> := [Easy, Medium, Hard]

  /** The five question templates of a category. */
  function Templates(customer: string, category: Category): (r: seq<string>)
    ensures |r| == 5
  {
    match category
    case Search =>
      ["Find recent news articles about " + customer,
       "What are " + customer + "'s main competitors?",
       "Find " + customer + "'s latest product announcements",
       "What is " + customer + "'s current market position?",
       "Find information about " + customer + "'s leadership team"]
    case Enrichment =>
      ["What is " + customer + "'s headquarters location?",
       "How many employees does " + customer + " have?",
       "What is " + customer + "'s annual revenue?",
       "List " + customer + "'s main product categories",
       "What technologies does " + customer + " use?"]
    case ResearchCat =>
      ["Analyze " + customer + "'s competitive positioning",
       "What are the main trends affecting " + customer + "'s industry?",
       "Compare " + customer + " to its top 3 competitors",
       "What growth opportunities exist for " + customer + "?",
       "Summarize " + customer + "'s business strategy"]
  }

  function FallbackId(i: nat): string {
    TempPrefix + "fallback-" + Pad3(i + 1)
  }

  function ExtraId(i: nat): string {
    TempPrefix + "extra-" + Pad3(i + 1)
  }

  lemma ExtraIdProvisional(i: nat)
    ensures IsPrefix(TempPrefix, ExtraId(i))
  {
    assert ExtraId(i) == TempPrefix + ("extra-" + Pad3(i + 1));
  }

  lemma FallbackIdProvisional(i: nat)
    ensures IsPrefix(TempPrefix, FallbackId(i))
  {
    assert FallbackId(i) == TempPrefix + ("fallback-" + Pad3(i + 1));
  }

  function FallbackQuestion(customer: string, useCase: string, category: Category, i: nat): Question
    requires i < 5
  {
    Question(FallbackId(i), Templates(customer, category)[i], category, Medium,
             if category == Enrichment then FactualType else AnalysisType,
             Dict([("use_case", Str(useCase)), ("customer", Str(customer)), ("fallback", Bool(true))]),
             None, None, [])
  }

  /** `_fallback_questions(customer, use_case, category, count)`: the first
      min(count, 5) templates of the category, all of medium difficulty. */
  function Fallback(customer: string, useCase: string, category: Category, count: int): (r: seq<Question>)
    ensures |r| == (if count <= 0 then 0 else if count < 5 then count else 5)
    ensures forall i :: 0 <= i < |r| ==>
              r[i].difficulty == Medium && r[i].category == category
              && r[i].text == Templates(customer, category)[i] && r[i].id == FallbackId(i)
    ensures forall i :: 0 <= i < |r| ==> IsPrefix(TempPrefix, r[i].id)
  {
    var n := if count <= 0 then 0 else if count < 5 then count else 5;
    var r := seq(n, i requires 0 <= i < n => FallbackQuestion(customer, useCase, category, i));
    forall i | 0 <= i < n ensures IsPrefix(TempPrefix, r[i].id) {
      FallbackIdProvisional(i);
    }
    r
  }

  /** The fill loop of `_generate_questions_for_use_case`: fallback
      batches are appended until there are `count` questions. Every batch
      is non-empty and no larger than what is missing, so the loop ends
      with exactly `count`. */
  method FillWithFallback(customer: string, useCase: string, category: Category,
                          qs: seq<Question>, count: int) returns (r: seq<Question>)
    ensures |qs| < count ==> |r| == count
    ensures |qs| >= count ==> r == qs
    ensures r[..|qs|] == qs
    ensures forall i :: |qs| <= i < |r| ==> r[i].difficulty == Medium && r[i].category == category
  {
    r := qs;
    while |r| < count
      invariant |qs| < count ==> |r| <= count
      invariant |qs| <= |r| && r[..|qs|] == qs
      invariant |qs| >= count ==> r == qs
      invariant forall i :: |qs| <= i < |r| ==> r[i].difficulty == Medium && r[i].category == category
      decreases count - |r|
    {
      var batch := Fallback(customer, useCase, category, count - |r|);
      r := r + batch;
    }
  }

  function ExtraQuestion(customer: string, i: nat): Question {
    Question(ExtraId(i), "Research question " + NatToString(i + 1) + " about " + customer,
             AllCategories[i % 3], AllDifficulties[i % 3], FactualType,
             Dict([("customer", Str(customer)), ("extra", Bool(true))]), None, None, [])
  }

  /** `_generate_extra_questions(customer, count)`: exactly `count`
      questions cycling through the categories and the difficulties. */
  function Extra(customer: string, count: int): (r: seq<Question>)
    ensures |r| == (if count <= 0 then 0 else count)
    ensures forall i :: 0 <= i < |r| ==>
              r[i].category == AllCategories[i % 3] && r[i].difficulty == AllDifficulties[i % 3]
              && r[i].id == ExtraId(i)
    ensures forall i :: 0 <= i < |r| ==> IsPrefix(TempPrefix, r[i].id)
  {
    var n := if count <= 0 then 0 else count;
    var r := seq(n, i requires 0 <= i < n => ExtraQuestion(customer, i));
    forall i | 0 <= i < n
      ensures r[i].category == AllCategories[i % 3] && r[i].difficulty == AllDifficulties[i % 3]
      ensures r[i].id == ExtraId(i) && IsPrefix(TempPrefix, r[i].id)
    {
      ExtraIdProvisional(i);
    }
    r
  }

  // ---------------------------------------------------------------------
  // Sizing and numbering

  /** The questions asked of each use case: the midpoint of the range
      split evenly, at least 5; the midpoint itself without use cases. */
  function PerUseCase(minCount: int, maxCount: int, useCases: nat): (r: int)
    ensures useCases > 0 ==> r >= 5
    ensures useCases > 0 ==> r >= ((minCount + maxCount) / 2) / useCases
    ensures useCases == 0 ==> r == (minCount + maxCount) / 2
  {
    var target := (minCount + maxCount) / 2;
    if useCases > 0 then (if target / useCases > 5 then target / useCases else 5) else target
  }

  function NumberedId(i: nat): string {
    "q-" + Pad3(i + 1)
  }

  predicate Provisional(id: string) {
    id == "" || IsPrefix(TempPrefix, id)
  }

  /** The numbering loop of `generate_questions`: an empty or provisional
      id becomes `q-NNN`, by position counted from 1. */
  function Numbered(qs: seq<Question>): (r: seq<Question>)
    ensures |r| == |qs|
    ensures forall i :: 0 <= i < |qs| ==>
              r[i] == qs[i].(id := if Provisional(qs[i].id) then NumberedId(i) else qs[i].id)
  {
    seq(|qs|, i requires 0 <= i < |qs| => qs[i].(id := if Provisional(qs[i].id) then NumberedId(i) else qs[i].id))
  }

  /** Distinct positions get distinct `q-NNN` ids. */
  lemma NumberedIdsDiffer(i: nat, j: nat)
    requires i != j
    ensures NumberedId(i) != NumberedId(j)
  {
    Pad3Injective(i + 1, j + 1);
    assert NumberedId(i)[2..] == Pad3(i + 1) && NumberedId(j)[2..] == Pad3(j + 1);
  }

  /** When every id is provisional, the numbering gives distinct ids. */
  lemma NumberedDistinct(qs: seq<Question>, i: int, j: int)
    requires forall q :: q in qs ==> Provisional(q.id)
    requires 0 <= i < j < |qs|
    ensures Numbered(qs)[i].id != Numbered(qs)[j].id
  {
    assert qs[i] in qs && qs[j] in qs;
    NumberedIdsDiffer(i, j);
  }

  function Flatten(batches: seq<seq<Question>>): (r: seq<Question>)
    ensures forall q :: q in r ==> exists b :: b in batches && q in b
  {
    if batches == [] then [] else Flatten(batches[..|batches| - 1]) + batches[|batches| - 1]
  }

  /** `generate_questions` after the per-use-case calls, whose results are
      `batches`: filler up to `minCount`, a cut at `maxCount`, then the
      numbering. */
  method GenerateQuestions(customer: string, batches: seq<seq<Question>>, minCount: int, maxCount: int)
    returns (r: seq<Question>)
    ensures 0 <= minCount <= maxCount ==> minCount <= |r| <= maxCount
    ensures maxCount >= 0 ==> |r| <= maxCount
    ensures |Flatten(batches)| >= minCount && 0 <= |Flatten(batches)| <= maxCount ==>
              |r| == |Flatten(batches)|
    ensures (forall b, q :: b in batches && q in b ==> IsPrefix(TempPrefix, q.id)) ==>
              forall i :: 0 <= i < |r| ==> r[i].id == NumberedId(i)
  {
    var all := Flatten(batches);
    while |all| < minCount
      invariant |Flatten(batches)| <= |all|
      invariant |Flatten(batches)| >= minCount ==> all == Flatten(batches)
      invariant |Flatten(batches)| < minCount ==> |all| <= minCount
      invariant (forall b, q :: b in batches && q in b ==> IsPrefix(TempPrefix, q.id)) ==>
                  forall q :: q in all ==> IsPrefix(TempPrefix, q.id)
      decreases minCount - |all|
    {
      var extra := Extra(customer, minCount - |all|);
      all := all + extra;
    }
    if |all| > maxCount {
      all := PySlicePrefix(all, maxCount);
    }
    r := Numbered(all);
    if forall b, q :: b in batches && q in b ==> IsPrefix(TempPrefix, q.id) {
      forall i | 0 <= i < |r| ensures r[i].id == NumberedId(i) {
        assert all[i] in all;
      }
    }
  }

  // ---------------------------------------------------------------------
  // Validation

  const MinQuestions: int := 30
  const MinPerCategory: int := 5
  const MinPerDifficulty: int := 3
  const MinTextLength: int := 20

  datatype Issue =
    | TooFew(count: int)
    | FewInCategory(category: Category, count: int)
    | FewInDifficulty(difficulty: Difficulty, count: int)
    | Duplicates
    | TooShort(count: int)
  {
    /** The message `validate_benchmark` reports. */
    function Message(): string {
      match this
      case TooFew(n) => "Too few questions: " + IntToString(n) + " (minimum 30)"
      case FewInCategory(c, n) => "Insufficient " + c.Value() + " questions: " + IntToString(n) + " (minimum 5)"
      case FewInDifficulty(d, n) => "Insufficient " + d.Value() + " questions: " + IntToString(n) + " (minimum 3)"
      case Duplicates => "Duplicate questions detected"
      case TooShort(n) => IntToString(n) + " questions are too short (< 20 chars)"
    }
  }

  datatype Validation = Validation(valid: bool, issues: seq<Issue>)

  /** The text compared for duplicates: `q.text.lower().strip()`. */
  function Normalized(q: Question): string {
    Strip(Lower(q.text))
  }

  function NormalizedTexts(qs: seq<Question>): (r: seq<string>)
    ensures |r| == |qs| && forall i :: 0 <= i < |qs| ==> r[i] == Normalized(qs[i])
  {
    seq(|qs|, i requires 0 <= i < |qs| => Normalized(qs[i]))
  }

  predicate IsShort(q: Question) {
    |q.text| < MinTextLength
  }

  /** The category issues, in declaration order. */
  function CategoryIssues(counts: Counts): (r: seq<Issue>)
    ensures forall c: Category :: FewInCategory(c, Lookup(counts, c.Value())) in r
              <==> Lookup(counts, c.Value()) < MinPerCategory
    ensures forall x :: x in r ==> x.FewInCategory? && x.count == Lookup(counts, x.category.Value())
  {
    var s := Lookup(counts, Search.Value());
    var e := Lookup(counts, Enrichment.Value());
    var x := Lookup(counts, ResearchCat.Value());
    var r := Kept3(s < MinPerCategory, FewInCategory(Search, s),
                   e < MinPerCategory, FewInCategory(Enrichment, e),
                   x < MinPerCategory, FewInCategory(ResearchCat, x));
    forall c: Category
      ensures FewInCategory(c, Lookup(counts, c.Value())) in r <==> Lookup(counts, c.Value()) < MinPerCategory
    {
      assert c == Search || c == Enrichment || c == ResearchCat;
    }
    r
  }

  /** The difficulty issues, in declaration order. */
  function DifficultyIssues(counts: Counts): (r: seq<Issue>)
    ensures forall d: Difficulty :: FewInDifficulty(d, Lookup(counts, d.Value())) in r
              <==> Lookup(counts, d.Value()) < MinPerDifficulty
    ensures forall x :: x in r ==> x.FewInDifficulty? && x.count == Lookup(counts, x.difficulty.Value())
  {
    var e := Lookup(counts, Easy.Value());
    var m := Lookup(counts, Medium.Value());
    var h := Lookup(counts, Hard.Value());
    var r := Kept3(e < MinPerDifficulty, FewInDifficulty(Easy, e),
                   m < MinPerDifficulty, FewInDifficulty(Medium, m),
                   h < MinPerDifficulty, FewInDifficulty(Hard, h));
    forall d: Difficulty
      ensures FewInDifficulty(d, Lookup(counts, d.Value())) in r <==> Lookup(counts, d.Value()) < MinPerDifficulty
    {
      assert d == Easy || d == Medium || d == Hard;
    }
    r
  }

  /** `len(texts) != len(set(texts))`. */
  function HasDuplicateTexts(qs: seq<Question>): (r: bool)
    ensures r <==> !NoDups(NormalizedTexts(qs))
  {
    var texts := NormalizedTexts(qs);
    SetSizeNoDups(texts);
    |set t | t in texts| != |texts|
  }

  /** A list has as many distinct elements as entries exactly when no
      entry repeats. */
  lemma {:induction false} SetSizeNoDups<T>(s: seq<T>)
    ensures |set x | x in s| <= |s|
    ensures |set x | x in s| == |s| <==> NoDups(s)
    decreases |s|
  {
    if s != [] {
      var init := s[..|s| - 1];
      var last := s[|s| - 1];
      SetSizeNoDups(init);
      assert (set x | x in s) == (set x | x in init) + {last};
      if last in init {
        var k :| 0 <= k < |init| && init[k] == last;
        assert s[k] == s[|s| - 1];
        assert (set x | x in s) == (set x | x in init);
      } else {
        if NoDups(init) {
          forall i, j | 0 <= i < j < |s| ensures s[i] != s[j] {
            if j == |s| - 1 { assert s[i] == init[i]; } else { assert s[i] == init[i] && s[j] == init[j]; }
          }
        }
        if NoDups(s) {
          forall i, j | 0 <= i < j < |init| ensures init[i] != init[j] {
            assert init[i] == s[i] && init[j] == s[j];
          }
        }
      }
    }
  }

  /** The checks of `validate_benchmark` on questions `qs` whose counts
      by category and difficulty are `counts`. */
  function Check(qs: seq<Question>, counts: QuestionCounts): (r: Validation)
    ensures r.valid <==> r.issues == []
    ensures TooFew(|qs|) in r.issues <==> |qs| < MinQuestions
    ensures Duplicates in r.issues <==> !NoDups(NormalizedTexts(qs))
    ensures TooShort(CountWhere(qs, IsShort)) in r.issues <==> CountWhere(qs, IsShort) > 0
    ensures forall x: Issue :: x.FewInCategory? ==> (x in r.issues <==> x in CategoryIssues(counts.byCategory))
    ensures forall x: Issue :: x.FewInDifficulty? ==> (x in r.issues <==> x in DifficultyIssues(counts.byDifficulty))
  {
    var short := CountWhere(qs, IsShort);
    var few := if |qs| < MinQuestions then [TooFew(|qs|)] else [];
    var cats := CategoryIssues(counts.byCategory);
    var diffs := DifficultyIssues(counts.byDifficulty);
    var dup := if HasDuplicateTexts(qs) then [Duplicates] else [];
    var shortIssue := if short > 0 then [TooShort(short)] else [];
    var issues := few + cats + diffs + dup + shortIssue;
    IssueKinds(few, cats, diffs, dup, shortIssue, TooFew(|qs|));
    IssueKinds(few, cats, diffs, dup, shortIssue, Duplicates);
    IssueKinds(few, cats, diffs, dup, shortIssue, TooShort(short));
    forall x: Issue | x.FewInCategory? || x.FewInDifficulty?
      ensures x.FewInCategory? ==> (x in issues <==> x in cats)
      ensures x.FewInDifficulty? ==> (x in issues <==> x in diffs)
    {
      IssueKinds(few, cats, diffs, dup, shortIssue, x);
    }
    Validation(|issues| == 0, issues)
  }

  /** `validate_benchmark(benchmark)`: the issues in the order the checks
      run, valid when there are none. */
  function Validate(b: Bench): (r: Validation)
    ensures r.valid <==> r.issues == []
    ensures TooFew(|b.questions|) in r.issues <==> |b.questions| < MinQuestions
    ensures Duplicates in r.issues <==> !NoDups(NormalizedTexts(b.questions))
    ensures TooShort(CountWhere(b.questions, IsShort)) in r.issues <==> CountWhere(b.questions, IsShort) > 0
  {
    Check(b.questions, QuestionCountsOf(b))
  }

  /** Each check contributes issues of its own kind only. */
  lemma IssueKinds(few: seq<Issue>, cats: seq<Issue>, diffs: seq<Issue>, dup: seq<Issue>, short: seq<Issue>, x: Issue)
    requires forall y :: y in few ==> y.TooFew?
    requires forall y :: y in cats ==> y.FewInCategory?
    requires forall y :: y in diffs ==> y.FewInDifficulty?
    requires forall y :: y in dup ==> y.Duplicates?
    requires forall y :: y in short ==> y.TooShort?
    ensures x in few + cats + diffs + dup + short <==>
              (match x
               case TooFew(_) => x in few
               case FewInCategory(_, _) => x in cats
               case FewInDifficulty(_, _) => x in diffs
               case Duplicates => x in dup
               case TooShort(_) => x in short)
  {
  }

  /** The category and difficulty checks, in terms of the questions. */
  lemma ValidateCounts(b: Bench)
    ensures forall c: Category ::
              (FewInCategory(c, CountKey(b.questions, CategoryValue, c.Value())) in Validate(b).issues)
                <==> CountKey(b.questions, CategoryValue, c.Value()) < MinPerCategory
    ensures forall d: Difficulty ::
              (FewInDifficulty(d, CountKey(b.questions, DifficultyValue, d.Value())) in Validate(b).issues)
                <==> CountKey(b.questions, DifficultyValue, d.Value()) < MinPerDifficulty
  {
    var counts := QuestionCountsOf(b);
    var r := Validate(b);
    assert r == Check(b.questions, counts);
    forall c: Category
      ensures (FewInCategory(c, CountKey(b.questions, CategoryValue, c.Value())) in r.issues)
                <==> CountKey(b.questions, CategoryValue, c.Value()) < MinPerCategory
    {
      assert Lookup(counts.byCategory, c.Value()) == CountKey(b.questions, CategoryValue, c.Value());
    }
    forall d: Difficulty
      ensures (FewInDifficulty(d, CountKey(b.questions, DifficultyValue, d.Value())) in r.issues)
                <==> CountKey(b.questions, DifficultyValue, d.Value()) < MinPerDifficulty
    {
      assert Lookup(counts.byDifficulty, d.Value()) == CountKey(b.questions, DifficultyValue, d.Value());
    }
  }

  /** A benchmark is valid exactly when every threshold is met and no two
      questions read the same. */
  lemma ValidIff(b: Bench)
    ensures Validate(b).valid <==>
              |b.questions| >= MinQuestions
              && (forall c: Category :: CountKey(b.questions, CategoryValue, c.Value()) >= MinPerCategory)
              && (forall d: Difficulty :: CountKey(b.questions, DifficultyValue, d.Value()) >= MinPerDifficulty)
              && NoDups(NormalizedTexts(b.questions))
              && forall i :: 0 <= i < |b.questions| ==> !IsShort(b.questions[i])
  {
    CountWhereZero(b.questions, IsShort);
    ValidateCounts(b);
  }
}

=== FILE: detect_task_tool.dfy ===
/** The scan of agent logs for uses of the banned built-in Task tool.
    The logs directory is passed in as its agent directories and their
    decoded log files; times are seconds, and parsing a timestamp is
    delegated to the two parsers `datetime` offers. */
module DetectTaskTool {
  import opened Common
  import opened Json

  /** The subagent types the Task tool launches. */
  const BannedSubagentTypes: set<string> := {"general-purpose", "Explore", "Plan", "code-architect-reviewer", "statusline-setup"}

  // ---------------------------------------------------------------------
  // Timestamps

  /** The `strptime` formats tried, in order. */
  const Formats: seq<string> := ["%Y-%m-%dT%H:%M:%S.%f", "%Y-%m-%dT%H:%M:%S", "%Y-%m-%d %H:%M:%S.%f", "%Y-%m-%d %H:%M:%S"]

  /** `datetime.strptime(text, format)` and `datetime.fromisoformat(text)`,
      None where they raise ValueError. */
  datatype Parsers = Parsers(strptime: (string, string) -> Option<int>, fromIso: string -> Option<int>)

  /** The position of the first format that accepts `ts`, or -1. */
  function FirstAccepting(ts: string, fmts: seq<string>, p: Parsers): (k: int)
    ensures -1 <= k < |fmts|
    ensures k >= 0 ==> p.strptime(ts, fmts[k]).Some?
    ensures forall j :: 0 <= j < (if k < 0 then |fmts| else k) ==> p.strptime(ts, fmts[j]).None?
  {
    if fmts == [] then -1
    else if p.strptime(ts, fmts[0]).Some? then 0
    else
      var k := FirstAccepting(ts, fmts[1..], p);
      assert forall j :: 1 <= j < |fmts| ==> fmts[j] == fmts[1..][j - 1];
      if k < 0 then -1 else k + 1
  }

  /** `parse_timestamp(ts)`: None for the empty string; the first format
      that accepts it; else the ISO parser with "Z" read as "+00:00". */
  function ParseTimestamp(ts: string, p: Parsers): (r: Option<int>)
    ensures ts == "" ==> r.None?
    ensures ts != "" && p.strptime(ts, Formats[0]).Some? ==> r == p.strptime(ts, Formats[0])
    ensures ts != "" ==> forall k ::
              (0 <= k < |Formats| && p.strptime(ts, Formats[k]).Some? && forall j :: 0 <= j < k ==> p.strptime(ts, Formats[j]).None?)
              ==> r == p.strptime(ts, Formats[k])
    ensures ts != "" && (forall k :: 0 <= k < |Formats| ==> p.strptime(ts, Formats[k]).None?) ==>
              r == p.fromIso(ReplaceZ(ts))
  {
    if ts == "" then None
    else
      var k := FirstAccepting(ts, Formats, p);
      if k >= 0 then p.strptime(ts, Formats[k]) else p.fromIso(ReplaceZ(ts))
  }

  // ---------------------------------------------------------------------
  // One log file

  /** A violation: the log, its timestamp, the agent, the subagent type
      asked for and some context. */
  datatype Violation = Violation(logFile: string, timestamp: string, agent: string, taskType: Value, context: Value)

  const ContextLimit: nat := 200

  /** The first 200 characters of the prompt, marked when cut. */
  function Excerpt(prompt: string): (r: string)
    ensures |prompt| <= ContextLimit ==> r == prompt
    ensures |prompt| > ContextLimit ==> IsPrefix(prompt[..ContextLimit], r) && |r| == ContextLimit + 3
    ensures r == "" <==> prompt == ""
  {
    if |prompt| > ContextLimit then prompt[..ContextLimit] + "..." else prompt
  }

  /** A tool use of the banned tool. */
  predicate IsTaskUse(u: Value) {
    u.Dict? && Get(u.entries, "tool") == Some(Str("Task"))
  }

  /** The violation one Task use records; None where reading it raises. */
  function ViolationOf(input: Value, path: string, ts: string, agent: string): (r: Option<Violation>)
    ensures r.Some? ==> r.value.logFile == path && r.value.timestamp == ts && r.value.agent == agent
    ensures r.Some? ==> input.Dict? && Get(input.entries, "prompt").GetOr(Str("")).Str?
    ensures r.Some? ==> var d := input.entries;
              && r.value.taskType == Get(d, "subagent_type").GetOr(Str("unknown"))
              && (Get(d, "prompt").GetOr(Str("")) == Str("") ==> r.value.context == Get(d, "description").GetOr(Str("")))
              && (Get(d, "prompt").GetOr(Str("")) != Str("") ==> r.value.context == Str(Excerpt(Get(d, "prompt").value.s)))
  {
    if !input.Dict? then None
    else
      var d := input.entries;
      var prompt := Get(d, "prompt").GetOr(Str(""));
      if !prompt.Str? then None
      else
        var context := Excerpt(prompt.s);
        Some(Violation(path, ts, agent, Get(d, "subagent_type").GetOr(Str("unknown")),
                       if context != "" then Str(context) else Get(d, "description").GetOr(Str(""))))
  }

  /** The violations among a log's tool uses, in order. */
  function UseViolations(uses: seq<Value>, path: string, ts: string, agent: string): (r: Option<seq<Violation>>)
    ensures r.Some? ==> |r.value| == CountWhere(uses, IsTaskUse)
    ensures r.Some? ==> forall v :: v in r.value ==> v.logFile == path && v.timestamp == ts && v.agent == agent
  {
    if uses == [] then Some([])
    else
      var u := uses[0];
      if !u.Dict? then None
      else
        var rest := UseViolations(uses[1..], path, ts, agent);
        if rest.None? then None
        else if !IsTaskUse(u) then rest
        else
          match ViolationOf(Get(u.entries, "input").GetOr(Dict([])), path, ts, agent)
          case None => None
          case Some(v) => Some([v] + rest.value)
  }

  /** A log file: its path and its decoded content (None where the file
      does not decode or cannot be read). */
  datatype LogFile = LogFile(path: string, data: Option<Value>)

  datatype LogScan = OutOfWindow | Scanned(violations: seq<Violation>)

  /** Whether a log with timestamp `ts` is outside the window `since`. */
  predicate OutsideWindow(ts: string, since: Option<int>, p: Parsers) {
    since.Some? && (ParseTimestamp(ts, p).None? || ParseTimestamp(ts, p).value < since.value)
  }

  /** The tool uses a decoded log lists; None where reading them raises. */
  function ToolUses(entries: seq<(string, Value)>): Option<seq<Value>> {
    var output := Get(entries, "output").GetOr(Dict([]));
    if !output.Dict? then None
    else
      var uses := Get(output.entries, "tool_uses").GetOr(List([]));
      if uses.List? then Some(uses.items) else None
  }

  /** One decoded log, for the agent `agent`. */
  function ScanLog(path: string, data: Value, agent: string, since: Option<int>, p: Parsers): (r: Option<LogScan>)
    ensures since.None? && r.Some? ==> r.value.Scanned?
    ensures r.Some? && r.value.Scanned? ==>
              && data.Dict? && ToolUses(data.entries).Some?
              && |r.value.violations| == CountWhere(ToolUses(data.entries).value, IsTaskUse)
    ensures r.Some? && r.value.OutOfWindow? ==>
              && data.Dict? && Get(data.entries, "timestamp").GetOr(Str("")).Str?
              && OutsideWindow(Get(data.entries, "timestamp").GetOr(Str("")).s, since, p)
  {
    if !data.Dict? then None
    else
      var ts := Get(data.entries, "timestamp").GetOr(Str(""));
      if !ts.Str? then None
      else if OutsideWindow(ts.s, since, p) then Some(OutOfWindow)
      else
        match ToolUses(data.entries)
        case None => None
        case Some(uses) =>
          match UseViolations(uses, path, ts.s, agent)
          case None => None
          case Some(vs) => Some(Scanned(vs))
  }

  // ---------------------------------------------------------------------
  // The scan

  datatype AgentEntry = NotADirectory | AgentDir(name: string, logs: seq<LogFile>)

  /** Logs scanned, logs skipped by the time window, violations in scan order. */
  datatype Tally = Tally(scanned: nat, skipped: nat, violations: seq<Violation>)

  function Readable(logs: seq<LogFile>): nat {
    CountWhere(logs, (l: LogFile) => l.data.Some?)
  }

  function ScanLogs(logs: seq<LogFile>, agent: string, since: Option<int>, p: Parsers): (r: Option<Tally>)
    ensures r.Some? ==> r.value.scanned + r.value.skipped == Readable(logs)
    ensures r.Some? && since.None? ==> r.value.skipped == 0
    ensures r.Some? ==> forall v :: v in r.value.violations ==> v.agent == agent
  {
    if logs == [] then Some(Tally(0, 0, []))
    else
      var rest := ScanLogs(logs[1..], agent, since, p);
      if rest.None? then None
      else
        var t := rest.value;
        match logs[0].data
        case None => rest
        case Some(data) =>
          match ScanLog(logs[0].path, data, agent, since, p)
          case None => None
          case Some(OutOfWindow) => Some(Tally(t.scanned, t.skipped + 1, t.violations))
          case Some(Scanned(vs)) => Some(Tally(t.scanned + 1, t.skipped, vs + t.violations))
  }

  function LogsIn(agents: seq<AgentEntry>): nat {
    if agents == [] then 0
    else (if agents[0].AgentDir? then Readable(agents[0].logs) else 0) + LogsIn(agents[1..])
  }

  function ScanAgents(agents: seq<AgentEntry>, since: Option<int>, p: Parsers): (r: Option<Tally>)
    ensures r.Some? ==> r.value.scanned + r.value.skipped == LogsIn(agents)
    ensures r.Some? && since.None? ==> r.value.skipped == 0
  {
    if agents == [] then Some(Tally(0, 0, []))
    else
      var rest := ScanAgents(agents[1..], since, p);
      if rest.None? then None
      else
        match agents[0]
        case NotADirectory => rest
        case AgentDir(name, logs) =>
          match ScanLogs(logs, name, since, p)
          case None => None
          case Some(t) =>
            Some(Tally(t.scanned + rest.value.scanned, t.skipped + rest.value.skipped, t.violations + rest.value.violations))
  }

  datatype Report =
    | MissingLogs(error: string)
    | Found(scanned: nat, skippedByTime: nat, violationCount: nat, violations: seq<Violation>)

  function Timestamp(v: Violation): string {
    v.timestamp
  }

  /** `detect_task_tool(logs_dir, since)`: None where a log raises outside
      the decode errors that are skipped. */
  function DetectTaskTool(logsDir: string, dir: Option<seq<AgentEntry>>, since: Option<int>, p: Parsers): (r: Option<Report>)
    ensures dir.None? ==> r == Some(MissingLogs("Logs directory not found: " + logsDir))
    ensures r.Some? && r.value.Found? ==> r.value.violationCount == |r.value.violations|
    ensures r.Some? && r.value.Found? ==> SortedByNameDesc(r.value.violations, Timestamp)
    ensures r.Some? && r.value.Found? ==> r.value.scanned + r.value.skippedByTime == LogsIn(dir.value)
    ensures r.Some? && r.value.Found? && since.None? ==> r.value.skippedByTime == 0
    ensures dir.Some? ==> (r.Some? <==> ScanAgents(dir.value, since, p).Some?)
    ensures r.Some? && r.value.Found? ==> multiset(r.value.violations) == multiset(ScanAgents(dir.value, since, p).value.violations)
  {
    if dir.None? then Some(MissingLogs("Logs directory not found: " + logsDir))
    else
      match ScanAgents(dir.value, since, p)
      case None => None
      case Some(t) =>
        var vs := SortByNameDesc(t.violations, Timestamp);
        Some(Found(t.scanned, t.skipped, |vs|, vs))
  }

  // ---------------------------------------------------------------------
  // Properties

  /** Logs without a Task use give no violation. */
  lemma {:induction false} CleanLogsPass(agents: seq<AgentEntry>, since: Option<int>, p: Parsers)
    requires ScanAgents(agents, since, p).Some?
    requires forall i, j :: 0 <= i < |agents| && agents[i].AgentDir? && 0 <= j < |agents[i].logs| ==> Clean(agents[i].logs[j])
    ensures ScanAgents(agents, since, p).value.violations == []
  {
    if agents != [] {
      assert forall i, j :: 0 <= i < |agents[1..]| && agents[1..][i].AgentDir? && 0 <= j < |agents[1..][i].logs| ==> Clean(agents[1..][i].logs[j]) by {
        forall i, j | 0 <= i < |agents[1..]| && agents[1..][i].AgentDir? && 0 <= j < |agents[1..][i].logs|
          ensures Clean(agents[1..][i].logs[j])
        {
          assert agents[1..][i] == agents[i + 1];
        }
      }
      CleanLogsPass(agents[1..], since, p);
      if agents[0].AgentDir? {
        CleanLogsClean(agents[0].logs, agents[0].name, since, p);
      }
    }
  }

  /** A log none of whose tool uses is a Task use. */
  predicate Clean(l: LogFile) {
    l.data.Some? && l.data.value.Dict? ==>
      var uses := ToolUses(l.data.value.entries);
      uses.Some? ==> forall k :: 0 <= k < |uses.value| ==> !IsTaskUse(uses.value[k])
  }

  lemma {:induction false} CleanLogsClean(logs: seq<LogFile>, agent: string, since: Option<int>, p: Parsers)
    requires ScanLogs(logs, agent, since, p).Some?
    requires forall j :: 0 <= j < |logs| ==> Clean(logs[j])
    ensures ScanLogs(logs, agent, since, p).value.violations == []
  {
    if logs != [] {
      CleanLogsClean(logs[1..], agent, since, p);
      var l := logs[0];
      assert Clean(l);
      if l.data.Some? {
        var r := ScanLog(l.path, l.data.value, agent, since, p);
        if r.value.Scanned? {
          CountWhereZero(ToolUses(l.data.value.entries).value, IsTaskUse);
        }
      }
    }
  }

  /** An empty logs directory reports nothing. */
  lemma EmptyDirectoryPasses(logsDir: string, since: Option<int>, p: Parsers)
    ensures DetectTaskTool(logsDir, Some([]), since, p) == Some(Found(0, 0, 0, []))
  {
  }
}

=== FILE: enforcement_coverage.dfy ===
/** The enforcement coverage report over the rule sections of the
    enforcement configuration: a count per status, the rules in section
    order, the gaps still to close, and the summary text. */
module EnforcementCoverage {
  import opened Common
  import opened Json

  const Sections: seq<string> := ["pre_commit", "runtime", "prompt_only"]

  const Enforced: Value := Str("enforced")
  const Pending: Value := Str("pending")
  const GapStatus: Value := Str("gap")
  const Warning: Value := Str("warning")
  const PartialStatus: Value := Str("partial")

  /** The statuses that count as a gap to close. */
  predicate IsGap(status: Value) {
    status == GapStatus || status == Pending || status == PartialStatus || status == Warning
  }

  // ---------------------------------------------------------------------
  // Status counts: a dict from status values to counts

  type StatusCounts = seq<(Value, nat)>

  const InitialCounts: StatusCounts := [(Enforced, 0), (Pending, 0), (GapStatus, 0), (Warning, 0), (PartialStatus, 0)]

  predicate DistinctStatuses(m: StatusCounts) {
    forall i, j :: 0 <= i < j < |m| ==> m[i].0 != m[j].0
  }

  function SlotOf(m: StatusCounts, k: Value): (i: int)
    ensures -1 <= i < |m|
    ensures i >= 0 ==> m[i].0 == k
    ensures i < 0 ==> forall j :: 0 <= j < |m| ==> m[j].0 != k
  {
    if m == [] then -1
    else
      var j := SlotOf(m[..|m| - 1], k);
      if j >= 0 then j else if m[|m| - 1].0 == k then |m| - 1 else -1
  }

  /** `counts.get(k, 0)`. */
  function CountOf(m: StatusCounts, k: Value): nat {
    var i := SlotOf(m, k);
    if i < 0 then 0 else m[i].1
  }

  function Total(m: StatusCounts): nat {
    if m == [] then 0 else m[0].1 + Total(m[1..])
  }

  /** `counts[k] = counts.get(k, 0) + 1`. */
  function BumpStatus(m: StatusCounts, k: Value): (r: StatusCounts)
    requires DistinctStatuses(m)
    ensures DistinctStatuses(r)
    ensures Total(r) == Total(m) + 1
    ensures forall x :: CountOf(r, x) == CountOf(m, x) + (if x == k then 1 else 0)
  {
    var i := SlotOf(m, k);
    if i < 0 then
      var r := m + [(k, 1)];
      assert r[..|r| - 1] == m;
      TotalAppend(m, [(k, 1)]);
      forall x ensures CountOf(r, x) == CountOf(m, x) + (if x == k then 1 else 0) {
        var j := SlotOf(m, x);
        if x == k {
          assert SlotOf(r, x) == |m|;
        } else if j >= 0 {
          assert SlotOf(r, x) == j;
        } else {
          assert r[|m|].0 != x;
          assert SlotOf(r, x) == -1;
        }
      }
      r
    else
      var r := m[i := (k, m[i].1 + 1)];
      TotalUpdate(m, i, m[i].1 + 1);
      forall x ensures CountOf(r, x) == CountOf(m, x) + (if x == k then 1 else 0) {
        SlotOfDistinct(r, x);
        SlotOfDistinct(m, x);
        var j := SlotOf(m, x);
        if x == k {
          assert r[i].0 == x;
          assert SlotOf(r, x) == i;
        } else if j >= 0 {
          assert r[j] == m[j];
          assert SlotOf(r, x) == j;
        } else {
          assert forall t :: 0 <= t < |r| ==> r[t].0 != x;
        }
      }
      r
  }

  /** In a dict with distinct keys the slot of a key is its only position. */
  lemma SlotOfDistinct(m: StatusCounts, k: Value)
    requires DistinctStatuses(m)
    ensures forall j :: 0 <= j < |m| && m[j].0 == k ==> SlotOf(m, k) == j
  {
  }

  lemma {:induction false} TotalAppend(a: StatusCounts, b: StatusCounts)
    ensures Total(a + b) == Total(a) + Total(b)
    decreases |a|
  {
    if a == [] {
      assert a + b == b;
    } else {
      assert (a + b)[1..] == a[1..] + b;
      TotalAppend(a[1..], b);
    }
  }

  lemma {:induction false} TotalUpdate(m: StatusCounts, i: int, n: nat)
    requires 0 <= i < |m|
    ensures Total(m[i := (m[i].0, n)]) == Total(m) - m[i].1 + n
    decreases |m|
  {
    if i > 0 {
      assert m[i := (m[i].0, n)][1..] == m[1..][i - 1 := (m[i].0, n)];
      TotalUpdate(m[1..], i - 1, n);
    }
  }

  // ---------------------------------------------------------------------
  // Loading the configuration

  /** `load_config()`: a missing file becomes an error config naming the
      path; otherwise the parsed document (None when it is not a
      mapping, on which the analysis raises). */
  function LoadConfig(path: string, present: bool, parsed: Value): (r: Option<seq<(string, Value)>>)
    ensures !present ==> r == Some([("error", Str("Config not found: " + path))])
    ensures present ==> (r.Some? <==> parsed.Dict?)
  {
    if !present then Some([("error", Str("Config not found: " + path))])
    else if parsed.Dict? then Some(parsed.entries) else None
  }

  // ---------------------------------------------------------------------
  // Rules, gaps and the analysis

  datatype RuleRow = RuleRow(section: string, id: Value, description: Value, status: Value)
  datatype GapRow = GapRow(id: Value, section: string, status: Value, description: Value, target: Value)

  function StatusOf(rule: seq<(string, Value)>): Value {
    Get(rule, "status").GetOr(Str("unknown"))
  }

  /** `rule.get("target_mechanism") or rule.get("mechanism")`. */
  function Target(rule: seq<(string, Value)>): (t: Value)
    ensures Truthy(Field(rule, "target_mechanism", Null)) ==> t == Field(rule, "target_mechanism", Null)
    ensures !Truthy(Field(rule, "target_mechanism", Null)) ==> t == Field(rule, "mechanism", Null)
  {
    var t := Field(rule, "target_mechanism", Null);
    if Truthy(t) then t else Field(rule, "mechanism", Null)
  }

  /** A rule of the configuration with the section it came from. */
  datatype Listed = Listed(section: string, rule: seq<(string, Value)>)

  function RowOf(l: Listed): RuleRow {
    RuleRow(l.section, Field(l.rule, "id", Null), Field(l.rule, "description", Null), StatusOf(l.rule))
  }

  function GapOf(l: Listed): GapRow {
    GapRow(Field(l.rule, "id", Null), l.section, StatusOf(l.rule), Field(l.rule, "description", Null), Target(l.rule))
  }

  /** The rules whose status is `x`. */
  function StatusIs(x: Value): Listed -> bool {
    (l: Listed) => StatusOf(l.rule) == x
  }

  predicate ListedIsGap(l: Listed) {
    IsGap(StatusOf(l.rule))
  }

  /** Iterating an empty string or an empty mapping yields nothing. */
  predicate EmptyIterable(v: Value) {
    v == Str("") || v == Dict([])
  }

  /** The rules of one section; None when the section is not a list of
      objects (iterating it, or calling `get` on an entry, raises), except
      that an empty string or mapping iterates as no rules. */
  function SectionRules(config: seq<(string, Value)>, section: string): (r: Option<seq<Listed>>)
    ensures r.Some? ==> forall l :: l in r.value ==> l.section == section
    ensures !HasKey(config, section) ==> r == Some([])
    ensures r.None? <==> var v := Get(config, section).GetOr(List([]));
                         !EmptyIterable(v) && (!v.List? || exists i :: 0 <= i < |v.items| && !v.items[i].Dict?)
    ensures r.Some? ==> (var v := Get(config, section).GetOr(List([]));
              v.List? ==> |r.value| == |v.items| && forall i :: 0 <= i < |r.value| ==> r.value[i].rule == v.items[i].entries)
  {
    var v := Get(config, section).GetOr(List([]));
    if v.List? && forall i :: 0 <= i < |v.items| ==> v.items[i].Dict? then
      Some(seq(|v.items|, i requires 0 <= i < |v.items| => Listed(section, v.items[i].entries)))
    else if EmptyIterable(v) then Some([])
    else None
  }

  /** Every rule of pre_commit, runtime and prompt_only, in section order. */
  function AllListed(config: seq<(string, Value)>): Option<seq<Listed>> {
    var a := SectionRules(config, Sections[0]);
    var b := SectionRules(config, Sections[1]);
    var c := SectionRules(config, Sections[2]);
    if a.None? || b.None? || c.None? then None else Some(a.value + b.value + c.value)
  }

  /** The status counts after counting `ls` on top of `m`. */
  function CountStatuses(m: StatusCounts, ls: seq<Listed>): (r: StatusCounts)
    requires DistinctStatuses(m)
    ensures DistinctStatuses(r)
    ensures Total(r) == Total(m) + |ls|
    ensures forall x :: CountOf(r, x) == CountOf(m, x) + CountWhere(ls, StatusIs(x))
    decreases |ls|
  {
    if ls == [] then m else CountStatuses(BumpStatus(m, StatusOf(ls[0].rule)), ls[1..])
  }

  datatype Analysis = Analysis(
    total: nat, enforced: nat, pending: nat, gap: nat, warning: nat, partial: nat,
    coverage: real, gaps: seq<GapRow>, rules: seq<RuleRow>)

  datatype Outcome = Analyzed(analysis: Analysis) | ConfigError(config: seq<(string, Value)>) | Raises

  /** The analysis of the listed rules: the total counts every rule once,
      each status count is the number of rules with that status, and the
      gaps are the gap-like rules in order.  `round1` is Python's
      `round(x, 1)`. */
  function AnalysisOf(ls: seq<Listed>, round1: real -> real): (a: Analysis)
    ensures a.total == |ls| == |a.rules|
    ensures a.enforced == CountWhere(ls, StatusIs(Enforced))
    ensures a.pending == CountWhere(ls, StatusIs(Pending))
    ensures a.gap == CountWhere(ls, StatusIs(GapStatus))
    ensures a.warning == CountWhere(ls, StatusIs(Warning))
    ensures a.partial == CountWhere(ls, StatusIs(PartialStatus))
    ensures forall i :: 0 <= i < |ls| ==> a.rules[i] == RowOf(ls[i])
    ensures |a.gaps| == CountWhere(ls, ListedIsGap)
    ensures forall g :: g in a.gaps <==> exists l :: l in ls && ListedIsGap(l) && g == GapOf(l)
    ensures a.coverage == Percent(a.enforced, a.total, round1)
  {
    InitialCountsZero();
    var counts := CountStatuses(InitialCounts, ls);
    var total := Total(counts);
    var enforced := CountOf(counts, Enforced);
    var rows := seq(|ls|, i requires 0 <= i < |ls| => RowOf(ls[i]));
    var coverage := Percent(enforced, total, round1);
    Analysis(total, enforced, CountOf(counts, Pending), CountOf(counts, GapStatus),
             CountOf(counts, Warning), CountOf(counts, PartialStatus), coverage, Gaps(ls), rows)
  }

  /** `round(part / total * 100, 1) if total > 0 else 0`. */
  function Percent(part: nat, total: nat, round1: real -> real): (p: real)
    ensures total == 0 ==> p == 0.0
    ensures total > 0 ==> p == round1((part as real) / (total as real) * 100.0)
  {
    if total > 0 then round1((part as real) / (total as real) * 100.0) else 0.0
  }

  lemma InitialCountsZero()
    ensures DistinctStatuses(InitialCounts)
    ensures Total(InitialCounts) == 0
    ensures forall x :: CountOf(InitialCounts, x) == 0
  {
    assert forall i :: 0 <= i < |InitialCounts| ==> InitialCounts[i].1 == 0;
    TotalZero(InitialCounts);
  }

  lemma {:induction false} TotalZero(m: StatusCounts)
    requires forall i :: 0 <= i < |m| ==> m[i].1 == 0
    ensures Total(m) == 0
    decreases |m|
  {
    if m != [] {
      assert forall i :: 0 <= i < |m[1..]| ==> m[1..][i] == m[i + 1];
      TotalZero(m[1..]);
    }
  }

  /** `analyze_coverage(config)`: an error config passes through
      unchanged; otherwise the rules of the three sections are analysed,
      or the call raises when a section is not a list of objects. */
  function AnalyzeCoverage(config: seq<(string, Value)>, round1: real -> real): (r: Outcome)
    ensures HasKey(config, "error") <==> r == ConfigError(config)
    ensures r.Raises? <==> !HasKey(config, "error") && AllListed(config).None?
    ensures r.Analyzed? ==> AllListed(config).Some? && r.analysis == AnalysisOf(AllListed(config).value, round1)
  {
    if HasKey(config, "error") then ConfigError(config)
    else
      match AllListed(config)
      case None => Raises
      case Some(ls) => Analyzed(AnalysisOf(ls, round1))
  }

  function Gaps(ls: seq<Listed>): (r: seq<GapRow>)
    ensures |r| == CountWhere(ls, ListedIsGap)
    ensures forall g :: g in r <==> exists l :: l in ls && ListedIsGap(l) && g == GapOf(l)
    decreases |ls|
  {
    if ls == [] then []
    else
      var rest := Gaps(ls[1..]);
      assert forall l :: l in ls <==> l == ls[0] || l in ls[1..];
      (if ListedIsGap(ls[0]) then [GapOf(ls[0])] else []) + rest
  }

  /** The five named counts add up to the total when every status is one
      of them. */
  lemma NamedStatusesSum(ls: seq<Listed>, round1: real -> real)
    requires forall l :: l in ls ==> StatusOf(l.rule) in {Enforced, Pending, GapStatus, Warning, PartialStatus}
    ensures var a := AnalysisOf(ls, round1);
            a.enforced + a.pending + a.gap + a.warning + a.partial == a.total
  {
    FiveStatusesSum(ls);
  }

  lemma {:induction false} FiveStatusesSum(ls: seq<Listed>)
    requires forall l :: l in ls ==> StatusOf(l.rule) in {Enforced, Pending, GapStatus, Warning, PartialStatus}
    ensures CountWhere(ls, StatusIs(Enforced))
            + CountWhere(ls, StatusIs(Pending))
            + CountWhere(ls, StatusIs(GapStatus))
            + CountWhere(ls, StatusIs(Warning))
            + CountWhere(ls, StatusIs(PartialStatus)) == |ls|
  {
    if ls != [] {
      assert forall l :: l in ls[1..] ==> l in ls;
      FiveStatusesSum(ls[1..]);
    }
  }

  // ---------------------------------------------------------------------
  // Summary text

  /** `format_summary(analysis)` as lines; `show` renders a value the way
      an f-string does. */
  function SummaryLines(a: Analysis, show: Value -> string, showReal: real -> string): (r: seq<string>)
    ensures GapsHeader in r <==> a.gaps != []
    ensures |r| == 11 + (if a.gaps == [] then 0 else |a.gaps| + 2)
  {
    var head := [
      "# Enforcement Coverage Report",
      "",
      "Coverage: " + showReal(a.coverage) + "% (" + NatToString(a.enforced) + "/" + NatToString(a.total) + " rules enforced)",
      "",
      "## Status Breakdown",
      "- Enforced: " + NatToString(a.enforced),
      "- Pending:  " + NatToString(a.pending),
      "- Partial:  " + NatToString(a.partial),
      "- Warning:  " + NatToString(a.warning),
      "- Gap:      " + NatToString(a.gap),
      ""];
    HeaderNotInHead(head);
    if a.gaps == [] then head
    else
      var gapLines := seq(|a.gaps|, i requires 0 <= i < |a.gaps| =>
                            "- [" + show(a.gaps[i].status) + "] " + show(a.gaps[i].id) + ": " + show(a.gaps[i].description));
      head + [GapsHeader] + gapLines + [""]
  }

  const GapsHeader: string := "## Gaps to Close"

  /** The fixed lines start with other characters than the gaps header. */
  lemma HeaderNotInHead(head: seq<string>)
    requires |head| == 11
    requires head[0] == "# Enforcement Coverage Report" && head[1] == "" && head[3] == "" && head[10] == ""
    requires head[4] == "## Status Breakdown"
    requires IsPrefix("Coverage: ", head[2])
    requires forall i :: 5 <= i < 10 ==> IsPrefix("- ", head[i])
    ensures GapsHeader !in head
  {
    forall i | 0 <= i < 11 ensures head[i] != GapsHeader {
      if 5 <= i < 10 { assert head[i][0] == '-'; }
      else if i == 2 { assert head[i][0] == 'C'; }
      else if i == 0 || i == 4 { assert head[i][3] != GapsHeader[3]; }
    }
  }

  function FormatSummary(r: Outcome, show: Value -> string, showReal: real -> string): (text: string)
    requires !r.Raises?
    ensures r.ConfigError? ==> text == "Error: " + show(Field(r.config, "error", Null))
  {
    match r
    case ConfigError(c) => "Error: " + show(Field(c, "error", Null))
    case Analyzed(a) => Join(SummaryLines(a, show, showReal), "\n")
  }

  /** A missing configuration file is reported, not analysed: the
      summary is the error line naming the path. */
  lemma MissingConfigReported(path: string, parsed: Value, round1: real -> real, show: Value -> string, showReal: real -> string)
    ensures var config := LoadConfig(path, false, parsed).value;
            && AnalyzeCoverage(config, round1) == ConfigError(config)
            && FormatSummary(AnalyzeCoverage(config, round1), show, showReal)
               == "Error: " + show(Str("Config not found: " + path))
  {
    var config := LoadConfig(path, false, parsed).value;
    assert config[0].0 == "error";
    assert Get(config, "error") == Some(Str("Config not found: " + path));
  }
}

=== FILE: enforcement_stats.dfy ===
/** The statistics, trend, rating and alert layer of
    `pilot_tools/enforcement_stats.py`, over the telemetry log model. */
module EnforcementStats {
  import opened Common
  import opened Telemetry

  // ---------------------------------------------------------------------
  // Trend

  datatype Trend = Increasing | Decreasing | Stable

  /** `_compute_trend`: the percentage change `(c - p) / p * 100` compared
      with +/-20, with the zero-previous convention first.  The comparison
      is written over integers by multiplying through by `p` (flipping the
      comparison when `p` is negative). */
  function ComputeTrend(current: int, previous: int): (t: Trend) {
    if previous == 0 then
      (if current == 0 then Stable else Increasing)
    else if previous > 0 then
      (if (current - previous) * 100 > 20 * previous then Increasing
       else if (current - previous) * 100 < -20 * previous then Decreasing
       else Stable)
    else
      (if (current - previous) * 100 < 20 * previous then Increasing
       else if (current - previous) * 100 > -20 * previous then Decreasing
       else Stable)
  }

  /** From a zero previous count the trend is stable iff the current count
      is zero, else increasing; it is never decreasing. */
  lemma TrendFromZero(current: int)
    ensures ComputeTrend(current, 0) == Stable <==> current == 0
    ensures ComputeTrend(current, 0) == Increasing <==> current != 0
    ensures ComputeTrend(current, 0) != Decreasing
  {
  }

  /** With a positive previous count the trend is the +/-20 % dead-band:
      increasing iff current > 1.2 * previous, decreasing iff
      current < 0.8 * previous. */
  lemma TrendDeadBand(current: int, previous: int)
    requires previous > 0
    ensures ComputeTrend(current, previous) == Increasing <==> 5 * current > 6 * previous
    ensures ComputeTrend(current, previous) == Decreasing <==> 5 * current < 4 * previous
    ensures ComputeTrend(current, previous) == Stable <==> 4 * previous <= 5 * current <= 6 * previous
  {
  }

  function TrendString(t: Trend): string {
    match t
    case Increasing => "increasing"
    case Decreasing => "decreasing"
    case Stable => "stable"
  }

  // ---------------------------------------------------------------------
  // Previous-week counts

  /** `previous_counts`: over the union of the two tables' keys, the 14-day
      count minus the 7-day count.  Keys of the 14-day table come first,
      then the 7-day keys it lacks (the source iterates a set). */
  function PreviousCounts(two: Counts, cur: Counts): (r: seq<(string, int)>)
    requires DistinctKeys(two) && DistinctKeys(cur)
    ensures forall i :: 0 <= i < |r| ==> r[i].1 == Lookup(two, r[i].0) - Lookup(cur, r[i].0)
    ensures forall k :: HasKey(r, k) <==> HasKey(two, k) || HasKey(cur, k)
  {
    var extra := Filter(Keys(cur), (k: string) => !HasKey(two, k));
    var ks := Keys(two) + extra;
    var r := seq(|ks|, i requires 0 <= i < |ks| => (ks[i], Lookup(two, ks[i]) - Lookup(cur, ks[i])));
    assert Keys(r) == ks;
    forall k ensures HasKey(r, k) <==> HasKey(two, k) || HasKey(cur, k) {
      KeysHasKey(r, k);
      KeysHasKey(two, k);
      KeysHasKey(cur, k);
    }
    r
  }

  /** `previous_counts.get(k, 0)` is the 14-day count minus the 7-day count
      for every key, present or not. */
  function PreviousOf(two: Counts, cur: Counts, k: string): int {
    Lookup(two, k) - Lookup(cur, k)
  }

  /** With both windows anchored at the same `now`, every previous-week
      count is non-negative. */
  lemma PreviousNonNegative(st: Store, now: int, k: string)
    ensures PreviousOf(GetEventCounts(st, now, 14), GetEventCounts(st, now, 7), k) >= 0
  {
    CountKeyMonotone(LinesOf(st), Cutoff(now, 14), Cutoff(now, 7), k);
  }

  /** The previous-week count is the number of events in the 7 days before
      the current week: timestamps in [now - 14 days, now - 7 days). */
  lemma {:induction false} PreviousIsEarlierWeek(lines: seq<Line>, now: int, k: string)
    ensures Telemetry.CountKey(lines, Cutoff(now, 14), k) - Telemetry.CountKey(lines, Cutoff(now, 7), k)
            == CountWhere(lines, (l: Line) => l.Parsed? && l.e.ts.Some? && KeyOf(l.e) == k
                                               && Cutoff(now, 14) <= l.e.ts.value < Cutoff(now, 7))
    decreases |lines|
  {
    var p := (l: Line) => l.Parsed? && l.e.ts.Some? && KeyOf(l.e) == k
                          && Cutoff(now, 14) <= l.e.ts.value < Cutoff(now, 7);
    if lines != [] {
      var init := lines[..|lines| - 1];
      var l := lines[|lines| - 1];
      PreviousIsEarlierWeek(init, now, k);
      CountWhereSnoc(init, l, p);
      assert lines == init + [l];
    }
  }

  lemma {:induction false} CountWhereSnoc<T>(s: seq<T>, x: T, p: T -> bool)
    ensures CountWhere(s + [x], p) == CountWhere(s, p) + (if p(x) then 1 else 0)
    decreases |s|
  {
    if s == [] {
      assert [x][1..] == [];
    } else {
      assert (s + [x])[1..] == s[1..] + [x];
      CountWhereSnoc(s[1..], x, p);
    }
  }

  // ---------------------------------------------------------------------
  // Rating

  datatype Rating = Excellent | Good | Concerning | Critical

  function RatingString(r: Rating): string {
    match r
    case Excellent => "excellent"
    case Good => "good"
    case Concerning => "concerning"
    case Critical => "critical"
  }

  /** The rating cascade of `_score`, guard by guard in the source's order,
      including its final `else` (which no input reaches, see `RatingCases`). */
  function Rate(violations: nat, blockedTrend: Trend, blockedCurrent: nat, bypasses: nat): Rating {
    if violations > 10 || bypasses > 1 then Critical
    else if (5 <= violations <= 10) || blockedTrend == Increasing || bypasses > 0 then Concerning
    else if violations < 2 && (blockedTrend == Decreasing || blockedTrend == Stable) && bypasses == 0 then
      (if blockedTrend == Decreasing || blockedCurrent == 0 then Excellent else Good)
    else if violations < 5 && (blockedTrend == Decreasing || blockedTrend == Stable) && bypasses == 0 then Good
    else Concerning
  }

  /** The four ratings characterised independently of the guard order:
      every input lands in exactly the band its signals call for, so the
      cascade's final default is unreachable. */
  lemma RatingCases(v: nat, t: Trend, bc: nat, b: nat)
    ensures Rate(v, t, bc, b) == Critical <==> v > 10 || b > 1
    ensures Rate(v, t, bc, b) == Concerning <==>
      !(v > 10 || b > 1) && (5 <= v || t == Increasing || b > 0)
    ensures Rate(v, t, bc, b) == Excellent <==>
      v < 2 && b == 0 && t != Increasing && (t == Decreasing || bc == 0)
    ensures Rate(v, t, bc, b) == Good <==>
      v < 5 && b == 0 && t != Increasing && !(v < 2 && (t == Decreasing || bc == 0))
  {
  }

  /** Bypass dominance: more than one bypass is critical whatever else holds. */
  lemma BypassDominance(v: nat, t: Trend, bc: nat, b: nat)
    requires b > 1
    ensures Rate(v, t, bc, b) == Critical
  {
  }

  /** With no bypasses and a decreasing blocked trend, the violation count
      alone moves the rating across its thresholds 2, 5 and 10. */
  lemma RatingThresholds(v: nat, bc: nat)
    ensures v < 2 ==> Rate(v, Decreasing, bc, 0) == Excellent
    ensures 2 <= v < 5 ==> Rate(v, Decreasing, bc, 0) == Good
    ensures 5 <= v <= 10 ==> Rate(v, Decreasing, bc, 0) == Concerning
    ensures v > 10 ==> Rate(v, Decreasing, bc, 0) == Critical
  {
  }

  function Description(r: Rating): string {
    match r
    case Excellent => "Enforcement is working optimally"
    case Good => "Enforcement is working with minor issues"
    case Concerning => "Enforcement needs attention"
    case Critical => "Enforcement system failure"
  }

  datatype Metric = Metric(current: nat, previous: int, trend: Trend)

  datatype ScoreResult = ScoreResult(
    rating: Rating,
    description: string,
    violations: Metric,
    importBlocked: Metric,
    bypasses: Metric,
    totalCurrent: int,
    totalPrevious: int)

  const Violation := "violation_detected"
  const Blocked := "import_blocked"
  const Bypassed := "commit_review_bypassed"

  function MetricOf(two: Counts, cur: Counts, k: string): Metric {
    var c := Lookup(cur, k);
    var p := PreviousOf(two, cur, k);
    Metric(c, p, ComputeTrend(c, p))
  }

  /** `_score`: current week against the week before, both windows read
      at the same `now`. */
  function Score(st: Store, now: int): (r: ScoreResult)
    ensures r.violations.current == Telemetry.CountKey(LinesOf(st), Cutoff(now, 7), Violation)
    ensures r.importBlocked.current == Telemetry.CountKey(LinesOf(st), Cutoff(now, 7), Blocked)
    ensures r.bypasses.current == Telemetry.CountKey(LinesOf(st), Cutoff(now, 7), Bypassed)
    ensures r.violations.previous
            == Telemetry.CountKey(LinesOf(st), Cutoff(now, 14), Violation) - Telemetry.CountKey(LinesOf(st), Cutoff(now, 7), Violation)
    ensures r.importBlocked.previous
            == Telemetry.CountKey(LinesOf(st), Cutoff(now, 14), Blocked) - Telemetry.CountKey(LinesOf(st), Cutoff(now, 7), Blocked)
    ensures r.bypasses.previous
            == Telemetry.CountKey(LinesOf(st), Cutoff(now, 14), Bypassed) - Telemetry.CountKey(LinesOf(st), Cutoff(now, 7), Bypassed)
    ensures r.violations.trend == ComputeTrend(r.violations.current, r.violations.previous)
    ensures r.importBlocked.trend == ComputeTrend(r.importBlocked.current, r.importBlocked.previous)
    ensures r.bypasses.trend == ComputeTrend(r.bypasses.current, r.bypasses.previous)
    ensures r.rating == Rate(r.violations.current, r.importBlocked.trend, r.importBlocked.current, r.bypasses.current)
    ensures r.importBlocked.previous >= 0 && r.violations.previous >= 0 && r.bypasses.previous >= 0
    ensures r.rating == Critical <==> r.violations.current > 10 || r.bypasses.current > 1
    ensures r.totalPrevious >= 0
  {
    var cur := GetEventCounts(st, now, 7);
    var two := GetEventCounts(st, now, 14);
    var v := MetricOf(two, cur, Violation);
    var b := MetricOf(two, cur, Blocked);
    var y := MetricOf(two, cur, Bypassed);
    PreviousNonNegative(st, now, Violation);
    PreviousNonNegative(st, now, Blocked);
    PreviousNonNegative(st, now, Bypassed);
    var rating := Rate(v.current, b.trend, b.current, y.current);
    RatingCases(v.current, b.trend, b.current, y.current);
    TotalMonotone(st, now);
    ScoreResult(rating, Description(rating), v, b, y, Total(cur), Total(two) - Total(cur))
  }

  lemma TotalMonotone(st: Store, now: int)
    ensures Total(GetEventCounts(st, now, 14)) >= Total(GetEventCounts(st, now, 7))
  {
    CountAllMonotone(LinesOf(st), Cutoff(now, 14), Cutoff(now, 7));
  }

  lemma {:induction false} CountAllMonotone(lines: seq<Line>, c1: int, c2: int)
    requires c1 <= c2
    ensures CountAll(lines, c2) <= CountAll(lines, c1)
    decreases |lines|
  {
    if lines != [] {
      CountAllMonotone(lines[..|lines| - 1], c1, c2);
    }
  }

  // ---------------------------------------------------------------------
  // Alerts

  datatype Level = Critical_ | Warning

  function LevelString(l: Level): string {
    match l
    case Critical_ => "CRITICAL"
    case Warning => "WARNING"
  }

  datatype Alert = Alert(level: Level, metric: string, message: string, value: int)

  datatype AlertResult = AlertResult(
    alerts: seq<Alert>,
    hasCritical: bool,
    hasWarnings: bool,
    quiet: bool,
    status: string)

  /** The alert checks of `_alert`, in order, before the quiet filter. */
  function AllAlerts(violations: int, blockedCurrent: int, blockedPrevious: int, bypasses: int): (r: seq<Alert>)
    ensures |r| <= 3
    ensures AnyLevel(r, Critical_) <==> bypasses > 0 || violations > 10
    ensures AnyLevel(r, Warning) <==>
      (5 < violations <= 10) || ComputeTrend(blockedCurrent, blockedPrevious) == Increasing
  {
    var trend := ComputeTrend(blockedCurrent, blockedPrevious);
    var bypassed := Alert(Critical_, Bypassed,
      "Git review bypassed " + IntToString(bypasses) + " time(s) this week", bypasses);
    var violated := if violations > 10 then
        Alert(Critical_, Violation,
              "Violations exceeded critical threshold: " + IntToString(violations) + "/week (threshold: 10)",
              violations)
      else
        Alert(Warning, Violation,
              "Violations exceeded warning threshold: " + IntToString(violations) + "/week (threshold: 5)",
              violations);
    var increasing := Alert(Warning, Blocked,
      "Import blocks increasing: " + IntToString(blockedPrevious) + " -> "
        + IntToString(blockedCurrent) + " this week",
      blockedCurrent);
    GatedLevels(bypasses > 0, bypassed, violations > 5, violated, trend == Increasing, increasing);
    Gate(bypasses > 0, bypassed) + Gate(violations > 5, violated) + Gate(trend == Increasing, increasing)
  }

  /** `[x]` when the check fires, nothing otherwise. */
  function Gate(c: bool, x: Alert): (r: seq<Alert>)
    ensures |r| <= 1
    ensures c <==> r == [x]
  {
    if c then [x] else []
  }

  predicate AnyLevel(alerts: seq<Alert>, l: Level) {
    exists i :: 0 <= i < |alerts| && alerts[i].level == l
  }

  /** A level occurs among three gated alerts exactly when one of the
      firing checks carries it. */
  lemma GatedLevels(c1: bool, a1: Alert, c2: bool, a2: Alert, c3: bool, a3: Alert)
    ensures |Gate(c1, a1) + Gate(c2, a2) + Gate(c3, a3)| <= 3
    ensures forall l :: AnyLevel(Gate(c1, a1) + Gate(c2, a2) + Gate(c3, a3), l) <==>
      (c1 && a1.level == l) || (c2 && a2.level == l) || (c3 && a3.level == l)
  {
    var all := Gate(c1, a1) + Gate(c2, a2) + Gate(c3, a3);
    forall l ensures AnyLevel(all, l) <==>
      (c1 && a1.level == l) || (c2 && a2.level == l) || (c3 && a3.level == l)
    {
      if AnyLevel(all, l) {
        var i :| 0 <= i < |all| && all[i].level == l;
        assert all[i] in all;
        assert all[i] == a1 || all[i] == a2 || all[i] == a3;
      }
      if c1 && a1.level == l { assert all[0] == a1; }
      if c2 && a2.level == l { assert all[|Gate(c1, a1)|] == a2; }
      if c3 && a3.level == l { assert all[|all| - 1] == a3; }
    }
  }

  /** The quiet filter and the flags of `_alert` over a list of alerts. */
  function AlertsFrom(all: seq<Alert>, quiet: bool): (r: AlertResult)
    ensures r.hasCritical <==> AnyLevel(all, Critical_)
    ensures r.hasWarnings <==> !quiet && AnyLevel(all, Warning)
    ensures r.status == (if r.hasCritical then "critical" else if r.hasWarnings then "warning" else "ok")
    ensures quiet ==> forall i :: 0 <= i < |r.alerts| ==> r.alerts[i].level == Critical_
    ensures !quiet ==> r.alerts == all
    ensures |r.alerts| <= |all|
  {
    var alerts := if quiet then KeepCritical(all) else all;
    var hc := AnyLevel(alerts, Critical_);
    var hw := AnyLevel(alerts, Warning);
    AlertResult(alerts, hc, hw, quiet, if hc then "critical" else if hw then "warning" else "ok")
  }

  /** The quiet filter: only the critical alerts, and a critical alert
      whenever there was one. */
  function KeepCritical(all: seq<Alert>): (r: seq<Alert>)
    ensures forall i :: 0 <= i < |r| ==> r[i].level == Critical_
    ensures AnyLevel(r, Critical_) <==> AnyLevel(all, Critical_)
    ensures |r| <= |all|
  {
    var kept := Filter(all, (a: Alert) => a.level == Critical_);
    assert forall i :: 0 <= i < |kept| ==> kept[i] in kept;
    assert AnyLevel(all, Critical_) ==> AnyLevel(kept, Critical_) by {
      if AnyLevel(all, Critical_) {
        var i :| 0 <= i < |all| && all[i].level == Critical_;
        assert all[i] in kept;
      }
    }
    kept
  }

  /** `_alert(quiet)` over given metrics. */
  function AlertsFor(violations: int, blockedCurrent: int, blockedPrevious: int, bypasses: int,
                     quiet: bool): (r: AlertResult)
    ensures r.hasCritical <==> bypasses > 0 || violations > 10
    ensures r.hasWarnings <==>
      !quiet && ((5 < violations <= 10) || ComputeTrend(blockedCurrent, blockedPrevious) == Increasing)
    ensures r.status == (if r.hasCritical then "critical" else if r.hasWarnings then "warning" else "ok")
    ensures quiet ==> forall i :: 0 <= i < |r.alerts| ==> r.alerts[i].level == Critical_
    ensures |r.alerts| <= 3
  {
    AlertsFrom(AllAlerts(violations, blockedCurrent, blockedPrevious, bypasses), quiet)
  }

  /** `_alert(quiet)`: the same windows as `_score`. */
  function CheckAlerts(st: Store, now: int, quiet: bool): (r: AlertResult)
    ensures r.hasCritical <==> Score(st, now).rating == Critical || Score(st, now).bypasses.current > 0
  {
    var cur := GetEventCounts(st, now, 7);
    var two := GetEventCounts(st, now, 14);
    AlertsFor(Lookup(cur, Violation), Lookup(cur, Blocked), PreviousOf(two, cur, Blocked),
              Lookup(cur, Bypassed), quiet)
  }

  /** The warning band of the alert (v > 5) and the concerning band of the
      score (5 <= v <= 10) disagree at exactly five violations: a score of
      "concerning" with no violation alert. */
  lemma AlertScoreBandsDiffer()
    ensures Rate(5, Stable, 0, 0) == Concerning
    ensures AlertsFor(5, 0, 0, 0, false).alerts == []
  {
  }

  /** `format_alert_output`: one `[LEVEL] message` line per alert, and the
      empty string exactly when there are no alerts. */
  function FormatAlertOutput(alerts: seq<Alert>): (r: string)
    ensures r == "" <==> alerts == []
    ensures alerts != [] ==> IsPrefix("[" + LevelString(alerts[0].level) + "] ", r)
  {
    var lines := seq(|alerts|, i requires 0 <= i < |alerts| =>
                       "[" + LevelString(alerts[i].level) + "] " + alerts[i].message);
    JoinNonEmpty(lines, "\n");
    Join(lines, "\n")
  }

  lemma JoinNonEmpty(parts: seq<string>, sep: string)
    requires forall i :: 0 <= i < |parts| ==> parts[i] != ""
    ensures Join(parts, sep) == "" <==> parts == []
    ensures parts != [] ==> IsPrefix(parts[0], Join(parts, sep))
  {
  }

  // ---------------------------------------------------------------------
  // stats / events / cleanup / dispatch

  datatype StatsResult = StatsResult(days: int, totalEvents: int, byType: Counts, eventTypes: seq<string>)

  /** `_stats(days)`. */
  function Stats(st: Store, now: int, days: int): (r: StatsResult)
    ensures r.totalEvents == Sum(Values(r.byType))
    ensures r.totalEvents == CountAll(LinesOf(st), Cutoff(now, days))
    ensures forall k :: Lookup(r.byType, k) == Telemetry.CountKey(LinesOf(st), Cutoff(now, days), k)
    ensures |r.eventTypes| == 9
    ensures forall i :: 0 <= i < |AllTypes| ==> r.eventTypes[i] == Name(AllTypes[i])
  {
    var counts := GetEventCounts(st, now, days);
    StatsResult(days, Total(counts), counts,
                seq(|AllTypes|, i requires 0 <= i < |AllTypes| => Name(AllTypes[i])))
  }

  /** `format_stats_table` rows: the count table sorted by type name. */
  function StatsRows(byType: Counts): (r: Counts)
    ensures SortedByName(r, (p: (string, nat)) => p.0)
    ensures multiset(r) == multiset(byType)
  {
    SortByName(byType, (p: (string, nat)) => p.0)
  }

  /** An event as listed by `_events` (missing keys default to "" / {}). */
  datatype Listed = Listed(ts: int, eventType: string, source: string, details: Details)

  datatype EventsOutcome =
    | EventsList(days: int, count: nat, events: seq<Listed>)
    | UnknownType(error: string, validTypes: seq<string>)

  /** The enum lookup of `_events`: by value, then by upper-cased name. */
  function ResolveType(s: string): Option<EventType> {
    ResolveIn(s, AllTypes)
  }

  function ResolveIn(s: string, ts: seq<EventType>): (r: Option<EventType>)
    ensures r.Some? ==> r.value in ts && (Value(r.value) == s || Name(r.value) == Upper(s))
    ensures r.None? ==> forall t :: t in ts ==> Value(t) != s && Name(t) != Upper(s)
  {
    var byValue := FindValue(s, ts);
    if byValue.Some? then byValue else FindName(Upper(s), ts)
  }

  function FindValue(s: string, ts: seq<EventType>): (r: Option<EventType>)
    ensures r.Some? ==> r.value in ts && Value(r.value) == s
    ensures r.None? ==> forall t :: t in ts ==> Value(t) != s
  {
    if ts == [] then None else if Value(ts[0]) == s then Some(ts[0]) else FindValue(s, ts[1..])
  }

  function FindName(s: string, ts: seq<EventType>): (r: Option<EventType>)
    ensures r.Some? ==> r.value in ts && Name(r.value) == s
    ensures r.None? ==> forall t :: t in ts ==> Name(t) != s
  {
    if ts == [] then None else if Name(ts[0]) == s then Some(ts[0]) else FindName(s, ts[1..])
  }

  /** Case-insensitive substring test on the event's source. */
  predicate SourceMatches(e: Event, source: string) {
    Contains(Lower(e.source.GetOr("")), Lower(source))
  }

  function TsKey(e: Event): int {
    e.ts.GetOr(0)
  }

  function ToListed(e: Event): Listed {
    Listed(e.ts.GetOr(0), e.eventType.GetOr(""), e.source.GetOr(""), e.details.GetOr(map[]))
  }

  /** The source filter, the newest-first sort and the limit of `_events`. */
  function SelectEvents(events: seq<Event>, source: Option<string>, limit: int): (r: seq<Event>)
    ensures forall i :: 0 <= i < |r| ==> r[i] in events
    ensures source.Some? && source.value != "" ==>
      forall i :: 0 <= i < |r| ==> SourceMatches(r[i], source.value)
    ensures SortedDescBy(r, TsKey)
    ensures multiset(r) <= multiset(Matching(events, source))
    ensures limit >= 0 ==> |r| == if limit < |Matching(events, source)| then limit else |Matching(events, source)|
    ensures forall x, i :: x in multiset(Matching(events, source)) - multiset(r) && 0 <= i < |r| ==> TsKey(x) <= TsKey(r[i])
    ensures limit >= |events| && (source.None? || source.value == "") ==> |r| == |events|
  {
    TopBy(Matching(events, source), TsKey, limit)
  }

  /** The events the source filter keeps: all of them without a
      non-empty source, otherwise those whose source matches. */
  function Matching(events: seq<Event>, source: Option<string>): (r: seq<Event>)
    ensures source.None? || source.value == "" ==> r == events
    ensures source.Some? && source.value != "" ==> forall e :: e in r <==> e in events && SourceMatches(e, source.value)
  {
    if source.Some? && source.value != ""
    then Filter(events, (e: Event) => SourceMatches(e, source.value))
    else events
  }

  /** `[e.value for e in EventType]`. */
  const ValidTypes: seq<string> := [
    "import_blocked", "import_allowed", "violation_detected",
    "commit_review_required", "commit_review_bypassed", "commit_gitignore_only",
    "bypass_review", "bypass_agent_trailer", "commit_completed"
  ]

  lemma ValidTypesAreValues()
    ensures |ValidTypes| == |AllTypes|
    ensures forall i :: 0 <= i < |AllTypes| ==> ValidTypes[i] == Value(AllTypes[i])
  {
  }

  function TypeFilterOf(filter: Option<EventType>): Option<string> {
    if filter.Some? then Some(Value(filter.value)) else None
  }

  /** The display form of a newest-first list keeps it newest first. */
  function ListAll(es: seq<Event>): (r: seq<Listed>)
    requires SortedDescBy(es, TsKey)
    ensures |r| == |es|
    ensures forall i :: 0 <= i < |es| ==> r[i] == ToListed(es[i])
    ensures forall i, j :: 0 <= i < j < |r| ==> r[i].ts >= r[j].ts
  {
    seq(|es|, i requires 0 <= i < |es| => ToListed(es[i]))
  }

  /** `_events(days, event_type, source, limit)`. */
  function ListEvents(st: Store, now: int, days: int, eventType: Option<string>,
                      source: Option<string>, limit: int): (r: EventsOutcome)
    ensures r.UnknownType? <==>
      eventType.Some? && eventType.value != "" && ResolveType(eventType.value).None?
    ensures r.UnknownType? ==> r.validTypes == ValidTypes
    ensures r.EventsList? ==> r.count == |r.events|
    ensures r.EventsList? && limit >= 0 ==> r.count <= limit
    ensures r.EventsList? ==> forall i, j :: 0 <= i < j < |r.events| ==> r.events[i].ts >= r.events[j].ts
  {
    var filter: Option<EventType> :=
      if eventType.Some? && eventType.value != "" then ResolveType(eventType.value) else None;
    if eventType.Some? && eventType.value != "" && filter.None? then
      UnknownType("Unknown event type: " + eventType.value, ValidTypes)
    else
      ListFound(st, now, days, filter, source, limit)
  }

  /** The listing of `_events` once the type filter is resolved. */
  function ListFound(st: Store, now: int, days: int, filter: Option<EventType>,
                     source: Option<string>, limit: int): (r: EventsOutcome)
    ensures r.EventsList? && r.count == |r.events|
    ensures limit >= 0 ==> r.count <= limit
    ensures forall i, j :: 0 <= i < j < |r.events| ==> r.events[i].ts >= r.events[j].ts
  {
    var listed := ListAll(SelectEvents(ScanLines(LinesOf(st), Some(Cutoff(now, days)), TypeFilterOf(filter)),
                                       source, limit));
    EventsList(days, |listed|, listed)
  }

  /** Every event `_events` lists is in the window and passes both filters. */
  lemma ListedEventsMatch(st: Store, now: int, days: int, t: EventType, source: string, limit: int)
    requires source != ""
    ensures var r := ListEvents(st, now, days, Some(Value(t)), Some(source), limit);
      r.EventsList? &&
      forall i :: 0 <= i < |r.events| ==>
        r.events[i].ts >= Cutoff(now, days) && r.events[i].eventType == Value(t)
        && Contains(Lower(r.events[i].source), Lower(source))
  {
    ResolvesOwnValue(t);
    ListEventsOfKnownType(st, now, days, t, source, limit);
    FoundEventsMatch(st, now, days, ResolveType(Value(t)).value, source, limit);
  }

  /** A known type's value lists through `ListFound`. */
  lemma ListEventsOfKnownType(st: Store, now: int, days: int, t: EventType, source: string, limit: int)
    requires ResolveType(Value(t)).Some? && Value(t) != ""
    ensures ListEvents(st, now, days, Some(Value(t)), Some(source), limit)
         == ListFound(st, now, days, ResolveType(Value(t)), Some(source), limit)
  {
  }

  /** Every event `ListFound` lists with a type filter passes it and the source filter. */
  lemma FoundEventsMatch(st: Store, now: int, days: int, t: EventType, source: string, limit: int)
    requires source != ""
    ensures var r := ListFound(st, now, days, Some(t), Some(source), limit);
      forall i :: 0 <= i < |r.events| ==>
        r.events[i].ts >= Cutoff(now, days) && r.events[i].eventType == Value(t)
        && Contains(Lower(r.events[i].source), Lower(source))
  {
    var scanned := ScanLines(LinesOf(st), Some(Cutoff(now, days)), TypeFilterOf(Some(t)));
    var selected := SelectEvents(scanned, Some(source), limit);
    ListedMatch(scanned, selected, ListAll(selected), Cutoff(now, days), Value(t), source);
  }

  /** An event type's own value names it. */
  lemma ResolvesOwnValue(t: EventType)
    ensures Value(t) != ""
    ensures ResolveType(Value(t)).Some? && Value(ResolveType(Value(t)).value) == Value(t)
  {
    assert t in AllTypes;
  }

  /** The display forms of selected events keep what the selection checked. */
  lemma ListedMatch(scanned: seq<Event>, selected: seq<Event>, listed: seq<Listed>,
                    cutoff: int, typeValue: string, source: string)
    requires typeValue != ""
    requires forall e :: e in scanned ==> Selected(e, Some(cutoff), Some(typeValue))
    requires forall i :: 0 <= i < |selected| ==> selected[i] in scanned && SourceMatches(selected[i], source)
    requires |listed| == |selected| && forall i :: 0 <= i < |selected| ==> listed[i] == ToListed(selected[i])
    ensures forall i :: 0 <= i < |listed| ==>
      listed[i].ts >= cutoff && listed[i].eventType == typeValue
      && Contains(Lower(listed[i].source), Lower(source))
  {
    forall i | 0 <= i < |listed|
      ensures listed[i].ts >= cutoff && listed[i].eventType == typeValue
      ensures Contains(Lower(listed[i].source), Lower(source))
    {
      assert Selected(selected[i], Some(cutoff), Some(typeValue));
    }
  }

  datatype CleanupOutcome =
    | DryRun(retentionDays: int, wouldRemove: nat, wouldKeep: nat)
    | Removed(retentionDays: int, removed: nat, store: Store)

  /** The dry-run tally over `get_events(since_days=None)`: an event whose
      timestamp does not parse counts as kept. */
  function DryRunTally(events: seq<Event>, cutoff: int): (r: (nat, nat))
    ensures r.0 + r.1 == |events|
  {
    if events == [] then (0, 0)
    else
      var (rm, kp) := DryRunTally(events[1..], cutoff);
      var e := events[0];
      if e.ts.Some? && e.ts.value < cutoff then (rm + 1, kp) else (rm, kp + 1)
  }

  /** `_cleanup(days, dry_run)`. */
  function Cleanup(st: Store, now: int, days: int, dryRun: bool): (r: CleanupOutcome)
    ensures dryRun ==> r.DryRun? && r.wouldRemove + r.wouldKeep == |GetEvents(st, now, None, None)|
    ensures dryRun ==> r.wouldRemove == CleanupOldEvents(st, now, days).0
    ensures !dryRun ==> r.Removed? && (r.removed, r.store) == CleanupOldEvents(st, now, days)
  {
    if dryRun then
      var all := GetEvents(st, now, None, None);
      var (rm, kp) := DryRunTally(all, Cutoff(now, days));
      DryRunAgrees(LinesOf(st), Cutoff(now, days));
      DryRun(days, rm, kp)
    else
      var (n, st') := CleanupOldEvents(st, now, days);
      Removed(days, n, st')
  }

  /** The dry run predicts exactly the number the real cleanup removes. */
  lemma {:induction false} DryRunAgrees(lines: seq<Line>, cutoff: int)
    ensures DryRunTally(ScanLines(lines, None, None), cutoff).0 == Prune(lines, cutoff).1
    decreases |lines|
  {
    if lines != [] {
      DryRunAgrees(lines[1..], cutoff);
      var l := lines[0];
      var rest := ScanLines(lines[1..], None, None);
      if l.Parsed? {
        assert ScanLines(lines, None, None) == [l.e] + rest;
        assert ([l.e] + rest)[1..] == rest;
      } else {
        assert ScanLines(lines, None, None) == rest;
      }
    }
  }

  /** A dry run leaves the store as it was; the real cleanup leaves no
      event older than the cutoff. */
  lemma CleanupEffect(st: Store, now: int, days: int)
    ensures Cleanup(st, now, days, false).Removed?
    ensures var r := Cleanup(st, now, days, false);
      forall l :: l in LinesOf(r.store) ==> !Drops(l, Cutoff(now, days))
  {
  }

  // Dispatch

  datatype Action = StatsAction | EventsAction | CleanupAction | ScoreAction | AlertAction | DashboardAction

  function ParseAction(s: string): Option<Action> {
    if s == "stats" then Some(StatsAction)
    else if s == "events" then Some(EventsAction)
    else if s == "cleanup" then Some(CleanupAction)
    else if s == "score" then Some(ScoreAction)
    else if s == "alert" then Some(AlertAction)
    else if s == "dashboard" then Some(DashboardAction)
    else None
  }

  /** The dashboard's data (its Markdown text is presentation only). */
  datatype DashboardResult = DashboardResult(statsDays: int, rating: Rating, hasAlerts: bool, totalEvents: int)

  datatype Response =
    | StatsR(stats: StatsResult)
    | EventsR(events: EventsOutcome)
    | CleanupR(cleanup: CleanupOutcome)
    | ScoreR(score: ScoreResult)
    | AlertR(alert: AlertResult)
    | DashboardR(dashboard: DashboardResult)
    | UnknownAction(error: string)

  /** The window each action uses when `days` is not given. */
  function DefaultDays(a: Action): int {
    match a
    case StatsAction => 7
    case EventsAction => 1
    case CleanupAction => 30
    case DashboardAction => 7
    case _ => 7
  }

  /** `enforcement_stats(action, days, event_type, source, limit, dry_run, quiet)`. */
  function Dispatch(st: Store, now: int, action: string, days: Option<int>, eventType: Option<string>,
                    source: Option<string>, limit: int, dryRun: bool, quiet: bool): (r: Response)
    ensures r.UnknownAction? <==> ParseAction(action).None?
    ensures action == "stats" && days.None? ==> r.StatsR? && r.stats.days == 7
    ensures action == "events" && days.None? && eventType.None? ==> r.EventsR? && r.events.EventsList? && r.events.days == 1
    ensures action == "cleanup" && days.None? && dryRun ==> r.CleanupR? && r.cleanup.retentionDays == 30
    ensures action == "dashboard" && days.None? ==> r.DashboardR? && r.dashboard.statsDays == 7
  {
    var a := ParseAction(action);
    if a.None? then
      UnknownAction("Unknown action: " + action + ". Use: stats, events, cleanup, score, alert, dashboard")
    else
      var d := days.GetOr(DefaultDays(a.value));
      match a.value
      case StatsAction => StatsR(Stats(st, now, d))
      case EventsAction => EventsR(ListEvents(st, now, d, eventType, source, limit))
      case CleanupAction => CleanupR(Cleanup(st, now, d, dryRun))
      case ScoreAction => ScoreR(Score(st, now))
      case AlertAction => AlertR(CheckAlerts(st, now, quiet))
      case DashboardAction =>
        var s := Stats(st, now, d);
        var sc := Score(st, now);
        var al := CheckAlerts(st, now, false);
        DashboardR(DashboardResult(d, sc.rating, |al.alerts| > 0, s.totalEvents))
  }

  /** Concrete scenario: one violation and three blocks this week against
      two and seven the week before, no bypasses: the blocked trend is
      decreasing, so the rating is "excellent". */
  lemma ScenarioDecreasingBlocks()
    ensures ComputeTrend(3, 7) == Decreasing
    ensures Rate(1, ComputeTrend(3, 7), 3, 0) == Excellent
  {
  }

  /** Concrete scenario: two bypasses this week rate "critical" and raise a
      critical alert, also in quiet mode. */
  lemma ScenarioBypasses()
    ensures Rate(0, Stable, 0, 2) == Critical
    ensures AlertsFor(0, 0, 0, 2, true).hasCritical
    ensures AlertsFor(0, 0, 0, 2, true).status == "critical"
  {
  }

  /** An empty or missing log: no counts, no alerts, status "ok", rating
      "excellent". */
  lemma EmptyStore(now: int)
    ensures Stats(Missing, now, 7).totalEvents == 0
    ensures Score(Missing, now).rating == Excellent
    ensures CheckAlerts(Missing, now, false).status == "ok"
  {
  }
}

=== FILE: evaluator.dfy ===
/** Side-by-side evaluation of two benchmark results: scoring one answer,
    comparing two answers, the question-by-question evaluation with its
    win counts and overall winner, and the strengths read off the wins.
    Scores and confidences are reals; the judging model's replies and the
    rounding to two places are parameters. */
module Evaluator {
  import opened Common
  import opened Json
  import opened Benchmark

  type Entries = seq<(string, Value)>

  /** What the parsers use from Python: `json.loads`, `float(s)` on a
      string, and `str(v)` on a value that is not a string. */
  datatype Decoders = Decoders(loads: string -> Option<Value>, parseFloat: string -> Option<real>,
                               strOf: Value -> string)

  /** `float(v)`: None where Python raises ValueError or TypeError. */
  function ToFloat(v: Value, d: Decoders): (r: Option<real>)
    ensures v.Num? ==> r == Some(v.n as real)
    ensures v.Null? || v.List? || v.Dict? ==> r.None?
  {
    match v
    case Num(n) => Some(n as real)
    case Bool(b) => Some(if b then 1.0 else 0.0)
    case Str(s) => d.parseFloat(s)
    case _ => None
  }

  /** `max(0, min(hi, x))`. */
  function Clamp(x: real, hi: real): (r: real)
    requires hi >= 0.0
    ensures 0.0 <= r <= hi
    ensures 0.0 <= x <= hi ==> r == x
    ensures x < 0.0 ==> r == 0.0
    ensures x > hi ==> r == hi
  {
    if x < hi then (if x > 0.0 then x else 0.0) else hi
  }

  const MaxScore: real := 10.0
  const NeutralScore: real := 5.0

  /** `get_score(key)`: the value under `key` (5 when absent) as a float
      clamped to [0, 10], or 5 when it is no number. */
  function ScoreAt(entries: Entries, key: string, d: Decoders): (r: real)
    ensures 0.0 <= r <= MaxScore
    ensures !HasKey(entries, key) ==> r == NeutralScore
    ensures (Get(entries, key).Some? && ToFloat(Get(entries, key).value, d).None?) ==> r == NeutralScore
    ensures (Get(entries, key).Some? && ToFloat(Get(entries, key).value, d).Some?) ==>
              r == Clamp(ToFloat(Get(entries, key).value, d).value, MaxScore)
  {
    var f := ToFloat(Get(entries, key).GetOr(Num(5)), d);
    if f.Some? then Clamp(f.value, MaxScore) else NeutralScore
  }

  /** `str(output.get("reasoning", ""))`. */
  function ReasoningOf(entries: Entries, d: Decoders): string {
    PyStr(Get(entries, "reasoning").GetOr(Str("")), d.strOf)
  }

  /** A decoded reply: a string is read as JSON once; None when it does
      not parse. */
  function Decoded(output: Value, d: Decoders): Option<Value> {
    if output.Str? then d.loads(output.s) else Some(output)
  }

  // ---------------------------------------------------------------------
  // Scoring one answer

  datatype Note = Reasoning(text: string) | AnswerError(error: string)

  datatype ScoreCard = ScoreCard(accuracy: real, completeness: real, relevance: real, clarity: real,
                                 overall: real, note: Note)

  predicate InRange(c: ScoreCard) {
    0.0 <= c.accuracy <= MaxScore && 0.0 <= c.completeness <= MaxScore && 0.0 <= c.relevance <= MaxScore
    && 0.0 <= c.clarity <= MaxScore && 0.0 <= c.overall <= MaxScore
  }

  function Uniform(x: real, note: Note): ScoreCard {
    ScoreCard(x, x, x, x, x, note)
  }

  const DefaultScores: ScoreCard := Uniform(NeutralScore, Reasoning(""))

  /** `_parse_scores(output)`: the four dimensions from the reply, each
      clamped to [0, 10] or 5 when no number; overall as given (clamped)
      or else the mean of the four; the neutral card when the reply is
      not an object. */
  function ParseScores(output: Value, d: Decoders): (r: ScoreCard)
    ensures InRange(r) && r.note.Reasoning?
    ensures (Decoded(output, d).None? || !Decoded(output, d).value.Dict?) ==> r == DefaultScores
    ensures (Decoded(output, d).Some? && Decoded(output, d).value.Dict? ==>
              var e := Decoded(output, d).value.entries;
              r.accuracy == ScoreAt(e, "accuracy", d) && r.completeness == ScoreAt(e, "completeness", d)
              && r.relevance == ScoreAt(e, "relevance", d) && r.clarity == ScoreAt(e, "clarity", d)
              && (HasKey(e, "overall") ==> r.overall == ScoreAt(e, "overall", d))
              && (!HasKey(e, "overall") ==> r.overall == (r.accuracy + r.completeness + r.relevance + r.clarity) / 4.0))
  {
    var decoded := Decoded(output, d);
    if decoded.None? || !decoded.value.Dict? then DefaultScores
    else
      var e := decoded.value.entries;
      var a := ScoreAt(e, "accuracy", d);
      var c := ScoreAt(e, "completeness", d);
      var rel := ScoreAt(e, "relevance", d);
      var cl := ScoreAt(e, "clarity", d);
      var overall := if HasKey(e, "overall") then ScoreAt(e, "overall", d) else (a + c + rel + cl) / 4.0;
      ScoreCard(a, c, rel, cl, overall, Reasoning(ReasoningOf(e, d)))
  }

  /** `score_answer(question, answer)` with the judge's reply `reply`: an
      errored answer scores zero everywhere and carries its error; a
      failed judge call scores a neutral 5. */
  function ScoreAnswer(answer: Answer, reply: Entries, d: Decoders): (r: ScoreCard)
    ensures InRange(r)
    ensures HasError(answer) ==> r == Uniform(0.0, AnswerError(answer.error.value))
    ensures !HasError(answer) && HasKey(reply, "error") ==>
              r == Uniform(NeutralScore, Reasoning("Evaluation error: " + PyStr(Get(reply, "error").value, d.strOf)))
    ensures !HasError(answer) && !HasKey(reply, "error") ==> r == ParseScores(Get(reply, "output").GetOr(Dict([])), d)
  {
    if HasError(answer) then Uniform(0.0, AnswerError(answer.error.value))
    else if HasKey(reply, "error") then
      Uniform(NeutralScore, Reasoning("Evaluation error: " + PyStr(Get(reply, "error").value, d.strOf)))
    else ParseScores(Get(reply, "output").GetOr(Dict([])), d)
  }

  /** When the reply has no overall score, the overall is the mean of the
      four, and so lies between the smallest and the largest of them. */
  lemma OverallBetween(output: Value, d: Decoders)
    requires Decoded(output, d).Some? && Decoded(output, d).value.Dict?
    requires !HasKey(Decoded(output, d).value.entries, "overall")
    ensures var r := ParseScores(output, d);
            (r.overall <= r.accuracy || r.overall <= r.completeness || r.overall <= r.relevance || r.overall <= r.clarity)
            && (r.overall >= r.accuracy || r.overall >= r.completeness || r.overall >= r.relevance || r.overall >= r.clarity)
  {
  }

  // ---------------------------------------------------------------------
  // Comparing two answers

  datatype Pick = PickA | PickB | PickTie

  datatype Comparison = Comparison(scoreA: real, scoreB: real, winner: Pick, confidence: real, reasoning: string)

  predicate ComparisonInRange(c: Comparison) {
    0.0 <= c.scoreA <= MaxScore && 0.0 <= c.scoreB <= MaxScore && 0.0 <= c.confidence <= 1.0
  }

  /** `winner if winner in ["a", "b", "tie"] else "tie"`. */
  function PickOf(v: Value): (r: Pick)
    ensures r == PickA <==> v == Str("a")
    ensures r == PickB <==> v == Str("b")
  {
    if v == Str("a") then PickA else if v == Str("b") then PickB else PickTie
  }

  /** `get_confidence()`: clamped to [0, 1], 0.5 when absent or no number. */
  function ConfidenceAt(entries: Entries, d: Decoders): (r: real)
    ensures 0.0 <= r <= 1.0
    ensures !HasKey(entries, "confidence") ==> r == 0.5
  {
    var v := Get(entries, "confidence");
    if v.None? then 0.5
    else
      var f := ToFloat(v.value, d);
      if f.Some? then Clamp(f.value, 1.0) else 0.5
  }

  const DefaultComparison: Comparison := Comparison(NeutralScore, NeutralScore, PickTie, 0.5, "")

  /** `_parse_comparison(output)`. */
  function ParseComparison(output: Value, d: Decoders): (r: Comparison)
    ensures ComparisonInRange(r)
    ensures (Decoded(output, d).None? || !Decoded(output, d).value.Dict?) ==> r == DefaultComparison
    ensures (Decoded(output, d).Some? && Decoded(output, d).value.Dict? ==>
              var e := Decoded(output, d).value.entries;
              r.scoreA == ScoreAt(e, "score_a", d) && r.scoreB == ScoreAt(e, "score_b", d)
              && r.winner == PickOf(Get(e, "winner").GetOr(Str("tie"))) && r.confidence == ConfidenceAt(e, d))
  {
    var decoded := Decoded(output, d);
    if decoded.None? || !decoded.value.Dict? then DefaultComparison
    else
      var e := decoded.value.entries;
      Comparison(ScoreAt(e, "score_a", d), ScoreAt(e, "score_b", d), PickOf(Get(e, "winner").GetOr(Str("tie"))),
                 ConfidenceAt(e, d), ReasoningOf(e, d))
  }

  /** `compare_answers(question, a, b, system_a, system_b)` with the
      judge's reply `reply`: errored answers decide the comparison without
      asking the judge. */
  function CompareAnswers(a: Answer, b: Answer, systemA: string, systemB: string, reply: Entries, d: Decoders)
    : (r: Comparison)
    ensures ComparisonInRange(r)
    ensures HasError(a) && HasError(b) ==>
              r == Comparison(0.0, 0.0, PickTie, 0.5, "Both answers had errors")
    ensures HasError(a) && !HasError(b) ==>
              r == Comparison(0.0, 7.0, PickB, 0.9, systemA + " error: " + a.error.value)
    ensures !HasError(a) && HasError(b) ==>
              r == Comparison(7.0, 0.0, PickA, 0.9, systemB + " error: " + b.error.value)
    ensures !HasError(a) && !HasError(b) && HasKey(reply, "error") ==>
              r.scoreA == NeutralScore && r.scoreB == NeutralScore && r.winner == PickTie && r.confidence == 0.3
    ensures !HasError(a) && !HasError(b) && !HasKey(reply, "error") ==>
              r == ParseComparison(Get(reply, "output").GetOr(Dict([])), d)
  {
    if HasError(a) && HasError(b) then Comparison(0.0, 0.0, PickTie, 0.5, "Both answers had errors")
    else if HasError(a) then Comparison(0.0, 7.0, PickB, 0.9, systemA + " error: " + a.error.value)
    else if HasError(b) then Comparison(7.0, 0.0, PickA, 0.9, systemB + " error: " + b.error.value)
    else if HasKey(reply, "error") then
      Comparison(NeutralScore, NeutralScore, PickTie, 0.3,
                 "Comparison error: " + PyStr(Get(reply, "error").value, d.strOf))
    else ParseComparison(Get(reply, "output").GetOr(Dict([])), d)
  }

  /** An answer that errored never beats one that did not, whatever the
      judge says: the comparison is decided before the judge is asked. */
  lemma ErroredNeverWins(a: Answer, b: Answer, systemA: string, systemB: string, reply: Entries, d: Decoders)
    ensures HasError(a) && !HasError(b) ==> CompareAnswers(a, b, systemA, systemB, reply, d).winner == PickB
    ensures !HasError(a) && HasError(b) ==> CompareAnswers(a, b, systemA, systemB, reply, d).winner == PickA
    ensures HasError(a) && HasError(b) ==> CompareAnswers(a, b, systemA, systemB, reply, d).winner == PickTie
    ensures (HasError(a) || HasError(b)) ==>
              CompareAnswers(a, b, systemA, systemB, reply, d) == CompareAnswers(a, b, systemA, systemB, [], d)
  {
  }

  // ---------------------------------------------------------------------
  // Evaluating a benchmark

  datatype Winner = ParallelWin | ComparisonWin | TieWin | Inconclusive

  datatype QuestionScore = QuestionScore(questionId: string, parallelScore: real, comparisonScore: real,
                                         winner: Winner, confidence: real, reasoning: string)

  function WinnerOf(p: Pick): (w: Winner)
    ensures w != Inconclusive
  {
    match p
    case PickA => ParallelWin
    case PickB => ComparisonWin
    case PickTie => TieWin
  }

  /** `{a.question_id: a for a in answers}.get(id)`: the last answer
      given for the question. */
  function LastAnswer(answers: seq<Answer>, id: string): (r: Option<Answer>)
    ensures r.None? <==> forall i :: 0 <= i < |answers| ==> answers[i].questionId != id
    ensures r.Some? ==> (exists i :: 0 <= i < |answers| && answers[i] == r.value && answers[i].questionId == id
                           && forall j :: i < j < |answers| ==> answers[j].questionId != id)
    decreases |answers|
  {
    if answers == [] then None
    else if answers[|answers| - 1].questionId == id then Some(answers[|answers| - 1])
    else LastAnswer(answers[..|answers| - 1], id)
  }

  /** What the evaluation needs beyond the two results: the judge's reply
      to a comparison, the decoders, and `round(x, 2)`. */
  datatype Judge = Judge(reply: (Question, Answer, Answer) -> Entries, d: Decoders, round2: real -> real)

  predicate BothAnswered(par: Result, comp: Result, q: Question) {
    LastAnswer(par.answers, q.id).Some? && LastAnswer(comp.answers, q.id).Some?
  }

  /** A scored question together with the question it scores. */
  datatype Scored = Scored(question: Question, score: QuestionScore)

  function ScoreQuestion(par: Result, comp: Result, q: Question, j: Judge): (s: QuestionScore)
    requires BothAnswered(par, comp, q)
    ensures s.questionId == q.id && s.winner != Inconclusive
  {
    var a := LastAnswer(par.answers, q.id).value;
    var b := LastAnswer(comp.answers, q.id).value;
    var c := CompareAnswers(a, b, "Parallel", comp.system, j.reply(q, a, b), j.d);
    QuestionScore(q.id, c.scoreA, c.scoreB, WinnerOf(c.winner), c.confidence, c.reasoning)
  }

  /** The test of `evaluate_benchmark` for a question to be scored. */
  function AnsweredBy(par: Result, comp: Result): Question -> bool {
    q => BothAnswered(par, comp, q)
  }

  /** The loop of `evaluate_benchmark` over the questions: questions
      missing an answer on either side are skipped. */
  function ScoreAll(par: Result, comp: Result, qs: seq<Question>, j: Judge): (r: seq<Scored>)
    ensures |r| == CountWhere(qs, AnsweredBy(par, comp))
    ensures forall s :: s in r ==> s.question in qs && BothAnswered(par, comp, s.question)
                                   && s.score.questionId == s.question.id && s.score.winner != Inconclusive
    decreases |qs|
  {
    if qs == [] then []
    else
      var rest := ScoreAll(par, comp, qs[1..], j);
      assert forall q :: q in qs[1..] ==> q in qs;
      if BothAnswered(par, comp, qs[0]) then [Scored(qs[0], ScoreQuestion(par, comp, qs[0], j))] + rest
      else rest
  }

  /** Every question both runs answered is scored. */
  lemma {:induction false} ScoreAllCovers(par: Result, comp: Result, qs: seq<Question>, j: Judge, q: Question)
    requires q in qs && BothAnswered(par, comp, q)
    ensures exists s :: s in ScoreAll(par, comp, qs, j) && s.question == q
  {
    var rest := ScoreAll(par, comp, qs[1..], j);
    if q == qs[0] {
      assert ScoreAll(par, comp, qs, j)[0].question == q;
    } else {
      ScoreAllCovers(par, comp, qs[1..], j, q);
      var s :| s in rest && s.question == q;
      assert s in ScoreAll(par, comp, qs, j);
    }
  }

  function Scores(scored: seq<Scored>): (r: seq<QuestionScore>)
    ensures |r| == |scored| && forall i :: 0 <= i < |scored| ==> r[i] == scored[i].score
  {
    seq(|scored|, i requires 0 <= i < |scored| => scored[i].score)
  }

  function SumR(xs: seq<real>): real {
    if xs == [] then 0.0 else SumR(xs[..|xs| - 1]) + xs[|xs| - 1]
  }

  function ParallelScores(s: seq<QuestionScore>): (r: seq<real>)
    ensures |r| == |s| && forall i :: 0 <= i < |s| ==> r[i] == s[i].parallelScore
  {
    seq(|s|, i requires 0 <= i < |s| => s[i].parallelScore)
  }

  function ComparisonScores(s: seq<QuestionScore>): (r: seq<real>)
    ensures |r| == |s| && forall i :: 0 <= i < |s| ==> r[i] == s[i].comparisonScore
  {
    seq(|s|, i requires 0 <= i < |s| => s[i].comparisonScore)
  }

  /** `sum(xs) / len(xs) if xs else 0`. */
  function Mean(xs: seq<real>): real {
    if xs == [] then 0.0 else SumR(xs) / (|xs| as real)
  }

  predicate IsParallelWin(s: QuestionScore) { s.winner == ParallelWin }
  predicate IsComparisonWin(s: QuestionScore) { s.winner == ComparisonWin }
  predicate IsTie(s: QuestionScore) { s.winner == TieWin }

  /** Every scored question counts as exactly one of a win, a loss or a tie. */
  lemma {:induction false} WinsPartition(s: seq<QuestionScore>)
    requires forall i :: 0 <= i < |s| ==> s[i].winner != Inconclusive
    ensures CountWhere(s, IsParallelWin) + CountWhere(s, IsComparisonWin) + CountWhere(s, IsTie) == |s|
  {
    if s != [] {
      assert forall i :: 1 <= i < |s| ==> s[1..][i - 1] == s[i];
      WinsPartition(s[1..]);
    }
  }

  datatype Averages = Averages(parallel: real, comparison: real)

  /** The scores of the scored questions whose key is `k`. */
  function ScoresWithKey(scored: seq<Scored>, key: Question -> string, k: string): (r: seq<QuestionScore>)
    ensures |r| == CountKey(Questions(scored), key, k)
    ensures forall s :: s in r ==> exists x :: x in scored && x.score == s && key(x.question) == k
    decreases |scored|
  {
    if scored == [] then []
    else
      var init := scored[..|scored| - 1];
      var last := scored[|scored| - 1];
      assert Questions(scored)[..|scored| - 1] == Questions(init);
      ScoresWithKey(init, key, k) + (if key(last.question) == k then [last.score] else [])
  }

  function Questions(scored: seq<Scored>): (r: seq<Question>)
    ensures |r| == |scored| && forall i :: 0 <= i < |scored| ==> r[i] == scored[i].question
  {
    seq(|scored|, i requires 0 <= i < |scored| => scored[i].question)
  }

  /** The per-category (or per-difficulty) averages: one entry per key in
      the order the keys first occur, each the rounded mean of the scores
      under it. */
  function GroupAverages(scored: seq<Scored>, key: Question -> string, round2: real -> real)
    : (r: seq<(string, Averages)>)
    ensures Keys(r) == Dedupe(KeysOf(scored, key))
    ensures forall i :: 0 <= i < |r| ==>
              var group := ScoresWithKey(scored, key, r[i].0);
              r[i].1 == Averages(round2(Mean(ParallelScores(group))), round2(Mean(ComparisonScores(group))))
  {
    var ks := Dedupe(KeysOf(scored, key));
    seq(|ks|, i requires 0 <= i < |ks| =>
      var group := ScoresWithKey(scored, key, ks[i]);
      (ks[i], Averages(round2(Mean(ParallelScores(group))), round2(Mean(ComparisonScores(group))))))
  }

  function KeysOf(scored: seq<Scored>, key: Question -> string): (r: seq<string>)
    ensures |r| == |scored| && forall i :: 0 <= i < |scored| ==> r[i] == key(scored[i].question)
  {
    seq(|scored|, i requires 0 <= i < |scored| => key(scored[i].question))
  }

  datatype Aggregate = Aggregate(parallelAverage: real, comparisonAverage: real,
                                 byCategory: seq<(string, Averages)>, byDifficulty: seq<(string, Averages)>,
                                 parallelWins: nat, comparisonWins: nat, ties: nat)

  datatype Verdict = Verdict(winner: Winner, confidence: real)

  /** The overall winner of `evaluate_benchmark`: a side that won more
      questions than the other side's wins and the ties together; else the
      side whose average is ahead by more than a point; else a tie. */
  function Overall(pw: nat, cw: nat, ties: nat, pAvg: real, cAvg: real, count: nat): (v: Verdict)
    requires count >= 1
    ensures v.winner != Inconclusive
    ensures pw > cw + ties ==> v == Verdict(ParallelWin, pw as real / count as real)
    ensures cw > pw + ties ==> v == Verdict(ComparisonWin, cw as real / count as real)
    ensures pw <= cw + ties && cw <= pw + ties ==>
              (v.winner == TieWin <==> -1.0 <= pAvg - cAvg <= 1.0)
    ensures pw <= cw + ties && cw <= pw + ties && pAvg - cAvg > 1.0 ==> v == Verdict(ParallelWin, 0.6)
    ensures pw <= cw + ties && cw <= pw + ties && cAvg - pAvg > 1.0 ==> v == Verdict(ComparisonWin, 0.6)
  {
    var gap := if pAvg >= cAvg then pAvg - cAvg else cAvg - pAvg;
    if pw > cw + ties then Verdict(ParallelWin, pw as real / count as real)
    else if cw > pw + ties then Verdict(ComparisonWin, cw as real / count as real)
    else if gap > 1.0 then Verdict(if pAvg > cAvg then ParallelWin else ComparisonWin, 0.6)
    else Verdict(TieWin, 0.5)
  }

  function Swap(w: Winner): Winner {
    match w
    case ParallelWin => ComparisonWin
    case ComparisonWin => ParallelWin
    case other => other
  }

  /** The decision does not favour either side: exchanging the two
      systems' wins and averages exchanges the winner. */
  lemma OverallSymmetric(pw: nat, cw: nat, ties: nat, pAvg: real, cAvg: real, count: nat)
    requires count >= 1
    ensures Overall(cw, pw, ties, cAvg, pAvg, count).winner == Swap(Overall(pw, cw, ties, pAvg, cAvg, count).winner)
  {
  }

  /** With every question a win, a loss or a tie, "more wins than the
      other side's wins and the ties" is a strict majority. */
  lemma MajorityMeansMoreThanHalf(pw: nat, cw: nat, ties: nat, n: nat)
    requires pw + cw + ties == n
    ensures pw > cw + ties <==> 2 * pw > n
    ensures cw > pw + ties <==> 2 * cw > n
  {
  }

  datatype Strength = StrongIn(category: string, wins: nat) | ExcelsAt(difficulty: string, wins: nat)
  {
    function Message(): string {
      match this
      case StrongIn(c, n) => "Strong in " + c + " questions (" + NatToString(n) + " wins)"
      case ExcelsAt(d, n) => "Excels at " + d + " difficulty (" + NatToString(n) + " wins)"
    }
  }

  datatype Evaluation = Evaluation(id: string, benchmarkId: string, parallelResultId: string,
                                   comparisonResultId: string, comparisonSystem: string,
                                   scores: seq<QuestionScore>, aggregate: Aggregate, verdict: Verdict,
                                   strengthsParallel: seq<Strength>, strengthsComparison: seq<Strength>)

  /** `{q.id: q for q in questions}.get(id)`: the last question with the id. */
  function QuestionById(qs: seq<Question>, id: string): (r: Option<Question>)
    ensures r.None? <==> forall i :: 0 <= i < |qs| ==> qs[i].id != id
    ensures r.Some? ==> r.value in qs && r.value.id == id
    decreases |qs|
  {
    if qs == [] then None
    else if qs[|qs| - 1].id == id then Some(qs[|qs| - 1])
    else QuestionById(qs[..|qs| - 1], id)
  }

  /** The questions `system` won, in score order, skipping scores whose
      question is not in the benchmark. */
  function WonQuestions(scores: seq<QuestionScore>, qs: seq<Question>, system: Winner): (r: seq<Question>)
    ensures |r| <= |scores|
    ensures forall q :: q in r ==> q in qs
    decreases |scores|
  {
    if scores == [] then []
    else
      var init := WonQuestions(scores[..|scores| - 1], qs, system);
      var s := scores[|scores| - 1];
      var q := QuestionById(qs, s.questionId);
      if s.winner == system && q.Some? then init + [q.value] else init
  }

  /** The buckets of a tally with at least three wins, in tally order. */
  function StrongBuckets(t: Counts, difficulty: bool): (r: seq<Strength>)
    ensures |r| <= |t|
    ensures forall s :: s in r ==> s.wins >= 3 && s.ExcelsAt? == difficulty && (BucketName(s), s.wins) in t
    ensures forall e :: e in t && e.1 >= 3 ==> exists s :: s in r && BucketName(s) == e.0 && s.wins == e.1
    decreases |t|
  {
    if t == [] then []
    else
      var rest := StrongBuckets(t[1..], difficulty);
      assert forall e :: e in t <==> e == t[0] || e in t[1..];
      if t[0].1 >= 3 then
        var b := Bucket(t[0].0, t[0].1, difficulty);
        assert forall s :: s in [b] + rest <==> s == b || s in rest;
        [b] + rest
      else rest
  }

  /** The strength reported for bucket `name` with `wins` wins. */
  function Bucket(name: string, wins: nat, difficulty: bool): (s: Strength)
    ensures BucketName(s) == name && s.wins == wins && s.ExcelsAt? == difficulty
  {
    if difficulty then ExcelsAt(name, wins) else StrongIn(name, wins)
  }

  function BucketName(s: Strength): string {
    if s.StrongIn? then s.category else s.difficulty
  }

  /** A listed bucket's wins are the number of won questions in it. */
  lemma BucketWins(won: seq<Question>, key: Question -> string, difficulty: bool, s: Strength)
    requires s in StrongBuckets(Tally(won, key), difficulty)
    ensures s.wins == CountKey(won, key, BucketName(s))
  {
    var t := Tally(won, key);
    var i :| 0 <= i < |t| && t[i] == (BucketName(s), s.wins);
    IndexOfUnique(t, BucketName(s), i);
  }

  /** Every strong bucket of the won questions: categories first, then
      difficulties, each in the order its first win occurs. */
  function AllStrengths(won: seq<Question>): (r: seq<Strength>)
    ensures forall s :: s in r ==> s.wins >= 3
    ensures forall s :: s in r && s.StrongIn? ==> s.wins == CountKey(won, CategoryValue, s.category)
    ensures forall s :: s in r && s.ExcelsAt? ==> s.wins == CountKey(won, DifficultyValue, s.difficulty)
  {
    var cats := StrongBuckets(Tally(won, CategoryValue), false);
    var diffs := StrongBuckets(Tally(won, DifficultyValue), true);
    forall s | s in cats ensures s.wins == CountKey(won, CategoryValue, BucketName(s)) {
      BucketWins(won, CategoryValue, false, s);
    }
    forall s | s in diffs ensures s.wins == CountKey(won, DifficultyValue, BucketName(s)) {
      BucketWins(won, DifficultyValue, true, s);
    }
    cats + diffs
  }

  /** `_identify_strengths(scores, questions, system)`: the first five
      strong buckets of the questions `system` won. */
  function Strengths(scores: seq<QuestionScore>, qs: seq<Question>, system: Winner): (r: seq<Strength>)
    ensures |r| <= 5
    ensures forall s :: s in r ==> s.wins >= 3
    ensures forall s :: s in r && s.StrongIn? ==>
              s.wins == CountKey(WonQuestions(scores, qs, system), CategoryValue, s.category)
    ensures forall s :: s in r && s.ExcelsAt? ==>
              s.wins == CountKey(WonQuestions(scores, qs, system), DifficultyValue, s.difficulty)
  {
    var all := AllStrengths(WonQuestions(scores, qs, system));
    var r := Prefix(all, 5);
    assert forall s :: s in r ==> s in all;
    r
  }

  /** The aggregate of `evaluate_benchmark` over decided scores: every
      score is a parallel win, a comparison win or a tie. */
  function AggregateOf(scored: seq<Scored>, j: Judge): (a: Aggregate)
    requires forall i :: 0 <= i < |Scores(scored)| ==> Scores(scored)[i].winner != Inconclusive
    ensures a.parallelWins + a.comparisonWins + a.ties == |scored|
    ensures a.parallelWins == CountWhere(Scores(scored), IsParallelWin)
    ensures a.comparisonWins == CountWhere(Scores(scored), IsComparisonWin)
  {
    var scores := Scores(scored);
    WinsPartition(scores);
    var count := if |scores| == 0 then 1 else |scores|;
    var pAvg := j.round2(SumR(ParallelScores(scores)) / count as real);
    var cAvg := j.round2(SumR(ComparisonScores(scores)) / count as real);
    Aggregate(pAvg, cAvg, GroupAverages(scored, CategoryValue, j.round2),
              GroupAverages(scored, DifficultyValue, j.round2),
              CountWhere(scores, IsParallelWin), CountWhere(scores, IsComparisonWin), CountWhere(scores, IsTie))
  }

  /** Every score of the answered questions is decided and belongs to a
      question of the benchmark that both runs answered. */
  lemma ScoresDecided(par: Result, comp: Result, qs: seq<Question>, j: Judge)
    ensures var scores := Scores(ScoreAll(par, comp, qs, j));
      && (forall i :: 0 <= i < |scores| ==> scores[i].winner != Inconclusive)
      && forall s :: s in scores ==> exists q :: q in qs && q.id == s.questionId && BothAnswered(par, comp, q)
  {
    var scored := ScoreAll(par, comp, qs, j);
    var scores := Scores(scored);
    forall i | 0 <= i < |scores| ensures scores[i].winner != Inconclusive {
      assert scored[i] in scored;
    }
    forall s | s in scores ensures exists q :: q in qs && q.id == s.questionId && BothAnswered(par, comp, q) {
      var i :| 0 <= i < |scores| && scores[i] == s;
      assert scored[i] in scored;
    }
  }

  /** `evaluate_benchmark(parallel, comparison, benchmark)`, with `id` the
      generated evaluation id. */
  function Evaluate(par: Result, comp: Result, bench: Bench, j: Judge, id: string): (e: Evaluation)
    ensures |e.scores| == CountWhere(bench.questions, AnsweredBy(par, comp))
    ensures e.aggregate.parallelWins + e.aggregate.comparisonWins + e.aggregate.ties == |e.scores|
    ensures forall s :: s in e.scores ==> exists q :: q in bench.questions && q.id == s.questionId && BothAnswered(par, comp, q)
  {
    var scored := ScoreAll(par, comp, bench.questions, j);
    ScoresDecided(par, comp, bench.questions, j);
    var e := Summarize(id, par, comp, bench, scored, j);
    assert e.scores == Scores(scored) && |e.scores| == |scored|;
    e
  }

  /** The evaluation record over the decided scores `scored`. */
  function Summarize(id: string, par: Result, comp: Result, bench: Bench, scored: seq<Scored>, j: Judge): (e: Evaluation)
    requires forall i :: 0 <= i < |Scores(scored)| ==> Scores(scored)[i].winner != Inconclusive
    ensures e.scores == Scores(scored)
    ensures e.aggregate.parallelWins + e.aggregate.comparisonWins + e.aggregate.ties == |e.scores|
    ensures e.aggregate.parallelWins == CountWhere(e.scores, IsParallelWin)
    ensures e.aggregate.comparisonWins == CountWhere(e.scores, IsComparisonWin)
    ensures e.verdict == Overall(e.aggregate.parallelWins, e.aggregate.comparisonWins, e.aggregate.ties,
                                 e.aggregate.parallelAverage, e.aggregate.comparisonAverage,
                                 if |e.scores| == 0 then 1 else |e.scores|)
  {
    var scores := Scores(scored);
    var agg := AggregateOf(scored, j);
    var count := if |scores| == 0 then 1 else |scores|;
    Evaluation(id, bench.id, par.id, comp.id, comp.system, scores, agg,
               Overall(agg.parallelWins, agg.comparisonWins, agg.ties, agg.parallelAverage, agg.comparisonAverage, count),
               Strengths(scores, bench.questions, ParallelWin), Strengths(scores, bench.questions, ComparisonWin))
  }
}

=== FILE: executor.dfy ===
/** The evolution executor: which user files are behind the core schema
    versions, and the agent-driven migration of each such file along its
    chain of step migrations.  Reading files, the YAML parser and the agent
    itself are parameters. */
module Executor {
  import opened Common
  import opened Json
  import Registry

  // ---------------------------------------------------------------------
  // Versions

  const SchemaVersionKey: string := "_schema_version"

  /** The versions document used when the core has no versions file. */
  function DefaultVersions(): Value {
    Dict([("agent", Num(1)), ("rule", Num(1)), ("tool", Num(1)), ("config", Num(1))])
  }

  /** `_load_versions()`: the parsed versions file, `{}` when it parses to
      something falsy, the defaults when there is no file. */
  function LoadVersions(file: Option<Value>): (r: Value)
    ensures file.None? ==> r == DefaultVersions()
    ensures file.Some? && Truthy(file.value) ==> r == file.value
    ensures file.Some? && !Truthy(file.value) ==> r == Dict([])
  {
    match file
    case None => DefaultVersions()
    case Some(v) => if Truthy(v) then v else Dict([])
  }

  /** `mapping.get(key, 1)` used as a version number; None where the later
      comparison raises (not a mapping, or a value that is neither an
      integer nor a boolean). A YAML boolean is a Python int: `true`
      compares as 1 and `false` as 0. */
  function VersionIn(doc: Value, key: string): (r: Option<int>)
    ensures doc.Dict? && !HasKey(doc.entries, key) ==> r == Some(1)
    ensures doc.Dict? && Get(doc.entries, key) == Some(Num(1)) ==> r == Some(1)
    ensures doc.Dict? && Get(doc.entries, key) == Some(Bool(true)) ==> r == Some(1)
    ensures doc.Dict? && Get(doc.entries, key) == Some(Bool(false)) ==> r == Some(0)
    ensures !doc.Dict? ==> r.None?
    ensures (r.None? <==>
      !doc.Dict? || (HasKey(doc.entries, key) && !Get(doc.entries, key).value.Num? && !Get(doc.entries, key).value.Bool?))
    ensures (r.Some? && r.value != 1 ==>
      doc.Dict? && (Get(doc.entries, key) == Some(Num(r.value)) || (r.value == 0 && Get(doc.entries, key) == Some(Bool(false)))))
  {
    if !doc.Dict? then None
    else
      match Get(doc.entries, key)
      case None => Some(1)
      case Some(Num(n)) => Some(n)
      case Some(Bool(b)) => Some(if b then 1 else 0)
      case Some(_) => None
  }

  /** `_get_file_version(yaml.safe_load(f) or {})`: 1 when the file is
      empty or has no `_schema_version`. */
  function FileVersion(data: Value): (r: Option<int>)
    ensures !Truthy(data) ==> r == Some(1)
    ensures data.Dict? && !HasKey(data.entries, SchemaVersionKey) ==> r == Some(1)
  {
    if Truthy(data) then VersionIn(data, SchemaVersionKey) else Some(1)
  }

  // ---------------------------------------------------------------------
  // Compatibility

  /** A user file as the executor sees it: its path and its parsed YAML,
      None when reading or parsing raised. */
  datatype UserFile = UserFile(path: string, doc: Option<Value>)

  datatype Issue = Issue(schemaType: string, file: string, current: int, required: int)

  /** The check of one file: an issue when it is behind the required
      version; None when it is up to date or the check raised (and was
      only logged). */
  function CheckFile(schemaType: string, f: UserFile, versions: Value): (r: Option<Issue>)
    ensures (r.Some? <==>
      f.doc.Some? && FileVersion(f.doc.value).Some? && VersionIn(versions, schemaType).Some?
      && FileVersion(f.doc.value).value < VersionIn(versions, schemaType).value)
    ensures (r.Some? ==>
      r.value == Issue(schemaType, f.path, FileVersion(f.doc.value).value, VersionIn(versions, schemaType).value))
  {
    if f.doc.None? then None
    else
      var current := FileVersion(f.doc.value);
      var required := VersionIn(versions, schemaType);
      if current.None? || required.None? || current.value >= required.value then None
      else Some(Issue(schemaType, f.path, current.value, required.value))
  }

  /** `_schema_version: true` compares as version 1, so such a file is
      behind a required version 2. */
  lemma TrueVersionIsBehind(path: string)
    ensures (CheckFile("agent", UserFile(path, Some(Dict([(SchemaVersionKey, Bool(true))]))), Dict([("agent", Num(2))]))
             == Some(Issue("agent", path, 1, 2)))
  {
    assert Get([(SchemaVersionKey, Bool(true))], SchemaVersionKey) == Some(Bool(true));
    assert Get([("agent", Num(2))], "agent") == Some(Num(2));
  }

  /** The issues of a directory's files, in file order. */
  function IssuesOf(schemaType: string, files: seq<UserFile>, versions: Value): (r: seq<Issue>)
    ensures |r| <= |files|
    ensures forall k :: 0 <= k < |r| ==> r[k].schemaType == schemaType && r[k].current < r[k].required
    decreases |files|
  {
    if files == [] then []
    else
      var c := CheckFile(schemaType, files[0], versions);
      (if c.Some? then [c.value] else []) + IssuesOf(schemaType, files[1..], versions)
  }

  /** A file is reported exactly when it is behind. */
  lemma IssueIffBehind(schemaType: string, files: seq<UserFile>, versions: Value, i: int)
    requires 0 <= i < |files|
    ensures (CheckFile(schemaType, files[i], versions).Some? ==>
      CheckFile(schemaType, files[i], versions).value in IssuesOf(schemaType, files, versions))
    ensures (forall k :: 0 <= k < |IssuesOf(schemaType, files, versions)| ==>
      IssuesOf(schemaType, files, versions)[k].file != files[i].path) ==> CheckFile(schemaType, files[i], versions).None?
  {
    var c := CheckFile(schemaType, files[i], versions);
    var all := IssuesOf(schemaType, files, versions);
    CheckedIn(schemaType, files, versions, i);
    if c.Some? {
      var k :| 0 <= k < |all| && all[k] == c.value;
      assert all[k].file == files[i].path;
    }
  }

  /** The issue a file's check raises is among the directory's issues. */
  lemma {:induction false} CheckedIn(schemaType: string, files: seq<UserFile>, versions: Value, i: int)
    requires 0 <= i < |files|
    ensures CheckFile(schemaType, files[i], versions).Some? ==>
      CheckFile(schemaType, files[i], versions).value in IssuesOf(schemaType, files, versions)
    decreases |files|
  {
    var c := CheckFile(schemaType, files[0], versions);
    var rest := IssuesOf(schemaType, files[1..], versions);
    assert IssuesOf(schemaType, files, versions) == (if c.Some? then [c.value] else []) + rest;
    if i > 0 {
      CheckedIn(schemaType, files[1..], versions, i - 1);
      assert files[1..][i - 1] == files[i];
    }
  }

  /** The ids of a chain of step migrations. */
  function ChainIds(steps: seq<Registry.Migration>): (r: seq<string>)
    ensures |r| == |steps| && forall i :: 0 <= i < |steps| ==> r[i] == Registry.IdOf(steps[i])
  {
    seq(|steps|, i requires 0 <= i < |steps| => Registry.IdOf(steps[i]))
  }

  /** The migration ids one issue needs; none when its path is not
      defined yet (the ValueError is swallowed). */
  function NeededBy(m: map<string, Registry.Migration>, issue: Issue): seq<string> {
    NeededFrom(m, issue.schemaType, issue.current, issue.required)
  }

  /** The ids of the step migrations from `current` up to `required`, or
      none when a step is missing. */
  function NeededFrom(m: map<string, Registry.Migration>, schemaType: string, current: int, required: int): (r: seq<string>)
    ensures r == [] || |r| == required - current
    ensures (forall i :: 0 <= i < |r| ==>
      Registry.StepId(schemaType, current + i) in m
      && r[i] == Registry.IdOf(m[Registry.StepId(schemaType, current + i)]))
  {
    var p := Registry.PathTo(m, schemaType, current, required);
    if p.Missing? then [] else ChainIds(p.steps)
  }

  /** The ids all issues need, in order of first need. */
  function AllNeeded(m: map<string, Registry.Migration>, issues: seq<Issue>): (r: seq<string>)
    ensures forall k, id :: 0 <= k < |issues| && id in NeededBy(m, issues[k]) ==> id in r
    decreases |issues|
  {
    if issues == [] then []
    else
      var rest := AllNeeded(m, issues[1..]);
      assert forall k :: 1 <= k < |issues| ==> issues[k] == issues[1..][k - 1];
      NeededBy(m, issues[0]) + rest
  }

  datatype Compatibility = Compatibility(compatible: bool, issues: seq<Issue>, migrationsNeeded: seq<string>)

  /** `check_compatibility()`: user agents then user rules, each against
      the required version of its type (a missing directory is an empty
      one); `m` is the registry's migrations. */
  function CheckCompatibility(agents: seq<UserFile>, rules: seq<UserFile>, versions: Value,
                              m: map<string, Registry.Migration>): (r: Compatibility)
    ensures r.compatible <==> r.issues == []
    ensures r.issues == IssuesOf("agent", agents, versions) + IssuesOf("rule", rules, versions)
    ensures NoDups(r.migrationsNeeded)
    ensures forall id :: id in r.migrationsNeeded <==> id in AllNeeded(m, r.issues)
  {
    var issues := IssuesOf("agent", agents, versions) + IssuesOf("rule", rules, versions);
    Compatibility(issues == [], issues, Dedupe(AllNeeded(m, issues)))
  }

  /** Every needed id names a registered step migration of some issue's
      chain, and every step of a defined chain is needed. */
  lemma NeededAreSteps(agents: seq<UserFile>, rules: seq<UserFile>, versions: Value,
                       m: map<string, Registry.Migration>, k: int)
    requires 0 <= k < |CheckCompatibility(agents, rules, versions, m).issues|
    ensures (var c := CheckCompatibility(agents, rules, versions, m);
      var p := Registry.PathTo(m, c.issues[k].schemaType, c.issues[k].current, c.issues[k].required);
      p.Path? ==> forall s :: s in p.steps ==> Registry.IdOf(s) in c.migrationsNeeded)
  {
    var c := CheckCompatibility(agents, rules, versions, m);
    var p := Registry.PathTo(m, c.issues[k].schemaType, c.issues[k].current, c.issues[k].required);
    if p.Path? {
      forall s | s in p.steps ensures Registry.IdOf(s) in c.migrationsNeeded {
        var i :| 0 <= i < |p.steps| && p.steps[i] == s;
        assert ChainIds(p.steps)[i] == Registry.IdOf(s);
      }
    }
  }

  // ---------------------------------------------------------------------
  // Migration

  /** What the agent reports for one migration of one file. */
  datatype AgentOutcome = Succeeded | FailedWith(error: Option<string>)

  datatype Failure = Failure(file: string, migration: Option<string>, error: string)
  datatype Skip = Skip(file: string, reason: string)
  datatype Outcome = Migrated(path: string) | Failed(failure: Failure) | Skipped(skip: Skip)
  {
    /** The file the outcome is about. */
    function File(): string {
      match this
      case Migrated(f) => f
      case Failed(x) => x.file
      case Skipped(x) => x.file
    }
  }

  datatype Results = Results(migrated: seq<string>, failed: seq<Failure>, skipped: seq<Skip>)

  /** The agent runs of one file's chain: every step up to and including
      the first that fails. */
  function Attempts(file: string, steps: seq<Registry.Migration>, agent: (string, Registry.Migration) -> AgentOutcome): (r: nat)
    ensures r <= |steps|
    ensures r == 0 ==> forall i :: 0 <= i < |steps| ==> agent(file, steps[i]).Succeeded?
    ensures r > 0 ==> agent(file, steps[r - 1]).FailedWith? && forall i :: 0 <= i < r - 1 ==> agent(file, steps[i]).Succeeded?
    decreases |steps|
  {
    if steps == [] then 0
    else if agent(file, steps[0]).FailedWith? then 1
    else
      var k := Attempts(file, steps[1..], agent);
      assert forall i :: 1 <= i < |steps| ==> steps[i] == steps[1..][i - 1];
      if k == 0 then 0 else k + 1
  }

  function DryRunReason(issue: Issue): string {
    "dry_run: would migrate " + issue.schemaType + " v" + IntToString(issue.current)
    + " to v" + IntToString(issue.required)
  }

  const NoMigrationsNeeded: string := "no migrations needed"
  const UnknownError: string := "Unknown error"

  /** Running a file's chain through the agent, stopping at the first
      step that fails, which is recorded with its migration id. */
  function RunChain(file: string, steps: seq<Registry.Migration>,
                    agent: (string, Registry.Migration) -> AgentOutcome): (r: Outcome)
    ensures r.File() == file && !r.Skipped?
    ensures r.Migrated? <==> forall i :: 0 <= i < |steps| ==> agent(file, steps[i]).Succeeded?
    ensures (r.Failed? ==>
      var k := Attempts(file, steps, agent);
      0 < k && r.failure.migration == Some(Registry.IdOf(steps[k - 1])))
  {
    var k := Attempts(file, steps, agent);
    if k == 0 then Migrated(file)
    else
      var error := agent(file, steps[k - 1]).error;
      Failed(Failure(file, Some(Registry.IdOf(steps[k - 1])), if error.Some? then error.value else UnknownError))
  }

  /** The outcome of one issue: the target version is the issue's required
      version (the versions are read again, with the same result). */
  function MigrateIssue(issue: Issue, dryRun: bool, m: map<string, Registry.Migration>,
                        agent: (string, Registry.Migration) -> AgentOutcome): (r: Outcome)
    ensures r.File() == issue.file
    ensures dryRun ==> r == Skipped(Skip(issue.file, DryRunReason(issue)))
    ensures (!dryRun && Registry.PathTo(m, issue.schemaType, issue.current, issue.required).Missing? ==>
      r.Failed? && r.failure.migration.None?)
    ensures !dryRun && issue.current < issue.required ==> !r.Skipped?
    ensures (!dryRun && Registry.PathTo(m, issue.schemaType, issue.current, issue.required).Path? && issue.current < issue.required ==>
      r == RunChain(issue.file, Registry.PathTo(m, issue.schemaType, issue.current, issue.required).steps, agent))
  {
    if dryRun then Skipped(Skip(issue.file, DryRunReason(issue)))
    else
      var p := Registry.PathTo(m, issue.schemaType, issue.current, issue.required);
      if p.Missing? then
        Failed(Failure(issue.file, None, Registry.MissingMessage(issue.schemaType, issue.current, issue.required, p.id)))
      else if p.steps == [] then Skipped(Skip(issue.file, NoMigrationsNeeded))
      else RunChain(issue.file, p.steps, agent)
  }

  /** The outcomes of the issues, sorted into the three lists. */
  function Collect(outcomes: seq<Outcome>): (r: Results)
    ensures |r.migrated| + |r.failed| + |r.skipped| == |outcomes|
    ensures forall f :: f in r.migrated <==> Migrated(f) in outcomes
    ensures forall x :: x in r.failed <==> Failed(x) in outcomes
    ensures forall x :: x in r.skipped <==> Skipped(x) in outcomes
    ensures (forall i :: 0 <= i < |outcomes| ==> outcomes[i].Skipped?) ==> r.migrated == [] && r.failed == [] && |r.skipped| == |outcomes|
    decreases |outcomes|
  {
    if outcomes == [] then Results([], [], [])
    else
      var init := outcomes[..|outcomes| - 1];
      var rest := Collect(init);
      assert outcomes == init + [outcomes[|outcomes| - 1]];
      match outcomes[|outcomes| - 1]
      case Migrated(f) => rest.(migrated := rest.migrated + [f])
      case Failed(x) => rest.(failed := rest.failed + [x])
      case Skipped(x) => rest.(skipped := rest.skipped + [x])
  }

  function Outcomes(issues: seq<Issue>, dryRun: bool, m: map<string, Registry.Migration>,
                    agent: (string, Registry.Migration) -> AgentOutcome): (r: seq<Outcome>)
    ensures |r| == |issues| && forall i :: 0 <= i < |issues| ==> r[i] == MigrateIssue(issues[i], dryRun, m, agent)
  {
    seq(|issues|, i requires 0 <= i < |issues| => MigrateIssue(issues[i], dryRun, m, agent))
  }

  /** `migrate_all(dry_run)`. */
  function MigrateAll(compat: Compatibility, dryRun: bool, m: map<string, Registry.Migration>,
                      agent: (string, Registry.Migration) -> AgentOutcome): (r: Results)
    ensures compat.compatible ==> r == Results([], [], [])
    ensures !compat.compatible ==> |r.migrated| + |r.failed| + |r.skipped| == |compat.issues|
    ensures dryRun ==> r.migrated == [] && r.failed == [] && |r.skipped| == (if compat.compatible then 0 else |compat.issues|)
    ensures (!compat.compatible ==> forall f :: f in r.migrated <==>
      exists i :: 0 <= i < |compat.issues| && MigrateIssue(compat.issues[i], dryRun, m, agent) == Migrated(f))
    ensures (!compat.compatible ==> forall x :: x in r.failed <==>
      exists i :: 0 <= i < |compat.issues| && MigrateIssue(compat.issues[i], dryRun, m, agent) == Failed(x))
    ensures (!compat.compatible ==> forall x :: x in r.skipped <==>
      exists i :: 0 <= i < |compat.issues| && MigrateIssue(compat.issues[i], dryRun, m, agent) == Skipped(x))
  {
    if compat.compatible then Results([], [], [])
    else Collect(Outcomes(compat.issues, dryRun, m, agent))
  }

  /** Every step of the issue's complete migration path succeeds. */
  predicate ChainSucceeds(issue: Issue, m: map<string, Registry.Migration>,
                          agent: (string, Registry.Migration) -> AgentOutcome)
  {
    var p := Registry.PathTo(m, issue.schemaType, issue.current, issue.required);
    p.Path? && forall k :: 0 <= k < |p.steps| ==> agent(issue.file, p.steps[k]).Succeeded?
  }

  /** Outside a dry run, an issue's file is migrated iff its file is behind
      and its whole chain succeeds, and fails iff it is behind and the path
      is incomplete or some step fails. */
  lemma IssueOutcome(issue: Issue, m: map<string, Registry.Migration>,
                     agent: (string, Registry.Migration) -> AgentOutcome)
    ensures (MigrateIssue(issue, false, m, agent).Migrated? <==>
      issue.current < issue.required && ChainSucceeds(issue, m, agent))
    ensures (MigrateIssue(issue, false, m, agent).Failed? <==>
      issue.current < issue.required && !ChainSucceeds(issue, m, agent))
  {
  }

  /** Outside a dry run, a file is reported migrated iff one of its issues
      is behind with a chain that succeeds. */
  lemma MigratedIffChainSucceeds(compat: Compatibility, m: map<string, Registry.Migration>,
                                 agent: (string, Registry.Migration) -> AgentOutcome, f: string)
    requires !compat.compatible
    ensures (f in MigrateAll(compat, false, m, agent).migrated <==>
      exists i :: 0 <= i < |compat.issues| && compat.issues[i].file == f
        && compat.issues[i].current < compat.issues[i].required && ChainSucceeds(compat.issues[i], m, agent))
  {
    var issues := compat.issues;
    var r := MigrateAll(compat, false, m, agent);
    if f in r.migrated {
      var i :| 0 <= i < |issues| && MigrateIssue(issues[i], false, m, agent) == Migrated(f);
      IssueOutcome(issues[i], m, agent);
    }
    if exists i :: 0 <= i < |issues| && issues[i].file == f
        && issues[i].current < issues[i].required && ChainSucceeds(issues[i], m, agent) {
      var i :| 0 <= i < |issues| && issues[i].file == f
        && issues[i].current < issues[i].required && ChainSucceeds(issues[i], m, agent);
      IssueOutcome(issues[i], m, agent);
      assert MigrateIssue(issues[i], false, m, agent) == Migrated(f);
    }
  }

  /** Outside a dry run, a file is reported failed iff one of its issues is
      behind and its path is incomplete or some step fails. */
  lemma FailedIffChainFails(compat: Compatibility, m: map<string, Registry.Migration>,
                            agent: (string, Registry.Migration) -> AgentOutcome, f: string)
    requires !compat.compatible
    ensures ((exists x :: x in MigrateAll(compat, false, m, agent).failed && x.file == f) <==>
      exists i :: 0 <= i < |compat.issues| && compat.issues[i].file == f
        && compat.issues[i].current < compat.issues[i].required && !ChainSucceeds(compat.issues[i], m, agent))
  {
    var r := MigrateAll(compat, false, m, agent);
    if exists x :: x in r.failed && x.file == f {
      var x :| x in r.failed && x.file == f;
      FailureHasFailingChain(compat, m, agent, x);
    }
    if exists i :: 0 <= i < |compat.issues| && compat.issues[i].file == f
        && compat.issues[i].current < compat.issues[i].required && !ChainSucceeds(compat.issues[i], m, agent) {
      var i :| 0 <= i < |compat.issues| && compat.issues[i].file == f
        && compat.issues[i].current < compat.issues[i].required && !ChainSucceeds(compat.issues[i], m, agent);
      FailingChainReported(compat, m, agent, i);
    }
  }

  lemma FailureHasFailingChain(compat: Compatibility, m: map<string, Registry.Migration>,
                               agent: (string, Registry.Migration) -> AgentOutcome, x: Failure)
    requires !compat.compatible && x in MigrateAll(compat, false, m, agent).failed
    ensures (exists i :: 0 <= i < |compat.issues| && compat.issues[i].file == x.file
               && compat.issues[i].current < compat.issues[i].required && !ChainSucceeds(compat.issues[i], m, agent))
  {
    var i :| 0 <= i < |compat.issues| && MigrateIssue(compat.issues[i], false, m, agent) == Failed(x);
    IssueOutcome(compat.issues[i], m, agent);
  }

  lemma FailingChainReported(compat: Compatibility, m: map<string, Registry.Migration>,
                             agent: (string, Registry.Migration) -> AgentOutcome, i: int)
    requires !compat.compatible && 0 <= i < |compat.issues|
    requires compat.issues[i].current < compat.issues[i].required && !ChainSucceeds(compat.issues[i], m, agent)
    ensures exists x :: x in MigrateAll(compat, false, m, agent).failed && x.file == compat.issues[i].file
  {
    IssueOutcome(compat.issues[i], m, agent);
    var o := MigrateIssue(compat.issues[i], false, m, agent);
    assert o.failure in MigrateAll(compat, false, m, agent).failed;
  }

  /** A dry run invokes no agent: its result does not depend on it. */
  lemma DryRunInvokesNoAgent(compat: Compatibility, m: map<string, Registry.Migration>,
                             a1: (string, Registry.Migration) -> AgentOutcome,
                             a2: (string, Registry.Migration) -> AgentOutcome)
    ensures MigrateAll(compat, true, m, a1) == MigrateAll(compat, true, m, a2)
  {
    assert Outcomes(compat.issues, true, m, a1) == Outcomes(compat.issues, true, m, a2);
  }

  /** A compatible repository is one with no issues, and then nothing is
      migrated, failed or skipped. */
  lemma CompatibleMigratesNothing(agents: seq<UserFile>, rules: seq<UserFile>, versions: Value,
                                  m: map<string, Registry.Migration>, dryRun: bool,
                                  agent: (string, Registry.Migration) -> AgentOutcome)
    requires forall i :: 0 <= i < |agents| ==> CheckFile("agent", agents[i], versions).None?
    requires forall i :: 0 <= i < |rules| ==> CheckFile("rule", rules[i], versions).None?
    ensures MigrateAll(CheckCompatibility(agents, rules, versions, m), dryRun, m, agent) == Results([], [], [])
  {
    NoIssues("agent", agents, versions);
    NoIssues("rule", rules, versions);
  }

  lemma {:induction false} NoIssues(schemaType: string, files: seq<UserFile>, versions: Value)
    requires forall i :: 0 <= i < |files| ==> CheckFile(schemaType, files[i], versions).None?
    ensures IssuesOf(schemaType, files, versions) == []
    decreases |files|
  {
    if files != [] {
      assert forall i :: 0 <= i < |files| - 1 ==> files[1..][i] == files[i + 1];
      NoIssues(schemaType, files[1..], versions);
    }
  }
}

=== FILE: guards.dfy ===
/** The web-import guard of `pilot_core/guards.py`: a `sys.meta_path`
    finder that blocks forbidden HTTP and scraping libraries when the
    importing file is project code, except for the approved research
    tools.  The interpreter's call stack is the list of frame file names
    (innermost first); telemetry is reported as the record the hook would
    write. */
module Guards {
  import opened Common
  import Telemetry

  const ForbiddenWebLibraries: set<string> := {
    "requests", "httpx", "urllib", "urllib3", "aiohttp", "httplib",
    "http.client", "http", "bs4", "BeautifulSoup", "beautifulsoup4",
    "scrapy", "selenium", "playwright",
    "urllib.request", "urllib.parse", "urllib.error", "http.cookiejar"
  }

  /** Files allowed to import web libraries (matched as substrings). */
  const AllowedCallers: seq<string> := [
    "tools/web_search.py", "tools/web_fetch.py", "tools/parallel_task.py",
    "tools/parallel_findall.py", "tools/parallel_chat.py",
    "tools/deep_research.py", "tools/synthesize_research.py"
  ]

  const ExternalIndicators: seq<string> := [
    "site-packages", ".venv", "/python3.", "/Python.framework/", "<frozen", "<string>"
  ]

  const ImportlibIndicators: seq<string> := ["importlib", "_bootstrap", "<frozen"]

  /** `_is_project_frame`: project code, not stdlib or a virtualenv. */
  function IsProjectFrame(f: string): (r: bool)
    ensures r <==> f != "" && !AnyIn(f, ExternalIndicators)
                   && (Contains(f, "/pilot/") || Contains(f, "/pilot-"))
  {
    if f == "" then false
    else if AnyIn(f, ExternalIndicators) then false
    else Contains(f, "/pilot/") || Contains(f, "/pilot-")
  }

  /** `_is_importlib_internal`: an empty name counts as internal. */
  predicate IsImportlibInternal(f: string) {
    f == "" || AnyIn(f, ImportlibIndicators)
  }

  /** A frame the importer search passes over. */
  predicate Skipped(f: string) {
    Contains(f, "guards.py") || IsImportlibInternal(f)
  }

  /** `_find_actual_importer`: the first frame that is neither this module
      nor import machinery. */
  function FindActualImporter(stack: seq<string>): (r: Option<string>)
    ensures r.None? <==> forall i :: 0 <= i < |stack| ==> Skipped(stack[i])
    ensures r.Some? ==> exists k :: 0 <= k < |stack| && stack[k] == r.value
                          && !Skipped(stack[k])
                          && forall j :: 0 <= j < k ==> Skipped(stack[j])
    ensures r.Some? ==> r.value != ""
  {
    if stack == [] then None
    else if Skipped(stack[0]) then
      var r := FindActualImporter(stack[1..]);
      ImporterAfterSkip(stack, r);
      r
    else Some(stack[0])
  }

  /** Skipping a leading frame keeps both halves of the importer contract. */
  lemma ImporterAfterSkip(stack: seq<string>, r: Option<string>)
    requires stack != [] && Skipped(stack[0])
    requires r.None? <==> forall i :: 0 <= i < |stack[1..]| ==> Skipped(stack[1..][i])
    requires r.Some? ==> exists k :: 0 <= k < |stack[1..]| && stack[1..][k] == r.value
                          && !Skipped(stack[1..][k])
                          && forall j :: 0 <= j < k ==> Skipped(stack[1..][j])
    ensures r.None? <==> forall i :: 0 <= i < |stack| ==> Skipped(stack[i])
    ensures r.Some? ==> exists k :: 0 <= k < |stack| && stack[k] == r.value
                          && !Skipped(stack[k])
                          && forall j :: 0 <= j < k ==> Skipped(stack[j])
  {
    if r.Some? {
      var k :| 0 <= k < |stack[1..]| && stack[1..][k] == r.value
               && !Skipped(stack[1..][k])
               && forall j :: 0 <= j < k ==> Skipped(stack[1..][j]);
      assert stack[k + 1] == r.value;
      forall j | 0 <= j < k + 1 ensures Skipped(stack[j]) {
        if j > 0 { assert stack[j] == stack[1..][j - 1]; }
      }
    } else {
      forall i | 0 <= i < |stack| ensures Skipped(stack[i]) {
        if i > 0 { assert stack[i] == stack[1..][i - 1]; }
      }
    }
  }

  /** What the hook decides for an import. */
  datatype Verdict = Allow | Block

  /** A telemetry record the hook writes: event type, module, caller. */
  datatype ImportRecord = ImportRecord(eventType: Telemetry.EventType, moduleName: string, caller: Option<string>)

  datatype FindResult = FindResult(verdict: Verdict, recorded: Option<ImportRecord>)

  /** `name.split(".")[0]`. */
  function BaseName(name: string): string {
    Split(name, '.')[0]
  }

  predicate Forbidden(name: string) {
    name in ForbiddenWebLibraries || BaseName(name) in ForbiddenWebLibraries
  }

  /** The first allowed caller path occurring in `f`, if any. */
  function MatchingCaller(f: string): (r: Option<string>)
    ensures r.None? <==> !AnyIn(f, AllowedCallers)
    ensures r.Some? ==> r.value in AllowedCallers && Contains(f, r.value)
  {
    FirstIn(f, AllowedCallers)
  }

  /** `WebImportBlocker.find_module(name)` with the current call stack.
      `telemetry` says whether the telemetry module could be imported. */
  function FindModule(name: string, stack: seq<string>, telemetry: bool): (r: FindResult)
    ensures !Forbidden(name) ==> r == FindResult(Allow, None)
    ensures r.verdict == Block <==>
      Forbidden(name) && FindActualImporter(stack).Some?
      && !AnyIn(FindActualImporter(stack).value, AllowedCallers)
      && IsProjectFrame(FindActualImporter(stack).value)
    ensures r.recorded.Some? <==>
      telemetry && Forbidden(name) && FindActualImporter(stack).Some?
      && AnyIn(FindActualImporter(stack).value, AllowedCallers)
    ensures r.recorded.Some? ==>
      r.verdict == Allow
      && r.recorded.value == ImportRecord(Telemetry.ImportAllowed, name, FindActualImporter(stack))
  {
    if !Forbidden(name) then FindResult(Allow, None)
    else
      var importer := FindActualImporter(stack);
      if importer.None? then FindResult(Allow, None)
      else if MatchingCaller(importer.value).Some? then
        FindResult(Allow, if telemetry then Some(ImportRecord(Telemetry.ImportAllowed, name, importer)) else None)
      else if IsProjectFrame(importer.value) then FindResult(Block, None)
      else FindResult(Allow, None)
  }

  /** The `ImportError` a blocked import raises, with the telemetry record
      written first when telemetry is available. */
  datatype LoadResult = ImportError(message: string, recorded: Option<ImportRecord>)

  const Rule: string := "============================================================"

  /** `WebImportBlocker.load_module(name)`: always raises. */
  function LoadModule(name: string, stack: seq<string>, telemetry: bool): (r: LoadResult)
    ensures Contains(r.message, "BLOCKED: Import of '" + name + "'")
    ensures r.recorded.Some? <==> telemetry
    ensures telemetry ==> r.recorded.value
                          == ImportRecord(Telemetry.ImportBlocked, name, FindActualImporter(stack))
  {
    var head := "BLOCKED: Import of '" + name + "'";
    ImportError(Framed(head),
                if telemetry then Some(ImportRecord(Telemetry.ImportBlocked, name, FindActualImporter(stack))) else None)
  }

  /** The explanation after the blocked import's name. */
  const PolicyText: string :=
      " is forbidden by web access policy.\n" + Rule + "\n\n"
      + "Direct HTTP requests and web scraping are not allowed.\n"
      + "ALL web access MUST go through Parallel API tools.\n\n"
      + "ALTERNATIVES:\n"
      + "  - Use tools/web_search.py for web searches\n"
      + "  - Use tools/web_fetch.py for fetching URLs\n"
      + "  - Use tools/parallel_task.py for complex research\n\n"
      + "If you need web access in a new tool, add it to ALLOWED_CALLERS\n"
      + "in lib/guards.py after review.\n"
      + Rule

  /** The message framed by rules, with `head` naming the import. */
  function Framed(head: string): (m: string)
    ensures Contains(m, head)
  {
    ContainsMiddle("\n" + Rule + "\n", head, PolicyText);
    "\n" + Rule + "\n" + head + PolicyText
  }

  /** An entry of `sys.meta_path`. */
  datatype Finder = WebImportBlocker | OtherFinder(id: int)

  /** `install_guards()`: whether it installed, and the new `sys.meta_path`. */
  function InstallGuards(metaPath: seq<Finder>): (r: (bool, seq<Finder>))
    ensures r.0 <==> WebImportBlocker !in metaPath
    ensures r.0 ==> r.1 == [WebImportBlocker] + metaPath
    ensures !r.0 ==> r.1 == metaPath
    ensures WebImportBlocker in r.1
  {
    if WebImportBlocker in metaPath then (false, metaPath)
    else (true, [WebImportBlocker] + metaPath)
  }

  /** Installing twice is the same as installing once, and the second call
      reports that the blocker was already present. */
  lemma InstallIdempotent(metaPath: seq<Finder>)
    ensures !InstallGuards(InstallGuards(metaPath).1).0
    ensures InstallGuards(InstallGuards(metaPath).1).1 == InstallGuards(metaPath).1
  {
  }

  /** A fresh install puts the blocker first, so it sees every import
      before the standard finders. */
  lemma InstallPutsBlockerFirst(metaPath: seq<Finder>)
    requires WebImportBlocker !in metaPath
    ensures InstallGuards(metaPath).1[0] == WebImportBlocker
    ensures InstallGuards(metaPath).1[1..] == metaPath
  {
  }

  /** Importing a submodule of a forbidden package is judged like the
      package itself. */
  lemma SubmoduleForbidden(pkg: string, sub: string)
    requires pkg in ForbiddenWebLibraries && !HasChar(pkg, '.')
    ensures BaseName(pkg + "." + sub) == pkg
    ensures Forbidden(pkg + "." + sub)
  {
    SplitHeadOfJoin(pkg, sub, '.');
    assert pkg + "." + sub == pkg + ['.'] + sub;
  }

  lemma {:induction false} SplitHeadOfJoin(a: string, b: string, c: char)
    requires !HasChar(a, c)
    ensures Split(a + [c] + b, c)[0] == a
    decreases |a|
  {
    if a != [] {
      assert (a + [c] + b)[1..] == a[1..] + [c] + b;
      SplitHeadOfJoin(a[1..], b, c);
    }
  }

  /** An approved research tool may import any library. */
  lemma AllowedCallerNeverBlocked(name: string, stack: seq<string>, telemetry: bool)
    requires FindActualImporter(stack).Some?
    requires AnyIn(FindActualImporter(stack).value, AllowedCallers)
    ensures FindModule(name, stack, telemetry).verdict == Allow
  {
  }

  /** Imports from installed packages and the standard library are never
      blocked, whatever they import. */
  lemma ExternalImporterNeverBlocked(name: string, stack: seq<string>, telemetry: bool)
    requires FindActualImporter(stack).Some?
    requires AnyIn(FindActualImporter(stack).value, ExternalIndicators)
    ensures FindModule(name, stack, telemetry).verdict == Allow
  {
  }

  /** With only this module and import machinery on the stack the importer
      is unknown and the import is allowed. */
  lemma UnknownImporterAllowed(name: string, stack: seq<string>, telemetry: bool)
    requires forall i :: 0 <= i < |stack| ==> Skipped(stack[i])
    ensures FindModule(name, stack, telemetry) == FindResult(Allow, None)
  {
  }
}

=== FILE: index.dfy ===
/** The path-derived classification and text extraction helpers of the
    universal index builder: item types from path patterns, skipped
    directories, flattening of decoded YAML/JSON into searchable text,
    description and tag extraction, and markdown front-matter parsing. */
module Index {
  import opened Common
  import opened Json

  /** Path patterns and the item type each one gives; the more specific
      patterns come first. */
  const TypePatterns: seq<(string, string)> := [
    ("agents/", "agent"),
    ("system/rules/", "rule"),
    ("system/", "config"),
    ("tools/", "tool"),
    ("lib/", "lib"),
    ("knowledge/decisions/", "decision"),
    ("knowledge/facts/", "fact"),
    ("knowledge/lessons/", "lesson"),
    (".runs/", "run"),
    ("data/parallel_tasks/results/", "parallel_task"),
    ("data/parallel_findall/results/", "parallel_findall"),
    ("data/deep_research/results/", "deep_research"),
    ("projects/", "project")
  ]

  /** Directory fragments whose paths are never indexed. */
  const SkipPatterns: seq<string> :=
    [".git", ".dev", "node_modules", "__pycache__", ".pytest_cache", "logs/", "workspaces/", "output/"]

  /** A pattern matches at the start of the path or right after a `/`,
      so `agents/` does not match `self-improving-agents/`. */
  predicate PatternMatches(path: string, pattern: string) {
    IsPrefix(pattern, path) || Contains(path, "/" + pattern)
  }

  /** No pattern before position `k` matches. */
  predicate NoneBefore(path: string, pats: seq<(string, string)>, k: int)
    requires k <= |pats|
  {
    forall j :: 0 <= j < k ==> !PatternMatches(path, pats[j].0)
  }

  /** The type of the first matching pattern at or after `k`, or "file". */
  function FirstType(path: string, pats: seq<(string, string)>, k: nat): (r: string)
    requires k <= |pats|
    requires forall j :: 0 <= j < |pats| ==> pats[j].1 != "file"
    ensures r == "file" <==> forall j :: k <= j < |pats| ==> !PatternMatches(path, pats[j].0)
    ensures r != "file" ==>
      exists j :: k <= j < |pats| && PatternMatches(path, pats[j].0) && r == pats[j].1 &&
        forall i :: k <= i < j ==> !PatternMatches(path, pats[i].0)
    decreases |pats| - k
  {
    if k == |pats| then "file"
    else if PatternMatches(path, pats[k].0) then pats[k].1
    else FirstType(path, pats, k + 1)
  }

  /** `derive_type`: the type of the first pattern that matches, or "file"
      when none does. */
  function DeriveType(path: string): (r: string)
    ensures r == "file" <==> NoneBefore(path, TypePatterns, |TypePatterns|)
    ensures r != "file" ==>
      exists j :: 0 <= j < |TypePatterns| && PatternMatches(path, TypePatterns[j].0) &&
        r == TypePatterns[j].1 && NoneBefore(path, TypePatterns, j)
  {
    FirstType(path, TypePatterns, 0)
  }

  /** Pattern order decides: a rules path is a "rule" and not a "config",
      although both `system/rules/` and `system/` match it. */
  lemma RulesBeforeConfig(path: string)
    requires IsPrefix("system/rules/", path)
    requires !PatternMatches(path, "agents/")
    ensures PatternMatches(path, "system/")
    ensures DeriveType(path) == "rule"
  {
    assert path[..7] == "system/rules/"[..7];
    assert TypePatterns[0].0 == "agents/" && TypePatterns[1] == ("system/rules/", "rule");
    assert PatternMatches(path, TypePatterns[1].0);
  }

  /** Without a `/` in the path a pattern matches only as a prefix. */
  lemma TopLevelMatchIsPrefix(path: string, pattern: string)
    requires !HasChar(path, '/')
    ensures PatternMatches(path, pattern) <==> IsPrefix(pattern, path)
  {
    var p := "/" + pattern;
    forall i | 0 <= i <= |path| - |p| ensures !MatchAt(path, p, i) {
      assert path[i..i + |p|][0] == path[i];
      assert path[i] in path;
    }
  }

  /** `should_index`: no skip fragment occurs in the path. */
  function ShouldIndex(path: string): (r: bool)
    ensures r <==> forall k :: 0 <= k < |SkipPatterns| ==> !Contains(path, SkipPatterns[k])
  {
    !AnyIn(path, SkipPatterns)
  }

  /** Anything under a skipped directory is left out of the index. */
  lemma SkippedDirectoryExcluded(a: string, k: int, b: string)
    requires 0 <= k < |SkipPatterns|
    ensures !ShouldIndex(a + SkipPatterns[k] + b)
  {
    ContainsSelf(SkipPatterns[k]);
    ContainsExtend(a, SkipPatterns[k], b, SkipPatterns[k]);
  }

  /** `flatten_to_text`: the strings of a nested value joined by spaces,
      descending at most `maxDepth` levels. */
  function FlattenToText(v: Value, maxDepth: int): (r: string)
    ensures maxDepth <= 0 ==> r == ""
    ensures maxDepth > 0 && v.Str? ==> r == v.s
    ensures maxDepth > 0 && v.Null? ==> r == ""
    decreases v
  {
    if maxDepth <= 0 then ""
    else match v
      case Str(s) => s
      case Null => ""
      case Bool(_) => ScalarText(v)
      case Num(_) => ScalarText(v)
      case List(items) => Join(FlattenItems(items, maxDepth - 1, v), " ")
      case Dict(es) => Join(FlattenItems(Values(es), maxDepth - 1, v), " ")
  }

  /** The values of an object, in key order. */
  function Values(es: seq<(string, Value)>): (r: seq<Value>)
    ensures |r| == |es|
    ensures forall i :: 0 <= i < |es| ==> r[i] == es[i].1
  {
    seq(|es|, i requires 0 <= i < |es| => es[i].1)
  }

  /** Each child flattened one level deeper. */
  function FlattenItems(items: seq<Value>, depth: int, parent: Value): (r: seq<string>)
    requires forall i :: 0 <= i < |items| ==> items[i] < parent
    ensures |r| == |items|
    ensures forall i :: 0 <= i < |items| ==> r[i] == FlattenToText(items[i], depth)
    decreases parent, |items|
  {
    if items == [] then []
    else [FlattenToText(items[0], depth)] + FlattenItems(items[1..], depth, parent)
  }

  /** The children a flattening descends into. */
  function Children(v: Value): (r: seq<Value>)
    ensures forall i :: 0 <= i < |r| ==> r[i] < v
  {
    match v
    case List(items) => items
    case Dict(es) =>
      assert forall i :: 0 <= i < |es| ==> es[i].1 < v by {
        forall i | 0 <= i < |es| ensures es[i].1 < v {
          assert es[i] in es;
        }
      }
      Values(es)
    case _ => []
  }

  /** String `s` sits in `v` fewer than `depth` levels down. */
  predicate HoldsStr(v: Value, s: string, depth: int)
    decreases v
  {
    depth > 0 &&
    (v == Str(s) ||
     exists i :: 0 <= i < |Children(v)| && HoldsStr(Children(v)[i], s, depth - 1))
  }

  /** Every string within reach of the depth bound appears in the text. */
  lemma {:induction false} FlattenKeepsReachableStrings(v: Value, s: string, depth: int)
    requires HoldsStr(v, s, depth)
    ensures Contains(FlattenToText(v, depth), s)
    decreases v
  {
    if v == Str(s) {
      ContainsSelf(s);
    } else {
      var i :| 0 <= i < |Children(v)| && HoldsStr(Children(v)[i], s, depth - 1);
      var c := Children(v)[i];
      FlattenKeepsReachableStrings(c, s, depth - 1);
      var parts := FlattenItems(Children(v), depth - 1, v);
      assert parts[i] == FlattenToText(c, depth - 1);
      JoinContains(parts, " ", i);
      ContainsTrans(Join(parts, " "), parts[i], s);
      assert FlattenToText(v, depth) == Join(parts, " ");
    }
  }

  /** Description fields tried in order. */
  const DescriptionKeys: seq<string> :=
    ["description", "desc", "summary", "abstract", "query", "task", "objective"]

  /** The object has a string under `key`. */
  predicate IsStrAt(content: seq<(string, Value)>, key: string) {
    Get(content, key).Some? && Get(content, key).value.Str?
  }

  /** The first 500 characters of the first of `keys[k..]` holding a
      string, or "". */
  function DescriptionFrom(content: seq<(string, Value)>, keys: seq<string>, k: nat): (r: string)
    requires k <= |keys|
    ensures |r| <= 500
    ensures (forall j :: k <= j < |keys| ==> !IsStrAt(content, keys[j])) ==> r == ""
    ensures forall j :: (k <= j < |keys| && IsStrAt(content, keys[j]) &&
      (forall i :: k <= i < j ==> !IsStrAt(content, keys[i]))) ==>
        r == Prefix(Get(content, keys[j]).value.s, 500)
    decreases |keys| - k
  {
    if k == |keys| then ""
    else if IsStrAt(content, keys[k]) then Prefix(Get(content, keys[k]).value.s, 500)
    else DescriptionFrom(content, keys, k + 1)
  }

  /** `extract_description`: the first 500 characters of the first
      description field holding a string, or "" when there is none. */
  function ExtractDescription(content: seq<(string, Value)>): (r: string)
    ensures |r| <= 500
    ensures (forall j :: 0 <= j < |DescriptionKeys| ==> !IsStrAt(content, DescriptionKeys[j])) ==> r == ""
    ensures forall j :: (0 <= j < |DescriptionKeys| && IsStrAt(content, DescriptionKeys[j]) &&
      (forall i :: 0 <= i < j ==> !IsStrAt(content, DescriptionKeys[i]))) ==>
        r == Prefix(Get(content, DescriptionKeys[j]).value.s, 500)
  {
    DescriptionFrom(content, DescriptionKeys, 0)
  }

  /** A string "description" wins over every other field. */
  lemma DescriptionFieldFirst(content: seq<(string, Value)>, s: string)
    requires Get(content, "description") == Some(Str(s))
    ensures ExtractDescription(content) == Prefix(s, 500)
  {
    assert DescriptionKeys[0] == "description";
    assert IsStrAt(content, DescriptionKeys[0]);
  }

  /** The types whose entries are knowledge records. */
  predicate IsKnowledgeType(t: string) {
    t == "lesson" || t == "decision" || t == "fact"
  }

  /** The tags an item declares: a list as is, a single truthy value as a
      one-element list, otherwise none. */
  function DeclaredTags(content: Value): (r: seq<Value>)
    ensures content.Dict? && Get(content.entries, "tags").Some? && Get(content.entries, "tags").value.List? ==>
      r == Get(content.entries, "tags").value.items
    ensures !content.Dict? ==> r == []
  {
    if !content.Dict? then []
    else match Get(content.entries, "tags")
      case None => []
      case Some(List(items)) => items
      case Some(t) => if Truthy(t) then [t] else []
  }

  /** The tags derived from the path and, for knowledge records, from the
      category and severity fields. */
  function DerivedTags(content: Value, path: string): (r: seq<Value>)
  {
    var entries := if content.Dict? then content.entries else [];
    var research := if Contains(path, "parallel") || Contains(path, "research") then [Str("research")] else [];
    var category := Get(entries, "category");
    var severity := Get(entries, "severity");
    var knowledge :=
      if !IsKnowledgeType(DeriveType(path)) then []
      else
        (if category.Some? && Truthy(category.value) then [category.value] else []) +
        (if severity == Some(Str("high")) then [Str("severity-high")]
         else if severity == Some(Str("medium")) then [Str("severity-medium")]
         else []);
    research + knowledge
  }

  /** `extract_tags`: the declared and derived tags without repeats. */
  function ExtractTags(content: Value, path: string): (r: seq<Value>)
    ensures NoDups(r)
    ensures forall t :: t in r <==> t in DeclaredTags(content) || t in DerivedTags(content, path)
  {
    Dedupe(DeclaredTags(content) + DerivedTags(content, path))
  }

  /** Research and parallel-task paths always carry the "research" tag;
      declared tags are kept. */
  lemma ResearchPathTagged(content: Value, path: string)
    requires Contains(path, "parallel") || Contains(path, "research")
    ensures Str("research") in ExtractTags(content, path)
    ensures forall t :: t in DeclaredTags(content) ==> t in ExtractTags(content, path)
  {
    assert DerivedTags(content, path)[0] == Str("research");
  }

  /** A high-severity lesson is tagged with its severity. */
  lemma HighSeverityLessonTagged(entries: seq<(string, Value)>, path: string)
    requires DeriveType(path) == "lesson"
    requires Get(entries, "severity") == Some(Str("high"))
    ensures Str("severity-high") in ExtractTags(Dict(entries), path)
  {
    var d := DerivedTags(Dict(entries), path);
    assert Str("severity-high") == d[|d| - 1];
  }

  /** A low-severity record and a record of another type get no severity tag. */
  lemma SeverityTagOnlyForKnowledge(entries: seq<(string, Value)>, path: string)
    requires !IsKnowledgeType(DeriveType(path))
    requires !Contains(path, "parallel") && !Contains(path, "research")
    ensures forall t :: t in ExtractTags(Dict(entries), path) <==> t in DeclaredTags(Dict(entries))
  {
  }

  /** Where a markdown file's front matter ends: the first "\n---" after
      the opening "---\n", or -1. */
  function FrontmatterEnd(text: string): (r: int)
    ensures r == -1 || (4 <= r && MatchAt(text, "\n---", r))
  {
    if IsPrefix("---\n", text) then FindFrom(text, "\n---", 4) else -1
  }

  /** `parse_frontmatter`: the YAML mapping between the "---" fences and
      the stripped body after them; with no front matter, or when the
      YAML does not load, an empty mapping and the whole text.  A YAML
      document that loads to a falsy value counts as an empty mapping.
      `yaml` is the YAML loader, None on a YAML error. */
  function ParseFrontmatter(text: string, yaml: string -> Option<Value>): (r: (Value, string))
    ensures FrontmatterEnd(text) == -1 ==> r == (Dict([]), text)
    ensures FrontmatterEnd(text) >= 0 && yaml(text[4..FrontmatterEnd(text)]).None? ==> r == (Dict([]), text)
    ensures FrontmatterEnd(text) >= 0 && yaml(text[4..FrontmatterEnd(text)]).Some? ==>
      r.1 == Strip(AfterFence(text[FrontmatterEnd(text) + 4..])) &&
      (Truthy(r.0) <==> Truthy(yaml(text[4..FrontmatterEnd(text)]).value)) &&
      (Truthy(r.0) ==> r.0 == yaml(text[4..FrontmatterEnd(text)]).value)
  {
    var e := FrontmatterEnd(text);
    if e < 0 then (Dict([]), text)
    else match yaml(text[4..e])
      case None => (Dict([]), text)
      case Some(v) => (if Truthy(v) then v else Dict([]), Strip(AfterFence(text[e + 4..])))
  }

  /** The optional newline after the closing fence is not part of the body. */
  function AfterFence(rest: string): (r: string)
    ensures r == rest || (rest != [] && rest[0] == '\n' && r == rest[1..])
  {
    if rest != [] && rest[0] == '\n' then rest[1..] else rest
  }

  /** A document written as fences around `fm` followed by `body` parses
      back to what `fm` loads to and the stripped body, provided `fm` holds
      no line starting with "---" of its own. */
  lemma FrontmatterRoundTrip(fm: string, body: string, yaml: string -> Option<Value>, v: Value)
    requires !Contains(fm, "\n---")
    requires yaml(fm) == Some(v) && Truthy(v)
    ensures ParseFrontmatter("---\n" + fm + "\n---\n" + body, yaml) == (v, Strip(body))
  {
    var text := "---\n" + fm + "\n---\n" + body;
    var e := 4 + |fm|;
    assert text[..4] == "---\n";
    assert text[e..e + 4] == "\n---";
    forall i | 4 <= i < e ensures !MatchAt(text, "\n---", i) {
      NoEarlyFence(fm, body, i);
    }
    assert MatchAt(text, "\n---", e);
    assert FindFrom(text, "\n---", 4) == e;
    assert text[4..e] == fm;
    assert text[e + 4..] == "\n" + body;
  }

  lemma NoEarlyFence(fm: string, body: string, i: int)
    requires !Contains(fm, "\n---")
    requires 4 <= i < 4 + |fm|
    ensures !MatchAt("---\n" + fm + "\n---\n" + body, "\n---", i)
  {
    var text := "---\n" + fm + "\n---\n" + body;
    var e := 4 + |fm|;
    if i + 4 <= e {
      assert text[i..i + 4] == fm[i - 4..i];
      assert !MatchAt(fm, "\n---", i - 4);
    } else if i + 4 <= |text| {
      assert text[e] == '\n';
      assert text[i..i + 4][e - i] == text[e];
      assert "\n---"[e - i] == '-';
    }
  }
}

=== FILE: indexer.dfy ===
/** Incremental maintenance of the unified index file: replacing one
    item by path, rebuilding the deep-research items, building an item
    from a deep-research result directory, and index statistics.  The
    index file is passed in and the file to write is returned; the
    temp-file-plus-rename write itself is not modelled. */
module Indexer {
  import opened Common
  import opened Json

  /** An index item: a JSON object. */
  type Item = seq<(string, Value)>

  /** The index file's content. */
  datatype IndexData = IndexData(generatedAt: string, count: int, items: seq<Item>)

  /** The index file as found on disk: absent, not valid JSON (with the
      decoder's message), or decoded. */
  datatype StoredIndex = NoIndex | Corrupt(detail: string) | Stored(data: IndexData)

  /** The index a writer starts from: the stored one, or an empty one. */
  function Current(stored: StoredIndex): IndexData
    requires !stored.Corrupt?
  {
    if stored.Stored? then stored.data else IndexData("", 0, [])
  }

  /** `item.get('path')`: a missing key reads as None. */
  function PathOf(item: Item): Value {
    Get(item, "path").GetOr(Null)
  }

  /** `item.get('type', 'unknown')` as a count-table key; a non-string
      scalar is keyed by its text. */
  function TypeKey(item: Item): string {
    match Get(item, "type")
    case None => "unknown"
    case Some(Str(s)) => s
    case Some(v) => if v.List? || v.Dict? then "" else ScalarText(v)
  }

  datatype UpdateResult = UpdateResult(
    success: bool, error: Option<string>, updatedCount: nat, removedCount: nat, path: Value)

  /** `update_index(item)`: drops every item whose path equals the new
      item's path, appends the new item, recounts and restamps the index.
      An item without a path, or a corrupt index file, is refused and
      nothing is written.  The second component is the file written. */
  function UpdateIndex(item: Item, stored: StoredIndex, nowIso: string): (r: (UpdateResult, Option<IndexData>))
    ensures !HasKey(item, "path") ==>
      r.0 == UpdateResult(false, Some("Item must have a \"path\" field"), 0, 0, Null) && r.1.None?
    ensures HasKey(item, "path") && stored.Corrupt? ==>
      r.0 == UpdateResult(false, Some("Invalid JSON in index file: " + stored.detail), 0, 0, PathOf(item)) &&
      r.1.None?
    ensures r.0.success <==> r.1.Some?
    ensures r.0.success <==> HasKey(item, "path") && !stored.Corrupt?
    ensures r.1.Some? ==>
      var before := Current(stored).items;
      var after := r.1.value.items;
      |after| >= 1 && after[|after| - 1] == item &&
      after[..|after| - 1] == Filter(before, (i: Item) => PathOf(i) != PathOf(item)) &&
      r.1.value.count == |after| &&
      r.1.value.generatedAt == nowIso &&
      r.0 == UpdateResult(true, None, 1, CountWhere(before, (i: Item) => PathOf(i) == PathOf(item)), PathOf(item))
  {
    if !HasKey(item, "path") then
      (UpdateResult(false, Some("Item must have a \"path\" field"), 0, 0, Null), None)
    else if stored.Corrupt? then
      (UpdateResult(false, Some("Invalid JSON in index file: " + stored.detail), 0, 0, PathOf(item)), None)
    else
      var p := PathOf(item);
      var before := Current(stored).items;
      var kept := Filter(before, (i: Item) => PathOf(i) != p);
      var after := kept + [item];
      CountComplement(before, (i: Item) => PathOf(i) != p, (i: Item) => PathOf(i) == p);
      (UpdateResult(true, None, 1, |before| - |kept|, p), Some(IndexData(nowIso, |after|, after)))
  }

  /** After an update exactly one item carries the new item's path: the
      last one. */
  lemma UpdateLeavesOneItemPerPath(item: Item, stored: StoredIndex, nowIso: string)
    requires HasKey(item, "path") && !stored.Corrupt?
    ensures var after := UpdateIndex(item, stored, nowIso).1.value.items;
      forall j :: 0 <= j < |after| ==> (PathOf(after[j]) == PathOf(item) <==> j == |after| - 1)
  {
    var after := UpdateIndex(item, stored, nowIso).1.value.items;
    var kept := after[..|after| - 1];
    forall j | 0 <= j < |after| - 1 ensures PathOf(after[j]) != PathOf(item) {
      assert after[j] == kept[j];
      assert kept[j] in kept;
    }
  }

  /** Updating with the same item twice is the same as updating once,
      apart from the timestamp. */
  lemma UpdateIdempotent(item: Item, stored: StoredIndex, t1: string, t2: string)
    requires HasKey(item, "path") && !stored.Corrupt?
    ensures var once := UpdateIndex(item, stored, t1).1.value;
      var twice := UpdateIndex(item, Stored(once), t2);
      twice.1.value.items == once.items && twice.0.removedCount == 1
  {
    var once := UpdateIndex(item, stored, t1).1.value;
    var p := PathOf(item);
    var keep := (i: Item) => PathOf(i) != p;
    var kept := Filter(Current(stored).items, keep);
    assert once.items == kept + [item];
    FilterAppend(kept, [item], keep);
    FilterAll(kept, keep);
    assert Filter([item], keep) == [];
    CountComplement(once.items, keep, (i: Item) => PathOf(i) == p);
  }

  /** Filtering a list all of whose elements pass changes nothing. */
  lemma {:induction false} FilterAll<T(!new)>(s: seq<T>, p: T -> bool)
    requires forall x :: x in s ==> p(x)
    ensures Filter(s, p) == s
  {
    if s != [] {
      assert forall x :: x in s[1..] ==> x in s;
      FilterAll(s[1..], p);
      assert [s[0]] + s[1..] == s;
    }
  }

  // ---------------------------------------------------------------------
  // Deep-research items

  /** A result directory's `metadata.yaml`: absent, not loadable, or the
      loaded document. */
  datatype Metadata = NoMetadata | BadYaml | Loaded(doc: Value)

  /** What building an item yields: no item, an item, or a Python
      exception (metadata that is not a mapping, or a non-string field
      used as text). */
  datatype Built = NoItem | Built(item: Item) | Raised

  /** The directory the deep-research results live in. */
  const ResultsDir: string := "data/deep_research/results"

  /** `create_deep_research_index_item(result_dir)`: an item of type
      deep_research named by the run id (the directory name when the
      metadata has none), described by the query or else the run id,
      searchable by the query and the first 2000 characters of
      `output.yaml`, tagged research and deep_research plus the
      processor.  `output` is the text of `output.yaml`, if readable. */
  function CreateDeepResearchItem(dirPath: string, dirName: string, meta: Metadata, output: Option<string>): (r: Built)
    ensures meta.NoMetadata? || meta.BadYaml? ==> r == NoItem
    ensures r.Built? ==>
      meta.Loaded? &&
      Get(r.item, "type") == Some(Str("deep_research")) &&
      Get(r.item, "path") == Some(Str(dirPath + "/metadata.yaml")) &&
      Get(r.item, "name") == Some(RunId(meta.doc, dirName))
    ensures r.Built? ==> WellShaped(r.item) && IsDeepResearch(r.item)
  {
    match meta
    case NoMetadata => NoItem
    case BadYaml => NoItem
    case Loaded(doc) =>
      var m := if Truthy(doc) then doc else Dict([]);
      if !m.Dict? then Raised else ItemFromMetadata(dirPath, dirName, m, output)
  }

  /** The item built from a metadata mapping. */
  function ItemFromMetadata(dirPath: string, dirName: string, m: Value, output: Option<string>): (r: Built)
    requires m.Dict?
    ensures !r.NoItem?
    ensures r.Built? ==>
      Get(r.item, "type") == Some(Str("deep_research")) &&
      Get(r.item, "path") == Some(Str(dirPath + "/metadata.yaml")) &&
      Get(r.item, "name") == Some(Field(m.entries, "run_id", Str(dirName))) &&
      WellShaped(r.item)
  {
    var query := Field(m.entries, "query", Str(""));
    var runId := Field(m.entries, "run_id", Str(dirName));
    if Truthy(query) && !query.Str? then Raised
    else
      var parts := (if Truthy(query) then [query.s] else []) +
                   (if output.Some? then [Prefix(output.value, 2000)] else []);
      if parts == [] && !runId.Str? then Raised
      else if !Truthy(query) && !runId.Str? then Raised
      else
        var text := if parts != [] then Join(parts, "\n") else runId.s;
        var description := if Truthy(query) then query.s else runId.s;
        Built(ItemOf(dirPath + "/metadata.yaml", runId, Prefix(description, 500), m, Prefix(text, 5000),
                     DeepResearchTags(Field(m.entries, "processor", Null))))
  }

  /** The tags of a deep-research item: research, deep_research and a
      truthy processor, without repeats. */
  function DeepResearchTags(processor: Value): (r: seq<Value>)
    ensures NoDups(r) && Str("research") in r && Str("deep_research") in r
  {
    Dedupe([Str("research"), Str("deep_research")] + (if Truthy(processor) then [processor] else []))
  }

  /** A built item's description is at most 500 characters and its text at
      most 5000; its tags are distinct and include research and
      deep_research. */
  predicate WellShaped(item: Item) {
    && Get(item, "description").Some? && Get(item, "description").value.Str?
    && |Get(item, "description").value.s| <= 500
    && Get(item, "text").Some? && Get(item, "text").value.Str?
    && |Get(item, "text").value.s| <= 5000
    && Get(item, "tags").Some? && Get(item, "tags").value.List?
    && NoDups(Get(item, "tags").value.items)
    && Str("research") in Get(item, "tags").value.items
    && Str("deep_research") in Get(item, "tags").value.items
  }

  /** The run id an item is named by. */
  function RunId(doc: Value, dirName: string): Value {
    var m := if Truthy(doc) then doc else Dict([]);
    if m.Dict? then Field(m.entries, "run_id", Str(dirName)) else Str(dirName)
  }

  /** The fields of a deep-research item, in the order they are written. */
  function ItemOf(path: string, name: Value, description: string, content: Value, text: string, tags: seq<Value>): (r: Item)
    ensures Get(r, "path") == Some(Str(path)) && Get(r, "type") == Some(Str("deep_research"))
    ensures Get(r, "name") == Some(name) && Get(r, "description") == Some(Str(description))
    ensures Get(r, "text") == Some(Str(text)) && Get(r, "tags") == Some(List(tags))
  {
    var r := [("path", Str(path)), ("type", Str("deep_research")), ("name", name),
              ("description", Str(description)), ("content", content), ("text", Str(text)),
              ("tags", List(tags))];
    assert DistinctKeys(r);
    IndexOfUnique(r, "path", 0);
    IndexOfUnique(r, "type", 1);
    IndexOfUnique(r, "name", 2);
    IndexOfUnique(r, "description", 3);
    IndexOfUnique(r, "text", 5);
    IndexOfUnique(r, "tags", 6);
    r
  }

  /** With a string query the item is described by the query; without one,
      by the run id. */
  lemma DescriptionFallsBackToRunId(dirPath: string, dirName: string, entries: seq<(string, Value)>, output: Option<string>)
    requires entries != []
    requires !HasKey(entries, "query") && !HasKey(entries, "run_id")
    ensures var r := CreateDeepResearchItem(dirPath, dirName, Loaded(Dict(entries)), output);
      r.Built? && Get(r.item, "description") == Some(Str(Prefix(dirName, 500))) &&
      Get(r.item, "name") == Some(Str(dirName))
  {
  }

  // ---------------------------------------------------------------------
  // Rebuild

  /** An entry of the results directory. */
  datatype ResultEntry = ResultEntry(name: string, isDir: bool, meta: Metadata, output: Option<string>)

  datatype RebuildResult = RebuildResult(
    success: bool, error: Option<string>, itemsAdded: nat, itemsRemoved: nat, totalCount: nat)

  /** The items built from the result directories, in listing order;
      None when one of them raised. */
  function BuildAll(entries: seq<ResultEntry>): (r: Option<seq<Item>>)
    ensures r.Some? ==> |r.value| <= |entries|
  {
    if entries == [] then Some([])
    else
      var rest := BuildAll(entries[1..]);
      match BuildEntry(entries[0])
      case Raised => None
      case NoItem => rest
      case Built(item) => if rest.None? then None else Some([item] + rest.value)
  }

  /** One entry of the results directory: only directories with metadata
      give an item. */
  function BuildEntry(e: ResultEntry): (r: Built)
    ensures r.Built? ==> IsDeepResearch(r.item)
  {
    if !e.isDir || e.meta.NoMetadata? then NoItem
    else CreateDeepResearchItem(ResultsDir + "/" + e.name, e.name, e.meta, e.output)
  }

  /** An item of the deep_research type. */
  predicate IsDeepResearch(item: Item) {
    Get(item, "type") == Some(Str("deep_research"))
  }

  /** `rebuild_deep_research_index()`: every deep_research item is
      replaced by the items built from the results directory; the other
      items keep their order.  A missing directory succeeds with zeros
      and writes nothing; a corrupt index or a build that raises fails
      with zeros and writes nothing.  `resultsDir` is the directory
      listing, None when the directory does not exist. */
  function RebuildDeepResearchIndex(resultsDir: Option<seq<ResultEntry>>, stored: StoredIndex, nowIso: string): (r: (RebuildResult, Option<IndexData>))
    ensures resultsDir.None? ==> r == (RebuildResult(true, None, 0, 0, 0), None)
    ensures r.1.None? ==> r.0.itemsAdded == 0 && r.0.itemsRemoved == 0 && r.0.totalCount == 0
    ensures r.0.success <==> resultsDir.None? || r.1.Some?
    ensures resultsDir.Some? && stored.Corrupt? ==> !r.0.success
    ensures r.1.Some? ==>
      var before := Current(stored).items;
      var after := r.1.value.items;
      var kept := Filter(before, (i: Item) => !IsDeepResearch(i));
      resultsDir.Some? && BuildAll(resultsDir.value).Some? &&
      after == kept + BuildAll(resultsDir.value).value &&
      r.0.itemsAdded == |BuildAll(resultsDir.value).value| &&
      r.0.itemsRemoved == CountWhere(before, IsDeepResearch) &&
      r.0.totalCount == |after| == r.1.value.count &&
      r.1.value.generatedAt == nowIso
  {
    if resultsDir.None? then (RebuildResult(true, None, 0, 0, 0), None)
    else
      var built := BuildAll(resultsDir.value);
      if built.None? then (RebuildResult(false, Some("a result directory could not be indexed"), 0, 0, 0), None)
      else if stored.Corrupt? then (RebuildResult(false, Some(stored.detail), 0, 0, 0), None)
      else
        var before := Current(stored).items;
        var kept := Filter(before, (i: Item) => !IsDeepResearch(i));
        var after := kept + built.value;
        CountComplement(before, IsDeepResearch, (i: Item) => !IsDeepResearch(i));
        (RebuildResult(true, None, |built.value|, |before| - |kept|, |after|), Some(IndexData(nowIso, |after|, after)))
  }

  /** Every item a rebuild adds is a deep_research item, so a second
      rebuild from the same directory removes exactly what the first one
      added and yields the same items. */
  lemma {:induction false} BuiltAreDeepResearch(entries: seq<ResultEntry>)
    requires BuildAll(entries).Some?
    ensures forall i :: 0 <= i < |BuildAll(entries).value| ==> IsDeepResearch(BuildAll(entries).value[i])
  {
    if entries != [] {
      var rest := BuildAll(entries[1..]);
      match BuildEntry(entries[0]) {
        case NoItem =>
          BuiltAreDeepResearch(entries[1..]);
        case Built(item) =>
          BuiltAreDeepResearch(entries[1..]);
          var r := [item] + rest.value;
          assert forall i :: 0 < i < |r| ==> r[i] == rest.value[i - 1];
      }
    }
  }

  lemma RebuildIdempotent(dir: seq<ResultEntry>, stored: StoredIndex, t1: string, t2: string)
    requires RebuildDeepResearchIndex(Some(dir), stored, t1).1.Some?
    ensures var once := RebuildDeepResearchIndex(Some(dir), stored, t1).1.value;
      RebuildDeepResearchIndex(Some(dir), Stored(once), t2).1.value.items == once.items
  {
    var once := RebuildDeepResearchIndex(Some(dir), stored, t1).1.value;
    var built := BuildAll(dir).value;
    var notDr := (i: Item) => !IsDeepResearch(i);
    BuiltAreDeepResearch(dir);
    ReplaceIdempotent(Current(stored).items, built, notDr);
    assert once.items == Filter(Current(stored).items, notDr) + built;
  }

  /** Removing what fails `p` and appending elements that all fail it
      is idempotent. */
  lemma ReplaceIdempotent<T(!new)>(before: seq<T>, added: seq<T>, p: T -> bool)
    requires forall i :: 0 <= i < |added| ==> !p(added[i])
    ensures Filter(Filter(before, p) + added, p) + added == Filter(before, p) + added
  {
    var kept := Filter(before, p);
    assert Filter(kept, p) == kept by {
      FilterAll(kept, p);
    }
    assert Filter(added, p) == [] by {
      FilterNone(added, p);
    }
    FilterAppend(kept, added, p);
    assert kept + [] == kept;
  }

  // ---------------------------------------------------------------------
  // Status

  datatype Status = Status(
    success: bool, error: Option<string>, fileExists: bool, count: int, byType: Counts, generatedAt: Option<string>)

  /** Reference count of the items keyed `k`. */
  function CountType(items: seq<Item>, k: string): nat {
    if items == [] then 0
    else CountType(items[..|items| - 1], k) + (if TypeKey(items[|items| - 1]) == k then 1 else 0)
  }

  /** The per-type table, built in item order. */
  function CountTypes(items: seq<Item>): (r: Counts)
    ensures DistinctKeys(r)
    ensures forall k :: Lookup(r, k) == CountType(items, k)
    ensures forall k :: HasKey(r, k) <==> CountType(items, k) > 0
    ensures Sum(Values(r)) == |items|
  {
    if items == [] then []
    else Bump(CountTypes(items[..|items| - 1]), TypeKey(items[|items| - 1]))
  }

  /** `get_index_status()`: the stored count, the per-type counts (an item
      without a type counts as "unknown") and the generation time; a
      missing file reports exists=False, a corrupt one fails. */
  function GetIndexStatus(stored: StoredIndex): (r: Status)
    ensures stored.NoIndex? ==> r == Status(true, None, false, 0, [], None)
    ensures stored.Corrupt? ==>
      r == Status(false, Some("Invalid JSON in index file: " + stored.detail), true, 0, [], None)
    ensures stored.Stored? ==>
      r.success && r.fileExists && r.count == stored.data.count &&
      r.generatedAt == Some(stored.data.generatedAt) &&
      DistinctKeys(r.byType) &&
      Sum(Values(r.byType)) == |stored.data.items| &&
      forall k :: Lookup(r.byType, k) == CountType(stored.data.items, k)
  {
    match stored
    case NoIndex => Status(true, None, false, 0, [], None)
    case Corrupt(d) => Status(false, Some("Invalid JSON in index file: " + d), true, 0, [], None)
    case Stored(data) => Status(true, None, true, data.count, CountTypes(data.items), Some(data.generatedAt))
  }

  /** After a successful update the status count is the number of items. */
  lemma StatusAfterUpdate(item: Item, stored: StoredIndex, nowIso: string)
    requires HasKey(item, "path") && !stored.Corrupt?
    ensures var written := UpdateIndex(item, stored, nowIso).1.value;
      GetIndexStatus(Stored(written)).count == |written.items|
  {
  }

  /** Untyped items are counted under "unknown". */
  lemma UntypedCountsAsUnknown(items: seq<Item>, item: Item)
    requires !HasKey(item, "type")
    ensures CountType(items + [item], "unknown") == CountType(items, "unknown") + 1
  {
    assert (items + [item])[..|items|] == items;
  }
}

=== FILE: invoke.dfy ===
/** The guards around an agent invocation: the recursion depth limit, the
    pre-invocation legitimacy check (dangerous commands block, misrouted
    tasks warn), the pre-task hooks, the rate-limit classification and
    back-off, and the project a task names.  The SDK query itself and its
    streaming loop are not part of this model. */
module Invoke {
  import opened Common
  import opened Json

  const MaxAgentDepth: int := 4
  const InitialBackoff: real := 5.0
  const MaxBackoff: real := 320.0
  const JitterFactor: real := 0.25

  // ---------------------------------------------------------------------
  // File changes

  const FileModifyingTools: set<string> := {"Write", "Edit", "NotebookEdit"}

  /** `_has_file_changes(tool_uses)`: some tool use names a file-modifying
      tool. */
  predicate HasFileChanges(toolUses: seq<seq<(string, Value)>>) {
    exists i :: 0 <= i < |toolUses| && ModifiesFiles(toolUses[i])
  }

  predicate ModifiesFiles(use: seq<(string, Value)>) {
    var t := Get(use, "tool");
    t.Some? && t.value.Str? && t.value.s in FileModifyingTools
  }

  /** `any` over a concatenation: two histories together change files iff
      one of them does. */
  lemma HasFileChangesAppend(a: seq<seq<(string, Value)>>, b: seq<seq<(string, Value)>>)
    ensures HasFileChanges(a + b) <==> HasFileChanges(a) || HasFileChanges(b)
  {
    if HasFileChanges(a + b) {
      var i :| 0 <= i < |a + b| && ModifiesFiles((a + b)[i]);
      if i >= |a| {
        assert b[i - |a|] == (a + b)[i];
      }
    }
    if HasFileChanges(b) {
      var j :| 0 <= j < |b| && ModifiesFiles(b[j]);
      assert (a + b)[|a| + j] == b[j];
    }
    if HasFileChanges(a) {
      var j :| 0 <= j < |a| && ModifiesFiles(a[j]);
      assert (a + b)[j] == a[j];
    }
  }

  /** A history changes files iff some single tool use does: one use whose
      `tool` field is a file-modifying tool name is enough, and a history
      without one never counts. */
  lemma {:induction false} FileChangeIffSomeUse(toolUses: seq<seq<(string, Value)>>)
    ensures HasFileChanges(toolUses) <==> exists u :: u in toolUses && ModifiesFiles(u)
  {
    if toolUses != [] {
      FileChangeIffSomeUse(toolUses[1..]);
      HasFileChangesAppend([toolUses[0]], toolUses[1..]);
      assert [toolUses[0]] + toolUses[1..] == toolUses;
      assert HasFileChanges([toolUses[0]]) <==> ModifiesFiles(toolUses[0]);
    }
  }

  // ---------------------------------------------------------------------
  // Pre-task hooks

  const RequiredFields: seq<string> := ["name", "type", "prompt"]

  /** The required fields that are absent or falsy, in order. */
  function MissingFields(config: seq<(string, Value)>): (r: seq<string>)
    ensures forall f :: f in r <==> f in RequiredFields && !Truthy(Get(config, f).GetOr(Null))
  {
    Filter(RequiredFields, (f: string) => !Truthy(Get(config, f).GetOr(Null)))
  }

  /** Python's `repr` of a list of plain field names. */
  function ReprNames(names: seq<string>): string {
    "[" + Join(seq(|names|, i requires 0 <= i < |names| => "'" + names[i] + "'"), ", ") + "]"
  }

  /** What `for action in v` visits: list items, the characters of a
      string, the keys of a dict; None where `v` is not iterable. */
  function Iterate(v: Value): (r: Option<seq<Value>>)
    ensures v.List? ==> r == Some(v.items)
    ensures (v.Null? || v.Bool? || v.Num?) ==> r.None?
  {
    match v
    case List(items) => Some(items)
    case Str(s) => Some(seq(|s|, i requires 0 <= i < |s| => Str([s[i]])))
    case Dict(entries) => Some(seq(|entries|, i requires 0 <= i < |entries| => Str(entries[i].0)))
    case _ => None
  }

  datatype HookOutcome = HooksPassed | HookFailed(message: string) | HookCrash

  const ValidateConfig: Value := Str("validate_config")

  /** `_process_pre_task_hooks(config, task)`: only `validate_config`
      can fail, and it fails exactly when a required field is missing,
      naming the missing fields; the other actions only log.  A `hooks`
      value that is not a mapping, or a truthy `pre_task` that cannot be
      iterated, raises. */
  function PreTaskHooks(config: seq<(string, Value)>): (r: HookOutcome)
    ensures r.HookFailed? ==> MissingFields(config) != []
    ensures r.HookFailed? ==> r.message == "validate_config failed: missing required fields: " + ReprNames(MissingFields(config))
    ensures !HasKey(config, "hooks") ==> r == HooksPassed
    ensures MissingFields(config) == [] ==> !r.HookFailed?
    ensures (var hooks := Get(config, "hooks").GetOr(Dict([]));
             hooks.Dict? && Get(hooks.entries, "pre_task").Some?
             && Get(hooks.entries, "pre_task").value.List?
             && ValidateConfig in Get(hooks.entries, "pre_task").value.items
             && MissingFields(config) != []) ==> r.HookFailed?
  {
    var hooks := Get(config, "hooks").GetOr(Dict([]));
    if !hooks.Dict? then HookCrash
    else
      var pre := Get(hooks.entries, "pre_task").GetOr(List([]));
      if !Truthy(pre) then HooksPassed
      else
        match Iterate(pre)
        case None => HookCrash
        case Some(actions) =>
          var missing := MissingFields(config);
          if ValidateConfig in actions && missing != [] then
            HookFailed("validate_config failed: missing required fields: " + ReprNames(missing))
          else HooksPassed
  }

  lemma NoHooksWithoutKey(config: seq<(string, Value)>)
    requires !HasKey(config, "hooks")
    ensures Get(config, "hooks").None?
  {
  }

  // ---------------------------------------------------------------------
  // Legitimacy check

  const DangerousPatterns: seq<string> := [
    "rm\\s+-rf\\s+/",
    "dd\\s+if=",
    "mkfs\\.",
    ":\\(\\)\\{\\s*:\\|:&\\s*\\};:",
    ">\\s*/dev/sd[a-z]",
    "chmod\\s+-R\\s+777\\s+/",
    "wget\\s+.*\\|\\s*sh",
    "curl\\s+.*\\|\\s*bash"]

  /** Routing hints in their table order: keyword, suggested agent. */
  const RoutingHints: seq<(string, string)> := [
    ("research", "web-researcher"),
    ("search", "web-researcher"),
    ("find information", "web-researcher"),
    ("look up", "web-researcher"),
    ("web", "web-researcher"),
    ("review", "git-reviewer"),
    ("commit", "git-reviewer"),
    ("analyze", "academic-researcher"),
    ("hypothesis", "academic-researcher"),
    ("synthesize", "academic-researcher")]

  datatype Legitimacy =
    | Clear
    | Blocked(message: string, pattern: string)
    | Misrouted(message: string, suggestedAgent: string)

  /** The first dangerous pattern at or after `i` that the task matches
      (`search(pattern, text)` is a case-insensitive `re.search`). */
  function FirstDanger(task: string, search: (string, string) -> bool, i: nat): (k: int)
    requires i <= |DangerousPatterns|
    ensures k == -1 || i <= k < |DangerousPatterns|
    ensures k >= 0 ==> search(DangerousPatterns[k], task)
    ensures forall j :: i <= j < |DangerousPatterns| && (k < 0 || j < k) ==> !search(DangerousPatterns[j], task)
    decreases |DangerousPatterns| - i
  {
    if i == |DangerousPatterns| then -1
    else if search(DangerousPatterns[i], task) then i
    else FirstDanger(task, search, i + 1)
  }

  predicate HintApplies(task: string, agent: string, j: int)
    requires 0 <= j < |RoutingHints|
  {
    Contains(Lower(task), RoutingHints[j].0) && agent != RoutingHints[j].1
  }

  function FirstHint(task: string, agent: string, i: nat): (k: int)
    requires i <= |RoutingHints|
    ensures k == -1 || i <= k < |RoutingHints|
    ensures k >= 0 ==> HintApplies(task, agent, k)
    ensures forall j :: i <= j < |RoutingHints| && (k < 0 || j < k) ==> !HintApplies(task, agent, j)
    decreases |RoutingHints| - i
  {
    if i == |RoutingHints| then -1
    else if HintApplies(task, agent, i) then i
    else FirstHint(task, agent, i + 1)
  }

  /** `check_task_legitimacy(task, agent)`: a dangerous pattern blocks and
      takes precedence over everything else; otherwise the first routing
      keyword in the lowered task whose agent is another one warns;
      otherwise nothing. */
  function CheckTaskLegitimacy(task: string, agent: string, search: (string, string) -> bool): (r: Legitimacy)
    ensures r.Blocked? <==> exists j :: 0 <= j < |DangerousPatterns| && search(DangerousPatterns[j], task)
    ensures r.Blocked? ==> r.pattern in DangerousPatterns && search(r.pattern, task)
    ensures r.Blocked? ==> r.message == "Task contains dangerous pattern: '" + r.pattern + "'. Invocation blocked for safety."
    ensures r.Misrouted? <==> !r.Blocked? && exists j :: 0 <= j < |RoutingHints| && HintApplies(task, agent, j)
    ensures r.Misrouted? ==> exists j :: 0 <= j < |RoutingHints| && HintApplies(task, agent, j)
                               && r.suggestedAgent == RoutingHints[j].1 && r.suggestedAgent != agent
                               && forall i :: 0 <= i < j ==> !HintApplies(task, agent, i)
  {
    var d := FirstDanger(task, search, 0);
    if d >= 0 then
      var p := DangerousPatterns[d];
      Blocked("Task contains dangerous pattern: '" + p + "'. Invocation blocked for safety.", p)
    else
      var h := FirstHint(task, agent, 0);
      if h >= 0 then
        var (keyword, suggested) := RoutingHints[h];
        assert HintApplies(task, agent, h);
        Misrouted("Task contains '" + keyword + "' but is being sent to @" + agent + ". "
                  + "Consider using @" + suggested + " instead.", suggested)
      else Clear
  }

  /** The task's own agent never receives a warning suggesting itself. */
  lemma NeverSuggestsSelf(task: string, agent: string, search: (string, string) -> bool)
    ensures CheckTaskLegitimacy(task, agent, search).Misrouted? ==>
              CheckTaskLegitimacy(task, agent, search).suggestedAgent != agent
  {
  }

  // ---------------------------------------------------------------------
  // Rate limits and back-off

  const RateLimitIndicators: seq<string> := [
    "429", "rate limit", "rate_limit", "ratelimit", "overloaded", "too many requests", "capacity", "throttl"]

  /** `is_rate_limit_error(error)`: an indicator occurs in the lowered
      message or the lowered exception type name. */
  predicate IsRateLimitError(message: string, typeName: string) {
    exists i :: 0 <= i < |RateLimitIndicators|
      && (Contains(Lower(message), RateLimitIndicators[i]) || Contains(Lower(typeName), RateLimitIndicators[i]))
  }

  /** Case does not matter: the verdict on a message and type name is the
      verdict on their lower-cased forms. */
  lemma RateLimitCaseInsensitive(message: string, typeName: string)
    ensures IsRateLimitError(message, typeName) <==> IsRateLimitError(Lower(message), Lower(typeName))
  {
    LowerIdempotent(message);
    LowerIdempotent(typeName);
  }

  /** An upper-case indicator is recognised. */
  lemma RateLimitIgnoresCase(message: string, typeName: string)
    requires Contains(message, "Rate Limit")
    ensures IsRateLimitError(message, typeName)
  {
    var i :| 0 <= i <= |message| - 10 && MatchAt(message, "Rate Limit", i);
    var low := Lower(message);
    assert low[i..i + 10] == "rate limit" by {
      forall k | 0 <= k < 10 ensures low[i + k] == "rate limit"[k] {
        assert message[i + k] == "Rate Limit"[k];
      }
    }
    assert MatchAt(low, RateLimitIndicators[1], i);
  }

  function Pow2(n: nat): (p: nat)
    ensures p >= 1
  {
    if n == 0 then 1 else 2 * Pow2(n - 1)
  }

  lemma {:induction false} Pow2Grows(a: nat, b: nat)
    requires a <= b
    ensures Pow2(a) <= Pow2(b)
    decreases b
  {
    if a < b {
      Pow2Grows(a, b - 1);
    }
  }

  function MinReal(a: real, b: real): real {
    if a <= b then a else b
  }

  function MaxReal(a: real, b: real): real {
    if a >= b then a else b
  }

  /** From this attempt on, `2 ** attempt` is too large to convert to a
      float, and multiplying it by 5.0 raises `OverflowError`. */
  const FloatOverflowAttempt: nat := 1024

  /** The back-off before jitter: a server's Retry-After, capped, or
      5 s doubled per attempt, capped at 320 s (reached at attempt 6);
      None where computing the doubling raises. */
  function BackoffBase(attempt: nat, retryAfter: Option<real>): (b: Option<real>)
    ensures b.None? <==> retryAfter.None? && attempt >= FloatOverflowAttempt
    ensures retryAfter.Some? ==> b == Some(MinReal(retryAfter.value, MaxBackoff))
    ensures retryAfter.None? && attempt < 6 ==> b == Some(InitialBackoff * (Pow2(attempt) as real))
    ensures retryAfter.None? && 6 <= attempt < FloatOverflowAttempt ==> b == Some(MaxBackoff)
    ensures b.Some? ==> b.value <= MaxBackoff
    ensures retryAfter.None? && b.Some? ==> b.value >= InitialBackoff
  {
    if retryAfter.Some? then Some(MinReal(retryAfter.value, MaxBackoff))
    else if attempt >= FloatOverflowAttempt then None
    else
      var exp := InitialBackoff * (Pow2(attempt) as real);
      Pow2Grows(6, if attempt >= 6 then attempt else 6);
      Some(MinReal(exp, MaxBackoff))
  }

  /** `max(0.1, base + jitter)` with up to 25% jitter either way
      (`random` is `random.random()`, in [0, 1)). */
  function Jittered(b: real, random: real): (r: real)
    requires 0.0 <= random < 1.0
    ensures r >= 0.1
    ensures b >= 0.0 ==> 0.75 * b <= r <= MaxReal(0.1, 1.25 * b)
  {
    var x := 2.0 * random - 1.0;
    JitterBounds(b, x);
    MaxReal(0.1, b + b * JitterFactor * x)
  }

  /** `calculate_backoff(attempt, retry_after)`: the base with jitter,
      never below 0.1 s and, without Retry-After, at least 3.75 s and at
      most 400 s; None exactly where the base raises. */
  function CalculateBackoff(attempt: nat, retryAfter: Option<real>, random: real): (r: Option<real>)
    requires 0.0 <= random < 1.0
    ensures r.None? <==> BackoffBase(attempt, retryAfter).None?
    ensures r.Some? ==> r.value >= 0.1
    ensures r.Some? ==> var b := BackoffBase(attempt, retryAfter).value;
            b >= 0.0 ==> 0.75 * b <= r.value <= MaxReal(0.1, 1.25 * b)
    ensures retryAfter.None? && r.Some? ==> 3.75 <= r.value <= 400.0
  {
    match BackoffBase(attempt, retryAfter)
    case None => None
    case Some(b) => Some(Jittered(b, random))
  }

  /** The jitter stays within a quarter of a non-negative base. */
  lemma JitterBounds(b: real, x: real)
    requires -1.0 <= x < 1.0
    ensures b >= 0.0 ==> -(0.25 * b) <= b * JitterFactor * x <= 0.25 * b
  {
    var a := b * 0.25;
    assert b * JitterFactor * x == a * x;
    if b >= 0.0 {
      if x >= 0.0 {
        assert a * x <= a * 1.0;
      } else {
        assert a * x >= a * -1.0;
      }
    }
  }

  // ---------------------------------------------------------------------
  // Project named by a task

  /** Characters of a project name: neither '/' nor whitespace. */
  predicate NameChar(c: char) {
    c != '/' && !IsSpace(c)
  }

  /** Length of the run of name characters from `j`. */
  function NameRun(s: string, j: nat): (k: nat)
    requires j <= |s|
    ensures j + k <= |s|
    ensures forall t :: j <= t < j + k ==> NameChar(s[t])
    ensures j + k < |s| ==> !NameChar(s[j + k])
    decreases |s| - j
  {
    if j == |s| || !NameChar(s[j]) then 0 else 1 + NameRun(s, j + 1)
  }

  const ProjectsPrefix: string := "projects/"

  /** `projects/([^/\s]+)/` matches at index `i`. */
  predicate ProjectMatchAt(s: string, i: nat) {
    MatchAt(s, ProjectsPrefix, i)
    && (var k := NameRun(s, i + 9); k >= 1 && i + 9 + k < |s| && s[i + 9 + k] == '/')
  }

  function FirstProjectMatch(s: string, i: nat): (k: int)
    requires i <= |s|
    ensures k == -1 || (i <= k < |s| && ProjectMatchAt(s, k))
    ensures forall j :: i <= j < |s| && (k < 0 || j < k) ==> !ProjectMatchAt(s, j)
    decreases |s| - i
  {
    if i == |s| then -1
    else if ProjectMatchAt(s, i) then i
    else FirstProjectMatch(s, i + 1)
  }

  /** A form feed ends a name as `\s` does: "projects/a\x0cb/" names no
      project. */
  lemma FormFeedEndsName()
    ensures ExtractProject(ProjectsPrefix + ['a', 12 as char, 'b', '/']) == None
  {
    var task := ProjectsPrefix + ['a', 12 as char, 'b', '/'];
    assert NameRun(task, 9) == 1 by {
      assert NameRun(task, 10) == 0;
    }
    forall j | 0 <= j < |task|
      ensures !ProjectMatchAt(task, j)
    {
      if j > 0 {
        assert !MatchAt(task, ProjectsPrefix, j);
      }
    }
  }

  /** `_extract_project_from_task(task)`: the name in the leftmost
      `projects/<name>/`, unless that name is a namespace (work,
      personal). */
  function ExtractProject(task: string): (r: Option<string>)
    ensures r.Some? ==> r.value != "" && r.value != "work" && r.value != "personal"
    ensures r.Some? ==> Contains(task, ProjectsPrefix + r.value + "/")
    ensures r.Some? ==> forall c :: c in r.value ==> NameChar(c)
    ensures (forall j :: 0 <= j < |task| ==> !ProjectMatchAt(task, j)) ==> r.None?
  {
    var i := FirstProjectMatch(task, 0);
    if i < 0 then None
    else
      var k := NameRun(task, i + 9);
      var name := task[i + 9..i + 9 + k];
      if name == "work" || name == "personal" then None
      else
        assert task[i..i + 9 + k + 1] == ProjectsPrefix + name + "/";
        assert MatchAt(task, ProjectsPrefix + name + "/", i);
        Some(name)
  }

  /** A namespace directory is never taken for a project, even when a
      real project is named later in the task. */
  lemma NamespaceHidesLaterProject(rest: string)
    ensures ExtractProject("projects/work/" + rest).None?
  {
    var s := "projects/work/" + rest;
    assert s[..9] == ProjectsPrefix;
    assert MatchAt(s, ProjectsPrefix, 0);
    assert s[9] == 'w' && s[10] == 'o' && s[11] == 'r' && s[12] == 'k' && s[13] == '/';
    assert NameRun(s, 13) == 0;
    assert NameRun(s, 9) == 4;
    assert ProjectMatchAt(s, 0);
    assert s[9..13] == "work";
  }

  // ---------------------------------------------------------------------
  // The invocation prelude

  const ModelMap: seq<(string, string)> := [
    ("opus", "claude-opus-4-5-20251101"),
    ("sonnet", "claude-sonnet-4-5-20250929"),
    ("haiku", "claude-3-5-haiku-20241022")]

  /** `MODEL_MAP.get(model_key, MODEL_MAP["opus"])`: a known name selects
      its model, any other hashable key the opus model, and a list or
      mapping as the key raises (None). */
  function ModelFor(key: Value): (m: Option<string>)
    ensures m.None? <==> !Hashable(key)
    ensures forall i :: 0 <= i < |ModelMap| && key == Str(ModelMap[i].0) ==> m == Some(ModelMap[i].1)
    ensures Hashable(key) && !(key.Str? && HasKey(ModelMap, key.s)) ==> m == Some(ModelMap[0].1)
  {
    if !Hashable(key) then None
    else if key.Str? && HasKey(ModelMap, key.s) then Some(Lookup2(ModelMap, key.s))
    else Some(ModelMap[0].1)
  }

  function Lookup2(m: seq<(string, string)>, k: string): string
    requires HasKey(m, k)
  {
    m[IndexOf(m, k)].1
  }

  datatype Invocation =
    | DepthExceeded(depth: int, error: string)
    | Background(runId: string, depth: int, project: Option<string>)
    | BlockedTask(error: string, pattern: string, depth: int)
    | AgentNotFound(error: string)
    | HookFailure(error: string, depth: int)
    | Invoked(runId: string, depth: int, childDepth: int, model: string, project: Option<string>)
    | BadDepth
    | ConfigRaised     // a list or mapping as `model`, or a truthy `thinking` that is not a mapping
    | HooksRaised

  /** `config['thinking'].get(...)` on a truthy value that is not a
      mapping raises. */
  predicate BadThinking(config: seq<(string, Value)>) {
    var t := Get(config, "thinking");
    t.Some? && Truthy(t.value) && !t.value.Dict?
  }

  predicate GivenStr(s: Option<string>) {
    s.Some? && s.value != ""
  }

  /** `invoke_agent` up to the SDK query: the depth check comes first and
      stops everything at depth 4 or more; background mode returns at
      once; a blocked task, a missing agent or a failed hook returns a
      failure; otherwise the query runs with the child depth one deeper.
      `depthVar` is `PILOT_AGENT_DEPTH`, `config` what `load_agent_config`
      found and `freshHex` the random hex for a generated run id. */
  function InvokeAgent(agent: string, task: string, runId: Option<string>, background: bool,
                       project: Option<string>, depthVar: Option<string>,
                       config: Option<seq<(string, Value)>>, freshHex: string,
                       search: (string, string) -> bool): (r: Invocation)
    ensures PyInt(depthVar.GetOr("0")).None? <==> r.BadDepth?
    ensures (var d := PyInt(depthVar.GetOr("0"));
             d.Some? && d.value >= MaxAgentDepth ==>
               r == DepthExceeded(d.value, "Max agent depth (4) exceeded - cannot spawn more agents"))
    ensures r.Background? ==> background && r.depth < MaxAgentDepth
    ensures r.Background? ==> r.runId == if runId.Some? then runId.value else "run_" + Prefix(freshHex, 12)
    ensures r.BlockedTask? <==> !r.BadDepth? && !r.DepthExceeded? && !background
                                && CheckTaskLegitimacy(task, agent, search).Blocked?
    ensures r.Invoked? ==> r.childDepth == r.depth + 1 && r.depth < MaxAgentDepth
    ensures r.Invoked? ==> !CheckTaskLegitimacy(task, agent, search).Blocked?
    ensures r.Invoked? ==> config.Some? && config.value != [] && PreTaskHooks(config.value) == HooksPassed
    ensures r.Invoked? ==> r.project == ExtractProject(task)
    ensures r.Invoked? ==> Some(r.model) == ModelFor(Get(config.value, "model").GetOr(Str("opus"))) && !BadThinking(config.value)
    ensures r.ConfigRaised? ==> config.Some? && PreTaskHooks(config.value) == HooksPassed
                                && (ModelFor(Get(config.value, "model").GetOr(Str("opus"))).None? || BadThinking(config.value))
  {
    match PyInt(depthVar.GetOr("0"))
    case None => BadDepth
    case Some(depth) =>
      if depth >= MaxAgentDepth then
        DepthExceeded(depth, "Max agent depth (4) exceeded - cannot spawn more agents")
      else
        var id := if runId.Some? then runId.value else "run_" + Prefix(freshHex, 12);
        if background then
          Background(id, depth, if GivenStr(project) then project else ExtractProject(task))
        else
          match CheckTaskLegitimacy(task, agent, search)
          case Blocked(message, pattern) => BlockedTask(message, pattern, depth)
          case _ =>
            if config.None? || config.value == [] then AgentNotFound("Agent not found: " + agent)
            else
              match PreTaskHooks(config.value)
              case HookFailed(message) => HookFailure(message, depth)
              case HookCrash => HooksRaised
              case HooksPassed =>
                var model := ModelFor(Get(config.value, "model").GetOr(Str("opus")));
                if model.None? || BadThinking(config.value) then ConfigRaised
                else Invoked(id, depth, depth + 1, model.value, ExtractProject(task))
  }

  /** An agent at the depth limit spawns nothing, whatever the task. */
  lemma DepthLimitStopsEverything(agent: string, task: string, runId: Option<string>, background: bool,
                                  project: Option<string>, config: Option<seq<(string, Value)>>,
                                  freshHex: string, search: (string, string) -> bool)
    ensures InvokeAgent(agent, task, runId, background, project, Some("4"), config, freshHex, search).DepthExceeded?
  {
    assert AllDigits("4");
    assert ParseDigits("4") == 4 by {
      assert "4"[..0] == [];
    }
  }
}

=== FILE: json.dfy ===
/** Decoded JSON / YAML values, as the Python code sees them after
    `json.load` or `yaml.safe_load`.  Numbers are integers; objects keep
    their key order. */
module Json {
  import opened Common

  datatype Value =
    | Null
    | Bool(b: bool)
    | Num(n: int)
    | Str(s: string)
    | List(items: seq<Value>)
    | Dict(entries: seq<(string, Value)>)

  /** A value Python can use as a dict key or set element. */
  predicate Hashable(v: Value) {
    !v.List? && !v.Dict?
  }

  /** Python truthiness. */
  predicate Truthy(v: Value) {
    match v
    case Null => false
    case Bool(b) => b
    case Num(n) => n != 0
    case Str(s) => s != ""
    case List(items) => items != []
    case Dict(entries) => entries != []
  }

  /** `d.get(key)` on an object's entries. */
  function Get(entries: seq<(string, Value)>, key: string): (r: Option<Value>)
    ensures r.Some? <==> HasKey(entries, key)
    ensures r.Some? ==> r.value == entries[IndexOf(entries, key)].1
  {
    var i := IndexOf(entries, key);
    if i < 0 then None else Some(entries[i].1)
  }

  /** `d.get(key, default)` on an object's entries. */
  function Field(entries: seq<(string, Value)>, key: string, default: Value): Value {
    Get(entries, key).GetOr(default)
  }

  /** `d.get(key, default)` where the value is used as a string: a string
      value, or the default when the key is absent or holds another kind. */
  function GetStr(entries: seq<(string, Value)>, key: string, default: string): (r: string)
    ensures Get(entries, key) == Some(Str(r)) || r == default
  {
    match Get(entries, key)
    case Some(Str(s)) => s
    case _ => default
  }

  /** `str(v)`: a string as itself, anything else through `strOf`, which
      stands for Python's rendering of the other kinds. */
  function PyStr(v: Value, strOf: Value -> string): (r: string)
    ensures v.Str? ==> r == v.s
  {
    if v.Str? then v.s else strOf(v)
  }

  /** `str(v)` for a scalar. */
  function ScalarText(v: Value): string
    requires !v.List? && !v.Dict?
  {
    match v
    case Null => "None"
    case Bool(b) => if b then "True" else "False"
    case Num(n) => IntToString(n)
    case Str(s) => s
  }
}

=== FILE: paths.dfy ===
/** Path discovery across the user repository and pilot-core: the user's
    directories come first and override the core's.  The file system is a
    value: the existing files, the existing directories, and what a glob of
    each directory lists, in listing order. */
module Paths {
  import opened Common

  datatype Fs = Fs(files: set<string>, dirs: set<string>, listing: map<string, seq<string>>)

  /** The two roots, and whether they resolve to the same repository
      (symlink resolution is not modelled, so that answer is given). */
  datatype Roots = Roots(core: string, user: string, sameRepo: bool)

  /** `base / name`. */
  function Under(base: string, name: string): string {
    base + "/" + name
  }

  const AgentsSub: string := "agents"
  const RulesSub: string := "system/rules"
  const ToolsSub: string := "tools"
  const QueriesSub: string := "system/queries"
  const SchemasSub: string := "system/schemas"
  const MigrationsSub: string := "system/migrations"
  const YamlExt: string := ".yaml"
  const PyExt: string := ".py"
  const SqlExt: string := ".sql"
  const InitFile: string := "__init__.py"

  // ---------------------------------------------------------------------
  // Directories

  /** `agents_dirs`, `rules_dirs`, `tools_dirs`, `queries_dirs`: the user
      directory, then the core one unless both roots are the same
      repository; only directories that exist. */
  function DirsFor(roots: Roots, sub: string, fs: Fs): (r: seq<string>)
    ensures |r| <= 2
    ensures forall d :: d in r ==> d in fs.dirs
    ensures Under(roots.user, sub) in fs.dirs <==> |r| > 0 && r[0] == Under(roots.user, sub)
    ensures (Under(roots.core, sub) in r <==>
      Under(roots.core, sub) in fs.dirs && (!roots.sameRepo || Under(roots.core, sub) == Under(roots.user, sub)))
    ensures forall d :: d in r ==> d == Under(roots.user, sub) || d == Under(roots.core, sub)
    ensures |r| == 2 ==> r == [Under(roots.user, sub), Under(roots.core, sub)]
  {
    var user := Under(roots.user, sub);
    var core := Under(roots.core, sub);
    (if user in fs.dirs then [user] else [])
    + (if !roots.sameRepo && core in fs.dirs then [core] else [])
  }

  function AgentsDirs(roots: Roots, fs: Fs): seq<string> { DirsFor(roots, AgentsSub, fs) }
  function RulesDirs(roots: Roots, fs: Fs): seq<string> { DirsFor(roots, RulesSub, fs) }
  function ToolsDirs(roots: Roots, fs: Fs): seq<string> { DirsFor(roots, ToolsSub, fs) }
  function QueriesDirs(roots: Roots, fs: Fs): seq<string> { DirsFor(roots, QueriesSub, fs) }

  /** In development mode only the user directory is listed. */
  lemma SameRepoListsUserOnly(roots: Roots, sub: string, fs: Fs)
    requires roots.sameRepo
    ensures DirsFor(roots, sub, fs) == (if Under(roots.user, sub) in fs.dirs then [Under(roots.user, sub)] else [])
  {
  }

  // ---------------------------------------------------------------------
  // Lookup by name

  /** The first directory holding `fileName`, as the full path. */
  function FindIn(dirs: seq<string>, fileName: string, fs: Fs): (r: Option<string>)
    ensures r.Some? <==> exists i :: 0 <= i < |dirs| && Under(dirs[i], fileName) in fs.files
    ensures (r.Some? ==> exists i :: (0 <= i < |dirs| && r.value == Under(dirs[i], fileName)
      && r.value in fs.files && forall j :: 0 <= j < i ==> Under(dirs[j], fileName) !in fs.files))
    decreases |dirs|
  {
    if dirs == [] then None
    else if Under(dirs[0], fileName) in fs.files then
      assert Under(dirs[0], fileName) == Under(dirs[0], fileName);
      Some(Under(dirs[0], fileName))
    else
      var rest := FindIn(dirs[1..], fileName, fs);
      assert forall i :: 1 <= i < |dirs| ==> dirs[i] == dirs[1..][i - 1];
      if rest.Some? then
        var i :| 0 <= i < |dirs[1..]| && rest.value == Under(dirs[1..][i], fileName)
          && rest.value in fs.files && forall j :: 0 <= j < i ==> Under(dirs[1..][j], fileName) !in fs.files;
        assert Under(dirs[i + 1], fileName) == rest.value;
        rest
      else rest
  }

  /** `find_agent(name)`. */
  function FindAgent(roots: Roots, fs: Fs, name: string): (r: Option<string>)
    ensures r.Some? ==> r.value in fs.files
  {
    FindIn(AgentsDirs(roots, fs), name + YamlExt, fs)
  }

  /** A user agent overrides a core agent of the same name. */
  lemma UserAgentWins(roots: Roots, fs: Fs, name: string)
    requires Under(roots.user, AgentsSub) in fs.dirs
    requires Under(Under(roots.user, AgentsSub), name + YamlExt) in fs.files
    ensures FindAgent(roots, fs, name) == Some(Under(Under(roots.user, AgentsSub), name + YamlExt))
  {
  }

  /** `find_query(name)`. */
  function FindQuery(roots: Roots, fs: Fs, name: string): (r: Option<string>)
    ensures r.Some? ==> r.value in fs.files
  {
    FindIn(QueriesDirs(roots, fs), name + SqlExt, fs)
  }

  /** The tool module of one directory: `name.py`, else the package
      `name/__init__.py`. */
  function ToolIn(dir: string, name: string, fs: Fs): (r: Option<string>)
    ensures Under(dir, name + PyExt) in fs.files ==> r == Some(Under(dir, name + PyExt))
    ensures (Under(dir, name + PyExt) !in fs.files ==>
      r == (if Under(dir, name) in fs.dirs && Under(Under(dir, name), InitFile) in fs.files
            then Some(Under(Under(dir, name), InitFile)) else None))
  {
    var pyFile := Under(dir, name + PyExt);
    if pyFile in fs.files then Some(pyFile)
    else
      var package := Under(dir, name);
      if package in fs.dirs && Under(package, InitFile) in fs.files then Some(Under(package, InitFile))
      else None
  }

  /** The first directory's tool wins, whichever form it takes. */
  function FindToolIn(dirs: seq<string>, name: string, fs: Fs): (r: Option<string>)
    ensures r.Some? <==> exists i :: 0 <= i < |dirs| && ToolIn(dirs[i], name, fs).Some?
    ensures (r.Some? ==> exists i :: (0 <= i < |dirs| && r == ToolIn(dirs[i], name, fs)
      && forall j :: 0 <= j < i ==> ToolIn(dirs[j], name, fs).None?))
    decreases |dirs|
  {
    if dirs == [] then None
    else
      var here := ToolIn(dirs[0], name, fs);
      if here.Some? then here
      else
        var rest := FindToolIn(dirs[1..], name, fs);
        assert forall i :: 1 <= i < |dirs| ==> dirs[i] == dirs[1..][i - 1];
        if rest.Some? then
          var i :| 0 <= i < |dirs[1..]| && rest == ToolIn(dirs[1..][i], name, fs)
            && forall j :: 0 <= j < i ==> ToolIn(dirs[1..][j], name, fs).None?;
          assert rest == ToolIn(dirs[i + 1], name, fs);
          rest
        else rest
  }

  /** `find_tool(name)`. */
  function FindTool(roots: Roots, fs: Fs, name: string): (r: Option<string>)
    ensures r.Some? ==> r.value in fs.files
  {
    FindToolIn(ToolsDirs(roots, fs), name, fs)
  }

  /** `schemas_dir()` and `find_schema(type, version)`: core only, file
      `{type}.v{version}.yaml`. */
  function FindSchema(roots: Roots, fs: Fs, schemaType: string, version: int): (r: Option<string>)
    ensures (r.Some? <==>
      Under(roots.core, SchemasSub) in fs.dirs
      && Under(Under(roots.core, SchemasSub), schemaType + ".v" + IntToString(version) + YamlExt) in fs.files)
    ensures r.Some? ==> r.value == Under(Under(roots.core, SchemasSub), schemaType + ".v" + IntToString(version) + YamlExt)
  {
    var dir := Under(roots.core, SchemasSub);
    if dir !in fs.dirs then None
    else
      var path := Under(dir, schemaType + ".v" + IntToString(version) + YamlExt);
      if path in fs.files then Some(path) else None
  }

  // ---------------------------------------------------------------------
  // Iteration

  /** A listed file: the directory and the file's stem. */
  datatype Found = Found(dir: string, stem: string)

  function StemsOf(s: seq<Found>): (r: seq<string>)
    ensures |r| == |s| && forall i :: 0 <= i < |s| ==> r[i] == s[i].stem
  {
    seq(|s|, i requires 0 <= i < |s| => s[i].stem)
  }

  /** The stems of `names` that carry `ext`, without those starting with
      '_' when `skipPrivate`, in listing order. */
  function StemsIn(names: seq<string>, ext: string, skipPrivate: bool): (r: seq<string>)
    ensures forall s :: s in r ==> s + ext in names && !(skipPrivate && |s| > 0 && s[0] == '_')
    ensures (forall n :: n in names && IsSuffix(ext, n) && !(skipPrivate && |n| > |ext| && n[0] == '_') ==>
      n[..|n| - |ext|] in r)
    decreases |names|
  {
    if names == [] then []
    else
      var n := names[0];
      var rest := StemsIn(names[1..], ext, skipPrivate);
      assert forall x :: x in names[1..] ==> x in names;
      if IsSuffix(ext, n) && !(skipPrivate && |n| > |ext| && n[0] == '_') then
        assert n[..|n| - |ext|] + ext == n;
        [n[..|n| - |ext|]] + rest
      else rest
  }

  /** Every listed stem of the directories, directory by directory. */
  function Candidates(dirs: seq<string>, fs: Fs, ext: string, skipPrivate: bool): (r: seq<Found>)
    ensures forall x :: x in r ==> x.dir in dirs
    decreases |dirs|
  {
    if dirs == [] then []
    else
      var names := if dirs[0] in fs.listing then fs.listing[dirs[0]] else [];
      var stems := StemsIn(names, ext, skipPrivate);
      seq(|stems|, i requires 0 <= i < |stems| => Found(dirs[0], stems[i]))
      + Candidates(dirs[1..], fs, ext, skipPrivate)
  }

  /** The candidates, each stem kept only at its first occurrence (the
      `seen` set of the iterators). */
  function FirstPerStem(c: seq<Found>): (r: seq<Found>)
    ensures NoDups(StemsOf(r))
    ensures forall x :: x in r ==> x in c
    ensures forall s :: s in StemsOf(r) <==> s in StemsOf(c)
    decreases |c|
  {
    if c == [] then []
    else
      var init := c[..|c| - 1];
      var prev := FirstPerStem(init);
      var last := c[|c| - 1];
      assert StemsOf(c) == StemsOf(init) + [last.stem];
      if last.stem in StemsOf(prev) then prev
      else
        assert StemsOf(prev + [last]) == StemsOf(prev) + [last.stem];
        prev + [last]
  }

  /** What is kept for a stem comes no later than any candidate with that
      stem: the user directory's file shadows the core's. */
  lemma {:induction false} FirstPerStemEarliest(c: seq<Found>, x: Found, i: int)
    requires x in FirstPerStem(c) && 0 <= i < |c| && c[i].stem == x.stem
    ensures x in c[..i + 1]
    decreases |c|
  {
    var init := c[..|c| - 1];
    var prev := FirstPerStem(init);
    var last := c[|c| - 1];
    assert StemsOf(c) == StemsOf(init) + [last.stem];
    if x in prev {
      if i < |init| {
        FirstPerStemEarliest(init, x, i);
        assert init[..i + 1] == c[..i + 1];
      } else {
        assert x in init;
        assert c[..i + 1] == c;
      }
    } else {
      assert x == last && last.stem !in StemsOf(prev);
      assert c[..i + 1] == c;
    }
  }

  /** `iter_agents()`: every agent stem once, the user's first. */
  function IterAgents(roots: Roots, fs: Fs): (r: seq<Found>)
    ensures NoDups(StemsOf(r))
  {
    FirstPerStem(Candidates(AgentsDirs(roots, fs), fs, YamlExt, false))
  }

  /** `list_agents()`: the stems `iter_agents()` yields. */
  function ListAgents(roots: Roots, fs: Fs): (r: seq<string>)
    ensures NoDups(r)
  {
    StemsOf(IterAgents(roots, fs))
  }

  /** `iter_rules()`. */
  function IterRules(roots: Roots, fs: Fs): (r: seq<Found>)
    ensures NoDups(StemsOf(r))
  {
    FirstPerStem(Candidates(RulesDirs(roots, fs), fs, YamlExt, false))
  }

  /** `iter_tools()`: also skips stems starting with '_'. */
  function IterTools(roots: Roots, fs: Fs): (r: seq<Found>)
    ensures NoDups(StemsOf(r))
    ensures forall x :: x in r ==> !(|x.stem| > 0 && x.stem[0] == '_')
  {
    var c := Candidates(ToolsDirs(roots, fs), fs, PyExt, true);
    CandidatesPublic(ToolsDirs(roots, fs), fs);
    FirstPerStem(c)
  }

  lemma {:induction false} CandidatesPublic(dirs: seq<string>, fs: Fs)
    ensures forall x :: x in Candidates(dirs, fs, PyExt, true) ==> !(|x.stem| > 0 && x.stem[0] == '_')
    decreases |dirs|
  {
    if dirs != [] {
      CandidatesPublic(dirs[1..], fs);
    }
  }

  /** `iter_migrations()`: the core migrations directory's YAML files. */
  function IterMigrations(roots: Roots, fs: Fs): (r: seq<Found>)
    ensures Under(roots.core, MigrationsSub) !in fs.dirs ==> r == []
    ensures forall x :: x in r ==> x.dir == Under(roots.core, MigrationsSub)
  {
    var dir := Under(roots.core, MigrationsSub);
    if dir in fs.dirs then Candidates([dir], fs, YamlExt, false) else []
  }

  /** A stem listed in the user directory is yielded from there, never
      from the core directory. */
  lemma UserStemWins(c: seq<Found>, i: int)
    requires 0 <= i < |c|
    ensures exists k :: 0 <= k < |FirstPerStem(c)| && FirstPerStem(c)[k].stem == c[i].stem && FirstPerStem(c)[k] in c[..i + 1]
  {
    var r := FirstPerStem(c);
    assert StemsOf(c)[i] == c[i].stem;
    assert c[i].stem in StemsOf(r);
    var k :| 0 <= k < |r| && StemsOf(r)[k] == c[i].stem;
    FirstPerStemEarliest(c, r[k], i);
  }
}

=== FILE: precommit.dfy ===
/** The pre-commit gate helpers of `pilot_core/precommit.py`: approval
    marker parsing and validation, expiry, diff-hash check and the
    `.gitignore`-only exemption.  JSON decoding, ISO-8601 parsing and the
    SHA-256 digest are parameters; telemetry writes are reported as the
    event type the helper would record. */
module Precommit {
  import opened Common
  import Telemetry

  /** Maximum approval age in seconds (one hour). */
  const MaxApprovalAgeSeconds: int := 3600

  /** A marker field value: a string, a list of file names, or any other
      JSON value (of which only its truthiness matters here). */
  datatype MarkerValue = Str(s: string) | Files(files: seq<string>) | OtherValue(truthy: bool)

  type Marker = map<string, MarkerValue>

  /** The outcome of `json.loads(content)`. */
  datatype JsonParse = NotJson | JsonObject(obj: Marker) | JsonNonObject

  /** `line.split(":", 1)` for a line that contains `c`. */
  function SplitFirst(s: string, c: char): (r: (string, string))
    requires HasChar(s, c)
    ensures s == r.0 + [c] + r.1
    ensures !HasChar(r.0, c)
  {
    if s[0] == c then ([], s[1..])
    else
      assert s == [s[0]] + s[1..];
      var (a, b) := SplitFirst(s[1..], c);
      ([s[0]] + a, b)
  }

  /** Splitting on the first ':' keeps the rest intact, so a timestamp
      value such as "12:00:00" survives. */
  lemma {:induction false} SplitFirstOfJoin(k: string, v: string, c: char)
    requires !HasChar(k, c)
    ensures HasChar(k + [c] + v, c)
    ensures SplitFirst(k + [c] + v, c) == (k, v)
    decreases |k|
  {
    var s := k + [c] + v;
    assert s[|k|] == c;
    if k != [] {
      assert k == [k[0]] + k[1..];
      assert s[1..] == k[1..] + [c] + v;
      SplitFirstOfJoin(k[1..], v, c);
    }
  }

  const MarkerKeys: set<string> := {"approved_at", "diff_hash", "verdict", "files"}

  /** One fallback line: the (key, value) it sets, if any. */
  function ParseMarkerLine(raw: string): (r: Option<(string, MarkerValue)>)
    ensures r.Some? ==> r.value.0 in MarkerKeys
    ensures r.Some? ==> !IsPrefix("#", Strip(raw)) && HasChar(Strip(raw), ':')
    ensures r.Some? && r.value.0 == "files" ==> r.value.1.Files?
    ensures r.Some? && r.value.0 != "files" ==> r.value.1.Str?
  {
    var line := Strip(raw);
    if HasChar(line, ':') && !IsPrefix("#", line) then
      var kv := SplitFirst(line, ':');
      KeyValue(kv.0, kv.1)
    else None
  }

  /** The field a `key: value` pair sets; unknown keys set nothing. */
  function KeyValue(k: string, v: string): (r: Option<(string, MarkerValue)>)
    ensures r.Some? <==> Strip(k) in MarkerKeys
    ensures r.Some? ==> r.value.0 == Strip(k)
    ensures r.Some? && r.value.0 == "files" ==> r.value.1 == Files(FileList(Strip(v)))
    ensures r.Some? && r.value.0 != "files" ==> r.value.1 == Str(Strip(v))
  {
    var key := Strip(k);
    var value := Strip(v);
    if key == "approved_at" || key == "diff_hash" || key == "verdict" then Some((key, Str(value)))
    else if key == "files" then Some((key, Files(FileList(value))))
    else None
  }

  /** `[f.strip() for f in value.split(",") if f.strip()]`. */
  function FileList(value: string): (r: seq<string>)
    ensures forall i :: 0 <= i < |r| ==> r[i] != ""
  {
    StripNonEmpty(Split(value, ','))
  }

  function StripNonEmpty(parts: seq<string>): (r: seq<string>)
    ensures forall i :: 0 <= i < |r| ==> r[i] != ""
    ensures |r| <= |parts|
  {
    if parts == [] then []
    else
      var p := Strip(parts[0]);
      (if p != "" then [p] else []) + StripNonEmpty(parts[1..])
  }

  /** The `key: value` fallback, later lines overriding earlier ones. */
  function ParseMarkerLines(lines: seq<string>): (r: Marker)
    ensures r.Keys <= MarkerKeys
  {
    if lines == [] then map[]
    else
      var m := ParseMarkerLines(lines[..|lines| - 1]);
      var p := ParseMarkerLine(lines[|lines| - 1]);
      if p.Some? then m[p.value.0 := p.value.1] else m
  }

  /** `parse_marker(content)`; `json` is what `json.loads(content)` gives. */
  function ParseMarker(content: Option<string>, json: JsonParse): (r: Marker)
    ensures content.None? || IsBlank(content.value) ==> r == map[]
    ensures content.Some? && !IsBlank(content.value) && json.JsonObject? ==> r == json.obj
    ensures content.Some? && !IsBlank(content.value) && !json.JsonObject? ==> r.Keys <= MarkerKeys
  {
    if content.None? || Strip(content.value) == "" then map[]
    else if json.JsonObject? then json.obj
    else ParseMarkerLines(Split(content.value, '\n'))
  }

  /** A single `key: value` line with a known key is read back as that
      key and its stripped value, whatever colons the value contains. */
  lemma ParseOneLine(key: string, value: string)
    requires key == "approved_at" || key == "diff_hash" || key == "verdict"
    requires Strip(value) == value && value != ""
    ensures ParseMarkerLine(key + ": " + value) == Some((key, Str(value)))
  {
    assert key[0] != '#' && !IsSpace(key[0]) && !IsSpace(key[|key| - 1]);
    assert !HasChar(key, ':');
    StripKeepsInner(key);
    ParseLineSplit(key, value);
    StripLeadingSpace(value);
    assert Strip(" " + value) == value;
  }

  /** A stripped line `key: value` splits at the colon after the key. */
  lemma ParseLineSplit(key: string, value: string)
    requires key != "" && Strip(key) == key && !HasChar(key, ':') && key[0] != '#'
    requires Strip(value) == value && value != ""
    ensures ParseMarkerLine(key + ": " + value) == KeyValue(key, " " + value)
  {
    var line := key + ": " + value;
    assert line == key + [':'] + (" " + value);
    StrippedEnds(value);
    StrippedEnds(key);
    assert line[|line| - 1] == value[|value| - 1];
    assert line[0] == key[0];
    StripKeepsInner(line);
    SplitFirstOfJoin(key, " " + value, ':');
    assert !IsPrefix("#", line);
  }

  /** A string equal to its own `strip()` has non-space ends. */
  lemma StrippedEnds(v: string)
    requires Strip(v) == v && v != ""
    ensures !IsSpace(v[0]) && !IsSpace(v[|v| - 1])
  {
  }

  /** `strip()` is the identity on a string with non-space ends. */
  lemma StripKeepsInner(s: string)
    requires s != [] && !IsSpace(s[0]) && !IsSpace(s[|s| - 1])
    ensures Strip(s) == s
  {
  }

  lemma StripLeadingSpace(v: string)
    requires Strip(v) == v && v != ""
    ensures Strip(" " + v) == v
  {
    assert (" " + v)[1..] == v;
  }

  /** A comment line sets nothing, even when it contains a colon. */
  lemma CommentLineIgnored(raw: string)
    requires IsPrefix("#", Strip(raw))
    ensures ParseMarkerLine(raw) == None
  {
  }

  // ---------------------------------------------------------------------
  // is_expired

  /** `is_expired(approved_at, max_age)` at time `now`.  `parseIso` is
      `datetime.fromisoformat` (wall-clock seconds; the offset is dropped,
      as the source does by replacing `tzinfo` without converting). */
  function IsExpired(approvedAt: string, maxAge: int, now: int,
                     parseIso: string -> Option<int>): (r: bool)
    ensures approvedAt == "" ==> r
    ensures approvedAt != "" && parseIso(ReplaceZ(approvedAt)).Some? ==>
      (r <==> now - parseIso(ReplaceZ(approvedAt)).value > maxAge)
    ensures (approvedAt != "" && parseIso(ReplaceZ(approvedAt)).None?
             && parseIso(StripZone(approvedAt)).None?) ==> r
  {
    if approvedAt == "" then true
    else
      var first := parseIso(ReplaceZ(approvedAt));
      var t := if first.Some? then first else parseIso(StripZone(approvedAt));
      if t.None? then true else now - t.value > maxAge
  }

  /** `s.split("+")[0].split("Z")[0]`. */
  function StripZone(s: string): (r: string)
    ensures !HasChar(r, '+') && !HasChar(r, 'Z')
  {
    var a := Split(s, '+')[0];
    SplitHeadLacks(s, '+');
    SplitHeadLacks(a, 'Z');
    SplitHeadSub(a, 'Z', '+');
    Split(a, 'Z')[0]
  }

  /** The first piece of a split never holds the separator. */
  lemma {:induction false} SplitHeadLacks(s: string, c: char)
    ensures !HasChar(Split(s, c)[0], c)
    decreases |s|
  {
    if s != [] {
      SplitHeadLacks(s[1..], c);
    }
  }

  /** The first piece of a split is a prefix, so lacks what `s` lacks. */
  lemma {:induction false} SplitHeadSub(s: string, c: char, d: char)
    requires !HasChar(s, d)
    ensures !HasChar(Split(s, c)[0], d)
    decreases |s|
  {
    if s != [] {
      assert s == [s[0]] + s[1..];
      SplitHeadSub(s[1..], c, d);
    }
  }

  /** The age limit is strict: an approval exactly `maxAge` seconds old is
      still valid, one second more is expired. */
  lemma ExpiryBoundary(approvedAt: string, maxAge: int, t: int, parseIso: string -> Option<int>)
    requires approvedAt != "" && parseIso(ReplaceZ(approvedAt)) == Some(t)
    ensures !IsExpired(approvedAt, maxAge, t + maxAge, parseIso)
    ensures IsExpired(approvedAt, maxAge, t + maxAge + 1, parseIso)
  {
  }

  // ---------------------------------------------------------------------
  // verify_diff_hash / is_gitignore_only / validate_marker

  /** `verify_diff_hash(approved_hash, diff)`; `digest` is the SHA-256
      hex digest, a deterministic function of the diff bytes. */
  function VerifyDiffHash(approvedHash: string, diff: seq<int>, digest: seq<int> -> string): (r: bool)
    ensures approvedHash == "" ==> !r
    ensures approvedHash != "" ==> (r <==> approvedHash == digest(diff))
  {
    approvedHash != "" && approvedHash == digest(diff)
  }

  /** A hash approved for one diff verifies for that diff and for every
      diff with the same digest, and for no other. */
  lemma HashBindsDiff(diff: seq<int>, other: seq<int>, digest: seq<int> -> string)
    requires digest(diff) != ""
    ensures VerifyDiffHash(digest(diff), diff, digest)
    ensures VerifyDiffHash(digest(diff), other, digest) <==> digest(other) == digest(diff)
  {
  }

  predicate IsGitignorePath(f: string) {
    f == ".gitignore" || IsSuffix("/.gitignore", f)
  }

  /** `is_gitignore_only(staged_files)`: the verdict, and the telemetry
      event recorded when it holds. */
  function IsGitignoreOnly(files: seq<string>): (r: (bool, Option<Telemetry.EventType>))
    ensures r.0 <==> files != [] && forall i :: 0 <= i < |files| ==> IsGitignorePath(files[i])
    ensures r.1 == (if r.0 then Some(Telemetry.CommitGitignoreOnly) else None)
  {
    var ok := files != [] && AllGitignore(files);
    (ok, if ok then Some(Telemetry.CommitGitignoreOnly) else None)
  }

  function AllGitignore(files: seq<string>): (r: bool)
    ensures r <==> forall i :: 0 <= i < |files| ==> IsGitignorePath(files[i])
  {
    if files == [] then true else IsGitignorePath(files[0]) && AllGitignore(files[1..])
  }

  /** Python truthiness of a marker value. */
  predicate Truthy(v: MarkerValue) {
    match v
    case Str(s) => s != ""
    case Files(fs) => fs != []
    case OtherValue(t) => t
  }

  /** `validate_marker(marker)`: verdict, message, and the telemetry event
      recorded on failure. */
  function ValidateMarker(marker: Marker): (r: (bool, string, Option<Telemetry.EventType>))
    ensures marker == map[] ==> r == (false, "Empty or unparseable marker", Some(Telemetry.CommitReviewRequired))
    ensures marker != map[] && ("diff_hash" !in marker || !Truthy(marker["diff_hash"])) ==>
      r == (false, "Missing diff_hash field", Some(Telemetry.CommitReviewRequired))
    ensures r.0 <==> "diff_hash" in marker && Truthy(marker["diff_hash"])
    ensures r.0 ==> r.1 == "" && r.2.None?
  {
    if marker == map[] then (false, "Empty or unparseable marker", Some(Telemetry.CommitReviewRequired))
    else if "diff_hash" !in marker || !Truthy(marker["diff_hash"]) then
      (false, "Missing diff_hash field", Some(Telemetry.CommitReviewRequired))
    else (true, "", None)
  }

  /** A marker parsed from a fallback `diff_hash: h` line validates. */
  lemma FallbackMarkerValidates(h: string)
    requires Strip(h) == h && h != ""
    ensures ValidateMarker(ParseMarkerLines(["diff_hash: " + h])).0
  {
    assert "diff_hash" + ": " == "diff_hash: ";
    ParseOneLine("diff_hash", h);
    SingleLine("diff_hash: " + h);
  }

  lemma SingleLine(line: string)
    ensures ParseMarkerLine(line).Some? ==>
      ParseMarkerLines([line]) == map[ParseMarkerLine(line).value.0 := ParseMarkerLine(line).value.1]
  {
    assert [line][..0] == [];
  }
}

=== FILE: progress.dfy ===
/** Progress records of background agent invocations: the record and its
    YAML mapping form, partial updates, completion and failure marks,
    staleness, cleanup of old records and archiving.  A project's
    progress directory is passed in as data; times are seconds, written
    and read through an ISO-8601 codec. */
module Progress {
  import opened Common
  import opened Json

  datatype ProgressStatus = Pending | Running | Completed | Failed | Stalled

  /** The enum's string value. */
  function StatusValue(s: ProgressStatus): string {
    match s
    case Pending => "pending"
    case Running => "running"
    case Completed => "completed"
    case Failed => "failed"
    case Stalled => "stalled"
  }

  /** `ProgressStatus(v)`: None where Python raises ValueError. */
  function ParseStatus(v: string): (r: Option<ProgressStatus>)
    ensures r.Some? ==> StatusValue(r.value) == v
    ensures forall s :: StatusValue(s) == v ==> r == Some(s)
  {
    if v == "pending" then Some(Pending)
    else if v == "running" then Some(Running)
    else if v == "completed" then Some(Completed)
    else if v == "failed" then Some(Failed)
    else if v == "stalled" then Some(Stalled)
    else None
  }

  datatype ProgressFile = ProgressFile(
    runId: string,
    agent: string,
    project: string,
    startedAt: int,
    status: ProgressStatus,
    lastHeartbeat: int,
    phase: string,
    messagesProcessed: int,
    estimatedRemaining: string,
    error: string,
    resultSummary: string,
    artifactsCreated: seq<string>)

  /** `projects/{project}/.progress`. */
  function ProgressDir(project: string): string {
    "projects/" + project + "/.progress"
  }

  /** `projects/{project}/.progress/{run_id}.yaml`. */
  function ProgressPath(project: string, runId: string): (r: string)
    ensures IsPrefix(ProgressDir(project) + "/", r) && IsSuffix(".yaml", r)
  {
    ProgressDir(project) + "/" + runId + ".yaml"
  }

  /** The keys of the mapping form: `run_id`, `agent`, `project`,
      `started_at`, `status`, `last_heartbeat`, `phase`,
      `messages_processed`, `estimated_remaining`, `error`,
      `result_summary`, `artifacts_created`. */
  datatype Field =
    | RunIdKey | AgentKey | ProjectKey | StartedAtKey | StatusKey | HeartbeatKey
    | PhaseKey | MessagesKey | RemainingKey | ErrorKey | SummaryKey | ArtifactsKey

  /** A mapping form; keys the record does not know are dropped on reading
      and so are not represented. */
  type Doc = map<Field, Value>

  function StrValues(xs: seq<string>): (r: seq<Value>)
    ensures |r| == |xs| && forall i :: 0 <= i < |xs| ==> r[i] == Str(xs[i])
  {
    seq(|xs|, i requires 0 <= i < |xs| => Str(xs[i]))
  }

  /** A list of strings back from its values; None if an element is not
      a string. */
  function Strings(vs: seq<Value>): (r: Option<seq<string>>)
    ensures r.Some? ==> |r.value| == |vs| && forall i :: 0 <= i < |vs| ==> vs[i] == Str(r.value[i])
  {
    if vs == [] then Some([])
    else if !vs[0].Str? then None
    else match Strings(vs[1..])
      case None => None
      case Some(rest) => Some([vs[0].s] + rest)
  }

  lemma {:induction false} StringsOfStrValues(xs: seq<string>)
    ensures Strings(StrValues(xs)) == Some(xs)
  {
    if xs != [] {
      assert StrValues(xs)[1..] == StrValues(xs[1..]);
      StringsOfStrValues(xs[1..]);
      assert [xs[0]] + xs[1..] == xs;
    }
  }

  /** The value the mapping form holds under one key. */
  function FieldValue(p: ProgressFile, c: IsoCodec, f: Field): Value {
    match f
    case RunIdKey => Str(p.runId)
    case AgentKey => Str(p.agent)
    case ProjectKey => Str(p.project)
    case StartedAtKey => Str(c.format(p.startedAt))
    case StatusKey => Str(StatusValue(p.status))
    case HeartbeatKey => Str(c.format(p.lastHeartbeat))
    case PhaseKey => Str(p.phase)
    case MessagesKey => Num(p.messagesProcessed)
    case RemainingKey => Str(p.estimatedRemaining)
    case ErrorKey => Str(p.error)
    case SummaryKey => Str(p.resultSummary)
    case ArtifactsKey => List(StrValues(p.artifactsCreated))
  }

  /** `_progress_to_dict`: the record as a mapping, times formatted and
      the status as its string value. */
  function ToDict(p: ProgressFile, c: IsoCodec): (r: Doc)
    ensures forall f :: f in r && r[f] == FieldValue(p, c, f)
    ensures StartedAtKey in r && HeartbeatKey in r && StatusKey in r && ArtifactsKey in r
    ensures r[StartedAtKey] == Str(c.format(p.startedAt)) && r[HeartbeatKey] == Str(c.format(p.lastHeartbeat))
    ensures r[StatusKey] == Str(StatusValue(p.status))
    ensures r[ArtifactsKey] == List(StrValues(p.artifactsCreated))
  {
    var r := map[
      RunIdKey := Str(p.runId),
      AgentKey := Str(p.agent),
      ProjectKey := Str(p.project),
      StartedAtKey := Str(c.format(p.startedAt)),
      StatusKey := Str(StatusValue(p.status)),
      HeartbeatKey := Str(c.format(p.lastHeartbeat)),
      PhaseKey := Str(p.phase),
      MessagesKey := Num(p.messagesProcessed),
      RemainingKey := Str(p.estimatedRemaining),
      ErrorKey := Str(p.error),
      SummaryKey := Str(p.resultSummary),
      ArtifactsKey := List(StrValues(p.artifactsCreated))];
    FieldsOfMap(p, c, r);
    r
  }

  /** The mapping literal of `_progress_to_dict` holds every key, with its
      field's value. */
  lemma FieldsOfMap(p: ProgressFile, c: IsoCodec, r: Doc)
    requires r == map[
      RunIdKey := Str(p.runId),
      AgentKey := Str(p.agent),
      ProjectKey := Str(p.project),
      StartedAtKey := Str(c.format(p.startedAt)),
      StatusKey := Str(StatusValue(p.status)),
      HeartbeatKey := Str(c.format(p.lastHeartbeat)),
      PhaseKey := Str(p.phase),
      MessagesKey := Num(p.messagesProcessed),
      RemainingKey := Str(p.estimatedRemaining),
      ErrorKey := Str(p.error),
      SummaryKey := Str(p.resultSummary),
      ArtifactsKey := List(StrValues(p.artifactsCreated))]
    ensures forall f :: f in r && r[f] == FieldValue(p, c, f)
  {
    forall f ensures f in r && r[f] == FieldValue(p, c, f) {
      match f {
        case RunIdKey => case AgentKey => case ProjectKey => case StartedAtKey =>
        case StatusKey => case HeartbeatKey => case PhaseKey => case MessagesKey =>
        case RemainingKey => case ErrorKey => case SummaryKey => case ArtifactsKey =>
      }
    }
  }

  /** `data[key]` of a string field. */
  function Required(d: Doc, f: Field): Option<string> {
    if f in d && d[f].Str? then Some(d[f].s) else None
  }

  /** `data.get(key, '')` of a string field. */
  function OptionalStr(d: Doc, f: Field): Option<string> {
    if f !in d then Some("") else if d[f].Str? then Some(d[f].s) else None
  }

  /** `data.get(key, 0)` of a count. */
  function OptionalNum(d: Doc, f: Field): Option<int> {
    if f !in d then Some(0) else if d[f].Num? then Some(d[f].n) else None
  }

  /** `data.get(key, [])` of a list of strings. */
  function OptionalList(d: Doc, f: Field): Option<seq<string>> {
    if f !in d then Some([]) else if d[f].List? then Strings(d[f].items) else None
  }

  /** A time field: present, a string, and ISO-parseable. */
  function RequiredTime(d: Doc, f: Field, c: IsoCodec): Option<int> {
    match Required(d, f)
    case None => None
    case Some(s) => c.parse(s)
  }

  /** Every field reads without a KeyError or ValueError. */
  predicate Decodable(d: Doc, c: IsoCodec) {
    Required(d, RunIdKey).Some? && Required(d, AgentKey).Some? && Required(d, ProjectKey).Some? &&
    RequiredTime(d, StartedAtKey, c).Some? &&
    Required(d, StatusKey).Some? && ParseStatus(Required(d, StatusKey).value).Some? &&
    RequiredTime(d, HeartbeatKey, c).Some? &&
    OptionalStr(d, PhaseKey).Some? && OptionalNum(d, MessagesKey).Some? &&
    OptionalStr(d, RemainingKey).Some? && OptionalStr(d, ErrorKey).Some? &&
    OptionalStr(d, SummaryKey).Some? && OptionalList(d, ArtifactsKey).Some?
  }

  /** `_dict_to_progress`: None where Python raises KeyError or ValueError;
      optional fields take their defaults. */
  function FromDict(d: Doc, c: IsoCodec): (r: Option<ProgressFile>)
    ensures r.Some? <==> Decodable(d, c)
    ensures r.Some? ==> d[RunIdKey] == Str(r.value.runId) && d[StatusKey] == Str(StatusValue(r.value.status))
    ensures r.Some? ==>
      (PhaseKey !in d ==> r.value.phase == "") &&
      (MessagesKey !in d ==> r.value.messagesProcessed == 0) &&
      (ArtifactsKey !in d ==> r.value.artifactsCreated == [])
  {
    if !Decodable(d, c) then None
    else Some(ProgressFile(
      Required(d, RunIdKey).value,
      Required(d, AgentKey).value,
      Required(d, ProjectKey).value,
      RequiredTime(d, StartedAtKey, c).value,
      ParseStatus(Required(d, StatusKey).value).value,
      RequiredTime(d, HeartbeatKey, c).value,
      OptionalStr(d, PhaseKey).value,
      OptionalNum(d, MessagesKey).value,
      OptionalStr(d, RemainingKey).value,
      OptionalStr(d, ErrorKey).value,
      OptionalStr(d, SummaryKey).value,
      OptionalList(d, ArtifactsKey).value))
  }

  /** A time that survives formatting and parsing. */
  predicate TimeKept(c: IsoCodec, t: int) {
    c.parse(c.format(t)) == Some(t)
  }

  /** The mapping form reads back as the same record. */
  lemma DictRoundTrip(p: ProgressFile, c: IsoCodec)
    requires TimeKept(c, p.startedAt) && TimeKept(c, p.lastHeartbeat)
    ensures FromDict(ToDict(p, c), c) == Some(p)
  {
    StringsOfStrValues(p.artifactsCreated);
  }

  // ---------------------------------------------------------------------
  // Reading and writing

  /** A progress file on disk: its loaded mapping, a document that is not
      a mapping, or a YAML error. */
  datatype YamlFile = Yaml(doc: Doc) | NotMapping | BadYaml

  /** `read_progress`: None for a missing file and for an invalid one. */
  function ReadProgress(file: Option<YamlFile>, c: IsoCodec): (r: Option<ProgressFile>)
    ensures file.None? ==> r.None?
    ensures r.Some? ==> file.Some? && file.value.Yaml? && FromDict(file.value.doc, c) == r
  {
    match file
    case Some(Yaml(d)) => FromDict(d, c)
    case _ => None
  }

  /** `write_progress`: the path written and the document written there. */
  function WriteProgress(project: string, p: ProgressFile, c: IsoCodec): (r: (string, YamlFile))
    ensures r.0 == ProgressPath(project, p.runId)
    ensures r.1.Yaml? && StatusKey in r.1.doc && r.1.doc[StatusKey] == Str(StatusValue(p.status))
  {
    (ProgressPath(project, p.runId), Yaml(ToDict(p, c)))
  }

  /** Reading back what was written gives the record. */
  lemma WriteReadRoundTrip(project: string, p: ProgressFile, c: IsoCodec)
    requires TimeKept(c, p.startedAt) && TimeKept(c, p.lastHeartbeat)
    ensures ReadProgress(Some(WriteProgress(project, p, c).1), c) == Some(p)
  {
    DictRoundTrip(p, c);
  }

  /** `list_progress` / `list_archived_progress`: the records of the
      directory's files that read, in listing order, skipping invalid
      ones; an absent directory lists nothing. */
  function ListProgress(dir: Option<seq<YamlFile>>, c: IsoCodec): (r: seq<ProgressFile>)
    ensures dir.None? ==> r == []
    ensures dir.Some? ==> |r| <= |dir.value|
    ensures forall p :: p in r ==> exists f :: f in dir.value && ReadProgress(Some(f), c) == Some(p)
    decreases if dir.Some? then |dir.value| else 0
  {
    if dir.None? || dir.value == [] then []
    else
      var rest := ListProgress(Some(dir.value[1..]), c);
      assert forall f :: f in dir.value[1..] ==> f in dir.value;
      match ReadProgress(Some(dir.value[0]), c)
      case None => rest
      case Some(p) => [p] + rest
  }

  /** Every valid file is listed. */
  lemma {:induction false} ListedIffValid(files: seq<YamlFile>, c: IsoCodec, f: YamlFile)
    requires f in files && ReadProgress(Some(f), c).Some?
    ensures ReadProgress(Some(f), c).value in ListProgress(Some(files), c)
    decreases |files|
  {
    if files[0] != f {
      ListedIffValid(files[1..], c, f);
    }
  }

  // ---------------------------------------------------------------------
  // Updates

  /** What an update yields: no file to update, the updated record, or a
      Python exception (an invalid status string or a field that no longer
      decodes). */
  datatype UpdateOutcome = NoFile | Updated(p: ProgressFile) | UpdateRaised

  /** `update_progress(project, run_id, **updates)` on the record read
      from the file: the supplied keys are written over the mapping form
      and the result read back. */
  function UpdateProgress(current: Option<ProgressFile>, updates: Doc, c: IsoCodec): (r: UpdateOutcome)
    ensures current.None? <==> r.NoFile?
    ensures (current.Some? && StatusKey in updates && updates[StatusKey].Str? &&
      ParseStatus(updates[StatusKey].s).None?) ==> r.UpdateRaised?
    ensures r.Updated? ==> Some(r.p) == FromDict(ToDict(current.value, c) + updates, c)
  {
    if current.None? then NoFile
    else if StatusKey in updates && updates[StatusKey].Str? && ParseStatus(updates[StatusKey].s).None? then UpdateRaised
    else match FromDict(ToDict(current.value, c) + updates, c)
      case None => UpdateRaised
      case Some(q) => Updated(q)
  }

  /** Fields whose key was not supplied keep their values. */
  lemma UpdateKeepsUnsuppliedFields(p: ProgressFile, updates: Doc, c: IsoCodec)
    requires TimeKept(c, p.startedAt) && TimeKept(c, p.lastHeartbeat)
    requires UpdateProgress(Some(p), updates, c).Updated?
    ensures var q := UpdateProgress(Some(p), updates, c).p;
      (RunIdKey !in updates ==> q.runId == p.runId) &&
      (AgentKey !in updates ==> q.agent == p.agent) &&
      (ProjectKey !in updates ==> q.project == p.project) &&
      (StartedAtKey !in updates ==> q.startedAt == p.startedAt) &&
      (StatusKey !in updates ==> q.status == p.status) &&
      (HeartbeatKey !in updates ==> q.lastHeartbeat == p.lastHeartbeat) &&
      (PhaseKey !in updates ==> q.phase == p.phase) &&
      (MessagesKey !in updates ==> q.messagesProcessed == p.messagesProcessed) &&
      (RemainingKey !in updates ==> q.estimatedRemaining == p.estimatedRemaining) &&
      (ErrorKey !in updates ==> q.error == p.error) &&
      (SummaryKey !in updates ==> q.resultSummary == p.resultSummary) &&
      (ArtifactsKey !in updates ==> q.artifactsCreated == p.artifactsCreated)
  {
    KeepsUnsuppliedHeader(p, updates, c);
    KeepsUnsuppliedState(p, updates, c);
  }

  /** The identifying fields, the status and the times keep their values
      when not supplied. */
  lemma KeepsUnsuppliedHeader(p: ProgressFile, updates: Doc, c: IsoCodec)
    requires TimeKept(c, p.startedAt) && TimeKept(c, p.lastHeartbeat)
    requires UpdateProgress(Some(p), updates, c).Updated?
    ensures var q := UpdateProgress(Some(p), updates, c).p;
      (RunIdKey !in updates ==> q.runId == p.runId) &&
      (AgentKey !in updates ==> q.agent == p.agent) &&
      (ProjectKey !in updates ==> q.project == p.project) &&
      (StartedAtKey !in updates ==> q.startedAt == p.startedAt) &&
      (StatusKey !in updates ==> q.status == p.status) &&
      (HeartbeatKey !in updates ==> q.lastHeartbeat == p.lastHeartbeat)
  {
  }

  /** The phase, counts, texts and artifacts keep their values when not
      supplied. */
  lemma KeepsUnsuppliedState(p: ProgressFile, updates: Doc, c: IsoCodec)
    requires UpdateProgress(Some(p), updates, c).Updated?
    ensures var q := UpdateProgress(Some(p), updates, c).p;
      (PhaseKey !in updates ==> q.phase == p.phase) &&
      (MessagesKey !in updates ==> q.messagesProcessed == p.messagesProcessed) &&
      (RemainingKey !in updates ==> q.estimatedRemaining == p.estimatedRemaining) &&
      (ErrorKey !in updates ==> q.error == p.error) &&
      (SummaryKey !in updates ==> q.resultSummary == p.resultSummary) &&
      (ArtifactsKey !in updates ==> q.artifactsCreated == p.artifactsCreated)
  {
    StringsOfStrValues(p.artifactsCreated);
  }

  /** A supplied status string becomes the enum; supplied text fields,
      counts and times are taken as given. */
  lemma UpdateAppliesSuppliedFields(p: ProgressFile, updates: Doc, c: IsoCodec)
    requires UpdateProgress(Some(p), updates, c).Updated?
    ensures var q := UpdateProgress(Some(p), updates, c).p;
      (StatusKey in updates ==> updates[StatusKey] == Str(StatusValue(q.status))) &&
      (PhaseKey in updates ==> updates[PhaseKey] == Str(q.phase)) &&
      (ErrorKey in updates ==> updates[ErrorKey] == Str(q.error)) &&
      (SummaryKey in updates ==> updates[SummaryKey] == Str(q.resultSummary)) &&
      (MessagesKey in updates ==> updates[MessagesKey] == Num(q.messagesProcessed)) &&
      (HeartbeatKey in updates ==> updates[HeartbeatKey].Str? && c.parse(updates[HeartbeatKey].s) == Some(q.lastHeartbeat))
  {
  }

  /** The record a mark writes: only the supplied fields replaced. */
  lemma ReplacedFields(p: ProgressFile, updates: Doc, q: ProgressFile, c: IsoCodec)
    requires TimeKept(c, q.startedAt) && TimeKept(c, q.lastHeartbeat)
    requires forall f :: f in updates ==> updates[f] == FieldValue(q, c, f)
    requires forall f :: f !in updates ==> FieldValue(p, c, f) == FieldValue(q, c, f)
    ensures UpdateProgress(Some(p), updates, c) == Updated(q)
  {
    var m := ToDict(p, c) + updates;
    assert m == ToDict(q, c) by {
      assert forall f :: f in m && m[f] == ToDict(q, c)[f];
    }
    DictRoundTrip(q, c);
    assert ParseStatus(StatusValue(q.status)) == Some(q.status);
  }

  /** `mark_completed`: status COMPLETED, a fresh heartbeat and the
      summary; the artifacts only when given. */
  function MarkCompleted(current: Option<ProgressFile>, summary: string, artifacts: Option<seq<string>>, now: int, c: IsoCodec): (r: UpdateOutcome)
    ensures current.None? ==> r == NoFile
    ensures current.Some? && TimeKept(c, now) && TimeKept(c, current.value.startedAt) ==>
      r == Updated(current.value.(status := Completed, lastHeartbeat := now, resultSummary := summary,
        artifactsCreated := if artifacts.Some? then artifacts.value else current.value.artifactsCreated))
  {
    var updates := map[StatusKey := Str("completed"), HeartbeatKey := Str(c.format(now)), SummaryKey := Str(summary)] +
      (if artifacts.Some? then map[ArtifactsKey := List(StrValues(artifacts.value))] else map[]);
    MarkCompletedFields(current, summary, artifacts, now, c, updates);
    UpdateProgress(current, updates, c)
  }

  lemma MarkCompletedFields(current: Option<ProgressFile>, summary: string, artifacts: Option<seq<string>>, now: int, c: IsoCodec, updates: Doc)
    requires updates == map[StatusKey := Str("completed"), HeartbeatKey := Str(c.format(now)), SummaryKey := Str(summary)] +
      (if artifacts.Some? then map[ArtifactsKey := List(StrValues(artifacts.value))] else map[])
    ensures current.Some? && TimeKept(c, now) && TimeKept(c, current.value.startedAt) ==>
      UpdateProgress(current, updates, c) == Updated(current.value.(status := Completed, lastHeartbeat := now, resultSummary := summary,
        artifactsCreated := if artifacts.Some? then artifacts.value else current.value.artifactsCreated))
  {
    if current.Some? && TimeKept(c, now) && TimeKept(c, current.value.startedAt) {
      var p := current.value;
      assert StatusValue(Completed) == "completed";
      if artifacts.Some? {
        var q := p.(status := Completed, lastHeartbeat := now, resultSummary := summary,
          artifactsCreated := artifacts.value);
        ReplacedFields(p, updates, q, c);
      } else {
        var q := p.(status := Completed, lastHeartbeat := now, resultSummary := summary);
        ReplacedFields(p, updates, q, c);
      }
    }
  }

  /** `mark_failed`: status FAILED, a fresh heartbeat and the error. */
  function MarkFailed(current: Option<ProgressFile>, error: string, now: int, c: IsoCodec): (r: UpdateOutcome)
    ensures current.None? ==> r == NoFile
    ensures current.Some? && TimeKept(c, now) && TimeKept(c, current.value.startedAt) ==>
      r == Updated(current.value.(status := Failed, lastHeartbeat := now, error := error))
  {
    var updates := map[StatusKey := Str("failed"), HeartbeatKey := Str(c.format(now)), ErrorKey := Str(error)];
    MarkFailedFields(current, error, now, c, updates);
    UpdateProgress(current, updates, c)
  }

  lemma MarkFailedFields(current: Option<ProgressFile>, error: string, now: int, c: IsoCodec, updates: Doc)
    requires updates == map[StatusKey := Str("failed"), HeartbeatKey := Str(c.format(now)), ErrorKey := Str(error)]
    ensures current.Some? && TimeKept(c, now) && TimeKept(c, current.value.startedAt) ==>
      UpdateProgress(current, updates, c) == Updated(current.value.(status := Failed, lastHeartbeat := now, error := error))
  {
    if current.Some? && TimeKept(c, now) && TimeKept(c, current.value.startedAt) {
      var p := current.value;
      var q := p.(status := Failed, lastHeartbeat := now, error := error);
      assert StatusValue(Failed) == "failed";
      ReplacedFields(p, updates, q, c);
    }
  }

  /** `update_heartbeat`: a fresh heartbeat, and the phase and message
      count when given. */
  function UpdateHeartbeat(current: Option<ProgressFile>, phase: Option<string>, messages: Option<int>, now: int, c: IsoCodec): (r: UpdateOutcome)
    ensures current.None? ==> r == NoFile
    ensures current.Some? && TimeKept(c, now) && TimeKept(c, current.value.startedAt) ==>
      r == Updated(current.value.(lastHeartbeat := now,
        phase := if phase.Some? then phase.value else current.value.phase,
        messagesProcessed := if messages.Some? then messages.value else current.value.messagesProcessed))
  {
    var updates := map[HeartbeatKey := Str(c.format(now))] +
      (if phase.Some? then map[PhaseKey := Str(phase.value)] else map[]) +
      (if messages.Some? then map[MessagesKey := Num(messages.value)] else map[]);
    HeartbeatFields(current, phase, messages, now, c, updates);
    UpdateProgress(current, updates, c)
  }

  lemma HeartbeatFields(current: Option<ProgressFile>, phase: Option<string>, messages: Option<int>, now: int, c: IsoCodec, updates: Doc)
    requires updates == map[HeartbeatKey := Str(c.format(now))] +
      (if phase.Some? then map[PhaseKey := Str(phase.value)] else map[]) +
      (if messages.Some? then map[MessagesKey := Num(messages.value)] else map[])
    ensures current.Some? && TimeKept(c, now) && TimeKept(c, current.value.startedAt) ==>
      UpdateProgress(current, updates, c) == Updated(current.value.(lastHeartbeat := now,
        phase := if phase.Some? then phase.value else current.value.phase,
        messagesProcessed := if messages.Some? then messages.value else current.value.messagesProcessed))
  {
    if current.Some? && TimeKept(c, now) && TimeKept(c, current.value.startedAt) {
      var p := current.value;
      var q := p.(lastHeartbeat := now,
        phase := if phase.Some? then phase.value else p.phase,
        messagesProcessed := if messages.Some? then messages.value else p.messagesProcessed);
      ReplacedFields(p, updates, q, c);
    }
  }

  // ---------------------------------------------------------------------
  // Staleness, cleanup, archive

  /** `is_stale(progress, threshold_minutes)` at time `now`: strictly more
      than the threshold has passed since the last heartbeat. */
  predicate IsStale(p: ProgressFile, thresholdMinutes: int, now: int) {
    now - p.lastHeartbeat > thresholdMinutes * 60
  }

  /** Exactly the threshold is not yet stale; one second more is. */
  lemma StaleBoundary(p: ProgressFile, thresholdMinutes: int)
    ensures !IsStale(p, thresholdMinutes, p.lastHeartbeat + thresholdMinutes * 60)
    ensures IsStale(p, thresholdMinutes, p.lastHeartbeat + thresholdMinutes * 60 + 1)
  {
  }

  /** Once stale, a record stays stale until its heartbeat moves. */
  lemma StaleStaysStale(p: ProgressFile, thresholdMinutes: int, now: int, later: int)
    requires IsStale(p, thresholdMinutes, now) && now <= later
    ensures IsStale(p, thresholdMinutes, later)
  {
  }

  /** A fresh heartbeat makes a record not stale for any non-negative
      threshold. */
  lemma HeartbeatClearsStale(p: ProgressFile, thresholdMinutes: int, now: int, c: IsoCodec)
    requires thresholdMinutes >= 0
    requires TimeKept(c, now) && TimeKept(c, p.startedAt)
    ensures var r := UpdateHeartbeat(Some(p), None, None, now, c);
      r.Updated? && !IsStale(r.p, thresholdMinutes, now)
  {
  }

  /** A progress directory entry: the file's stem and what reading it
      gives (None for a corrupted file). */
  datatype ProgressEntry = ProgressEntry(stem: string, record: Option<ProgressFile>)

  datatype CleanupResult = CleanupResult(deletedCount: nat, deletedRunIds: seq<string>, keptCount: nat, keptFailed: nat)

  /** A cleanup deletes corrupted files and completed records whose last
      heartbeat is before the cutoff; failed records are never deleted. */
  predicate Deletes(e: ProgressEntry, cutoff: int) {
    e.record.None? || (e.record.value.status == Completed && e.record.value.lastHeartbeat < cutoff)
  }

  /** The id reported for a deleted entry: the stem of a corrupted file,
      else the record's own run id. */
  function DeletedId(e: ProgressEntry): string {
    if e.record.None? then e.stem else e.record.value.runId
  }

  predicate IsFailedRecord(e: ProgressEntry) {
    e.record.Some? && e.record.value.status == Failed
  }

  function DeletedIds(es: seq<ProgressEntry>): (r: seq<string>)
    ensures |r| == |es|
  {
    seq(|es|, i requires 0 <= i < |es| => DeletedId(es[i]))
  }

  lemma DeletedIdsSnoc(es: seq<ProgressEntry>, e: ProgressEntry)
    ensures DeletedIds(es + [e]) == DeletedIds(es) + [DeletedId(e)]
  {
    assert forall i :: 0 <= i < |es| ==> (es + [e])[i] == es[i];
  }

  /** Reference definition: the entries a cleanup deletes, in order. */
  function DeletedEntries(files: seq<ProgressEntry>, cutoff: int): seq<ProgressEntry> {
    if files == [] then []
    else
      var last := files[|files| - 1];
      DeletedEntries(files[..|files| - 1], cutoff) + (if Deletes(last, cutoff) then [last] else [])
  }

  /** Reference definition: the entries a cleanup keeps, in order. */
  function KeptEntries(files: seq<ProgressEntry>, cutoff: int): seq<ProgressEntry> {
    if files == [] then []
    else
      var last := files[|files| - 1];
      KeptEntries(files[..|files| - 1], cutoff) + (if Deletes(last, cutoff) then [] else [last])
  }

  /** Reference count of the failed records. */
  function FailedCount(files: seq<ProgressEntry>): nat {
    if files == [] then 0
    else FailedCount(files[..|files| - 1]) + (if IsFailedRecord(files[|files| - 1]) then 1 else 0)
  }

  /** Every scanned file is either deleted or kept. */
  lemma {:induction false} DeletedPlusKept(files: seq<ProgressEntry>, cutoff: int)
    ensures |DeletedEntries(files, cutoff)| + |KeptEntries(files, cutoff)| == |files|
    decreases |files|
  {
    if files != [] {
      DeletedPlusKept(files[..|files| - 1], cutoff);
    }
  }

  /** `Deletes` at a fixed cutoff, and its complement. */
  function DeletedAt(cutoff: int): ProgressEntry -> bool {
    e => Deletes(e, cutoff)
  }

  function KeptAt(cutoff: int): ProgressEntry -> bool {
    e => !Deletes(e, cutoff)
  }

  /** The kept and deleted entries are exactly the entries that `Deletes`
      rejects and selects. */
  lemma PartitionIsFilter(files: seq<ProgressEntry>, cutoff: int)
    ensures DeletedEntries(files, cutoff) == Filter(files, DeletedAt(cutoff))
    ensures KeptEntries(files, cutoff) == Filter(files, KeptAt(cutoff))
  {
    DeletedIsFilter(files, cutoff);
    KeptIsFilter(files, cutoff);
  }

  lemma {:induction false} DeletedIsFilter(files: seq<ProgressEntry>, cutoff: int)
    ensures DeletedEntries(files, cutoff) == Filter(files, DeletedAt(cutoff))
    decreases |files|
  {
    if files != [] {
      var init := files[..|files| - 1];
      var last := files[|files| - 1];
      DeletedIsFilter(init, cutoff);
      assert files == init + [last];
      FilterSnoc(init, last, DeletedAt(cutoff));
    }
  }

  lemma {:induction false} KeptIsFilter(files: seq<ProgressEntry>, cutoff: int)
    ensures KeptEntries(files, cutoff) == Filter(files, KeptAt(cutoff))
    decreases |files|
  {
    if files != [] {
      var init := files[..|files| - 1];
      var last := files[|files| - 1];
      KeptIsFilter(init, cutoff);
      assert files == init + [last];
      FilterSnoc(init, last, KeptAt(cutoff));
    }
  }

  /** `cleanup_progress(project, max_age_hours, keep_failed)` at time
      `now`: deletes what `Deletes` selects and counts the rest as kept,
      failed records separately when they are kept on purpose.  `dir`
      lists the progress directory, None when it does not exist; the
      second result lists the files that remain. */
  method CleanupProgress(dir: Option<seq<ProgressEntry>>, now: int, maxAgeHours: int, keepFailed: bool)
    returns (r: CleanupResult, remaining: seq<ProgressEntry>)
    ensures dir.None? ==> r == CleanupResult(0, [], 0, 0) && remaining == []
    ensures dir.Some? ==>
      var cutoff := now - maxAgeHours * 3600;
      r.deletedCount + r.keptCount == |dir.value| &&
      r.deletedCount == |DeletedEntries(dir.value, cutoff)| &&
      r.deletedRunIds == DeletedIds(DeletedEntries(dir.value, cutoff)) &&
      remaining == KeptEntries(dir.value, cutoff) &&
      r.keptFailed == (if keepFailed then FailedCount(dir.value) else 0)
  {
    if dir.None? {
      return CleanupResult(0, [], 0, 0), [];
    }
    var files := dir.value;
    var cutoff := now - maxAgeHours * 3600;
    var deleted: seq<ProgressEntry> := [];
    var ids: seq<string> := [];
    var kept := 0;
    var keptFailed := 0;
    remaining := [];
    var i := 0;
    while i < |files|
      invariant 0 <= i <= |files|
      invariant deleted == DeletedEntries(files[..i], cutoff)
      invariant remaining == KeptEntries(files[..i], cutoff)
      invariant ids == DeletedIds(deleted)
      invariant kept == |remaining|
      invariant keptFailed == (if keepFailed then FailedCount(files[..i]) else 0)
    {
      var e := files[i];
      assert files[..i + 1][..i] == files[..i];
      if e.record.None? {
        DeletedIdsSnoc(deleted, e);
        deleted := deleted + [e];
        ids := ids + [e.stem];
      } else if e.record.value.status == Failed && keepFailed {
        remaining := remaining + [e];
        kept := kept + 1;
        keptFailed := keptFailed + 1;
      } else if e.record.value.status == Completed && e.record.value.lastHeartbeat < cutoff {
        DeletedIdsSnoc(deleted, e);
        deleted := deleted + [e];
        ids := ids + [e.record.value.runId];
      } else {
        remaining := remaining + [e];
        kept := kept + 1;
      }
      i := i + 1;
    }
    assert files[..i] == files;
    DeletedPlusKept(files, cutoff);
    r := CleanupResult(|deleted|, ids, kept, keptFailed);
  }

  /** A progress directory: live files and archived files, by run id. */
  datatype ProgressDirState = ProgressDirState(live: map<string, YamlFile>, archived: map<string, YamlFile>)

  /** `archive_progress(project, run_id)`: moves the run's file into the
      archive sub-directory (replacing an archived file of the same run)
      and returns its new path; None, with nothing moved, when there is no
      such file. */
  function ArchiveProgress(project: string, runId: string, d: ProgressDirState): (r: (Option<string>, ProgressDirState))
    ensures runId !in d.live ==> r == (None, d)
    ensures runId in d.live ==>
      r.0 == Some(ProgressDir(project) + "/archive/" + runId + ".yaml") &&
      runId !in r.1.live && runId in r.1.archived && r.1.archived[runId] == d.live[runId] &&
      (forall k :: k != runId ==> (k in r.1.live <==> k in d.live) && (k in r.1.archived <==> k in d.archived)) &&
      (forall k :: k != runId && k in d.live ==> r.1.live[k] == d.live[k]) &&
      (forall k :: k != runId && k in d.archived ==> r.1.archived[k] == d.archived[k])
  {
    if runId !in d.live then (None, d)
    else
      (Some(ProgressDir(project) + "/archive/" + runId + ".yaml"),
       ProgressDirState(d.live - {runId}, d.archived[runId := d.live[runId]]))
  }
}

=== FILE: prompt_analyzer.dfy ===
/** The prompt analyzer: splits an agent prompt into markdown sections,
    picks out the lines that state rules, and matches those rules against
    the enforcement configuration to estimate how much of the prompt code
    enforcement could replace. */
module PromptAnalyzer {
  import opened Common
  import opened Json
  import EnforcementCoverage

  /** `len(text) // 4`: about four characters per token. */
  function EstimateTokens(text: string): (n: nat)
    ensures 4 * n <= |text| < 4 * n + 4
  {
    |text| / 4
  }

  // ---------------------------------------------------------------------
  // Sections

  /** Number of '#' characters the line starts with. */
  function LeadingHashes(s: string): (k: nat)
    ensures k <= |s|
    ensures forall i :: 0 <= i < k ==> s[i] == '#'
    ensures k < |s| ==> s[k] != '#'
  {
    if s == [] || s[0] != '#' then 0 else 1 + LeadingHashes(s[1..])
  }

  /** Number of whitespace characters from position `i` on. */
  function SpaceRun(s: string, i: nat): (w: nat)
    requires i <= |s|
    ensures i + w <= |s|
    ensures forall j :: i <= j < i + w ==> IsSpace(s[j])
    ensures i + w < |s| ==> !IsSpace(s[i + w])
    decreases |s| - i
  {
    if i == |s| || !IsSpace(s[i]) then 0 else 1 + SpaceRun(s, i + 1)
  }

  datatype Header = Header(level: nat, name: string)

  /** `re.match(r'^(#{1,4})\s+(.+)$', line)`: one to four '#', at least one
      whitespace character, then at least one more character.  The greedy
      whitespace run gives back its last character when nothing follows
      it, so the name is then that character (stripped to ""). */
  function HeaderOf(line: string): (h: Option<Header>)
    ensures h.Some? <==> (var k := LeadingHashes(line);
                           1 <= k <= 4 && k + 1 < |line| && IsSpace(line[k]))
    ensures h.Some? ==> 1 <= h.value.level <= 4 && h.value.level == LeadingHashes(line)
  {
    var k := LeadingHashes(line);
    if k < 1 || k > 4 || k + 1 >= |line| || !IsSpace(line[k]) then None
    else
      var w := SpaceRun(line, k);
      var name := if k + w < |line| then line[k + w..] else line[|line| - 1..];
      Some(Header(k, Strip(name)))
  }

  /** A vertical tab is whitespace for `\s`, so "#\x0bTitle" is a level-1
      header named "Title". */
  lemma VerticalTabHeader()
    ensures HeaderOf(['#', 11 as char] + "Title") == Some(Header(1, "Title"))
  {
    var line := ['#', 11 as char] + "Title";
    assert LeadingHashes(line[1..]) == 0;
    assert SpaceRun(line, 1) == 1 by {
      assert SpaceRun(line, 2) == 0;
    }
    assert line[2..] == "Title";
  }

  predicate IsHeader(line: string) {
    HeaderOf(line).Some?
  }

  /** A section being collected: its name, its header level (0 for the
      preamble) and its lines, the header line first. */
  datatype Group = Group(name: string, level: nat, lines: seq<string>)

  function AllLines(gs: seq<Group>): seq<string> {
    if gs == [] then [] else gs[0].lines + AllLines(gs[1..])
  }

  lemma AllLinesCons(g: Group, gs: seq<Group>)
    ensures AllLines([g] + gs) == g.lines + AllLines(gs)
  {
    assert ([g] + gs)[1..] == gs;
  }

  /** The loop of `extract_sections`: a header line closes the current
      section (kept only when it has lines) and opens a new one; any other
      line joins the current section. */
  function Walk(lines: seq<string>, cur: Group): (r: seq<Group>)
    ensures AllLines(r) == cur.lines + lines
    ensures forall i :: 0 <= i < |r| ==> r[i].lines != []
    ensures forall i :: 0 < i < |r| ==> 1 <= r[i].level <= 4
    ensures r != [] && (cur.lines != [] || (lines != [] && !IsHeader(lines[0]))) ==>
              r[0].name == cur.name && r[0].level == cur.level
    ensures r != [] && cur.lines == [] && lines != [] && IsHeader(lines[0]) ==> 1 <= r[0].level <= 4
    decreases |lines|
  {
    if lines == [] then
      if cur.lines != [] then [cur] else []
    else
      match HeaderOf(lines[0])
      case Some(h) =>
        var rest := Walk(lines[1..], Group(h.name, h.level, [lines[0]]));
        assert lines == [lines[0]] + lines[1..];
        if cur.lines != [] then
          AllLinesCons(cur, rest);
          [cur] + rest
        else rest
      case None =>
        var r := Walk(lines[1..], cur.(lines := cur.lines + [lines[0]]));
        assert cur.lines + lines == (cur.lines + [lines[0]]) + lines[1..];
        r
  }

  datatype Section = Section(name: string, level: nat, lines: nat, tokens: nat)

  function SectionOf(g: Group): Section {
    Section(g.name, g.level, |g.lines|, EstimateTokens(Join(g.lines, "\n")))
  }

  function LineCount(ss: seq<Section>): nat {
    if ss == [] then 0 else ss[0].lines + LineCount(ss[1..])
  }

  const Preamble: string := "_preamble"

  /** `extract_sections(prompt)`: every line of the prompt falls in exactly
      one section, in order, so the line counts add up to the number of
      lines; the preamble appears, first, only when the prompt does not
      open with a header. */
  function ExtractSections(prompt: string): (r: seq<Section>)
    ensures var gs := Walk(Split(prompt, '\n'), Group(Preamble, 0, []));
            && |r| == |gs|
            && AllLines(gs) == Split(prompt, '\n')
            && (forall i :: 0 <= i < |r| ==> r[i] == SectionOf(gs[i]))
    ensures LineCount(r) == |Split(prompt, '\n')|
    ensures forall i :: 0 <= i < |r| ==> r[i].lines >= 1
    ensures (exists i :: 0 <= i < |r| && r[i].level == 0) <==> !IsHeader(Split(prompt, '\n')[0])
    ensures forall i :: 0 < i < |r| ==> r[i].level != 0
    ensures r != [] && r[0].level == 0 ==> r[0].name == Preamble
  {
    var gs := Walk(Split(prompt, '\n'), Group(Preamble, 0, []));
    var r := seq(|gs|, i requires 0 <= i < |gs| => SectionOf(gs[i]));
    SectionLinesAddUp(gs, r);
    r
  }

  lemma {:induction false} SectionLinesAddUp(gs: seq<Group>, r: seq<Section>)
    requires |r| == |gs|
    requires forall i :: 0 <= i < |r| ==> r[i] == SectionOf(gs[i])
    ensures LineCount(r) == |AllLines(gs)|
  {
    if gs != [] {
      SectionLinesAddUp(gs[1..], r[1..]);
    }
  }

  // ---------------------------------------------------------------------
  // Rules mentioned in a prompt

  const EnforcementKeywords: seq<string> := [
    "git-reviewer", "pre-commit", "commit", "review",
    "web access", "http", "requests", "scraping",
    "Task tool", "subagent", "delegation",
    "feature_tracker", "feature_list", "one feature",
    "worktree", "parallel",
    "validation", "YAML"]

  /** Some enforcement keyword occurs in the line, ignoring case. */
  predicate MentionsKeyword(line: string) {
    exists i :: 0 <= i < |EnforcementKeywords| && Contains(Lower(line), Lower(EnforcementKeywords[i]))
  }

  /** What a line contributes: its stripped text when it matches a rule
      pattern, or when it mentions a keyword and is shorter than 200
      characters; `rulePattern` is the search for any of the four rule
      patterns, ignoring case. */
  predicate Qualifies(line: string, rulePattern: string -> bool) {
    var t := Strip(line);
    t != [] && (rulePattern(line) || (MentionsKeyword(line) && |t| < 200))
  }

  /** One iteration of the line loop of `identify_rules_in_prompt`. */
  function RuleStep(line: string, acc: seq<string>, rulePattern: string -> bool): (r: seq<string>)
    requires NoDups(acc) && "" !in acc
    ensures NoDups(r) && "" !in r
    ensures forall t :: t in r <==> t in acc || (t == Strip(line) && Qualifies(line, rulePattern))
  {
    var t := Strip(line);
    var a := if rulePattern(line) && t != "" && t !in acc then acc + [t] else acc;
    if MentionsKeyword(line) && t != "" && t !in a && |t| < 200 then a + [t] else a
  }

  function CollectRules(lines: seq<string>, acc: seq<string>, rulePattern: string -> bool): (r: seq<string>)
    requires NoDups(acc) && "" !in acc
    ensures NoDups(r) && "" !in r
    ensures forall t :: t in r <==> t in acc || exists i :: 0 <= i < |lines| && t == Strip(lines[i]) && Qualifies(lines[i], rulePattern)
    decreases |lines|
  {
    if lines == [] then acc
    else
      var r := CollectRules(lines[1..], RuleStep(lines[0], acc, rulePattern), rulePattern);
      assert forall i :: 1 <= i < |lines| ==> lines[i] == lines[1..][i - 1];
      r
  }

  /** `identify_rules_in_prompt(prompt)`: the stripped qualifying lines,
      each once, none empty. */
  function IdentifyRules(prompt: string, rulePattern: string -> bool): (r: seq<string>)
    ensures NoDups(r)
    ensures "" !in r
    ensures forall t :: t in r <==>
              exists line :: line in Split(prompt, '\n') && t == Strip(line) && Qualifies(line, rulePattern)
  {
    var lines := Split(prompt, '\n');
    var r := CollectRules(lines, [], rulePattern);
    assert forall line :: line in lines <==> exists i :: 0 <= i < |lines| && lines[i] == line;
    r
  }

  // ---------------------------------------------------------------------
  // Matching rules to enforcement mechanisms

  datatype Mechanism = Mechanism(description: Value, mechanism: Value, status: Value, section: string)

  /** `item.get("mechanism") or item.get("target_mechanism", "")`. */
  function MechanismName(item: seq<(string, Value)>): (v: Value)
    ensures Truthy(Field(item, "mechanism", Null)) ==> v == Field(item, "mechanism", Null)
    ensures !Truthy(Field(item, "mechanism", Null)) ==> v == Get(item, "target_mechanism").GetOr(Str(""))
  {
    var m := Field(item, "mechanism", Null);
    if Truthy(m) then m else Get(item, "target_mechanism").GetOr(Str(""))
  }

  function MechanismOf(l: EnforcementCoverage.Listed): Mechanism {
    Mechanism(Get(l.rule, "description").GetOr(Str("")), MechanismName(l.rule),
              EnforcementCoverage.StatusOf(l.rule), l.section)
  }

  /** Item `i` carries `id` and no later item does. */
  predicate LastAt(items: seq<EnforcementCoverage.Listed>, id: Value, i: int) {
    0 <= i < |items| && Field(items[i].rule, "id", Null) == id
    && forall j :: i < j < |items| ==> Field(items[j].rule, "id", Null) != id
  }

  /** The last item with `id` keeps that place when an item without it is
      appended. */
  lemma LastAtSnoc(init: seq<EnforcementCoverage.Listed>, last: EnforcementCoverage.Listed, id: Value, i: int)
    requires LastAt(init, id, i)
    requires Field(last.rule, "id", Null) != id
    ensures LastAt(init + [last], id, i)
  {
    var items := init + [last];
    forall j | i < j < |items| ensures Field(items[j].rule, "id", Null) != id {
      if j < |init| {
        assert items[j] == init[j];
      }
    }
  }

  /** `mechanisms[id]` after the build loop: the last item with that id. */
  function LastWithId(items: seq<EnforcementCoverage.Listed>, id: Value): (r: Option<Mechanism>)
    ensures r.Some? <==> exists i :: 0 <= i < |items| && Field(items[i].rule, "id", Null) == id
    ensures r.Some? ==> exists i :: LastAt(items, id, i) && r.value == MechanismOf(items[i])
    decreases |items|
  {
    if items == [] then None
    else
      var init := items[..|items| - 1];
      var last := items[|items| - 1];
      assert items == init + [last];
      if Field(last.rule, "id", Null) == id then
        assert LastAt(items, id, |items| - 1);
        Some(MechanismOf(last))
      else
        var r := LastWithId(init, id);
        assert forall i :: 0 <= i < |init| ==> init[i] == items[i];
        assert r.Some? ==> exists i :: LastAt(items, id, i) && r.value == MechanismOf(items[i]) by {
          if r.Some? {
            var i :| LastAt(init, id, i) && r.value == MechanismOf(init[i]);
            LastAtSnoc(init, last, id, i);
          }
        }
        r
  }

  /** Keywords and the enforcement ids they point at, in table order. */
  const KeywordToEnforcement: seq<(string, string)> := [
    ("git-reviewer", "git-reviewer-approval"),
    ("review", "git-reviewer-approval"),
    ("commit", "git-reviewer-approval"),
    ("logs/", "validation-no-logs"),
    ("workspaces/", "validation-no-logs"),
    ("yaml format", "validation-yaml-format"),
    ("agent yaml", "validation-agent-yaml"),
    ("web access", "web-access-policy"),
    ("http", "web-access-policy"),
    ("requests", "web-access-policy"),
    ("scraping", "web-access-policy"),
    ("Task tool", "task-tool-ban"),
    ("built-in Task", "task-tool-ban"),
    ("delegation", "mandatory-delegation"),
    ("worktree", "worktree-isolation"),
    ("feature_tracker", "worktree-isolation")]

  /** Table entry `e` matches the rule: its keyword occurs in the rule,
      ignoring case, and its enforcement id is configured. */
  predicate EntryMatches(rule: string, items: seq<EnforcementCoverage.Listed>, e: (string, string)) {
    Contains(Lower(rule), Lower(e.0)) && LastWithId(items, Str(e.1)).Some?
  }

  /** The first table position at or after `j` whose entry matches, or -1;
      `hits[i]` says whether entry `i` matches. */
  function FirstMatch(hits: seq<bool>, j: nat): (k: int)
    requires j <= |hits|
    ensures k == -1 || j <= k < |hits|
    ensures k >= 0 ==> hits[k]
    ensures forall i :: j <= i < |hits| && (k < 0 || i < k) ==> !hits[i]
    decreases |hits| - j
  {
    if j == |hits| then -1
    else if hits[j] then j
    else FirstMatch(hits, j + 1)
  }

  /** Which entries of `table` match the rule, in table order. */
  function Hits(rule: string, items: seq<EnforcementCoverage.Listed>, table: seq<(string, string)>): (hits: seq<bool>)
    ensures |hits| == |table|
    ensures forall i :: 0 <= i < |hits| ==> (hits[i] <==> EntryMatches(rule, items, table[i]))
  {
    seq(|table|, i requires 0 <= i < |table| => EntryMatches(rule, items, table[i]))
  }

  /** `rule[:100] + "..." if len(rule) > 100 else rule`. */
  function Shorten(rule: string): (r: string)
    ensures |rule| <= 100 ==> r == rule
    ensures |rule| > 100 ==> |r| == 103 && IsPrefix(r[..100], rule)
  {
    if |rule| > 100 then rule[..100] + "..." else rule
  }

  datatype CodeEnforced = CodeEnforced(rule: string, enforcementId: string, mechanism: Value, status: Value)
  datatype Placement = ToCode(entry: CodeEnforced) | ToPrompt(text: string)

  /** Where one rule goes under keyword table `table`: code-enforced
      through the first matching entry, else prompt-only. */
  function PlaceIn(rule: string, items: seq<EnforcementCoverage.Listed>, table: seq<(string, string)>): (p: Placement)
    ensures p.ToCode? <==> exists j :: 0 <= j < |table| && EntryMatches(rule, items, table[j])
    ensures p.ToCode? ==> exists j :: 0 <= j < |table| && EntryMatches(rule, items, table[j])
                            && p.entry.enforcementId == table[j].1
                            && forall i :: 0 <= i < j ==> !EntryMatches(rule, items, table[i])
    ensures p.ToCode? ==> p.entry.rule == Shorten(rule)
    ensures p.ToPrompt? ==> p.text == Shorten(rule)
  {
    var hits := Hits(rule, items, table);
    var k := FirstMatch(hits, 0);
    if k < 0 then
      assert forall j :: 0 <= j < |table| ==> !EntryMatches(rule, items, table[j]) by {
        forall j | 0 <= j < |table| ensures !EntryMatches(rule, items, table[j]) {
          assert !hits[j];
        }
      }
      ToPrompt(Shorten(rule))
    else
      assert hits[k];
      var id := table[k].1;
      var m := LastWithId(items, Str(id)).value;
      ToCode(CodeEnforced(Shorten(rule), id, m.mechanism, m.status))
  }

  /** Where one rule goes under the keyword table of the analyzer. */
  function Place(rule: string, items: seq<EnforcementCoverage.Listed>): Placement {
    PlaceIn(rule, items, KeywordToEnforcement)
  }

  datatype Matching = Matching(codeEnforced: seq<CodeEnforced>, promptOnly: seq<string>)

  predicate IsCode(p: Placement) {
    p.ToCode?
  }

  predicate IsPrompt(p: Placement) {
    p.ToPrompt?
  }

  function Split2(ps: seq<Placement>): (m: Matching)
    ensures |m.codeEnforced| == CountWhere(ps, IsCode)
    ensures |m.promptOnly| == CountWhere(ps, IsPrompt)
    ensures forall e :: e in m.codeEnforced <==> ToCode(e) in ps
    ensures forall t :: t in m.promptOnly <==> ToPrompt(t) in ps
  {
    if ps == [] then Matching([], [])
    else
      var rest := Split2(ps[1..]);
      assert forall p :: p in ps <==> p == ps[0] || p in ps[1..];
      match ps[0]
      case ToCode(e) => Matching([e] + rest.codeEnforced, rest.promptOnly)
      case ToPrompt(t) => Matching(rest.codeEnforced, [t] + rest.promptOnly)
  }

  /** An item usable as `mechanisms[item["id"]]`: it has an id, and the id
      can be a dict key. */
  predicate KeyedItem(l: EnforcementCoverage.Listed) {
    var id := Get(l.rule, "id");
    id.Some? && Hashable(id.value)
  }

  /** The configured items, each required to carry a hashable id
      (`item["id"]` raises otherwise, as does using a list or mapping as a
      key). */
  function ConfiguredItems(enforcement: seq<(string, Value)>): (r: Option<seq<EnforcementCoverage.Listed>>)
    ensures r.Some? ==> forall l :: l in r.value ==> KeyedItem(l)
    ensures r.Some? <==> EnforcementCoverage.AllListed(enforcement).Some?
                         && forall l :: l in EnforcementCoverage.AllListed(enforcement).value ==> KeyedItem(l)
    ensures r.Some? ==> r.value == EnforcementCoverage.AllListed(enforcement).value
  {
    match EnforcementCoverage.AllListed(enforcement)
    case None => None
    case Some(items) =>
      if forall i :: 0 <= i < |items| ==> KeyedItem(items[i]) then Some(items) else None
  }

  /** Where each rule goes, rule by rule. */
  function Placements(rules: seq<string>, items: seq<EnforcementCoverage.Listed>): (ps: seq<Placement>)
    ensures |ps| == |rules|
    ensures forall i :: 0 <= i < |rules| ==> ps[i] == Place(rules[i], items)
  {
    seq(|rules|, i requires 0 <= i < |rules| => Place(rules[i], items))
  }

  /** The placements of all rules, split into the two lists: each rule
      lands in exactly one of them. */
  function MatchItems(rules: seq<string>, items: seq<EnforcementCoverage.Listed>): (m: Matching)
    ensures |m.codeEnforced| + |m.promptOnly| == |rules|
    ensures forall e :: e in m.codeEnforced <==> ToCode(e) in Placements(rules, items)
    ensures forall t :: t in m.promptOnly <==> ToPrompt(t) in Placements(rules, items)
  {
    var ps := Placements(rules, items);
    CountComplement(ps, IsCode, IsPrompt);
    Split2(ps)
  }

  /** `match_rules_to_enforcement(rules, enforcement)`: every rule lands in
      exactly one of the two lists, in order. */
  function MatchRules(rules: seq<string>, enforcement: seq<(string, Value)>): (r: Option<Matching>)
    ensures r.Some? <==> ConfiguredItems(enforcement).Some?
    ensures r.Some? ==> r.value == MatchItems(rules, ConfiguredItems(enforcement).value)
  {
    match ConfiguredItems(enforcement)
    case None => None
    case Some(items) => Some(MatchItems(rules, items))
  }

  // ---------------------------------------------------------------------
  // Per-agent metrics

  datatype Metrics = Metrics(
    name: Value, path: string, model: Value, toolsCount: nat,
    totalLines: nat, totalTokens: nat, nonEmptyLines: nat,
    sections: seq<Section>, sectionCount: nat, largestSections: seq<Section>,
    rulesMentioned: nat, codeEnforced: seq<CodeEnforced>, promptOnly: seq<string>,
    codeEnforcedCount: nat, promptOnlyCount: nat,
    estimatedReductionLines: nat, reductionPotentialPct: int)

  /** `len(v)` for the values that have one. */
  function Length(v: Value): Option<nat> {
    match v
    case Str(s) => Some(|s|)
    case List(items) => Some(|items|)
    case Dict(entries) => Some(|entries|)
    case _ => None
  }

  predicate NonBlank(line: string) {
    Strip(line) != []
  }

  /** The number of lines with something besides whitespace. */
  function NonBlankCount(lines: seq<string>): (n: nat)
    ensures n <= |lines|
  {
    CountWhere(lines, NonBlank)
  }

  function SectionLines(s: Section): int {
    s.lines
  }

  function Min(a: nat, b: nat): nat {
    if a <= b then a else b
  }

  /** The sections of a prompt, with the line facts `Measure` needs. */
  function MeasuredSections(text: string): (r: seq<Section>)
    ensures text != "" ==> LineCount(r) == |Split(text, '\n')|
    ensures text == "" ==> |r| == 1 && r[0].lines == 1
  {
    assert text == "" ==> Split(text, '\n') == [""];
    ExtractSections(text)
  }

  /** The five sections with the most lines, most first. */
  function Largest(sections: seq<Section>): (r: seq<Section>)
    ensures |r| == Min(5, |sections|)
    ensures SortedDescBy(r, SectionLines) && multiset(r) <= multiset(sections)
    ensures forall x, i :: x in multiset(sections) - multiset(r) && 0 <= i < |r| ==>
              SectionLines(x) <= SectionLines(r[i])
  {
    TopBy(sections, SectionLines, 5)
  }

  /** The metrics of one prompt `text` whose rules were matched into
      `mapping`; the estimated reduction is nine lines per code-enforced
      rule, capped at half the prompt. `roundInt` is Python's `round`. */
  function Measure(name: Value, path: string, model: Value, toolsCount: nat, text: string,
                   rules: seq<string>, mapping: Matching, roundInt: real -> int): (m: Metrics)
    requires |mapping.codeEnforced| + |mapping.promptOnly| == |rules|
    ensures m.nonEmptyLines <= m.totalLines
    ensures m.estimatedReductionLines == Min(9 * m.codeEnforcedCount, m.totalLines / 2)
    ensures 2 * m.estimatedReductionLines <= m.totalLines
    ensures m.codeEnforcedCount + m.promptOnlyCount == m.rulesMentioned
    ensures m.sectionCount == |m.sections|
    ensures |m.largestSections| == Min(5, |m.sections|)
    ensures SortedDescBy(m.largestSections, SectionLines) && multiset(m.largestSections) <= multiset(m.sections)
    ensures forall x, i :: x in multiset(m.sections) - multiset(m.largestSections) && 0 <= i < |m.largestSections| ==>
              SectionLines(x) <= SectionLines(m.largestSections[i])
    ensures m.totalLines > 0 ==> LineCount(m.sections) == m.totalLines
    ensures m.totalLines == 0 ==> |m.sections| == 1 && m.sections[0].lines == 1
  {
    var lines := if text != "" then Split(text, '\n') else [];
    var sections := MeasuredSections(text);
    var code := |mapping.codeEnforced|;
    var reduction := Min(9 * code, |lines| / 2);
    var largest := Largest(sections);
    Metrics(
      name, path, model, toolsCount,
      |lines|, EstimateTokens(text), NonBlankCount(lines),
      sections, |sections|, largest,
      |rules|, mapping.codeEnforced, mapping.promptOnly, code, |mapping.promptOnly|,
      reduction, roundInt((reduction as real) / (if |lines| > 0 then |lines| as real else 1.0) * 100.0))
  }

  /** `analyze_agent`: the agent document must be a mapping whose prompt
      is a string and whose tools have a length. */
  function AnalyzeAgent(agent: Value, stem: string, path: string, enforcement: seq<(string, Value)>,
                        rulePattern: string -> bool, roundInt: real -> int): (r: Option<Metrics>)
    ensures r.Some? <==> agent.Dict? && Get(agent.entries, "prompt").GetOr(Str("")).Str?
                         && Length(Get(agent.entries, "tools").GetOr(List([]))).Some?
                         && ConfiguredItems(enforcement).Some?
    ensures r.Some? ==> r.value == Measure(Get(agent.entries, "name").GetOr(Str(stem)), path,
                                           Get(agent.entries, "model").GetOr(Str("unknown")),
                                           Length(Get(agent.entries, "tools").GetOr(List([]))).value,
                                           Get(agent.entries, "prompt").GetOr(Str("")).s,
                                           IdentifyRules(Get(agent.entries, "prompt").GetOr(Str("")).s, rulePattern),
                                           MatchRules(IdentifyRules(Get(agent.entries, "prompt").GetOr(Str("")).s, rulePattern), enforcement).value,
                                           roundInt)
  {
    if !agent.Dict? then None
    else
      var prompt := Get(agent.entries, "prompt").GetOr(Str(""));
      var tools := Length(Get(agent.entries, "tools").GetOr(List([])));
      if !prompt.Str? || tools.None? then None
      else
        var rules := IdentifyRules(prompt.s, rulePattern);
        match MatchRules(rules, enforcement)
        case None => None
        case Some(mapping) =>
          Some(Measure(Get(agent.entries, "name").GetOr(Str(stem)), path,
                       Get(agent.entries, "model").GetOr(Str("unknown")), tools.value,
                       prompt.s, rules, mapping, roundInt))
  }
}

=== FILE: queries.dfy ===
/** The SQL template layer of `pilot_core/queries.py`: the `:name` to
    `$name` parameter rewrite, the `read_json_auto` size option, the
    template cache and template introspection.  The templates directory is
    passed in as a value; the query engine itself is not modelled. */
module Queries {
  import opened Common

  // ---------------------------------------------------------------------
  // Character classes of the parameter patterns (ASCII)

  predicate IsIdentStart(c: char) {
    ('a' <= c <= 'z') || ('A' <= c <= 'Z') || c == '_'
  }

  predicate IsIdentChar(c: char) {
    IsIdentStart(c) || ('0' <= c <= '9')
  }

  /** Regex `\w`. */
  predicate IsWordChar(c: char) {
    IsIdentChar(c)
  }

  /** A ':' followed by an identifier start: a match of `:([a-zA-Z_]\w*)`. */
  predicate ColonName(s: string, i: int) {
    0 <= i && i + 1 < |s| && s[i] == ':' && IsIdentStart(s[i + 1])
  }

  /** A match of `(?<![:\w]):([a-zA-Z_][a-zA-Z0-9_]*)`: a colon name not
      preceded by ':' or a word character, so `::` casts are excluded. */
  predicate ParamStart(s: string, i: int) {
    ColonName(s, i) && (i == 0 || !(s[i - 1] == ':' || IsWordChar(s[i - 1])))
  }

  /** The identifier starting at `j` (greedy). */
  function IdentFrom(s: string, j: nat): (r: string)
    requires j <= |s|
    ensures j + |r| <= |s| && r == s[j..j + |r|]
    ensures forall k :: 0 <= k < |r| ==> IsIdentChar(r[k])
    ensures j + |r| == |s| || !IsIdentChar(s[j + |r|])
    decreases |s| - j
  {
    if j < |s| && IsIdentChar(s[j]) then
      var rest := IdentFrom(s, j + 1);
      assert s[j..j + 1 + |rest|] == [s[j]] + s[j + 1..j + 1 + |rest|];
      [s[j]] + rest
    else []
  }

  // ---------------------------------------------------------------------
  // _convert_params_to_duckdb

  /** The rewritten text from position `i` on. */
  function RewriteFrom(sql: string, i: nat): (r: string)
    requires i <= |sql|
    ensures |r| == |sql| - i
    ensures forall k :: 0 <= k < |r| ==>
      r[k] == (if ParamStart(sql, i + k) then '$' else sql[i + k])
    decreases |sql| - i
  {
    if i == |sql| then []
    else [if ParamStart(sql, i) then '$' else sql[i]] + RewriteFrom(sql, i + 1)
  }

  type Params = map<string, string>

  /** `_convert_params_to_duckdb(sql, params)`: every `:name` parameter
      becomes `$name`; the parameters are passed through. */
  function ConvertParamsToDuckdb(sql: string, params: Params): (r: (string, Params))
    ensures |r.0| == |sql|
    ensures r.1 == params
    ensures forall i :: 0 <= i < |sql| && sql[i] != ':' ==> r.0[i] == sql[i]
    ensures forall i :: 0 <= i < |sql| && sql[i] == ':' ==>
      r.0[i] == (if ParamStart(sql, i) then '$' else ':')
  {
    (RewriteFrom(sql, 0), params)
  }

  /** A `::` cast is left exactly as written. */
  lemma CastsIntact(sql: string, params: Params, i: int)
    requires 0 <= i && i + 1 < |sql| && sql[i] == ':' && sql[i + 1] == ':'
    ensures ConvertParamsToDuckdb(sql, params).0[i] == ':'
    ensures ConvertParamsToDuckdb(sql, params).0[i + 1] == ':'
  {
  }

  /** Every parameter `:name` is replaced by `$name`, with the same name. */
  lemma ParamRenamed(sql: string, params: Params, i: int)
    requires ParamStart(sql, i)
    ensures var out := ConvertParamsToDuckdb(sql, params).0;
      var name := IdentFrom(sql, i + 1);
      i + 1 + |name| <= |out| && out[i..i + 1 + |name|] == "$" + name
  {
    RenamedIn(sql, ConvertParamsToDuckdb(sql, params).0, i);
  }

  lemma RenamedIn(sql: string, out: string, i: int)
    requires ParamStart(sql, i)
    requires |out| == |sql|
    requires forall i :: 0 <= i < |sql| && sql[i] != ':' ==> out[i] == sql[i]
    requires forall i :: 0 <= i < |sql| && sql[i] == ':' ==> out[i] == (if ParamStart(sql, i) then '$' else ':')
    ensures var name := IdentFrom(sql, i + 1);
      i + 1 + |name| <= |out| && out[i..i + 1 + |name|] == "$" + name
  {
    var name := IdentFrom(sql, i + 1);
    var hi := i + 1 + |name|;
    NoColonInIdent(sql, i + 1);
    CopiesNonColons(sql, out, i + 1, hi);
    assert out[i] == '$';
    assert out[i + 1..hi] == name;
    assert out[i..hi] == [out[i]] + out[i + 1..hi];
    assert "$" + name == ['$'] + name;
  }

  /** An identifier holds no colon. */
  lemma NoColonInIdent(s: string, j: nat)
    requires j <= |s|
    ensures forall k :: j <= k < j + |IdentFrom(s, j)| ==> s[k] != ':'
  {
    var name := IdentFrom(s, j);
    forall k | j <= k < j + |name| ensures s[k] != ':' {
      assert s[k] == name[k - j];
      assert IsIdentChar(name[k - j]);
    }
  }

  /** The rewrite copies every stretch without colons. */
  lemma CopiesNonColons(sql: string, out: string, lo: int, hi: int)
    requires |out| == |sql|
    requires forall i :: 0 <= i < |sql| && sql[i] != ':' ==> out[i] == sql[i]
    requires 0 <= lo <= hi <= |sql|
    requires forall k :: lo <= k < hi ==> sql[k] != ':'
    ensures out[lo..hi] == sql[lo..hi]
  {
  }

  /** After the rewrite no `:name` parameter is left, so rewriting again
      changes nothing. */
  lemma {:induction false} ConvertLeavesNoParams(sql: string, params: Params)
    ensures forall j :: !ParamStart(ConvertParamsToDuckdb(sql, params).0, j)
    ensures ConvertParamsToDuckdb(ConvertParamsToDuckdb(sql, params).0, params).0
            == ConvertParamsToDuckdb(sql, params).0
  {
    var out := ConvertParamsToDuckdb(sql, params).0;
    forall j ensures !ParamStart(out, j) {
      NoParamLeft(sql, out, j);
    }
    var again := ConvertParamsToDuckdb(out, params).0;
    UnchangedWithoutParams(out, again);
  }

  /** A position of the rewritten text never starts a parameter. */
  lemma NoParamLeft(sql: string, out: string, j: int)
    requires |out| == |sql|
    requires forall i :: 0 <= i < |sql| && sql[i] != ':' ==> out[i] == sql[i]
    requires forall i :: 0 <= i < |sql| && sql[i] == ':' ==> out[i] == (if ParamStart(sql, i) then '$' else ':')
    ensures !ParamStart(out, j)
  {
    if ColonName(out, j) {
      assert sql[j] == ':' && !ParamStart(sql, j);
      assert sql[j + 1] != ':' && out[j + 1] == sql[j + 1];
      assert ColonName(sql, j);
      if sql[j - 1] == ':' {
        assert !ParamStart(sql, j - 1);
      } else {
        assert out[j - 1] == sql[j - 1];
      }
    }
  }

  /** Rewriting a text without parameters gives it back unchanged. */
  lemma UnchangedWithoutParams(out: string, again: string)
    requires |again| == |out|
    requires forall i :: 0 <= i < |out| && out[i] != ':' ==> again[i] == out[i]
    requires forall i :: 0 <= i < |out| && out[i] == ':' ==> again[i] == (if ParamStart(out, i) then '$' else ':')
    requires forall j :: !ParamStart(out, j)
    ensures again == out
  {
    forall k | 0 <= k < |out| ensures again[k] == out[k] {
      assert !ParamStart(out, k);
    }
  }

  // ---------------------------------------------------------------------
  // _fix_json_read_size

  const MaxSizeOption: string := "maximum_object_size"
  const ReadJsonAuto: string := "read_json_auto"

  /** The first index at or after `i` that `\s` does not match. */
  function SkipSpaces(s: string, i: nat): (j: nat)
    requires i <= |s|
    ensures i <= j <= |s|
    ensures forall k :: i <= k < j ==> IsSpace(s[k])
    ensures j == |s| || !IsSpace(s[j])
    decreases |s| - i
  {
    if i < |s| && IsSpace(s[i]) then SkipSpaces(s, i + 1) else i
  }

  /** The first index at or after `i` holding a quote, or `|s|`. */
  function QuoteFrom(s: string, i: nat): (j: nat)
    requires i <= |s|
    ensures i <= j <= |s|
    ensures forall k :: i <= k < j ==> s[k] != '\''
    ensures j == |s| || s[j] == '\''
    decreases |s| - i
  {
    if i < |s| && s[i] != '\'' then QuoteFrom(s, i + 1) else i
  }

  /** A match of `read_json_auto\s*\(\s*'([^']+)'\s*\)` at the start of `s`:
      the matched length and the quoted path. */
  function MatchReadCall(s: string): (r: Option<(nat, string)>)
    ensures r.Some? ==> IsPrefix(ReadJsonAuto, s) && 0 < r.value.0 <= |s|
    ensures r.Some? ==> r.value.1 != "" && !HasChar(r.value.1, '\'')
  {
    if !IsPrefix(ReadJsonAuto, s) then None
    else
      var a := SkipSpaces(s, |ReadJsonAuto|);
      if a == |s| || s[a] != '(' then None
      else
        var b := SkipSpaces(s, a + 1);
        if b == |s| || s[b] != '\'' then None
        else
          var c := QuoteFrom(s, b + 1);
          if c == b + 1 || c == |s| then None
          else
            var d := SkipSpaces(s, c + 1);
            if d == |s| || s[d] != ')' then None
            else
              var path := s[b + 1..c];
              assert forall k :: 0 <= k < |path| ==> path[k] == s[b + 1 + k];
              Some((d + 1, path))
  }

  /** The replacement text for one matched call. */
  function SizedCall(path: string): (r: string)
    ensures Contains(r, MaxSizeOption)
  {
    var head := ReadJsonAuto + "('" + path + "', ";
    var tail := "=50000000)";
    ContainsMiddle(head, MaxSizeOption, tail);
    head + MaxSizeOption + tail
  }

  /** `re.sub` of the call pattern over `s`, left to right. */
  function FixFrom(s: string): (r: string)
    ensures r == s || Contains(r, MaxSizeOption)
    ensures !Contains(s, ReadJsonAuto) ==> r == s
    decreases |s|
  {
    if s == [] then []
    else
      var m := MatchReadCall(s);
      if m.Some? then
        var rest := FixFrom(s[m.value.0..]);
        MatchedStep(s, m.value.1, rest);
        SizedCall(m.value.1) + rest
      else
        var rest := FixFrom(s[1..]);
        UnmatchedStep(s, rest);
        [s[0]] + rest
  }

  /** A rewritten call puts the option into the output. */
  lemma MatchedStep(s: string, path: string, rest: string)
    requires IsPrefix(ReadJsonAuto, s)
    ensures Contains(SizedCall(path) + rest, MaxSizeOption)
    ensures Contains(s, ReadJsonAuto)
  {
    ContainsExtend([], SizedCall(path), rest, MaxSizeOption);
    assert [] + SizedCall(path) + rest == SizedCall(path) + rest;
    PrefixContains(ReadJsonAuto, s);
  }

  /** Copying one character keeps both properties of the tail. */
  lemma UnmatchedStep(s: string, rest: string)
    requires s != []
    requires rest == s[1..] || Contains(rest, MaxSizeOption)
    requires !Contains(s[1..], ReadJsonAuto) ==> rest == s[1..]
    ensures [s[0]] + rest == s || Contains([s[0]] + rest, MaxSizeOption)
    ensures !Contains(s, ReadJsonAuto) ==> [s[0]] + rest == s
  {
    assert s == [s[0]] + s[1..];
    if rest != s[1..] {
      ContainsExtend([s[0]], rest, [], MaxSizeOption);
      assert [s[0]] + rest + [] == [s[0]] + rest;
      TailContains(s, ReadJsonAuto);
    }
  }

  /** What occurs in the tail of a string occurs in the string. */
  lemma TailContains(s: string, sub: string)
    requires s != [] && Contains(s[1..], sub)
    ensures Contains(s, sub)
  {
    ContainsExtend([s[0]], s[1..], [], sub);
    assert [s[0]] + s[1..] + [] == s;
  }

  /** `_fix_json_read_size(sql)`. */
  function FixJsonReadSize(sql: string): (r: string)
    ensures Contains(sql, MaxSizeOption) ==> r == sql
    ensures !Contains(sql, ReadJsonAuto) ==> r == sql
    ensures r == sql || Contains(r, MaxSizeOption)
  {
    if Contains(sql, MaxSizeOption) then sql else FixFrom(sql)
  }

  /** Fixing twice is fixing once: a changed query carries the option. */
  lemma FixIdempotent(sql: string)
    ensures FixJsonReadSize(FixJsonReadSize(sql)) == FixJsonReadSize(sql)
  {
  }

  /** A bare `read_json_auto('p')` call gains the size option. */
  lemma FixBareCall(path: string)
    requires path != "" && !HasChar(path, '\'')
    ensures var call := ReadJsonAuto + "('" + path + "')";
      FixFrom(call) == SizedCall(path)
  {
    var call := ReadJsonAuto + "('" + path + "')";
    BareCallShape(ReadJsonAuto, path, call);
    MatchesBareCall(call, path);
    assert call[|call|..] == [];
  }

  /** Where each piece of `f('p')` sits. */
  lemma BareCallShape(f: string, path: string, call: string)
    requires call == f + "('" + path + "')"
    ensures |call| == |f| + 4 + |path| && IsPrefix(f, call)
    ensures call[|f|] == '(' && call[|f| + 1] == '\''
    ensures call[|f| + 2..|f| + 2 + |path|] == path
    ensures call[|f| + 2 + |path|] == '\'' && call[|f| + 3 + |path|] == ')'
  {
    assert call == f + ['(', '\''] + path + ['\'', ')'];
    assert call[..|f|] == f;
  }

  /** The call pattern matches the whole of a bare call. */
  lemma MatchesBareCall(s: string, path: string)
    requires path != "" && !HasChar(path, '\'')
    requires |s| == |ReadJsonAuto| + 4 + |path| && IsPrefix(ReadJsonAuto, s)
    requires s[|ReadJsonAuto|] == '(' && s[|ReadJsonAuto| + 1] == '\''
    requires s[|ReadJsonAuto| + 2..|ReadJsonAuto| + 2 + |path|] == path
    requires s[|ReadJsonAuto| + 2 + |path|] == '\'' && s[|ReadJsonAuto| + 3 + |path|] == ')'
    ensures MatchReadCall(s) == Some((|s|, path))
  {
    var n := |ReadJsonAuto|;
    QuoteSkipsPath(s, n + 2, path);
  }

  lemma QuoteSkipsPath(s: string, i: nat, path: string)
    requires i + |path| < |s| && s[i..i + |path|] == path && !HasChar(path, '\'')
    requires s[i + |path|] == '\''
    ensures QuoteFrom(s, i) == i + |path|
    decreases |path|
  {
    if path != [] {
      assert s[i] == path[0];
      assert s[i + 1..i + 1 + |path[1..]|] == path[1..];
      QuoteSkipsPath(s, i + 1, path[1..]);
    }
  }

  // ---------------------------------------------------------------------
  // Template files and the cache

  /** A `*.sql` file in the templates directory: its stem and its text. */
  datatype Template = Template(stem: string, text: string)

  /** The templates directory, absent or listed in directory order. */
  datatype QueriesDir = Absent | Present(templates: seq<Template>)

  type Cache = map<string, string>

  function Stems(ts: seq<Template>): (r: seq<string>)
    ensures |r| == |ts|
    ensures forall i :: 0 <= i < |ts| ==> r[i] == ts[i].stem
  {
    if ts == [] then [] else [ts[0].stem] + Stems(ts[1..])
  }

  /** `list_templates()`: the stems in ascending order. */
  function ListTemplates(dir: QueriesDir): (r: seq<string>)
    ensures dir.Absent? ==> r == []
    ensures dir.Present? ==> multiset(r) == multiset(Stems(dir.templates))
    ensures SortedStrings(r)
  {
    if dir.Absent? then [] else SortStrings(Stems(dir.templates))
  }

  /** The text of the template file `name.sql`, if it exists. */
  function ReadTemplate(dir: QueriesDir, name: string): (r: Option<string>)
    ensures r.Some? <==> dir.Present? && name in Stems(dir.templates)
  {
    if dir.Absent? then None else FindText(dir.templates, name)
  }

  function FindText(ts: seq<Template>, name: string): (r: Option<string>)
    ensures r.Some? <==> name in Stems(ts)
    ensures r.Some? ==> Template(name, r.value) in ts
  {
    if ts == [] then None
    else if ts[0].stem == name then Some(ts[0].text)
    else
      assert Stems(ts) == [ts[0].stem] + Stems(ts[1..]);
      FindText(ts[1..], name)
  }

  /** `TemplateNotFoundError`, a kind of `QueryError`. */
  datatype QueryError = TemplateNotFoundError(name: string, available: seq<string>, message: string)

  datatype Loaded = Loaded(sql: string) | Failed(error: QueryError)

  const QueriesDirPath: string := "system/queries"

  function TemplatePath(name: string): string {
    QueriesDirPath + "/" + name + ".sql"
  }

  function NotFoundMessage(name: string, available: seq<string>): string {
    "SQL template '" + name + "' not found at " + TemplatePath(name) + ". "
    + "Available templates: " + (if available != [] then Join(available, ", ") else "none")
  }

  /** `load_query(name, use_cache)`: the result and the cache afterwards. */
  function LoadQuery(name: string, useCache: bool, cache: Cache, dir: QueriesDir): (r: (Loaded, Cache))
    ensures useCache && name in cache ==> r == (Loaded(cache[name]), cache)
    ensures !(useCache && name in cache) && ReadTemplate(dir, name).None? ==>
      r.1 == cache && r.0.Failed? && r.0.error.name == name
      && r.0.error.available == ListTemplates(dir)
    ensures !(useCache && name in cache) && ReadTemplate(dir, name).Some? ==>
      r.0 == Loaded(ReadTemplate(dir, name).value)
      && r.1 == (if useCache then cache[name := ReadTemplate(dir, name).value] else cache)
  {
    if useCache && name in cache then (Loaded(cache[name]), cache)
    else
      var text := ReadTemplate(dir, name);
      if text.None? then
        var available := ListTemplates(dir);
        (Failed(TemplateNotFoundError(name, available, NotFoundMessage(name, available))), cache)
      else (Loaded(text.value), if useCache then cache[name := text.value] else cache)
  }

  /** A cached template is served from the cache even after the file on
      disk changes or disappears. */
  lemma CachedLoadIgnoresFile(name: string, cache: Cache, dir: QueriesDir, later: QueriesDir)
    requires ReadTemplate(dir, name).Some?
    ensures var (first, c) := LoadQuery(name, true, cache, dir);
      var (second, c2) := LoadQuery(name, true, c, later);
      second == first && c2 == c
  {
  }

  /** Loading with `use_cache=False` reads the file and leaves the cache
      as it was. */
  lemma UncachedLoadDoesNotStore(name: string, cache: Cache, dir: QueriesDir)
    requires ReadTemplate(dir, name).Some?
    ensures LoadQuery(name, false, cache, dir) == (Loaded(ReadTemplate(dir, name).value), cache)
  {
  }

  /** After `clear_cache()` the cache is empty, so the next load reads the
      current file. */
  lemma ClearedCacheReadsFile(name: string, dir: QueriesDir)
    requires ReadTemplate(dir, name).Some?
    ensures LoadQuery(name, true, map[], dir).0 == Loaded(ReadTemplate(dir, name).value)
  {
  }

  // ---------------------------------------------------------------------
  // get_template_info

  /** The description: the first `--` comment reached before any other
      non-blank line, without the dashes, or "". */
  function DescriptionOf(lines: seq<string>): (r: string)
    ensures r != "" ==> CommentAt(lines, r)
    ensures lines != [] && Strip(lines[0]) != "" && !IsPrefix("--", Strip(lines[0])) ==> r == ""
  {
    if lines == [] then ""
    else
      var line := Strip(lines[0]);
      if IsPrefix("--", line) then Strip(line[2..])
      else if line != "" then ""
      else
        var r := DescriptionOf(lines[1..]);
        assert r != "" ==> CommentAt(lines, r) by {
          if r != "" {
            var k :| 0 <= k < |lines[1..]| && IsPrefix("--", Strip(lines[1..][k]))
              && r == Strip(Strip(lines[1..][k])[2..])
              && forall j :: 0 <= j < k ==> Strip(lines[1..][j]) == "";
            assert lines[k + 1] == lines[1..][k];
            forall j | 0 <= j < k + 1 ensures Strip(lines[j]) == "" {
              if j > 0 { assert lines[j] == lines[1..][j - 1]; }
            }
          }
        }
        r
  }

  /** `d` is the text of a `--` comment line preceded only by blank lines. */
  predicate CommentAt(lines: seq<string>, d: string) {
    exists k :: 0 <= k < |lines| && IsPrefix("--", Strip(lines[k]))
      && d == Strip(Strip(lines[k])[2..])
      && forall j :: 0 <= j < k ==> Strip(lines[j]) == ""
  }

  /** The names after each colon from `i` on for which `pick` holds, in
      text order. */
  function NamesFrom(s: string, i: nat, strict: bool): (r: seq<string>)
    requires i <= |s|
    ensures forall p :: p in r <==> exists j :: i <= j < |s| && NameAt(s, j, strict)
                                               && IdentFrom(s, j + 1) == p
    decreases |s| - i
  {
    if i == |s| then []
    else
      var rest := NamesFrom(s, i + 1, strict);
      if NameAt(s, i, strict) then [IdentFrom(s, i + 1)] + rest else rest
  }

  /** Where a name is collected: at every colon name (`strict` false), or
      only at the parameters the rewrite converts (`strict` true). */
  predicate NameAt(s: string, j: int, strict: bool) {
    if strict then ParamStart(s, j) else ColonName(s, j)
  }

  /** `sorted(set(re.findall(r':([a-zA-Z_][a-zA-Z0-9_]*)', sql)))`, as the
      source computes it: a `::type` cast is reported as a parameter. */
  function FoundParamsAsWritten(sql: string): (r: seq<string>)
    ensures SortedStrings(r) && NoDups(r)
    ensures forall p :: p in r <==> exists j :: ColonName(sql, j) && IdentFrom(sql, j + 1) == p
  {
    var names := NamesFrom(sql, 0, false);
    assert forall p :: p in names <==> exists j :: ColonName(sql, j) && IdentFrom(sql, j + 1) == p by {
      forall p ensures p in names <==> exists j :: ColonName(sql, j) && IdentFrom(sql, j + 1) == p {
        if exists j :: ColonName(sql, j) && IdentFrom(sql, j + 1) == p {
          var j :| ColonName(sql, j) && IdentFrom(sql, j + 1) == p;
          assert 0 <= j < |sql| && NameAt(sql, j, false);
        }
      }
    }
    SortedDistinct(names)
  }

  /** The template's parameters: exactly the names the rewrite turns into
      `$name` bindings, sorted and distinct. */
  function TemplateParams(sql: string): (r: seq<string>)
    ensures SortedStrings(r) && NoDups(r)
    ensures forall p :: p in r <==> exists j :: ParamStart(sql, j) && IdentFrom(sql, j + 1) == p
  {
    var names := NamesFrom(sql, 0, true);
    assert forall p :: p in names <==> exists j :: ParamStart(sql, j) && IdentFrom(sql, j + 1) == p by {
      forall p ensures p in names <==> exists j :: ParamStart(sql, j) && IdentFrom(sql, j + 1) == p {
        if exists j :: ParamStart(sql, j) && IdentFrom(sql, j + 1) == p {
          var j :| ParamStart(sql, j) && IdentFrom(sql, j + 1) == p;
          assert 0 <= j < |sql| && NameAt(sql, j, true);
        }
      }
    }
    SortedDistinct(names)
  }

  /** The parameters listed for a template are exactly those the rewrite
      turns into `$name` bindings. */
  lemma TemplateParamsAreBound(sql: string, params: Params, p: string)
    ensures p in TemplateParams(sql) <==>
      exists j :: ParamStart(sql, j) && IdentFrom(sql, j + 1) == p
                  && ConvertParamsToDuckdb(sql, params).0[j] == '$'
  {
  }

  /** The as-written extraction reports a cast type as a parameter:
      `value::INTEGER` yields `INTEGER`, which the rewrite never binds. */
  lemma CastReportedAsParam()
    ensures "INTEGER" in FoundParamsAsWritten("x::INTEGER")
    ensures "INTEGER" !in TemplateParams("x::INTEGER")
  {
    var s := "x::INTEGER";
    assert ColonName(s, 2);
    assert IdentFrom(s, 3) == "INTEGER" by {
      assert s[3..] == "INTEGER";
      IdentToEnd(s, 3);
    }
    forall j ensures !ParamStart(s, j) {
    }
  }

  /** An identifier running to the end of the string is all of the tail. */
  lemma IdentToEnd(s: string, j: nat)
    requires j <= |s|
    requires forall k :: j <= k < |s| ==> IsIdentChar(s[k])
    ensures IdentFrom(s, j) == s[j..]
    decreases |s| - j
  {
    if j < |s| {
      IdentToEnd(s, j + 1);
    }
  }

  datatype TemplateInfo = TemplateInfo(name: string, path: string, description: string,
                                       parameters: seq<string>, sql: string)

  datatype InfoResult = Info(info: TemplateInfo) | InfoFailed(error: QueryError)

  /** `get_template_info(name)`, loading through the cache.  The
      parameters are collected as the source collects them, casts
      included; every parameter the rewrite binds is among them. */
  function GetTemplateInfo(name: string, cache: Cache, dir: QueriesDir): (r: (InfoResult, Cache))
    ensures r.1 == LoadQuery(name, true, cache, dir).1
    ensures r.0.InfoFailed? <==> LoadQuery(name, true, cache, dir).0.Failed?
    ensures r.0.Info? ==>
      var sql := LoadQuery(name, true, cache, dir).0.sql;
      r.0.info.sql == sql && r.0.info.name == name && r.0.info.path == TemplatePath(name)
      && (forall p :: p in r.0.info.parameters <==>
            exists j :: ColonName(sql, j) && IdentFrom(sql, j + 1) == p)
      && SortedStrings(r.0.info.parameters)
      && (forall p :: p in TemplateParams(sql) ==> p in r.0.info.parameters)
      && r.0.info.description == DescriptionOf(Split(sql, '\n'))
  {
    var (loaded, c) := LoadQuery(name, true, cache, dir);
    if loaded.Failed? then (InfoFailed(loaded.error), c)
    else
      var sql := loaded.sql;
      (Info(TemplateInfo(name, TemplatePath(name), DescriptionOf(Split(sql, '\n')),
                         FoundParamsAsWritten(sql), sql)), c)
  }
}

=== FILE: query_builder.dfy ===
/** The fluent `QueryBuilder` of `lib/query_builder.py`.  The builder's
    mutable fields become an immutable `Builder` value; each chaining
    method returns the updated value (the source returns `self`), and
    `to_sql` reads it without changing it. */
module QueryBuilder {
  import opened Common

  datatype Op = Eq | Like

  function OpText(op: Op): string {
    match op
    case Eq => "="
    case Like => "LIKE"
  }

  /** A `where`/`where_like` condition: field, operator, parameter name. */
  datatype Condition = Condition(field: string, op: Op, param: string)

  datatype Builder = Builder(
    typeFilter: Option<string>,
    conditions: seq<Condition>,
    searchTerm: Option<string>,
    contentSearch: Option<string>,
    orderField: Option<string>,
    orderDesc: bool,
    limitValue: Option<int>,
    offsetValue: Option<int>,
    params: map<string, string>,
    counter: nat)

  /** `QueryBuilder()`. */
  const Empty: Builder := Builder(None, [], None, None, None, false, None, None, map[], 0)

  /** The name `_next_param` hands out on its `k`-th call. */
  function ParamName(k: nat): string {
    "p" + NatToString(k)
  }

  lemma ParamNameInjective(a: nat, b: nat)
    ensures ParamName(a) == ParamName(b) ==> a == b
  {
    if ParamName(a) == ParamName(b) {
      assert NatToString(a) == ParamName(a)[1..];
      assert NatToString(b) == ParamName(b)[1..];
      NatToStringInjective(a, b);
    }
  }

  /** The builder invariant: the k-th condition uses parameter `pk`, and the
      parameters bound so far are exactly p1 .. pn. */
  ghost predicate Valid(b: Builder) {
    b.counter == |b.conditions|
    && (forall i :: 0 <= i < |b.conditions| ==> b.conditions[i].param == ParamName(i + 1))
    && (forall k: nat :: ParamName(k) in b.params <==> 1 <= k <= b.counter)
    && (forall key :: key in b.params ==> exists k: nat :: 1 <= k <= b.counter && key == ParamName(k))
  }

  lemma EmptyValid()
    ensures Valid(Empty)
  {
  }

  /** Adds a condition on a freshly allocated parameter bound to `value`. */
  function AddCondition(b: Builder, field: string, op: Op, value: string): (r: Builder)
    requires Valid(b)
    ensures Valid(r)
    ensures r.conditions == b.conditions + [Condition(field, op, ParamName(b.counter + 1))]
    ensures ParamName(b.counter + 1) !in b.params
    ensures r.params[ParamName(b.counter + 1)] == value
    ensures forall key :: key in b.params ==> key in r.params && r.params[key] == b.params[key]
    ensures r.(conditions := b.conditions, params := b.params, counter := b.counter) == b
  {
    var n := b.counter + 1;
    var p := ParamName(n);
    forall k: nat | 1 <= k <= b.counter ensures ParamName(k) != p {
      ParamNameInjective(k, n);
    }
    var r := b.(conditions := b.conditions + [Condition(field, op, p)],
                params := b.params[p := value], counter := n);
    forall k: nat ensures ParamName(k) in r.params <==> 1 <= k <= r.counter {
      ParamNameInjective(k, n);
    }
    r
  }

  /** `where(field, value)`: an exact-match condition. */
  function Where(b: Builder, field: string, value: string): (r: Builder)
    requires Valid(b)
    ensures Valid(r)
    ensures r.conditions == b.conditions + [Condition(field, Eq, ParamName(b.counter + 1))]
    ensures r.params[ParamName(b.counter + 1)] == value
    ensures forall key :: key in b.params ==> key in r.params && r.params[key] == b.params[key]
  {
    AddCondition(b, field, Eq, value)
  }

  /** `where_like(field, pattern)`: a LIKE condition. */
  function WhereLike(b: Builder, field: string, pattern: string): (r: Builder)
    requires Valid(b)
    ensures Valid(r)
    ensures r.conditions == b.conditions + [Condition(field, Like, ParamName(b.counter + 1))]
    ensures r.params[ParamName(b.counter + 1)] == pattern
    ensures forall key :: key in b.params ==> key in r.params && r.params[key] == b.params[key]
  {
    AddCondition(b, field, Like, pattern)
  }

  /** Conditions added one after another get p1, p2, ... in call order,
      each bound to its own value. */
  lemma TwoConditionsInOrder(b: Builder, f1: string, v1: string, f2: string, v2: string)
    requires b == Empty
    ensures var r := WhereLike(Where(b, f1, v1), f2, v2);
      r.conditions == [Condition(f1, Eq, "p1"), Condition(f2, Like, "p2")]
      && r.params == map["p1" := v1, "p2" := v2]
  {
    EmptyValid();
    var r1 := Where(b, f1, v1);
    var r := WhereLike(r1, f2, v2);
    assert ParamName(1) == "p1";
    assert ParamName(2) == "p2";
    assert r.params.Keys == {"p1", "p2"} by {
      forall key | key in r.params ensures key == "p1" || key == "p2" {
        var k: nat :| 1 <= k <= r.counter && key == ParamName(k);
      }
    }
  }

  function SetType(b: Builder, typeName: string): (r: Builder)
    ensures r.typeFilter == Some(typeName)
    ensures r.(typeFilter := b.typeFilter) == b
  {
    b.(typeFilter := Some(typeName))
  }

  function Search(b: Builder, query: string): (r: Builder)
    ensures r.searchTerm == Some(query)
    ensures r.(searchTerm := b.searchTerm) == b
  {
    b.(searchTerm := Some(query))
  }

  function ContentContains(b: Builder, text: string): (r: Builder)
    ensures r.contentSearch == Some(text)
    ensures r.(contentSearch := b.contentSearch) == b
  {
    b.(contentSearch := Some(text))
  }

  function OrderBy(b: Builder, field: string, desc: bool): (r: Builder)
    ensures r.orderField == Some(field) && r.orderDesc == desc
    ensures r.(orderField := b.orderField, orderDesc := b.orderDesc) == b
  {
    b.(orderField := Some(field), orderDesc := desc)
  }

  function Limit(b: Builder, n: int): (r: Builder)
    ensures r.limitValue == Some(n)
    ensures r.(limitValue := b.limitValue) == b
  {
    b.(limitValue := Some(n))
  }

  function Offset(b: Builder, n: int): (r: Builder)
    ensures r.offsetValue == Some(n)
    ensures r.(offsetValue := b.offsetValue) == b
  {
    b.(offsetValue := Some(n))
  }

  // ---------------------------------------------------------------------
  // to_sql

  /** Python truthiness of an optional string. */
  predicate Set(o: Option<string>) {
    o.Some? && o.value != ""
  }

  const BaseSelect: seq<string> := [
    "SELECT",
    "    unnest.path,",
    "    unnest.name,",
    "    unnest.type,",
    "    unnest.description,",
    "    unnest.content",
    "FROM read_json_auto('data/index.json', maximum_object_size=100000000),",
    "UNNEST(items) as unnest"
  ]

  const TypeClause: string := "unnest.type = :type_filter"

  const SearchClause: string := "(lower(unnest.name) LIKE lower(:search_term) OR lower(COALESCE(unnest.description, '')) LIKE lower(:search_term) OR lower(CAST(COALESCE(unnest.text, '') AS VARCHAR)) LIKE lower(:search_term))"

  const ContentClause: string := "lower(CAST(unnest.content AS VARCHAR)) LIKE lower(:content_search)"

  const SearchOrder: string :=
    "ORDER BY CASE WHEN lower(unnest.name) LIKE lower(:search_term) THEN 0 ELSE 1 END, unnest.name"

  /** Fields stored as columns; any other field is read from the content. */
  predicate IsColumn(field: string) {
    field == "name" || field == "path" || field == "type" || field == "description"
  }

  /** The clause of one condition, ending in its `:param` placeholder. */
  function ConditionClause(c: Condition): (r: string)
    ensures IsSuffix(" :" + c.param, r)
    ensures IsColumn(c.field) ==> IsPrefix("unnest." + c.field + " ", r)
    ensures !IsColumn(c.field) ==> IsPrefix("unnest.content->>'" + c.field + "' ", r)
  {
    var lhs := if IsColumn(c.field) then "unnest." + c.field else "unnest.content->>'" + c.field + "'";
    var r := lhs + " " + OpText(c.op) + " :" + c.param;
    assert r[|r| - |" :" + c.param|..] == " :" + c.param;
    assert r[..|lhs + " "|] == lhs + " ";
    r
  }

  function ConditionClauses(cs: seq<Condition>): (r: seq<string>)
    ensures |r| == |cs|
    ensures forall i :: 0 <= i < |cs| ==> r[i] == ConditionClause(cs[i])
  {
    if cs == [] then [] else [ConditionClause(cs[0])] + ConditionClauses(cs[1..])
  }

  /** The WHERE clauses in the order `to_sql` appends them. */
  function Clauses(b: Builder): (r: seq<string>)
    ensures |r| == (if Set(b.typeFilter) then 1 else 0) + |b.conditions|
                   + (if Set(b.searchTerm) then 1 else 0) + (if Set(b.contentSearch) then 1 else 0)
    ensures var t := if Set(b.typeFilter) then 1 else 0;
      (t == 1 ==> r[0] == TypeClause)
      && forall i :: 0 <= i < |b.conditions| ==> r[t + i] == ConditionClause(b.conditions[i])
  {
    var head := if Set(b.typeFilter) then [TypeClause] else [];
    var tail := (if Set(b.searchTerm) then [SearchClause] else [])
                + (if Set(b.contentSearch) then [ContentClause] else []);
    Assemble(head, b.conditions, tail, ConditionClauses(b.conditions))
  }

  function Assemble(head: seq<string>, cs: seq<Condition>, tail: seq<string>, conds: seq<string>): (r: seq<string>)
    requires |conds| == |cs| && forall i :: 0 <= i < |cs| ==> conds[i] == ConditionClause(cs[i])
    ensures |r| == |head| + |cs| + |tail|
    ensures |head| > 0 ==> r[0] == head[0]
    ensures forall i :: 0 <= i < |cs| ==> r[|head| + i] == ConditionClause(cs[i])
  {
    Concat3(head, conds, tail);
    head + conds + tail
  }

  /** The parameters `to_sql` returns: a copy of the bound ones plus the
      type, search and content values. */
  function SqlParams(b: Builder): (r: map<string, string>)
    ensures forall key :: key in b.params && key !in {"type_filter", "search_term", "content_search"}
              ==> key in r && r[key] == b.params[key]
    ensures "type_filter" in r <==> Set(b.typeFilter) || "type_filter" in b.params
    ensures Set(b.typeFilter) ==> r["type_filter"] == b.typeFilter.value
    ensures Set(b.searchTerm) ==> "search_term" in r && r["search_term"] == "%" + b.searchTerm.value + "%"
    ensures Set(b.contentSearch) ==> "content_search" in r && r["content_search"] == "%" + b.contentSearch.value + "%"
  {
    var p1 := if Set(b.typeFilter) then b.params["type_filter" := b.typeFilter.value] else b.params;
    var p2 := if Set(b.searchTerm) then p1["search_term" := "%" + b.searchTerm.value + "%"] else p1;
    if Set(b.contentSearch) then p2["content_search" := "%" + b.contentSearch.value + "%"] else p2
  }

  function OrderLine(b: Builder): string {
    if Set(b.orderField) then
      "ORDER BY unnest." + b.orderField.value + " " + (if b.orderDesc then "DESC" else "ASC")
    else if Set(b.searchTerm) then SearchOrder
    else "ORDER BY unnest.name"
  }

  /** The lines of the statement, joined with newlines by `to_sql`. */
  function SqlLines(b: Builder): (r: seq<string>)
    ensures |r| > |BaseSelect| && r[..|BaseSelect|] == BaseSelect
    ensures var w := if Clauses(b) == [] then 0 else 1;
      |r| == |BaseSelect| + w + 1 + (if b.limitValue.Some? then 1 else 0) + (if b.offsetValue.Some? then 1 else 0)
      && (w == 1 ==> r[|BaseSelect|] == "WHERE " + Join(Clauses(b), " AND "))
      && r[|BaseSelect| + w] == OrderLine(b)
  {
    var cs := Clauses(b);
    var wherePart := if cs != [] then ["WHERE " + Join(cs, " AND ")] else [];
    var pagePart := (if b.limitValue.Some? then ["LIMIT " + IntToString(b.limitValue.value)] else [])
                    + (if b.offsetValue.Some? then ["OFFSET " + IntToString(b.offsetValue.value)] else []);
    Statement(BaseSelect, wherePart, OrderLine(b), pagePart)
  }

  /** The select lines, the optional WHERE line, the ORDER BY line and the
      paging lines, in that order. */
  function Statement(base: seq<string>, wherePart: seq<string>, order: string, pagePart: seq<string>): (r: seq<string>)
    ensures |r| == |base| + |wherePart| + 1 + |pagePart|
    ensures r[..|base|] == base
    ensures |wherePart| > 0 ==> r[|base|] == wherePart[0]
    ensures r[|base| + |wherePart|] == order
  {
    Concat3(base, wherePart + [order], pagePart);
    assert (wherePart + [order])[|wherePart|] == order;
    base + (wherePart + [order]) + pagePart
  }

  /** `to_sql()`: the statement text begins with the SELECT line and holds
      the WHERE line when a filter is set and the ORDER BY line always;
      the parameters are the builder's. */
  function ToSql(b: Builder): (r: (string, map<string, string>))
    ensures IsPrefix(BaseSelect[0], r.0)
    ensures forall i :: 0 <= i < |SqlLines(b)| ==> Contains(r.0, SqlLines(b)[i])
    ensures Clauses(b) != [] ==> Contains(r.0, "WHERE " + Join(Clauses(b), " AND "))
    ensures Contains(r.0, OrderLine(b))
    ensures r.1 == SqlParams(b)
  {
    var lines := SqlLines(b);
    var text := Join(lines, "\n");
    JoinStartsWithFirst(lines, "\n");
    assert lines[0] == BaseSelect[0];
    assert forall i :: 0 <= i < |lines| ==> Contains(text, lines[i]) by {
      forall i | 0 <= i < |lines| ensures Contains(text, lines[i]) {
        JoinContains(lines, "\n", i);
      }
    }
    assert Contains(text, lines[|BaseSelect| + (if Clauses(b) == [] then 0 else 1)]);
    assert Clauses(b) != [] ==> Contains(text, lines[|BaseSelect|]);
    (text, SqlParams(b))
  }

  /** There is a WHERE line exactly when some filter is set. */
  lemma WhereIffFilter(b: Builder)
    ensures (Clauses(b) != []) <==>
      Set(b.typeFilter) || b.conditions != [] || Set(b.searchTerm) || Set(b.contentSearch)
  {
  }

  /** Every placeholder a condition clause uses is bound in the returned
      parameters. */
  lemma ConditionParamsBound(b: Builder, i: int)
    requires Valid(b) && 0 <= i < |b.conditions|
    ensures IsSuffix(" :" + b.conditions[i].param, ConditionClause(b.conditions[i]))
    ensures b.conditions[i].param in SqlParams(b)
  {
    assert b.conditions[i].param == ParamName(i + 1);
    assert ParamName(i + 1) in b.params;
    assert ParamName(i + 1)[0] == 'p';
  }

  /** An explicit order wins over the search ordering, which wins over the
      default by name. */
  lemma OrderPrecedence(b: Builder, q: string, f: string, desc: bool)
    requires q != "" && f != ""
    ensures OrderLine(OrderBy(Search(b, q), f, desc))
            == "ORDER BY unnest." + f + " " + (if desc then "DESC" else "ASC")
    ensures !Set(b.orderField) ==> OrderLine(Search(b, q)) == SearchOrder
    ensures !Set(b.orderField) && !Set(b.searchTerm) ==> OrderLine(b) == "ORDER BY unnest.name"
  {
  }

  /** `limit(0)` and `offset(0)` are emitted: only an unset value is omitted. */
  lemma ZeroLimitEmitted(b: Builder)
    ensures var r := SqlLines(Offset(Limit(b, 0), 0));
      r[|r| - 2] == "LIMIT 0" && r[|r| - 1] == "OFFSET 0"
  {
    assert IntToString(0) == "0";
  }
}

=== FILE: registry.dfy ===
/** The migration registry of `pilot_core/evolution/registry.py`: agent
    migrations declared in YAML, keyed by their id, loaded once, and
    chained version by version into a migration path.  The registry's
    class-level state is the `Registry` value passed in and returned; a
    migrations directory is the list of its YAML files, each decoded
    (None when it cannot be read or parsed). */
module Registry {
  import opened Common
  import opened Json

  datatype Migration = Migration(schemaType: string, fromVersion: int, toVersion: int,
                                 description: string, guidance: string, examples: seq<Value>)

  /** `"{type}_v{from}_to_v{to}"`. */
  function VersionId(schemaType: string, fromVersion: int, toVersion: int): string {
    schemaType + "_v" + IntToString(fromVersion) + "_to_v" + IntToString(toVersion)
  }

  /** `Migration.id`. */
  function IdOf(m: Migration): string {
    VersionId(m.schemaType, m.fromVersion, m.toVersion)
  }

  /** The id of the single step from `v` to `v + 1`. */
  function StepId(schemaType: string, v: int): string {
    VersionId(schemaType, v, v + 1)
  }

  /** `Migration.load(path)`: the required keys `schema_type`,
      `from_version`, `to_version` and `guidance`, with `description`
      defaulting to "" and `examples` to [].  A document that is not a
      mapping or lacks a required key fails to load. */
  function LoadMigration(doc: Option<Value>): (r: Option<Migration>)
    ensures doc.None? || !doc.value.Dict? ==> r.None?
    ensures (r.Some? ==>
      && Get(doc.value.entries, "schema_type") == Some(Str(r.value.schemaType))
      && Get(doc.value.entries, "from_version") == Some(Num(r.value.fromVersion))
      && Get(doc.value.entries, "to_version") == Some(Num(r.value.toVersion))
      && Get(doc.value.entries, "guidance") == Some(Str(r.value.guidance)))
  {
    if doc.None? || !doc.value.Dict? then None
    else
      var d := doc.value.entries;
      var t := Get(d, "schema_type");
      var f := Get(d, "from_version");
      var v := Get(d, "to_version");
      var g := Get(d, "guidance");
      var desc := Get(d, "description").GetOr(Str(""));
      var ex := Get(d, "examples").GetOr(List([]));
      if t.Some? && t.value.Str? && f.Some? && f.value.Num? && v.Some? && v.value.Num?
         && g.Some? && g.value.Str? && desc.Str? && ex.List?
      then Some(Migration(t.value.s, f.value.n, v.value.n, desc.s, g.value.s, ex.items))
      else None
  }

  // ---------------------------------------------------------------------
  // Registry state

  /** The registry: migrations by id, the ids in insertion order (as the
      source's dict keeps them), and whether loading has happened. */
  datatype Registry = Registry(migrations: map<string, Migration>, order: seq<string>, loaded: bool)

  /** Every migration is stored under its own id, and `order` lists the
      ids once each. */
  ghost predicate Valid(reg: Registry) {
    && (forall k :: k in reg.migrations ==> IdOf(reg.migrations[k]) == k)
    && NoDups(reg.order)
    && (forall k :: k in reg.order <==> k in reg.migrations)
  }

  /** `cls._migrations[migration.id] = migration`: a new id goes last, a
      known one keeps its place. */
  function Register(reg: Registry, m: Migration): (r: Registry)
    requires Valid(reg)
    ensures Valid(r)
    ensures r.migrations == reg.migrations[IdOf(m) := m] && r.loaded == reg.loaded
    ensures r.order == reg.order + (if IdOf(m) in reg.migrations then [] else [IdOf(m)])
  {
    var id := IdOf(m);
    var order := reg.order + (if id in reg.migrations then [] else [id]);
    assert NoDups(order) by {
      if id !in reg.migrations {
        forall i, j | 0 <= i < j < |order| ensures order[i] != order[j] {
          if j == |order| - 1 {
            assert order[i] in reg.order;
          }
        }
      }
    }
    Registry(reg.migrations[id := m], order, reg.loaded)
  }

  /** Each file of a directory as `Migration.load` reads it. */
  function LoadEach(files: seq<Option<Value>>): (r: seq<Option<Migration>>)
    ensures |r| == |files| && forall i :: 0 <= i < |files| ==> r[i] == LoadMigration(files[i])
  {
    seq(|files|, i requires 0 <= i < |files| => LoadMigration(files[i]))
  }

  /** Registering the loaded files in order; files that failed to load
      are skipped. */
  function RegisterAll(reg: Registry, loaded: seq<Option<Migration>>): (r: Registry)
    requires Valid(reg)
    ensures Valid(r) && r.loaded == reg.loaded
    ensures forall k :: k in reg.migrations ==> k in r.migrations
    decreases |loaded|
  {
    if loaded == [] then reg
    else
      var prev := RegisterAll(reg, loaded[..|loaded| - 1]);
      var m := loaded[|loaded| - 1];
      if m.Some? then Register(prev, m.value) else prev
  }

  /** `load_all(migrations_dir)`: a missing directory only marks the
      registry loaded; otherwise its files are loaded on top of what is
      already registered. */
  function LoadAll(reg: Registry, dir: Option<seq<Option<Value>>>): (r: Registry)
    requires Valid(reg)
    ensures Valid(r) && r.loaded
    ensures dir.None? ==> r.migrations == reg.migrations && r.order == reg.order
    ensures dir.Some? ==> r == RegisterAll(reg, LoadEach(dir.value)).(loaded := true)
  {
    if dir.None? then reg.(loaded := true)
    else RegisterAll(reg, LoadEach(dir.value)).(loaded := true)
  }

  /** Every file that loads is registered under its id, with the last
      file of an id winning. */
  lemma {:induction false} LoadedFilesRegistered(reg: Registry, loaded: seq<Option<Migration>>, i: int)
    requires Valid(reg) && 0 <= i < |loaded| && loaded[i].Some?
    ensures IdOf(loaded[i].value) in RegisterAll(reg, loaded).migrations
    ensures ((forall j :: i < j < |loaded| && loaded[j].Some? ==> IdOf(loaded[j].value) != IdOf(loaded[i].value)) ==>
      RegisterAll(reg, loaded).migrations[IdOf(loaded[i].value)] == loaded[i].value)
    decreases |loaded|
  {
    var init := loaded[..|loaded| - 1];
    if i < |loaded| - 1 {
      assert init[i] == loaded[i];
      LoadedFilesRegistered(reg, init, i);
      forall j | i < j < |init| ensures init[j] == loaded[j] {
      }
    }
  }

  /** A file that fails to load changes nothing. */
  lemma FailedFileSkipped(reg: Registry, files: seq<Option<Value>>, bad: Option<Value>)
    requires Valid(reg) && LoadMigration(bad).None?
    ensures LoadAll(reg, Some(files + [bad])) == LoadAll(reg, Some(files))
  {
    assert LoadEach(files + [bad])[..|files|] == LoadEach(files);
  }

  /** `ensure_loaded()`: load from the default directory the first time. */
  function EnsureLoaded(reg: Registry, defaultDir: Option<seq<Option<Value>>>): (r: Registry)
    requires Valid(reg)
    ensures Valid(r) && r.loaded
    ensures reg.loaded ==> r == reg
  {
    if reg.loaded then reg else LoadAll(reg, defaultDir)
  }

  /** `get(migration_id)`. */
  function GetMigration(reg: Registry, id: string, defaultDir: Option<seq<Option<Value>>>): (r: (Registry, Option<Migration>))
    requires Valid(reg)
    ensures r.0 == EnsureLoaded(reg, defaultDir)
    ensures r.1.Some? <==> id in r.0.migrations
    ensures r.1.Some? ==> r.1.value == r.0.migrations[id] && IdOf(r.1.value) == id
  {
    var loaded := EnsureLoaded(reg, defaultDir);
    (loaded, if id in loaded.migrations then Some(loaded.migrations[id]) else None)
  }

  /** `list_migrations()`: the ids in the order they were first
      registered. */
  function ListMigrations(reg: Registry, defaultDir: Option<seq<Option<Value>>>): (r: (Registry, seq<string>))
    requires Valid(reg)
    ensures r.0 == EnsureLoaded(reg, defaultDir)
    ensures NoDups(r.1) && forall k :: k in r.1 <==> k in r.0.migrations
  {
    var loaded := EnsureLoaded(reg, defaultDir);
    (loaded, loaded.order)
  }

  /** `reset()`. */
  function Reset(): (r: Registry)
    ensures Valid(r) && !r.loaded && r.migrations == map[]
  {
    Registry(map[], [], false)
  }

  /** After a reset the next lookup reloads from the default directory and
      sees nothing registered before. */
  lemma ResetReloads(id: string, dir: seq<Option<Value>>)
    ensures GetMigration(Reset(), id, Some(dir)).0 == RegisterAll(Reset(), LoadEach(dir)).(loaded := true)
  {
  }

  // ---------------------------------------------------------------------
  // Migration paths

  datatype PathResult = Path(steps: seq<Migration>) | Missing(id: string, version: int)

  /** The message of the ValueError a missing step raises. */
  function MissingMessage(schemaType: string, fromVer: int, toVer: int, id: string): string {
    "No migration path from " + schemaType + " v" + IntToString(fromVer) + " to v" + IntToString(toVer)
    + ". Missing: " + id
  }

  /** The step ids from `fromVer` up to `toVer` are all registered. */
  ghost predicate StepsFrom(m: map<string, Migration>, schemaType: string, fromVer: int, toVer: int) {
    forall v :: fromVer <= v < toVer ==> StepId(schemaType, v) in m
  }

  /** `get_path(schema_type, from_ver, to_ver)`: the step migrations from
      `from_ver` up to `to_ver` in order, or the first missing step; no
      partial path is returned. */
  method GetPath(reg: Registry, schemaType: string, fromVer: int, toVer: int,
                 defaultDir: Option<seq<Option<Value>>>) returns (reg': Registry, r: PathResult)
    requires Valid(reg)
    ensures reg' == EnsureLoaded(reg, defaultDir)
    ensures fromVer >= toVer ==> r == Path([])
    ensures r.Path? <==> StepsFrom(reg'.migrations, schemaType, fromVer, toVer)
    ensures (r.Path? ==>
      && |r.steps| == (if fromVer < toVer then toVer - fromVer else 0)
      && forall i :: 0 <= i < |r.steps| ==>
           StepId(schemaType, fromVer + i) in reg'.migrations
           && r.steps[i] == reg'.migrations[StepId(schemaType, fromVer + i)])
    ensures (r.Missing? ==>
      && fromVer <= r.version < toVer
      && r.id == StepId(schemaType, r.version)
      && r.id !in reg'.migrations
      && StepsFrom(reg'.migrations, schemaType, fromVer, r.version))
  {
    reg' := EnsureLoaded(reg, defaultDir);
    r := FindPath(reg'.migrations, schemaType, fromVer, toVer);
  }

  /** The loop of `get_path` over the loaded migrations. */
  method FindPath(m: map<string, Migration>, schemaType: string, fromVer: int, toVer: int) returns (r: PathResult)
    ensures fromVer >= toVer ==> r == Path([])
    ensures r.Path? <==> StepsFrom(m, schemaType, fromVer, toVer)
    ensures (r.Path? ==>
      && |r.steps| == (if fromVer < toVer then toVer - fromVer else 0)
      && forall i :: 0 <= i < |r.steps| ==>
           StepId(schemaType, fromVer + i) in m && r.steps[i] == m[StepId(schemaType, fromVer + i)])
    ensures (r.Missing? ==>
      && fromVer <= r.version < toVer
      && r.id == StepId(schemaType, r.version)
      && r.id !in m
      && StepsFrom(m, schemaType, fromVer, r.version))
  {
    if fromVer >= toVer {
      return Path([]);
    }
    var path: seq<Migration> := [];
    var current := fromVer;
    while current < toVer
      invariant fromVer <= current <= toVer
      invariant |path| == current - fromVer
      invariant StepsFrom(m, schemaType, fromVer, current)
      invariant forall i :: 0 <= i < |path| ==> StepId(schemaType, fromVer + i) in m && path[i] == m[StepId(schemaType, fromVer + i)]
    {
      var id := StepId(schemaType, current);
      if id !in m {
        return Missing(id, current);
      }
      path := path + [m[id]];
      current := current + 1;
    }
    r := Path(path);
  }

  /** The same search as a function: step `fromVer` first, then the rest. */
  function PathTo(m: map<string, Migration>, schemaType: string, fromVer: int, toVer: int): (r: PathResult)
    ensures fromVer >= toVer ==> r == Path([])
    ensures r.Path? <==> StepsFrom(m, schemaType, fromVer, toVer)
    ensures (r.Path? ==>
      && |r.steps| == (if fromVer < toVer then toVer - fromVer else 0)
      && forall i :: 0 <= i < |r.steps| ==>
           StepId(schemaType, fromVer + i) in m && r.steps[i] == m[StepId(schemaType, fromVer + i)])
    ensures (r.Missing? ==>
      && fromVer <= r.version < toVer
      && r.id == StepId(schemaType, r.version)
      && r.id !in m
      && StepsFrom(m, schemaType, fromVer, r.version))
    decreases toVer - fromVer
  {
    if fromVer >= toVer then Path([])
    else
      var id := StepId(schemaType, fromVer);
      if id !in m then Missing(id, fromVer)
      else
        var rest := PathTo(m, schemaType, fromVer + 1, toVer);
        if rest.Missing? then rest
        else
          var steps := [m[id]] + rest.steps;
          assert forall i :: 1 <= i < |steps| ==> steps[i] == rest.steps[i - 1] && fromVer + i == fromVer + 1 + (i - 1);
          Path(steps)
  }

  // ---------------------------------------------------------------------
  // Prompts

  const ExamplesHeading: string := "## Examples\n\n"
  const TaskHeading: string := "# Migration Task: "
  const DescriptionHeading: string := "\n\n## Description\n"
  const GuidanceHeading: string := "\n\n## Migration Guidance\n"
  const FileHeading: string := "## File to Migrate\n\nPath: `"
  const ContentHeading: string := "`\n\nCurrent content:\n```yaml\n"
  const StepsText: string := "\n```\n\n## Instructions\n\n1. Read and understand the current file content\n2. Apply the migration transformations described above\n3. Ensure the migrated content is valid YAML\n"
  const OutputRule: string := "\n\nOutput ONLY the migrated YAML content. Do not include any explanations or markdown.\n"
  const BlockOpen: string := "```yaml\n"
  const BlockClose: string := "\n```\n\n"

  /** The `_schema_version` line every prompt demands. */
  function SchemaDemand(toVersion: int): string {
    "4. Add or update `_schema_version: " + IntToString(toVersion) + "` field"
  }

  function PromptHead(m: Migration): string {
    TaskHeading + m.schemaType + " v" + IntToString(m.fromVersion) + " to v" + IntToString(m.toVersion)
    + DescriptionHeading + m.description + GuidanceHeading + m.guidance + "\n\n"
  }

  function PromptTail(m: Migration, fileContent: string, filePath: string): (r: string)
    ensures Contains(r, SchemaDemand(m.toVersion))
  {
    var before := FileHeading + filePath + ContentHeading + fileContent + StepsText;
    ContainsMiddle(before, SchemaDemand(m.toVersion), OutputRule);
    before + SchemaDemand(m.toVersion) + OutputRule
  }

  /** The text of one example's `before` or `after`; None where Python
      raises (not a mapping, no such key, not a string). */
  function ExampleText(ex: Value, key: string): Option<string> {
    if !ex.Dict? then None
    else
      var v := Get(ex.entries, key);
      if v.Some? && v.value.Str? then Some(Strip(v.value.s)) else None
  }

  /** Example number `i`: its before and after, each under its version. */
  function ExampleBlock(m: Migration, i: nat, ex: Value): Option<string> {
    var before := ExampleText(ex, "before");
    var after := ExampleText(ex, "after");
    if before.None? || after.None? then None
    else Some("### Example " + NatToString(i) + "\n"
              + "**Before** (v" + IntToString(m.fromVersion) + "):\n" + BlockOpen + before.value + BlockClose
              + "**After** (v" + IntToString(m.toVersion) + "):\n" + BlockOpen + after.value + BlockClose)
  }

  /** The texts concatenated, or None when any is None. */
  function ConcatAll(parts: seq<Option<string>>): (r: Option<string>)
    ensures r.Some? <==> forall i :: 0 <= i < |parts| ==> parts[i].Some?
    decreases |parts|
  {
    if parts == [] then Some([])
    else
      var rest := ConcatAll(parts[1..]);
      assert forall i :: 1 <= i < |parts| ==> parts[i] == parts[1..][i - 1];
      if parts[0].None? || rest.None? then None else Some(parts[0].value + rest.value)
  }

  /** Each part is contained in the concatenation. */
  lemma {:induction false} ConcatAllContains(parts: seq<Option<string>>, i: int)
    requires ConcatAll(parts).Some? && 0 <= i < |parts|
    ensures Contains(ConcatAll(parts).value, parts[i].value)
    decreases |parts|
  {
    var b := parts[0].value;
    var rest := ConcatAll(parts[1..]).value;
    if i == 0 {
      ContainsSelf(b);
      ContainsExtend([], b, rest, b);
      assert [] + b + rest == b + rest;
    } else {
      ConcatAllContains(parts[1..], i - 1);
      assert parts[1..][i - 1] == parts[i];
      ContainsExtend(b, rest, [], parts[i].value);
      assert b + rest + [] == b + rest;
    }
  }

  /** The example blocks, numbered from 1. */
  function ExampleParts(m: Migration): (r: seq<Option<string>>)
    ensures |r| == |m.examples| && forall i :: 0 <= i < |r| ==> r[i] == ExampleBlock(m, i + 1, m.examples[i])
  {
    seq(|m.examples|, i requires 0 <= i < |m.examples| => ExampleBlock(m, i + 1, m.examples[i]))
  }

  /** The examples section: empty without examples. */
  function PromptMiddle(m: Migration, blocks: string): string {
    if m.examples == [] then "" else ExamplesHeading + blocks
  }

  /** `build_prompt(file_content, file_path)`; None where an example is
      malformed and Python raises. */
  function BuildPrompt(m: Migration, fileContent: string, filePath: string): (r: Option<string>)
    ensures r.Some? ==> Contains(r.value, SchemaDemand(m.toVersion))
    ensures r.None? <==> ConcatAll(ExampleParts(m)).None?
    ensures (r.Some? ==>
      r.value == PromptHead(m) + PromptMiddle(m, ConcatAll(ExampleParts(m)).value) + PromptTail(m, fileContent, filePath))
  {
    var blocks := ConcatAll(ExampleParts(m));
    if blocks.None? then None
    else
      var r := Around(PromptHead(m) + PromptMiddle(m, blocks.value), PromptTail(m, fileContent, filePath), "",
                      SchemaDemand(m.toVersion));
      assert r == PromptHead(m) + PromptMiddle(m, blocks.value) + PromptTail(m, fileContent, filePath);
      Some(r)
  }

  /** `a + s + b`, which contains what `s` contains. */
  function Around(a: string, s: string, b: string, sub: string): (r: string)
    requires Contains(s, sub)
    ensures r == a + s + b && Contains(r, sub)
  {
    ContainsExtend(a, s, b, sub);
    a + s + b
  }

  /** Every example appears in the prompt as its own numbered block. */
  lemma EveryExampleShown(m: Migration, fileContent: string, filePath: string, i: int)
    requires BuildPrompt(m, fileContent, filePath).Some? && 0 <= i < |m.examples|
    ensures ExampleBlock(m, i + 1, m.examples[i]).Some?
    ensures Contains(BuildPrompt(m, fileContent, filePath).value, ExampleBlock(m, i + 1, m.examples[i]).value)
  {
    var parts := ExampleParts(m);
    var blocks := ConcatAll(parts).value;
    ConcatAllContains(parts, i);
    ShownBetween(PromptHead(m), blocks, PromptTail(m, fileContent, filePath), parts[i].value);
  }

  lemma ShownBetween(head: string, blocks: string, tail: string, sub: string)
    requires Contains(blocks, sub)
    ensures Contains(head + (ExamplesHeading + blocks) + tail, sub)
  {
    ContainsExtend(head + ExamplesHeading, blocks, tail, sub);
    assert head + (ExamplesHeading + blocks) + tail == head + ExamplesHeading + blocks + tail;
  }
}

=== FILE: resume.dfy ===
/** The text helpers of `lib/resume.py`: middle truncation, the todo list,
    the grouped tool-call summary, the minimal resume paragraph, and the
    start-up check for recent stuck sessions with its alert text.
    `strOf` is Python's `str()` of a non-string value and `iso` is
    `datetime.isoformat`. */
module Resume {
  import opened Common
  import opened Json
  import opened Session

  /** What an empty todo list or call list prints. */
  const NoneLine: string := "  (none)"

  const TruncationMarker: string := "\n\n... [truncated] ...\n\n"

  /** Python's `s[start:]`. */
  function PySliceFrom<T>(s: seq<T>, start: int): (r: seq<T>)
    ensures |r| <= |s| && r == s[|s| - |r|..]
    ensures start >= 0 ==> |r| == if start < |s| then |s| - start else 0
    ensures start < 0 ==> |r| == if -start < |s| then -start else |s|
  {
    if start >= 0 then (if start < |s| then s[start..] else [])
    else if -start < |s| then s[|s| + start..] else s
  }

  /** `_truncate_middle(text, max_length)`: text that fits is returned as
      is; otherwise `half = max_length // 2 - 20` characters from each end
      around a marker, with Python's slice rules for any `half`. */
  function TruncateMiddle(text: string, maxLength: int): (r: string)
    ensures |text| <= maxLength ==> r == text
    ensures (|text| > maxLength && maxLength / 2 - 20 > 0 ==>
      && IsPrefix(text[..maxLength / 2 - 20] + TruncationMarker, r)
      && IsSuffix(text[|text| - (maxLength / 2 - 20)..], r)
      && |r| == 2 * (maxLength / 2 - 20) + |TruncationMarker|)
  {
    if |text| <= maxLength then text
    else
      var half := maxLength / 2 - 20;
      PySlicePrefix(text, half) + TruncationMarker + PySliceFrom(text, -half)
  }

  /** Truncation shortens: with a limit of at least 42 the result is
      within the limit whenever the text was not. */
  lemma TruncateFits(text: string, maxLength: int)
    requires maxLength >= 42
    ensures |TruncateMiddle(text, maxLength)| <= maxLength
    ensures |text| > maxLength ==> |TruncateMiddle(text, maxLength)| < |text|
  {
  }

  /** With a limit of 40 or 41 `half` is 0, and `text[-0:]` is the whole
      text: the "truncated" result is the marker followed by all of it. */
  lemma TruncateTinyLimit(text: string, maxLength: int)
    requires maxLength / 2 - 20 == 0 && |text| > maxLength
    ensures TruncateMiddle(text, maxLength) == TruncationMarker + text
  {
  }

  // ---------------------------------------------------------------------
  // Todos

  /** `x` for completed, a space for pending, `>` for anything else. */
  function TodoMarker(t: Value): (r: string)
    ensures |r| == 1
    ensures r == "x" <==> Field(AsDict(t), "status", Str("?")) == Str("completed")
  {
    var status := Field(AsDict(t), "status", Str("?"));
    if status == Str("completed") then "x" else if status == Str("pending") then " " else ">"
  }

  function TodoLine(t: Value, strOf: Value -> string): (r: string)
    ensures IsPrefix("  [" + TodoMarker(t) + "] ", r)
  {
    "  [" + TodoMarker(t) + "] " + PyStr(Field(AsDict(t), "content", Str("?")), strOf)
  }

  /** `_format_todos`: one line per todo, or "  (none)". */
  function FormatTodos(todos: seq<Value>, strOf: Value -> string): (r: string)
    ensures todos == [] ==> r == NoneLine
    ensures (todos != [] ==>
      r == Join(seq(|todos|, i requires 0 <= i < |todos| => TodoLine(todos[i], strOf)), "\n"))
  {
    if todos == [] then NoneLine
    else Join(seq(|todos|, i requires 0 <= i < |todos| => TodoLine(todos[i], strOf)), "\n")
  }

  /** "  (none)" is printed exactly when there are no todos: every todo
      line opens with "  [". */
  lemma NoneOnlyWithoutTodos(todos: seq<Value>, strOf: Value -> string)
    ensures FormatTodos(todos, strOf) == NoneLine <==> todos == []
  {
    if todos != [] {
      var lines := seq(|todos|, i requires 0 <= i < |todos| => TodoLine(todos[i], strOf));
      JoinStartsWithFirst(lines, "\n");
      var r := FormatTodos(todos, strOf);
      assert r[2] == '[';
    }
  }

  // ---------------------------------------------------------------------
  // Tool-call summary

  /** `Path(f).name`: the last component, ignoring empty and "."
      components; "" when there is none. */
  function BaseName(path: string): (r: string)
    ensures r == "" || r in Split(path, '/')
  {
    var comps := Filter(Split(path, '/'), (c: string) => c != "" && c != ".");
    if comps == [] then "" else comps[|comps| - 1]
  }

  /** A plain file name is its own base name. */
  lemma BaseNameOfName(name: string)
    requires !HasChar(name, '/') && name != "" && name != "."
    ensures BaseName(name) == name
  {
    SplitNoSep(name, '/');
    assert Filter([name], (c: string) => c != "" && c != ".") == [name];
  }

  /** `c.input.get(key, default)` rendered as text. */
  function InputText(c: ToolCall, key: string, default: string, strOf: Value -> string): string {
    PyStr(Field(AsDict(c.input), key, Str(default)), strOf)
  }

  function FileNames(paths: seq<string>): (r: seq<string>)
    ensures |r| == |paths|
  {
    seq(|paths|, i requires 0 <= i < |paths| => BaseName(paths[i]))
  }

  /** The calls of one tool, in call order. */
  function GroupOf(calls: seq<ToolCall>, name: string): (r: seq<ToolCall>)
    ensures forall c :: c in r <==> c in calls && c.name == name
    ensures |r| == CountWhere(calls, (c: ToolCall) => c.name == name)
  {
    Filter(calls, (c: ToolCall) => c.name == name)
  }

  /** The lines one tool's group contributes, headed "  - <name>". */
  function GroupLines(name: string, group: seq<ToolCall>, strOf: Value -> string): (r: seq<string>)
    ensures |r| >= 1 && IsPrefix("  - " + name, r[0])
    ensures name == "Bash" ==> |r| == 1 + (if |group| < 5 then |group| else 5)
    ensures name != "Bash" ==> |r| == 1
  {
    [Headed(name, GroupSummary(name, group, strOf))] + BashLines(name, group, strOf)
  }

  /** A group's first line. */
  function Headed(name: string, summary: string): (r: string)
    ensures IsPrefix("  - " + name, r)
  {
    var head := "  - " + name;
    assert (head + summary)[..|head|] == head;
    head + summary
  }

  /** What the first line of a group says after the tool name. */
  function GroupSummary(name: string, group: seq<ToolCall>, strOf: Value -> string): string {
    var n := IntToString(|group|);
    if name == "Read" then
      var files := seq(|group|, i requires 0 <= i < |group| => InputText(group[i], "file_path", "?", strOf));
      var unique := Prefix(Dedupe(files), 5);
      ": " + n + " files (" + Join(FileNames(unique), ", ")
      + (if |unique| < |files| then "..." else "") + ")"
    else if name == "Write" then
      var files := seq(|group|, i requires 0 <= i < |group| => InputText(group[i], "file_path", "?", strOf));
      ": " + Join(FileNames(files), ", ")
    else if name == "Edit" then
      var files := seq(|group|, i requires 0 <= i < |group| => InputText(group[i], "file_path", "?", strOf));
      ": " + n + " edits to " + Join(FileNames(Prefix(Dedupe(files), 5)), ", ")
    else if name == "Bash" then
      ": " + n + " commands"
    else if name == "Task" then
      var descriptions := seq(|group|, i requires 0 <= i < |group| => InputText(group[i], "description", "?", strOf));
      " (subagents): " + Join(Prefix(descriptions, 3), ", ")
    else if name == "Grep" || name == "Glob" then
      ": " + n + " searches"
    else
      ": " + n + " calls"
  }

  /** The Bash group's lines after the first: the first five commands,
      each cut to 50 characters. */
  function BashLines(name: string, group: seq<ToolCall>, strOf: Value -> string): (r: seq<string>)
    ensures name == "Bash" ==> |r| == (if |group| < 5 then |group| else 5)
    ensures name != "Bash" ==> r == []
  {
    if name == "Bash" then
      var first := Prefix(group, 5);
      seq(|first|, i requires 0 <= i < |first| => "      " + Prefix(InputText(first[i], "command", "", strOf), 50) + "...")
    else []
  }

  /** The distinct tool names, in ascending order. */
  function ToolNames(calls: seq<ToolCall>): (r: seq<string>)
    ensures SortedStrings(r) && NoDups(r)
    ensures forall n :: n in r <==> exists i :: 0 <= i < |calls| && calls[i].name == n
  {
    var names := seq(|calls|, i requires 0 <= i < |calls| => calls[i].name);
    assert forall n :: n in names <==> exists i :: 0 <= i < |calls| && calls[i].name == n by {
      forall n ensures n in names <==> exists i :: 0 <= i < |calls| && calls[i].name == n {
        if n in names {
          var i :| 0 <= i < |names| && names[i] == n;
          assert calls[i].name == n;
        }
        if exists i :: 0 <= i < |calls| && calls[i].name == n {
          var i :| 0 <= i < |calls| && calls[i].name == n;
          assert names[i] == n;
        }
      }
    }
    SortedDistinct(names)
  }

  /** Each name's group lines, in the order of `names`. */
  function GroupBlocks(names: seq<string>, calls: seq<ToolCall>, strOf: Value -> string): (r: seq<seq<string>>)
    ensures |r| == |names|
    ensures forall i :: 0 <= i < |names| ==> r[i] == GroupLines(names[i], GroupOf(calls, names[i]), strOf)
  {
    seq(|names|, i requires 0 <= i < |names| => GroupLines(names[i], GroupOf(calls, names[i]), strOf))
  }

  /** The groups' lines, one group after another in the order of `names`. */
  function AllGroupLines(names: seq<string>, calls: seq<ToolCall>, strOf: Value -> string): seq<string> {
    Flatten(GroupBlocks(names, calls, strOf))
  }

  /** Where the group of `names[k]` starts among the lines. */
  function GroupStart(names: seq<string>, calls: seq<ToolCall>, k: nat, strOf: Value -> string): nat
    requires k <= |names|
  {
    BlockStart(GroupBlocks(names, calls, strOf), k)
  }

  /** Each group starts after the previous one, headed by its tool name:
      the summary lists the tools in the order of `names`. */
  lemma GroupsInOrder(names: seq<string>, calls: seq<ToolCall>, k: nat, strOf: Value -> string)
    requires k < |names|
    ensures GroupStart(names, calls, k, strOf) < |AllGroupLines(names, calls, strOf)|
    ensures IsPrefix("  - " + names[k], AllGroupLines(names, calls, strOf)[GroupStart(names, calls, k, strOf)])
    ensures k > 0 ==> GroupStart(names, calls, k - 1, strOf) < GroupStart(names, calls, k, strOf)
  {
    var blocks := GroupBlocks(names, calls, strOf);
    BlockAt(blocks, k);
    assert blocks[k] == GroupLines(names[k], GroupOf(calls, names[k]), strOf);
    assert Flatten(blocks)[BlockStart(blocks, k) + 0] == blocks[k][0];
    if k > 0 {
      assert |blocks[k - 1]| >= 1;
    }
  }

  /** The lines the summary keeps: `lines[:max_items]`. */
  function SummaryLines(calls: seq<ToolCall>, maxItems: int, strOf: Value -> string): (r: seq<string>)
    ensures maxItems >= 0 ==> |r| <= maxItems
    ensures (var all := AllGroupLines(ToolNames(calls), calls, strOf);
      |r| <= |all| && r == all[..|r|])
  {
    PySlicePrefix(AllGroupLines(ToolNames(calls), calls, strOf), maxItems)
  }

  /** `_summarize_tool_calls(tool_calls, max_items)`: "  (none)" for no
      calls, else the kept lines joined by newlines. */
  function SummarizeToolCalls(calls: seq<ToolCall>, maxItems: int, strOf: Value -> string): (r: string)
    ensures calls == [] ==> r == NoneLine
    ensures calls != [] ==> r == Join(SummaryLines(calls, maxItems, strOf), "\n")
  {
    if calls == [] then NoneLine else Join(SummaryLines(calls, maxItems, strOf), "\n")
  }

  // ---------------------------------------------------------------------
  // Minimal resume

  /** The first 200 characters of the task, with "..." only when cut. */
  function TaskPreview(prompt: string): (r: string)
    ensures |prompt| <= 200 ==> r == prompt
    ensures |prompt| > 200 ==> r == prompt[..200] + "..."
  {
    Prefix(prompt, 200) + (if |prompt| > 200 then "..." else "")
  }

  /** The preview never exceeds 203 characters and always begins the
      prompt's text. */
  lemma TaskPreviewBounded(prompt: string)
    ensures |TaskPreview(prompt)| <= 203
    ensures IsPrefix(Prefix(prompt, 200), TaskPreview(prompt))
  {
  }

  /** The `content` of each pending todo ("?" when absent). */
  function PendingContents(s: Session, strOf: Value -> string): (r: seq<string>)
    ensures |r| == |PendingTodos(s.todos)|
  {
    var pending := PendingTodos(s.todos);
    seq(|pending|, i requires 0 <= i < |pending| => PyStr(Field(AsDict(pending[i]), "content", Str("?")), strOf))
  }

  /** The contents of the first three pending todos, or "none". */
  function PendingText(s: Session, strOf: Value -> string): (r: string)
    ensures PendingTodos(s.todos) == [] ==> r == "none"
    ensures (PendingTodos(s.todos) != [] ==>
      exists k :: 1 <= k <= 3 && k <= |PendingTodos(s.todos)| && r == Join(PendingContents(s, strOf)[..k], ", "))
  {
    var contents := PendingContents(s, strOf);
    if contents == [] then "none" else Join(Prefix(contents, 3), ", ")
  }

  /** The names of the first three written files, or "none". */
  function FilesText(s: Session, strOf: Value -> string): (r: string)
    ensures FilesWritten(s) == [] ==> r == "none"
  {
    var files := FilesWritten(s);
    var first := Prefix(files, 3);
    if files == [] then "none"
    else Join(FileNames(seq(|first|, i requires 0 <= i < |first| => PyStr(first[i], strOf))), ", ")
  }

  /** " Last error: <first 100 characters>..." for a non-empty error. */
  function ErrorText(s: Session): (r: string)
    ensures (s.lastError.None? || s.lastError.value == "") <==> r == ""
  {
    if s.lastError.None? || s.lastError.value == "" then ""
    else " Last error: " + Prefix(s.lastError.value, 100) + "..."
  }

  /** `generate_minimal_resume(session)`. */
  function GenerateMinimalResume(s: Session, strOf: Value -> string): (r: string)
    ensures Contains(r, TaskPreview(s.initialPrompt))
    ensures Contains(r, PendingText(s, strOf))
  {
    Interleave(ResumeHead(s), TaskPreview(s.initialPrompt), WorkText(s, strOf), PendingText(s, strOf), ResumeTail(s))
  }

  /** The resume text before the task preview. */
  function ResumeHead(s: Session): string {
    "RESUME: Continue previous session (ID: " + Prefix(s.sessionId, 8) + ").\n\nOriginal task: "
  }

  /** The resume text between the task preview and the pending todos. */
  function WorkText(s: Session, strOf: Value -> string): string {
    "\n\nWork done: " + IntToString(|s.toolCalls|) + " tool calls, modified files: " + FilesText(s, strOf)
    + ".\n\nPending todos: "
  }

  /** The resume text after the pending todos. */
  function ResumeTail(s: Session): string {
    "." + ErrorText(s)
    + "\n\nPlease review and continue where the previous session left off. Check the todo list and complete any pending items."
  }

  /** Fixed text around two inserted values. */
  function Interleave(a: string, x: string, b: string, y: string, c: string): (r: string)
    ensures Contains(r, x) && Contains(r, y)
  {
    ContainsMiddle(a, x, b + y + c);
    ContainsMiddle(a + x + b, y, c);
    assert a + x + (b + y + c) == a + x + b + y + c;
    a + x + b + y + c
  }

  // ---------------------------------------------------------------------
  // Stuck sessions at start-up

  /** The summary `check_for_stuck_sessions` gives for one session. */
  datatype StuckInfo = StuckInfo(sessionId: string, shortId: string, status: string, task: string,
                                 pendingTodos: nat, lastActivity: string, hasError: bool, filesModified: nat)

  function InfoOf(s: Session, iso: int -> string): (r: StuckInfo)
    ensures r.sessionId == s.sessionId && IsPrefix(r.shortId, s.sessionId) && |r.shortId| <= 8
    ensures r.hasError <==> s.lastError.Some?
  {
    StuckInfo(s.sessionId, Prefix(s.sessionId, 8), s.status.Name(), Prefix(s.initialPrompt, 100),
              |PendingTodos(s.todos)|, iso(s.lastActivity), s.lastError.Some?, |FilesWritten(s)|)
  }

  /** The stuck sessions active after `now - maxAge` (seconds), at most
      five, most recent first. */
  function RecentStuck(cands: seq<(string, Option<Session>)>, current: Option<string>, now: int, maxAge: int): (r: seq<Session>)
    ensures |r| <= 5 && SortedDescBy(r, LastActivity)
    ensures forall s :: s in r ==> s.lastActivity > now - maxAge && s.status in {Stuck, Error, Abandoned}
    ensures forall s :: s in r ==> s in FindStuckSessions(cands, current)
  {
    var stuck := FindStuckSessions(cands, current);
    var recent := Filter(stuck, (s: Session) => s.lastActivity > now - maxAge);
    FilterKeepsSortedDesc(stuck, (s: Session) => s.lastActivity > now - maxAge, LastActivity);
    var r := Prefix(recent, 5);
    PrefixMembers(recent, r);
    r
  }

  /** A filtered list keeps the order of its source. */
  lemma {:induction false} FilterKeepsSortedDesc<T(!new)>(s: seq<T>, p: T -> bool, key: T -> int)
    requires SortedDescBy(s, key)
    ensures SortedDescBy(Filter(s, p), key)
    ensures Filter(s, p) != [] && s != [] ==> key(Filter(s, p)[0]) <= key(s[0])
  {
    if s != [] {
      FilterKeepsSortedDesc(s[1..], p, key);
      var rest := Filter(s[1..], p);
      var f := Filter(s, p);
      assert f == (if p(s[0]) then [s[0]] else []) + rest;
      assert forall j :: 0 <= j < |rest| ==> key(s[0]) >= key(rest[j]) by {
        forall j | 0 <= j < |rest| ensures key(s[0]) >= key(rest[j]) {
          assert rest[j] in s[1..];
          var k :| 0 <= k < |s[1..]| && s[1..][k] == rest[j];
          assert s[k + 1] == rest[j];
        }
      }
      if p(s[0]) {
        forall i, j | 0 <= i < j < |f| ensures key(f[i]) >= key(f[j]) {
          assert f[j] == rest[j - 1];
          if i > 0 { assert f[i] == rest[i - 1]; }
        }
      } else {
        assert f == rest;
      }
    }
  }

  /** `check_for_stuck_sessions(project, max_age)`: the summaries of the
      recent stuck sessions. */
  function CheckForStuckSessions(cands: seq<(string, Option<Session>)>, current: Option<string>, now: int,
                                 maxAge: int, iso: int -> string): (r: seq<StuckInfo>)
    ensures |r| <= 5
    ensures (var recent := RecentStuck(cands, current, now, maxAge);
      |r| == |recent| && forall i :: 0 <= i < |r| ==> r[i] == InfoOf(recent[i], iso))
  {
    var recent := RecentStuck(cands, current, now, maxAge);
    seq(|recent|, i requires 0 <= i < |recent| => InfoOf(recent[i], iso))
  }

  /** The lines one session contributes to the alert: a marked line, and
      a pending-todo count when there are any. */
  function AlertLines(info: StuckInfo): (r: seq<string>)
    ensures |r| == if info.pendingTodos > 0 then 2 else 1
    ensures IsPrefix("  [" + (if info.hasError then "!" else "?") + "] `" + info.shortId + "` - ", r[0])
  {
    var preview := ReplaceChar(Prefix(info.task, 60), '\n', ' ');
    ["  [" + (if info.hasError then "!" else "?") + "] `" + info.shortId + "` - " + preview + "..."]
    + (if info.pendingTodos > 0 then ["      " + NatToString(info.pendingTodos) + " pending todos"] else [])
  }

  function AllAlertLines(infos: seq<StuckInfo>): (r: seq<string>)
    ensures |r| == |infos| + CountWhere(infos, (i: StuckInfo) => i.pendingTodos > 0)
  {
    if infos == [] then [] else AlertLines(infos[0]) + AllAlertLines(infos[1..])
  }

  const AlertHeader: seq<string> := [
    "## Stuck Sessions Detected", "",
    "The following previous sessions appear to be stuck or errored:", ""]

  const AlertFooter: seq<string> := [
    "", "To resume a session:", "```bash", "uv run python -m lib.resume <session-id> --clipboard", "```", "",
    "Or ask me to resume a specific session."]

  /** `format_stuck_sessions_alert(sessions)`: empty for no sessions;
      otherwise the header, the sessions' lines and the instructions. */
  function FormatStuckSessionsAlert(infos: seq<StuckInfo>): (r: string)
    ensures infos == [] ==> r == ""
    ensures infos != [] ==> r == Join(AlertHeader + AllAlertLines(infos) + AlertFooter, "\n")
  {
    if infos == [] then "" else Join(AlertHeader + AllAlertLines(infos) + AlertFooter, "\n")
  }

  /** An alert is shown exactly when there are sessions to report. */
  lemma AlertIffSessions(infos: seq<StuckInfo>)
    ensures FormatStuckSessionsAlert(infos) == "" <==> infos == []
  {
    if infos != [] {
      var lines := AlertHeader + AllAlertLines(infos) + AlertFooter;
      assert lines[0] == "## Stuck Sessions Detected";
      JoinStartsWithFirst(lines, "\n");
    }
  }
}

=== FILE: rule_audit.dfy ===
/** The `when` coverage audit of rules across agents: which agents each
    rule applies to, which it misses, which it names that do not exist,
    and the recommendations that follow. */
module RuleAudit {
  import opened Common
  import opened Json

  const Pilot: string := "pilot"
  const Star: string := "*"

  /** The rules that should apply to every agent. */
  const CriticalRules: seq<string> := ["git-review-required", "web-access-policy", "context-first", "minimalism"]

  // ---------------------------------------------------------------------
  // Agents

  /** The agent names read from the agents directory: the `name` of each
      document that is an object holding one, whatever its type (None for
      a file that fails to load; indexing any other document raises inside
      the loader's `try` and is skipped). */
  function AgentNamesOf(docs: seq<Option<Value>>): (r: seq<Value>)
    ensures forall n :: n in r <==> exists d :: d in docs && d.Some? && d.value.Dict? && Get(d.value.entries, "name") == Some(n)
    decreases |docs|
  {
    if docs == [] then []
    else
      var d := docs[0];
      var rest := AgentNamesOf(docs[1..]);
      assert forall x :: x in docs <==> x == d || x in docs[1..];
      match d
      case Some(Dict(e)) =>
        (match Get(e, "name") case Some(n) => [n] + rest case None => rest)
      case _ => rest
  }

  /** The audited agents: the names found plus the orchestrator, sorted.
      None when a name is not a string: `sorted` then compares it with
      "pilot" and raises. */
  function Agents(names: seq<Value>): (r: Option<seq<string>>)
    ensures r.None? <==> exists n :: n in names && !n.Str?
    ensures r.Some? ==> SortedStrings(r.value) && Pilot in r.value
    ensures r.Some? ==> forall a :: a in r.value <==> Str(a) in names || a == Pilot
    ensures r.Some? ==> |r.value| == if Str(Pilot) in names then |names| else |names| + 1
  {
    if exists n :: n in names && !n.Str? then None
    else
      var strs := seq(|names|, i requires 0 <= i < |names| => names[i].s);
      StrsOfNames(names, strs);
      var all := if Pilot in strs then strs else strs + [Pilot];
      var r := SortStrings(all);
      assert forall a :: a in r <==> a in all by {
        forall a ensures a in r <==> a in all { assert a in r <==> a in multiset(r); }
      }
      Some(r)
  }

  lemma StrsOfNames(names: seq<Value>, strs: seq<string>)
    requires forall n :: n in names ==> n.Str?
    requires |strs| == |names| && forall i :: 0 <= i < |names| ==> strs[i] == names[i].s
    ensures forall a :: a in strs <==> Str(a) in names
  {
    forall a ensures a in strs <==> Str(a) in names {
      if a in strs {
        var i :| 0 <= i < |strs| && strs[i] == a;
        assert names[i] in names;
      }
      if Str(a) in names {
        var i :| 0 <= i < |names| && names[i] == Str(a);
        assert strs[i] == a;
      }
    }
  }

  // ---------------------------------------------------------------------
  // Rules

  /** A rule as loaded: its file and `when`, or the error it failed with. */
  datatype RuleInfo = Info(file: string, when: Value) | Broken(file: string, error: string)

  /** A rule file: its path, stem, and the document or the load error. */
  datatype RuleFile = RuleFile(path: string, stem: string, doc: Result)
  datatype Result = Doc(value: Value) | LoadError(message: string)

  /** `"name" in rule` for a document that is not an object (a number or
      `True` has no `in`, which raises). */
  predicate NameIn(doc: Value) {
    (doc.Str? && Contains(doc.s, "name")) || (doc.List? && Str("name") in doc.items)
  }

  /** Processing the document raises inside the loader's `try`: `in` on a
      number or boolean, indexing a string or list by "name", or using a
      list or mapping as the key. */
  predicate Raises(d: Value) {
    && Truthy(d)
    && (if d.Dict? then Get(d.entries, "name").Some? && !Hashable(Get(d.entries, "name").value)
        else d.Num? || d.Bool? || NameIn(d))
  }

  /** One rule file's contribution: nothing for a falsy document or one
      without a name; an entry under its name for an object whose name
      can be a key; and an error entry under the file's stem when loading
      or processing raises.  `failure(d)` is `str(e)` for the exception
      that processing document `d` raises. */
  function Entry(f: RuleFile, failure: Value -> string): (r: Option<(Value, RuleInfo)>)
    ensures r.Some? ==> Hashable(r.value.0)
    ensures f.doc.LoadError? ==> r == Some((Str(f.stem), Broken(f.path, "Failed to parse: " + f.doc.message)))
    ensures f.doc.Doc? && Raises(f.doc.value) ==>
              r == Some((Str(f.stem), Broken(f.path, "Failed to parse: " + failure(f.doc.value))))
    ensures f.doc.Doc? && !Raises(f.doc.value) ==>
              (r.Some? <==> Truthy(f.doc.value) && f.doc.value.Dict? && Get(f.doc.value.entries, "name").Some?)
    ensures f.doc.Doc? && !Raises(f.doc.value) && r.Some? ==>
              var e := f.doc.value.entries;
              r.value == (Get(e, "name").value, Info(f.path, Get(e, "when").GetOr(List([]))))
  {
    match f.doc
    case LoadError(e) => Some((Str(f.stem), Broken(f.path, "Failed to parse: " + e)))
    case Doc(d) =>
      if Raises(d) then Some((Str(f.stem), Broken(f.path, "Failed to parse: " + failure(d))))
      else if Truthy(d) && d.Dict? && Get(d.entries, "name").Some? then
        Some((Get(d.entries, "name").value, Info(f.path, Get(d.entries, "when").GetOr(List([])))))
      else None
  }

  /** Each file's contribution, in file order. */
  function Stored(files: seq<RuleFile>, failure: Value -> string): (es: seq<Option<(Value, RuleInfo)>>)
    ensures |es| == |files|
    ensures forall i :: 0 <= i < |files| ==> es[i] == Entry(files[i], failure)
    ensures HashableEntries(es)
  {
    seq(|files|, i requires 0 <= i < |files| => Entry(files[i], failure))
  }

  predicate HashableEntries(es: seq<Option<(Value, RuleInfo)>>) {
    forall i :: 0 <= i < |es| && es[i].Some? ==> Hashable(es[i].value.0)
  }

  /** `rules_data[key] = info` for each contribution in order. */
  function Tabulate(es: seq<Option<(Value, RuleInfo)>>): (r: seq<(Value, RuleInfo)>)
    requires HashableEntries(es)
    ensures DistinctKeys(r)
    ensures |r| <= |es|
    ensures forall i :: 0 <= i < |r| ==> Hashable(r[i].0)
    decreases |es|
  {
    if es == [] then []
    else
      var init := Tabulate(es[..|es| - 1]);
      match es[|es| - 1]
      case None => init
      case Some((k, v)) =>
        var r := Put(init, k, v);
        assert forall i :: 0 <= i < |r| ==> Hashable(r[i].0) by {
          forall i | 0 <= i < |r| ensures Hashable(r[i].0) {
            assert HasKey(r, r[i].0);
          }
        }
        r
  }

  /** The rule table: the files' entries in order into one dict, so a key
      stored twice keeps the later file's entry in the earlier file's
      place. */
  function LoadRuleInfos(files: seq<RuleFile>, failure: Value -> string): (r: seq<(Value, RuleInfo)>)
    ensures DistinctKeys(r)
    ensures |r| <= |files|
    ensures forall i :: 0 <= i < |r| ==> Hashable(r[i].0)
  {
    Tabulate(Stored(files, failure))
  }

  /** Some contribution is stored under key `k`. */
  predicate StoresKey(es: seq<Option<(Value, RuleInfo)>>, k: Value) {
    exists i :: 0 <= i < |es| && es[i].Some? && es[i].value.0 == k
  }

  /** Contribution `i` is stored and no later one has the same key. */
  predicate LastFor(es: seq<Option<(Value, RuleInfo)>>, i: int)
    requires 0 <= i < |es|
  {
    es[i].Some? && forall j :: i < j < |es| && es[j].Some? ==> es[j].value.0 != es[i].value.0
  }

  lemma {:induction false} TabulateKeys(es: seq<Option<(Value, RuleInfo)>>)
    requires HashableEntries(es)
    ensures forall k :: HasKey(Tabulate(es), k) <==> StoresKey(es, k)
    decreases |es|
  {
    if es != [] {
      var n := |es| - 1;
      var front := es[..n];
      TabulateKeys(front);
      var init := Tabulate(front);
      var r := Tabulate(es);
      forall k
        ensures HasKey(r, k) <==> StoresKey(es, k)
      {
        if StoresKey(front, k) {
          var i :| 0 <= i < |front| && front[i].Some? && front[i].value.0 == k;
          assert es[i] == front[i];
        }
        if StoresKey(es, k) {
          var i :| 0 <= i < |es| && es[i].Some? && es[i].value.0 == k;
          if i < n {
            assert front[i] == es[i];
          }
        }
      }
    }
  }

  lemma {:induction false} TabulateLastWins(es: seq<Option<(Value, RuleInfo)>>)
    requires HashableEntries(es)
    ensures forall i :: 0 <= i < |es| && LastFor(es, i) ==> Find(Tabulate(es), es[i].value.0) == Some(es[i].value.1)
    decreases |es|
  {
    if es != [] {
      var n := |es| - 1;
      var front := es[..n];
      TabulateLastWins(front);
      var init := Tabulate(front);
      var r := Tabulate(es);
      assert es[n].Some? ==> r == Put(init, es[n].value.0, es[n].value.1);
      assert es[n].None? ==> r == init;
      forall i | 0 <= i < |es| && LastFor(es, i)
        ensures Find(r, es[i].value.0) == Some(es[i].value.1)
      {
        if i < n {
          assert front[i] == es[i];
          forall j | i < j < |front| && front[j].Some? ensures front[j].value.0 != front[i].value.0 {
            assert front[j] == es[j];
          }
          assert LastFor(front, i);
        }
      }
    }
  }

  /** The table holds a key exactly when some file stores an entry under
      it, and a key several files store keeps the last such file's entry. */
  lemma LoadRuleInfosLastWins(files: seq<RuleFile>, failure: Value -> string)
    ensures forall k :: HasKey(LoadRuleInfos(files, failure), k) <==> StoresKey(Stored(files, failure), k)
    ensures forall i :: 0 <= i < |files| && LastFor(Stored(files, failure), i) ==>
              Find(LoadRuleInfos(files, failure), Entry(files[i], failure).value.0) == Some(Entry(files[i], failure).value.1)
  {
    TabulateKeys(Stored(files, failure));
    TabulateLastWins(Stored(files, failure));
  }

  // ---------------------------------------------------------------------
  // Coverage of one rule

  datatype Coverage = Universal | Partial | NoCoverage | Errored
  {
    function Text(): string {
      match this
      case Universal => "universal"
      case Partial => "partial"
      case NoCoverage => "none"
      case Errored => "error"
    }
  }

  datatype Analysis = Analysis(appliesTo: seq<string>, coverage: Coverage, missing: seq<string>, unknown: seq<string>, error: string)

  /** `when == "*"`, or a list holding the string "*". */
  predicate IsWildcard(when: Value) {
    when == Str(Star) || (when.List? && Str(Star) in when.items)
  }

  /** The agents a `when` list names: `{agent: name}` entries and bare
      strings, in order. */
  function AppliesTo(items: seq<Value>): (r: seq<string>)
    ensures forall a :: a in r <==> exists e :: e in items && (e == Str(a) || (e.Dict? && Get(e.entries, "agent") == Some(Str(a))))
    decreases |items|
  {
    if items == [] then []
    else
      var e := items[0];
      var rest := AppliesTo(items[1..]);
      assert forall x :: x in items <==> x == e || x in items[1..];
      var here := if e.Str? then [e.s]
                  else if e.Dict? && Get(e.entries, "agent").Some? && Get(e.entries, "agent").value.Str? then [Get(e.entries, "agent").value.s]
                  else [];
      assert forall a :: a in here <==> (e == Str(a) || (e.Dict? && Get(e.entries, "agent") == Some(Str(a))));
      here + rest
  }

  function ListedAgents(when: Value): seq<string> {
    if when.List? then AppliesTo(when.items) else []
  }

  lemma SortedMembers(s: seq<string>)
    ensures forall x :: x in SortStrings(s) <==> x in s
  {
    forall x ensures x in SortStrings(s) <==> x in s { assert x in SortStrings(s) <==> x in multiset(SortStrings(s)); }
  }

  /** The analysis of one loaded rule against the agents: a wildcard is
      universal; otherwise no listed agent means no coverage with every
      agent missing, listing every agent means universal, and anything
      else is partial with the unlisted agents missing.  Unknown agents
      are the listed names that are not agents. */
  function AnalyzeWhen(when: Value, agents: seq<string>): (a: Analysis)
    ensures IsWildcard(when) ==> a == Analysis([Star], Universal, [], [], "")
    ensures !IsWildcard(when) ==> (a.coverage == NoCoverage <==> ListedAgents(when) == [])
    ensures !IsWildcard(when) ==>
              (a.coverage == Universal <==> ListedAgents(when) != [] && forall x :: x in agents ==> x in ListedAgents(when))
    ensures !IsWildcard(when) ==>
              (a.coverage == Partial <==> ListedAgents(when) != [] && exists x :: x in agents && x !in ListedAgents(when))
    ensures !IsWildcard(when) ==> forall x :: x in a.appliesTo <==> x in ListedAgents(when)
    ensures !IsWildcard(when) ==> forall x :: x in a.unknown <==> x in ListedAgents(when) && x !in agents && x != Star
    ensures !IsWildcard(when) && a.coverage == NoCoverage ==> forall x :: x in a.missing <==> x in agents
    ensures !IsWildcard(when) && a.coverage != NoCoverage ==> forall x :: x in a.missing <==> x in agents && x !in ListedAgents(when)
    ensures a.coverage != Errored && SortedStrings(a.missing) && SortedStrings(a.unknown)
  {
    if IsWildcard(when) then Analysis([Star], Universal, [], [], "")
    else
      var applies := ListedAgents(when);
      var unknown := Filter(applies, x => x !in agents && x != Star);
      SortedMembers(applies);
      SortedMembers(unknown);
      if applies == [] then
        SortedMembers(agents);
        Analysis([], NoCoverage, SortStrings(agents), SortStrings(unknown), "")
      else if forall x :: x in agents ==> x in applies then
        Analysis(SortStrings(applies), Universal, [], SortStrings(unknown), "")
      else
        var missing := Filter(agents, x => x !in applies);
        SortedMembers(missing);
        Analysis(SortStrings(applies), Partial, SortStrings(missing), SortStrings(unknown), "")
  }

  function AnalyzeInfo(info: RuleInfo, agents: seq<string>): (a: Analysis)
    ensures a.coverage == Errored <==> info.Broken?
  {
    match info
    case Broken(_, e) => Analysis([], Errored, [], [], e)
    case Info(_, when) => AnalyzeWhen(when, agents)
  }

  // ---------------------------------------------------------------------
  // Recommendations and the result

  /** `rule_name in CRITICAL_UNIVERSAL_RULES`. */
  predicate IsCritical(name: Value) {
    name.Str? && name.s in CriticalRules
  }

  /** The recommendations for one rule, in the order they are added; the
      rule's key is rendered with `str`, and `repr` renders a list of
      names the way Python prints it. */
  function RecommendationsFor(name: Value, a: Analysis, repr: seq<string> -> string): (r: seq<string>)
    requires Hashable(name)
    ensures a.coverage == Errored ==> r == ["Rule '" + ScalarText(name) + "' has parse error - fix YAML syntax"]
    ensures a.coverage != Errored && IsCritical(name) && a.coverage != Universal ==>
              exists m :: m in r && IsPrefix("CRITICAL: Rule '" + ScalarText(name) + "'", m)
    ensures a.coverage != Errored && (!IsCritical(name) || a.coverage == Universal) ==>
              forall m :: m in r ==> IsPrefix("Rule '" + ScalarText(name) + "'", m)
  {
    var text := ScalarText(name);
    if a.coverage == Errored then ["Rule '" + text + "' has parse error - fix YAML syntax"]
    else
      var critical := "CRITICAL: Rule '" + text + "'";
      var tag := "Rule '" + text + "'";
      var unknownAdvice := tag + " references unknown agents: " + repr(a.unknown);
      var noneAdvice := tag + " has no 'when' specification - add agents or '*'";
      var criticalAdvice := if a.missing != [] then critical + (" should apply to all agents (missing: " + repr(a.missing) + ") - add '*' to when field")
                            else critical + " should apply to all agents - add '*' to when field";
      assert IsPrefix(tag, unknownAdvice) && IsPrefix(tag, noneAdvice) && IsPrefix(critical, criticalAdvice);
      var r := (if a.unknown != [] then [unknownAdvice] else [])
               + (if IsCritical(name) && a.coverage != Universal then [criticalAdvice] else [])
               + (if a.coverage == NoCoverage then [noneAdvice] else []);
      assert IsCritical(name) && a.coverage != Universal ==> criticalAdvice in r;
      r
  }

  datatype Summary = Summary(universal: nat, partial: nat, none: nat)

  datatype Audit =
    | Report(time: string, totalRules: nat, agents: seq<string>, rules: seq<(Value, Analysis)>,
             summary: Summary, recommendations: seq<string>)
    | NoRulesDir
    | AgentsUnsortable      // a non-string agent name makes `sorted(agents)` raise

  function AnalyzeAll(infos: seq<(Value, RuleInfo)>, agents: seq<string>): (r: seq<(Value, Analysis)>)
    ensures |r| == |infos|
    ensures forall i :: 0 <= i < |r| ==> r[i] == (infos[i].0, AnalyzeInfo(infos[i].1, agents))
  {
    seq(|infos|, i requires 0 <= i < |infos| => (infos[i].0, AnalyzeInfo(infos[i].1, agents)))
  }

  function CountCoverage(rs: seq<(Value, Analysis)>, c: Coverage): nat {
    CountWhere(rs, (p: (Value, Analysis)) => p.1.coverage == c)
  }

  /** Every analysis has one coverage: the three counts plus the errors
      account for every rule. */
  lemma {:induction false} CoverageCounts(rs: seq<(Value, Analysis)>)
    ensures CountCoverage(rs, Universal) + CountCoverage(rs, Partial) + CountCoverage(rs, NoCoverage)
            + CountCoverage(rs, Errored) == |rs|
  {
    if rs != [] {
      CoverageCounts(rs[1..]);
    }
  }

  predicate HashableKeys(rs: seq<(Value, Analysis)>) {
    forall i :: 0 <= i < |rs| ==> Hashable(rs[i].0)
  }

  function AllRecommendations(rs: seq<(Value, Analysis)>, repr: seq<string> -> string): (r: seq<string>)
    requires HashableKeys(rs)
    ensures forall i :: 0 <= i < |rs| ==> forall m :: m in RecommendationsFor(rs[i].0, rs[i].1, repr) ==> m in r
    decreases |rs|
  {
    if rs == [] then []
    else
      var rest := AllRecommendations(rs[1..], repr);
      assert forall i :: 1 <= i < |rs| ==> rs[i] == rs[1..][i - 1];
      RecommendationsFor(rs[0].0, rs[0].1, repr) + rest
  }

  /** `audit_rules()`: the agents are read and sorted first, which raises
      on a non-string name; then None for the rules directory means it is
      missing.  The report analyses every loaded rule against the sorted
      agents, and the summary counts every rule parsed without error
      once. */
  function AuditRules(agentDocs: seq<Option<Value>>, ruleFiles: Option<seq<RuleFile>>, now: string,
                      repr: seq<string> -> string, failure: Value -> string): (r: Audit)
    ensures r.AgentsUnsortable? <==> Agents(AgentNamesOf(agentDocs)).None?
    ensures r.NoRulesDir? <==> Agents(AgentNamesOf(agentDocs)).Some? && ruleFiles.None?
    ensures r.Report? ==> r.agents == Agents(AgentNamesOf(agentDocs)).value && Pilot in r.agents && SortedStrings(r.agents)
    ensures r.Report? ==> r.rules == AnalyzeAll(LoadRuleInfos(ruleFiles.value, failure), r.agents)
    ensures r.Report? ==> r.totalRules == |r.rules|
    ensures r.Report? ==> r.summary.universal + r.summary.partial + r.summary.none
                          == |r.rules| - CountCoverage(r.rules, Errored)
    ensures r.Report? ==> HashableKeys(r.rules) && r.recommendations == AllRecommendations(r.rules, repr)
  {
    match Agents(AgentNamesOf(agentDocs))
    case None => AgentsUnsortable
    case Some(agents) =>
      if ruleFiles.None? then NoRulesDir
      else
        var infos := LoadRuleInfos(ruleFiles.value, failure);
        var rs := AnalyzeAll(infos, agents);
        CoverageCounts(rs);
        var recs := AllRecommendations(rs, repr);
        CriticalReported(rs, repr);
        Report(now, |infos|, agents, rs,
               Summary(CountCoverage(rs, Universal), CountCoverage(rs, Partial), CountCoverage(rs, NoCoverage)),
               recs)
  }

  /** Every critical rule that is parsed but not universal gets a
      CRITICAL recommendation. */
  lemma CriticalReported(rs: seq<(Value, Analysis)>, repr: seq<string> -> string)
    requires HashableKeys(rs)
    ensures forall i :: 0 <= i < |rs| && IsCritical(rs[i].0) && rs[i].1.coverage != Universal && rs[i].1.coverage != Errored ==>
              exists m :: m in AllRecommendations(rs, repr) && IsPrefix("CRITICAL: Rule '" + ScalarText(rs[i].0) + "'", m)
  {
    var recs := AllRecommendations(rs, repr);
    forall i | 0 <= i < |rs| && IsCritical(rs[i].0) && rs[i].1.coverage != Universal && rs[i].1.coverage != Errored
      ensures exists m :: m in recs && IsPrefix("CRITICAL: Rule '" + ScalarText(rs[i].0) + "'", m)
    {
      var m :| m in RecommendationsFor(rs[i].0, rs[i].1, repr) && IsPrefix("CRITICAL: Rule '" + ScalarText(rs[i].0) + "'", m);
      assert m in recs;
    }
  }
}

=== FILE: rule_coverage.dfy ===
/** Rule coverage: checking that the declared enforcement of each
    code-enforced rule exists, finding enforcement-looking lines no rule
    accounts for, listing enforcement opportunities, and the coverage
    report.  The file system is a snapshot and regular-expression search
    is an oracle. */
module RuleCoverage {
  import opened Common
  import opened Json
  import opened RuleRegistry

  /** The files the analysis reads, and `re.search(pattern, text,
      re.IGNORECASE)` as an oracle. */
  datatype Files = Files(
    present: string -> bool,
    read: string -> Option<string>,
    search: (string, string) -> bool)

  datatype Verification = Verification(
    rule: string,
    mechanism: string,
    declared: seq<string>,
    present: seq<string>,
    missing: seq<string>,
    found: seq<string>,
    notFound: seq<string>,
    verified: bool,
    notes: string)

  const NoMechanism: string := "none"

  /** `_get_expected_patterns(rule_name)`: the patterns listed for the
      four known rules, else the rule name with every `-` read as any
      character. */
  function ExpectedPatterns(name: string): (r: seq<string>)
    ensures |r| >= 1
    ensures !HasKey(PatternMap, name) ==> r == [ReplaceChar(name, '-', '.')]
  {
    var i := IndexOf(PatternMap, name);
    if i < 0 then [ReplaceChar(name, '-', '.')] else PatternMap[i].1
  }

  const PatternMap: seq<(string, seq<string>)> := [
    ("git-review-required", ["REVIEW_APPROVED", "review.*marker"]),
    ("web-access-policy", ["requests|httpx", "BANNED|blocked"]),
    ("agent-yaml-format", ["yaml\\.safe_load", "\\.yaml"]),
    ("code-enforcement-principle", ["enforcement", "code.*enforc"])]

  /** One file's pattern results: `"f: p"` found or not found, for each
      pattern in order. */
  function PatternsIn(f: string, content: string, patterns: seq<string>, search: (string, string) -> bool): (r: (seq<string>, seq<string>))
    ensures |r.0| + |r.1| == |patterns|
    ensures forall p :: p in patterns && search(p, content) ==> f + ": " + p in r.0
    decreases |patterns|
  {
    if patterns == [] then ([], [])
    else
      var rest := PatternsIn(f, content, patterns[1..], search);
      var tag := f + ": " + patterns[0];
      assert forall p :: p in patterns ==> p == patterns[0] || p in patterns[1..];
      if search(patterns[0], content) then ([tag] + rest.0, rest.1) else (rest.0, [tag] + rest.1)
  }

  predicate Readable(fs: Files, f: string) {
    fs.read(f).Some?
  }

  /** The pattern results over the present files; an unreadable file
      contributes nothing. */
  function PatternResults(files: seq<string>, patterns: seq<string>, fs: Files): (r: (seq<string>, seq<string>))
    ensures |r.0| + |r.1| == |patterns| * CountWhere(files, f => Readable(fs, f))
    decreases |files|
  {
    if files == [] then ([], [])
    else
      var rest := PatternResults(files[1..], patterns, fs);
      var f := files[0];
      var c := CountWhere(files[1..], f => Readable(fs, f));
      if fs.read(f).None? then rest
      else
        var here := PatternsIn(f, fs.read(f).value, patterns, fs.search);
        assert |patterns| * (c + 1) == |patterns| * c + |patterns|;
        (here.0 + rest.0, here.1 + rest.1)
  }

  /** `verify_enforcement(rule_name)`: a rule with no known mechanism is
      unverified with nothing declared; otherwise the declared files are
      split into present and missing, and the rule is verified exactly
      when none is missing and some expected pattern is found. */
  function VerifyEnforcement(name: string, fs: Files): (v: Verification)
    ensures !HasKey(Mechanisms, name) ==>
              v.mechanism == NoMechanism && !v.verified && v.declared == [] && v.present == [] && v.missing == []
    ensures forall f :: f in v.present <==> f in v.declared && fs.present(f)
    ensures forall f :: f in v.missing <==> f in v.declared && !fs.present(f)
    ensures |v.present| + |v.missing| == |v.declared|
    ensures v.verified <==> v.missing == [] && v.found != []
  {
    var i := IndexOf(Mechanisms, name);
    if i < 0 then
      Verification(name, NoMechanism, [], [], [], [], [], false, "No code enforcement declared for this rule")
    else
      var m := Mechanisms[i].1;
      var present := Filter(m.files, fs.present);
      var missing := Filter(m.files, f => !fs.present(f));
      CountComplement(m.files, fs.present, f => !fs.present(f));
      var results := PatternResults(present, ExpectedPatterns(name), fs);
      var verified := missing == [] && results.0 != [];
      var notes :=
        (if missing != [] then ["Missing files: " + Join(missing, ", ")] else [])
        + (if results.1 != [] && results.0 == [] then ["No enforcement patterns found in files"] else [])
        + (if verified then ["Enforcement mechanism verified"] else []);
      Verification(name, m.how, m.files, present, missing, results.0, results.1, verified, Join(notes, "; "))
  }

  /** A verified rule has every declared file present. */
  lemma VerifiedMeansAllPresent(name: string, fs: Files)
    ensures VerifyEnforcement(name, fs).verified ==>
              forall f :: f in VerifyEnforcement(name, fs).declared ==> fs.present(f) && f in VerifyEnforcement(name, fs).present
  {
  }

  /** A known rule declares its mechanism's files, and with all of them
      present and readable every expected pattern is either found or not. */
  lemma KnownRuleDeclaresFiles(name: string, fs: Files)
    requires HasKey(Mechanisms, name)
    ensures VerifyEnforcement(name, fs).declared == Mechanisms[IndexOf(Mechanisms, name)].1.files
    ensures VerifyEnforcement(name, fs).declared != []
  {
    MechanismFilesNonEmpty(IndexOf(Mechanisms, name));
  }

  // ---------------------------------------------------------------------
  // Orphaned enforcement

  /** The files of `ENFORCEMENT_PATTERNS`, in order. */
  const PatternFiles: seq<string> :=
    [".githooks/pre-commit", ".githooks/commit-msg", "lib/guards.py", "lib/approve.py", "tools/feature_tracker.py"]

  /** The substring keywords of `_looks_like_enforcement`, lower-cased. */
  const PlainKeywords: seq<string> :=
    ["blocked", "denied", "prohibited", "banned", "must", "required", "enforce", "validate", "reject", "refuse"]

  /** The one keyword written as a regular expression, which the code
      nevertheless tests as a plain substring. */
  const RegexKeyword: string := "error.*not allowed"

  /** `_looks_like_enforcement(line)` as written: every keyword, the
      regular expression included, is a substring test. */
  predicate LooksLikeEnforcementAsWritten(line: string) {
    AnyIn(Lower(line), PlainKeywords + [RegexKeyword])
  }

  /** "error" followed somewhere later by "not allowed". */
  predicate ErrorThenNotAllowed(text: string) {
    exists i :: 0 <= i <= |text| - 5 && MatchAt(text, "error", i) && Contains(text[i + 5..], "not allowed")
  }

  /** The keyword test with `ERROR.*not allowed` read as the regular
      expression it is written as. */
  predicate LooksLikeEnforcement(line: string) {
    AnyIn(Lower(line), PlainKeywords) || ErrorThenNotAllowed(Lower(line))
  }

  /** A character of `sub` that `s` lacks keeps `sub` out of `s`. */
  lemma AbsentChar(s: string, sub: string, k: int)
    requires 0 <= k < |sub| && !HasChar(s, sub[k])
    ensures !Contains(s, sub)
  {
    forall i | 0 <= i <= |s| - |sub| ensures !MatchAt(s, sub, i) {
      assert s[i + k] in s;
      assert s[i..i + |sub|][k] == s[i + k];
    }
  }

  const ErrorLine: string := "error not allowed"

  /** An error line the regular expression was written for is not taken
      for enforcement as written, and is with the corrected test. */
  lemma RegexKeywordMissed()
    ensures !LooksLikeEnforcementAsWritten(ErrorLine)
    ensures LooksLikeEnforcement(ErrorLine)
  {
    ErrorLineIsLower();
    ErrorLineHasNoKeyword();
    ErrorLineHasRegexMatch();
  }

  lemma ErrorLineHasRegexMatch()
    ensures ErrorThenNotAllowed(ErrorLine)
  {
    assert ErrorLine[0..5] == "error";
    assert ErrorLine[5..][1..12] == "not allowed";
    assert MatchAt(ErrorLine[5..], "not allowed", 1);
    assert MatchAt(ErrorLine, "error", 0) && Contains(ErrorLine[0 + 5..], "not allowed");
  }

  lemma ErrorLineIsLower()
    ensures Lower(ErrorLine) == ErrorLine
  {
    ErrorLineHasNoCapital();
    LowerOfLowerCase(ErrorLine);
  }

  lemma ErrorLineHasNoCapital()
    ensures forall i :: 0 <= i < |ErrorLine| ==> !('A' <= ErrorLine[i] <= 'Z')
  {
  }

  /** Text without upper-case letters lower-cases to itself. */
  lemma LowerOfLowerCase(s: string)
    requires forall i :: 0 <= i < |s| ==> !('A' <= s[i] <= 'Z')
    ensures Lower(s) == s
  {
  }

  lemma ErrorLineHasNoKeyword()
    ensures !AnyIn(ErrorLine, PlainKeywords + [RegexKeyword])
  {
    var l := ErrorLine;
    AbsentChar(l, "blocked", 0);
    AbsentChar(l, "denied", 3);
    AbsentChar(l, "prohibited", 0);
    AbsentChar(l, "banned", 0);
    AbsentChar(l, "must", 0);
    AbsentChar(l, "required", 2);
    AbsentChar(l, "enforce", 2);
    AbsentChar(l, "validate", 0);
    AbsentChar(l, "reject", 2);
    AbsentChar(l, "refuse", 2);
    AbsentChar(l, RegexKeyword, 6);
    var ks := PlainKeywords + [RegexKeyword];
    assert forall j :: 0 <= j < |ks| ==> ks[j] in {"blocked", "denied", "prohibited", "banned", "must", "required",
                                                   "enforce", "validate", "reject", "refuse", RegexKeyword};
  }

  /** Every line the substring test accepts, the corrected test accepts. */
  lemma CorrectedAcceptsMore(line: string)
    ensures LooksLikeEnforcementAsWritten(line) ==> LooksLikeEnforcement(line)
  {
    var l := Lower(line);
    AnyInSnoc(l, PlainKeywords, RegexKeyword);
    if Contains(l, RegexKeyword) {
      RegexSubstringMatches(l);
    }
  }

  /** One more keyword is found exactly when an old one or it is. */
  lemma AnyInSnoc(l: string, ks: seq<string>, k: string)
    ensures AnyIn(l, ks + [k]) <==> AnyIn(l, ks) || Contains(l, k)
  {
    var all := ks + [k];
    if AnyIn(l, all) {
      var j :| 0 <= j < |all| && Contains(l, all[j]);
      if j < |ks| { assert all[j] == ks[j]; }
    }
    if AnyIn(l, ks) {
      var j :| 0 <= j < |ks| && Contains(l, ks[j]);
      assert all[j] == ks[j];
    }
    assert all[|ks|] == k;
  }

  /** Text holding the regular expression's own characters holds a match
      of the regular expression. */
  lemma RegexSubstringMatches(l: string)
    requires Contains(l, RegexKeyword)
    ensures ErrorThenNotAllowed(l)
  {
    var i :| 0 <= i <= |l| - |RegexKeyword| && MatchAt(l, RegexKeyword, i);
    assert RegexKeyword == "error" + ".*" + "not allowed";
    MatchParts(l, "error", ".*", "not allowed", i);
    MatchInSuffix(l, "not allowed", i + 5, i + 7);
  }

  /** A match of `a + b + c` holds a match of `a` where it starts and a
      match of `c` after `b`. */
  lemma MatchParts(s: string, a: string, b: string, c: string, i: int)
    requires MatchAt(s, a + b + c, i)
    ensures MatchAt(s, a, i) && MatchAt(s, c, i + |a| + |b|)
  {
    var w := a + b + c;
    assert s[i..i + |a|] == w[..|a|] == a;
    assert s[i + |a| + |b|..i + |w|] == w[|a| + |b|..] == c;
  }

  /** A match at or after `k` is found in the suffix from `k`. */
  lemma MatchInSuffix(s: string, sub: string, k: int, j: int)
    requires 0 <= k <= j && MatchAt(s, sub, j)
    ensures Contains(s[k..], sub)
  {
    assert s[k..][j - k..j - k + |sub|] == s[j..j + |sub|];
    assert MatchAt(s[k..], sub, j - k);
  }

  /** `_find_rule_for_pattern(line)` tests one rule name against a line:
      the name with `-` as `_` or as a space, or every part of the name
      longer than three characters. */
  predicate NamesLine(name: string, line: string) {
    var l := Lower(line);
    Contains(l, ReplaceChar(name, '-', '_')) || Contains(l, ReplaceChar(name, '-', ' '))
    || forall k :: k in Split(name, '-') && |k| > 3 ==> Contains(l, k)
  }

  /** Position of the first rule name, in registry order, that names the
      line, or -1. */
  function FirstNaming(line: string, names: seq<string>): (i: int)
    ensures -1 <= i < |names|
    ensures i >= 0 ==> NamesLine(names[i], line)
    ensures forall j :: 0 <= j < |names| && (i < 0 || j < i) ==> !NamesLine(names[j], line)
    decreases |names|
  {
    if names == [] then -1
    else if NamesLine(names[0], line) then 0
    else
      var k := FirstNaming(line, names[1..]);
      assert forall j :: 1 <= j < |names| ==> names[j] == names[1..][j - 1];
      if k < 0 then -1 else k + 1
  }

  /** `_find_rule_for_pattern(line)`: the first rule that names the line. */
  function FindRule(line: string, names: seq<string>): (r: Option<string>)
    ensures r.None? <==> forall n :: n in names ==> !NamesLine(n, line)
    ensures r.Some? ==> r.value in names && NamesLine(r.value, line)
    ensures r.Some? ==> exists i :: 0 <= i < |names| && names[i] == r.value && forall j :: 0 <= j < i ==> !NamesLine(names[j], line)
  {
    var i := FirstNaming(line, names);
    if i < 0 then None else Some(names[i])
  }

  const Suggestions: seq<(string, string)> := [
    ("review", "git-review-required"),
    ("import", "web-access-policy"),
    ("yaml", "agent-yaml-format"),
    ("commit", "git-checkpoint"),
    ("file", "naming-conventions")]

  /** `_suggest_rule(line)`: the rule of the first keyword in the line,
      or "". */
  function SuggestRule(line: string): (r: string)
    ensures r == "" <==> forall i :: 0 <= i < |Suggestions| ==> !Contains(Lower(line), Suggestions[i].0)
    ensures r != "" ==> exists i :: 0 <= i < |Suggestions| && Contains(Lower(line), Suggestions[i].0) && r == Suggestions[i].1
  {
    SuggestFrom(Lower(line), Suggestions)
  }

  function SuggestFrom(l: string, table: seq<(string, string)>): (r: string)
    requires forall i :: 0 <= i < |table| ==> table[i].1 != ""
    ensures r == "" <==> forall i :: 0 <= i < |table| ==> !Contains(l, table[i].0)
    ensures r != "" ==> exists i :: 0 <= i < |table| && Contains(l, table[i].0) && r == table[i].1
    decreases |table|
  {
    if table == [] then ""
    else if Contains(l, table[0].0) then table[0].1
    else
      var r := SuggestFrom(l, table[1..]);
      assert forall i :: 1 <= i < |table| ==> table[i] == table[1..][i - 1];
      r
  }

  /** The slice `lines[start:end]` of `_get_context(lines, n, size)`,
      with start max(0, n - size - 1) and end min(len, n + size). */
  function ContextWindow(lines: seq<string>, n: int, size: int): (r: seq<string>)
    ensures size >= 0 ==> |r| <= 2 * size + 1
    ensures 1 <= n <= |lines| && size >= 0 ==> lines[n - 1] in r
    ensures forall x :: x in r ==> x in lines
  {
    var start := if n - size - 1 > 0 then n - size - 1 else 0;
    var end := if |lines| < n + size then |lines| else n + size;
    if start < end then
      assert 1 <= n <= |lines| && size >= 0 ==> lines[start..end][n - 1 - start] == lines[n - 1];
      lines[start..end]
    else []
  }

  function Context(lines: seq<string>, n: int): string {
    Join(ContextWindow(lines, n, 2), "\n")
  }

  datatype Orphan = Orphan(file: string, pattern: string, line: nat, context: string, suggested: string)

  /** The keyword test in use: the corrected one, or the one as written. */
  predicate KeywordTest(line: string, corrected: bool) {
    if corrected then LooksLikeEnforcement(line) else LooksLikeEnforcementAsWritten(line)
  }

  predicate Orphaned(line: string, names: seq<string>, corrected: bool) {
    KeywordTest(line, corrected) && FindRule(line, names).None?
  }

  function OrphanAt(file: string, lines: seq<string>, k: int): Orphan
    requires 0 <= k < |lines|
  {
    Orphan(file, Prefix(Strip(lines[k]), 80), k + 1, Context(lines, k + 1), SuggestRule(lines[k]))
  }

  /** The orphans among `lines[k..]`, numbered from 1, under the keyword
      test `corrected` selects. */
  function OrphansFrom(file: string, lines: seq<string>, k: nat, names: seq<string>, corrected: bool): (r: seq<Orphan>)
    requires k <= |lines|
    ensures forall o :: o in r <==> exists j :: k <= j < |lines| && Orphaned(lines[j], names, corrected) && o == OrphanAt(file, lines, j)
    ensures |r| == CountWhere(lines[k..], OrphanedUnder(names, corrected))
    decreases |lines| - k
  {
    if k == |lines| then []
    else
      var rest := OrphansFrom(file, lines, k + 1, names, corrected);
      assert lines[k..][1..] == lines[k + 1..];
      (if Orphaned(lines[k], names, corrected) then [OrphanAt(file, lines, k)] else []) + rest
  }

  function OrphanedUnder(names: seq<string>, corrected: bool): string -> bool {
    l => Orphaned(l, names, corrected)
  }

  /** Every orphan the code as written reports, the corrected keyword test
      reports too. */
  lemma AsWrittenOrphansKept(file: string, lines: seq<string>, names: seq<string>, o: Orphan)
    requires o in OrphansFrom(file, lines, 0, names, false)
    ensures o in OrphansFrom(file, lines, 0, names, true)
  {
    var j :| 0 <= j < |lines| && Orphaned(lines[j], names, false) && o == OrphanAt(file, lines, j);
    CorrectedAcceptsMore(lines[j]);
  }

  /** `find_orphaned_enforcement()` over the pattern files `files`. */
  function FindOrphans(files: seq<string>, fs: Files, names: seq<string>, corrected: bool): (r: seq<Orphan>)
    ensures forall o :: o in r ==> o.file in files && fs.present(o.file) && o.line >= 1
    decreases |files|
  {
    if files == [] then []
    else
      var f := files[0];
      var here := if fs.present(f) && fs.read(f).Some? then OrphansFrom(f, Split(fs.read(f).value, '\n'), 0, names, corrected) else [];
      here + FindOrphans(files[1..], fs, names, corrected)
  }

  /** An orphan names a line that looks like enforcement and that no
      rule accounts for, with that line inside its context. */
  lemma OrphanLines(file: string, content: string, names: seq<string>, corrected: bool, o: Orphan)
    requires o in OrphansFrom(file, Split(content, '\n'), 0, names, corrected)
    ensures 1 <= o.line <= |Split(content, '\n')|
    ensures Orphaned(Split(content, '\n')[o.line - 1], names, corrected)
    ensures Split(content, '\n')[o.line - 1] in ContextWindow(Split(content, '\n'), o.line, 2)
  {
  }

  // ---------------------------------------------------------------------
  // Opportunities and the report

  datatype Opportunity = Opportunity(
    rule: string, priority: int, description: string, file: string, pattern: string, status: string)

  /** `ENFORCEMENT_OPPORTUNITIES` with priority left to fill in. */
  const OpportunityTable: seq<Opportunity> := [
    Opportunity("namespace-privacy", 0, "Namespace privacy could be enforced by scanning imports",
                "lib/guards.py", "Check for cross-namespace imports", "not_implemented"),
    Opportunity("naming-conventions", 0, "File naming could be validated in pre-commit",
                ".githooks/pre-commit", "Validate file names against patterns", "not_implemented"),
    Opportunity("context-first", 0, "Could verify context.py was called before agent invocation",
                "lib/invoke.py", "Check for recent context gathering", "not_implemented"),
    Opportunity("document-after-commit", 0, "Already implemented via knowledge_check.py",
                "lib/knowledge_check.py", "Post-commit knowledge capture", "implemented")]

  function OpportunityPriority(o: Opportunity): int { o.priority }

  function Known(table: seq<Opportunity>, rules: seq<Rule>): (r: seq<Opportunity>)
    ensures forall o :: o in r ==> IndexOfName(rules, o.rule) >= 0 && o.priority == rules[IndexOfName(rules, o.rule)].priority
    ensures forall i :: 0 <= i < |table| && IndexOfName(rules, table[i].rule) >= 0 ==> exists o :: o in r && o.rule == table[i].rule
    decreases |table|
  {
    if table == [] then []
    else
      var t := table[0];
      var i := IndexOfName(rules, t.rule);
      var rest := Known(table[1..], rules);
      assert forall k :: 1 <= k < |table| ==> table[k] == table[1..][k - 1];
      (if i >= 0 then [t.(priority := rules[i].priority)] else []) + rest
  }

  /** `get_opportunities()`: the table entries whose rule is loaded, with
      the rule's priority, highest first. */
  function GetOpportunities(rules: seq<Rule>): (r: seq<Opportunity>)
    ensures SortedDescBy(r, OpportunityPriority)
    ensures forall o :: o in r ==> IndexOfName(rules, o.rule) >= 0 && o.priority == rules[IndexOfName(rules, o.rule)].priority
    ensures forall t :: t in OpportunityTable && IndexOfName(rules, t.rule) >= 0 ==>
              exists o :: o in r && o.rule == t.rule
  {
    RankKnown(OpportunityTable, rules)
  }

  /** The entries of `table` whose rule is loaded, re-prioritised, highest
      first. */
  function RankKnown(table: seq<Opportunity>, rules: seq<Rule>): (r: seq<Opportunity>)
    ensures SortedDescBy(r, OpportunityPriority)
    ensures forall o :: o in r ==> IndexOfName(rules, o.rule) >= 0 && o.priority == rules[IndexOfName(rules, o.rule)].priority
    ensures forall t :: t in table && IndexOfName(rules, t.rule) >= 0 ==>
              exists o :: o in r && o.rule == t.rule
  {
    var known := Known(table, rules);
    var r := SortDescBy(known, OpportunityPriority);
    SameMembers(known, r);
    r
  }

  lemma SameMembers<T>(a: seq<T>, b: seq<T>)
    requires multiset(b) == multiset(a)
    ensures forall x :: x in b <==> x in a
  {
    forall x ensures x in b <==> x in a { assert x in b <==> x in multiset(b); }
  }

  datatype Report = Report(
    timestamp: string,
    total: nat,
    codeEnforced: nat,
    verifiedCount: nat,
    failedCount: nat,
    coverage: real,
    verifications: seq<Verification>,
    orphans: seq<Orphan>,
    opportunities: seq<Opportunity>,
    summary: string)

  /** The verifications of every known mechanism, in table order. */
  function VerifyAll(names: seq<string>, fs: Files): (r: seq<Verification>)
    ensures |r| == |names|
    ensures forall i :: 0 <= i < |r| ==> r[i] == VerifyEnforcement(names[i], fs)
  {
    seq(|names|, i requires 0 <= i < |names| => VerifyEnforcement(names[i], fs))
  }

  function IsVerified(v: Verification): bool { v.verified }

  /** The percentage of rules verified; 0 with no rules. */
  function Coverage(verified: nat, total: nat): (c: real)
    ensures total == 0 ==> c == 0.0
    ensures total > 0 ==> c * (total as real) == (verified as real) * 100.0
    ensures c >= 0.0
  {
    if total > 0 then (verified as real) / (total as real) * 100.0 else 0.0
  }

  /** The report's parts that do not depend on the summary. */
  function ReportParts(rules: seq<Rule>, fs: Files, now: string, corrected: bool): (r: Report)
    ensures r.total == |rules| && r.codeEnforced == |Mechanisms|
    ensures r.verifiedCount + r.failedCount == r.codeEnforced == |r.verifications|
    ensures r.verifiedCount == CountWhere(r.verifications, IsVerified)
    ensures r.coverage == Coverage(r.verifiedCount, r.total)
    ensures r.orphans == FindOrphans(PatternFiles, fs, RuleNames(rules), corrected)
    ensures r.opportunities == GetOpportunities(rules) && r.timestamp == now
  {
    var vs := VerifyAll(Keys(Mechanisms), fs);
    var ok := CountWhere(vs, IsVerified);
    CountComplement(vs, IsVerified, v => !IsVerified(v));
    Report(now, |rules|, |Mechanisms|, ok, |vs| - ok, Coverage(ok, |rules|), vs,
           FindOrphans(PatternFiles, fs, RuleNames(rules), corrected), GetOpportunities(rules), "")
  }

  function RuleNames(rules: seq<Rule>): seq<string> {
    seq(|rules|, i requires 0 <= i < |rules| => rules[i].name)
  }

  function SummaryParts(r: Report, share: string): seq<string> {
    ["Total rules: " + NatToString(r.total),
     "Code-enforced: " + NatToString(r.codeEnforced) + " (" + share + "%)",
     "Verified: " + NatToString(r.verifiedCount) + "/" + NatToString(r.codeEnforced)]
    + (if r.failedCount > 0 then ["FAILED: " + NatToString(r.failedCount)] else [])
    + (if r.orphans != [] then ["Orphaned enforcement: " + NatToString(|r.orphans|)] else [])
  }

  /** The share of code-enforced rules, guarded the way the coverage is. */
  function GuardedShare(code: nat, total: nat): real {
    if total > 0 then (code as real) / (total as real) * 100.0 else 0.0
  }

  function WithSummary(parts: Report, share: string): (r: Report)
    ensures r == parts.(summary := r.summary)
  {
    parts.(summary := Join(SummaryParts(parts, share), " | "))
  }

  /** `analyze()` as written: the summary divides the code-enforced count
      by the number of rules without the guard the coverage has, so with
      no rules loaded it raises (None), and the orphan search tests every
      keyword as a substring.  `fmt1` renders `:.1f`. */
  function AnalyzeAsWritten(rules: seq<Rule>, fs: Files, now: string, fmt1: real -> string): (r: Option<Report>)
    ensures r.None? <==> rules == []
    ensures r.Some? ==> r.value.total == |rules| && r.value.verifiedCount + r.value.failedCount == |Mechanisms|
    ensures r.Some? ==> r.value.orphans == FindOrphans(PatternFiles, fs, RuleNames(rules), false)
  {
    if |rules| == 0 then None
    else Some(WithSummary(ReportParts(rules, fs, now, false), fmt1(GuardedShare(|Mechanisms|, |rules|))))
  }

  /** An empty rules directory makes the analysis raise. */
  lemma NoRulesRaises(fs: Files, now: string, fmt1: real -> string)
    ensures AnalyzeAsWritten([], fs, now, fmt1).None?
  {
  }

  /** `analyze()` with both corrections: the share guarded the way the
      coverage is (0 with no rules), and the orphan search reading
      `ERROR.*not allowed` as a regular expression.  Apart from the orphans
      and the summary that counts them, it is the report as written. */
  function Analyze(rules: seq<Rule>, fs: Files, now: string, fmt1: real -> string): (r: Report)
    ensures r.verifiedCount + r.failedCount == |Mechanisms| == |r.verifications|
    ensures r.verifiedCount == CountWhere(r.verifications, IsVerified)
    ensures rules == [] ==> r.coverage == 0.0
    ensures r.total == |rules| && r.coverage == Coverage(r.verifiedCount, r.total)
    ensures r.orphans == FindOrphans(PatternFiles, fs, RuleNames(rules), true)
    ensures rules != [] ==> AnalyzeAsWritten(rules, fs, now, fmt1).Some?
    ensures rules != [] ==>
      (var w := AnalyzeAsWritten(rules, fs, now, fmt1).value;
       r.(orphans := w.orphans, summary := w.summary) == w)
  {
    WithSummary(ReportParts(rules, fs, now, true), fmt1(GuardedShare(|Mechanisms|, |rules|)))
  }
}

=== FILE: rule_registry.dfy ===
/** The rule registry: rules loaded from YAML documents, their
    enforcement level, ordering by priority, the rules that apply to an
    agent, priority conflicts, enforcement gaps and the level hierarchy. */
module RuleRegistry {
  import opened Common
  import opened Json

  datatype Level = CodeEnforced | ContextInjected | PromptOnly
  {
    function Text(): string {
      match this
      case CodeEnforced => "code-enforced"
      case ContextInjected => "context-injected"
      case PromptOnly => "prompt-only"
    }
  }

  /** A known code enforcement: what enforces the rule and where. */
  datatype Mechanism = Mechanism(how: string, files: seq<string>)

  const GitReview: (string, Mechanism) :=
    ("git-review-required", Mechanism("pre-commit hook checks REVIEW_APPROVED marker", [".githooks/pre-commit", "lib/approve.py"]))
  const WebAccess: (string, Mechanism) :=
    ("web-access-policy", Mechanism("import guard blocks requests/httpx", ["lib/guards.py"]))
  const AgentYaml: (string, Mechanism) :=
    ("agent-yaml-format", Mechanism("pre-commit YAML validation", [".githooks/pre-commit"]))
  const EnforcementPrinciple: (string, Mechanism) :=
    ("code-enforcement-principle", Mechanism("meta-rule - enforced by git-reviewer review", ["agents/git-reviewer.yaml"]))

  const Mechanisms: seq<(string, Mechanism)> := [GitReview, WebAccess, AgentYaml, EnforcementPrinciple]

  const DefaultPriority: int := 50
  const Universal: string := "*"

  datatype Rule = Rule(
    name: string,
    description: Value,
    priority: int,
    when: Value,
    text: string,
    path: string,
    level: Level,
    mechanism: Option<string>,
    files: seq<string>)

  function Priority(r: Rule): int { r.priority }

  // ---------------------------------------------------------------------
  // Loading

  /** The context-injection heuristic on a rule's text. */
  predicate MentionsInjection(text: string) {
    Contains(Lower(text), "context") && Contains(Lower(text), "inject")
  }

  /** The enforcement level of a rule: code-enforced when a mechanism is
      known for its name, else context-injected when its text mentions
      context injection, else prompt-only. */
  function LevelOf(name: string, text: string): (l: Level)
    ensures l == CodeEnforced <==> HasKey(Mechanisms, name)
    ensures l == ContextInjected <==> !HasKey(Mechanisms, name) && MentionsInjection(text)
    ensures l == PromptOnly <==> !HasKey(Mechanisms, name) && !MentionsInjection(text)
  {
    if HasKey(Mechanisms, name) then CodeEnforced
    else if MentionsInjection(text) then ContextInjected
    else PromptOnly
  }

  /** What loading one YAML document gives: nothing, a rule, an exception
      that ends the load, or a rule Python stores but `Rule` here cannot
      hold (a non-string name, a non-integer priority, or a non-string
      rule text under a mechanism's name). */
  datatype RuleLoad = Skipped | Loaded(rule: Rule) | Raises | Unfollowed

  /** `"name" in data` for a non-object document. */
  predicate NameIn(data: Value) {
    (data.Str? && Contains(data.s, "name")) || (data.List? && Str("name") in data.items)
  }

  /** A `name` that is a string of the mechanism table. */
  predicate MechanismName(n: Value) {
    n.Str? && HasKey(Mechanisms, n.s)
  }

  function LoadRule(data: Value, path: string): (r: RuleLoad)
    ensures r.Loaded? ==> data.Dict? && Get(data.entries, "name") == Some(Str(r.rule.name))
    ensures r.Loaded? ==> r.rule.level == LevelOf(r.rule.name, r.rule.text)
    ensures r.Loaded? ==> (r.rule.mechanism.Some? <==> r.rule.level == CodeEnforced)
    ensures r.Loaded? ==> (r.rule.files != [] <==> r.rule.level == CodeEnforced)
    ensures r.Loaded? && !HasKey(data.entries, "priority") ==> r.rule.priority == DefaultPriority
    ensures r.Loaded? && !HasKey(data.entries, "when") ==> r.rule.when == Str(Universal)
    ensures r.Skipped? <==> !Truthy(data) || (data.Dict? && !HasKey(data.entries, "name")) || ((data.Str? || data.List?) && !NameIn(data))
    ensures r.Raises? <==>
              || (Truthy(data) && (data.Num? || data.Bool?))
              || ((data.Str? || data.List?) && NameIn(data))
              || (data.Dict? && var n := Get(data.entries, "name");
                  n.Some? && (!Hashable(n.value) || (!MechanismName(n.value) && !Get(data.entries, "rule").GetOr(Str("")).Str?)))
  {
    if !Truthy(data) then Skipped
    else if data.Num? || data.Bool? then Raises
    else if !data.Dict? then (if NameIn(data) then Raises else Skipped)
    else
      var e := data.entries;
      match Get(e, "name")
      case None => Skipped
      case Some(n) =>
        var text := Get(e, "rule").GetOr(Str(""));
        var priority := Get(e, "priority").GetOr(Num(DefaultPriority));
        if !Hashable(n) then Raises                          // cannot be looked up in the mechanism table
        else if !MechanismName(n) && !text.Str? then Raises  // the injection check lower-cases the text
        else if !n.Str? || !text.Str? || !priority.Num? then Unfollowed
        else
          var level := LevelOf(n.s, text.s);
          var mech := if level == CodeEnforced then Some(Mechanisms[IndexOf(Mechanisms, n.s)].1) else None;
          Loaded(Rule(
            n.s, Get(e, "description").GetOr(Str("")), priority.n, Get(e, "when").GetOr(Str(Universal)),
            text.s, path, level,
            if mech.Some? then Some(mech.value.how) else None,
            if mech.Some? then mech.value.files else []))
  }

  /** Every known mechanism names at least one file. */
  lemma MechanismFilesNonEmpty(i: int)
    requires 0 <= i < |Mechanisms|
    ensures Mechanisms[i].1.files != []
  {
  }

  predicate DistinctNames(rules: seq<Rule>) {
    forall i, j :: 0 <= i < j < |rules| ==> rules[i].name != rules[j].name
  }

  function IndexOfName(rules: seq<Rule>, name: string): (i: int)
    ensures -1 <= i < |rules|
    ensures i >= 0 ==> rules[i].name == name
    ensures i < 0 ==> forall j :: 0 <= j < |rules| ==> rules[j].name != name
  {
    if rules == [] then -1
    else
      var k := IndexOfName(rules[..|rules| - 1], name);
      if k >= 0 then k else if rules[|rules| - 1].name == name then |rules| - 1 else -1
  }

  /** `self.rules[name] = rule`: a new name goes last, a known one is
      replaced where it stands. */
  function Put(rules: seq<Rule>, rule: Rule): (r: seq<Rule>)
    requires DistinctNames(rules)
    ensures DistinctNames(r)
    ensures rule in r
    ensures forall x :: x in r ==> x == rule || (x in rules && x.name != rule.name)
    ensures forall x :: x in rules && x.name != rule.name ==> x in r
    ensures |r| == if IndexOfName(rules, rule.name) >= 0 then |rules| else |rules| + 1
  {
    var i := IndexOfName(rules, rule.name);
    if i < 0 then rules + [rule]
    else
      var r := rules[i := rule];
      assert r[i] == rule;
      assert forall x :: x in r ==> x == rule || (x in rules && x.name != rule.name) by {
        forall x | x in r ensures x == rule || (x in rules && x.name != rule.name) {
          var k :| 0 <= k < |r| && r[k] == x;
          if k != i { assert rules[k] == x && rules[k].name != rules[i].name; }
        }
      }
      assert forall x :: x in rules && x.name != rule.name ==> x in r by {
        forall x | x in rules && x.name != rule.name ensures x in r {
          var k :| 0 <= k < |rules| && rules[k] == x;
          assert r[k] == x;
        }
      }
      r
  }

  /** A YAML file as `load_rules` sees it: a document, or a read or parse
      error that is reported and skipped. */
  datatype RuleFile = RuleFile(path: string, doc: Option<Value>)

  /** `load_rules()` over the files of the rules directory, in glob
      order; None when a document raises or stores a rule outside this
      model. */
  function LoadRules(files: seq<RuleFile>): (r: Option<seq<Rule>>)
    ensures r.Some? ==> DistinctNames(r.value) && |r.value| <= |files|
    ensures r.Some? ==> forall x :: x in r.value ==>
              exists f :: f in files && f.doc.Some? && LoadRule(f.doc.value, f.path) == Loaded(x)
    decreases |files|
  {
    if files == [] then Some([])
    else
      var last := files[|files| - 1];
      var init := files[..|files| - 1];
      match LoadRules(init)
      case None => None
      case Some(rules) =>
        assert forall f :: f in init ==> f in files;
        if last.doc.None? then Some(rules)
        else
          match LoadRule(last.doc.value, last.path)
          case Skipped => Some(rules)
          case Raises => None
          case Unfollowed => None
          case Loaded(rule) => Some(Put(rules, rule))
  }

  /** A later file with the same rule name replaces the earlier rule. */
  lemma LaterFileWins(files: seq<RuleFile>, f: RuleFile, rule: Rule)
    requires f.doc.Some? && LoadRule(f.doc.value, f.path) == Loaded(rule)
    ensures LoadRules(files + [f]).Some? ==> rule in LoadRules(files + [f]).value
    ensures LoadRules(files + [f]).Some? ==>
              forall x :: x in LoadRules(files + [f]).value && x.name == rule.name ==> x == rule
  {
    assert (files + [f])[..|files + [f]| - 1] == files;
  }

  // ---------------------------------------------------------------------
  // Queries

  /** `get_rules_by_priority()`. */
  function ByPriority(rules: seq<Rule>): (r: seq<Rule>)
    ensures SortedDescBy(r, Priority)
    ensures multiset(r) == multiset(rules)
  {
    SortDescBy(rules, Priority)
  }

  /** Whether a rule's `when` selects the agent: the universal scope, a
      list with an `{agent: a}` entry, or a string containing the name. */
  predicate Applies(when: Value, agent: string) {
    if when == Str(Universal) then true
    else if when.List? then exists c :: c in when.items && c.Dict? && Get(c.entries, "agent") == Some(Str(agent))
    else when.Str? && Contains(when.s, agent)
  }

  /** `get_rules_for_agent(agent)`. */
  function RulesForAgent(rules: seq<Rule>, agent: string): (r: seq<Rule>)
    ensures SortedDescBy(r, Priority)
    ensures forall x :: x in r <==> x in rules && Applies(x.when, agent)
    ensures |r| == CountWhere(rules, (x: Rule) => Applies(x.when, agent))
  {
    var applicable := Filter(rules, (x: Rule) => Applies(x.when, agent));
    var r := SortDescBy(applicable, Priority);
    assert forall x :: x in r <==> x in applicable by {
      forall x ensures x in r <==> x in applicable {
        assert x in r <==> x in multiset(r);
      }
    }
    r
  }

  /** A universal rule applies to every agent; a list holding the string
      "*" is not universal and applies to nobody through that entry. */
  lemma UniversalScope(agent: string)
    ensures Applies(Str(Universal), agent)
    ensures !Applies(List([Str(Universal)]), agent)
  {
  }

  // ---------------------------------------------------------------------
  // Conflicts

  /** `get_agents(when)` of `_scopes_overlap`: the agents of a list's
      `{agent: …}` entries, or `str(when)` for anything else. */
  function AgentsOf(when: Value, strOf: Value -> string): (s: set<Value>)
    ensures when.List? ==> forall a :: a in s <==> exists c :: c in when.items && c.Dict? && HasKey(c.entries, "agent") && Get(c.entries, "agent") == Some(a)
    ensures !when.List? ==> s == {Str(PyStr(when, strOf))}
  {
    if when.List? then
      set c, a | c in when.items && c.Dict? && HasKey(c.entries, "agent") && Get(c.entries, "agent") == Some(a) && a in AgentValues(when.items) :: a
    else {Str(PyStr(when, strOf))}
  }

  /** The values found under "agent" in a list's objects. */
  function AgentValues(items: seq<Value>): (r: seq<Value>)
    ensures forall c :: c in items && c.Dict? && HasKey(c.entries, "agent") ==> Get(c.entries, "agent").value in r
  {
    if items == [] then []
    else
      var c := items[0];
      (if c.Dict? && HasKey(c.entries, "agent") then [Get(c.entries, "agent").value] else []) + AgentValues(items[1..])
  }

  /** `_scopes_overlap(w1, w2)`. */
  predicate ScopesOverlap(w1: Value, w2: Value, strOf: Value -> string) {
    w1 == Str(Universal) || w2 == Str(Universal) || AgentsOf(w1, strOf) * AgentsOf(w2, strOf) != {}
  }

  lemma OverlapSymmetric(w1: Value, w2: Value, strOf: Value -> string)
    ensures ScopesOverlap(w1, w2, strOf) <==> ScopesOverlap(w2, w1, strOf)
  {
    assert AgentsOf(w1, strOf) * AgentsOf(w2, strOf) == AgentsOf(w2, strOf) * AgentsOf(w1, strOf);
  }

  /** Two lists with a common `{agent: a}` entry overlap. */
  lemma SharedAgentOverlaps(w1: Value, w2: Value, a: string, strOf: Value -> string)
    requires w1.List? && w2.List?
    requires Dict([("agent", Str(a))]) in w1.items && Dict([("agent", Str(a))]) in w2.items
    ensures ScopesOverlap(w1, w2, strOf)
  {
    var c := Dict([("agent", Str(a))]);
    assert c.entries[0].0 == "agent";
    assert Get(c.entries, "agent") == Some(Str(a));
    assert Str(a) in AgentsOf(w1, strOf);
    assert Str(a) in AgentsOf(w2, strOf);
    assert Str(a) in AgentsOf(w1, strOf) * AgentsOf(w2, strOf);
  }

  datatype Conflict = Conflict(rule1: string, rule2: string, kind: string, description: string, severity: string)

  predicate Clash(a: Rule, b: Rule, strOf: Value -> string) {
    a.priority == b.priority && ScopesOverlap(a.when, b.when, strOf)
  }

  function PriorityConflict(a: Rule, b: Rule): Conflict {
    Conflict(a.name, b.name, "priority",
             "Both rules have priority " + IntToString(a.priority) + " and overlapping scope", "medium")
  }

  /** The conflicts of one rule with the rules after it. */
  function ConflictsWith(a: Rule, later: seq<Rule>, strOf: Value -> string): (r: seq<Conflict>)
    ensures forall c :: c in r <==> exists j :: 0 <= j < |later| && Clash(a, later[j], strOf) && c == PriorityConflict(a, later[j])
    decreases |later|
  {
    if later == [] then []
    else
      var rest := ConflictsWith(a, later[1..], strOf);
      assert forall j :: 1 <= j < |later| ==> later[1..][j - 1] == later[j];
      (if Clash(a, later[0], strOf) then [PriorityConflict(a, later[0])] else []) + rest
  }

  /** `detect_conflicts()`: one priority conflict per pair of rules, in
      list order, with equal priority and overlapping scope.  The
      directive check never reports, so no other kind appears. */
  function DetectConflicts(rules: seq<Rule>, strOf: Value -> string): (r: seq<Conflict>)
    ensures forall c :: c in r ==> c.kind == "priority" && c.severity == "medium"
    ensures forall c :: c in r <==>
              exists i, j :: 0 <= i < j < |rules| && Clash(rules[i], rules[j], strOf) && c == PriorityConflict(rules[i], rules[j])
    decreases |rules|
  {
    if rules == [] then []
    else
      var head := ConflictsWith(rules[0], rules[1..], strOf);
      var rest := DetectConflicts(rules[1..], strOf);
      ConflictPairs(rules, head, rest, strOf);
      head + rest
  }

  lemma ConflictPairs(rules: seq<Rule>, head: seq<Conflict>, rest: seq<Conflict>, strOf: Value -> string)
    requires rules != []
    requires forall c :: c in head <==> exists j :: 0 <= j < |rules[1..]| && Clash(rules[0], rules[1..][j], strOf) && c == PriorityConflict(rules[0], rules[1..][j])
    requires forall c :: c in rest <==>
               exists i, j :: 0 <= i < j < |rules[1..]| && Clash(rules[1..][i], rules[1..][j], strOf) && c == PriorityConflict(rules[1..][i], rules[1..][j])
    ensures forall c :: c in head + rest <==>
              exists i, j :: 0 <= i < j < |rules| && Clash(rules[i], rules[j], strOf) && c == PriorityConflict(rules[i], rules[j])
  {
    forall c ensures c in head + rest <==>
        exists i, j :: 0 <= i < j < |rules| && Clash(rules[i], rules[j], strOf) && c == PriorityConflict(rules[i], rules[j])
    {
      if c in head {
        var j :| 0 <= j < |rules[1..]| && Clash(rules[0], rules[1..][j], strOf) && c == PriorityConflict(rules[0], rules[1..][j]);
        assert rules[1..][j] == rules[j + 1];
      } else if c in rest {
        var i, j :| 0 <= i < j < |rules[1..]| && Clash(rules[1..][i], rules[1..][j], strOf) && c == PriorityConflict(rules[1..][i], rules[1..][j]);
        assert rules[1..][i] == rules[i + 1] && rules[1..][j] == rules[j + 1];
      }
      if exists i, j :: 0 <= i < j < |rules| && Clash(rules[i], rules[j], strOf) && c == PriorityConflict(rules[i], rules[j]) {
        var i, j :| 0 <= i < j < |rules| && Clash(rules[i], rules[j], strOf) && c == PriorityConflict(rules[i], rules[j]);
        if i == 0 {
          assert rules[1..][j - 1] == rules[j];
          assert c in head;
        } else {
          assert rules[1..][i - 1] == rules[i] && rules[1..][j - 1] == rules[j];
          assert c in rest;
        }
      }
    }
  }

  // ---------------------------------------------------------------------
  // Gaps and hierarchy

  datatype Suggestion = Suggestion(reason: string, mechanism: string)

  const FileWords: seq<string> := ["file", "format", "yaml", "json"]
  const ImportWords: seq<string> := ["import", "library", "module"]
  const GitWords: seq<string> := ["commit", "message", "git"]

  predicate MentionsAny(text: string, words: seq<string>) {
    exists w :: w in words && Contains(Lower(text), w)
  }

  const FileSuggestion: Suggestion :=
    Suggestion("File-related rules can be validated in pre-commit", "Add validation to .githooks/pre-commit")
  const ImportSuggestion: Suggestion :=
    Suggestion("Import rules can be enforced via lib/guards.py", "Add import check to lib/guards.py")
  const GitSuggestion: Suggestion :=
    Suggestion("Git rules can be enforced via hooks", "Add check to .githooks/pre-commit or commit-msg")

  /** `_suggest_enforcement(rule)`: the keyword groups are tried in order
      file, import, git. */
  function Suggest(text: string): (r: Option<Suggestion>)
    ensures r.Some? <==> MentionsAny(text, FileWords) || MentionsAny(text, ImportWords) || MentionsAny(text, GitWords)
    ensures r == Some(ImportSuggestion) ==> !MentionsAny(text, FileWords)
    ensures r == Some(GitSuggestion) ==> !MentionsAny(text, FileWords) && !MentionsAny(text, ImportWords)
    ensures MentionsAny(text, FileWords) ==> r == Some(FileSuggestion)
  {
    if MentionsAny(text, FileWords) then Some(FileSuggestion)
    else if MentionsAny(text, ImportWords) then Some(ImportSuggestion)
    else if MentionsAny(text, GitWords) then Some(GitSuggestion)
    else None
  }

  datatype Gap = Gap(rule: string, current: Level, recommended: Level, reason: string, mechanism: string)

  predicate HasGap(rule: Rule) {
    rule.level == PromptOnly && Suggest(rule.text).Some?
  }

  function GapOf(rule: Rule): Gap
    requires HasGap(rule)
  {
    var s := Suggest(rule.text).value;
    Gap(rule.name, rule.level, CodeEnforced, s.reason, s.mechanism)
  }

  /** `audit_enforcement()`: a gap for each prompt-only rule with a
      suggestion, in rule order. */
  function AuditEnforcement(rules: seq<Rule>): (r: seq<Gap>)
    ensures |r| == CountWhere(rules, HasGap)
    ensures forall g :: g in r ==> g.current == PromptOnly && g.recommended == CodeEnforced
    ensures forall g :: g in r <==> exists x :: x in rules && HasGap(x) && g == GapOf(x)
    decreases |rules|
  {
    if rules == [] then []
    else
      var rest := AuditEnforcement(rules[1..]);
      assert forall x :: x in rules <==> x == rules[0] || x in rules[1..];
      (if HasGap(rules[0]) then [GapOf(rules[0])] else []) + rest
  }

  /** A code-enforced or context-injected rule never has a gap. */
  lemma EnforcedRulesHaveNoGap(rules: seq<Rule>, x: Rule)
    requires x in rules && x.level != PromptOnly
    ensures forall g :: g in AuditEnforcement(rules) ==> g.rule != x.name || exists y :: y in rules && y != x && y.name == x.name
  {
  }

  datatype Entry = Entry(name: string, priority: int, description: Value, scope: Value, mechanism: Option<string>)

  datatype Hierarchy = Hierarchy(
    timestamp: string, total: nat,
    code: seq<Entry>, context: seq<Entry>, prompt: seq<Entry>,
    order: seq<string>)

  function EntryOf(rule: Rule): Entry {
    Entry(rule.name, rule.priority, rule.description, rule.when, rule.mechanism)
  }

  function Entries(rules: seq<Rule>): (r: seq<Entry>)
    ensures |r| == |rules| && forall i :: 0 <= i < |r| ==> r[i] == EntryOf(rules[i])
  {
    seq(|rules|, i requires 0 <= i < |rules| => EntryOf(rules[i]))
  }

  /** `get_hierarchy()` at time `now`: every rule lands in the bucket of
      its level, in priority order, and the order lists every rule. */
  function GetHierarchy(rules: seq<Rule>, now: string): (h: Hierarchy)
    ensures h.total == |rules| == |h.order|
    ensures |h.code| + |h.context| + |h.prompt| == h.total
    ensures forall x :: x in rules ==> x.name in h.order
    ensures forall x :: x in rules && x.level == CodeEnforced ==> EntryOf(x) in h.code
    ensures forall x :: x in rules && x.level == ContextInjected ==> EntryOf(x) in h.context
    ensures forall x :: x in rules && x.level == PromptOnly ==> EntryOf(x) in h.prompt
  {
    var sorted := ByPriority(rules);
    SortedKeepsRules(rules, sorted);
    LevelsPartition(sorted);
    Hierarchy(now, |rules|, Bucket(sorted, CodeEnforced), Bucket(sorted, ContextInjected), Bucket(sorted, PromptOnly),
              PriorityOrder(sorted))
  }

  lemma SortedKeepsRules(rules: seq<Rule>, sorted: seq<Rule>)
    requires multiset(sorted) == multiset(rules)
    ensures forall x :: x in rules ==> x in sorted
  {
    forall x | x in rules ensures x in sorted { assert x in multiset(rules); }
  }

  /** The `priority_order` names. */
  function PriorityOrder(rules: seq<Rule>): (r: seq<string>)
    ensures |r| == |rules|
    ensures forall x :: x in rules ==> x.name in r
  {
    var names := seq(|rules|, i requires 0 <= i < |rules| => rules[i].name);
    assert forall x :: x in rules ==> x.name in names by {
      forall x | x in rules ensures x.name in names {
        var k :| 0 <= k < |rules| && rules[k] == x;
        assert names[k] == x.name;
      }
    }
    names
  }

  /** The entries of one level's bucket, in the order of `rules`. */
  function Bucket(rules: seq<Rule>, level: Level): (r: seq<Entry>)
    ensures |r| == CountWhere(rules, (x: Rule) => x.level == level)
    ensures forall x :: x in rules && x.level == level ==> EntryOf(x) in r
  {
    var at := Filter(rules, (x: Rule) => x.level == level);
    var r := Entries(at);
    assert forall x :: x in at ==> EntryOf(x) in r by {
      forall x | x in at ensures EntryOf(x) in r {
        var k :| 0 <= k < |at| && at[k] == x;
        assert r[k] == EntryOf(x);
      }
    }
    r
  }

  /** Each rule has exactly one level, so the buckets of `get_hierarchy`
      hold every rule once. */
  lemma {:induction false} LevelsPartition(rules: seq<Rule>)
    ensures |Bucket(rules, CodeEnforced)| + |Bucket(rules, ContextInjected)| + |Bucket(rules, PromptOnly)| == |rules|
  {
    if rules != [] {
      LevelsPartition(rules[1..]);
    }
  }
}

=== FILE: run.dfy ===
/** Runs: one unit of work with a sequential number inside its project,
    the agents, tools and files it touched, a status that ends completed
    or failed, a manifest under the project's `.runs` directory and a git
    commit message. */
module Run {
  import opened Common
  import opened Json

  // ---------------------------------------------------------------------
  // Run numbers

  /** The run number a manifest stem carries: `int(stem.split("_")[0])`. */
  function StemNumber(stem: string): Option<int> {
    PyInt(Split(stem, '_')[0])
  }

  /** The stems' numbers, None where a stem does not start with one. */
  function StemNumbers(stems: seq<string>): (r: seq<Option<int>>)
    ensures |r| == |stems| && forall i :: 0 <= i < |stems| ==> r[i] == StemNumber(stems[i])
  {
    seq(|stems|, i requires 0 <= i < |stems| => StemNumber(stems[i]))
  }

  /** The present values, in order. */
  function Present(ps: seq<Option<int>>): (r: seq<int>)
    ensures forall n :: n in r <==> exists i :: 0 <= i < |ps| && ps[i] == Some(n)
  {
    if ps == [] then []
    else
      var rest := Present(ps[1..]);
      assert forall i :: 1 <= i < |ps| ==> ps[i] == ps[1..][i - 1];
      (match ps[0] case Some(n) => [n] case None => []) + rest
  }

  function Numbers(stems: seq<string>): (r: seq<int>)
    ensures forall n :: n in r <==> exists i :: 0 <= i < |stems| && StemNumber(stems[i]) == Some(n)
  {
    var ps := StemNumbers(stems);
    var r := Present(ps);
    assert forall n :: n in r <==> exists i :: 0 <= i < |stems| && ps[i] == Some(n);
    r
  }

  function Max(s: seq<int>): (m: int)
    requires s != []
    ensures m in s
    ensures forall x :: x in s ==> x <= m
  {
    if |s| == 1 then s[0]
    else
      var rest := Max(s[1..]);
      assert forall x :: x in s ==> x == s[0] || x in s[1..];
      if s[0] >= rest then s[0] else rest
  }

  /** `get_next_run_number`: 1 without a `.runs` directory or without any
      manifest stem that starts with a number; otherwise one more than the
      largest such number.  `stems` are the stems of the YAML files in `.runs`. */
  function NextRunNumber(runsDirExists: bool, stems: seq<string>): (r: int)
    ensures !runsDirExists ==> r == 1
    ensures (forall i :: 0 <= i < |stems| ==> StemNumber(stems[i]).None?) ==> r == 1
    ensures runsDirExists ==>
              forall i :: 0 <= i < |stems| && StemNumber(stems[i]).Some? ==> StemNumber(stems[i]).value < r
    ensures runsDirExists && (exists i :: 0 <= i < |stems| && StemNumber(stems[i]).Some?) ==>
              exists i :: 0 <= i < |stems| && StemNumber(stems[i]) == Some(r - 1)
  {
    if !runsDirExists then 1 else NextNumber(stems, StemNumber)
  }

  /** One more than the largest number `num` reads from a stem, or 1 when
      it reads none. */
  function NextNumber(stems: seq<string>, num: string -> Option<int>): (r: int)
    ensures (forall i :: 0 <= i < |stems| ==> num(stems[i]).None?) ==> r == 1
    ensures forall i :: 0 <= i < |stems| && num(stems[i]).Some? ==> num(stems[i]).value < r
    ensures (exists i :: 0 <= i < |stems| && num(stems[i]).Some?) ==>
              exists i :: 0 <= i < |stems| && num(stems[i]) == Some(r - 1)
  {
    var ps := ReadNumbers(stems, num);
    NextAfterOf(stems, num, ps);
    NextAfter(ps)
  }

  /** What `num` reads from each stem. */
  function ReadNumbers(stems: seq<string>, num: string -> Option<int>): (ps: seq<Option<int>>)
    ensures |ps| == |stems| && forall i :: 0 <= i < |stems| ==> ps[i] == num(stems[i])
  {
    seq(|stems|, i requires 0 <= i < |stems| => num(stems[i]))
  }

  lemma NextAfterOf(stems: seq<string>, num: string -> Option<int>, ps: seq<Option<int>>)
    requires |ps| == |stems| && forall i :: 0 <= i < |stems| ==> ps[i] == num(stems[i])
    ensures (forall i :: 0 <= i < |stems| ==> num(stems[i]).None?) ==> NextAfter(ps) == 1
    ensures forall i :: 0 <= i < |stems| && num(stems[i]).Some? ==> num(stems[i]).value < NextAfter(ps)
    ensures (exists i :: 0 <= i < |stems| && num(stems[i]).Some?) ==>
              exists i :: 0 <= i < |stems| && num(stems[i]) == Some(NextAfter(ps) - 1)
  {
    var r := NextAfter(ps);
    if exists i :: 0 <= i < |stems| && num(stems[i]).Some? {
      var i :| 0 <= i < |stems| && num(stems[i]).Some?;
      assert ps[i].Some?;
      var j :| 0 <= j < |ps| && ps[j] == Some(r - 1);
      assert num(stems[j]) == Some(r - 1);
    }
  }

  /** One more than the largest present number, or 1 when none is present. */
  function NextAfter(ps: seq<Option<int>>): (r: int)
    ensures (forall i :: 0 <= i < |ps| ==> ps[i].None?) ==> r == 1
    ensures forall i :: 0 <= i < |ps| && ps[i].Some? ==> ps[i].value < r
    ensures (exists i :: 0 <= i < |ps| && ps[i].Some?) ==> exists i :: 0 <= i < |ps| && ps[i] == Some(r - 1)
  {
    var numbers := Present(ps);
    assert forall i :: 0 <= i < |ps| && ps[i].Some? ==> ps[i].value in numbers by {
      forall i | 0 <= i < |ps| && ps[i].Some? ensures ps[i].value in numbers {
        assert ps[i] == Some(ps[i].value);
      }
    }
    if numbers == [] then 1 else Max(numbers) + 1
  }

  lemma NumbersCover(stems: seq<string>)
    ensures forall i :: 0 <= i < |stems| && StemNumber(stems[i]).Some? ==> StemNumber(stems[i]).value in Numbers(stems)
  {
    forall i | 0 <= i < |stems| && StemNumber(stems[i]).Some?
      ensures StemNumber(stems[i]).value in Numbers(stems)
    {
      assert StemNumber(stems[i]) == Some(StemNumber(stems[i]).value);
    }
  }

  // ---------------------------------------------------------------------
  // Runs

  datatype Run = Run(
    id: string, task: string, project: Option<string>, number: Option<int>,
    started: string, completed: Option<string>, status: string,
    agents: seq<string>, tools: seq<string>, filesCreated: seq<string>, filesModified: seq<string>,
    summary: Option<string>)

  const InProgress: string := "in_progress"
  const Completed: string := "completed"
  const Failed: string := "failed"

  /** Python truthiness of an optional string. */
  predicate Given(s: Option<string>) {
    s.Some? && s.value != ""
  }

  /** The class-level state: the current run's id and the `PILOT_RUN_ID`
      environment variable. */
  datatype Registry = Registry(current: Option<string>, env: Option<string>)

  /** `Run.create(task, project)`: a project gives the run the next number
      of that project's `.runs` directory; the new run becomes current and
      its id is exported.  The id and the start time come from the clock
      and a random source, so they are parameters. */
  function Create(id: string, now: string, task: string, project: Option<string>,
                  runsDirExists: bool, stems: seq<string>, reg: Registry): (r: (Run, Registry))
    ensures r.0.status == InProgress && r.0.id == id && r.0.task == task && r.0.project == project
    ensures r.0.agents == [] && r.0.tools == [] && r.0.filesCreated == [] && r.0.filesModified == []
    ensures r.0.completed.None? && r.0.summary.None?
    ensures r.0.number.Some? <==> Given(project)
    ensures Given(project) ==> r.0.number == Some(NextRunNumber(runsDirExists, stems))
    ensures r.1 == Registry(Some(id), Some(id))
  {
    var number := if Given(project) then Some(NextRunNumber(runsDirExists, stems)) else None;
    (Run(id, task, project, number, now, None, InProgress, [], [], [], [], None), Registry(Some(id), Some(id)))
  }

  /** `Run.current_id()`: the current run's id, else the environment's. */
  function CurrentId(reg: Registry): (r: Option<string>)
    ensures reg.current.Some? ==> r == reg.current
    ensures reg.current.None? ==> r == reg.env
  {
    if reg.current.Some? then reg.current else reg.env
  }

  /** Append `x` unless it is already there. */
  function AddUnique(s: seq<string>, x: string): (r: seq<string>)
    ensures x in r
    ensures forall y :: y in r <==> y in s || y == x
    ensures |s| <= |r| <= |s| + 1 && r[..|s|] == s
    ensures x in s <==> r == s
    ensures NoDups(s) ==> NoDups(r)
  {
    if x in s then s else s + [x]
  }

  /** Adding the same element twice is adding it once. */
  lemma AddIdempotent(s: seq<string>, x: string)
    ensures AddUnique(AddUnique(s, x), x) == AddUnique(s, x)
  {
  }

  /** Elements keep the position of their first insertion: adding
      anything never moves what is already recorded. */
  lemma {:induction false} AddAllKeepsOrder(s: seq<string>, xs: seq<string>)
    ensures |s| <= |AddAll(s, xs)| && AddAll(s, xs)[..|s|] == s
    ensures NoDups(s) ==> NoDups(AddAll(s, xs))
    ensures forall y :: y in AddAll(s, xs) <==> y in s || y in xs
    decreases |xs|
  {
    if xs != [] {
      AddAllKeepsOrder(AddUnique(s, xs[0]), xs[1..]);
      var r := AddAll(s, xs);
      var mid := AddUnique(s, xs[0]);
      assert r[..|s|] == r[..|mid|][..|s|];
      assert forall y :: y in xs <==> y == xs[0] || y in xs[1..];
    }
  }

  /** Adding a sequence of elements one by one. */
  function AddAll(s: seq<string>, xs: seq<string>): seq<string>
    decreases |xs|
  {
    if xs == [] then s else AddAll(AddUnique(s, xs[0]), xs[1..])
  }

  /** `add_agent`, `add_tool`, `add_file_created`, `add_file_modified`:
      record the name once, at the end, and change nothing else. */
  function AddAgent(run: Run, agent: string): (r: Run)
    ensures agent in r.agents && r.(agents := run.agents) == run
    ensures agent in run.agents ==> r == run
    ensures agent !in run.agents ==> r.agents == run.agents + [agent]
  {
    run.(agents := AddUnique(run.agents, agent))
  }

  function AddTool(run: Run, tool: string): (r: Run)
    ensures tool in r.tools && r.(tools := run.tools) == run
    ensures tool in run.tools ==> r == run
    ensures tool !in run.tools ==> r.tools == run.tools + [tool]
  {
    run.(tools := AddUnique(run.tools, tool))
  }

  function AddFileCreated(run: Run, path: string): (r: Run)
    ensures path in r.filesCreated && r.(filesCreated := run.filesCreated) == run
    ensures path in run.filesCreated ==> r == run
    ensures path !in run.filesCreated ==> r.filesCreated == run.filesCreated + [path]
  {
    run.(filesCreated := AddUnique(run.filesCreated, path))
  }

  function AddFileModified(run: Run, path: string): (r: Run)
    ensures path in r.filesModified && r.(filesModified := run.filesModified) == run
    ensures path in run.filesModified ==> r == run
    ensures path !in run.filesModified ==> r.filesModified == run.filesModified + [path]
  {
    run.(filesModified := AddUnique(run.filesModified, path))
  }

  /** Each recorder is idempotent and touches only its own list. */
  lemma RecordersIdempotent(run: Run, x: string)
    ensures AddAgent(AddAgent(run, x), x) == AddAgent(run, x)
    ensures AddTool(AddTool(run, x), x) == AddTool(run, x)
    ensures AddFileCreated(AddFileCreated(run, x), x) == AddFileCreated(run, x)
    ensures AddFileModified(AddFileModified(run, x), x) == AddFileModified(run, x)
  {
    AddIdempotent(run.agents, x);
    AddIdempotent(run.tools, x);
    AddIdempotent(run.filesCreated, x);
    AddIdempotent(run.filesModified, x);
  }

  // ---------------------------------------------------------------------
  // Manifests

  /** `f"{n:03d}"`: at least three characters, zero-padded after the sign. */
  function Format03(n: int): (r: string)
    ensures n >= 0 ==> r == Pad3(n)
    ensures n < 0 ==> |r| >= 3 && r[0] == '-'
  {
    if n >= 0 then Pad3(n)
    else
      var d := NatToString(-n);
      "-" + (if |d| >= 2 then d else "0" + d)
  }

  function OptStr(s: Option<string>): Value {
    if s.Some? then Str(s.value) else Null
  }

  function OptInt(n: Option<int>): Value {
    if n.Some? then Num(n.value) else Null
  }

  function StrList(s: seq<string>): Value {
    List(seq(|s|, i requires 0 <= i < |s| => Str(s[i])))
  }

  /** `to_dict()`: every field except the project, in declaration order. */
  function ToDict(run: Run): (d: Value)
    ensures d.Dict? && |d.entries| == 11
  {
    Dict([
      ("id", Str(run.id)), ("number", OptInt(run.number)), ("task", Str(run.task)),
      ("status", Str(run.status)), ("started", Str(run.started)), ("completed", OptStr(run.completed)),
      ("agents", StrList(run.agents)), ("tools", StrList(run.tools)),
      ("files_created", StrList(run.filesCreated)), ("files_modified", StrList(run.filesModified)),
      ("summary", OptStr(run.summary))])
  }

  function ReadOptStr(v: Value): Option<string> {
    if v.Str? then Some(v.s) else None
  }

  function ReadOptInt(v: Value): Option<int> {
    if v.Num? then Some(v.n) else None
  }

  function ReadStrList(v: Value): seq<string> {
    if v.List? then seq(|v.items|, i requires 0 <= i < |v.items| => if v.items[i].Str? then v.items[i].s else "")
    else []
  }

  /** Reading a manifest dict back into a run without a project. */
  function FromDict(d: Value): Option<Run> {
    if !d.Dict? || |d.entries| != 11 then None
    else
      var e := d.entries;
      Some(Run(ReadOptStr(e[0].1).GetOr(""), ReadOptStr(e[2].1).GetOr(""), None, ReadOptInt(e[1].1),
               ReadOptStr(e[4].1).GetOr(""), ReadOptStr(e[5].1), ReadOptStr(e[3].1).GetOr(""),
               ReadStrList(e[6].1), ReadStrList(e[7].1), ReadStrList(e[8].1), ReadStrList(e[9].1),
               ReadOptStr(e[10].1)))
  }

  /** The manifest dict records everything about a run but its project. */
  lemma ToDictRoundTrip(run: Run)
    ensures FromDict(ToDict(run)) == Some(run.(project := None))
  {
    StrListRoundTrip(run.agents);
    StrListRoundTrip(run.tools);
    StrListRoundTrip(run.filesCreated);
    StrListRoundTrip(run.filesModified);
  }

  lemma StrListRoundTrip(s: seq<string>)
    ensures ReadStrList(StrList(s)) == s
  {
  }

  datatype Saved = NoProject | Written(path: string, doc: Value) | Raises

  /** `task[:30]` with spaces as '_' and slashes as '-'. */
  function SafeTask(task: string): (r: string)
    ensures |r| == if |task| < 30 then |task| else 30
    ensures ' ' !in r && '/' !in r
  {
    ReplaceChar(ReplaceChar(Prefix(task, 30), ' ', '_'), '/', '-')
  }

  /** `save_manifest()`: nothing without a project; a run with a project
      but no number raises when the number is formatted; otherwise the
      manifest `NNN_<task>.yaml` under the project's `.runs` holds the run's
      dict. */
  function SaveManifest(run: Run): (r: Saved)
    ensures r == NoProject <==> !Given(run.project)
    ensures r == Raises <==> Given(run.project) && run.number.None?
    ensures r.Written? ==> r.doc == ToDict(run)
    ensures r.Written? ==> r.path == "projects/" + run.project.value + "/.runs/"
                                     + Format03(run.number.value) + "_" + SafeTask(run.task) + ".yaml"
  {
    if !Given(run.project) then NoProject
    else if run.number.None? then Raises
    else Written("projects/" + run.project.value + "/.runs/" + Format03(run.number.value) + "_" + SafeTask(run.task) + ".yaml",
                 ToDict(run))
  }

  datatype Finished = Finished(run: Run, reg: Registry, saved: Saved)

  /** Save the finished run; `Run._current = None` runs only after a save
      that did not raise. */
  function Finish(done: Run, reg: Registry): Finished {
    var saved := SaveManifest(done);
    Finished(done, if saved.Raises? then reg else reg.(current := None), saved)
  }

  /** `complete(summary)`: completed now, the summary replaced only by a
      non-empty one, the manifest saved, and no run current any more --
      unless saving raised, which leaves the current run in place. */
  function Complete(run: Run, reg: Registry, now: string, summary: Option<string>): (r: Finished)
    ensures r.run.status == Completed && r.run.completed == Some(now)
    ensures r.run.summary == if Given(summary) then summary else run.summary
    ensures r.run.(status := run.status, completed := run.completed, summary := run.summary) == run
    ensures r.saved == SaveManifest(r.run)
    ensures !r.saved.Raises? ==> r.reg == reg.(current := None)
    ensures r.saved.Raises? ==> r.reg == reg
  {
    var done := run.(completed := Some(now), status := Completed,
                     summary := if Given(summary) then summary else run.summary);
    Finish(done, reg)
  }

  /** `fail(error)`: failed now with the summary "Error: <error>"; the
      current run is cleared as in `complete`. */
  function Fail(run: Run, reg: Registry, now: string, error: string): (r: Finished)
    ensures r.run.status == Failed && r.run.completed == Some(now)
    ensures r.run.summary == Some("Error: " + error)
    ensures r.run.(status := run.status, completed := run.completed, summary := run.summary) == run
    ensures r.saved == SaveManifest(r.run)
    ensures !r.saved.Raises? ==> r.reg == reg.(current := None)
    ensures r.saved.Raises? ==> r.reg == reg
  {
    var done := run.(completed := Some(now), status := Failed, summary := Some("Error: " + error));
    Finish(done, reg)
  }

  /** `__exit__`: an exception fails the run with its text; otherwise a
      run still in progress completes; a finished run is left alone. */
  function Exit(run: Run, reg: Registry, now: string, exception: Option<string>): (r: Option<Finished>)
    ensures exception.Some? ==> r == Some(Fail(run, reg, now, exception.value))
    ensures exception.None? && run.status == InProgress ==> r == Some(Complete(run, reg, now, None))
    ensures exception.None? && run.status != InProgress ==> r.None?
  {
    if exception.Some? then Some(Fail(run, reg, now, exception.value))
    else if run.status == InProgress then Some(Complete(run, reg, now, None))
    else None
  }

  /** Completing keeps a summary given earlier; failing always replaces it. */
  lemma ExitKeepsSummary(run: Run, reg: Registry, now: string)
    requires run.status == InProgress
    ensures Exit(run, reg, now, None).value.run.summary == run.summary
    ensures Exit(run, reg, now, None).value.run.status == Completed
  {
  }

  // ---------------------------------------------------------------------
  // Commit message

  const Attribution: seq<string> := [
    "",
    "Generated with [Claude Code](https://claude.ai/code)",
    "via [Happy](https://happy.engineering)",
    "",
    "Co-Authored-By: Claude <noreply@anthropic.com>",
    "Co-Authored-By: Happy <yesreply@happy.engineering>"]

  /** The first line: numbered when the run has a non-zero number. */
  function TitleLine(run: Run): string {
    if run.number.Some? && run.number.value != 0 then "Run " + Format03(run.number.value) + ": " + run.task
    else "Run: " + run.task
  }

  /** The lines before the attribution block. */
  function MessageHead(run: Run): (lines: seq<string>)
    ensures |lines| == 3 + (if run.agents != [] then 1 else 0) + (if Given(run.summary) then 2 else 0)
    ensures lines[0] == TitleLine(run) && lines[1] == "" && lines[2] == "Run ID: " + run.id
    ensures run.agents != [] ==> lines[3] == "Agents: " + Join(run.agents, ", ")
    ensures Given(run.summary) ==> lines[|lines| - 1] == run.summary.value && lines[|lines| - 2] == ""
  {
    [TitleLine(run), "", "Run ID: " + run.id]
    + (if run.agents != [] then ["Agents: " + Join(run.agents, ", ")] else [])
    + (if Given(run.summary) then ["", run.summary.value] else [])
  }

  /** `git_commit_message()`. */
  function GitCommitMessage(run: Run): (m: string)
    ensures IsPrefix(TitleLine(run), m)
  {
    var lines := MessageHead(run) + Attribution;
    JoinStartsWithFirst(lines, "\n");
    Join(lines, "\n")
  }

  /** A numbered run's title carries its number padded to three digits. */
  lemma NumberedTitle(run: Run, n: nat)
    requires run.number == Some(n) && n != 0
    ensures TitleLine(run) == "Run " + Pad3(n) + ": " + run.task
  {
  }
}

=== FILE: runner.dfy ===
/** Running a benchmark: one answer per question, resumption of an
    interrupted run, and the pure parts of turning a research reply into
    an answer.  The web and task APIs, the clock and the store are
    parameters. */
module Runner {
  import opened Common
  import opened Json
  import opened Benchmark

  /** What the API layer gives for one question: the parts of an answer,
      or the message of the exception it raised. */
  datatype ApiReply =
    | Replied(text: string, raw: Value, sources: seq<string>, error: Option<string>)
    | Raised(message: string)

  /** `run_question_parallel(question)`: the reply as an answer to this
      question, timed with `latency`; an exception becomes an answer with
      an empty text and the error set. */
  function RunQuestion(q: Question, reply: ApiReply, latency: int, nowIso: string): (a: Answer)
    ensures a.questionId == q.id && a.latencyMs == latency
    ensures reply.Raised? ==> a.answer == "" && a.error == Some(reply.message) && a.sources == []
    ensures reply.Replied? ==> a.answer == reply.text && a.error == reply.error && a.sources == reply.sources
  {
    match reply
    case Replied(text, raw, sources, error) => Answer(q.id, text, raw, latency, 0, sources, error, nowIso)
    case Raised(message) => Answer(q.id, "", Dict([]), latency, 0, [], Some(message), nowIso)
  }

  /** The API replies, timings and clock one run sees. */
  datatype World = World(ask: (Question, string) -> ApiReply, latency: Question -> int, nowIso: string, now: int)

  /** The questions run in order with processor `processor`. */
  function RunAll(qs: seq<Question>, processor: string, w: World): (r: seq<Answer>)
    ensures |r| == |qs|
    ensures forall i :: 0 <= i < |qs| ==> r[i] == RunQuestion(qs[i], w.ask(qs[i], processor), w.latency(qs[i]), w.nowIso)
  {
    seq(|qs|, i requires 0 <= i < |qs| => RunQuestion(qs[i], w.ask(qs[i], processor), w.latency(qs[i]), w.nowIso))
  }

  function IdsOfAnswers(answers: seq<Answer>): (r: seq<string>)
    ensures |r| == |answers| && forall i :: 0 <= i < |answers| ==> r[i] == answers[i].questionId
  {
    seq(|answers|, i requires 0 <= i < |answers| => answers[i].questionId)
  }

  function IdsOfQuestions(qs: seq<Question>): (r: seq<string>)
    ensures |r| == |qs| && forall i :: 0 <= i < |qs| ==> r[i] == qs[i].id
  {
    seq(|qs|, i requires 0 <= i < |qs| => qs[i].id)
  }

  /** `run_benchmark(benchmark, system, processor)` under result id `id`:
      exactly one answer per question, in order, then completed. */
  function RunBenchmark(b: Bench, system: string, processor: string, id: string, w: World): (r: Result)
    ensures r.status == Completed && r.benchmarkId == b.id && r.system == system
    ensures IdsOfAnswers(r.answers) == IdsOfQuestions(b.questions)
    ensures r.successCount + r.errorCount == |b.questions|
  {
    var answers := RunAll(b.questions, processor, w);
    Complete(Result(id, b.id, system, answers, None, InProgress, processor, 0, 0, 0, 0), w.now)
  }

  /** The questions of the benchmark not yet answered, in benchmark order. */
  function Remaining(r: Result, b: Bench): (qs: seq<Question>)
    ensures forall q :: q in qs <==> q in b.questions && q.id !in AnsweredIds(r)
  {
    var answered := AnsweredIds(r);
    Filter(b.questions, (q: Question) => q.id !in answered)
  }

  /** `resume_benchmark(customer, result_id, benchmark, processor)` with the
      loaded result and benchmark: a completed result is returned as it is;
      otherwise the unanswered questions are asked, with the override
      processor when one is given. */
  function ResumeBenchmark(r0: Result, b: Bench, processor: Option<string>, w: World): (r: Result)
    ensures r0.status == Completed ==> r == r0
    ensures r0.status != Completed ==> r.status == Completed
    ensures |r0.answers| <= |r.answers| && r.answers[..|r0.answers|] == r0.answers
    ensures r0.status != Completed ==> IdsOfAnswers(r.answers[|r0.answers|..]) == IdsOfQuestions(Remaining(r0, b))
  {
    if r0.status == Completed then r0
    else
      var remaining := Remaining(r0, b);
      if remaining == [] then
        assert r0.answers[|r0.answers|..] == [];
        Complete(r0, w.now)
      else
        var proc := if processor.Some? && processor.value != "" then processor.value else r0.processor;
        var answers := r0.answers + RunAll(remaining, proc, w);
        assert answers[..|r0.answers|] == r0.answers;
        assert answers[|r0.answers|..] == RunAll(remaining, proc, w);
        Complete(r0.(answers := answers), w.now)
  }

  /** After resuming, every question of the benchmark is answered, and no
      question that was already answered is asked again. */
  lemma ResumeAnswersAll(r0: Result, b: Bench, processor: Option<string>, w: World)
    requires r0.status != Completed
    ensures forall q :: q in b.questions ==> q.id in AnsweredIds(ResumeBenchmark(r0, b, processor, w))
    ensures (var r := ResumeBenchmark(r0, b, processor, w);
      forall i :: |r0.answers| <= i < |r.answers| ==> r.answers[i].questionId !in AnsweredIds(r0))
  {
    var r := ResumeBenchmark(r0, b, processor, w);
    var rem := Remaining(r0, b);
    var added := r.answers[|r0.answers|..];
    ResumeSkipsAnswered(r0, b, processor, w);
    forall q | q in b.questions ensures q.id in AnsweredIds(r) {
      if q.id !in AnsweredIds(r0) {
        assert q in rem;
        var k :| 0 <= k < |rem| && rem[k] == q;
        assert IdsOfAnswers(added)[k] == IdsOfQuestions(rem)[k];
        assert r.answers[|r0.answers| + k] == added[k];
      } else {
        var i :| 0 <= i < |r0.answers| && r0.answers[i].questionId == q.id;
        assert r.answers[i] == r0.answers[i];
      }
    }
  }

  /** Resuming asks only the questions not answered before. */
  lemma ResumeSkipsAnswered(r0: Result, b: Bench, processor: Option<string>, w: World)
    requires r0.status != Completed
    ensures (var r := ResumeBenchmark(r0, b, processor, w);
      forall i :: |r0.answers| <= i < |r.answers| ==> r.answers[i].questionId !in AnsweredIds(r0))
  {
    var r := ResumeBenchmark(r0, b, processor, w);
    var rem := Remaining(r0, b);
    var added := r.answers[|r0.answers|..];
    forall i | |r0.answers| <= i < |r.answers| ensures r.answers[i].questionId !in AnsweredIds(r0) {
      assert added[i - |r0.answers|] == r.answers[i];
      assert IdsOfAnswers(added)[i - |r0.answers|] == IdsOfQuestions(rem)[i - |r0.answers|];
      assert rem[i - |r0.answers|] in rem;
    }
  }

  // ---------------------------------------------------------------------
  // Research replies

  /** `_run_research_question`'s query: the context, a blank line and the
      text when there is a context. */
  function ResearchQuery(q: Question): (r: string)
    ensures q.context.None? || q.context.value == "" ==> r == q.text
    ensures q.context.Some? && q.context.value != "" ==> IsPrefix(q.context.value, r) && IsSuffix(q.text, r)
  {
    if q.context.Some? && q.context.value != "" then
      var r := q.context.value + "\n\n" + q.text;
      assert r[..|q.context.value|] == q.context.value;
      assert r[|r| - |q.text|..] == q.text;
      r
    else q.text
  }

  const AnswerKeys: seq<string> := ["answer", "summary", "result", "response", "conclusion"]

  /** The text a key's value gives: a string itself, a mapping as JSON, a
      list one `str` per line; none for other kinds. */
  function Rendered(v: Value, dumps: Value -> string, strOf: Value -> string): Option<string> {
    match v
    case Str(s) => Some(s)
    case Dict(_) => Some(dumps(v))
    case List(items) => Some(Join(seq(|items|, i requires 0 <= i < |items| => PyStr(items[i], strOf)), "\n"))
    case _ => None
  }

  /** Key `k` is present in the output and its value renders. */
  predicate Gives(output: seq<(string, Value)>, k: string, dumps: Value -> string, strOf: Value -> string) {
    Get(output, k).Some? && Rendered(Get(output, k).value, dumps, strOf).Some?
  }

  /** The value of the first of `keys` present with a renderable value. */
  function FirstRendered(output: seq<(string, Value)>, keys: seq<string>, dumps: Value -> string,
                         strOf: Value -> string): (r: Option<string>)
    ensures r.None? <==> forall i :: 0 <= i < |keys| ==> !Gives(output, keys[i], dumps, strOf)
    ensures r.Some? ==> exists i :: (0 <= i < |keys| && Gives(output, keys[i], dumps, strOf)
      && r == Rendered(Get(output, keys[i]).value, dumps, strOf)
      && forall j :: 0 <= j < i ==> !Gives(output, keys[j], dumps, strOf))
    decreases |keys|
  {
    if keys == [] then None
    else if Gives(output, keys[0], dumps, strOf) then Rendered(Get(output, keys[0]).value, dumps, strOf)
    else
      var rest := FirstRendered(output, keys[1..], dumps, strOf);
      assert forall i :: 1 <= i < |keys| ==> keys[i] == keys[1..][i - 1];
      if rest.Some? then
        var i :| 0 <= i < |keys[1..]| && Gives(output, keys[1..][i], dumps, strOf)
          && rest == Rendered(Get(output, keys[1..][i]).value, dumps, strOf)
          && forall j :: 0 <= j < i ==> !Gives(output, keys[1..][j], dumps, strOf);
        assert keys[i + 1] == keys[1..][i];
        rest
      else rest
  }

  /** `_extract_answer_from_output(output)`: the first of answer, summary,
      result, response, conclusion; otherwise the whole output as JSON. */
  function ExtractAnswer(output: seq<(string, Value)>, dumps: Value -> string, strOf: Value -> string): (r: string)
    ensures FirstRendered(output, AnswerKeys, dumps, strOf).None? ==> r == dumps(Dict(output))
    ensures FirstRendered(output, AnswerKeys, dumps, strOf).Some? ==> r == FirstRendered(output, AnswerKeys, dumps, strOf).value
  {
    var first := FirstRendered(output, AnswerKeys, dumps, strOf);
    if first.Some? then first.value else dumps(Dict(output))
  }

  /** A string `answer` is taken as it is. */
  lemma AnswerKeyWins(output: seq<(string, Value)>, s: string, dumps: Value -> string, strOf: Value -> string)
    requires Get(output, "answer") == Some(Str(s))
    ensures ExtractAnswer(output, dumps, strOf) == s
  {
    assert AnswerKeys[0] == "answer";
  }

  /** The items a value iterates as, where iterating it succeeds. */
  function Items(v: Value): Option<seq<Value>> {
    match v
    case List(items) => Some(items)
    case Str(s) => if s == "" then Some([]) else None
    case Dict(entries) => if entries == [] then Some([]) else None
    case _ => None
  }

  /** The truthy string urls of some citations; None where `.get` raises. */
  function CitationUrls(citations: seq<Value>): (r: Option<seq<string>>)
    ensures r.Some? ==> forall u :: u in r.value ==> u != ""
    decreases |citations|
  {
    if citations == [] then Some([])
    else if !citations[0].Dict? then None
    else
      var rest := CitationUrls(citations[1..]);
      var url := Get(citations[0].entries, "url");
      if rest.None? then None
      else if url.Some? && url.value.Str? && url.value.s != "" then Some([url.value.s] + rest.value)
      else rest
  }

  /** The cited urls of the basis items, in order. */
  function BasisUrls(basis: seq<Value>): (r: Option<seq<string>>)
    ensures r.Some? ==> forall u :: u in r.value ==> u != ""
    decreases |basis|
  {
    if basis == [] then Some([])
    else if !basis[0].Dict? then None
    else
      var cites := Get(basis[0].entries, "citations");
      var items := if cites.None? then Some([]) else Items(cites.value);
      if items.None? then None
      else
        var here := CitationUrls(items.value);
        var rest := BasisUrls(basis[1..]);
        if here.None? || rest.None? then None else Some(here.value + rest.value)
  }

  /** The sources of a research answer: the urls cited by the first ten
      basis items, without repeats, at most twenty. */
  function ResearchSources(basis: seq<Value>): (r: Option<seq<string>>)
    ensures r.Some? <==> BasisUrls(Prefix(basis, 10)).Some?
    ensures (r.Some? ==>
      && |r.value| <= 20 && NoDups(r.value)
      && forall u :: u in r.value ==> u != "" && u in BasisUrls(Prefix(basis, 10)).value)
  {
    var urls := BasisUrls(Prefix(basis, 10));
    if urls.None? then None
    else
      var d := Dedupe(urls.value);
      var r := Prefix(d, 20);
      assert forall u :: u in r ==> u in d;
      PrefixNoDups(d, 20);
      Some(r)
  }

  lemma PrefixNoDups<T>(s: seq<T>, n: nat)
    requires NoDups(s)
    ensures NoDups(Prefix(s, n))
  {
  }

  // ---------------------------------------------------------------------
  // Progress and listings

  datatype Progress =
    | Progress(resultId: string, status: RunStatus, answered: nat, total: nat, percent: real,
               successCount: nat, errorCount: nat)
    | ProgressError

  /** `get_benchmark_progress`: answered over total, 0 when the benchmark
      has no questions; an error when either record does not load. */
  function GetProgress(resultId: string, result: Option<Result>, bench: Option<Bench>): (p: Progress)
    ensures result.None? || bench.None? <==> p.ProgressError?
    ensures p.Progress? && p.total == 0 ==> p.percent == 0.0
    ensures p.Progress? && p.total > 0 ==> p.percent == (p.answered as real) * 100.0 / (p.total as real)
    ensures p.Progress? ==> p.answered == |result.value.answers| && p.total == |bench.value.questions|
  {
    if result.None? || bench.None? then ProgressError
    else
      var answered := |result.value.answers|;
      var total := |bench.value.questions|;
      Progress(resultId, result.value.status, answered, total,
               if total > 0 then (answered as real) * 100.0 / (total as real) else 0.0,
               result.value.successCount, result.value.errorCount)
  }

  datatype Incomplete = Incomplete(resultId: string, benchmarkId: string, system: string,
                                   answeredCount: nat, totalCount: int, status: RunStatus)

  /** `list_incomplete_results(customer)`: the results, in listing order,
      that load and are not completed; the total is -1 when their
      benchmark does not load. */
  function ListIncomplete(ids: seq<string>, loadResult: string -> Option<Result>,
                          loadBench: string -> Option<Bench>): (r: seq<Incomplete>)
    ensures |r| <= |ids|
    ensures forall x :: x in r ==> x.status != Completed && x.resultId in ids && x.totalCount >= -1
    ensures (forall x :: x in r ==> (x.totalCount == -1 <==> loadBench(x.benchmarkId).None?))
    decreases |ids|
  {
    if ids == [] then []
    else
      var rest := ListIncomplete(ids[1..], loadResult, loadBench);
      assert forall x :: x in ids[1..] ==> x in ids;
      var res := loadResult(ids[0]);
      if res.None? || res.value.status == Completed then rest
      else
        var b := loadBench(res.value.benchmarkId);
        [Incomplete(ids[0], res.value.benchmarkId, res.value.system, |res.value.answers|,
                    if b.Some? then |b.value.questions| else -1, res.value.status)] + rest
  }
}

=== FILE: session.dfy ===
/** Claude Code session transcripts: classification of tool errors,
    project-path encoding, timestamp and text extraction, the replay of a
    session's JSONL records into a session summary with a derived status,
    the session's derived lists, and the recent-sessions query.  The
    clock is the parameter `now` (seconds); the ISO parser and Python's
    `str()` of a non-string value are parameters. */
module Session {
  import opened Common
  import opened Json

  /** Tools whose errors are usually expected during exploration. */
  const NonFatalErrorTools: seq<string> := ["Read", "Grep", "Glob", "Bash"]

  /** Error texts that mark an expected, recoverable failure. */
  const NonFatalErrorPatterns: seq<string> := [
    "No such file or directory", "No matches found", "Pattern not found",
    "does not exist", "ENOENT", "exit code 1", "requested permissions",
    "haven't granted", "permission request", "modified since read",
    "read it again", "tool_use_error", "is not running", "cannot be killed",
    "status: completed"]

  /** Error texts that always block the session. */
  const FatalPatterns: seq<string> := [
    "permission denied", "rate limit", "syntax error", "authentication failed",
    "unauthorized", "forbidden", "access denied"]

  function LowerAll(ps: seq<string>): (r: seq<string>)
    ensures |r| == |ps| && forall i :: 0 <= i < |ps| ==> r[i] == Lower(ps[i])
  {
    seq(|ps|, i requires 0 <= i < |ps| => Lower(ps[i]))
  }

  /** `_is_fatal_error(tool_name, error_content)`: the guards in order —
      empty text, a non-fatal pattern (case-insensitive), a fatal pattern,
      a Write/Edit tool, an exploration tool, then length at least 50. */
  function IsFatalError(toolName: string, content: string): (r: bool)
    ensures content == "" ==> !r
    ensures AnyIn(Lower(content), LowerAll(NonFatalErrorPatterns)) ==> !r
    ensures content != "" && !AnyIn(Lower(content), LowerAll(NonFatalErrorPatterns)) ==>
      (r <==> AnyIn(Lower(content), FatalPatterns) || toolName == "Write" || toolName == "Edit" ||
              (toolName !in NonFatalErrorTools && |content| >= 50))
  {
    if content == "" then false
    else
      var lower := Lower(content);
      if AnyIn(lower, LowerAll(NonFatalErrorPatterns)) then false
      else if AnyIn(lower, FatalPatterns) then true
      else if toolName == "Write" || toolName == "Edit" then true
      else if toolName in NonFatalErrorTools then false
      else |content| >= 50
  }

  lemma LowerUpper(s: string)
    ensures Lower(Upper(s)) == Lower(s)
  {
  }

  lemma LowerConcat(a: string, b: string)
    ensures Lower(a + b) == Lower(a) + Lower(b)
  {
  }

  /** The classification ignores letter case. */
  lemma FatalIgnoresCase(toolName: string, content: string)
    ensures IsFatalError(toolName, Upper(content)) == IsFatalError(toolName, content)
  {
    LowerUpper(content);
  }

  /** A non-fatal pattern anywhere in the text wins over every other rule,
      fatal patterns and Write/Edit included. */
  lemma NonFatalPatternWins(toolName: string, a: string, k: int, b: string)
    requires 0 <= k < |NonFatalErrorPatterns|
    ensures !IsFatalError(toolName, a + NonFatalErrorPatterns[k] + b)
  {
    var p := NonFatalErrorPatterns[k];
    LowerConcat(a + p, b);
    LowerConcat(a, p);
    ContainsSelf(Lower(p));
    ContainsExtend(Lower(a), Lower(p), Lower(b), Lower(p));
    assert LowerAll(NonFatalErrorPatterns)[k] == Lower(p);
  }

  // ---------------------------------------------------------------------
  // Project paths and timestamps

  /** `_encode_project_path`: every `/` becomes `-`. */
  function EncodeProjectPath(path: string): (r: string)
    ensures |r| == |path| && !HasChar(r, '/')
    ensures forall i :: 0 <= i < |path| ==> r[i] == if path[i] == '/' then '-' else path[i]
  {
    ReplaceChar(path, '/', '-')
  }

  /** `_decode_project_path`: drop one leading `-`, turn every `-` into
      `/`, and put a `/` in front. */
  function DecodeProjectPath(encoded: string): (r: string)
    ensures |r| >= 1 && r[0] == '/' && !HasChar(r, '-')
  {
    var body := if IsPrefix("-", encoded) then encoded[1..] else encoded;
    "/" + ReplaceChar(body, '-', '/')
  }

  /** Absolute paths without `-` survive encoding and decoding. */
  lemma DecodeEncode(path: string)
    requires |path| >= 1 && path[0] == '/' && !HasChar(path, '-')
    ensures DecodeProjectPath(EncodeProjectPath(path)) == path
  {
    var e := EncodeProjectPath(path);
    assert e[..1] == "-";
    var r := DecodeProjectPath(e);
    assert |r| == |path|;
    forall i | 0 <= i < |path| ensures r[i] == path[i] {
      if i > 0 {
        assert path[i] in path;
      }
    }
  }

  /** A `-` in a real path is not recovered. */
  lemma DashIsLost(path: string)
    requires HasChar(path, '-')
    ensures DecodeProjectPath(EncodeProjectPath(path)) != path
  {
  }

  /** `_parse_timestamp`: None on empty text and on text the ISO parser
      rejects (after `Z` is read as `+00:00`); never the current time. */
  function ParseTimestamp(ts: string, parse: string -> Option<int>): (r: Option<int>)
    ensures ts == "" ==> r.None?
    ensures ts != "" ==> r == parse(ReplaceZ(ts))
  {
    if ts == "" then None else parse(ReplaceZ(ts))
  }

  // ---------------------------------------------------------------------
  // Message content

  /** The entries of an object; other values read as an empty one. */
  function AsDict(v: Value): seq<(string, Value)> {
    if v.Dict? then v.entries else []
  }

  /** The text a content block contributes: a "text" block's `text`
      (default ""), else a `text` key of any block, else none. */
  function BlockText(b: Value, strOf: Value -> string): Option<string> {
    if !b.Dict? then None
    else if Get(b.entries, "type") == Some(Str("text")) then Some(PyStr(Field(b.entries, "text", Str("")), strOf))
    else if HasKey(b.entries, "text") then Some(PyStr(Get(b.entries, "text").value, strOf))
    else None
  }

  function BlockTexts(blocks: seq<Value>, strOf: Value -> string): (r: seq<string>)
    ensures |r| <= |blocks|
  {
    if blocks == [] then []
    else
      var t := BlockText(blocks[0], strOf);
      (if t.Some? then [t.value] else []) + BlockTexts(blocks[1..], strOf)
  }

  /** `_extract_text_from_content`: a string as is; the block texts of a
      list joined by newlines; `str()` of anything else. */
  function ExtractText(content: Value, strOf: Value -> string): (r: string)
    ensures content.Str? ==> r == content.s
    ensures content.List? ==> r == Join(BlockTexts(content.items, strOf), "\n")
  {
    match content
    case Str(s) => s
    case List(blocks) => Join(BlockTexts(blocks, strOf), "\n")
    case _ => strOf(content)
  }

  /** A text block. */
  function TextBlock(t: string): Value {
    Dict([("type", Str("text")), ("text", Str(t))])
  }

  /** A list of text blocks reads as their texts joined by newlines. */
  lemma {:induction false} TextBlocksJoined(ts: seq<string>, strOf: Value -> string)
    ensures BlockTexts(seq(|ts|, i requires 0 <= i < |ts| => TextBlock(ts[i])), strOf) == ts
  {
    if ts != [] {
      var blocks := seq(|ts|, i requires 0 <= i < |ts| => TextBlock(ts[i]));
      assert blocks[1..] == seq(|ts[1..]|, i requires 0 <= i < |ts[1..]| => TextBlock(ts[1..][i]));
      TextBlocksJoined(ts[1..], strOf);
      TextBlockText(ts[0], strOf);
      assert [ts[0]] + ts[1..] == ts;
    }
  }

  lemma TextBlockText(t: string, strOf: Value -> string)
    ensures BlockText(TextBlock(t), strOf) == Some(t)
  {
    assert Get(TextBlock(t).entries, "type") == Some(Str("text"));
    assert "text" != "type";
    assert IndexOf(TextBlock(t).entries, "text") == 1;
  }

  // ---------------------------------------------------------------------
  // Replaying a session file

  /** A tool invocation.  A non-string `name` reads as "": it then behaves
      like an unlisted tool everywhere the name is used. */
  datatype ToolCall = ToolCall(name: string, input: Value, result: Option<string>,
                               isError: bool, timestamp: Option<int>)

  /** A conversation message; `toolCalls` are positions in the session's
      list of tool calls (the source shares the call objects). */
  datatype Message = Message(role: string, content: string, uuid: Value, timestamp: int,
                             toolCalls: seq<nat>, thinking: Option<Value>)

  /** The state `load_session` builds while it reads the file. */
  datatype Replay = Replay(messages: seq<Message>, toolCalls: seq<ToolCall>, byId: map<Value, nat>,
                           todos: seq<Value>, initialPrompt: string, lastFatalError: Option<string>,
                           agentSessions: seq<Value>, timestamps: seq<int>)

  const Start: Replay := Replay([], [], map[], [], "", None, [], [])

  /** Every id points at a recorded call, every message's calls exist, and
      a kept fatal error is at most 500 characters. */
  predicate Linked(st: Replay) {
    && (forall id :: id in st.byId ==> st.byId[id] < |st.toolCalls|)
    && (forall m, j :: m in st.messages && 0 <= j < |m.toolCalls| ==> m.toolCalls[j] < |st.toolCalls|)
    && (st.lastFatalError.Some? ==> |st.lastFatalError.value| <= 500)
  }

  function NameText(v: Value): string {
    if v.Str? then v.s else ""
  }

  /** The record's timestamp; a missing or non-string one reads as absent. */
  function TimestampOf(data: seq<(string, Value)>, parse: string -> Option<int>): (r: Option<int>)
    ensures Get(data, "timestamp").None? ==> r.None?
  {
    var ts := Field(data, "timestamp", Str(""));
    if ts.Str? then ParseTimestamp(ts.s, parse) else None
  }

  /** A "tool_result" block: its id, its text, and whether it is an error. */
  predicate IsResultBlock(b: Value) {
    b.Dict? && Get(b.entries, "type") == Some(Str("tool_result"))
  }

  function ResultId(b: Value): Value {
    Field(AsDict(b), "tool_use_id", Null)
  }

  function ResultText(b: Value, strOf: Value -> string): string {
    PyStr(Field(AsDict(b), "content", Str("")), strOf)
  }

  predicate ResultIsError(b: Value) {
    Truthy(Field(AsDict(b), "is_error", Bool(false)))
  }

  /** Link one tool result to its call.  Only error results of a known call
      change anything; only fatal ones set the last error, cut to 500. */
  function ApplyResult(st: Replay, b: Value, strOf: Value -> string): (r: Replay)
    requires Linked(st)
    ensures Linked(r)
    ensures !(IsResultBlock(b) && ResultIsError(b) && ResultId(b) in st.byId) ==> r == st
    ensures r.(toolCalls := st.toolCalls, lastFatalError := st.lastFatalError) == st
    ensures |r.toolCalls| == |st.toolCalls|
    ensures (r.lastFatalError != st.lastFatalError ==>
      && ResultId(b) in st.byId
      && IsFatalError(st.toolCalls[st.byId[ResultId(b)]].name, ResultText(b, strOf))
      && r.lastFatalError == Some(Prefix(ResultText(b, strOf), 500)))
  {
    if !(IsResultBlock(b) && ResultIsError(b) && ResultId(b) in st.byId) then st
    else
      var k := st.byId[ResultId(b)];
      var text := ResultText(b, strOf);
      var call := st.toolCalls[k];
      var st1 := st.(toolCalls := st.toolCalls[k := call.(result := Some(text), isError := true)]);
      if IsFatalError(call.name, text) then st1.(lastFatalError := Some(Prefix(text, 500))) else st1
  }

  function ApplyResults(st: Replay, blocks: seq<Value>, strOf: Value -> string): (r: Replay)
    requires Linked(st)
    ensures Linked(r)
    ensures r.(toolCalls := st.toolCalls, lastFatalError := st.lastFatalError) == st
    ensures |r.toolCalls| == |st.toolCalls|
    decreases |blocks|
  {
    if blocks == [] then st else ApplyResults(ApplyResult(st, blocks[0], strOf), blocks[1..], strOf)
  }

  /** The "tool_use" blocks of an assistant message as (id, call) pairs. */
  function CallsOf(blocks: seq<Value>, ts: Option<int>): (r: seq<(Value, ToolCall)>)
    ensures |r| <= |blocks|
    ensures forall j :: 0 <= j < |r| ==> r[j].1.result.None? && !r[j].1.isError && r[j].1.timestamp == ts
  {
    if blocks == [] then []
    else
      var b := blocks[0];
      var rest := CallsOf(blocks[1..], ts);
      if b.Dict? && Get(b.entries, "type") == Some(Str("tool_use")) then
        [(Field(b.entries, "id", Str("")),
          ToolCall(NameText(Field(b.entries, "name", Str("unknown"))), Field(b.entries, "input", Dict([])), None, false, ts))]
        + rest
      else rest
  }

  /** Register ids left to right (a later id overrides an earlier one);
      the i-th pair points at position `base + i`. */
  function RegisterIds(m: map<Value, nat>, pairs: seq<(Value, ToolCall)>, base: nat): (r: map<Value, nat>)
    ensures forall id :: id in r ==> id in m || exists j :: 0 <= j < |pairs| && pairs[j].0 == id
    ensures forall id :: id in r && id !in m ==> base <= r[id] < base + |pairs|
    ensures forall id :: id in r && id in m ==> r[id] == m[id] || base <= r[id] < base + |pairs|
    ensures forall id :: id in m ==> id in r
    ensures forall j :: 0 <= j < |pairs| ==> pairs[j].0 in r
    decreases |pairs|
  {
    if pairs == [] then m
    else
      var r := RegisterIds(m[pairs[0].0 := base], pairs[1..], base + 1);
      assert forall j :: 1 <= j < |pairs| ==> pairs[j] == pairs[1..][j - 1];
      r
  }

  /** The first "thinking" block's `thinking` value (default ""). */
  function ThinkingOf(blocks: seq<Value>): Option<Value> {
    if blocks == [] then None
    else if blocks[0].Dict? && Get(blocks[0].entries, "type") == Some(Str("thinking")) then
      Some(Field(blocks[0].entries, "thinking", Str("")))
    else ThinkingOf(blocks[1..])
  }

  /** The id a Task call names: its truthy `agentId`, else the first eight
      characters of its `description`, when that is not empty. */
  function AgentIdOf(input: Value): (r: Option<Value>)
    ensures r.Some? ==> Truthy(r.value)
  {
    var d := AsDict(input);
    var a := Field(d, "agentId", Null);
    if Truthy(a) then Some(a)
    else
      var desc := Field(d, "description", Str(""));
      if desc.Str? && Prefix(desc.s, 8) != "" then Some(Str(Prefix(desc.s, 8))) else None
  }

  function AgentIds(calls: seq<ToolCall>): (r: seq<Value>)
    ensures |r| <= |calls|
  {
    if calls == [] then []
    else
      var a := if calls[0].name == "Task" then AgentIdOf(calls[0].input) else None;
      (if a.Some? then [a.value] else []) + AgentIds(calls[1..])
  }

  function Positions(base: nat, n: nat): (r: seq<nat>)
    ensures |r| == n && forall j :: 0 <= j < n ==> r[j] == base + j
  {
    seq(n, j requires 0 <= j < n => base + j)
  }

  /** A "user" record: tool results are linked to their calls; any other
      message contributes its text and, first, the initial prompt; a
      truthy list of todos replaces the current one. */
  function StepUser(st: Replay, data: seq<(string, Value)>, ts: Option<int>, now: int,
                    strOf: Value -> string): (r: Replay)
    requires Linked(st)
    ensures Linked(r)
    ensures r.timestamps == st.timestamps && r.agentSessions == st.agentSessions
    ensures st.initialPrompt != "" ==> r.initialPrompt == st.initialPrompt
    ensures |r.toolCalls| == |st.toolCalls|
  {
    var content := Field(AsDict(Field(data, "message", Dict([]))), "content", Str(""));
    var st1 :=
      if Truthy(Field(data, "toolUseResult", Null)) then
        (if content.List? then ApplyResults(st, content.items, strOf) else st)
      else
        var text := ExtractText(content, strOf);
        var st2 := if text != "" && st.initialPrompt == "" then st.(initialPrompt := text) else st;
        if text == "" then st2
        else st2.(messages := st2.messages + [Message("user", text, Field(data, "uuid", Str("")), ts.GetOr(now), [], None)]);
    var todos := Field(data, "todos", Null);
    if Truthy(todos) && todos.List? then st1.(todos := todos.items) else st1
  }

  /** An "assistant" record: its tool calls are recorded and registered by
      id, the message is kept when it has text or calls, and Task calls
      name agent sessions. */
  function StepAssistant(st: Replay, data: seq<(string, Value)>, ts: Option<int>, now: int,
                         strOf: Value -> string): (r: Replay)
    requires Linked(st)
    ensures Linked(r)
    ensures r.timestamps == st.timestamps && r.initialPrompt == st.initialPrompt
    ensures r.lastFatalError == st.lastFatalError && r.todos == st.todos
    ensures |r.toolCalls| >= |st.toolCalls| && r.toolCalls[..|st.toolCalls|] == st.toolCalls
  {
    var content := Field(AsDict(Field(data, "message", Dict([]))), "content", List([]));
    var blocks := if content.List? then content.items else [];
    var pairs := CallsOf(blocks, ts);
    var calls := seq(|pairs|, j requires 0 <= j < |pairs| => pairs[j].1);
    var base := |st.toolCalls|;
    var idx := Positions(base, |pairs|);
    var st1 := st.(toolCalls := st.toolCalls + calls, byId := RegisterIds(st.byId, pairs, base));
    var text := ExtractText(content, strOf);
    var st2 :=
      if text == "" && idx == [] then st1
      else st1.(messages := st1.messages + [Message("assistant", text, Field(data, "uuid", Str("")), ts.GetOr(now), idx, ThinkingOf(blocks))]);
    assert (st.toolCalls + calls)[..base] == st.toolCalls;
    st2.(agentSessions := st2.agentSessions + AgentIds(calls))
  }

  /** One line of the file, already stripped and decoded: None for blank or
      undecodable lines, which are skipped. */
  function Step(st: Replay, rec: Option<Value>, now: int, parse: string -> Option<int>,
                strOf: Value -> string): (r: Replay)
    requires Linked(st)
    ensures Linked(r)
    ensures rec.Some? ==> r.timestamps == st.timestamps + RecordTimes(rec.value, parse)
    ensures rec.None? ==> r == st
    ensures st.initialPrompt != "" ==> r.initialPrompt == st.initialPrompt
  {
    if rec.None? then st
    else
      var data := AsDict(rec.value);
      var ts := TimestampOf(data, parse);
      var st1 := st.(timestamps := st.timestamps + RecordTimes(rec.value, parse));
      var kind := Field(data, "type", Null);
      if kind == Str("user") then StepUser(st1, data, ts, now, strOf)
      else if kind == Str("assistant") then StepAssistant(st1, data, ts, now, strOf)
      else st1
  }

  /** The timestamp a record contributes, whatever its type. */
  function RecordTimes(rec: Value, parse: string -> Option<int>): (r: seq<int>)
    ensures |r| <= 1
  {
    var ts := TimestampOf(AsDict(rec), parse);
    if ts.Some? then [ts.value] else []
  }

  /** A line as the loop sees it: stripped, skipped when blank. */
  function Decoded(line: string, decode: string -> Option<Value>): Option<Value> {
    if Strip(line) == [] then None else decode(Strip(line))
  }

  /** Reading the whole file, line by line. */
  function ReplayLines(lines: seq<string>, decode: string -> Option<Value>, now: int,
                       parse: string -> Option<int>, strOf: Value -> string): (r: Replay)
    ensures Linked(r)
    decreases |lines|
  {
    if lines == [] then Start
    else
      var prev := ReplayLines(lines[..|lines| - 1], decode, now, parse, strOf);
      Step(prev, Decoded(lines[|lines| - 1], decode), now, parse, strOf)
  }

  /** Reference: the parsed timestamps of all records, in file order. */
  function AllTimes(lines: seq<string>, decode: string -> Option<Value>, parse: string -> Option<int>): seq<int>
    decreases |lines|
  {
    if lines == [] then []
    else
      var d := Decoded(lines[|lines| - 1], decode);
      AllTimes(lines[..|lines| - 1], decode, parse) + (if d.Some? then RecordTimes(d.value, parse) else [])
  }

  /** The replay collects exactly the records' parsed timestamps, of every
      record type. */
  lemma {:induction false} ReplayCollectsTimes(lines: seq<string>, decode: string -> Option<Value>, now: int,
                                               parse: string -> Option<int>, strOf: Value -> string)
    ensures ReplayLines(lines, decode, now, parse, strOf).timestamps == AllTimes(lines, decode, parse)
    decreases |lines|
  {
    if lines != [] {
      ReplayCollectsTimes(lines[..|lines| - 1], decode, now, parse, strOf);
    }
  }

  /** The initial prompt, once set, is never replaced by later lines. */
  lemma {:induction false} InitialPromptIsFirst(lines: seq<string>, k: nat, decode: string -> Option<Value>, now: int,
                                                parse: string -> Option<int>, strOf: Value -> string)
    requires k <= |lines|
    requires ReplayLines(lines[..k], decode, now, parse, strOf).initialPrompt != ""
    ensures ReplayLines(lines, decode, now, parse, strOf).initialPrompt
         == ReplayLines(lines[..k], decode, now, parse, strOf).initialPrompt
    decreases |lines|
  {
    if k < |lines| {
      assert lines[..|lines| - 1][..k] == lines[..k];
      InitialPromptIsFirst(lines[..|lines| - 1], k, decode, now, parse, strOf);
    } else {
      assert lines[..k] == lines;
    }
  }

  // ---------------------------------------------------------------------
  // Status

  datatype Status = Empty | Error | Stuck | InProgress | Completed | Abandoned {
    function Name(): string {
      match this
      case Empty => "empty"
      case Error => "error"
      case Stuck => "stuck"
      case InProgress => "in_progress"
      case Completed => "completed"
      case Abandoned => "abandoned"
    }
  }

  /** `t.get("status")` of a todo. */
  function TodoStatus(t: Value): Value {
    Field(AsDict(t), "status", Null)
  }

  predicate AnyTodoWith(todos: seq<Value>, status: string) {
    exists i :: 0 <= i < |todos| && TodoStatus(todos[i]) == Str(status)
  }

  predicate HasOpenTodos(todos: seq<Value>) {
    AnyTodoWith(todos, "pending") || AnyTodoWith(todos, "in_progress")
  }

  predicate AllTodosDone(todos: seq<Value>) {
    todos != [] && forall i :: 0 <= i < |todos| ==> TodoStatus(todos[i]) == Str("completed")
  }

  function SeqMin(s: seq<int>): (r: int)
    requires s != []
    ensures r in s && forall x :: x in s ==> r <= x
  {
    if |s| == 1 then s[0]
    else
      var m := SeqMin(s[1..]);
      assert forall x :: x in s ==> x == s[0] || x in s[1..];
      if s[0] <= m then s[0] else m
  }

  function SeqMax(s: seq<int>): (r: int)
    requires s != []
    ensures r in s && forall x :: x in s ==> x <= r
  {
    if |s| == 1 then s[0]
    else
      var m := SeqMax(s[1..]);
      assert forall x :: x in s ==> x == s[0] || x in s[1..];
      if s[0] >= m then s[0] else m
  }

  /** The status `load_session` derives; `idle` is the time since the last
      activity, in seconds (the source compares minutes: more than 2, 15
      and 120). */
  function DeriveStatus(hasTimestamps: bool, idle: int, todos: seq<Value>, hasFatal: bool): Status {
    if !hasTimestamps then Empty
    else if hasFatal && idle > 120 then Error
    else if HasOpenTodos(todos) then (if idle > 900 then Stuck else InProgress)
    else if AllTodosDone(todos) then Completed
    else if idle > 7200 then Abandoned
    else InProgress
  }

  /** Each status as the condition that produces it. */
  lemma StatusCases(h: bool, idle: int, todos: seq<Value>, fatal: bool)
    ensures DeriveStatus(h, idle, todos, fatal) == Empty <==> !h
    ensures DeriveStatus(h, idle, todos, fatal) == Error <==> h && fatal && idle > 120
    ensures DeriveStatus(h, idle, todos, fatal) == Stuck <==> h && !(fatal && idle > 120) && HasOpenTodos(todos) && idle > 900
    ensures (DeriveStatus(h, idle, todos, fatal) == Completed <==>
      h && !(fatal && idle > 120) && !HasOpenTodos(todos) && AllTodosDone(todos))
    ensures (DeriveStatus(h, idle, todos, fatal) == Abandoned <==>
      h && !(fatal && idle > 120) && !HasOpenTodos(todos) && !AllTodosDone(todos) && idle > 7200)
  {
  }

  /** A stuck session has no fatal error: the error rule would have fired,
      since 15 minutes exceed 2. */
  lemma StuckHasNoFatalError(h: bool, idle: int, todos: seq<Value>, fatal: bool)
    requires DeriveStatus(h, idle, todos, fatal) == Stuck
    ensures !fatal
  {
  }

  /** Error, stuck and abandoned sessions stay so as the clock advances. */
  lemma IdleStatusesPersist(h: bool, idle: int, later: int, todos: seq<Value>, fatal: bool)
    requires idle <= later
    requires DeriveStatus(h, idle, todos, fatal) in {Error, Stuck, Abandoned}
    ensures DeriveStatus(h, later, todos, fatal) == DeriveStatus(h, idle, todos, fatal)
  {
  }

  /** A todo that is not completed. */
  predicate Pending(t: Value) {
    TodoStatus(t) != Str("completed")
  }

  /** `pending_todos`: the todos whose status is not "completed". */
  function PendingTodos(todos: seq<Value>): (r: seq<Value>)
    ensures forall t :: t in r <==> t in todos && TodoStatus(t) != Str("completed")
    ensures |r| <= |todos|
  {
    var r := Filter(todos, Pending);
    assert forall t :: t in r <==> t in todos && Pending(t);
    r
  }

  /** A completed session has no pending todos. */
  lemma CompletedHasNothingPending(h: bool, idle: int, todos: seq<Value>, fatal: bool)
    requires DeriveStatus(h, idle, todos, fatal) == Completed
    ensures PendingTodos(todos) == [] && todos != []
  {
    StatusCases(h, idle, todos, fatal);
    FilterNone(todos, Pending);
  }

  // ---------------------------------------------------------------------
  // Sessions

  datatype Session = Session(sessionId: string, projectPath: string, startedAt: int, lastActivity: int,
                             messages: seq<Message>, toolCalls: seq<ToolCall>, todos: seq<Value>,
                             status: Status, initialPrompt: string, lastError: Option<string>,
                             agentSessions: seq<Value>)

  /** `load_session`: None when the file is missing; otherwise the replayed
      file with first and last activity and the derived status.  Without
      any timestamp both times are `now` and the status is "empty". */
  function LoadSession(fileExists: bool, projectPath: string, sessionId: string, lines: seq<string>,
                       decode: string -> Option<Value>, now: int, parse: string -> Option<int>,
                       strOf: Value -> string): (r: Option<Session>)
    ensures fileExists <==> r.Some?
    ensures r.Some? ==> r.value.startedAt <= r.value.lastActivity
    ensures r.Some? ==> (r.value.status == Empty <==> AllTimes(lines, decode, parse) == [])
    ensures (r.Some? && AllTimes(lines, decode, parse) != [] ==>
      && r.value.startedAt in AllTimes(lines, decode, parse)
      && r.value.lastActivity in AllTimes(lines, decode, parse)
      && forall t :: t in AllTimes(lines, decode, parse) ==> r.value.startedAt <= t <= r.value.lastActivity)
    ensures r.Some? && r.value.lastError.Some? ==> |r.value.lastError.value| <= 500
    ensures r.Some? ==> r.value.status == DeriveStatus(AllTimes(lines, decode, parse) != [], now - r.value.lastActivity,
                                                       r.value.todos, r.value.lastError.Some?)
  {
    if !fileExists then None
    else
      var st := ReplayLines(lines, decode, now, parse, strOf);
      ReplayCollectsTimes(lines, decode, now, parse, strOf);
      var ts := st.timestamps;
      var first := if ts == [] then now else SeqMin(ts);
      var last := if ts == [] then now else SeqMax(ts);
      var status := DeriveStatus(ts != [], now - last, st.todos, st.lastFatalError.Some?);
      Some(Session(sessionId, projectPath, first, last, st.messages, st.toolCalls, st.todos, status,
                   st.initialPrompt, st.lastFatalError, st.agentSessions))
  }

  /** `duration_minutes`, kept in seconds: never negative. */
  function DurationSeconds(s: Session): (r: int)
    requires s.startedAt <= s.lastActivity
    ensures r >= 0 && s.startedAt + r == s.lastActivity
  {
    s.lastActivity - s.startedAt
  }

  /** The `key` values of the calls to any of `names`, in call order. */
  function Collect(calls: seq<ToolCall>, names: seq<string>, key: string): (r: seq<Value>)
    ensures (forall v :: v in r <==>
      exists i :: 0 <= i < |calls| && calls[i].name in names && Get(AsDict(calls[i].input), key) == Some(v))
    ensures |r| <= |calls|
  {
    if calls == [] then []
    else
      var rest := Collect(calls[1..], names, key);
      var v := Get(AsDict(calls[0].input), key);
      assert forall i :: 1 <= i < |calls| ==> calls[i] == calls[1..][i - 1];
      (if calls[0].name in names && v.Some? then [v.value] else []) + rest
  }

  /** `files_read`: the distinct `file_path` inputs of Read calls. */
  function FilesRead(s: Session): (r: seq<Value>)
    ensures NoDups(r)
    ensures (forall v :: v in r <==>
      exists i :: 0 <= i < |s.toolCalls| && s.toolCalls[i].name == "Read" && Get(AsDict(s.toolCalls[i].input), "file_path") == Some(v))
  {
    Dedupe(Collect(s.toolCalls, ["Read"], "file_path"))
  }

  /** `files_written`: the distinct `file_path` inputs of Write and Edit
      calls. */
  function FilesWritten(s: Session): (r: seq<Value>)
    ensures NoDups(r)
    ensures (forall v :: v in r <==>
      exists i :: 0 <= i < |s.toolCalls| && s.toolCalls[i].name in ["Write", "Edit"] && Get(AsDict(s.toolCalls[i].input), "file_path") == Some(v))
  {
    Dedupe(Collect(s.toolCalls, ["Write", "Edit"], "file_path"))
  }

  /** `bash_commands`: the `command` inputs of Bash calls, repeats kept. */
  function BashCommands(s: Session): (r: seq<Value>)
    ensures (forall v :: v in r <==>
      exists i :: 0 <= i < |s.toolCalls| && s.toolCalls[i].name == "Bash" && Get(AsDict(s.toolCalls[i].input), "command") == Some(v))
  {
    Collect(s.toolCalls, ["Bash"], "command")
  }

  /** `summary`: "[status] " and the first 80 characters of the prompt on
      one line, with "..." when the prompt is longer. */
  function Summary(s: Session): (r: string)
    ensures IsPrefix("[" + s.status.Name() + "] ", r)
    ensures |r| == |s.status.Name()| + 3 + (if |s.initialPrompt| > 80 then 83 else |s.initialPrompt|)
    ensures forall i :: |s.status.Name()| + 3 <= i < |r| ==> r[i] != '\n'
  {
    var preview := ReplaceChar(Prefix(s.initialPrompt, 80), '\n', ' ');
    "[" + s.status.Name() + "] " + preview + (if |s.initialPrompt| > 80 then "..." else "")
  }

  /** A short one-line prompt appears whole in the summary. */
  lemma SummaryOfShortPrompt(s: Session)
    requires |s.initialPrompt| <= 80 && !HasChar(s.initialPrompt, '\n')
    ensures Summary(s) == "[" + s.status.Name() + "] " + s.initialPrompt
  {
    var p := s.initialPrompt;
    var preview := ReplaceChar(Prefix(p, 80), '\n', ' ');
    forall i | 0 <= i < |p| ensures preview[i] == p[i] {
      assert p[i] in p;
    }
  }

  // ---------------------------------------------------------------------
  // Listing and querying

  /** `list_project_sessions` given the file names of the project's
      directory (None when it does not exist): the stems of the `.jsonl`
      files that are not agent transcripts. */
  function ListProjectSessions(names: Option<seq<string>>): (r: seq<string>)
    ensures names.None? ==> r == []
    ensures names.Some? ==> |r| <= |names.value|
    ensures forall s :: s in r ==> !IsPrefix("agent-", s)
  {
    if names.None? then [] else SessionStems(names.value)
  }

  /** The stem pathlib gives a `.jsonl` name: the name itself when it is
      nothing but the suffix. */
  function Stem(name: string): (r: string)
    requires IsSuffix(".jsonl", name)
    ensures |r| <= |name| && r == name[..|r|]
  {
    if name == ".jsonl" then name else name[..|name| - 6]
  }

  function SessionStems(names: seq<string>): (r: seq<string>)
    ensures |r| <= |names|
    ensures forall s :: s in r ==> !IsPrefix("agent-", s)
    ensures (forall i :: 0 <= i < |names| && IsSuffix(".jsonl", names[i]) && !IsPrefix("agent-", names[i]) ==>
      Stem(names[i]) in r)
  {
    if names == [] then []
    else
      var n := names[0];
      var rest := SessionStems(names[1..]);
      assert forall i :: 1 <= i < |names| ==> names[i] == names[1..][i - 1];
      if IsSuffix(".jsonl", n) && !IsPrefix("agent-", n) then
        StemKeepsPrefix(n);
        [Stem(n)] + rest
      else rest
  }

  lemma StemKeepsPrefix(name: string)
    requires IsSuffix(".jsonl", name) && !IsPrefix("agent-", name)
    ensures !IsPrefix("agent-", Stem(name))
  {
    var s := Stem(name);
    if |s| >= 6 {
      assert s[..6] == name[..6];
    }
  }

  /** `list_all_projects` given the entries (name, is a directory) of the
      projects directory: each directory with its decoded path. */
  function ListAllProjects(entries: Option<seq<(string, bool)>>): (r: seq<(string, string)>)
    ensures entries.None? ==> r == []
    ensures forall p :: p in r ==> p.1 == DecodeProjectPath(p.0)
    ensures entries.Some? ==> forall p :: p in r <==> p.0 != "." && p.0 != ".." && (p.0, true) in entries.value && p.1 == DecodeProjectPath(p.0)
  {
    if entries.None? then [] else ProjectDirs(entries.value)
  }

  function ProjectDirs(entries: seq<(string, bool)>): (r: seq<(string, string)>)
    ensures forall p :: p in r <==> p.0 != "." && p.0 != ".." && (p.0, true) in entries && p.1 == DecodeProjectPath(p.0)
  {
    if entries == [] then []
    else
      var e := entries[0];
      (if e.1 && e.0 != "." && e.0 != ".." then [(e.0, DecodeProjectPath(e.0))] else []) + ProjectDirs(entries[1..])
  }

  /** A candidate passes when it is not the current session, loaded, and
      its status is in the filter (an absent or empty filter passes all). */
  predicate Eligible(c: (string, Option<Session>), current: Option<string>, statusFilter: Option<seq<string>>) {
    && !(current.Some? && current.value != "" && c.0 == current.value)
    && c.1.Some?
    && (statusFilter.None? || statusFilter.value == [] || c.1.value.status.Name() in statusFilter.value)
  }

  function EligibleSessions(cands: seq<(string, Option<Session>)>, current: Option<string>,
                            statusFilter: Option<seq<string>>): (r: seq<Session>)
    ensures (forall s :: s in r <==>
      exists i :: 0 <= i < |cands| && Eligible(cands[i], current, statusFilter) && cands[i].1 == Some(s))
  {
    if cands == [] then []
    else
      var rest := EligibleSessions(cands[1..], current, statusFilter);
      assert forall i :: 1 <= i < |cands| ==> cands[i] == cands[1..][i - 1];
      (if Eligible(cands[0], current, statusFilter) then [cands[0].1.value] else []) + rest
  }

  function LastActivity(s: Session): int {
    s.lastActivity
  }

  /** `get_recent_sessions` over the (id, loaded session) candidates of the
      chosen projects in listing order: the eligible sessions, most recent
      first, cut to `limit` with Python's slice rule. */
  function GetRecentSessions(cands: seq<(string, Option<Session>)>, current: Option<string>,
                             statusFilter: Option<seq<string>>, limit: int): (r: seq<Session>)
    ensures SortedDescBy(r, LastActivity)
    ensures limit >= 0 ==> |r| <= limit
    ensures (forall s :: s in r ==>
      exists i :: 0 <= i < |cands| && Eligible(cands[i], current, statusFilter) && cands[i].1 == Some(s))
    ensures (statusFilter.Some? && statusFilter.value != [] ==>
      forall s :: s in r ==> s.status.Name() in statusFilter.value)
  {
    var eligible := EligibleSessions(cands, current, statusFilter);
    var sorted := SortDescBy(eligible, LastActivity);
    var r := PySlicePrefix(sorted, limit);
    PrefixMembers(sorted, r);
    PermutationMembers(eligible, sorted);
    r
  }

  /** The cut keeps the most recent: an eligible session left out is no
      more recent than any returned one. */
  lemma RecentAreMostRecent(cands: seq<(string, Option<Session>)>, current: Option<string>,
                            statusFilter: Option<seq<string>>, limit: int, s: Session, kept: Session)
    requires s in EligibleSessions(cands, current, statusFilter)
    requires kept in GetRecentSessions(cands, current, statusFilter, limit)
    requires s !in GetRecentSessions(cands, current, statusFilter, limit)
    ensures s.lastActivity <= kept.lastActivity
  {
    var sorted := SortDescBy(EligibleSessions(cands, current, statusFilter), LastActivity);
    var r := GetRecentSessions(cands, current, statusFilter, limit);
    assert s in multiset(sorted);
    var j :| 0 <= j < |sorted| && sorted[j] == s;
    var i :| 0 <= i < |r| && r[i] == kept;
    assert sorted[i] == kept;
    forall k | 0 <= k < |r| ensures sorted[k] != s {
      assert r[k] in r;
    }
  }

  /** With a large enough limit nothing eligible is dropped. */
  lemma RecentKeepsAllWithinLimit(cands: seq<(string, Option<Session>)>, current: Option<string>,
                                  statusFilter: Option<seq<string>>, limit: int, s: Session)
    requires limit >= |EligibleSessions(cands, current, statusFilter)|
    requires s in EligibleSessions(cands, current, statusFilter)
    ensures s in GetRecentSessions(cands, current, statusFilter, limit)
  {
    var sorted := SortDescBy(EligibleSessions(cands, current, statusFilter), LastActivity);
    assert s in multiset(sorted);
    assert GetRecentSessions(cands, current, statusFilter, limit) == sorted;
  }

  lemma PrefixMembers<T>(s: seq<T>, r: seq<T>)
    requires |r| <= |s| && r == s[..|r|]
    ensures forall x :: x in r ==> x in s
  {
    forall x | x in r ensures x in s {
      var k :| 0 <= k < |r| && r[k] == x;
      assert s[k] == x;
    }
  }

  lemma PermutationMembers<T>(a: seq<T>, b: seq<T>)
    requires multiset(a) == multiset(b)
    ensures forall x :: x in b ==> x in a
  {
    forall x | x in b ensures x in a {
      assert x in multiset(b);
    }
  }

  const StuckStatuses: seq<string> := ["stuck", "error", "abandoned"]

  /** `find_stuck_sessions`: up to 50 recent stuck, errored or abandoned
      sessions. */
  function FindStuckSessions(cands: seq<(string, Option<Session>)>, current: Option<string>): (r: seq<Session>)
    ensures |r| <= 50 && SortedDescBy(r, LastActivity)
    ensures forall s :: s in r ==> s.status in {Stuck, Error, Abandoned}
  {
    var r := GetRecentSessions(cands, current, Some(StuckStatuses), 50);
    assert forall s :: s in r ==> s.status.Name() in StuckStatuses;
    r
  }
}

=== FILE: startup.dfy ===
/** The start-of-conversation check: branch status, stuck sessions,
    projects with feature lists, and what to do next. */
module Startup {
  import opened Common
  import opened Json
  import Resume
  import Context

  // ---------------------------------------------------------------------
  // Branch status

  datatype BranchStatus = BranchStatus(currentBranch: string, isMain: bool, repoPath: string)

  /** `get_branch_status()`; each argument is the output of the git
      command when it exits with status 0. */
  function GetBranchStatus(branchOut: Option<string>, pathOut: Option<string>): (r: BranchStatus)
    ensures r.isMain <==> branchOut.Some? && Strip(branchOut.value) == "main"
    ensures branchOut.None? ==> r.currentBranch == ""
    ensures r.isMain <==> r.currentBranch == "main"
    ensures pathOut.None? ==> r.repoPath == ""
  {
    var branch := if branchOut.Some? then Strip(branchOut.value) else "";
    BranchStatus(branch, branchOut.Some? && branch == "main",
                 if pathOut.Some? then Strip(pathOut.value) else "")
  }

  // ---------------------------------------------------------------------
  // Active projects

  /** One project with a feature list; `progress` is `progress_pct` in
      tenths of a percent (the value is rounded to one decimal). */
  datatype ProjectInfo = ProjectInfo(name: string, total: nat, passing: nat, progress: int, complete: bool)

  /** What a directory entry under `projects/` holds. */
  datatype Entry =
    | NotADirectory
    | NoFeatureList
    | Unreadable              // the file does not decode or cannot be read
    | FeatureList(data: Value)

  /** `(total, passing)` of a feature collection; None where iterating it
      raises (a non-empty string or mapping iterates over strings, which
      have no `get`; a number has no length). */
  function FeatureCounts(features: Value): (r: Option<(nat, nat)>)
    ensures r.Some? ==> r.value.1 <= r.value.0
    ensures features.List? && (forall i :: 0 <= i < |features.items| ==> features.items[i].Dict?) ==>
              r == Some((|features.items|, CountWhere(features.items, Context.Passes)))
  {
    match features
    case List(items) =>
      if forall i :: 0 <= i < |items| ==> items[i].Dict? then Some((|items|, CountWhere(items, Context.Passes)))
      else None
    case Str(s) => if s == [] then Some((0, 0)) else None
    case Dict(entries) => if entries == [] then Some((0, 0)) else None
    case _ => None
  }

  /** The summary of one project; `round1(x)` is `round(x, 1)` in tenths. */
  function InfoOf(name: string, total: nat, passing: nat, round1: real -> int): (p: ProjectInfo)
    requires passing <= total
    ensures p.name == name && p.total == total && p.passing == passing
    ensures total == 0 ==> p.progress == 0
    ensures total > 0 ==> p.progress == round1(passing as real / total as real * 100.0)
    ensures p.complete <==> passing == total && total > 0
  {
    ProjectInfo(name, total, passing,
                if total > 0 then round1(passing as real / total as real * 100.0) else 0,
                passing == total && total > 0)
  }

  /** `(total, passing)` of a decoded `feature_list.json`; None where
      `data.get` or the counting raises. */
  function Loaded(data: Value): (r: Option<(nat, nat)>)
    ensures r.Some? ==> data.Dict? && r == FeatureCounts(Get(data.entries, "features").GetOr(List([])))
  {
    if data.Dict? then FeatureCounts(Get(data.entries, "features").GetOr(List([]))) else None
  }

  /** The entry is a feature list that loads without raising. */
  predicate LoadsCleanly(e: (string, Entry)) {
    !e.1.FeatureList? || Loaded(e.1.data).Some?
  }

  /** The summary built for entry `e` when its feature list loads. */
  predicate SummarizedBy(p: ProjectInfo, e: (string, Entry), round1: real -> int) {
    && e.1.FeatureList? && e.0 == p.name
    && Loaded(e.1.data) == Some((p.total, p.passing))
    && p == InfoOf(p.name, p.total, p.passing, round1)
  }

  /** The projects in directory order; None where one raises outside the
      caught decode and read errors.  Each project is the summary of its
      own entry: the counts of its feature list and the progress rounded
      from them. */
  function Collect(entries: seq<(string, Entry)>, round1: real -> int): (r: Option<seq<ProjectInfo>>)
    ensures r.Some? <==> forall i :: 0 <= i < |entries| ==> LoadsCleanly(entries[i])
    ensures r.Some? ==> |r.value| == CountWhere(entries, HasFeatureList)
    ensures r.Some? ==> forall p :: p in r.value ==>
              && p.passing <= p.total
              && (p.total == 0 ==> p.progress == 0)
              && (p.complete <==> p.passing == p.total && p.total > 0)
    ensures r.Some? ==> forall p :: p in r.value ==> exists i :: 0 <= i < |entries| && SummarizedBy(p, entries[i], round1)
  {
    if entries == [] then Some([])
    else
      var rest := Collect(entries[1..], round1);
      assert (forall i :: 0 <= i < |entries| ==> LoadsCleanly(entries[i]))
             <==> LoadsCleanly(entries[0]) && forall i :: 0 <= i < |entries[1..]| ==> LoadsCleanly(entries[1..][i]) by {
        if forall i :: 0 <= i < |entries[1..]| ==> LoadsCleanly(entries[1..][i]) {
          forall i | 1 <= i < |entries| ensures LoadsCleanly(entries[i]) {
            assert entries[i] == entries[1..][i - 1];
          }
        }
      }
      var here: Option<seq<ProjectInfo>> :=
        match entries[0].1
        case FeatureList(data) =>
          var counts := Loaded(data);
          if counts.None? then None
          else Some([InfoOf(entries[0].0, counts.value.0, counts.value.1, round1)])
        case _ => Some([]);
      if here.None? || rest.None? then None
      else
        assert forall p :: p in rest.value ==> exists i :: 1 <= i < |entries| && SummarizedBy(p, entries[i], round1) by {
          forall p | p in rest.value
            ensures exists i :: 1 <= i < |entries| && SummarizedBy(p, entries[i], round1)
          {
            var k :| 0 <= k < |entries[1..]| && SummarizedBy(p, entries[1..][k], round1);
            assert entries[k + 1] == entries[1..][k];
          }
        }
        Some(here.value + rest.value)
  }

  predicate HasFeatureList(e: (string, Entry)) {
    e.1.FeatureList?
  }

  predicate SortedByProgress(s: seq<ProjectInfo>) {
    forall i, j :: 0 <= i < j < |s| ==> s[i].progress <= s[j].progress
  }

  /** The descending key whose stable sort orders by ascending progress. */
  function Backlog(p: ProjectInfo): int {
    -p.progress
  }

  /** `projects.sort(key=progress_pct)`. */
  function SortByProgress(s: seq<ProjectInfo>): (r: seq<ProjectInfo>)
    ensures SortedByProgress(r)
    ensures multiset(r) == multiset(s)
    ensures |r| == |s|
  {
    SortDescBy(s, Backlog)
  }

  /** `get_active_projects()`: the projects with a feature list, least
      complete first; [] without a `projects` directory. */
  function GetActiveProjects(dirExists: bool, entries: seq<(string, Entry)>, round1: real -> int): (r: Option<seq<ProjectInfo>>)
    ensures !dirExists ==> r == Some([])
    ensures dirExists ==> (r.Some? <==> Collect(entries, round1).Some?)
    ensures r.Some? ==> SortedByProgress(r.value)
    ensures dirExists && r.Some? ==> multiset(r.value) == multiset(Collect(entries, round1).value)
    ensures r.Some? ==> forall p :: p in r.value ==>
              && p.passing <= p.total
              && (p.total == 0 ==> p.progress == 0)
              && (p.complete <==> p.passing == p.total && p.total > 0)
    ensures r.Some? ==> forall p :: p in r.value ==> exists i :: 0 <= i < |entries| && SummarizedBy(p, entries[i], round1)
  {
    if !dirExists then Some([])
    else
      var c := Collect(entries, round1);
      if c.None? then None
      else
        var r := SortByProgress(c.value);
        assert forall p :: p in r ==> p in c.value by {
          forall p | p in r ensures p in c.value {
            assert p in multiset(r);
          }
        }
        Some(r)
  }

  // ---------------------------------------------------------------------
  // Recommendations

  datatype Recommendation = Recommendation(priority: int, kind: string, message: string, action: string,
                                           sessionId: Option<string>)

  function ResumeItem(s: Resume.StuckInfo): (r: Recommendation)
    ensures r.priority == 1 && r.sessionId == Some(s.sessionId)
    ensures Contains(r.action, s.sessionId)
  {
    var pre := "uv run python -m lib.resume ";
    assert MatchAt(pre + s.sessionId + " --clipboard", s.sessionId, |pre|);
    Recommendation(1, "resume_session", "Resume stuck session: " + Prefix(s.task, 60) + "...",
                   pre + s.sessionId + " --clipboard", Some(s.sessionId))
  }

  /** The project recommendation; `showPct` renders its progress. */
  function ContinueItem(p: ProjectInfo, showPct: int -> string): (r: Recommendation)
    ensures r.priority == 2 && r.sessionId.None?
    ensures IsPrefix("Continue project '" + p.name + "'", r.message)
  {
    Recommendation(2, "continue_project",
                   "Continue project '" + p.name + "' (" + showPct(p.progress) + "% complete)",
                   "uv run python -m tools feature_tracker '{\"action\": \"next\", \"project\": \"" + p.name + "\"}'",
                   None)
  }

  function ResumeItems(stuck: seq<Resume.StuckInfo>): (r: seq<Recommendation>)
    ensures |r| == |stuck|
    ensures forall i :: 0 <= i < |r| ==> r[i] == ResumeItem(stuck[i])
  {
    seq(|stuck|, i requires 0 <= i < |stuck| => ResumeItem(stuck[i]))
  }

  predicate Incomplete(p: ProjectInfo) {
    !p.complete
  }

  predicate SortedByPriority(r: seq<Recommendation>) {
    forall i, j :: 0 <= i < j < |r| ==> r[i].priority <= r[j].priority
  }

  /** `generate_recommendations(...)`: a resume item for each of the
      first two stuck sessions, then one item for the first incomplete
      project; already in priority order, which the stable sort keeps. */
  function GenerateRecommendations(stuck: seq<Resume.StuckInfo>, projects: seq<ProjectInfo>,
                                   showPct: int -> string): (r: seq<Recommendation>)
    ensures SortedByPriority(r)
    ensures CountWhere(r, IsResume) <= 2 && CountWhere(r, IsContinue) <= 1
    ensures |r| == |Prefix(stuck, 2)| + (if Filter(projects, Incomplete) != [] then 1 else 0)
    ensures forall i :: 0 <= i < |Prefix(stuck, 2)| ==> r[i] == ResumeItem(stuck[i])
    ensures Filter(projects, Incomplete) != [] ==>
              r[|r| - 1] == ContinueItem(Filter(projects, Incomplete)[0], showPct)
  {
    var resumes := ResumeItems(Prefix(stuck, 2));
    var incomplete := Filter(projects, Incomplete);
    var cont := if incomplete != [] then [ContinueItem(incomplete[0], showPct)] else [];
    PriorityBlocks(resumes, cont);
    resumes + cont
  }

  /** At most two resume items followed by at most one project item are in
      priority order, with at most two of the first kind and one of the
      second. */
  lemma PriorityBlocks(resumes: seq<Recommendation>, cont: seq<Recommendation>)
    requires |resumes| <= 2 && |cont| <= 1
    requires forall i :: 0 <= i < |resumes| ==> resumes[i].priority == 1
    requires forall i :: 0 <= i < |cont| ==> cont[i].priority == 2
    ensures SortedByPriority(resumes + cont)
    ensures CountWhere(resumes + cont, IsResume) <= 2 && CountWhere(resumes + cont, IsContinue) <= 1
  {
    var r := resumes + cont;
    assert forall i :: 0 <= i < |r| ==> r[i].priority == (if i < |resumes| then 1 else 2);
    CountWhereZero(resumes, IsContinue);
    CountWhereAppend(resumes, cont, IsResume);
    CountWhereAppend(resumes, cont, IsContinue);
  }

  predicate IsResume(r: Recommendation) {
    r.priority == 1
  }

  predicate IsContinue(r: Recommendation) {
    r.priority == 2
  }

  /** The project recommended is the least complete unfinished one. */
  lemma RecommendsLeastComplete(stuck: seq<Resume.StuckInfo>, projects: seq<ProjectInfo>, showPct: int -> string)
    requires SortedByProgress(projects)
    requires Filter(projects, Incomplete) != []
    ensures var r := GenerateRecommendations(stuck, projects, showPct);
            var p := Filter(projects, Incomplete)[0];
            && r[|r| - 1] == ContinueItem(p, showPct)
            && !p.complete && p in projects
            && (forall q :: q in projects && !q.complete ==> p.progress <= q.progress)
  {
    assert Filter(projects, Incomplete)[0] in Filter(projects, Incomplete);
    FirstFilteredIsLeast(projects);
  }

  lemma {:induction false} FirstFilteredIsLeast(projects: seq<ProjectInfo>)
    requires SortedByProgress(projects)
    requires Filter(projects, Incomplete) != []
    ensures forall q :: q in projects && !q.complete ==> Filter(projects, Incomplete)[0].progress <= q.progress
  {
    var p := Filter(projects, Incomplete)[0];
    assert p in Filter(projects, Incomplete);
    if !projects[0].complete {
      assert Filter(projects, Incomplete)[0] == projects[0];
      forall q | q in projects && !q.complete ensures p.progress <= q.progress {
        var k :| 0 <= k < |projects| && projects[k] == q;
      }
    } else {
      assert Filter(projects, Incomplete) == Filter(projects[1..], Incomplete);
      FirstFilteredIsLeast(projects[1..]);
      forall q | q in projects && !q.complete ensures p.progress <= q.progress {
        assert q in projects[1..] by {
          var k :| 0 <= k < |projects| && projects[k] == q;
          assert k != 0;
          assert projects[1..][k - 1] == q;
        }
      }
    }
  }

  // ---------------------------------------------------------------------
  // The start-up check

  /** The counts the start-up telemetry event carries. */
  datatype StartupEvent = StartupEvent(stuckFound: nat, activeProjects: nat, recommendations: nat, branch: string)

  datatype Report = Report(branch: BranchStatus, stuck: seq<Resume.StuckInfo>, projects: seq<ProjectInfo>,
                           recommendations: seq<Recommendation>, hasStuck: bool, hasActive: bool)

  /** `startup_check(task, project, max_age)` from the status of the
      branch, the stuck sessions and the active projects; `project` ""
      means none was named.  The telemetry event is returned alongside;
      a failure to record it does not change the report. */
  function StartupCheck(branch: BranchStatus, stuck: seq<Resume.StuckInfo>, active: seq<ProjectInfo>,
                        project: string, showPct: int -> string): (r: (Report, StartupEvent))
    ensures r.0.hasStuck <==> stuck != []
    ensures r.0.hasActive <==> r.0.projects != []
    ensures project != "" ==> forall p :: p in r.0.projects <==> p in active && p.name == project
    ensures project == "" ==> r.0.projects == active
    ensures r.0.stuck == stuck && r.0.branch == branch
    ensures r.0.recommendations == GenerateRecommendations(stuck, r.0.projects, showPct)
    ensures r.1 == StartupEvent(|stuck|, |r.0.projects|, |r.0.recommendations|, branch.currentBranch)
  {
    var projects := if project != "" then Filter(active, (p: ProjectInfo) => p.name == project) else active;
    var recs := GenerateRecommendations(stuck, projects, showPct);
    (Report(branch, stuck, projects, recs, |stuck| > 0, |projects| > 0),
     StartupEvent(|stuck|, |projects|, |recs|, branch.currentBranch))
  }
}

=== FILE: telemetry.dfy ===
/** The enforcement-event log of `pilot_core/telemetry.py`: an append-only
    JSON-Lines file, modelled as the sequence of its parsed lines.  The
    clock is the parameter `now` (seconds); the file system is the `Store`
    value passed in and returned. */
module Telemetry {
  import opened Common

  /** The closed enumeration of event kinds. */
  datatype EventType =
    | ImportBlocked | ImportAllowed
    | ViolationDetected
    | CommitReviewRequired | CommitReviewBypassed | CommitGitignoreOnly
    | BypassReview | BypassAgentTrailer
    | CommitCompleted

  const AllTypes: seq<EventType> := [
    ImportBlocked, ImportAllowed, ViolationDetected,
    CommitReviewRequired, CommitReviewBypassed, CommitGitignoreOnly,
    BypassReview, BypassAgentTrailer, CommitCompleted
  ]

  /** The enum member's value, as written to the log. */
  function Value(t: EventType): string {
    match t
    case ImportBlocked => "import_blocked"
    case ImportAllowed => "import_allowed"
    case ViolationDetected => "violation_detected"
    case CommitReviewRequired => "commit_review_required"
    case CommitReviewBypassed => "commit_review_bypassed"
    case CommitGitignoreOnly => "commit_gitignore_only"
    case BypassReview => "bypass_review"
    case BypassAgentTrailer => "bypass_agent_trailer"
    case CommitCompleted => "commit_completed"
  }

  /** The enum member's name (`EventType.__members__` key). */
  function Name(t: EventType): string {
    Upper(Value(t))
  }

  /** `record_event` accepts either an enum member or a bare string. */
  datatype TypeArg = Known(t: EventType) | RawType(s: string)

  function TypeString(a: TypeArg): string {
    match a
    case Known(t) => Value(t)
    case RawType(s) => s
  }

  /** Free-form `details` mapping; values are kept abstract as strings. */
  type Details = map<string, string>

  /** A JSON object read back from one line.  `ts` is `None` when the
      `timestamp` key is missing or is not a valid ISO-8601 string;
      `eventType`/`source` are `None` when the key is missing. */
  datatype Event = Event(
    ts: Option<int>,
    eventType: Option<string>,
    source: Option<string>,
    details: Option<Details>)

  /** One physical line of the log file (after `strip()`). */
  datatype Line = Blank | Malformed(raw: string) | Parsed(e: Event)

  /** The log file: absent, or present with its lines. */
  datatype Store = Missing | File(lines: seq<Line>)

  function LinesOf(st: Store): seq<Line> {
    if st.Missing? then [] else st.lines
  }

  /** Start of the trailing window of `days` days ending at `now`. */
  function Cutoff(now: int, days: int): int {
    now - days * Day
  }

  // ---------------------------------------------------------------------
  // record_event

  /** `record_event`: the record written and the log after the append.
      Appending creates the file when it is missing. */
  function RecordEvent(st: Store, eventType: TypeArg, source: string,
                       details: Details, now: int): (r: (Event, Store))
    ensures r.1.File?
    ensures r.1.lines == LinesOf(st) + [Parsed(r.0)]
    ensures r.0.ts == Some(now)
    ensures r.0.eventType == Some(TypeString(eventType))
    ensures r.0.source == Some(source)
    ensures r.0.details.Some? <==> details != map[]
    ensures r.0.details.Some? ==> r.0.details.value == details
  {
    var ev := Event(Some(now), Some(TypeString(eventType)), Some(source),
                    if details != map[] then Some(details) else None);
    (ev, File(LinesOf(st) + [Parsed(ev)]))
  }

  // ---------------------------------------------------------------------
  // get_event_counts

  /** A line that `get_event_counts` counts for the window starting at `cutoff`. */
  predicate Counted(l: Line, cutoff: int) {
    l.Parsed? && l.e.ts.Some? && l.e.ts.value >= cutoff
  }

  /** The counting key: a missing `event_type` counts as "unknown". */
  function KeyOf(e: Event): string {
    e.eventType.GetOr("unknown")
  }

  /** Reference count: lines counted in the window with key `k`. */
  function CountKey(lines: seq<Line>, cutoff: int, k: string): nat {
    if lines == [] then 0
    else
      var l := lines[|lines| - 1];
      CountKey(lines[..|lines| - 1], cutoff, k)
        + (if Counted(l, cutoff) && KeyOf(l.e) == k then 1 else 0)
  }

  /** Reference count of every line counted in the window. */
  function CountAll(lines: seq<Line>, cutoff: int): nat {
    if lines == [] then 0
    else
      CountAll(lines[..|lines| - 1], cutoff)
        + (if Counted(lines[|lines| - 1], cutoff) then 1 else 0)
  }

  /** `get_event_counts(since_days)` over the lines of an existing file. */
  function CountLines(lines: seq<Line>, cutoff: int): (r: Counts)
    ensures DistinctKeys(r)
    ensures forall k :: Lookup(r, k) == CountKey(lines, cutoff, k)
    ensures forall k :: HasKey(r, k) <==> CountKey(lines, cutoff, k) > 0
    ensures Sum(Values(r)) == CountAll(lines, cutoff)
  {
    if lines == [] then []
    else
      var init := lines[..|lines| - 1];
      var l := lines[|lines| - 1];
      var acc := CountLines(init, cutoff);
      if Counted(l, cutoff) then Bump(acc, KeyOf(l.e)) else acc
  }

  /** `get_event_counts`: per-type counts over the trailing window; a
      missing file gives the empty table. */
  function GetEventCounts(st: Store, now: int, sinceDays: int): (r: Counts)
    ensures st.Missing? ==> r == []
    ensures DistinctKeys(r)
    ensures forall k :: Lookup(r, k) == CountKey(LinesOf(st), Cutoff(now, sinceDays), k)
    ensures forall k :: HasKey(r, k) <==> Lookup(r, k) > 0
  {
    if st.Missing? then [] else CountLines(st.lines, Cutoff(now, sinceDays))
  }

  /** Total of a count table. */
  function Total(m: Counts): int {
    Sum(Values(m))
  }

  /** A counted event lies in the window; nothing older is counted: the
      inclusive lower boundary of the window. */
  lemma CountWindowBoundary(e: Event, now: int, days: int)
    requires e.ts.Some?
    ensures Counted(Parsed(e), Cutoff(now, days)) <==> e.ts.value >= now - days * Day
  {
  }

  /** The counts do not depend on the order of the lines (a multiset count). */
  lemma {:induction false} CountKeyAppend(a: seq<Line>, b: seq<Line>, cutoff: int, k: string)
    ensures CountKey(a + b, cutoff, k) == CountKey(a, cutoff, k) + CountKey(b, cutoff, k)
    decreases |b|
  {
    if b == [] {
      assert a + b == a;
    } else {
      var b' := b[..|b| - 1];
      assert (a + b)[..|a + b| - 1] == a + b';
      assert (a + b)[|a + b| - 1] == b[|b| - 1];
      CountKeyAppend(a, b', cutoff, k);
    }
  }

  /** A wider window counts at least as much: with a shared `now`, the
      14-day count of every type is at least the 7-day count. */
  lemma {:induction false} CountKeyMonotone(lines: seq<Line>, c1: int, c2: int, k: string)
    requires c1 <= c2
    ensures CountKey(lines, c2, k) <= CountKey(lines, c1, k)
    decreases |lines|
  {
    if lines != [] {
      CountKeyMonotone(lines[..|lines| - 1], c1, c2, k);
    }
  }

  // ---------------------------------------------------------------------
  // get_events

  /** Whether `get_events` returns this event.  With a window, an event
      whose timestamp does not parse is skipped; an empty type filter is
      no filter, and the type filter is plain equality. */
  predicate Selected(e: Event, cutoff: Option<int>, typeFilter: Option<string>) {
    && (cutoff.Some? ==> e.ts.Some? && e.ts.value >= cutoff.value)
    && (typeFilter.Some? && typeFilter.value != "" ==> e.eventType == Some(typeFilter.value))
  }

  function ScanLines(lines: seq<Line>, cutoff: Option<int>, typeFilter: Option<string>): (r: seq<Event>)
    ensures |r| <= |lines|
    ensures forall e :: e in r <==> Parsed(e) in lines && Selected(e, cutoff, typeFilter)
  {
    if lines == [] then []
    else
      var l := lines[0];
      (if l.Parsed? && Selected(l.e, cutoff, typeFilter) then [l.e] else [])
        + ScanLines(lines[1..], cutoff, typeFilter)
  }

  /** `get_events(since_days, event_type)`: matching events in file order. */
  function GetEvents(st: Store, now: int, sinceDays: Option<int>, typeFilter: Option<string>): (r: seq<Event>)
    ensures st.Missing? ==> r == []
    ensures forall e :: e in r <==> Parsed(e) in LinesOf(st) && Selected(e, WindowStart(now, sinceDays), typeFilter)
  {
    ScanLines(LinesOf(st), WindowStart(now, sinceDays), typeFilter)
  }

  function WindowStart(now: int, sinceDays: Option<int>): Option<int> {
    if sinceDays.None? then None else Some(Cutoff(now, sinceDays.value))
  }

  lemma {:induction false} ScanAppend(a: seq<Line>, b: seq<Line>, cutoff: Option<int>, f: Option<string>)
    ensures ScanLines(a + b, cutoff, f) == ScanLines(a, cutoff, f) + ScanLines(b, cutoff, f)
    decreases |a|
  {
    if a == [] {
      assert a + b == b;
    } else {
      assert (a + b)[0] == a[0];
      assert (a + b)[1..] == a[1..] + b;
      ScanAppend(a[1..], b, cutoff, f);
    }
  }

  /** Scanning after an append returns what was there, then the new record:
      appends are read back in order and earlier records are untouched. */
  lemma {:induction false} ReadAfterAppend(st: Store, t: TypeArg, source: string, details: Details, now: int)
    ensures var (ev, st') := RecordEvent(st, t, source, details, now);
      GetEvents(st', now, None, None) == GetEvents(st, now, None, None) + [ev]
  {
    var (ev, st') := RecordEvent(st, t, source, details, now);
    ScanAppend(LinesOf(st), [Parsed(ev)], None, None);
    assert ScanLines([Parsed(ev)], None, None) == [ev] by {
      assert [Parsed(ev)][1..] == [];
    }
  }

  /** The lines `evs` are written as, one record per line. */
  function AsLines(evs: seq<Event>): (r: seq<Line>)
    ensures |r| == |evs| && forall i :: 0 <= i < |evs| ==> r[i] == Parsed(evs[i])
  {
    seq(|evs|, i requires 0 <= i < |evs| => Parsed(evs[i]))
  }

  /** Scanning without filters after N appends returns the N records in order. */
  lemma ReadAfterAppends(lines: seq<Line>, evs: seq<Event>)
    ensures ScanLines(lines + AsLines(evs), None, None) == ScanLines(lines, None, None) + evs
  {
    ScanAppend(lines, AsLines(evs), None, None);
    ScanWritten(evs);
  }

  /** Written records read back unfiltered as themselves. */
  lemma {:induction false} ScanWritten(evs: seq<Event>)
    ensures ScanLines(AsLines(evs), None, None) == evs
    decreases |evs|
  {
    if evs != [] {
      ScanWritten(evs[1..]);
      assert AsLines(evs)[1..] == AsLines(evs[1..]);
      assert evs == [evs[0]] + evs[1..];
    }
  }

  /** With one `now` and one window, the number of events `get_events`
      returns equals the total of `get_event_counts`. */
  lemma {:induction false} EventsMatchCounts(lines: seq<Line>, cutoff: int)
    ensures |ScanLines(lines, Some(cutoff), None)| == CountAll(lines, cutoff)
    decreases |lines|
  {
    if lines != [] {
      var init := lines[..|lines| - 1];
      var l := lines[|lines| - 1];
      assert lines == init + [l];
      ScanAppend(init, [l], Some(cutoff), None);
      EventsMatchCounts(init, cutoff);
      assert [l][1..] == [];
    }
  }

  /** The same agreement per type: filtering `get_events` by a type other
      than "unknown" finds exactly that type's count.  (Events without an
      `event_type` are counted as "unknown" but never match a filter.) */
  lemma {:induction false} FilteredEventsMatchCount(lines: seq<Line>, cutoff: int, t: string)
    requires t != "" && t != "unknown"
    ensures |ScanLines(lines, Some(cutoff), Some(t))| == CountKey(lines, cutoff, t)
    decreases |lines|
  {
    if lines != [] {
      var init := lines[..|lines| - 1];
      var l := lines[|lines| - 1];
      assert lines == init + [l];
      ScanAppend(init, [l], Some(cutoff), Some(t));
      FilteredEventsMatchCount(init, cutoff, t);
      assert [l][1..] == [];
    }
  }

  lemma GetEventsMatchesCounts(st: Store, now: int, days: int)
    ensures |GetEvents(st, now, Some(days), None)| == Total(GetEventCounts(st, now, days))
  {
    EventsMatchCounts(LinesOf(st), Cutoff(now, days));
  }

  // ---------------------------------------------------------------------
  // cleanup_old_events

  /** Whether cleanup keeps a line: malformed lines and events whose
      timestamp does not parse are kept verbatim; blank lines vanish. */
  predicate Keeps(l: Line, cutoff: int) {
    match l
    case Blank => false
    case Malformed(_) => true
    case Parsed(e) => e.ts.None? || e.ts.value >= cutoff
  }

  predicate Drops(l: Line, cutoff: int) {
    l.Parsed? && l.e.ts.Some? && l.e.ts.value < cutoff
  }

  function NonBlank(lines: seq<Line>): nat {
    if lines == [] then 0 else (if lines[0].Blank? then 0 else 1) + NonBlank(lines[1..])
  }

  /** One pass of the read-modify-write: the lines written back and the
      number of events dropped. */
  function Prune(lines: seq<Line>, cutoff: int): (r: (seq<Line>, nat))
    ensures r.1 + |r.0| == NonBlank(lines)
    ensures forall l :: l in r.0 <==> l in lines && Keeps(l, cutoff)
    ensures forall l :: l in r.0 ==> !Drops(l, cutoff) && !l.Blank?
  {
    if lines == [] then ([], 0)
    else
      var (kept, removed) := Prune(lines[1..], cutoff);
      var l := lines[0];
      if l.Blank? then (kept, removed)
      else if Drops(l, cutoff) then (kept, removed + 1)
      else ([l] + kept, removed)
  }

  /** `cleanup_old_events(days)`: the number removed and the rewritten file. */
  function CleanupOldEvents(st: Store, now: int, days: int): (r: (nat, Store))
    ensures st.Missing? ==> r == (0, Missing)
    ensures st.File? ==> r.1.File? && r.0 + |r.1.lines| == NonBlank(st.lines)
    ensures st.File? ==> forall l :: l in r.1.lines <==> l in st.lines && Keeps(l, Cutoff(now, days))
  {
    if st.Missing? then (0, Missing)
    else
      var (kept, removed) := Prune(st.lines, Cutoff(now, days));
      (removed, File(kept))
  }

  /** Cleanup keeps the surviving lines in their original order. */
  lemma {:induction false} PruneIsOrderedFilter(lines: seq<Line>, cutoff: int)
    ensures Prune(lines, cutoff).0 == Filter(lines, (l: Line) => Keeps(l, cutoff))
    decreases |lines|
  {
    if lines != [] {
      PruneIsOrderedFilter(lines[1..], cutoff);
    }
  }

  /** The number removed is the number of events older than the cutoff. */
  lemma {:induction false} PruneRemovedCount(lines: seq<Line>, cutoff: int)
    ensures Prune(lines, cutoff).1 == CountWhere(lines, (l: Line) => Drops(l, cutoff))
    decreases |lines|
  {
    if lines != [] {
      PruneRemovedCount(lines[1..], cutoff);
    }
  }

  /** A second cleanup with the same cutoff removes nothing and changes nothing. */
  lemma {:induction false} PruneIdempotent(lines: seq<Line>, cutoff: int)
    ensures var kept := Prune(lines, cutoff).0;
      Prune(kept, cutoff) == (kept, 0)
    decreases |lines|
  {
    if lines != [] {
      PruneIdempotent(lines[1..], cutoff);
      var kept := Prune(lines[1..], cutoff).0;
      var l := lines[0];
      if !l.Blank? && !Drops(l, cutoff) {
        assert ([l] + kept)[1..] == kept;
      }
    }
  }

  lemma CleanupIdempotent(st: Store, now: int, days: int)
    ensures var (_, st') := CleanupOldEvents(st, now, days);
      CleanupOldEvents(st', now, days) == (0, st')
  {
    if st.File? {
      PruneIdempotent(st.lines, Cutoff(now, days));
    }
  }

  /** After cleanup, every event still in the log lies within the window,
      and the counts of that window are unchanged. */
  lemma {:induction false} PrunePreservesCounts(lines: seq<Line>, cutoff: int, k: string)
    ensures CountKey(Prune(lines, cutoff).0, cutoff, k) == CountKey(lines, cutoff, k)
    decreases |lines|
  {
    if lines != [] {
      var l := lines[0];
      var rest := lines[1..];
      assert lines == [l] + rest;
      PrunePreservesCounts(rest, cutoff, k);
      CountKeyAppend([l], rest, cutoff, k);
      var kept := Prune(rest, cutoff).0;
      if !l.Blank? && !Drops(l, cutoff) {
        CountKeyAppend([l], kept, cutoff, k);
      }
      assert [l][..0] == [];
    }
  }
}

=== FILE: validation.dfy ===
/** The commit-time convention checks: forbidden paths, run manifests of
    projects and of work categories, the branch binding of parallel
    branches, the required fields of YAML files, and the overall verdict
    on the staged files.  The repository is a snapshot: which paths
    exist, what loading a YAML file gives, and the manifests under each
    `.runs` directory. */
module Validation {
  import opened Common
  import opened Json

  // ---------------------------------------------------------------------
  // Repository snapshot

  /** What `yaml.safe_load(open(path))` gives: a value, a YAML error, or
      an error reading the file. */
  datatype Load = Loaded(value: Value) | YamlError(message: string) | ReadError(message: string)

  /** What `json.load` of a feature list gives; None for a decode or read
      error. */
  type FeatureList = Option<Value>

  datatype Repo = Repo(
    present: set<string>,
    load: string -> Load,
    manifests: string -> seq<Load>,
    featureLists: Option<seq<FeatureList>>,
    claudeMd: string)

  /** The environment the checks read: the two bypass variables ("" when
      unset) and the current branch. */
  datatype Env = Env(skipBinding: string, skipDelegation: string, branch: string)

  const LegacyProjects: set<string> := {"code-enforcement-max", "deep-research-utilization"}
  const ParallelTools: set<string> :=
    {"parallel_task", "web_search", "web_fetch", "deep_research", "parallel_findall", "parallel_chat"}

  const ProjectsPrefix: string := "projects/"
  const WorkPrefix: string := "projects/work/"
  const GitKeep: string := ".gitkeep"
  const YamlSuffix: string := ".yaml"

  datatype Error =
    | LogCommitted(path: string)
    | WorkspaceCommitted(path: string)
    | OutputCommitted(path: string)
    | NoRunsDir(project: string)
    | NoDelegation(project: string)
    | CategoryNoRuns(category: string)
    | CategoryNoProvenance(category: string)
    | NoBinding(branch: string)
    | MissingField(path: string, field: string)
    | InvalidYaml(path: string, message: string)
    | AgentInvalidYaml(path: string, message: string)
    | NotDict(path: string)
    | NotSubagent(path: string)
    | Unreadable(path: string, message: string)
  {
    function Message(): string {
      match this
      case LogCommitted(f) => "ERROR: Log file should not be committed: " + f
      case WorkspaceCommitted(f) => "ERROR: Workspace file should not be committed: " + f
      case OutputCommitted(f) => "ERROR: Output file should not be committed: " + f
      case NoRunsDir(p) =>
        "ERROR: Project '" + p + "' has no .runs/ directory. Run manifests are required for provenance tracking."
      case NoDelegation(p) =>
        "ERROR: Project '" + p + "' has no delegation evidence. Run manifests in projects/" + p
        + "/.runs/ must have an 'agent' field showing the work was delegated to a subagent. "
        + "Bypass with: PILOT_SKIP_DELEGATION=1"
      case CategoryNoRuns(c) =>
        "ERROR: Work category '" + c + "' has no .runs/ directory. Expected: projects/work/" + c
        + "/.runs/ for Parallel.ai provenance."
      case CategoryNoProvenance(c) =>
        "ERROR: Work category '" + c + "' has no Parallel.ai provenance. Run manifests in projects/work/" + c
        + "/.runs/ must show usage of: deep_research, parallel_chat, parallel_findall, parallel_task, web_fetch, web_search"
      case NoBinding(b) =>
        "ERROR: Branch " + b + " has no project binding. Create binding in projects/<project>/feature_list.json"
      case MissingField(f, field) => "ERROR: " + f + " missing required field: " + field
      case InvalidYaml(f, e) => "ERROR: Invalid YAML in " + f + ": " + e
      case AgentInvalidYaml(f, e) => "ERROR: " + f + " invalid YAML: " + e
      case NotDict(f) => "ERROR: " + f + " is not a valid YAML dictionary"
      case NotSubagent(f) => "ERROR: " + f + " should have type: subagent"
      case Unreadable(f, e) => "ERROR: Could not read " + f + ": " + e
    }
  }

  // ---------------------------------------------------------------------
  // Forbidden paths

  const LogsPrefix: string := "logs/"
  const WorkspacesPrefix: string := "workspaces/"
  const OutputPrefix: string := "output/"

  function ForbiddenFor(f: string): seq<Error> {
    (if IsPrefix(LogsPrefix, f) then [LogCommitted(f)] else [])
    + (if IsPrefix(WorkspacesPrefix, f) then [WorkspaceCommitted(f)] else [])
    + (if IsPrefix(OutputPrefix, f) then [OutputCommitted(f)] else [])
  }

  predicate Forbidden(f: string) {
    IsPrefix(LogsPrefix, f) || IsPrefix(WorkspacesPrefix, f) || IsPrefix(OutputPrefix, f)
  }

  /** The three prefixes start with different letters, so a path has at
      most one of them. */
  lemma ForbiddenAtMostOne(f: string)
    ensures |ForbiddenFor(f)| == if Forbidden(f) then 1 else 0
  {
    if IsPrefix(LogsPrefix, f) { assert f[0] == 'l'; }
    if IsPrefix(WorkspacesPrefix, f) { assert f[0] == 'w'; }
    if IsPrefix(OutputPrefix, f) { assert f[0] == 'o'; }
  }

  /** `check_no_logs_or_workspaces(files)`: one error per path under
      logs/, workspaces/ or output/, in order, and none for other paths. */
  function ForbiddenErrors(files: seq<string>): (r: seq<Error>)
    ensures |r| == CountWhere(files, Forbidden)
    ensures forall f :: f in files ==>
              (LogCommitted(f) in r <==> IsPrefix(LogsPrefix, f))
              && (WorkspaceCommitted(f) in r <==> IsPrefix(WorkspacesPrefix, f))
              && (OutputCommitted(f) in r <==> IsPrefix(OutputPrefix, f))
    ensures forall e :: e in r ==> (e.LogCommitted? || e.WorkspaceCommitted? || e.OutputCommitted?) && e.path in files
    decreases |files|
  {
    if files == [] then []
    else
      var rest := ForbiddenErrors(files[1..]);
      ForbiddenAtMostOne(files[0]);
      assert forall f :: f in files[1..] ==> f in files;
      ForbiddenFor(files[0]) + rest
  }

  // ---------------------------------------------------------------------
  // Projects and work categories

  const WorkDir: string := "work"
  const PersonalDir: string := "personal"

  /** The project directory a staged path touches, as the loop of
      `check_project_structure` reads it: the second `/`-separated part of
      a path under projects/, unless it is a namespace directory. */
  predicate TouchesProject(f: string) {
    var parts := Split(f, '/');
    IsPrefix(ProjectsPrefix, f) && |parts| > 1 && parts[1] != WorkDir && parts[1] != PersonalDir
  }

  function ProjectOf(f: string): string
    requires TouchesProject(f)
  {
    Split(f, '/')[1]
  }

  function TouchedProjects(files: seq<string>): (r: seq<string>)
    ensures forall p :: p in r <==> exists f :: f in files && TouchesProject(f) && ProjectOf(f) == p
    decreases |files|
  {
    if files == [] then []
    else
      var rest := TouchedProjects(files[1..]);
      assert forall f :: f in files <==> f == files[0] || f in files[1..];
      (if TouchesProject(files[0]) then [ProjectOf(files[0])] else []) + rest
  }

  /** `projects_modified`, in first-occurrence order. */
  function ModifiedProjects(files: seq<string>): (r: seq<string>)
    ensures NoDups(r)
    ensures forall p :: p in r <==> exists f :: f in files && TouchesProject(f) && ProjectOf(f) == p
  {
    Dedupe(TouchedProjects(files))
  }

  /** A project whose checks apply: not the placeholder and not legacy. */
  predicate Checked(p: string) {
    p != GitKeep && p !in LegacyProjects
  }

  function RunsDir(p: string): string {
    ProjectsPrefix + p + "/.runs"
  }

  /** `check_project_structure(files)`: one error per checked project
      without a `.runs` directory. */
  function StructureErrors(files: seq<string>, repo: Repo): (r: seq<Error>)
    ensures forall p :: NoRunsDir(p) in r <==> p in ModifiedProjects(files) && Checked(p) && RunsDir(p) !in repo.present
    ensures forall e :: e in r ==> e.NoRunsDir?
  {
    var present := repo.present;
    MapFilterErrors(ModifiedProjects(files), p => Checked(p) && RunsDir(p) !in present, p => NoRunsDir(p))
  }

  /** `[mk(x) for x in xs if keep(x)]`. */
  function MapFilterErrors(xs: seq<string>, keep: string -> bool, mk: string -> Error): (r: seq<Error>)
    ensures forall e :: e in r <==> exists x :: x in xs && keep(x) && e == mk(x)
    decreases |xs|
  {
    if xs == [] then []
    else
      var rest := MapFilterErrors(xs[1..], keep, mk);
      assert forall x :: x in xs <==> x == xs[0] || x in xs[1..];
      (if keep(xs[0]) then [mk(xs[0])] else []) + rest
  }

  /** A manifest that shows delegation: an object with a truthy `agent`. */
  predicate Delegated(m: Load) {
    m.Loaded? && m.value.Dict? && Truthy(Get(m.value.entries, "agent").GetOr(Null))
  }

  predicate HasDelegation(manifests: string -> seq<Load>, p: string) {
    exists m :: m in manifests(RunsDir(p)) && Delegated(m)
  }

  /** `check_delegation(files)`: unless bypassed, one error per checked
      project that has a `.runs` directory with no delegated manifest. */
  function DelegationErrors(files: seq<string>, repo: Repo, env: Env): (r: seq<Error>)
    ensures env.skipDelegation == "1" ==> r == []
    ensures env.skipDelegation != "1" ==>
              forall p :: NoDelegation(p) in r <==>
                p in ModifiedProjects(files) && Checked(p) && RunsDir(p) in repo.present && !HasDelegation(repo.manifests, p)
    ensures forall e :: e in r ==> e.NoDelegation?
  {
    if env.skipDelegation == "1" then []
    else
      var present, manifests := repo.present, repo.manifests;
      MapFilterErrors(ModifiedProjects(files),
                      p => Checked(p) && RunsDir(p) in present && !HasDelegation(manifests, p),
                      p => NoDelegation(p))
  }

  /** A work category a staged path touches: the third part of a path
      under projects/work/. */
  predicate TouchesCategory(f: string) {
    IsPrefix(WorkPrefix, f) && |Split(f, '/')| > 2
  }

  function CategoryOf(f: string): string
    requires TouchesCategory(f)
  {
    Split(f, '/')[2]
  }

  function TouchedCategories(files: seq<string>): (r: seq<string>)
    ensures forall c :: c in r <==> exists f :: f in files && TouchesCategory(f) && CategoryOf(f) == c
    decreases |files|
  {
    if files == [] then []
    else
      var rest := TouchedCategories(files[1..]);
      assert forall f :: f in files <==> f == files[0] || f in files[1..];
      (if TouchesCategory(files[0]) then [CategoryOf(files[0])] else []) + rest
  }

  function CategoryRuns(c: string): string {
    WorkPrefix + c + "/.runs"
  }

  /** A manifest listing a Parallel.ai tool among its `tools`. */
  predicate ShowsParallel(m: Load) {
    m.Loaded? && m.value.Dict?
    && var tools := Get(m.value.entries, "tools").GetOr(List([]));
       tools.List? && exists t :: t in tools.items && t.Str? && t.s in ParallelTools
  }

  predicate HasProvenance(repo: Repo, c: string) {
    exists m :: m in repo.manifests(CategoryRuns(c)) && ShowsParallel(m)
  }

  function CategoryErrors(c: string, repo: Repo): (r: seq<Error>)
    ensures forall e :: e in r ==> e == CategoryNoRuns(c) || e == CategoryNoProvenance(c)
    ensures CategoryNoRuns(c) in r <==> c != GitKeep && CategoryRuns(c) !in repo.present
    ensures CategoryNoProvenance(c) in r <==>
      c != GitKeep && CategoryRuns(c) in repo.present && !HasProvenance(repo, c)
  {
    if c == GitKeep then []
    else if CategoryRuns(c) !in repo.present then [CategoryNoRuns(c)]
    else if !HasProvenance(repo, c) then [CategoryNoProvenance(c)]
    else []
  }

  function CategoriesErrors(cs: seq<string>, repo: Repo): (r: seq<Error>)
    ensures forall e :: e in r <==> exists c :: c in cs && e in CategoryErrors(c, repo)
    decreases |cs|
  {
    if cs == [] then []
    else
      var rest := CategoriesErrors(cs[1..], repo);
      assert forall c :: c in cs <==> c == cs[0] || c in cs[1..];
      CategoryErrors(cs[0], repo) + rest
  }

  /** `check_namespace_separation(files)`: each touched work category
      other than the placeholder needs a `.runs` directory, and in it a
      manifest listing a Parallel.ai tool. */
  function NamespaceErrors(files: seq<string>, repo: Repo): (r: seq<Error>)
    ensures forall c :: CategoryNoRuns(c) in r <==>
              c in TouchedCategories(files) && c != GitKeep && CategoryRuns(c) !in repo.present
    ensures forall c :: CategoryNoProvenance(c) in r <==>
              c in TouchedCategories(files) && c != GitKeep && CategoryRuns(c) in repo.present && !HasProvenance(repo, c)
    ensures forall e :: e in r ==> e.CategoryNoRuns? || e.CategoryNoProvenance?
  {
    var cs := Dedupe(TouchedCategories(files));
    ErrorsByCategory(cs, repo);
    CategoriesErrors(cs, repo)
  }

  /** Which categories' errors a list of categories reports. */
  lemma ErrorsByCategory(cs: seq<string>, repo: Repo)
    ensures forall c :: CategoryNoRuns(c) in CategoriesErrors(cs, repo) <==>
              c in cs && c != GitKeep && CategoryRuns(c) !in repo.present
    ensures forall c :: CategoryNoProvenance(c) in CategoriesErrors(cs, repo) <==>
              c in cs && c != GitKeep && CategoryRuns(c) in repo.present && !HasProvenance(repo, c)
    ensures forall e :: e in CategoriesErrors(cs, repo) ==> e.CategoryNoRuns? || e.CategoryNoProvenance?
  {
    var r := CategoriesErrors(cs, repo);
    forall c ensures CategoryNoRuns(c) in r <==> c in cs && c != GitKeep && CategoryRuns(c) !in repo.present
    {
      if CategoryNoRuns(c) in r {
        var d :| d in cs && CategoryNoRuns(c) in CategoryErrors(d, repo);
      }
      if c in cs && c != GitKeep && CategoryRuns(c) !in repo.present {
        assert CategoryNoRuns(c) in CategoryErrors(c, repo);
      }
    }
    forall c ensures CategoryNoProvenance(c) in r <==>
      c in cs && c != GitKeep && CategoryRuns(c) in repo.present && !HasProvenance(repo, c)
    {
      if CategoryNoProvenance(c) in r {
        var d :| d in cs && CategoryNoProvenance(c) in CategoryErrors(d, repo);
      }
      if c in cs && c != GitKeep && CategoryRuns(c) in repo.present && !HasProvenance(repo, c) {
        assert CategoryNoProvenance(c) in CategoryErrors(c, repo);
      }
    }
    forall e | e in r ensures e.CategoryNoRuns? || e.CategoryNoProvenance? {
      var d :| d in cs && e in CategoryErrors(d, repo);
    }
  }

  // ---------------------------------------------------------------------
  // Branch binding

  const ParallelBranchPrefix: string := "parallel/"

  /** `info.get("branch") == branch` for an object `info`. */
  predicate BranchIs(info: Value, branch: string) {
    info.Dict? && Get(info.entries, "branch") == Some(Str(branch))
  }

  /** A feature list binds the branch through `worktree.branch` or through
      one of the `worktree_assignments`. */
  predicate Binds(data: Value, branch: string)
    requires data.Dict?
  {
    BranchIs(Field(data.entries, "worktree", Dict([])), branch)
    || (var a := Field(data.entries, "worktree_assignments", Dict([]));
        a.Dict? && exists i :: 0 <= i < |a.entries| && BranchIs(a.entries[i].1, branch))
  }

  /** The scan of the feature lists: Some(true) at the first that binds,
      Some(false) when none does, None when a decoded feature list is not
      an object (Python's `data.get` raises there). */
  function ScanBindings(lists: seq<FeatureList>, branch: string): (r: Option<bool>)
    ensures r == Some(false) ==> forall i :: 0 <= i < |lists| && lists[i].Some? ==> lists[i].value.Dict? && !Binds(lists[i].value, branch)
    ensures r == Some(true) ==> exists i :: 0 <= i < |lists| && lists[i].Some? && lists[i].value.Dict? && Binds(lists[i].value, branch)
    decreases |lists|
  {
    if lists == [] then Some(false)
    else if lists[0].None? then
      var r := ScanBindings(lists[1..], branch);
      assert forall i :: 1 <= i < |lists| ==> lists[1..][i - 1] == lists[i];
      r
    else if !lists[0].value.Dict? then None
    else if Binds(lists[0].value, branch) then Some(true)
    else
      var r := ScanBindings(lists[1..], branch);
      assert forall i :: 1 <= i < |lists| ==> lists[1..][i - 1] == lists[i];
      r
  }

  /** `check_parallel_branch_binding()`: nothing when bypassed or off a
      parallel/ branch; otherwise an error unless a feature list binds
      the branch.  None where Python raises. */
  function BindingErrors(repo: Repo, env: Env): (r: Option<seq<Error>>)
    ensures env.skipBinding != "" ==> r == Some([])
    ensures !IsPrefix(ParallelBranchPrefix, env.branch) ==> r == Some([])
    ensures (env.skipBinding == "" && IsPrefix(ParallelBranchPrefix, env.branch) && repo.featureLists.None?) ==>
              r == Some([NoBinding(env.branch)])
    ensures r.Some? ==> (r.value == [] || r.value == [NoBinding(env.branch)])
    ensures (r == Some([]) && env.skipBinding == "" && IsPrefix(ParallelBranchPrefix, env.branch)) ==>
              exists i :: 0 <= i < |repo.featureLists.value| && repo.featureLists.value[i].Some?
                && repo.featureLists.value[i].value.Dict? && Binds(repo.featureLists.value[i].value, env.branch)
  {
    if env.skipBinding != "" then Some([])
    else if !IsPrefix(ParallelBranchPrefix, env.branch) then Some([])
    else if repo.featureLists.None? then Some([NoBinding(env.branch)])
    else
      match ScanBindings(repo.featureLists.value, env.branch)
      case None => None
      case Some(true) => Some([])
      case Some(false) => Some([NoBinding(env.branch)])
  }

  // ---------------------------------------------------------------------
  // YAML files

  const RulesPrefix: string := "system/rules/"
  const DecisionsPrefix: string := "knowledge/decisions/"
  const TemplateSuffix: string := "_template.yaml"
  const AgentsPrefix: string := "agents/"
  const RuleFields: seq<string> := ["name", "description"]
  const DecisionFields: seq<string> := ["id", "title", "status"]
  const AgentFields: seq<string> := ["name", "type", "description", "prompt"]

  /** One error per required field the object lacks, in field order. */
  function Missing(f: string, entries: seq<(string, Value)>, fields: seq<string>): (r: seq<Error>)
    ensures |r| == CountWhere(fields, k => !HasKey(entries, k))
    ensures forall k :: MissingField(f, k) in r <==> k in fields && !HasKey(entries, k)
    ensures forall e :: e in r ==> e.MissingField? && e.path == f
    decreases |fields|
  {
    if fields == [] then []
    else
      var rest := Missing(f, entries, fields[1..]);
      assert forall k :: k in fields <==> k == fields[0] || k in fields[1..];
      (if !HasKey(entries, fields[0]) then [MissingField(f, fields[0])] else []) + rest
  }

  /** The checks of `check_yaml_format` on one loaded object. */
  function FormatErrorsOf(f: string, entries: seq<(string, Value)>): seq<Error> {
    (if IsPrefix(RulesPrefix, f) then Missing(f, entries, RuleFields) else [])
    + (if IsPrefix(DecisionsPrefix, f) && !IsSuffix(TemplateSuffix, f) then Missing(f, entries, DecisionFields) else [])
  }

  /** `check_yaml_format` on one path; None where the read raises. */
  function FormatErrorsFor(f: string, repo: Repo): (r: Option<seq<Error>>)
    ensures !IsSuffix(YamlSuffix, f) || f !in repo.present ==> r == Some([])
    ensures IsSuffix(YamlSuffix, f) && f in repo.present && repo.load(f).Loaded? && repo.load(f).value.Dict? ==>
              r == Some(FormatErrorsOf(f, repo.load(f).value.entries))
    ensures IsSuffix(YamlSuffix, f) && f in repo.present && repo.load(f).Loaded? && !repo.load(f).value.Dict? ==>
              r == Some([])
  {
    if !IsSuffix(YamlSuffix, f) || f !in repo.present then Some([])
    else
      match repo.load(f)
      case ReadError(_) => None
      case YamlError(e) => Some([InvalidYaml(f, e)])
      case Loaded(v) => if v.Dict? then Some(FormatErrorsOf(f, v.entries)) else Some([])
  }

  /** A rule file lacks exactly the fields it is reported for; a decision
      template is never checked. */
  lemma RuleAndTemplateFields(f: string, entries: seq<(string, Value)>)
    ensures IsPrefix(RulesPrefix, f) && !IsPrefix(DecisionsPrefix, f) ==>
              FormatErrorsOf(f, entries) == Missing(f, entries, RuleFields)
    ensures IsSuffix(TemplateSuffix, f) && !IsPrefix(RulesPrefix, f) ==> FormatErrorsOf(f, entries) == []
  {
  }

  /** The checks of `check_agent_yaml` on one loaded object: one error per
      missing field, and one more when `type` is not `subagent`. */
  function AgentErrorsOf(f: string, entries: seq<(string, Value)>): (r: seq<Error>)
    ensures |r| == CountWhere(AgentFields, k => !HasKey(entries, k))
                   + (if Get(entries, "type") != Some(Str("subagent")) then 1 else 0)
    ensures NotSubagent(f) in r <==> Get(entries, "type") != Some(Str("subagent"))
  {
    Missing(f, entries, AgentFields)
    + (if Get(entries, "type") != Some(Str("subagent")) then [NotSubagent(f)] else [])
  }

  /** `check_agent_yaml` on one path. */
  function AgentErrorsFor(f: string, repo: Repo): (r: seq<Error>)
    ensures !(IsSuffix(YamlSuffix, f) && IsPrefix(AgentsPrefix, f) && f in repo.present) ==> r == []
    ensures IsSuffix(YamlSuffix, f) && IsPrefix(AgentsPrefix, f) && f in repo.present && repo.load(f).Loaded? ==>
              r == if repo.load(f).value.Dict? then AgentErrorsOf(f, repo.load(f).value.entries) else [NotDict(f)]
  {
    if !(IsSuffix(YamlSuffix, f) && IsPrefix(AgentsPrefix, f) && f in repo.present) then []
    else
      match repo.load(f)
      case YamlError(e) => [AgentInvalidYaml(f, e)]
      case ReadError(e) => [Unreadable(f, e)]
      case Loaded(v) => if v.Dict? then AgentErrorsOf(f, v.entries) else [NotDict(f)]
  }

  function FormatErrors(files: seq<string>, repo: Repo): (r: Option<seq<Error>>)
    ensures r.None? <==> exists f :: f in files && FormatErrorsFor(f, repo).None?
    decreases |files|
  {
    if files == [] then Some([])
    else
      var head := FormatErrorsFor(files[0], repo);
      var rest := FormatErrors(files[1..], repo);
      assert forall f :: f in files <==> f == files[0] || f in files[1..];
      if head.None? || rest.None? then None else Some(head.value + rest.value)
  }

  function AgentErrors(files: seq<string>, repo: Repo): seq<Error> {
    if files == [] then [] else AgentErrorsFor(files[0], repo) + AgentErrors(files[1..], repo)
  }

  // ---------------------------------------------------------------------
  // Consistency warnings and the verdict

  const ReferencedDirs: seq<string> := ["agents", "tools", "lib", "projects"]

  const WarnPrefix := "WARNING: CLAUDE.md references non-existent: "

  /** A directory CLAUDE.md names that is not in the checkout. */
  predicate Dangling(repo: Repo, d: string) {
    Contains(repo.claudeMd, d) && d !in repo.present
  }

  /** The checked directories that are dangling, in checking order. */
  function DanglingDirs(repo: Repo): (ds: seq<string>)
    ensures forall d :: d in ds <==> d in ReferencedDirs && Dangling(repo, d)
  {
    Filter(ReferencedDirs, d => Dangling(repo, d))
  }

  /** `check_consistency(files)`: warnings for directories CLAUDE.md
      mentions that do not exist. */
  function Warnings(files: seq<string>, repo: Repo): (r: seq<string>)
    ensures "CLAUDE.md" !in files || "CLAUDE.md" !in repo.present ==> r == []
    ensures "CLAUDE.md" in files && "CLAUDE.md" in repo.present ==>
              forall d :: d in ReferencedDirs ==> (WarnPrefix + d in r <==> Dangling(repo, d))
    ensures forall i :: 0 <= i < |r| ==>
              |WarnPrefix| <= |r[i]| && r[i][..|WarnPrefix|] == WarnPrefix && r[i][|WarnPrefix|..] in ReferencedDirs
    ensures |r| <= |ReferencedDirs|
  {
    if "CLAUDE.md" in files && "CLAUDE.md" in repo.present then
      WarningLines(DanglingDirs(repo))
    else []
  }

  /** One warning per directory, in order. */
  function WarningLines(ds: seq<string>): (r: seq<string>)
    ensures |r| == |ds|
    ensures forall i :: 0 <= i < |ds| ==>
              |WarnPrefix| <= |r[i]| && r[i][..|WarnPrefix|] == WarnPrefix && r[i][|WarnPrefix|..] == ds[i]
    ensures forall d :: WarnPrefix + d in r <==> d in ds
  {
    var r := seq(|ds|, i requires 0 <= i < |ds| => WarnPrefix + ds[i]);
    assert forall i :: 0 <= i < |ds| ==> r[i][|WarnPrefix|..] == ds[i];
    assert forall d :: WarnPrefix + d in r ==> d in ds by {
      forall d | WarnPrefix + d in r ensures d in ds {
        var i :| 0 <= i < |r| && r[i] == WarnPrefix + d;
        assert (WarnPrefix + d)[|WarnPrefix|..] == d;
      }
    }
    r
  }

  datatype Verdict = Verdict(code: int, errors: seq<Error>, warnings: seq<string>) | Crashed

  /** Every error of the staged-change checks, in the order they run;
      None where a check raises. */
  function AllErrors(files: seq<string>, repo: Repo, env: Env): Option<seq<Error>> {
    var binding := BindingErrors(repo, env);
    var format := FormatErrors(files, repo);
    if binding.None? || format.None? then None
    else
      Some(ForbiddenErrors(files) + StructureErrors(files, repo) + DelegationErrors(files, repo, env)
           + NamespaceErrors(files, repo) + binding.value + format.value + AgentErrors(files, repo))
  }

  /** `validate_staged_changes()` on the staged `files`: 0 with nothing
      staged, else 1 exactly when some check reports an error. */
  function ValidateStaged(files: seq<string>, repo: Repo, env: Env): (v: Verdict)
    ensures files == [] ==> v == Verdict(0, [], [])
    ensures files != [] && AllErrors(files, repo, env).None? ==> v == Crashed
    ensures v.Verdict? && files != [] ==> (v.code == 1 <==> v.errors != []) && (v.code == 0 <==> v.errors == [])
    ensures v.Verdict? && files != [] ==> v.errors == AllErrors(files, repo, env).value
  {
    if files == [] then Verdict(0, [], [])
    else
      var errors := AllErrors(files, repo, env);
      if errors.None? then Crashed
      else Verdict(if errors.value != [] then 1 else 0, errors.value, Warnings(files, repo))
  }

  /** Warnings never block: what CLAUDE.md says changes no exit code. */
  lemma WarningsNeverBlock(files: seq<string>, repo: Repo, env: Env, text: string)
    ensures ValidateStaged(files, repo, env).Verdict? ==>
              ValidateStaged(files, repo.(claudeMd := text), env).Verdict?
              && ValidateStaged(files, repo.(claudeMd := text), env).code == ValidateStaged(files, repo, env).code
  {
    ErrorsIgnoreClaudeMd(files, repo, repo.(claudeMd := text), env);
  }

  /** The errors read only which paths exist, the loads and the manifests. */
  lemma ErrorsIgnoreClaudeMd(files: seq<string>, a: Repo, b: Repo, env: Env)
    requires a.present == b.present && a.load == b.load && a.manifests == b.manifests && a.featureLists == b.featureLists
    ensures AllErrors(files, a, env) == AllErrors(files, b, env)
  {
    FormatErrorsSameLoads(files, a, b);
    AgentErrorsSameLoads(files, a, b);
    CategoriesSameRuns(Dedupe(TouchedCategories(files)), a, b);
    ProjectsSameRuns(files, a, b, env);
    assert BindingErrors(a, env) == BindingErrors(b, env);
  }

  lemma ProjectsSameRuns(files: seq<string>, a: Repo, b: Repo, env: Env)
    requires a.present == b.present && a.manifests == b.manifests
    ensures StructureErrors(files, a) == StructureErrors(files, b)
    ensures DelegationErrors(files, a, env) == DelegationErrors(files, b, env)
  {
  }

  lemma {:induction false} CategoriesSameRuns(cs: seq<string>, a: Repo, b: Repo)
    requires a.present == b.present && a.manifests == b.manifests
    ensures CategoriesErrors(cs, a) == CategoriesErrors(cs, b)
    decreases |cs|
  {
    if cs != [] { CategoriesSameRuns(cs[1..], a, b); }
  }

  lemma {:induction false} FormatErrorsSameLoads(files: seq<string>, a: Repo, b: Repo)
    requires a.present == b.present && a.load == b.load
    ensures FormatErrors(files, a) == FormatErrors(files, b)
    decreases |files|
  {
    if files != [] { FormatErrorsSameLoads(files[1..], a, b); }
  }

  lemma {:induction false} AgentErrorsSameLoads(files: seq<string>, a: Repo, b: Repo)
    requires a.present == b.present && a.load == b.load
    ensures AgentErrors(files, a) == AgentErrors(files, b)
    decreases |files|
  {
    if files != [] { AgentErrorsSameLoads(files[1..], a, b); }
  }

  /** A staged log file always blocks the commit, unless a check raises. */
  lemma StagedLogBlocks(files: seq<string>, repo: Repo, env: Env, f: string)
    requires f in files && IsPrefix(LogsPrefix, f)
    ensures ValidateStaged(files, repo, env).Verdict? ==> ValidateStaged(files, repo, env).code == 1
  {
    var errors := AllErrors(files, repo, env);
    if errors.Some? {
      assert LogCommitted(f) in ForbiddenErrors(files);
      assert LogCommitted(f) in errors.value;
    }
  }

  /** `projects/<p>/...` with `p` free of `/` touches exactly project `p`,
      unless `p` is a namespace directory. */
  lemma ProjectFromPath(p: string, rest: string)
    requires !HasChar(p, '/')
    ensures var f := ProjectsPrefix + p + "/" + rest;
            TouchesProject(f) <==> p != WorkDir && p != PersonalDir
    ensures var f := ProjectsPrefix + p + "/" + rest;
            TouchesProject(f) ==> ProjectOf(f) == p
  {
    var f := ProjectsPrefix + p + "/" + rest;
    assert f == "projects" + ['/'] + (p + ['/'] + rest);
    SplitHead("projects", p + ['/'] + rest, '/');
    SplitHead(p, rest, '/');
  }

  /** Splitting at the first separator. */
  lemma {:induction false} SplitHead(a: string, b: string, sep: char)
    requires !HasChar(a, sep)
    ensures Split(a + [sep] + b, sep) == [a] + Split(b, sep)
    decreases |a|
  {
    if a == [] {
      assert a + [sep] + b == [sep] + b;
    } else {
      assert !HasChar(a[1..], sep) by {
        forall x | x in a[1..] ensures x in a { }
      }
      SplitHead(a[1..], b, sep);
      assert (a + [sep] + b)[1..] == a[1..] + [sep] + b;
      assert [a[0]] + a[1..] == a;
    }
  }
}
